=== FILE: README.md ===
# fs-utils core in Dafny

fs-utils is a set of command-line utilities for working on a file-system image without mounting it in the
host kernel. The image is mounted in a rump kernel inside the utility's own process, and the utilities
(`fsu_ecp`, `fsu_cp`, `fsu_diff`, `fsu_cat`, `fsu_touch`, `fsu_df`, `fsu_rmdir`, …) go through
`rump_sys_*` calls to reach it. `fsu_ecp` and its file-list walker copy whole trees between the host and
the image and keep hard links intact. `fsu_cp` follows NetBSD's cp(1) on the image. `FSU_FILE` is a
small buffered stdio built on `rump_sys_*`. Small parsers split the mount command line, read the
`~/.fsurc` aliases and decode mount options. The makefs tree analysis estimates the size of an FFS or
ext2 image for a tree.

This model covers those parts:

- `Domain`:
  - the system calls of each side as pure functions over a file-system value `Fs`. It holds a map from
    normalised path to inode record, plus the uid, the free space and the paths the caller may not
    reach.
  - `Domain.System`, a class holding the host's `Fs`, the image's `Fs` and `errno`. Its methods are
    the calls the utilities make, and each is proved equal to its function.
- `Posix`: the NetBSD constants, file-type tests, `strcmp` and the last-slash helper.
- `CNum`: `strtol`/`strtoll` and the C integer arithmetic (truncating division, 64-bit wrap-around).
- Each utility is a module of functions that state what the C code computes. Beside them are classes
  and methods with the C code's loops and fields, each proved against those functions. A `…Props`
  module holds the lemmas that say what the result means:
  - the walk lists the root first and every later entry as a named child of an earlier one, with each
    directory's child count, and with RECURSIVE it is the pre-order listing of the tree;
  - a copy produces the same bytes;
  - hard links are shared;
  - the buffered reads agree with the file;
  - the split argument list reproduces the words of the line;
  - the size estimate holds the tree.

## Model

| member | source | states |
|---|---|---|
| Flist.RootName | src/fsu_flist.c:228-232 | The root's filename is the text after the last '/', and the whole path when the path is "/" or holds no '/'. |
| Flist.AllocRoot | src/fsu_flist.c:211-246 | A root entry exists exactly when stat(2) of the path succeeds, following links. It has no parent (-1), childno 0, the path's length and the stat result. |
| Flist.AllocChild | src/fsu_flist.c:135-209 | A child exists exactly when stat(2), or lstat(2) under STATLINK, of the joined path succeeds. Its path is the parent's path and the name joined by one '/' ("/name" under "/"), its filename the name, its parent the directory's index and its childno 0. |
| Flist.Accepted | src/fsu_flist.c:111-116 | A directory entry inserts nothing when it is ".", ".." or empty, or when its child cannot be stat-ed; otherwise exactly one entry. |
| Flist.KidsFacts | src/fsu_flist.c:102-122 | Every child the read loop inserts is named after one of the directory's names, is no dot entry, is joined under the directory, has the directory's index as its parent and childno 0, and names an existing file. |
| Flist.Expand | src/fsu_flist.c:89-127 | A directory that opens gets its children, and its childno grows by their number. Anything else, including a directory that does not open, stays as it is with no children. |
| Flist.ReadEntry | src/fsu_flist.c:103-121 | One readdir pass inserts the accepted child right after the previously inserted one, and the directory's childno counts it. |
| Flist.InsertChildren | src/fsu_flist.c:101-122 | The readdir loop leaves the list as before, with the directory's children in read order right after it and the directory's childno raised by their number. |
| Flist.Visit | src/fsu_flist.c:89-127 | A visit expands exactly a directory entry that opens: the entry is replaced by Expand's result and its children follow it. Any other entry leaves the list unchanged. |
| Flist.WalkStopsAtRoot | src/fsu_flist.c:128-129 | Without RECURSIVE the walk stops after the root: the listing is the root followed by its children. |
| Flist.WalkEnds | src/fsu_flist.c:89-130 | A walk that has visited every entry has produced the pre-order listing Subtree from the root, or only the root and its children without RECURSIVE. |
| Flist.WalkFrom | src/fsu_flist.c:89-130 | The loop over the growing list yields the pre-order listing Subtree of the root with RECURSIVE, and the root followed by its children without it. |
| Flist.BuildFromRoot | src/fsu_flist.c:58-133 | From a root that stat-ed, Build is the pre-order reference listing over a terminating expansion step. |
| Flist.FlistBuild | src/fsu_flist.c:58-133 | The imperative walk returns exactly Build: no list without REALFS or a root path, or when the root cannot be stat-ed, and otherwise the walk's listing. |
| FlistProps.BuildShape | src/fsu_flist.c:58-133 | No list exactly when REALFS is off, there is no root path, or the root does not stat. Otherwise the root comes first with parent -1, and every later entry is a well-named child of an earlier entry, its path joined from that entry's path and its name. Without RECURSIVE every later entry is a child of the root, and the root's childno is their number. |
| FlistProps.BuildChildCounts | src/fsu_flist.c:121 | With or without RECURSIVE, every entry's childno equals the number of listed entries whose parent is that entry. |
| FlistProps.BuildThroughDirs | src/fsu_flist.c:89-99 | With no symbolic link to a directory, the parent of every entry after the root is a directory under its own key and is not reached through a link. Each listed path below the root is then a real directory's path joined with one name. |
| FlistProps.OpendirKey | src/fsu_flist.c:93-99 | With no symbolic link to a directory, a path that opendir accepts is itself a directory's key and not a link. |
| EcpArgs.LastWay | src/fsu_ecp.c:139-148 | The last of -g and -p decides the direction, and there is none exactly when neither letter was given. |
| EcpArgs.FlagsOfMeaning | src/fsu_ecp.c:123-160 | After known letters each flag says what was asked: GET or PUT from the last of -g/-p, or else from the program name; DELETE from -d or the name fsu_emv; NO_COPY_LINK from -L; RECURSIVE from -R; VERBOSE from -v. |
| EcpArgs.ParsedFlags | src/fsu_ecp.c:117-170 | -1 (None) exactly when a letter is unknown, or when no direction comes from the letters or the name. Otherwise exactly one of GET and PUT is set and every flag means what FlagsOfMeaning says. |
| EcpArgs.ApplyOption | src/fsu_ecp.c:135-159 | A known letter gives the switch's new flags; any other letter gives -1. |
| EcpArgs.ParseArg | src/fsu_ecp.c:117-170 | The getopt loop returns -1 exactly when a letter is unknown or no direction was chosen, and otherwise flags with exactly one direction and the meaning of each letter. |
| EcpCopy.Pump | src/fsu_ecp.c:630-653 | The read/write loop with 8192-byte chunks leaves the world and the result that PumpF gives: 0, or -1 when a read fails or a write fails or falls short. |
| EcpCopyProps.PumpFits | src/fsu_ecp.c:630-653 | From a reader on a regular file to a writer on a regular file, the loop returns 0 exactly when the target domain has space for every byte left to read. |
| EcpCopyProps.PumpCopies | src/fsu_ecp.c:630-653 | When the loop returns 0 the target holds the bytes that were left to read, written at its write position over what it held. |
| EcpCopyProps.PumpNeedsWriter | src/fsu_ecp.c:641-648 | The loop fails whenever the target descriptor is not open for writing, -1 included. |
| EcpCopyProps.PumpKeepsSource | src/fsu_ecp.c:630-653 | Between two domains the loop leaves the source domain's files as they were. |
| EcpCopy.CopyFile | src/fsu_ecp.c:594-668 | copy_file leaves the world and result of CopyFileF: stat the source, open both ends, copy, close both ends; only the stat result is checked, not the opens. |
| EcpCopyProps.GetCopiesExactly | src/fsu_ecp.c:615-617 | get onto a host name that is not there yet returns 0 exactly when the host has space for the image file's bytes, and the new host file then holds exactly those bytes. |
| EcpCopyProps.PutTargetAccess | src/fsu_ecp.c:618-620 | put opens the image target with st_mode as the open flags, so unless st_mode's low two bits are O_WRONLY or O_RDWR the target descriptor is -1 or read-only. |
| EcpCopyProps.PutNeedsWritableModeBits | src/fsu_ecp.c:620 | put can only succeed when the source's st_mode happens to have a writable access mode in its low two bits. |
| EcpCopyProps.PutFixedCopiesExactly | src/fsu_ecp.c:618-620 | The corrected put returns 0 exactly when the image has space for the source's bytes, whatever the source's mode and whatever regular file the target held, and the target then holds exactly those bytes. |
| EcpCopyProps.FileKeepsSource | src/fsu_ecp.c:594-668 | copy_file leaves the source domain's files as they were. |
| EcpCopy.CopyFileIn | src/fsu_ecp.c:803-843 | copy_filein leaves the world and result of CopyFileInF. Both ends are in the image, the target opens O_WRONLY|O_CREAT unchecked, and a failed read or write returns -1 at once with both descriptors left open. |
| EcpCopyProps.FileInCopies | src/fsu_ecp.c:803-843 | copy_filein into a creatable or regular target returns 0 exactly when the image has space for the source's bytes, and the target then holds them written from its start over its old bytes. |
| EcpCopy.CopyFileOut | src/fsu_ecp.c:845-891 | copy_fileout leaves the world and result of CopyFileOutF: both ends are on the host, the target opens O_CREAT|O_WRONLY with the source's mode, and a failed open of either end is -1. |
| EcpCopyProps.FileOutCopies | src/fsu_ecp.c:845-891 | copy_fileout returns 0 exactly when the host has space for the source's bytes, and the target then holds them written from its start over its old bytes. |
| EcpCopy.ClearTarget | src/fsu_ecp.c:679-692 | Clearing the target leaves the world and result of ClearTargetF: look with lstat, and when the name is there remove it, with remove(3) on the host or unlink in the image. |
| EcpCopyProps.ClearTargetClears | src/fsu_ecp.c:679-692 | Clearing changes only the domain it removes from. When it looks where it removes, success leaves no name behind, and failure means a name was there that could not go. |
| EcpCopyProps.ClearTargetRemoves | src/fsu_ecp.c:683-692 | A name that is there and is not a directory is cleared, and its parent can take a new name afterwards. |
| EcpCopy.CopyFifo | src/fsu_ecp.c:670-713 | copy_fifo leaves the world and result of CopyFifoF: clear the target, lstat the source, mkfifo with the source's mode; -1 when a step fails. |
| EcpCopyProps.FifoCopiesMode | src/fsu_ecp.c:694-712 | On success the target is a FIFO with the source's permission bits. |
| EcpCopy.CopySpecial | src/fsu_ecp.c:715-755 | copy_special leaves the world and result of CopySpecialF. The existing target is always removed through the image, even for get, and the node is made with the source's mode and rdev. |
| EcpCopyProps.SpecialCopiesNode | src/fsu_ecp.c:736-754 | A put that succeeds leaves an image node with the source's type, permission bits and rdev. |
| EcpCopyProps.SpecialGetOverExisting | src/fsu_ecp.c:724-734 | A get onto a host path that exists always fails, and the image loses its own non-directory of that name. |
| EcpCopyProps.SpecialFixedGetReplaces | src/fsu_ecp.c:724-754 | The corrected copy_special replaces an existing non-directory host target on get, for a superuser and an image device source: it returns 0 and the host holds a node with the source's type, permission bits and rdev. |
| EcpCopyProps.SpecialFixedCopiesNode | src/fsu_ecp.c:736-754 | In either direction, the corrected copy_special on success leaves a node with the source's type, permission bits and rdev. |
| EcpCopy.CopyLink | src/fsu_ecp.c:757-801 | copy_link leaves the world and result of CopyLinkF: readlink at most PATH_MAX bytes, clear the target, symlink the same text. |
| EcpCopyProps.LinkCopiesTarget | src/fsu_ecp.c:764-800 | On success the target is a symbolic link holding exactly the text readlink returned for the source. |
| EcpCopyProps.LinkReplacesTarget | src/fsu_ecp.c:777-800 | With a readable source link, any non-directory target in an existing directory is replaced and the copy returns 0. |
| EcpCopyProps.NodeCopiesKeepSource | src/fsu_ecp.c:670-801 | copy_fifo and copy_link, and copy_special for put, change only the target domain's files. |
| EcpCopy.CopyByType | src/fsu_ecp.c:548-568 | The copy chosen by the source's type (FIFO, link or file under -L, device, regular) leaves the world and result of CopyByTypeF, and -1 for any other type. |
| EcpCopyProps.OtherTypeRefused | src/fsu_ecp.c:565-566 | A directory, socket or unknown type is refused with -1 and nothing changes. |
| EcpCopyProps.ByTypeKeepsSource | src/fsu_ecp.c:548-568 | Apart from a get of a device node, the typed copy leaves the source domain's files as they were. |
| EcpCopy.CopyToFile | src/fsu_ecp.c:542-592 | copy_to_file leaves the world and result of CopyToFileF: copy by type, unlink the source under DELETE, and for put chown or lchown the target. |
| EcpCopyProps.ToFileResult | src/fsu_ecp.c:570-591 | A failed copy is returned as it is. After a copy that worked, put reports 0 whatever the unlink and the chown did, and get reports 0 unless DELETE's unlink of the image source failed. |
| EcpCopyProps.ToFileKeepsSource | src/fsu_ecp.c:542-592 | Without DELETE, copy_to_file leaves the source domain's files as they were, except for a get of a device node, which unlinks through the image. |
| EcpCopy.CopyToDir | src/fsu_ecp.c:522-540 | copy_to_dir leaves the world and result of CopyToDirF: copy_to_file onto the target directory joined with the source's last component. |
| EcpCopy.CopyFileF | src/fsu_ecp.c:594-668 | copy_file returns 0 or -1. What it writes is stated by GetCopiesExactly and PutFixedCopiesExactly. |
| EcpCopy.CopyFileInF | src/fsu_ecp.c:803-843 | copy_filein returns 0 or -1. What it writes is stated by FileInCopies. |
| EcpCopy.CopyFileOutF | src/fsu_ecp.c:845-891 | copy_fileout returns 0 or -1. What it writes is stated by FileOutCopies. |
| EcpCopy.CopyFifoF | src/fsu_ecp.c:670-713 | copy_fifo returns 0 or -1. |
| EcpCopy.CopySpecialF | src/fsu_ecp.c:715-755 | copy_special returns 0 or -1. |
| EcpCopy.CopyLinkF | src/fsu_ecp.c:757-801 | copy_link returns 0 or -1. |
| EcpTree.AliasesF | src/fsu_ecp.c:366-396 | The alias search keeps the entries before and at the candidate, and only ever removes later entries from the list. |
| EcpTree.GroupF | src/fsu_ecp.c:347-398 | The grouping keeps the entries up to the current one in place and only removes later ones. |
| EcpTree.Probe | src/fsu_ecp.c:373-376 | The lstat of a candidate in the source domain leaves the world and stat buffer of ProbeF; a failed lstat keeps the stale buffer. |
| EcpTree.Aliases | src/fsu_ecp.c:366-396 | The inner loop leaves the list, the aliases found and the stat buffer that AliasesF gives. |
| EcpTree.GroupLinks | src/fsu_ecp.c:347-398 | The grouping loop leaves the outcome GroupF gives: the list without the aliases, and the groups, newest first. |
| EcpTreeProps.AliasesOnlyLook | src/fsu_ecp.c:366-396 | The alias search changes neither domain's files. |
| EcpTreeProps.AliasesCount | src/fsu_ecp.c:385-393 | Each alias found is one entry taken out of the list, and the search stops at nlink - 1 aliases. |
| EcpTreeProps.AliasesKept | src/fsu_ecp.c:390 | What stays in the list was in it before. |
| EcpTreeProps.AliasesSameFile | src/fsu_ecp.c:366-396 | Every alias found is the path of a later entry that names the same inode (equal st_ino and st_dev) and is neither a directory nor singly linked. |
| EcpTreeProps.AliasesComplete | src/fsu_ecp.c:366-396 | When the count did not stop the loop, every later entry still in the list that names the same file was passed over because its lstat failed or showed a symbolic link. |
| EcpTreeProps.GroupOnlyLooks | src/fsu_ecp.c:347-398 | The whole grouping changes neither domain's files. |
| EcpTreeProps.GroupKept | src/fsu_ecp.c:347-398 | The grouped list holds only entries of the listing, and the entries already passed stay in place. |
| EcpTreeProps.RepsAt | src/fsu_ecp.c:348-349 | When the grouping gets to the end, every entry of the grouped list that is neither a directory nor singly linked has started one group, put in front of the earlier groups. |
| EcpTreeProps.GroupOk | src/fsu_ecp.c:357-363 | The grouping gets to the end exactly when no entry it starts a group at has a link count of 0, whose zero-size alias array fails to allocate. |
| EcpTree.EntryF | src/fsu_ecp.c:428-470 | One turn of the copy loop keeps res at 0 or -1, breaks only with res -1, and never completes the loop itself. |
| EcpTree.CopyLoopF | src/fsu_ecp.c:428-470 | The copy loop keeps res at 0 or -1, and a break leaves res at -1. |
| EcpTree.CopyEntry | src/fsu_ecp.c:431-468 | One entry's turn leaves the world, res and stop reason that EntryF gives. |
| EcpTree.CopyLoop | src/fsu_ecp.c:428-470 | The loop over every entry after the root leaves the world, res and stop reason that CopyLoopF gives. |
| EcpTreeProps.FileEntryGoesOn | src/fsu_ecp.c:460-467 | An entry that passes the length check and is not a directory never breaks the loop. It stops the copy only on ENOSPC, and a failed copy makes res -1 without stopping. |
| EcpTreeProps.DirEntryBreaks | src/fsu_ecp.c:438-452 | A directory whose mkdir fails ends the loop with -1. |
| EcpTreeProps.LoopKeepsFailure | src/fsu_ecp.c:461 | Once res is -1 it stays -1 to the end of the loop. |
| EcpTreeProps.DestinationsUnderRoot | src/fsu_ecp.c:431-436 | For the walker's listing of from, grouped or not, the length check never fires, and every entry's path is from followed by the part the destination gets. |
| EcpTree.RemoveBackF | src/fsu_ecp.c:276-308 | The removal returns 0 or -1. |
| EcpTree.RemoveBack | src/fsu_ecp.c:276-308 | fsu_remove_directory_tree leaves the world and result of RemoveBackF: rmdir or unlink from the last entry back to the root, stopping at the first failure. |
| EcpTree.RemoveStep | src/fsu_ecp.c:293-305 | One removal either ends the walk back with its result, or leaves exactly the rest of the walk from the previous entry. |
| EcpTree.RemoveEntry | src/fsu_ecp.c:293-296 | The removal of one entry leaves the world and result of RemoveEntryF. |
| EcpTreeProps.RemoveOne | src/fsu_ecp.c:293-300 | One removal: on success the entry's name goes, and otherwise nothing changes. |
| EcpTreeProps.RemoveBackSpares | src/fsu_ecp.c:276-308 | The removal touches only its own domain, and there only the names of the entries it walks: an alias the grouping took out of the list stays. |
| EcpTreeProps.RemoveBackRemoves | src/fsu_ecp.c:276-308 | The removal never adds a name, and when it returns 0 every entry from the last back to the root is gone. |
| EcpTreeProps.GetDirFails | src/fsu_ecp.c:336-343 | Nothing is copied under GET: the walker lists only with REALFS, which only PUT asks for, so copy_dir_rec returns -1. |
| EcpTree.MakeRoot | src/fsu_ecp.c:400-426 | Making the destination root leaves the world and verdict of MakeRootF: mkdir, or an existing directory reused, then chown for put. |
| EcpTree.ChownDir | src/fsu_ecp.c:421-426 | The chown of a new directory to the source's owner leaves the world of ChownDirF. |
| EcpTreeProps.RootMade | src/fsu_ecp.c:400-403 | A root that does not exist yet, in a directory that does, is made as a directory and the copy goes on. |
| EcpTreeProps.RootReused | src/fsu_ecp.c:404-409 | An existing directory is taken as the root as it is. |
| EcpTreeProps.RootNotDir | src/fsu_ecp.c:410-414 | An existing root that stat does not show as a directory sets errno to ENOTDIR, changes nothing, and copy_dir_rec returns its initial 0. |
| EcpTreeProps.RootUnmade | src/fsu_ecp.c:415-418 | A root that cannot be made for another reason than EEXIST stops the copy with 0 and changes no domain. |
| EcpTree.RelinkGroup | src/fsu_ecp.c:482-511 | Relinking one group leaves the world and the links-supported flag of RelinkGroupF. |
| EcpTree.Relink | src/fsu_ecp.c:478-514 | The relinking pass over all groups leaves the world of RelinkF. |
| EcpTree.Fallback | src/fsu_ecp.c:499-508 | The fallback copy (copy_fileout for get, copy_filein for put) leaves the world of FallbackF, its result ignored. |
| EcpTreeProps.LinkKeeps | src/fsu_ecp.c:493-496 | A successful link keeps every name with its inode number and kind, and gives the new name the old one's inode number. |
| EcpTreeProps.RelinkOne | src/fsu_ecp.c:489-503 | One link, where links are supported: the alias's destination exists afterwards, and links stay on unless the call came back EOPNOTSUPP. |
| EcpTreeProps.RelinkGroupLinks | src/fsu_ecp.c:485-511 | Where links are supported and the representative's copy exists, relinking a group keeps links on, leaves the other domain alone, and leaves every alias's destination in place. |
| EcpTreeProps.RelinkLinked | src/fsu_ecp.c:492-497 | A link that did not come back EOPNOTSUPP leaves links on for the next alias. |
| EcpTreeProps.RelinkGroupShares | src/fsu_ecp.c:492-496 | With links supported, an alias whose destination did not exist before relinking becomes a further name of the representative's copy. |
| EcpTreeProps.RelinkStaysOff | src/fsu_ecp.c:504-508 | Once a link came back EOPNOTSUPP, every later alias of the run is copied. |
| EcpTreeProps.RelinkFallsBack | src/fsu_ecp.c:497-503 | In a domain without hard links, the first alias whose destination can be made turns links off for the rest of the run. |
| EcpTree.AfterLoop | src/fsu_ecp.c:472-514 | The removal under DELETE and the relinking leave the world of AfterLoopF. |
| EcpTree.TreeCopy | src/fsu_ecp.c:400-519 | copy_dir_rec after a complete grouping leaves the world and result of TreeCopyF. |
| EcpTreeProps.ResultIgnoresGroups | src/fsu_ecp.c:478-519 | The result is the copy loop's: relinking never changes it. |
| EcpTreeProps.ResultIgnoresDelete | src/fsu_ecp.c:472-473 | The removal of the source in move mode never changes the result either. |
| EcpTree.ListingF | src/fsu_ecp.c:328-343 | A listing, when there is one, holds at least the root. |
| EcpTree.Listing | src/fsu_ecp.c:328-341 | The walk with the flags copy_dir_rec derives returns exactly ListingF; it only reads the host. |
| EcpTree.CopyDirRec | src/fsu_ecp.c:310-520 | copy_dir_rec leaves the world and result of CopyDirRecF. |
| EcpTree.CopyDir | src/fsu_ecp.c:205-267 | copy_dir leaves the world and result of CopyDirF. |
| EcpTreeProps.CopyDirRefusesFile | src/fsu_ecp.c:229-232 | A target that exists and is not a directory is refused with -1, and nothing changes. |
| EcpTree.Ecp | src/fsu_ecp.c:172-203 | fsu_ecp leaves the world and result of EcpF. |
| EcpTreeProps.DirNeedsRecursive | src/fsu_ecp.c:187-191 | A directory source without -R is refused with -1 before anything is done. |
| EcpTreeProps.MissingSource | src/fsu_ecp.c:178-185 | A source that does not exist fails with ENOENT, and nothing else changes. |
| EcpTree.StripSlashes | src/fsu_ecp.c:108-110 | The operand loses only its trailing '/' characters, is never cut below one character, and ends in no '/' unless it is one character long. |
| EcpTree.StripOperand | src/fsu_ecp.c:108-110 | main's one-'/'-at-a-time cut gives StripSlashes of the operand. |
| EcpTree.EcpAll | src/fsu_ecp.c:107-112 | main's loop leaves the world and result of EcpAllF over the sources in order. |
| EcpTreeProps.EcpAllStatus | src/fsu_ecp.c:107-114 | main's loop tries every source, and its result is 0 exactly when every source's copy gave 0. |
| EcpTreeProps.SourceStatusPrefix | src/fsu_ecp.c:107-112 | The status of an earlier source does not depend on the later ones. |
| EcpTree.EcpMain | src/fsu_ecp.c:91-115 | Refused options or fewer than two operands end in usage() with status 1 and no change. Otherwise every operand but the last is copied to the last, as EcpAllF says. |
| EcpTree.TreeCopyF | src/fsu_ecp.c:400-519 | copy_dir_rec after a complete grouping returns 0 or -1; the lemmas above state each stage. |
| EcpTree.CopyDirRecF | src/fsu_ecp.c:310-520 | copy_dir_rec returns 0 or -1: -1 when the walk gives no list or the grouping fails, and otherwise the copy loop's result. |
| EcpTree.CopyDirF | src/fsu_ecp.c:205-267 | copy_dir returns 0 or -1. |
| EcpTree.EcpF | src/fsu_ecp.c:172-203 | fsu_ecp returns 0 or -1. |
| EcpTree.EcpAllF | src/fsu_ecp.c:107-112 | main's loop returns 0 or -1, the OR of the sources' results. |
| CpUtils.SetUtimes | src/utils_cp.c:86-106 | set_utimes leaves the world and result of SetUtimesF: lutimes with the source's times, 1 when it fails. |
| CpUtils.ChownStep | src/utils_cp.c:284-291 | The lchown step leaves the world, result and mode of ChownStepF: an error other than EPERM makes the result 1, and any failure drops setuid and setgid. |
| CpUtils.ChflagsStep | src/utils_cp.c:296-314 | The chflags step leaves the world and result of ChflagsStepF: skipped for a link or under -N, and a failure counts unless it is EOPNOTSUPP for a source without flags. |
| CpUtils.SetFileF | src/utils_cp.c:269-320 | setfile returns 0 or 1. |
| CpUtils.SetFile | src/utils_cp.c:269-320 | setfile leaves the world, result and rewritten stat of SetFileF. |
| CpUtils.SetFileMode | src/utils_cp.c:276-291 | The mode setfile leaves has no type and no sticky bit, keeps the source's rwx bits, and keeps setuid and setgid exactly when lchown succeeds. |
| CpUtils.SetFileAllowed | src/utils_cp.c:269-320 | On an existing non-link target, with chown and chflags allowed, setfile returns 0 and changes only the target node, which becomes Applied. |
| CpUtils.SetFileApplies | src/utils_cp.c:284-318 | The node a successful setfile leaves takes the source's owner, permission bits, times and (for a non-link without -N) flags, and keeps its own type and contents. |
| CpUtils.SetFileToleratesRefusal | src/utils_cp.c:286-291 | Where chown is refused with EPERM and chflags with EOPNOTSUPP, setfile of a source without flags still returns 0. The target takes the source's permission bits without setuid and setgid, and its times. |
| CpUtils.CopyLoopF | src/utils_cp.c:163-175 | copy_file's read/write loop returns 0 or 1. |
| CpUtils.CopyLoop | src/utils_cp.c:163-175 | The loop with MAXBSIZE chunks leaves the world and result of CopyLoopF: a short or failed write or a negative read gives 1, and an empty read gives 0. |
| CpUtilsProps.CopyLoopCopies | src/utils_cp.c:162-176 | Between a reader and a writer on two image files, the loop returns 0 exactly when the image has space for every byte left, and the target then holds them written at its write position. |
| CpUtilsProps.CopyLoopNoReader | src/utils_cp.c:154-175 | When the unchecked source open failed, the loop ends at once with 1 and the image unchanged. |
| CpUtilsProps.CopyLoopNoWriter | src/utils_cp.c:139-175 | With bytes left to copy and a target descriptor that cannot be written, the loop ends with 1 and the files unchanged. |
| CpUtils.FinishF | src/utils_cp.c:181-206 | The end of copy_file returns 0 or 1. |
| CpUtils.RestoreSetid | src/utils_cp.c:189-200 | The setuid/setgid restore leaves the world and result of RestoreSetidF. |
| CpUtils.Finish | src/utils_cp.c:181-206 | The end of copy_file leaves the world and result of FinishF: setfile and set_utimes under -p, or the setuid/setgid restore without it. |
| CpUtils.FinishRestoresSetid | src/utils_cp.c:189-200 | Without -p, a new copy of a setuid/setgid source owned by the caller, whose group the target got, is chmod-ed to the source's mode & RETAINBITS & ~umask, and the result is 0. |
| CpUtils.FinishKeepsSetidOtherwise | src/utils_cp.c:189-190 | Without -p, for a target that existed, a source without setuid/setgid, or one the caller does not own, the end of copy_file changes nothing and returns 0. |
| CpUtilsProps.FinishKeepsData | src/utils_cp.c:181-206 | The end of copy_file changes no file's content. |
| CpUtilsProps.SetFileKeepsData | src/utils_cp.c:269-320 | setfile sets owner, mode, flags and times, and never content. |
| CpUtils.CopyFileWithF | src/utils_cp.c:108-207 | copy_file with the target's open flags and creation mode as parameters returns 0 or 1. |
| CpUtils.CopyFileF | src/utils_cp.c:108-207 | copy_file as written returns 0 or 1. |
| CpUtils.CopyFileFixedF | src/utils_cp.c:139-147 | The intended copy_file, which opens the target O_WRONLY\|O_CREAT\|O_TRUNC with the source's mode less setuid/setgid, returns 0 or 1. |
| CpUtils.OpenTarget | src/utils_cp.c:139-154 | The opens leave the world, the give-up verdict and the two descriptors of OpenTargetF. Under -f or tolnk a failed open is retried once after an unlink, and a second failure gives up with 1. |
| CpUtils.CopyFile | src/utils_cp.c:108-207 | copy_file leaves the world and result of CopyFileF. |
| CpUtils.CopyFileDeclined | src/utils_cp.c:127-135 | Under -i, declining the prompt over an existing target leaves everything as it was and returns 0. |
| CpUtils.CopyFileNeedsStickySource | src/utils_cp.c:139 | The target is opened with the source's mode bits as open flags, so O_CREAT (0x200) is set only for a sticky source, and copy_file never creates the target of any other source. |
| CpUtils.CopyFileNoCreate | src/utils_cp.c:139-206 | With open flags that lack O_CREAT, copy_file never creates a target that is not there. |
| CpUtilsProps.OpensForCopy | src/utils_cp.c:139-154 | With write flags that create, at a target spot that is empty once opened, the target open succeeds with no retry, and the source open gives a reader on the source next to a writer at the start of the empty target. |
| CpUtilsProps.CopyFileWithWrites | src/utils_cp.c:139-179 | For a new target and creating flags that leave it empty: a source of positive size whose bytes do not fit gives 1, and otherwise the target holds the source's bytes, or nothing when st_size is 0. |
| CpUtilsProps.CopyFileWritesSource | src/utils_cp.c:139-179 | copy_file as written, over a new target, copies the source's bytes when the source is sticky and its low two mode bits name a writable access mode. |
| CpUtilsProps.CopyFileFixedCopies | src/utils_cp.c:139-179 | The intended copy_file, for every source mode and any creatable or regular target: 1 when a non-empty source does not fit, and otherwise the target holds exactly the source's bytes. |
| CpUtils.CopyLinkF | src/utils_cp.c:209-229 | copy_link returns 0 or 1. |
| CpUtils.CopyFifoF | src/utils_cp.c:231-243 | copy_fifo returns 0 or 1. |
| CpUtils.CopySpecialF | src/utils_cp.c:245-257 | copy_special returns 0 or 1. |
| CpUtils.UnlinkTarget | src/utils_cp.c:220-223 | Unlinking an existing target leaves the world and result of UnlinkTargetF, 1 when it fails. |
| CpUtils.After | src/utils_cp.c:228 | The tail of the node copies leaves the world and result of AfterF: setfile under -p, else 0. |
| CpUtils.CopyLink | src/utils_cp.c:209-229 | copy_link leaves the world and result of CopyLinkF. |
| CpUtils.CopyFifo | src/utils_cp.c:231-243 | copy_fifo leaves the world and result of CopyFifoF. |
| CpUtils.CopySpecial | src/utils_cp.c:245-257 | copy_special leaves the world and result of CopySpecialF. |
| CpUtils.UnlinkFailureStops | src/utils_cp.c:220-223 | When unlinking an existing target fails, the three node copies return 1, set errno and create nothing. |
| CpUtils.LinkCopiesText | src/utils_cp.c:215-227 | Without -p, copy_link over a free name returns 0, and the target is a link whose text is the source's, cut at MAXPATHLEN - 1 bytes and at the first NUL. |
| CpUtils.FifoCopiesMode | src/utils_cp.c:238-242 | Without -p, copy_fifo over a free name returns 0 and makes a FIFO with the source's permission bits. |
| CpUtils.SpecialCopiesNode | src/utils_cp.c:252-256 | Without -p, copy_special of a device over a free name, by the superuser, returns 0 and makes a node with the source's type, permission bits and rdev. |
| Cp.OptionF | bin/cp/cp.c:137-178 | One getopt letter: -H, -L and -P leave exactly the given one of the three set; -f sets f and clears i, and -i sets i only on a terminal and clears f; any letter outside "HLNPRfiprv" is a usage error. |
| Cp.Parse | bin/cp/cp.c:137-178 | The option loop leaves the flags of ParseF, or the usage exit. |
| Cp.ParseSnoc | bin/cp/cp.c:137-178 | The loop over n + 1 letters is one more letter step after the loop over n. |
| Cp.ParseStopsAtUsage | bin/cp/cp.c:174-177 | Once a letter is refused, usage() exits whatever letters follow. |
| Cp.ParseUsage | bin/cp/cp.c:137-178 | The loop ends in usage() exactly when some letter is not an option letter. |
| Cp.ParseLastLink | bin/cp/cp.c:139-153 | Of -H, -L and -P the last one given is the one set, and the other two are clear. |
| Cp.ParseLastForce | bin/cp/cp.c:157-164 | Of -f and -i the last one given wins, and -i is set only when stdin is a terminal. |
| Cp.ParseExclusive | bin/cp/cp.c:139-164 | After the option loop, at most one of -H/-L/-P and at most one of -f/-i is set. |
| Cp.OptionWords | bin/cp/cp.c:185-211 | Turning the walk logical replaces FTS_PHYSICAL by FTS_LOGICAL and keeps FTS_NOCHDIR and FTS_COMFOLLOW, in each of the four words main can build. |
| Cp.FtsOptionsShape | bin/cp/cp.c:185-211 | -r with -R, -H, -L or -P is fatal, and nothing else is. Otherwise the walk has NOCHDIR and exactly one of PHYSICAL and LOGICAL. It is logical under -r, under -R -L, and without -R and -P. COMFOLLOW is set under -R -H, and without -R and -P. |
| Cp.StripAll | bin/cp/cp.c:302-306 | Every source loses its trailing '/'s except a first character, and the list keeps its length and order. |
| Cp.StripSources | bin/cp/cp.c:302-306 | The trimming loop leaves the sources of StripAll. |
| Cp.Kind | bin/cp/cp.c:254-290 | The choice of the copy kind for a target that is not a directory leaves the world and kind of KindF. |
| Cp.Setup | bin/cp/cp.c:182-306 | main's checks on the operands leave the world and plan of SetupF. |
| Cp.SetupTarget | bin/cp/cp.c:182-306 | When main goes on to copy(), it has at least two operands, and the target is the last one with its trailing '/'s removed. The target fits the buffer and ends in '/' only when it is "/". The sources are the other operands, trimmed the same way. |
| Cp.SetupKinds | bin/cp/cp.c:246-296 | FILE_TO_DIR is chosen exactly when the target stats as a directory. DIR_TO_DNE needs a missing target, -R or -r, and a single source. More than one source is copied only into a directory, and a target written with a trailing '/' is never FILE_TO_FILE. |
| Cp.SetupDirToDne | bin/cp/cp.c:267-280 | cp -R of one directory onto a missing name starts a physical DIR_TO_DNE copy to that name. |
| Cp.MasterCmp | bin/cp/cp.c:553-569 | mastercmp's result is -1, 0 or 1. |
| Cp.MasterCmpDirsFirst | bin/cp/cp.c:545-569 | As written, a directory compares below a file and a file above a directory, which is the reverse of the order the comment describes. Two directories each compare below the other. |
| Cp.FilesFirstCmp | bin/cp/cp.c:545-552 | The comparison the comment describes returns -1, 0 or 1. |
| Cp.FilesFirstOrder | bin/cp/cp.c:545-552 | The intended comparison puts every readable file before every directory, and it is antisymmetric. |
| CpCopy.RootBase | bin/cp/cp.c:377-388 | At a root, DIR_TO_DNE keeps nothing of the root path. Otherwise what is kept is the last component, and ".." becomes ".". |
| CpCopy.Place | bin/cp/cp.c:349-407 | The target-path computation leaves the base and target of PlaceF, or the "name too long" refusal. |
| CpCopyProps.PlaceUnderTarget | bin/cp/cp.c:349-407 | Every target path copy() builds starts with the trimmed target and is shorter than PATH_MAX. |
| CpCopyProps.DirToDneRoot | bin/cp/cp.c:386-406 | In DIR_TO_DNE the root is copied to the target itself. |
| CpCopyProps.DirToDneChild | bin/cp/cp.c:390-406 | In DIR_TO_DNE, root/rest is copied to target/rest. |
| CpCopyProps.FileToDirRoot | bin/cp/cp.c:377-406 | In FILE_TO_DIR a root goes to target/last-component: ".." goes to target/., and a root that ends in '/' goes to the target itself. |
| CpCopyProps.StripKeeps | bin/cp/cp.c:102-105 | STRIP_TRAILING_SLASH leaves alone a path that does not end in '/'. |
| CpCopyProps.StripAdded | bin/cp/cp.c:393-406 | STRIP_TRAILING_SLASH removes the '/' copy() appends to a trimmed target. |
| CpCopy.ProbeF | bin/cp/cp.c:409-432 | The stat of the target changes no file of either domain. |
| CpCopy.Probe | bin/cp/cp.c:409-432 | The target stat leaves the world and finding of ProbeF. |
| CpCopy.Dir | bin/cp/cp.c:446-511 | The directory case leaves the world and action of DirF. |
| CpCopy.Dispatch | bin/cp/cp.c:434-533 | The switch on the source's type leaves the world and action of DispatchF. |
| CpCopy.SkipTo | bin/cp/cp.c:420 | After FTS_SKIP on entry i, fts_read next returns the first later entry at a level no deeper than i's, and every entry skipped lies deeper. |
| CpCopy.Next | bin/cp/cp.c:329 | fts_read always moves forward. |
| CpCopy.EntryF | bin/cp/cp.c:330-535 | One pass of copy()'s loop moves forward and never clears any_failed. |
| CpCopy.Entry | bin/cp/cp.c:330-535 | One pass of the loop leaves the world and walk state of EntryF. |
| CpCopy.Copy | bin/cp/cp.c:312-543 | copy() leaves the world of CopyF and returns its any_failed, which is 1 also for an err() exit. |
| CpCopyProps.CopyKeepsFailure | bin/cp/cp.c:329-542 | Once a visit fails, copy() returns 1. |
| CpCopyProps.CopyRunsToEnd | bin/cp/cp.c:329-541 | The walk stops only at its end or at an err() exit, and it never goes back. |
| CpCopyProps.UnreadableFails | bin/cp/cp.c:331-343 | An FTS_NS, FTS_DNR, FTS_ERR or FTS_DC entry changes nothing and makes the exit status 1. |
| CpCopyProps.IdenticalNotCopied | bin/cp/cp.c:414-422 | A source whose target is the same file is not copied, and its visit fails. A directory met in pre-order also has its whole subtree skipped. |
| CpCopyProps.DirNotOverwritten | bin/cp/cp.c:423-429 | A non-directory is never copied over an existing directory. The files are untouched, the visit fails, and the walk goes on to the next entry. |
| CpCopyProps.DirNeedsRecursion | bin/cp/cp.c:446-454 | Without -R or -r a directory is not copied. Its visit fails, and its subtree is skipped. |
| CpCopyProps.DirMadeBeforeChildren | bin/cp/cp.c:461-481 | At the pre-order visit of a directory under -R whose target is missing, the target is now a directory and dne is set, or the program has exited. |
| CpCopy.CpMainF | bin/cp/cp.c:120-310 | cp exits with 0 or 1. |
| CpCopy.CpMain | bin/cp/cp.c:120-310 | main leaves the world and exit status of CpMainF. |
| CpCopyProps.ExitZero | bin/cp/cp.c:120-310 | cp exits 0 only when the options parse and the operands pass main's checks. Every entry of the walk must then be visited with no failure and no fatal error. |
| Diff.NameCmp | src/fsu_diff.c:266-271 | fsu_diff_namecmp is 0 exactly for equal names. |
| Diff.StrcmpAntisymmetric | src/fsu_diff.c:266-271 | Swapping the two names negates the comparison, so siblings are sorted one consistent way. |
| Diff.CmpF | src/fsu_diff.c:216-238 | fsu_diff_file's chunk loop returns -1, 0 or 1. |
| Diff.ReadOther | src/fsu_diff.c:217-223 | A read of one descriptor leaves the files and the other descriptor's offset as they were. |
| Diff.CmpProgress | src/fsu_diff.c:216-237 | A round that read something from the first file leaves less of that file to read, so the loop ends. |
| Diff.ImageChunk | src/fsu_diff.c:217 | A read of BUFSIZE from a readable descriptor returns the next min(BUFSIZE, left) bytes of the file, and moves the offset past them. |
| Diff.CmpMeaning | src/fsu_diff.c:216-238 | On two readable descriptors, the loop returns 0 when the rest of both files is the same bytes, and 1 otherwise. |
| Diff.Cmp | src/fsu_diff.c:216-238 | The do-while loop leaves the world and result of CmpF. |
| Diff.DiffFileF | src/fsu_diff.c:200-239 | fsu_diff_file returns -1, 0 or 1. |
| Diff.DiffFile | src/fsu_diff.c:200-239 | fsu_diff_file leaves the world and result of DiffFileF. |
| Diff.OpensApart | src/fsu_diff.c:213-214 | The two opens give different descriptors unless both fail, so the loop never reads one file twice. |
| Diff.DiffLinkF | src/fsu_diff.c:241-264 | fsu_diff_link returns 0 or -1. |
| Diff.DiffLink | src/fsu_diff.c:241-264 | fsu_diff_link leaves the world and result of DiffLinkF. |
| Diff.FentF | src/fsu_diff.c:170-198 | fsu_diff_fent returns -1, 0 or 1. |
| Diff.Fent | src/fsu_diff.c:170-198 | fsu_diff_fent leaves the world and result of FentF. |
| Diff.FentVerdict | src/fsu_diff.c:170-198 | Entries with the same inode number are equal, and different file types differ. FIFOs are equal, and devices are equal exactly when their rdev agree. Directories are equal exactly when their link counts and names agree. Equal links have equal names, and sockets always differ. Only regular files touch the world. |
| Diff.TypesAgree | src/fsu_diff.c:177-181 | The type classification agrees with the S_IFMT bits the switch tests. |
| Diff.Head | src/fsu_diff.c:111-156 | The step taken from the label "again" advances each walk by at most its length. |
| Diff.HeadTakes | src/fsu_diff.c:111-156 | The step consumes exactly the entries it reads past. |
| Diff.PlanUnfold | src/fsu_diff.c:107-161 | The whole merge is the head step followed by the merge from where that step leaves the walks. |
| Diff.PlanConsumes | src/fsu_diff.c:107-161 | The merge consumes every entry of both walks exactly once, in walk order. |
| Diff.PlanPairs | src/fsu_diff.c:111-156 | Only pre-order visits are compared, and a compared pair has equal names unless one is at the root level. An entry reported "only on" one side is never a root. |
| Diff.StepSame | src/fsu_diff.c:126-160 | A step keeps rv at 0 exactly when it prints no "differ" line. |
| Diff.RunSame | src/fsu_diff.c:107-167 | rv stays 0 exactly when no "differ" line is printed, and "only on" lines never change it. |
| Diff.ReachedStep | src/fsu_diff.c:107-161 | Taking the head step keeps the loop invariant: the outcome so far plus the merge still to run is the outcome of the whole merge. |
| Diff.Take | src/fsu_diff.c:126-160 | One pass of the loop body adds the step's lines and its verdict to those so far. |
| Diff.DiffWalks | src/fsu_diff.c:85-168 | fsu_diff leaves the world, return value and printed lines of DiffF. |
| Diff.RootDirBesideFile | src/fsu_diff.c:111-116 | The first test after "again" looks only at the first walk's root. So a directory compared with a file of another type is reported equal, with nothing printed. |
| Diff.HeadFixed | src/fsu_diff.c:111-116 | With the root test asking that both roots be directories, the step still advances each walk by at most its length. |
| Diff.HeadFixedRoots | src/fsu_diff.c:111-116 | With the corrected test, a pair of roots is skipped only when both are directories. The step differs from the program's only for a directory root beside a root of another type. |
| Diff.RootDirBesideFileFixed | src/fsu_diff.c:111-116 | With the corrected test, a root directory beside a root file of another type is compared, reported with a "differ" line, and fsu_diff returns -1. |
| FsuFile.ReadSys | lib/fsu_file.c:343 | read(2) returns -1 and changes only errno, or returns the next bytes of the file at the descriptor's offset. It returns fewer than asked only at the end of the file, and it moves only the offset. |
| FsuFile.PwriteSys | lib/fsu_file.c:226 | pwrite(2) returns -1 and changes only errno, or writes a positive count of a non-empty request and changes only the file's data. |
| FsuFile.FlushF | lib/fsu_file.c:258-279 | fsu_fflush moves no position and keeps the buffer, so it changes only the file, fd_dirty and the error fields. |
| FsuFile.FillF | lib/fsu_file.c:334-354 | fsu_fill_buffer keeps fd_fpos. Afterwards the buffer holds something past fd_fpos or fd_eof is set, and fd_last is at most 8192 beyond fd_fpos unless the read failed. |
| FsuFile.RefilledF | lib/fsu_file.c:57-62 | The refill at fd_last keeps the buffer 8192 bytes long with fd_bpos inside it. FillMirror and RefilledMirror state what it reads. |
| FsuFile.TakeF | lib/fsu_file.c:63-65 | Taking a byte inside the buffer keeps the buffer's shape. TakeMirror states which byte it is. |
| FsuFile.PutF | lib/fsu_file.c:85-88 | Storing a byte inside the buffer keeps the buffer's shape. |
| FsuFile.FgetcF | lib/fsu_file.c:46-66 | fsu_fgetc as written keeps the buffer's shape. FgetcPastEnd and FgetcPastEndStays state what it returns. |
| FsuFile.FgetcFixedF | lib/fsu_file.c:46-66 | The corrected fsu_fgetc keeps the buffer's shape. FgetcFixedReads states what it returns. |
| FsuFile.FputcF | lib/fsu_file.c:68-89 | fsu_fputc keeps the buffer's shape. |
| FsuFile.ChunksF | lib/fsu_file.c:225-234 | The loop of whole-buffer pwrites changes only the file, fd_fpos and errors. When it succeeds it leaves at most 8192 bytes to write. |
| FsuFile.WriteThroughF | lib/fsu_file.c:223-247 | The large-request path of fsu_fwrite keeps the buffer's shape. ThroughWrites and WriteThroughPoisons state what it writes. |
| FsuFile.FwriteF | lib/fsu_file.c:200-256 | fsu_fwrite keeps the buffer's shape. FwriteRefusals, FwriteBuffered and WriteThroughPoisons state its cases. |
| FsuFile.WriteThroughFixedF | lib/fsu_file.c:223-247 | The corrected large-request path keeps the buffer's shape. |
| FsuFile.FwriteFixedF | lib/fsu_file.c:200-256 | The corrected fsu_fwrite keeps the buffer's shape. FwriteFixedWrites states what it writes. |
| FsuFile.ReadStepF | lib/fsu_file.c:408-425 | A turn of fsu_fread's loop that goes on leaves less to do, so the loop ends. |
| FsuFile.ReadLoopF | lib/fsu_file.c:408-425 | fsu_fread's loop keeps the buffer's shape. ReadLoopReads states what it copies. |
| FsuFile.FreadF | lib/fsu_file.c:388-426 | fsu_fread keeps the buffer's shape. FreadReads states what it returns. |
| FsuFile.FseekoF | lib/fsu_file.c:288-318 | fsu_fseeko keeps the buffer's shape. FseekoRules states its cases. |
| FsuFile.RewindF | lib/fsu_file.c:159-170 | fsu_rewind keeps the buffer's shape. |
| FsuFile.File.Init | lib/fsu_file.c:112-119 | A new FSU_FILE holds the given state, with a fresh 8192-byte buffer. |
| FsuFile.File.Open | lib/fsu_file.c:92-146 | fsu_fopen returns NULL exactly when open(2) refuses the flags built from the mode string. Otherwise the new file starts in the Opened state, with fd_mode taken from the O_WRONLY bit. |
| FsuFile.File.Read | lib/fsu_file.c:343 | read(2) on the file's descriptor leaves the state and result of ReadSys. |
| FsuFile.File.Pwrite | lib/fsu_file.c:226 | pwrite(2) on the file's descriptor leaves the state and result of PwriteSys. |
| FsuFile.File.Fflush | lib/fsu_file.c:258-279 | fsu_fflush leaves the state and result of FlushF. |
| FsuFile.File.FillBuffer | lib/fsu_file.c:334-354 | fsu_fill_buffer leaves the state of FillF. |
| FsuFile.File.Refill | lib/fsu_file.c:57-62 | The refill leaves the state of RefilledF. |
| FsuFile.File.Take | lib/fsu_file.c:63-65 | Taking the byte at fd_bpos leaves the state and result of TakeF. |
| FsuFile.File.Put | lib/fsu_file.c:85-88 | Storing c at fd_bpos leaves the state and result of PutF. |
| FsuFile.File.Fgetc | lib/fsu_file.c:46-66 | fsu_fgetc leaves the state and result of FgetcF. |
| FsuFile.File.FgetcFixed | lib/fsu_file.c:46-66 | The corrected fsu_fgetc leaves the state and result of FgetcFixedF. |
| FsuFile.File.Fputc | lib/fsu_file.c:68-89 | fsu_fputc leaves the state and result of FputcF. |
| FsuFile.File.Chunks | lib/fsu_file.c:225-234 | The pwrite loop leaves the state, the unwritten tail and the success of ChunksF. |
| FsuFile.File.WriteThrough | lib/fsu_file.c:223-247 | The large-request path leaves the state and count of WriteThroughF. |
| FsuFile.File.Fwrite | lib/fsu_file.c:200-256 | fsu_fwrite leaves the state and count of FwriteF. |
| FsuFile.File.ReadStep | lib/fsu_file.c:408-419 | One turn of fsu_fread's loop either returns as ReadStepF's Done says, or carries on with its state, resid and bytes. |
| FsuFile.File.Fread | lib/fsu_file.c:388-426 | fsu_fread leaves the state, count and bytes of FreadF, or overruns exactly when FreadF does. |
| FsuFile.File.Fseeko | lib/fsu_file.c:288-318 | fsu_fseeko leaves the state and result of FseekoF. |
| FsuFile.File.Rewind | lib/fsu_file.c:159-170 | fsu_rewind leaves the state of RewindF. |
| FsuFileProps.ModeRule | lib/fsu_file.c:121-144 | fd_mode is FSU_FILE_WRITE exactly for modes starting with 'w' or 'a', and never FSU_FILE_READWRITE, so "r+" only reads. |
| FsuFileProps.PlusWriteRefused | lib/fsu_file.c:125-142 | "w+" and "a+" ask open(2) for O_WRONLY\|O_RDWR, which is refused, so fsu_fopen returns NULL for them. |
| FsuFileProps.OpenedMirrors | lib/fsu_file.c:116-145 | A file opened for reading starts with an empty window that agrees with the file. |
| FsuFileProps.FillMirror | lib/fsu_file.c:334-354 | A refill at fd_last keeps the buffer equal to the file's bytes around fd_fpos. It brings nothing exactly at the end of the file. |
| FsuFileProps.RefilledMirror | lib/fsu_file.c:57-62 | fsu_fgetc's refill keeps the window faithful, and leaves it empty only at the end of the file. |
| FsuFileProps.TakeMirror | lib/fsu_file.c:63-65 | Taking from a non-empty faithful window returns the file's byte at fd_fpos as a signed char. |
| FsuFileProps.FgetcFixedReads | lib/fsu_file.c:46-66 | The corrected fsu_fgetc returns the byte at fd_fpos and moves on, or returns EOF at the end of the file, and the window stays faithful. |
| FsuFileProps.Stream | lib/fsu_file.c:46-66 | The values successive fsu_fgetc calls return before EOF hold no EOF, and there are at most as many as bytes are left. |
| FsuFileProps.SignedEof | lib/fsu_file.c:46-65 | fsu_fgetc returns its uint8_t byte as a char, taken as the value from -128 to 127 congruent to it modulo 256. A byte reads as EOF exactly when it is 0xFF. |
| FsuFileProps.FgetcPastEnd | lib/fsu_file.c:57-65 | As written, at the end of a file the refill reads nothing, yet fsu_fgetc returns the stale fd_buf[0] and moves fd_fpos past fd_last. |
| FsuFileProps.FgetcPastEndStays | lib/fsu_file.c:57-65 | Once fd_fpos is past fd_last, fsu_fgetc just takes the next buffered byte and never reports EOF. |
| FsuFileProps.EmptyFileAsWritten | lib/fsu_file.c:46-66 | fsu_fopen of an empty file with "r" followed by fsu_fgetc returns whatever fd_buf[0] held. |
| FsuFileProps.EmptyFileFixed | lib/fsu_file.c:46-66 | The same calls with the end-of-file test after the refill return EOF. |
| FsuFileProps.ReadStepReads | lib/fsu_file.c:408-425 | A turn of fsu_fread's loop over a faithful window either finishes, or copies the window's bytes and moves to fd_last. |
| FsuFileProps.ReadStepMoves | lib/fsu_file.c:408-419 | A request larger than the window copies the window and refills, or stops at eof. |
| FsuFileProps.ReadStepEnds | lib/fsu_file.c:420-425 | A request the window covers is served from the buffer and returns count. |
| FsuFileProps.ReadsOnChain | lib/fsu_file.c:408-419 | Copying the window and going on from fd_last reads the same bytes as going on from fd_fpos. |
| FsuFileProps.ReadLoopReads | lib/fsu_file.c:408-425 | fsu_fread's loop over a faithful window copies the file's next bytes. |
| FsuFileProps.FreadReads | lib/fsu_file.c:388-426 | fsu_fread over a faithful window returns the next min(size*count, left) bytes of the file. It returns count when all came and the count of whole members otherwise, and the window stays faithful. |
| FsuFileProps.FreadLoopReads | lib/fsu_file.c:398-419 | A read of a positive number of bytes runs the loop from a faithful window. |
| FsuFileProps.FseekoRules | lib/fsu_file.c:288-318 | fsu_fseeko flushes and clears fd_err. An unknown whence gives EINVAL and -1 and leaves fd_fpos. Otherwise fd_fpos becomes the requested position. A position outside the file just sets fd_last and fd_bpos and leaves the descriptor alone. |
| FsuFileProps.SeekReadsAtDescriptor | lib/fsu_file.c:312-316 | The refill after a seek reads at the descriptor's own offset, not at fd_fpos. So on a file read past its first chunk, fseeko to 0 buffers the byte at the descriptor's offset as if it were byte 0. |
| FsuFileProps.OpenedWriting | lib/fsu_file.c:121-131 | A file opened with "w" starts empty with nothing pending, and one opened with "a" starts at the stat-ed size. |
| FsuFileProps.FwriteBuffered | lib/fsu_file.c:248-253 | A request that fits the buffer is copied there, nmemb is returned, and the pending file gains it at fd_fpos. |
| FsuFileProps.BufferedPending | lib/fsu_file.c:249-252 | Copying w into the buffer writes it at fd_fpos of the pending file. |
| FsuFileProps.BufferedInv | lib/fsu_file.c:249-252 | Copying into the buffer keeps the write invariant. |
| FsuFileProps.BufferedOverwrites | lib/fsu_file.c:249-252 | After the copy, the pending file is the buffer written at fd_fpos - fd_bpos. |
| FsuFileProps.FlushCommits | lib/fsu_file.c:258-279 | fsu_fflush of a dirty buffer with room on the device returns 0, and the file becomes what was pending. |
| FsuFileProps.FwriteRefusals | lib/fsu_file.c:209-218 | fsu_fwrite returns 0 with the state unchanged for a zero-sized request or after a recorded error. A file without FSU_FILE_WRITE gets EBADF. |
| FsuFileProps.ChunkStep | lib/fsu_file.c:225-234 | One turn of the loop writes a whole 8192-byte chunk at fd_fpos and moves fd_fpos past it. |
| FsuFileProps.ChunksChain | lib/fsu_file.c:225-234 | One chunk followed by the rest of the loop is what the loop writes. |
| FsuFileProps.ChunksWrite | lib/fsu_file.c:225-234 | With room on the device, the loop writes every chunk in turn and leaves a tail of at most 8192 bytes. |
| FsuFileProps.ThroughWrites | lib/fsu_file.c:225-241 | With room on the device, the chunks and the last pwrite put all of w at fd_fpos. |
| FsuFileProps.WriteThroughPoisons | lib/fsu_file.c:241-246 | As written, on a write-only file a request larger than what is left of the buffer is written in full, but the refill then reads a write-only descriptor and records EBADF in fd_err. |
| FsuFileProps.FwriteFixedWrites | lib/fsu_file.c:200-256 | The corrected fsu_fwrite on a write-only file with room on the device accepts every request in full, and puts it at fd_fpos of what is pending. |
| FsuFileProps.ThirdWriteAsWritten | bin/fsu_write/fsu_write.c:91-110 | fsu_write's loop over three reads of a file opened with "w": two 8192-byte fsu_fwrite calls succeed, and the third returns 0. |
| FsuFileProps.ThirdWriteFixed | bin/fsu_write/fsu_write.c:91-110 | With the corrected fsu_fwrite all three calls are accepted, and the file will hold all three pieces in order. |
| Str2Arg.SpaceRun | lib/fsu_str2arg.c:68-69 | The inner loop's run of white space is no longer than the input. |
| Str2Arg.SpaceRunFacts | lib/fsu_str2arg.c:68-69 | The run is white space throughout and stops at the first character that is not. |
| Str2Arg.Step | lib/fsu_str2arg.c:57-75 | Each pass of the loop consumes at least one character, so the loop ends. |
| Str2Arg.StepFacts | lib/fsu_str2arg.c:57-75 | A pass consumes a suffix of the input, writes no more than it consumed, and only appends to the output. |
| Str2Arg.StepShaped | lib/fsu_str2arg.c:57-75 | A pass keeps p from overtaking lp and starts at most one argument. |
| Str2Arg.SplitShape | lib/fsu_str2arg.c:54-77 | After the loop p has not overtaken lp, and argc is between 1 and vsize (1 when vsize is below 1). If the loop stopped before the terminator, argc is exactly vsize. |
| Str2Arg.ScanQuotedRun | lib/fsu_str2arg.c:57-75 | Inside an open quote, characters other than quotes and backslashes are copied, white space included. |
| Str2Arg.ScanArg | lib/fsu_str2arg.c:57-75 | An argument written with quotes and backslash escapes is consumed from the input, and its text is written to the output. |
| Str2Arg.ScanGap | lib/fsu_str2arg.c:65-72 | A run of white space outside quotes writes one NUL, and starts an argument after it unless the string ends there. |
| Str2Arg.ScanBody | lib/fsu_str2arg.c:57-75 | The arguments of a line are copied with a NUL between each two, and an argument starts after each gap. Trailing white space writes one more NUL and starts nothing. |
| Str2Arg.Texts | lib/fsu_str2arg.c:57-75 | There is one text per argument, each the argument with its quotes and escapes removed. |
| Str2Arg.ArgTextNoNul | lib/fsu_str2arg.c:57-75 | The text of a well-formed argument holds no NUL, so it reads back as a C string. |
| Str2Arg.CStrJoin | lib/fsu_str2arg.c:66-77 | Each text laid out with NUL separators reads back as a C string from the offset its argv entry holds. |
| Str2Arg.LaidArguments | lib/fsu_str2arg.c:54-77 | After the texts are laid out, the arguments read through argv are those there before, followed by the texts. |
| Str2Arg.SplitLine | lib/fsu_str2arg.c:46-83 | A line of white space, arguments separated by white space, and trailing white space is read to the end when argv has room. Its arguments read back as the arguments' texts, preceded by an empty one when the line starts with white space. |
| Str2Arg.TrailingBackslashOverruns | lib/fsu_str2arg.c:57-59 | As written, a backslash at the end of the line copies the terminator, and the loop's next test reads the byte after it. |
| Str2Arg.TrailingBackslashDropped | lib/fsu_str2arg.c:57-59 | With the correction, a trailing backslash is dropped and the scan ends at the terminator with its state unchanged. |
| Str2Arg.RunEnd | lib/fsu_str2arg.c:68-69 | The inner loop stops at the last character of the run of white space. |
| Str2Arg.PassSpace | lib/fsu_str2arg.c:65-72 | The white-space branch writes a NUL, skips the run, and starts an argument unless the string ends after it, as Ended says. |
| Str2Arg.Pass | lib/fsu_str2arg.c:58-74 | One pass of the loop body on the buffer and argv does what Step does to the state. |
| Str2Arg.StrToArg | lib/fsu_str2arg.c:45-83 | fsu_str2arg leaves in argv the argument starts of Split, followed by NULL. The buffer holds Split's output and a NUL, and the bytes after them are unchanged. |
| Str2Arg.CountPass | lib/fsu_str2arg.c:97-113 | One pass of fsu_str2argc's loop moves forward, and keeps the count so far plus the count still to come. |
| Str2Arg.StrToArgc | lib/fsu_str2arg.c:85-115 | fsu_str2argc returns Argc of the string. |
| Str2Arg.CountedScan | lib/fsu_str2arg.c:57-113 | Without backslashes, from any state, a scan with room for the arguments still to come starts as many as fsu_str2argc counts. |
| Str2Arg.ArgcMatches | lib/fsu_mount.c:287-321 | fsu_mount.c sizes argv by fsu_str2argc. On a line without backslashes, fsu_str2arg then finds exactly that many arguments. |
| Str2Arg.CountedEscapedScan | lib/fsu_str2arg.c:85-115 | With the count corrected to skip escaped characters, a scan with room starts exactly as many arguments as that count says. |
| Str2Arg.ArgcEscapedMatches | lib/fsu_str2arg.c:85-115 | With vsize at least the corrected count, fsu_str2arg finds exactly that many arguments, backslashes or not. |
| Str2Arg.CountedAgree | lib/fsu_str2arg.c:85-115 | Without backslashes, the count as written and the corrected count agree. |
| Str2Arg.EscapedQuoteTruncates | lib/fsu_str2arg.c:97-102 | As written, fsu_str2argc takes an escaped quote for an opening quote and counts one argument. fsu_mount.c's argv then has room for one, and fsu_str2arg stops after it. |
| Str2Arg.EscapedQuoteCounted | lib/fsu_str2arg.c:85-115 | With the corrected count the same line gives its three arguments. |
| Alias.Span | lib/fsu_alias.c:111 | The leading run without ':' that strtok returns stops at the first ':' or at the end. |
| Alias.Fields | lib/fsu_alias.c:111-157 | Splitting at ':' gives at least one field. |
| Alias.FieldsJoin | lib/fsu_alias.c:111-157 | Joining the ':'-separated fields with ':' gives the line back. |
| Alias.NonEmpty | lib/fsu_alias.c:159 | No token strtok can return is empty. |
| Alias.NonEmptyMembers | lib/fsu_alias.c:111-159 | The tokens are exactly the non-empty fields: each token is a field, and every non-empty field is a token. |
| Alias.Strtok | lib/fsu_alias.c:111-157 | A strtok call returns a non-empty token without ':' and moves forward. |
| Alias.TokensColon | lib/fsu_alias.c:111 | strtok skips a leading ':'. |
| Alias.TokensField | lib/fsu_alias.c:111 | A leading non-empty field is the first token. |
| Alias.StrtokTokens | lib/fsu_alias.c:111-157 | Successive strtok calls return the non-empty fields in order. A call returns NULL exactly when none is left. |
| Alias.ParseMeaning | lib/fsu_alias.c:98-173 | A line gives an alias exactly when it is no comment, has at least three tokens, and its name does not start with '-'. The alias is then the one its tokens describe. |
| Alias.NameMeaning | lib/fsu_alias.c:111-119 | The name step gives an alias exactly when there are three tokens and the name has no leading '-'. |
| Alias.PathMeaning | lib/fsu_alias.c:121-145 | After the name, an alias results exactly when a path and a type follow. A path starting with "~/" becomes $HOME/ followed by the rest. |
| Alias.MakeDescribes | lib/fsu_alias.c:145-165 | The alias built has the name, expanded path and type tokens. The fourth and fifth tokens are the mount options and the puffs program, and a puffs alias with only four tokens takes the fourth as its program. |
| Alias.OptionsMeaning | lib/fsu_alias.c:147-157 | The mount options and the puffs program are the fourth and fifth tokens, when they exist. |
| Alias.LineEnd | lib/fsu_alias.c:90-96 | The first line ends at its '\n' or at the end of the file. |
| Alias.LinesOverlong | lib/fsu_alias.c:88-99 | A line that the 8192-byte buffer cannot hold and that is no comment leaves the file undefined. A comment line that long yields one full buffer, which is skipped, and the rest of that line is read as further lines. |
| Alias.LinesSkip | lib/fsu_alias.c:88-99 | After skipping a full buffer that starts a comment, the lines read so far, with that buffer added, still prefix the file's lines, and reading goes on 8192 characters further. |
| Alias.LinesStep | lib/fsu_alias.c:88-96 | The file's lines are its first line followed by the lines after its '\n'. |
| Alias.LinesUnlines | lib/fsu_alias.c:88-101 | Reading lines back from lines joined by '\n' gives them back, when each fits the buffer. |
| Alias.LinesRead | lib/fsu_alias.c:88-101 | Reading one more line that fits in the buffer moves past it and records it. |
| Alias.AliasesAppend | lib/fsu_alias.c:167-172 | The aliases of consecutive lines follow each other in the list. |
| Alias.AliasesSnoc | lib/fsu_alias.c:167-172 | One more line appends its alias, if it gives one, at the tail. |
| Alias.AliasesFromLines | lib/fsu_alias.c:88-174 | The list has at most one alias per line, and every alias comes from a line that describes it. |
| Alias.FirstNamedMeaning | lib/fsu_alias.c:54-63 | The lookup finds nothing exactly when no alias has the name. Otherwise it finds the alias with that name at the least index. |
| Alias.AliasList.constructor | lib/fsu_alias.c:52 | The list starts empty. |
| Alias.AliasList.GetAlias | lib/fsu_alias.c:54-63 | get_alias returns the first alias in list order whose name is key, or NULL. |
| Alias.AliasList.GetLine | lib/fsu_alias.c:89-96 | The line read is the file's text up to its '\n' or the end of the file. A line filled to 8192 bytes with neither means the line was longer than the buffer. |
| Alias.AliasList.Build | lib/fsu_alias.c:65-181 | Without HOME or the file, build_alias_list adds nothing. It fails on a line longer than the buffer that is no comment. A comment that long is skipped one buffer at a time, and the rest of the line is parsed as new lines. When it completes, the list has gained the aliases of the file's lines, in order. |
| CNum.Wrap64 | lib/mount_tmpfs.c:253 | A 64-bit two's-complement result lies in the long long range, and is the value itself when it fits. |
| CNum.SkipSpace | lib/libfsu_mount/fattr.c:54 | strtol skips leading white space: everything skipped is white space, and it stops at the first character that is not. |
| CNum.Run | lib/libfsu_mount/fattr.c:54 | The run of digits strtol reads holds only digits valid in the base, and stops at the first that is not. |
| CNum.SubjectOf | lib/libfsu_mount/fattr.c:54 | The subject sequence strtol parses starts inside the string. Its base is the one asked for, or 8, 10 or 16 for base 0. |
| CNum.Strto | lib/libfsu_mount/fattr.c:54 | strtol's result lies in the result type's range. With nothing converted it is 0 and ep is the string's start, and on ERANGE it is clamped to one end of the range. |
| CNum.DivMod | lib/libfsu_mount/fattr.c:54 | Dividing by 8 or 10 leaves a smaller positive quotient and a digit, and they put the number back together. |
| CNum.Digits | lib/libfsu_mount/fattr.c:54 | A number written in base 8 or 10 has at least one digit, all valid, and no leading zero. |
| CNum.DigitsValue | lib/libfsu_mount/fattr.c:54 | The digits written for a number read back as that number. |
| CNum.RunToEnd | lib/libfsu_mount/fattr.c:54 | A string made only of digits is read to its end. |
| CNum.DigitFirst | lib/libfsu_mount/fattr.c:54 | A string that starts with a digit, and no hex prefix, is its own subject with no sign. |
| CNum.DigitsRoundTrip | lib/libfsu_mount/fattr.c:54 | A number written in base b that fits the range converts back to itself in base b, using the whole string. |
| CNum.DecimalRoundTrip | lib/libfsu_mount/fattr.c:54 | With base 0 a decimal numeral converts as decimal: only a leading 0 selects octal, and "0" is 0 either way. |
| CNum.NoDigits | lib/libfsu_mount/fattr.c:55 | Nothing is converted from a string with no digit, so ep == s. |
| Fattr.Int32 | lib/libfsu_mount/fattr.c:54 | Storing strtol's long in an int keeps the low 32 bits as two's complement, which is the value itself when it fits. |
| Fattr.Unsigned32 | lib/libfsu_mount/fattr.c:66-84 | An int returned as uid_t, gid_t or mode_t is taken modulo 2^32. |
| Fattr.ANum | lib/libfsu_mount/fattr.c:48-64 | a_num returns -1 unless the whole string converts and the int it stores is not negative. It then returns that int, the low 32 bits of strtol's value. |
| Fattr.AMask | lib/libfsu_mount/fattr.c:86-102 | a_mask returns -1 unless the whole string converts in octal and the int it stores is not negative. It then returns that int. |
| Fattr.AId | lib/libfsu_mount/fattr.c:66-84 | a_gid and a_uid return the database's id for a known name. Otherwise they use the corrected a_num: a bad number gives 0xFFFFFFFF, and a number that fits an int gives itself. |
| Fattr.ANumDecimal | lib/libfsu_mount/fattr.c:48-64 | A decimal id up to INT_MAX reads back as itself. |
| Fattr.AMaskOctal | lib/libfsu_mount/fattr.c:86-102 | An octal mode up to INT_MAX reads back as itself. |
| Fattr.EmptyRejected | lib/libfsu_mount/fattr.c:55 | The empty string is no id and no mode. |
| Fattr.ANumWraps | lib/libfsu_mount/fattr.c:51-55 | As written, a decimal number from 2^32 to 2^32 + INT_MAX is accepted as that number less 2^32, so "4294967296" names uid 0. |
| Fattr.AMaskWraps | lib/libfsu_mount/fattr.c:89-93 | As written, an octal mode from 2^32 to 2^32 + INT_MAX is accepted as that number less 2^32. |
| Fattr.ANumChecked | lib/libfsu_mount/fattr.c:48-64 | The corrected a_num returns strtol's value when the whole string converts and the value lies between 0 and INT_MAX, and -1 otherwise. |
| Fattr.AMaskChecked | lib/libfsu_mount/fattr.c:86-102 | The corrected a_mask returns the octal value when it lies between 0 and INT_MAX, and -1 otherwise. |
| Fattr.ANumCheckedDecimal | lib/libfsu_mount/fattr.c:48-64 | The corrected a_num reads a decimal id back exactly when it fits an int, and refuses it otherwise. |
| Fattr.AMaskCheckedOctal | lib/libfsu_mount/fattr.c:86-102 | The corrected a_mask reads an octal mode back exactly when it fits an int, and refuses it otherwise. |
| Fattr.ClampBeyond | lib/libfsu_mount/fattr.c:54 | A numeral beyond LONG_MAX is clamped to LONG_MAX with ERANGE, and ep still moves past all its digits. |
| Tmpfs.Multiplier | lib/mount_tmpfs.c:219-240 | The unit letters b, k, m and g, in either case, stand for 1, 1024, 1024^2 and 1024^3. |
| Tmpfs.OverflowTest | lib/mount_tmpfs.c:253-258 | The wrapped multiply-then-divide test passes exactly when the product fits a long long, so it catches every overflow. |
| Tmpfs.DehumanizeNumber | lib/mount_tmpfs.c:200-262 | dehumanize_number's result fits a long long. It fails with EINVAL on an empty string and on a letter suffix other than b, k, m or g. |
| Tmpfs.ScaleExact | lib/mount_tmpfs.c:253-259 | Scaling gives the exact product when it fits a long long, and ERANGE when it does not. |
| Tmpfs.DehumanizeSized | lib/mount_tmpfs.c:200-262 | A decimal number with an optional unit letter reads back as the number times the unit when that fits a long long, and gives ERANGE otherwise. |
| Tmpfs.SizedFits | lib/mount_tmpfs.c:246-259 | For a number up to LLONG_MAX, the result is the product when it fits, and ERANGE otherwise. |
| Tmpfs.SizedScales | lib/mount_tmpfs.c:246-259 | A number up to LLONG_MAX with a valid unit goes on to be scaled by the unit. |
| Tmpfs.SizedTooLong | lib/mount_tmpfs.c:247-251 | A number beyond LLONG_MAX is refused with ERANGE, as its product would be. |
| Tmpfs.SizedConverts | lib/mount_tmpfs.c:247 | strtoll reads the number up to the unit letter. |
| Tmpfs.SizedShape | lib/mount_tmpfs.c:218-244 | The written form is the digits followed by the unit letter, if any, and only a unit makes the last character a letter. |
| Tmpfs.NoSmallerProduct | lib/mount_tmpfs.c:253 | Multiplying by a unit never makes a natural number smaller. |
| Tmpfs.Converted | lib/mount_tmpfs.c:246-259 | A string that converts up to its end, or up to a valid unit letter at its end, is scaled or refused with ERANGE. |
| Tmpfs.StrtoPrefix | lib/mount_tmpfs.c:247 | A unit letter is no decimal digit, so the conversion stops in front of it. |
| Tmpfs.RunPrefix | lib/mount_tmpfs.c:247 | The run of digits read from the string is that of its digit prefix. |
| Tmpfs.StrtoClamps | lib/mount_tmpfs.c:247-251 | A numeral beyond LLONG_MAX is clamped with ERANGE. |
| Tmpfs.UnitAlone | lib/mount_tmpfs.c:242-249 | A lone unit letter is accepted as 0, since nothing converts and the conversion ends where the unit starts. |
| Tmpfs.TrailingRejected | lib/mount_tmpfs.c:248-249 | Anything after the number other than one unit letter at the very end is refused. |
| Tmpfs.StopsEarly | lib/mount_tmpfs.c:248-249 | A conversion that stops two or more characters short of the end is refused. |
| Tmpfs.Unsigned64 | lib/mount_tmpfs.c:149 | An int64_t stored in a uint64_t is taken modulo 2^64. |
| Tmpfs.LastArg | lib/mount_tmpfs.c:132-178 | The value a repeated option leaves is that of its last occurrence, and there is none when the letter is absent. |
| Tmpfs.LastArgExtends | lib/mount_tmpfs.c:132-178 | An option of another letter does not change which occurrence is last. |
| Tmpfs.LastArgStep | lib/mount_tmpfs.c:132-178 | One more option of the letter becomes the last, and one of another letter changes nothing. |
| Tmpfs.Strlcpy | lib/mount_tmpfs.c:185 | strlcpy into a MAXPATHLEN buffer keeps a prefix shorter than the buffer, and the whole of a string that fits. |
| Tmpfs.OptsOkStep | lib/mount_tmpfs.c:132-178 | The options so far plus one more are accepted exactly when the earlier ones are and the switch accepts the new one. |
| Tmpfs.SettingsStep | lib/mount_tmpfs.c:133-172 | An option changes only the setting of its own letter: -g and -u to the id, -m to the mode, and -n and -s to the number stored unsigned. |
| Tmpfs.Switch | lib/mount_tmpfs.c:133-177 | The switch accepts the option exactly when it is well-formed, and then applies it as SettingsStep says. |
| Tmpfs.ParseArgs | lib/mount_tmpfs.c:102-198 | mount_tmpfs_parseargs returns 0 exactly when every option is accepted, there are two operands, and the mount point stats. The arguments are then those the options and the mount point's stat give, and canon_dev is the first operand cut to the buffer. |
| Tmpfs.DefaultsFromMountPoint | lib/mount_tmpfs.c:193-195 | Without -u, -g or -m, the root takes the mount point's owner, group and mode. |
| Tmpfs.LastOptionWins | lib/mount_tmpfs.c:169-172 | A later -u of a known user overrides any earlier one. |
| Touch.LastArg | usr.bin/fsu_touch/fsu_touch.c:200-207 | The -r or -t argument kept is that of the letter's last occurrence, and there is none exactly when the letter is absent. |
| Touch.LastArgStep | usr.bin/fsu_touch/fsu_touch.c:200-207 | One more -r or -t replaces the kept argument, and another letter keeps it. |
| Touch.ApplyOption | usr.bin/fsu_touch/fsu_touch.c:187-211 | The switch refuses exactly the letters outside "achmrt", and otherwise ors in that letter's flags. |
| Touch.ParseArg | usr.bin/fsu_touch/fsu_touch.c:180-220 | fsu_touch_parse_arg returns the flags and arguments of ParseF, or -1. |
| Touch.GivenSnoc | usr.bin/fsu_touch/fsu_touch.c:186 | A letter was given among the options plus one more when it was given before or is the new one. |
| Touch.OrBits | usr.bin/fsu_touch/fsu_touch.c:188-206 | Or-ing in a mask of the six flags sets each flag when it was set before or is in the mask, and sets no other bit. |
| Touch.FlagsMeaning | usr.bin/fsu_touch/fsu_touch.c:185-212 | Over known letters, the flags record exactly which letters were given. |
| Touch.ParseMeaning | usr.bin/fsu_touch/fsu_touch.c:180-220 | fsu_touch_parse_arg returns -1 exactly when some letter is unknown. Otherwise the access time is changed under -a or without -m, and the modification time under -m or without -a. -c or -h sets NO_CREAT and -h sets CHANGE_LINK. -r and -t set their flags and keep their last arguments. |
| Touch.IndexOf | usr.bin/fsu_touch/fsu_touch.c:238 | strchr finds the first occurrence of c, and returns NULL exactly when there is none. |
| Touch.IndexOfAt | usr.bin/fsu_touch/fsu_touch.c:238 | The first '.' is at i when s[i] is '.' and none comes before it. |
| Touch.Fields | usr.bin/fsu_touch/fsu_touch.c:248-280 | The switch on the length of the part before any '.' accepts exactly 2, 4, 6, 8, 10 or 12 characters. |
| Touch.StimeArg1 | usr.bin/fsu_touch/fsu_touch.c:224-288 | stime_arg1's decoding with the moving cursor gives the broken-down time of TimeArg, or the error exit. |
| Touch.Digits2 | usr.bin/fsu_touch/fsu_touch.c:222 | The two digits written for a value from 0 to 99 read back through ATOI2 as that value. |
| Touch.PairValues | usr.bin/fsu_touch/fsu_touch.c:248-276 | The values written for a time have one entry per pair. |
| Touch.Write | usr.bin/fsu_touch/fsu_touch.c:222 | Each value is written as two characters. |
| Touch.WriteRead | usr.bin/fsu_touch/fsu_touch.c:222 | ATOI2 at the k-th pair reads back the k-th value written. |
| Touch.WriteDigits | usr.bin/fsu_touch/fsu_touch.c:238 | What is written holds no '.'. |
| Touch.FormatFields | usr.bin/fsu_touch/fsu_touch.c:248-280 | The pairs written for a time read back as its own fields: the year, month, day, hour and minute the width covers, the others kept from the current time. |
| Touch.FieldsRead | usr.bin/fsu_touch/fsu_touch.c:248-280 | When the digit pairs of a 2- to 12-character argument hold a time's minute, hour, day, month and year, each as far as the width covers, the switch takes those fields from the pairs and keeps the rest from the current time. |
| Touch.Year2Reads | usr.bin/fsu_touch/fsu_touch.c:258-261 | A year from 1969 to 2068 written as two digits reads back as itself. |
| Touch.FormatRoundTrip | usr.bin/fsu_touch/fsu_touch.c:224-288 | The argument written for a time in any of the six widths, with or without ".SS", decodes to that time's fields for the width. Seconds default to 0 and isdst is -1. |
| Touch.SecondsRoundTrip | usr.bin/fsu_touch/fsu_touch.c:238-245 | The ".SS" case of the round trip gives the seconds written. |
| Touch.DotSeconds | usr.bin/fsu_touch/fsu_touch.c:238-245 | An argument with one '.' followed by two digits takes its seconds from those digits and the rest from its fields. |
| Touch.Atoi2At | usr.bin/fsu_touch/fsu_touch.c:222 | ATOI2 reads a pair where it was written, whatever surrounds it. |
| Touch.ChooseTimes | usr.bin/fsu_touch/fsu_touch.c:113-127 | The times are those of the -r file, those of the -t argument, or the clock for both, as Times says. A refused -t leaves the world alone. |
| Touch.FsuTouch | usr.bin/fsu_touch/fsu_touch.c:102-178 | fsu_touch leaves the world and result of TouchF. |
| Touch.ParseCoherent | usr.bin/fsu_touch/fsu_touch.c:200-207 | Whenever the parsed flags hold USE_FILE_TIME or USE_USER_TIME, the -r or -t argument is there. |
| Touch.TouchExisting | usr.bin/fsu_touch/fsu_touch.c:129-177 | An existing operand gets the chosen access time only under ACCESS_TIME and the modification time only under CHANGE_MOD_TIME, and keeps its own otherwise. Nothing else changes, 0 is returned, and without -r or -t both times are the clock's. |
| Touch.TouchMissingNoCreate | usr.bin/fsu_touch/fsu_touch.c:137-151 | A missing operand under NO_CREAT is not created, the image is left as it was after the times were chosen, and 0 is returned. |
| Touch.TouchBadTime | usr.bin/fsu_touch/fsu_touch.c:282-285 | A time argument stime_arg1 refuses ends the process with status 1, whatever the operand. |
| Touch.TouchNeverCreates | usr.bin/fsu_touch/fsu_touch.c:137-145 | As written, open is given DEFFILEMODE as its flags, and those hold no O_CREAT. So when the operand cannot be found and NO_CREAT is clear, -1 is returned and no file of the image changes. |
| Touch.TouchCreatingCreates | usr.bin/fsu_touch/fsu_touch.c:139-148 | With open given O_WRONLY\|O_CREAT and mode DEFFILEMODE, a missing operand whose directory exists and may be written is created as an empty regular file with mode DEFFILEMODE, and 0 is returned. No other name is added. |
| Touch.TouchRv | usr.bin/fsu_touch/fsu_touch.c:102-178 | Every operand that is touched returns 0 or -1. |
| Touch.Decoded | usr.bin/fsu_touch/fsu_touch.c:237-245 | stime_arg1 writes a NUL over the first '.' of the -t argument it is given. Only -t without -r is affected: the flags and the -r argument stay, a -t argument stays present, and it can only get shorter. |
| Touch.DecodedNoSeconds | usr.bin/fsu_touch/fsu_touch.c:237-245 | Once cut, the -t argument is cut no further, and whatever it decodes to has 0 seconds. |
| Touch.CutKeepsFields | usr.bin/fsu_touch/fsu_touch.c:237-280 | An argument with a '.' and two characters after it decodes, once cut at the '.', exactly when it decoded before. It gives the same fields with the seconds set to 0. |
| Touch.SecondOperandLosesSeconds | usr.bin/fsu_touch/fsu_touch.c:95-96 | For -t "body.SS" the first operand gets the seconds SS, and every later operand gets the same time with 0 seconds, because the argument is then "body". |
| Touch.TouchAll | usr.bin/fsu_touch/fsu_touch.c:95-96 | The loop of main leaves the world and result of TouchAllF. TouchAllF ors together each operand's result, and every operand after the first gets the -t argument as stime_arg1 left it, cut at its '.'. |
| Touch.TouchMainF | usr.bin/fsu_touch/fsu_touch.c:79-99 | Bad options, or no operand, end in usage() with status 1. Otherwise the operands are touched as in TouchAllF, so only the first sees the ".SS" seconds of -t. |
| Touch.TouchMain | usr.bin/fsu_touch/fsu_touch.c:79-99 | main leaves the world and result of TouchMainF. |
| Cat.ParseArg | src/fsu_cat.c:84-121 | fsu_cat_parse_arg ors in the flags of the letters given, and refuses an unknown letter, as ParseF says. |
| CatProps.FlagsBit | src/fsu_cat.c:89-117 | A flag bit is set exactly when some letter given sets it. |
| CatProps.SetBy | src/fsu_cat.c:92-112 | A bit set by exactly the letters cs is set exactly when one of them was given. |
| CatProps.FlagsZero | src/fsu_cat.c:89-120 | Over known letters the flags are 0 exactly when no letter was given, which is what selects fsu_raw_cat. |
| CatProps.ParseMeaning | src/fsu_cat.c:84-121 | Parsing fails exactly on an unknown letter. Otherwise -b sets NOT_NUMBER_BLANK, -b or -n sets NUMBER, -e sets DOLLAR_EOL, -s sets SINGLE_NL, -t sets TAB, and -e, -t or -v set NON_PRINTING. The flags are 0 exactly when no option was given. |
| Cat.Decimal | src/fsu_cat.c:214 | The decimal form of a line number has at least one digit. |
| CatProps.Num6Reads | src/fsu_cat.c:213-236 | "%6d" prints at least six characters, all spaces or digits, and reading the digits after the spaces gives back the line number. |
| Cat.Body | src/fsu_cat.c:239-265 | Printing one character writes at least one byte. |
| CatProps.BodyPlain | src/fsu_cat.c:239-265 | Without -e, -t and -v a character is printed as itself. |
| CatProps.BodyVisible | src/fsu_cat.c:250-263 | Under -v what one character prints is visible: printable ASCII, a newline, or a tab unless -t is given. |
| CatProps.CookVisible | src/fsu_cat.c:207-266 | Under -v the whole cooked output is visible in the same sense, whatever the state it starts from. |
| CatProps.BodyNoNewline | src/fsu_cat.c:239-265 | A character other than a newline never prints a newline, including meta characters under -v. |
| CatProps.CookDollar | src/fsu_cat.c:240-243 | Under -e without -s every newline of the output comes right after a '$'. |
| CatProps.CookedOutShape | src/fsu_cat.c:180-271 | What fsu_cook_buf prints for an operand keeps the two rules above: '$' before each newline under -e without -s, and visible bytes under -v. |
| CatProps.SqueezedLineHasNoDollar | src/fsu_cat.c:210-219 | Under -s an empty line at the start is printed without its '$'. Without -s it gets one. |
| CatProps.MetaNewlineStartsLine | src/fsu_cat.c:207-255 | Under -n -v a meta newline (byte 0x8A) prints as "M-^J", yet prev holds the stripped newline, so the next character is numbered as a new line. |
| CatProps.CookCharWise | src/fsu_cat.c:239-265 | Without -n and -s the output is each character's own rendering, one after the other. |
| CatProps.CookNumberChars | src/fsu_cat.c:210-238 | Under -n or -b alone, the cooking loop numbers exactly the lines NumberChars numbers, from any state. |
| CatProps.CookNumbers | src/fsu_cat.c:206-238 | Under -n or -b alone, the output is each line preceded by its number from 1 on, and -b skips empty lines. |
| CatProps.BlankLineUnderBE | src/fsu_cat.c:227-231 | Under -b -e an empty line prints six spaces, a tab, "$" and the newline, and does not advance the line number. |
| CatProps.CookSqueezes | src/fsu_cat.c:210-219 | Under -s alone the output is the input with every run of empty lines cut down to one. |
| CatProps.StreamUpTo | src/fsu_cat.c:208 | fsu_fgetc's stream is the file's bytes as signed chars up to the first 0xFF byte. |
| CatProps.CookStopsAtFF | src/fsu_cat.c:208 | A 0xFF byte reads as EOF, so cooking stops at the first one. |
| CatProps.FfEndsFile | src/fsu_cat.c:208 | The byte 0xFF comes back from fsu_fgetc as the char -1, which is EOF: "a\xFFb" under -v prints "a" only. |
| CatProps.StdinAll | src/fsu_cat.c:208 | getc(stdin) gives every input byte as an unsigned value and never EOF before the end. |
| CatProps.CookedInRange | src/fsu_cat.c:208 | Every character the loop sees lies between -128 and 255. |
| Cat.StdinChars | src/fsu_cat.c:208 | stdin yields one character per byte. |
| Cat.Turn | src/fsu_cat.c:210-265 | One turn of the loop gives the state and output of CookStep. |
| Cat.NextChar | src/fsu_cat.c:208 | The next character comes from stdin or from fsu_fgetc. At EOF nothing remains, and otherwise the remaining stream is that character followed by the rest, which is shorter. The file's data is not changed. |
| Cat.CookBuf | src/fsu_cat.c:180-271 | fsu_cook_buf prints CookF of stdin, or of the FSU_FILE's stream from its position, and leaves the file's data alone. |
| Cat.CatOne | src/fsu_cat.c:123-144 | fsu_cat on one operand returns what CatF says. |
| CatProps.CatDispatch | src/fsu_cat.c:123-144 | A failed stat of an operand other than "-", or a directory, gives -1 and no output. With no flags the raw copy runs, and with flags the cooked output is printed and -1 is returned exactly when stat failed. |
| CatProps.StdinCookAborts | src/fsu_cat.c:187-270 | As written, cooking "-" ends in fsu_fclose(NULL), which aborts the program after the output. With the close skipped, "-" is cooked and the operand's result is returned. |
| CatProps.OthersUnaffected | src/fsu_cat.c:123-144 | Every other operand, and "-" without flags, behaves the same in both versions. |
| Cat.CatAllF | src/fsu_cat.c:78-79 | The loop gives one result per operand. |
| CatProps.CatAllStatus | src/fsu_cat.c:78-81 | main returns 0 or -1. It returns -1 exactly when some operand failed, and each operand gets fsu_cat's own result. |
| CatProps.CatUsage | src/fsu_cat.c:74-116 | main ends in usage() exactly when an option letter is unknown or no operand is left. |
| Cat.CatMain | src/fsu_cat.c:64-82 | main's outcome is that of CatMainF. |
| Df.UnknownSticks | src/fsu_df.c:161-163 | Once a letter is refused, the whole option string is refused: usage() ends the loop whatever follows. |
| Df.OptsSnoc | src/fsu_df.c:122-164 | Each getopt turn applies one letter to the flags of the letters before it. |
| Df.UnitLast | src/fsu_df.c:127-151 | The last of -g, -h, -k and -m given decides usize and hflag. |
| Df.UnitKept | src/fsu_df.c:122-164 | A letter other than -g, -h, -k and -m keeps the unit already chosen. |
| Df.OptsMeaning | src/fsu_df.c:122-164 | The option loop fails exactly when some letter is unknown. Otherwise each of -G, -i, -n and -P is set exactly when given, and usize and hflag are those of the last unit letter, or 0 and 0 without one. |
| Df.StartRules | src/fsu_df.c:122-171 | main ends in usage() exactly when a letter is unknown. It stops with errx exactly when -G comes with -P or -i, or -P with -i. |
| Df.DfState.constructor | src/fsu_df.c:103-104 | The globals and statics start at zero. |
| Df.DfState.GetOpts | src/fsu_df.c:122-171 | The getopt loop sets the globals to the flags StartF computes, and touches none of prtstat's statics. |
| Df.HeaderF | src/fsu_df.c:282-302 | Unless -h is in force, a positive getbsize size gives a positive block size. |
| Df.HeaderRules | src/fsu_df.c:282-323 | -k gives "1K-blocks", or "1024-blocks" under -P. -m gives "1M-blocks", -g "1G-blocks", -h "Size" with block size 0, and otherwise getbsize's answer. A header of our own has its own length as headerlen. Under -P only -k or a getbsize size of 512 or 1024 passes. Without -P the Filesystem column and the header fill the width plus 10, and the width is at least 12. |
| Df.DfState.Choose | src/fsu_df.c:282-302 | The switch on usize sets header, headerlen and blocksize to HeaderF's choice, and leaves the flags and timesthrough alone. |
| Df.DfState.PrtStat | src/fsu_df.c:223-373 | -G prints the report and changes no static. Otherwise timesthrough goes up by one. The first call chooses the header, and under -P with a block size other than 512 or 1024 it stops with errx. Otherwise it prints the header and the row. Later calls keep the statics and print only the row. |
| Df.TwoCalls | src/fsu_df.c:281-324 | Of two calls to prtstat only the first prints a header, and both rows use the block size chosen by the first. |
| Df.DfMain | src/fsu_df.c:107-188 | A failed mount or an unknown letter gives usage(), and clashing letters give errx. A failed statvfs1 stops with "statvfs failed". Otherwise prtstat's output for "/" is printed with the width of f_mntfromname. |
| Df.FsbtoblkScales | src/fsu_df.c:215-218 | When one size divides the other and nothing overflows, fsbtoblk converts num blocks of fsbs bytes into whole blocks of bs bytes, num * fsbs / bs. |
| Df.SmallFragments | src/fsu_df.c:215-217 | Fragments smaller than the block size are divided down. |
| Df.LargeFragments | src/fsu_df.c:215-218 | Fragments at least as large as the block size are multiplied up. |
| Df.ScaleDown | src/fsu_df.c:217 | Dividing by bs / fsbs is dividing num * fsbs by bs. |
| Df.ScaleUp | src/fsu_df.c:218 | Multiplying by fsbs / bs is dividing num * fsbs by bs. |
| Df.UsageColumns | src/fsu_df.c:325-363 | With counts below 2^62 the 64-bit arithmetic does not wrap. Used is f_blocks - f_bfree, available is f_bfree - f_bresvd, and capacity is "100" when f_blocks equals f_bresvd and used over the total otherwise. |
| Df.InodeColumns | src/fsu_df.c:364-371 | The inode columns are f_files - f_ffree used and f_ffree free. Their capacity is "  0" or "100" on a file system without inodes, "  0" when none is free either, and the used share otherwise. |
| Makefs.Roundup | makefs-analyzetree/ffs.c:324 | roundup gives the multiple of y in [x, x + y). |
| Makefs.RoundupIs | makefs-analyzetree/ffs.c:324 | The multiple of y in [x, x + y) is the one roundup finds. |
| Makefs.Slop | makefs-analyzetree/ffs.c:288-293 | A positive percentage enlarges x to x * (100 + pc) / 100, which is at least x. A zero or negative one leaves x alone. |
| Makefs.DirentSize | makefs-analyzetree/ffs.c:382-383 | A directory entry takes a multiple of 4 bytes, at least its 8-byte header and its name. Under FFS the name's NUL is counted too. |
| Makefs.DirentInOneBlock | makefs-analyzetree/ffs.c:381-393 | ADDDIRENT never lets an entry that fits a directory block straddle two blocks. The directory only grows. |
| Makefs.NodeBytes | makefs-analyzetree/ffs.c:399-443 | What an inode's first name adds to the size is a whole number of units. |
| Makefs.Mark | makefs-analyzetree/ffs.c:425-432 | Only a node other than "." is marked FI_SIZED, and the inode count grows by one exactly when its inode was not marked before. The size grows by whole units. |
| Makefs.Traverse | makefs-analyzetree/ffs.c:403-453 | traverse_tree leaves fsopts' size and inode count, and the FI_SIZED marks, as TreeF computes them. It changes no limit and not the sector size. |
| Makefs.VisitNode | makefs-analyzetree/ffs.c:421-446 | One pass of the loop leaves the tally Visit computes. |
| Makefs.TreeCountsInodesOnce | makefs-analyzetree/ffs.c:420-447 | traverse_tree marks exactly the inodes the tree names, and counts each of them once however many names it has. The inode count grows by the number of those not marked before. |
| Makefs.ListCountsInodesOnce | makefs-analyzetree/ffs.c:420-447 | The same for the rest of one directory's list. |
| Makefs.VisitCountsInodesOnce | makefs-analyzetree/ffs.c:421-446 | The same for one node and, for a directory, its subtree. |
| Makefs.TreeAddsWholeUnits | makefs-analyzetree/ffs.c:399-448 | traverse_tree only adds to the size, and only in whole fragments (FFS) or blocks (ext2). |
| Makefs.ListAddsWholeUnits | makefs-analyzetree/ffs.c:420-448 | The same for the rest of one directory's list. |
| Makefs.EmptyDirectory | makefs-analyzetree/ffs.c:419-448 | A directory whose list holds only "." adds its "." and ".." entries, no inode, and one unit of size when both entries fit. |
| Makefs.DecimalF | makefs-analyzetree/ffs.c:214 | A value is read exactly when it is a non-empty string of decimal digits. |
| Makefs.Lookup | makefs-analyzetree/ffs.c:159-214 | The lookup finds the first table entry with that name, or reports that there is none. |
| Makefs.SetOption | makefs-analyzetree/ffs.c:214 | set_option's loop over the table gives the result of SetOptionF. |
| Makefs.SetOptionRange | makefs-analyzetree/ffs.c:159-214 | An accepted value lies in its entry's range and is what the digits say. The name is unknown exactly when no entry has it. |
| Makefs.EqualsAt | makefs-analyzetree/ffs.c:197-201 | strchr finds the first '=', or reports that there is none. |
| Makefs.EqualsAtJoin | makefs-analyzetree/ffs.c:197-201 | In name=value, where name has no '=', the split falls right after name. |
| Makefs.InodeTableBytes | makefs-analyzetree/ffs.c:303-310 | The inode table has room for every inode. |
| Makefs.AddSlack | makefs-analyzetree/ffs.c:279-301 | The reserved inodes, the slop and the superblocks are added to fsopts as InodesWanted and BytesWanted say. Nothing else changes. |
| Makefs.FinishSize | makefs-analyzetree/ffs.c:313-341 | minfree, minsize, rounding and density are applied to fsopts as Finish says. The result is refused exactly when the estimate exceeds maxsize. |
| Makefs.EstimateBounds | makefs-analyzetree/ffs.c:279-341 | The estimate is refused as too small exactly when a block holds no inode, and is too large only beyond a positive maxsize. Otherwise it is a whole number of blocks between minsize and any positive maxsize. It holds the tree, the slop, the superblocks and an inode for every counted inode. The inodes cover the tree, the reserved ones and the free files. An unset density becomes size / inodes + 1. |
| Ffs.Defaults | makefs-analyzetree/ffs.c:248-275 | The defaults leave both sizes set. |
| Ffs.SizeDefaults | makefs-analyzetree/ffs.c:251-254 | After the size defaults, the block and fragment sizes are positive. |
| Ffs.LayoutDefaults | makefs-analyzetree/ffs.c:255-265 | The layout defaults keep the block size. |
| Ffs.GeometryOf | makefs-analyzetree/ffs.c:381-401 | traverse_tree's constants are usable: positive directory block and unit. |
| Ffs.FfsOpts.Prep | makefs-analyzetree/ffs.c:124-145 | ffs_prep_opts leaves the options at PREP. |
| Ffs.FfsOpts.ParseOpt | makefs-analyzetree/ffs.c:154-220 | ffs_parse_opts returns 0 and changes nothing for a refused option. It returns 1 with the new options for a taken one, and exits on a bad value. |
| Ffs.FfsOpts.Store | makefs-analyzetree/ffs.c:159-181 | A store through an entry's address sets that entry's field. |
| Ffs.FfsOpts.SetDefaults | makefs-analyzetree/ffs.c:248-275 | The defaults block gives the options of Defaults and settles the sector size. Size, inodes and limits are untouched. |
| Ffs.FfsOpts.ApplySizeDefaults | makefs-analyzetree/ffs.c:251-254 | The size defaults are those of SizeDefaults. |
| Ffs.FfsOpts.ApplyTuningDefaults | makefs-analyzetree/ffs.c:266-271 | maxcontig and maxbpg get the defaults of TuningDefaults. |
| Ffs.FfsOpts.ApplyLayoutDefaults | makefs-analyzetree/ffs.c:255-265 | cpg, nsectors, minfree and optimization get the defaults of LayoutDefaults. |
| Ffs.FfsOpts.ApplyAllocDefaults | makefs-analyzetree/ffs.c:272-275 | avgfilesize and avgfpdir get the defaults of AllocDefaults. |
| Ffs.Size | makefs-analyzetree/ffs.c:279-348 | The arithmetic after the walk leaves the estimate in fsopts and the density in the options. It prints newfs with size / 512 + 1 sectors. It gives None when the estimate is over maxsize, where the C code calls errx, and when the block is smaller than an inode, where the C code divides by zero. |
| Ffs.FfsMakefs | makefs-analyzetree/ffs.c:223-349 | ffs_makefs settles the defaults and walks the tree. It then prints the newfs command for the estimate, with the image size, inode count and density it settles on. It gives None when the estimate is over maxsize, where the C code calls errx, and when the block is smaller than an inode, where the C code divides by zero. |
| Ffs.PrepIsSane | makefs-analyzetree/ffs.c:134-144 | ffs_prep_opts leaves sane options, with both sizes and density unset and version 1. |
| Ffs.ParseKeepsSane | makefs-analyzetree/ffs.c:154-220 | Whatever a taken option sets is within its table range, so the options stay sane. |
| Ffs.AssignSane | makefs-analyzetree/ffs.c:159-181 | A value within its entry's range keeps the options sane. |
| Ffs.NoValueRefused | makefs-analyzetree/ffs.c:197-200 | An option with no '=' is refused. |
| Ffs.ParseOptCases | makefs-analyzetree/ffs.c:197-214 | "optimization" takes exactly "time" and "space" and never exits. A name outside the table is refused. A name in the table takes an in-range decimal value into that field alone, and any other value exits. |
| Ffs.DistinctNames | makefs-analyzetree/ffs.c:159-181 | The table's names are distinct. |
| Ffs.DefaultsSettle | makefs-analyzetree/ffs.c:248-275 | Sizes given are kept. An unset fragment is at least 1024 bytes and a sector. An unset block is at most 8192 bytes and eight fragments. Every other unset field gets its default, maxbpg being a quarter block. Density is left for the estimate, and a cpg given sets cpgflg. |
| Ffs.ImageHoldsTree | makefs-analyzetree/ffs.c:248-348 | The reported image is a whole number of blocks. It holds the walked tree, the slop, the superblocks and an inode for each counted inode. The inode count covers every inode of the tree plus ROOTINO, and the printed sector count covers the image. It is refused exactly when a block holds no inode. |
| Ffs.SmallBlockDividesByZero | makefs-analyzetree/ffs.c:160-306 | "-o bsize=64" is taken, yet a 64-byte block holds no UFS1 inode, so the roundup divides by zero. The corrected estimate refuses it. |
| Ffs.SmallFragmentDividesByZero | makefs-analyzetree/ffs.c:162-306 | "-o fsize=8" is taken, and its default block of 64 bytes divides by zero the same way. |
| Ffs.ParseSmall | makefs-analyzetree/ffs.c:197-214 | name=digits for a table entry, with an in-range value, sets that entry. |
| Ext2fs.GeometryOf | makefs-analyzetree/ext2fs.c:322-342 | traverse_tree's constants are usable. |
| Ext2fs.Ext2Opts.Prep | makefs-analyzetree/ext2fs.c:127-140 | ext2fs_prep_opts leaves the options at PREP. |
| Ext2fs.Ext2Opts.ParseOpt | makefs-analyzetree/ext2fs.c:149-190 | ext2fs_parse_opts returns 0 and changes nothing for a refused option. It returns 1 with the new options for a taken one, and exits on a bad value. |
| Ext2fs.Ext2Opts.Store | makefs-analyzetree/ext2fs.c:154-162 | A store through an entry's address sets that entry's field. |
| Ext2fs.Ext2Opts.SetDefaults | makefs-analyzetree/ext2fs.c:218-226 | The defaults block gives the options of Defaults and settles the sector size. |
| Ext2fs.Size | makefs-analyzetree/ext2fs.c:230-294 | The arithmetic after the walk leaves the estimate in fsopts and the density in the options. It prints newfs_ext2fs with size / 512 + 1 sectors. It gives None when the estimate is over maxsize, where the C code calls errx, and when the block is smaller than an inode, where the C code divides by zero. |
| Ext2fs.Ext2Makefs | makefs-analyzetree/ext2fs.c:193-295 | ext2fs_makefs settles the defaults, walks the tree and prints newfs_ext2fs for the estimate. It gives None when the estimate is over maxsize, where the C code calls errx, and when the block is smaller than an inode, where the C code divides by zero. |
| Ext2fs.PrepIsSane | makefs-analyzetree/ext2fs.c:137-139 | ext2fs_prep_opts leaves bsize, density and minfree unset. |
| Ext2fs.ParseKeepsSane | makefs-analyzetree/ext2fs.c:149-190 | A taken option keeps the options within the table's ranges. |
| Ext2fs.NoValueRefused | makefs-analyzetree/ext2fs.c:178-181 | An option with no '=' is refused. |
| Ext2fs.ParseOptCases | makefs-analyzetree/ext2fs.c:178-184 | A name outside the table is refused. A name in the table takes an in-range decimal value into that field alone, and any other value exits. |
| Ext2fs.DistinctNames | makefs-analyzetree/ext2fs.c:154-162 | The table's names are distinct. |
| Ext2fs.DefaultsSettle | makefs-analyzetree/ext2fs.c:218-226 | An unset block becomes 4096 bytes and an unset minfree 5 percent. Those given are kept, density is left for the estimate, and a set nsectors is kept. |
| Ext2fs.ImageHoldsTree | makefs-analyzetree/ext2fs.c:218-294 | The reported image is a whole number of blocks. It holds the walked tree, the slop, the superblock and a rev0 inode for each counted inode. The inodes cover the tree plus EXT2_FIRSTINO, and the printed sector count covers the image. It is refused exactly when a block holds no inode. |
| Ext2fs.SmallBlockDividesByZero | makefs-analyzetree/ext2fs.c:155-256 | "-o bsize=64" is taken, yet a 64-byte block holds no rev0 inode, so the roundup divides by zero. The corrected estimate refuses it. |
| Ext2fs.ParseSmall | makefs-analyzetree/ext2fs.c:178-184 | name=digits for a table entry, with an in-range value, sets that entry. |
| Rmdir.Cuts | src/rmdir.c:122-127 | The places where rm_path cuts the path all lie inside it. |
| Rmdir.CutsAre | src/rmdir.c:122-127 | A position is cut and then tried exactly when it holds a '/' followed by a character other than '/'. Trailing slashes are cut away without a try. |
| Rmdir.CutsDescend | src/rmdir.c:122 | strrchr finds the cuts from the end of the path towards its start. |
| Rmdir.CutsBounded | src/rmdir.c:122-132 | rm_path tries at most as many removals as the path has slashes, so it ends. |
| Rmdir.AttemptsAtCuts | src/rmdir.c:122-128 | The k-th removal tried is of the path's prefix before its k-th cut. |
| Rmdir.RmPathF | src/rmdir.c:117-135 | rm_path returns 0 or 1. |
| Rmdir.RmPathTries | src/rmdir.c:117-135 | rm_path removes the ancestors from the deepest up, stops at the first failure with 1, and returns 0 when all succeed. |
| Rmdir.RmPath | src/rmdir.c:117-135 | The loop leaves the file system and the result of RmPathF. |
| Rmdir.OperandF | src/rmdir.c:106-110 | One operand gives status 0 or 1. |
| Rmdir.OperandFailureStops | src/rmdir.c:106-108 | An operand whose rmdir fails sets errno, gives status 1, and its ancestors are not tried even under -p. |
| Rmdir.RmdirAllF | src/rmdir.c:104-111 | The loop over operands gives status 0 or 1. |
| Rmdir.RmdirAllNext | src/rmdir.c:104-111 | Each operand runs on the file system the ones before it left, and the status ors in its own. |
| Rmdir.OperandStatuses | src/rmdir.c:104-111 | Each operand's status is the one it gets in its turn. |
| Rmdir.RmdirAllStatus | src/rmdir.c:104-113 | The exit status is 1 exactly when some operand's status is 1. |
| Rmdir.RmdirMain | src/rmdir.c:75-115 | A letter other than 'p', or no operand, exits 1 through usage() and changes nothing. Otherwise every operand is removed in order, with -p removing its ancestors too. |
| Posix.AfterLastSlash | lib/libfsu_utils/progname.c:11-15 | The suffix after the last '/' holds no '/', and is all of s when s has none. |
| Progname.AfterLastSlashFacts | lib/libfsu_utils/progname.c:11-15 | The suffix is a proper one, right after a '/', whenever s holds one. |
| Progname.AfterLastSlashIdempotent | lib/libfsu_utils/progname.c:11-15 | Taking the suffix twice gives the same name. |
| Progname.ProgName.constructor | lib/libfsu_utils/progname.c:4 | The name starts as "<unset_progname>". |
| Progname.ProgName.Set | lib/libfsu_utils/progname.c:7-16 | setprogname stores the suffix of s after its last '/', or all of s, and the stored name never holds a '/'. |
| Progname.SetOwnName | lib/libfsu_utils/progname.c:7-24 | setprogname(getprogname()) leaves the name as it was. |
| Posix.TypeOf | src/fsu_ecp.c:547-565 | The S_IFMT switch tests agree with the file type the mode is sorted into, in both directions. |
| Posix.Strcmp | bin/cp/cp.c:545-569 | strcmp's sign is 0 exactly for equal strings. |
| DomainProps.LinkShares | src/fsu_ecp.c:492-496 | link succeeds exactly when the first name is an existing non-directory, the second is free in an existing directory, and the file system supports links. Both names then hold the inode with one more link, and every other name keeps its record, except the new name's parent directory. |
| DomainProps.CopyRound | src/fsu_ecp.c:631-646 | One read and one write of the copy loop move the next chunk of the source to the write position of the destination. The write is complete exactly when there is space, and then both descriptors stay usable one chunk further on. |
| DomainProps.OpenCreates | src/fsu_ecp.c:616-623 | open with O_CREAT of a missing name creates an empty regular file, open at offset 0. |
| DomainProps.TargetOpens | src/fsu_ecp.c:616-623 | open for writing with O_CREAT at the copy's target gives a writer at 0 on the file, which keeps its bytes unless O_TRUNC is given. Every name stays with its type. |
| DomainProps.SourceOpens | src/fsu_ecp.c:617-622 | Opening a regular source for reading next to the writer gives a reader at its start, and leaves the writer alone. |
| DomainProps.CloseKeepsFiles | src/fsu_ecp.c:656-665 | close never changes a file of either domain. |

Members with no `ensures` of their own carry no row; the methods and lemmas named beside them state
what they compute:
- `Flist.Build`: `Flist.FlistBuild`, `FlistProps.BuildShape`, `FlistProps.BuildThroughDirs`;
- `Cp.ParseF`: `Cp.Parse`;
- `Cp.SetupF`: `Cp.Setup`;
- `CpCopy.CopyF`: `CpCopy.Copy`;
- `Cat.CatF` and `Cat.CatAsWrittenF`: `CatProps.CatDispatch`, `CatProps.StdinCookAborts`;
- `Touch.TouchCreating`: `Touch.TouchCreatingCreates`.

## Left out

- Domain.Resolve, Domain.Norm: only the last component of a path is followed when it is a symbolic
  link. A symbolic link met earlier in the path is not followed, so an operand reached through a
  symlinked directory fails with ENOENT where the system would find it.
- Flist.Build, EcpTree.CopyDirRecF, CpCopy.CopyF: because of the path rule above, a `-L -R` walk loses
  the contents of directories it reaches through a link. The walker lemmas (`FlistProps.BuildThroughDirs`,
  `FlistProps.OpendirKey`) describe the program only in states where no symbolic link names a directory
  (`FlistProps.NoDirLinks`).
- Domain.MkdirF, Domain.MkfifoF, Domain.MknodF, Domain.OpenF: the process umask is not applied; a node
  gets exactly the mode asked for. So `EcpCopyProps.FifoCopiesMode`, `EcpCopyProps.SpecialCopiesNode`,
  `CpUtils.FifoCopiesMode`, `CpUtils.SpecialCopiesNode` and cp's directory creation state the mode
  before the umask (src/utils_cp.c:119-125, bin/cp/cp.c:472). cp's own explicit `& ~umask` in setfile
  is modelled.
- Domain.LinkF: a hard link copies the inode record to the new name and raises the link count of the
  two names only. Later writes through one name are not seen through the other, and other names of the
  same inode keep the old count. `DomainProps.LinkShares` states what the model does share.
- Flist.NamesWellFormed: `Flist.Build` requires that no directory entry name holds '/'. For a tree with
  such a name `EcpTree.ListingF` gives None, so ecp returns -1, where the C walker would build a path from
  that name. An empty name is allowed: the walker skips it (`Flist.Skipped`, fsu_flist.c:111).
- EcpTree.RemoveBackF: when the list holds only the root, `cur2` is read uninitialised by the C code;
  the model deletes nothing.
- EcpTree.MakeRoot, EcpTree.MakeRootF, EcpTree.ProbeF, EcpTree.AliasesF: copy_dir_rec's `struct stat sb`
  (fsu_ecp.c:315) is written only by the grouping's lstat (:374-376) and by the stat after mkdir's EEXIST
  (:406-408). So the S_ISLNK test at :378 and the S_ISDIR test at :410 can read it uninitialised. An
  example: the destination is a dangling symbolic link, and no file in the tree has more than one link.
  The model's None stands for that unset buffer and reads as neither a link nor a directory. So
  `MakeRootF` sets ENOTDIR and copy_dir_rec returns 0, where the C outcome depends on the stack's
  contents.
- EcpTree.GroupF: a non-directory entry with a link count of 0 makes the C grouping allocate a
  negative-sized array; the model treats that as the allocation failing, and copy_dir_rec returns -1.
- Domain.WriteF: a write to descriptor -1 fails with EBADF, standing for the C code's use of a failed
  open's result.
- CpCopy.CopyF, Cp.CpMain: the fts walk is an input sequence of entries. It is not derived from the
  image and is not checked to follow `mastercmp`'s order.
- Diff.DiffF: the two fts walks are inputs in the same way, and the descriptors fsu_diff_file opens are
  never closed.
- Mounting the image and loading its driver (fsu_mount, rump_init) are not part of this model. Only
  Df.DfMain takes the mount's success as a boolean (`mounted`). Cp.CpMain, Cat.CatMain, Touch.TouchMain,
  Rmdir.RmdirMain, EcpTree.EcpMain and the Diff members start after a mount that succeeded, and they do
  not model the setlocale failure or the exit status a failed fsu_mount gives.
- Touch.TouchMain: fsu_touch.c:86 calls errx when `fsu_mount(&argc, &argv) == 0`, while cp.c:132 fails
  when the same call gives `!= 0`. Both cannot be right, and lib/fsu_mount.c:110 defines fsu_mount with
  three parameters, so the two-parameter fsu_mount these utilities call is not part of this model.
  The model assumes the mount succeeded and touch goes on.
- Printed text is not modelled: warn/err messages, usage text, verbose output, df's column layout
  (humanize_number, strspct, printf widths) and cp's -i prompt, whose answer is a field of each entry.
- Memory management: malloc failures (other than the ones named above), fsu_flist_free,
  free_alias_list and cleanup_opts.
- PATH_MAX buffers: only the length checks are modelled, as boolean guards; truncation by strlcpy is not.
  Descriptors that the C code leaks are not tracked.
- Cat.CatF: fsu_raw_cat, the byte copy used when no flag is given, is modelled by its result
  `RawCopy` only.
- FsuFile.FgetcF, FsuFile.FgetcFixedF, FsuFile.File.Take, FsuFile.File.Fgetc, FsuFile.File.FgetcFixed:
  fsu_fgetc is declared `char fsu_fgetc(FSU_FILE *)` (lib/libfsu_utils/fsu_utils.h:80), so its uint8_t
  byte is converted to char. The model takes char to be signed, as on i386 and amd64: 0xFF comes back
  as -1, which is EOF, and cat stops there (`FsuFile.Signed`, `CatProps.FfEndsFile`). Where char is
  unsigned, the `return EOF` becomes 255 and never equals EOF, so fsu_cat's loop would not end at the
  end of the file. That platform is not modelled.
- Df.DfMain: getbsize is a parameter (`BlockSize`).
- Touch.TouchF: localtime, mktime and gettimeofday are parameters, and the microseconds are dropped.
  The descriptor open returns is never closed, as in the C code.
- Ffs.ParseOptF, Ext2fs.ParseOptF: set_option is modelled from its call site as a table lookup with
  range checks; DIRSIZ/EXT2FS_DIRSIZ and strsuftoll likewise. The debug dumps (ffs_dump_fsinfo,
  ext2fs_dump_fsinfo) are left out. The fsnode tree is an input.
- FsuFile.PwriteSys: pwrite always writes at the offset it is given; what a kernel does for a
  descriptor opened with O_APPEND (fsu_fopen's "a" modes) is not modelled.
- Tmpfs.ParseArgs: mount flags from getmntopts are not modelled; getmntopts is a parameter.
- Posix.Strcmp: only the sign of strcmp's result is modelled.
- Fattr.AId: mount_tmpfs's -u and -g call a_uid and a_gid, which go through the as-written a_num.
  a_num wraps at 2^32, so "4294967296" gives uid 0 (fattr.c:48-55). AId uses the corrected
  Fattr.ANumChecked instead, which gives 0xFFFFFFFF for that input. See the Findings row.
- Tmpfs.SettingsStep: the -g and -u values come from Fattr.AId and the -m value from
  Fattr.AMaskChecked, the corrected halves of the fattr Findings rows. mount_tmpfs.c:135-172 calls the
  as-written a_gid, a_uid and a_mask, so in C "-m 40000000000" gives mode 0 where the model gives
  0xFFFFFFFF, and "-u 4294967296" gives uid 0.
- Tmpfs.Switch: as for Tmpfs.SettingsStep, the -g, -u and -m cases use Fattr.ANumChecked and
  Fattr.AMaskChecked, not the wrapping a_num and a_mask that mount_tmpfs.c calls.
- Tmpfs.ParseArgs: its option values come from the corrected Fattr.ANumChecked and Fattr.AMaskChecked
  (see Tmpfs.SettingsStep). It also does not return the mount point: pathadj's canonicalisation of
  the directory operand (canon_dir, mount_tmpfs.c:186) is not modelled.
- Cat.NextChar: reads through the corrected fgetc (FsuFile.File.FgetcFixed), which gives EOF once a refill
  reads no byte. fsu_cat.c:208 calls fsu_fgetc as written, which then returns stale fd_buf bytes. This
  happens for an empty file and for a file whose size is a multiple of 8192 (fsu_file.c:47-66).
- Cat.CookBuf: cooks the stream of the corrected fgetc (see Cat.NextChar). In C, an empty file under -n
  prints bytes left in the buffer.
- Cat.CatOne: equals Cat.CatF, the corrected program. It uses the corrected fgetc, and for the operand
  "-" with cooking flags it returns after reading stdin. In C, fsu_cat.c:187-270 then calls fsu_fclose
  on NULL, whose assertion aborts. The as-written behaviour is Cat.CatAsWrittenF (see the Findings row).
- Cat.CatAllF: built on Cat.CatF, so "fsu_cat -n - f" goes on to f, where the C program aborts at "-".
- Cat.CatMainF, Cat.CatMain: they run Cat.CatAllF, so they use the corrected fgetc and do not abort at "-" with cooking flags.
- CatProps.StreamUpTo: the stream it states is that of the corrected fgetc. At the end of a file whose
  size is 0 or a multiple of 8192, fsu_fgetc as written yields stale bytes instead.
- CatProps.CatDispatch: states Cat.CatF's dispatch over the corrected stream. It does not state the
  abort at "-" with cooking flags or the stale bytes of the as-written fgetc. CatProps.StdinCookAborts
  states the abort for Cat.CatAsWrittenF.
- CatProps.CatAllStatus: states that main returns 0 or -1, which holds for the corrected Cat.CatF. As
  written, a "-" operand with cooking flags aborts in fsu_fclose(NULL) (fsu_cat.c:187-270).
- Str2Arg.Step: a trailing backslash is dropped and ends the scan. fsu_str2arg.c:57-59 copies the
  terminating NUL and reads on past it. Str2Arg.TrailingBackslashOverruns models that (see Findings).
- Str2Arg.StrToArg: built on Str2Arg.Step, so it splits with the corrected trailing-backslash
  behaviour, not the read past the terminator.
- EcpTree.CopyLoopF: errno is not reset between copies, so a stale ENOSPC can end a later copy loop
  early; this is modelled as written.

## Findings

| source | as written | input that shows it | evidently intended | confidence | as-written member | corrected member |
|---|---|---|---|---|---|---|
| bin/cp/cp.c:545-569 | mastercmp returns -1 whenever the first entry is a directory, so directories sort before files, and cmp(D, D) is -1 in both orders | two directory entries, or a directory and a file | non-directories first, as the comment says, with a consistent order | not executed | Cp.MasterCmpDirsFirst | Cp.FilesFirstOrder |
| usr.bin/fsu_touch/fsu_touch.c:137-145 | open(filename, DEFFILEMODE) passes the mode 0666 as the open flags; it holds no O_CREAT, so a missing file is never created | touch of a name that does not exist, without -c | open with O_WRONLY O_CREAT and mode DEFFILEMODE, creating an empty file | not executed | Touch.TouchNeverCreates | Touch.TouchCreatingCreates |
| lib/libfsu_mount/fattr.c:48-55 | strtol's long result is stored in an int, so a number of 2^32 or more wraps before the `id < 0` test | uid "4294967296" gives 0, the root user | reject a number that does not fit an int | not executed | Fattr.ANumWraps | Fattr.ANumChecked |
| lib/libfsu_mount/fattr.c:85-93 | the same truncation in a_mask | mode "40000000000" (2^32 in octal) gives 0 | reject a mode that does not fit an int | not executed | Fattr.AMaskWraps | Fattr.AMaskChecked |
| lib/fsu_file.c:47-66 | fsu_fgetc refills without checking that the refill read anything, then returns the stale byte at fd_buf[0] | fsu_fopen of an empty file with "r", then fsu_fgetc | return EOF when the refill reads no byte | not executed | FsuFileProps.EmptyFileAsWritten | FsuFileProps.EmptyFileFixed |
| lib/fsu_file.c:201-257 | after a write that passes the buffer, fsu_fwrite refills by reading from a write-only descriptor, which fails and sets fd_err; every later fsu_fwrite returns 0 | fsu_fopen(…, "w"), then three fsu_fwrite calls of 8192, 8192 and 1 bytes | the third write is buffered like the first | not executed | FsuFileProps.ThirdWriteAsWritten | FsuFileProps.ThirdWriteFixed |
| lib/fsu_str2arg.c:57-59 | a trailing backslash copies the terminating NUL and the loop goes on reading past it | a line ending in "\\" | drop the lone backslash and stop at the end of the string | not executed | Str2Arg.TrailingBackslashOverruns | Str2Arg.TrailingBackslashDropped |
| lib/fsu_str2arg.c:95-102 | fsu_str2argc ignores backslashes, so an escaped quote opens a quotation and the count is too small; fsu_str2arg then stops early | the line `\" a b` is counted as 1 argument and split into `"` and an empty one | count words the way fsu_str2arg splits them | not executed | Str2Arg.EscapedQuoteTruncates | Str2Arg.EscapedQuoteCounted |
| makefs-analyzetree/ffs.c:300-306 | roundup divides by bsize / DINODE1_SIZE, which is 0 for a block smaller than an inode | `-o bsize=64` | reject a block size smaller than an inode | not executed | Ffs.SmallBlockDividesByZero | Ffs.ImageHoldsTree |
| makefs-analyzetree/ext2fs.c:252-256 | the same division by bsize / EXT2_REV0_DINODE_SIZE | `-o bsize=64` | reject a block size smaller than an inode | not executed | Ext2fs.SmallBlockDividesByZero | Ext2fs.ImageHoldsTree |
| src/fsu_cat.c:187-270 | for the operand "-" fsu_cook_buf reads stdin and then calls fsu_fclose on a NULL file, whose assertion aborts | `fsu_cat -n -` | close only the file it opened | not executed | CatProps.StdinCookAborts | CatProps.CatDispatch |
| src/fsu_ecp.c:616-623 | put opens the target with the source's st_mode as the open flags, so the access mode is st_mode's two low bits | a 0644 source: the flags are O_RDONLY and every write fails | open with O_WRONLY O_CREAT O_TRUNC and the mode | not executed | EcpCopyProps.PutNeedsWritableModeBits | EcpCopyProps.PutFixedCopiesExactly |
| src/fsu_ecp.c:724-732 | copy_special unlinks an existing target through the image even for a get, whose target is on the host | a get of a device node onto a host path that exists | remove the target on the side being written | not executed | EcpCopyProps.SpecialGetOverExisting | EcpCopyProps.SpecialFixedGetReplaces |
| src/utils_cp.c:139-139 | copy_file opens the target with the source's mode as the open flags; O_CREAT is set only when the mode has S_ISVTX | copying a regular file of mode 0644 to a new name | open with O_WRONLY O_CREAT O_TRUNC and the mode | not executed | CpUtils.CopyFileNeedsStickySource | CpUtilsProps.CopyFileFixedCopies |
| src/fsu_diff.c:111-116 | the root test checks only that e1 is a directory, so a root directory and a root of another type are both skipped | fsu_diff of a directory and a regular file: it returns 0 and prints nothing | skip the roots only when both are directories, and otherwise compare them | not executed | Diff.RootDirBesideFile | Diff.RootDirBesideFileFixed |

=== FILE: alias.dfy ===
// The alias file of lib/fsu_alias.c: build_alias_list reads $HOME/.fsurc
// line by line into a line buffer, splits each line into ':'-separated
// fields with strtok and appends the alias it describes at the tail of a
// module-level list; get_alias searches that list.
//
// getenv("HOME") and the contents of the file become parameters: home is
// None when HOME is unset, and text is None when stat or fopen fails on
// $HOME/.fsurc.

module Alias {
  import opened Posix
  import Str2Arg

  /** sizeof(buf): the longest line the buffer takes, its terminator included. */
  const LINE_BUF: nat := 8192

  /** struct fsu_fsalias_s, its absent fields as None. */
  datatype FsAlias = FsAlias(
    name: string, path: string, fstype: string,
    mntopt: Option<string>, puffsexec: Option<string>)

  /** What build_alias_list ends with: -1, 0, or a line its buffer cannot hold that is no comment. */
  datatype Loaded = NoFile | Done | Overlong

  // ---------------------------------------------------------------------
  // Fields and strtok
  // ---------------------------------------------------------------------

  /** strcspn(t, ":"): the length of t's leading run without ':'. */
  function Span(t: string): (n: nat)
    ensures n <= |t| && forall k :: 0 <= k < n ==> t[k] != ':'
    ensures n < |t| ==> t[n] == ':'
  {
    if |t| == 0 || t[0] == ':' then 0 else 1 + Span(t[1..])
  }

  /** Every ':'-separated field of t, empty ones included. */
  function Fields(t: string): (r: seq<string>)
    ensures |r| > 0
    decreases |t|
  {
    var n := Span(t);
    if n == |t| then [t] else [t[..n]] + Fields(t[n + 1..])
  }

  /** The fields joined back with ':' between them. */
  function JoinColon(fs: seq<string>): string
    requires |fs| > 0
  {
    if |fs| == 1 then fs[0] else fs[0] + ":" + JoinColon(fs[1..])
  }

  /** Splitting at every ':' loses nothing: joining the fields gives t back. */
  lemma {:induction false} FieldsJoin(t: string)
    ensures JoinColon(Fields(t)) == t
    decreases |t|
  {
    var n := Span(t);
    if n < |t| {
      FieldsJoin(t[n + 1..]);
      assert t == t[..n] + ":" + t[n + 1..];
    }
  }

  /** The non-empty members of fs. */
  function NonEmpty(fs: seq<string>): (r: seq<string>)
    ensures forall k :: 0 <= k < |r| ==> r[k] != []
  {
    if |fs| == 0 then []
    else if fs[0] == [] then NonEmpty(fs[1..])
    else [fs[0]] + NonEmpty(fs[1..])
  }

  /** The tokens strtok(…, ":") yields: the fields, without the empty ones. */
  function Tokens(t: string): seq<string> {
    NonEmpty(Fields(t))
  }

  /** NonEmpty keeps exactly the non-empty members of fs. */
  lemma {:induction false} NonEmptyMembers(fs: seq<string>)
    ensures forall k :: 0 <= k < |NonEmpty(fs)| ==> NonEmpty(fs)[k] in fs
    ensures forall x :: x in fs && x != [] ==> x in NonEmpty(fs)
    decreases |fs|
  {
    if |fs| > 0 {
      NonEmptyMembers(fs[1..]);
      assert fs == [fs[0]] + fs[1..];
    }
  }

  /** A token strtok returned, with where the following call resumes. */
  datatype Token = Token(text: string, next: nat)

  /**
   * strtok(…, ":") resuming at index from of s: it skips ':'s, returns the
   * run up to the next ':' or the end, and overwrites that ':' so the next
   * call starts after it. At the end of s it returns NULL.
   */
  function Strtok(s: string, from: nat): (r: Option<Token>)
    requires from <= |s|
    ensures r.Some? ==> from < r.value.next <= |s| && |r.value.text| > 0 && ':' !in r.value.text
    decreases |s| - from
  {
    if from == |s| then None
    else if s[from] == ':' then Strtok(s, from + 1)
    else
      var n := Span(s[from..]);
      Some(Token(s[from..from + n], if from + n < |s| then from + n + 1 else from + n))
  }

  /** A leading ':' is an empty field: the tokens are those of the rest. */
  lemma TokensColon(t: string)
    requires |t| > 0 && t[0] == ':'
    ensures Tokens(t) == Tokens(t[1..])
  {
    assert Span(t) == 0;
    assert t[..0] == [];
  }

  /** A non-empty first member is kept. */
  lemma NonEmptyCons(x: string, rest: seq<string>)
    requires x != []
    ensures NonEmpty([x] + rest) == [x] + NonEmpty(rest)
  {
    assert ([x] + rest)[1..] == rest;
  }

  /** Fields of a text with a ':': the run before it, then the fields after it. */
  lemma {:induction false} FieldsSplit(t: string)
    requires Span(t) < |t|
    ensures Fields(t) == [t[..Span(t)]] + Fields(t[Span(t) + 1..])
  {
  }

  /** A leading non-empty field is the first token. */
  lemma TokensField(t: string)
    requires |t| > 0 && t[0] != ':'
    ensures Tokens(t) == [t[..Span(t)]] + (if Span(t) < |t| then Tokens(t[Span(t) + 1..]) else [])
  {
    var n := Span(t);
    var head := t[..n];
    assert head != [] by { assert |head| == n; }
    if n == |t| {
      assert head == t;
      assert Fields(t) == [t] + [];
      NonEmptyCons(t, []);
    } else {
      var rest := t[n + 1..];
      calc {
        Tokens(t);
        NonEmpty(Fields(t));
        { FieldsSplit(t); }
        NonEmpty([head] + Fields(rest));
        { NonEmptyCons(head, Fields(rest)); }
        [head] + NonEmpty(Fields(rest));
      }
    }
  }

  /**
   * Successive strtok calls yield the tokens in order: a call at from
   * returns NULL iff no token is left, and otherwise returns the first
   * token and leaves the rest for the calls after it.
   */
  lemma {:induction false} StrtokTokens(s: string, from: nat)
    requires from <= |s|
    ensures Strtok(s, from).None? <==> Tokens(s[from..]) == []
    ensures Strtok(s, from).Some? ==>
      Tokens(s[from..]) == [Strtok(s, from).value.text] + Tokens(s[Strtok(s, from).value.next..])
    decreases |s| - from
  {
    var t := s[from..];
    if from == |s| {
      assert t == [];
      assert Fields(t) == [[]];
    } else if s[from] == ':' {
      TokensColon(t);
      assert t[1..] == s[from + 1..];
      StrtokTokens(s, from + 1);
    } else {
      TokensField(t);
      var n := Span(t);
      assert t[..n] == s[from..from + n];
      if from + n < |s| {
        assert t[n + 1..] == s[from + n + 1..];
      } else {
        assert s[from + n..] == [];
        assert Fields(s[from + n..]) == [[]];
      }
    }
  }

  // ---------------------------------------------------------------------
  // One line
  // ---------------------------------------------------------------------

  /** A path beginning "~/" becomes HOME + "/" + the rest. */
  function Expand(home: string, p: string): string {
    if |p| >= 2 && p[0] == '~' && p[1] == '/' then home + "/" + p[2..] else p
  }

  /** A line whose first character is '#' is a comment. */
  predicate Comment(line: string) {
    |line| > 0 && line[0] == '#'
  }

  /**
   * The body of build_alias_list's loop on one line: comments are
   * skipped; strtok gives the name (which may not start with '-'), the path
   * (with "~/" expanded), the type, then the optional mount options and
   * puffs program; a line that runs out of tokens before the type gives no
   * alias. strtok sees the line up to its first NUL.
   */
  function ParseLine(home: string, line: string): Option<FsAlias> {
    if Comment(line) then None else ParseName(home, Str2Arg.CStr(line, 0))
  }

  /** The first strtok call: the name, which may not start with '-'. */
  function ParseName(home: string, s: string): Option<FsAlias> {
    match Strtok(s, 0)
    case None => None
    case Some(name) => if name.text[0] == '-' then None else ParsePath(home, s, name)
  }

  /** The second and third strtok calls: the path and the type. */
  function ParsePath(home: string, s: string, name: Token): Option<FsAlias>
    requires name.next <= |s|
  {
    match Strtok(s, name.next)
    case None => None
    case Some(path) =>
      match Strtok(s, path.next)
      case None => None
      case Some(ty) => Some(Make(name.text, Expand(home, path.text), ty.text, Options(s, ty.next)))
  }

  /** The two strtok calls after the type: mount options, then the puffs program. */
  function Options(s: string, from: nat): (Option<string>, Option<string>)
    requires from <= |s|
  {
    match Strtok(s, from)
    case None => (None, None)
    case Some(mnt) =>
      (Some(mnt.text), match Strtok(s, mnt.next) case None => None case Some(pex) => Some(pex.text))
  }

  /** The alias record; for type "puffs" a lone fourth field is the puffs program. */
  function Make(name: string, path: string, fstype: string, opts: (Option<string>, Option<string>)): FsAlias {
    if fstype == "puffs" && opts.1.None? && opts.0.Some? then FsAlias(name, path, fstype, None, opts.0)
    else FsAlias(name, path, fstype, opts.0, opts.1)
  }

  /** The i-th token as an optional field. */
  function Field(t: seq<string>, i: nat): Option<string> {
    if i < |t| then Some(t[i]) else None
  }

  /** The alias a line's tokens t describe, per the rules ParseMeaning states. */
  predicate Describes(home: string, t: seq<string>, a: FsAlias) {
    && |t| >= 3
    && a.name == t[0] && a.path == Expand(home, t[1]) && a.fstype == t[2]
    && (if t[2] == "puffs" && |t| == 4 then a.mntopt.None? && a.puffsexec == Some(t[3])
        else a.mntopt == Field(t, 3) && a.puffsexec == Field(t, 4))
  }

  /**
   * What a line means in terms of its tokens t: it gives an alias iff it is
   * no comment, has at least three tokens and its name does not start
   * with '-'; the alias is the name, the expanded path and the type, then
   * the fourth and fifth tokens, except that for "puffs" with exactly four
   * tokens the fourth is the puffs program.
   */
  lemma ParseMeaning(home: string, line: string)
    ensures var t := Tokens(Str2Arg.CStr(line, 0));
      && (ParseLine(home, line).Some? <==> !Comment(line) && |t| >= 3 && t[0][0] != '-')
      && (ParseLine(home, line).Some? ==> Describes(home, t, ParseLine(home, line).value))
  {
    if !Comment(line) {
      NameMeaning(home, Str2Arg.CStr(line, 0));
    }
  }

  /** ParseName in terms of the tokens. */
  lemma NameMeaning(home: string, s: string)
    ensures var t := Tokens(s);
      && (ParseName(home, s).Some? <==> |t| >= 3 && t[0][0] != '-')
      && (ParseName(home, s).Some? ==> Describes(home, t, ParseName(home, s).value))
  {
    StrtokTokens(s, 0);
    assert s[0..] == s;
    var t0 := Strtok(s, 0);
    if t0.Some? {
      PathMeaning(home, s, t0.value);
    }
  }

  /** ParsePath in terms of the tokens after the name. */
  lemma PathMeaning(home: string, s: string, name: Token)
    requires name.next <= |s|
    ensures var t := [name.text] + Tokens(s[name.next..]);
      && (ParsePath(home, s, name).Some? <==> |t| >= 3)
      && (ParsePath(home, s, name).Some? ==> Describes(home, t, ParsePath(home, s, name).value))
  {
    var l1 := Tokens(s[name.next..]);
    StrtokTokens(s, name.next);
    var t1 := Strtok(s, name.next);
    if t1.Some? {
      var l2 := Tokens(s[t1.value.next..]);
      assert l1 == [t1.value.text] + l2;
      StrtokTokens(s, t1.value.next);
      var t2 := Strtok(s, t1.value.next);
      if t2.Some? {
        var rest := Tokens(s[t2.value.next..]);
        assert l2 == [t2.value.text] + rest;
        assert [name.text] + l1 == [name.text, t1.value.text, t2.value.text] + rest;
        OptionsMeaning(s, t2.value.next);
        MakeDescribes(home, name.text, t1.value.text, t2.value.text, rest, Options(s, t2.value.next));
      } else {
        assert l2 == [];
      }
    } else {
      assert l1 == [];
    }
  }

  /** Make builds the alias that name, path, type and the further tokens describe. */
  lemma MakeDescribes(home: string, n: string, p: string, ty: string, rest: seq<string>,
                      opts: (Option<string>, Option<string>))
    requires opts.0 == Field(rest, 0) && opts.1 == Field(rest, 1)
    ensures Describes(home, [n, p, ty] + rest, Make(n, Expand(home, p), ty, opts))
  {
    var t := [n, p, ty] + rest;
    assert t[0] == n && t[1] == p && t[2] == ty;
    assert Field(t, 3) == Field(rest, 0) && Field(t, 4) == Field(rest, 1);
  }

  /** The options are the fourth and fifth tokens, when there are such. */
  lemma OptionsMeaning(s: string, from: nat)
    requires from <= |s|
    ensures Options(s, from).0 == Field(Tokens(s[from..]), 0)
    ensures Options(s, from).1 == Field(Tokens(s[from..]), 1)
  {
    StrtokTokens(s, from);
    if Strtok(s, from).Some? {
      StrtokTokens(s, Strtok(s, from).value.next);
    }
  }

  // ---------------------------------------------------------------------
  // The whole file
  // ---------------------------------------------------------------------

  /** Where the first line of t ends: the index of its '\n', or |t|. */
  function LineEnd(t: string): (n: nat)
    ensures n <= |t|
    ensures n < |t| ==> t[n] == '\n'
  {
    if |t| == 0 || t[0] == '\n' then 0 else 1 + LineEnd(t[1..])
  }

  /** A first line that starts with m characters other than '\n' is at least that long. */
  lemma {:induction false} LineEndAtLeast(t: string, m: nat)
    requires m <= |t| && forall k :: 0 <= k < m ==> t[k] != '\n'
    ensures LineEnd(t) >= m
  {
    if m > 0 {
      LineEndAtLeast(t[1..], m - 1);
    }
  }

  /** A newline-free run ending at a '\n' or at the end is the first line. */
  lemma {:induction false} LineEndIs(t: string, n: nat)
    requires n <= |t| && (forall k :: 0 <= k < n ==> t[k] != '\n')
    requires n < |t| ==> t[n] == '\n'
    ensures LineEnd(t) == n
  {
    if |t| > 0 && t[0] != '\n' {
      LineEndIs(t[1..], n - 1);
    }
  }

  /**
   * The lines of t as the buffer takes them in, without their '\n's and
   * with no empty line after a final '\n', or None when some line does
   * not fit in the buffer and is no comment (build_alias_list then hands
   * strtok a buffer without a terminator). A comment that does not fit is
   * taken in as one full buffer, which is skipped, and the rest of that line
   * is read as further lines.
   */
  function Lines(t: string): Option<seq<string>>
    decreases |t|
  {
    if |t| == 0 then Some([])
    else
      var n := LineEnd(t);
      if n >= LINE_BUF then
        if t[0] == '#' then
          match Lines(t[LINE_BUF..])
          case None => None
          case Some(more) => Some([t[..LINE_BUF]] + more)
        else None
      else
        var rest := if n < |t| then t[n + 1..] else [];
        match Lines(rest)
        case None => None
        case Some(more) => Some([t[..n]] + more)
  }

  /**
   * A first line the buffer cannot hold: when it is no comment the whole
   * text is undefined, and when it is one the full buffer is a line of its
   * own and reading goes on with the rest of that line.
   */
  lemma LinesOverlong(u: string)
    requires LineEnd(u) >= LINE_BUF
    ensures u[0] != '#' ==> Lines(u).None?
    ensures u[0] == '#' ==> (Lines(u).Some? <==> Lines(u[LINE_BUF..]).Some?)
    ensures u[0] == '#' && Lines(u).Some? ==> Lines(u).value == [u[..LINE_BUF]] + Lines(u[LINE_BUF..]).value
  {
  }

  /** Lines takes the first line, then the rest after its '\n'. */
  lemma LinesStep(u: string, i: nat, rest: string)
    requires |u| > 0 && i == LineEnd(u) && i < LINE_BUF
    requires rest == if i < |u| then u[i + 1..] else []
    ensures Lines(u) == if Lines(rest).None? then None else Some([u[..i]] + Lines(rest).value)
  {
  }

  /** The text of lines that each end with a '\n'. */
  function Unlines(ls: seq<string>): string {
    if |ls| == 0 then [] else ls[0] + "\n" + Unlines(ls[1..])
  }

  /** A line that fits in the buffer. */
  predicate ShortLine(l: string) {
    '\n' !in l && |l| < LINE_BUF
  }

  /** Lines undoes Unlines on lines that fit in the buffer. */
  lemma {:induction false} LinesUnlines(ls: seq<string>)
    requires forall k :: 0 <= k < |ls| ==> ShortLine(ls[k])
    ensures Lines(Unlines(ls)) == Some(ls)
  {
    if |ls| > 0 {
      var t := Unlines(ls);
      var n := |ls[0]|;
      assert t == ls[0] + ("\n" + Unlines(ls[1..]));
      assert t[..n] == ls[0];
      assert t[n] == '\n';
      LineEndIs(t, n);
      assert t[n + 1..] == Unlines(ls[1..]);
      LinesUnlines(ls[1..]);
      assert [ls[0]] + ls[1..] == ls;
    }
  }

  /**
   * Reading t has reached pos with the lines done behind it: t's lines
   * are those and the lines of what is left, and t has lines iff what is
   * left has.
   */
  ghost predicate ReadUpTo(t: string, pos: nat, done: seq<string>)
    requires pos <= |t|
  {
    && (Lines(t).Some? <==> Lines(t[pos..]).Some?)
    && (Lines(t[pos..]).Some? ==> Lines(t).value == done + Lines(t[pos..]).value)
  }

  /** Reading one more line that fits in the buffer keeps ReadUpTo. */
  lemma LinesRead(t: string, pos: nat, buf: string, next: nat, done: seq<string>)
    requires pos < |t| && ReadUpTo(t, pos, done)
    requires |buf| < LINE_BUF && pos + |buf| <= |t| && buf == t[pos..pos + |buf|]
    requires LineEnd(t[pos..]) == |buf|
    requires next == if pos + |buf| == |t| then |t| else pos + |buf| + 1
    ensures pos < next <= |t| && ReadUpTo(t, next, done + [buf])
  {
    var u := t[pos..];
    var i := |buf|;
    assert buf == u[..i];
    assert t[next..] == if i == |u| then [] else u[i + 1..];
    LinesReadRest(u, buf, t[next..], done, Lines(t));
  }

  /** LinesRead on the text that is left. */
  lemma LinesReadRest(u: string, buf: string, rest: string, done: seq<string>, T: Option<seq<string>>)
    requires |buf| < LINE_BUF && |u| > 0
    requires LineEnd(u) == |buf| && buf == u[..|buf|]
    requires rest == if |buf| == |u| then [] else u[|buf| + 1..]
    requires T.Some? <==> Lines(u).Some?
    requires Lines(u).Some? ==> T.value == done + Lines(u).value
    ensures T.Some? <==> Lines(rest).Some?
    ensures Lines(rest).Some? ==> T.value == (done + [buf]) + Lines(rest).value
  {
    LinesStep(u, |buf|, rest);
    if Lines(rest).Some? {
      assert done + ([buf] + Lines(rest).value) == (done + [buf]) + Lines(rest).value;
    }
  }

  /** Skipping a full buffer that starts a comment keeps ReadUpTo. */
  lemma LinesSkip(t: string, pos: nat, buf: string, done: seq<string>)
    requires pos + LINE_BUF <= |t| && ReadUpTo(t, pos, done)
    requires buf == t[pos..pos + LINE_BUF] && buf[0] == '#' && LineEnd(t[pos..]) >= LINE_BUF
    ensures ReadUpTo(t, pos + LINE_BUF, done + [buf])
  {
    var u := t[pos..];
    LinesOverlong(u);
    assert u[LINE_BUF..] == t[pos + LINE_BUF..];
    assert u[..LINE_BUF] == buf;
    if Lines(u).Some? {
      assert done + ([buf] + Lines(u[LINE_BUF..]).value) == (done + [buf]) + Lines(u[LINE_BUF..]).value;
    }
  }

  lemma ConcatAssoc(x: seq<FsAlias>, y: seq<FsAlias>, z: seq<FsAlias>)
    ensures x + y + z == x + (y + z)
  {
  }

  /** A line that does not fit and is no comment leaves the whole text without lines. */
  lemma OverlongFails(t: string, pos: nat, done: seq<string>)
    requires pos < |t| && ReadUpTo(t, pos, done)
    requires LineEnd(t[pos..]) >= LINE_BUF && t[pos] != '#'
    ensures Lines(t).None?
  {
    LinesOverlong(t[pos..]);
  }

  /** A comment line gives no alias. */
  lemma CommentGivesNone(home: string, line: string)
    requires Comment(line)
    ensures AsSeq(ParseLine(home, line)) == []
  {
  }

  /** The line or nothing as a list of at most one alias. */
  function AsSeq(a: Option<FsAlias>): seq<FsAlias> {
    if a.Some? then [a.value] else []
  }

  /** The aliases the lines give, in order. */
  function Aliases(home: string, ls: seq<string>): seq<FsAlias> {
    if |ls| == 0 then [] else AsSeq(ParseLine(home, ls[0])) + Aliases(home, ls[1..])
  }

  /** The aliases of consecutive lines follow each other. */
  lemma {:induction false} AliasesAppend(home: string, x: seq<string>, y: seq<string>)
    ensures Aliases(home, x + y) == Aliases(home, x) + Aliases(home, y)
  {
    if |x| == 0 {
      assert x + y == y;
    } else {
      assert (x + y)[1..] == x[1..] + y;
      AliasesAppend(home, x[1..], y);
    }
  }

  /** One more line adds its alias, if it gives one, at the end. */
  lemma AliasesSnoc(home: string, ls: seq<string>, l: string)
    ensures Aliases(home, ls + [l]) == Aliases(home, ls) + AsSeq(ParseLine(home, l))
  {
    AliasesAppend(home, ls, [l]);
    assert [l][1..] == [];
  }

  /** Every alias comes from a line that describes it. */
  lemma {:induction false} AliasesFromLines(home: string, ls: seq<string>)
    ensures |Aliases(home, ls)| <= |ls|
    ensures forall a :: a in Aliases(home, ls) ==> exists k :: 0 <= k < |ls| && ParseLine(home, ls[k]) == Some(a)
  {
    if |ls| > 0 {
      AliasesFromLines(home, ls[1..]);
      forall a | a in Aliases(home, ls)
        ensures exists k :: 0 <= k < |ls| && ParseLine(home, ls[k]) == Some(a)
      {
        if a in Aliases(home, ls[1..]) {
          var k :| 0 <= k < |ls[1..]| && ParseLine(home, ls[1..][k]) == Some(a);
          assert ls[k + 1] == ls[1..][k];
        } else {
          assert ParseLine(home, ls[0]) == Some(a);
        }
      }
    }
  }

  /** The first alias named key, as get_alias's loop meets them. */
  function FirstNamed(list: seq<FsAlias>, key: string): Option<FsAlias> {
    if |list| == 0 then None
    else if list[0].name == key then Some(list[0])
    else FirstNamed(list[1..], key)
  }

  /** FirstNamed is the alias at the least index whose name is key. */
  lemma {:induction false} FirstNamedMeaning(list: seq<FsAlias>, key: string)
    ensures FirstNamed(list, key).None? <==> forall k :: 0 <= k < |list| ==> list[k].name != key
    ensures FirstNamed(list, key).Some? ==>
      exists k :: 0 <= k < |list| && list[k] == FirstNamed(list, key).value && list[k].name == key
        && forall j :: 0 <= j < k ==> list[j].name != key
  {
    if |list| > 0 && list[0].name != key {
      FirstNamedMeaning(list[1..], key);
      if FirstNamed(list, key).Some? {
        var k :| 0 < k + 1 <= |list[1..]| && list[1..][k] == FirstNamed(list, key).value && list[1..][k].name == key
          && forall j :: 0 <= j < k ==> list[1..][j].name != key;
        assert list[k + 1] == FirstNamed(list, key).value;
        assert forall j :: 0 < j < k + 1 ==> list[j].name == list[1..][j - 1].name;
      }
    } else if |list| > 0 {
      assert list[0] == FirstNamed(list, key).value;
    }
  }

  /** The module-level list alias_head … alias_tail. */
  class AliasList {
    var aliases: seq<FsAlias>

    constructor()
      ensures aliases == []
    {
      aliases := [];
    }

    /**
     * get_alias: the first alias in list order whose name is the C string
     * key, or NULL.
     */
    method GetAlias(key: string) returns (r: Option<FsAlias>)
      ensures r == FirstNamed(aliases, Str2Arg.CStr(key, 0))
    {
      var al := Str2Arg.CStr(key, 0);
      var i := 0;
      while i < |aliases|
        invariant 0 <= i <= |aliases|
        invariant FirstNamed(aliases, al) == FirstNamed(aliases[i..], al)
      {
        if aliases[i].name == al {
          return Some(aliases[i]);
        }
        assert aliases[i..][1..] == aliases[i + 1..];
        i := i + 1;
      }
      return None;
    }

    /**
     * "get a line": fgetc into the buffer until a '\n' or the end of the
     * file, which leave the line without them; a buffer filled without
     * either is returned as it is.
     */
    static method GetLine(t: string, pos: nat) returns (buf: string, eof: bool)
      requires pos <= |t|
      ensures |buf| <= LINE_BUF && pos + |buf| <= |t| && buf == t[pos..pos + |buf|]
      ensures |buf| == LINE_BUF ==> LineEnd(t[pos..]) >= LINE_BUF
      ensures |buf| < LINE_BUF ==> LineEnd(t[pos..]) == |buf| && (eof <==> pos + |buf| == |t|)
    {
      buf := [];
      eof := false;
      var i := 0;
      while i < LINE_BUF
        invariant 0 <= i <= LINE_BUF && pos + i <= |t|
        invariant buf == t[pos..pos + i] && !eof
        invariant forall k :: 0 <= k < |buf| ==> buf[k] != '\n'
      {
        if pos + i == |t| {
          eof := true;
          break;
        }
        if t[pos + i] == '\n' {
          break;
        }
        buf := buf + [t[pos + i]];
        i := i + 1;
      }
      ghost var u := t[pos..];
      assert forall k :: 0 <= k < i ==> u[k] == buf[k];
      if i < LINE_BUF {
        LineEndIs(u, i);
      } else {
        LineEndAtLeast(u, LINE_BUF);
      }
    }

    /**
     * build_alias_list: without HOME or without a readable $HOME/.fsurc it
     * returns -1 and adds nothing; otherwise it reads the file a character
     * at a time into a line buffer and appends the alias of every line that
     * gives one at the tail of the list, in file order.
     */
    method Build(home: Option<string>, text: Option<string>) returns (r: Loaded)
      modifies this
      ensures home.None? || text.None? ==> r == NoFile && aliases == old(aliases)
      ensures home.Some? && text.Some? ==> (r == Overlong <==> Lines(text.value).None?)
      ensures r == Done ==>
        (&& home.Some? && text.Some? && Lines(text.value).Some?
         && aliases == old(aliases) + Aliases(home.value, Lines(text.value).value))
    {
      if home.None? || text.None? {
        return NoFile;
      }
      var h, t := home.value, text.value;
      var pos := 0;
      ghost var done: seq<string> := [];
      while true
        invariant 0 <= pos <= |t|
        invariant aliases == old(aliases) + Aliases(h, done)
        invariant ReadUpTo(t, pos, done)
        decreases |t| - pos
      {
        var buf, eof := GetLine(t, pos);
        ghost var u := t[pos..];
        var i := |buf|;
        if i == LINE_BUF {
          if buf[0] != '#' {
            OverlongFails(t, pos, done);
            return Overlong;
          }
          LinesSkip(t, pos, buf, done);
          AliasesSnoc(h, done, buf);
          CommentGivesNone(h, buf);
          done := done + [buf];
          pos := pos + LINE_BUF;
          continue;
        }
        if i == 0 && eof {
          assert u == [];
          assert done + [] == done;
          return Done;
        }
        var next := if eof then pos + i else pos + i + 1;
        LinesRead(t, pos, buf, next, done);
        AliasesSnoc(h, done, buf);
        ghost var before := aliases;
        if |buf| > 0 && buf[0] == '#' {
          CommentGivesNone(h, buf);
        } else {
          var a := ParseLine(h, buf);
          if a.Some? {
            aliases := aliases + [a.value];
          }
        }
        assert aliases == before + AsSeq(ParseLine(h, buf));
        ConcatAssoc(old(aliases), Aliases(h, done), AsSeq(ParseLine(h, buf)));
        done := done + [buf];
        pos := next;
      }
    }
  }
}

=== FILE: cat.dfy ===
// fsu_cat: cat(1) on a file of the mounted image. Without flags the file is
// copied raw; with any of -benstv every character goes through the cooking
// loop, which numbers lines, squeezes empty lines and makes control and
// non-ASCII characters visible. A file is read through an FSU_FILE with
// fsu_fgetc, "-" is read from stdin with getc.

module Cat {
  import opened Posix
  import opened Domain
  import opened FsuFile
  import opened FsuFileProps

  // fsu_cat's flag bits
  const NOT_NUMBER_BLANK: bv8 := 0x01
  const DOLLAR_EOL: bv8 := 0x02
  const NUMBER: bv8 := 0x04
  const SINGLE_NL: bv8 := 0x08
  const TAB_FLAG: bv8 := 0x10
  const NON_PRINTING: bv8 := 0x20

  predicate Has(flags: bv8, bit: bv8) { flags & bit != 0 }

  // The characters the loop looks at, as the int getc and fsu_fgetc return
  const NL: int := 10
  const TAB: int := 9

  /** A byte putchar writes, as the unsigned char's value. */
  type Octet = x: int | 0 <= x < 256

  // The bytes it writes
  const NL_B: Octet := 10
  const TAB_B: Octet := 9
  const SPACE_B: Octet := 32
  const DOLLAR_B: Octet := 36
  const CARET_B: Octet := 94
  const I_B: Octet := 73
  const M_B: Octet := 77
  const DASH_B: Octet := 45
  const QUESTION_B: Octet := 63

  // ---------------------------------------------------------------------
  // Options

  /** The letters of getopt's "benstv". */
  predicate Known(c: char) { c == 'b' || c == 'e' || c == 'n' || c == 's' || c == 't' || c == 'v' }

  /** The bits one option letter sets: -b implies -n, -e and -t imply -v. */
  function LetterFlags(c: char): bv8 {
    if c == 'b' then NOT_NUMBER_BLANK | NUMBER
    else if c == 'e' then DOLLAR_EOL | NON_PRINTING
    else if c == 'n' then NUMBER
    else if c == 's' then SINGLE_NL
    else if c == 't' then TAB_FLAG | NON_PRINTING
    else if c == 'v' then NON_PRINTING
    else 0
  }

  /** The flags accumulated over the option letters. */
  function FlagsOf(letters: string): bv8 {
    if |letters| == 0 then 0 else FlagsOf(letters[..|letters| - 1]) | LetterFlags(letters[|letters| - 1])
  }

  /** fsu_cat_parse_arg over the letters getopt hands back: None when one is unknown (usage() exits). */
  function ParseF(letters: string): Option<bv8> {
    if exists k :: 0 <= k < |letters| && !Known(letters[k]) then None else Some(FlagsOf(letters))
  }

  /** fsu_cat_parse_arg's getopt loop. */
  method ParseArg(letters: string) returns (r: Option<bv8>)
    ensures r == ParseF(letters)
  {
    var flags: bv8 := 0;
    var i := 0;
    while i < |letters|
      invariant 0 <= i <= |letters|
      invariant forall k :: 0 <= k < i ==> Known(letters[k])
      invariant flags == FlagsOf(letters[..i])
    {
      assert letters[..i + 1][..i] == letters[..i];
      var c := letters[i];
      if c == 'b' {
        flags := flags | (NOT_NUMBER_BLANK | NUMBER);
      } else if c == 'e' {
        flags := flags | (DOLLAR_EOL | NON_PRINTING);
      } else if c == 'n' {
        flags := flags | NUMBER;
      } else if c == 's' {
        flags := flags | SINGLE_NL;
      } else if c == 't' {
        flags := flags | (TAB_FLAG | NON_PRINTING);
      } else if c == 'v' {
        flags := flags | NON_PRINTING;
      } else {
        return None;
      }
      i := i + 1;
    }
    assert letters[..i] == letters;
    r := Some(flags);
  }

  // ---------------------------------------------------------------------
  // "%6d"

  /** The decimal digits of n, most significant first. */
  function Decimal(n: nat): (r: seq<Octet>)
    ensures |r| >= 1
  {
    if n < 10 then [Byte(48 + n)] else Decimal(n / 10) + [Byte(48 + n % 10)]
  }

  function Spaces(k: nat): (r: seq<Octet>)
    ensures |r| == k && forall i :: 0 <= i < k ==> r[i] == SPACE_B
  {
    seq(k, _ => SPACE_B)
  }

  /** printf's "%6d" of a positive line number: the digits right-aligned in six columns. */
  function Num6(n: nat): seq<Octet> {
    var d := Decimal(n);
    (if |d| < 6 then Spaces(6 - |d|) else []) + d
  }

  // ---------------------------------------------------------------------
  // One character

  predicate IsAscii(c: int) { 0 <= c < 128 }

  /** iscntrl on an ASCII value. */
  predicate IsCntrl(c: int) { 0 <= c < 32 || c == 127 }

  /** putchar's byte: the int converted to unsigned char. */
  function Byte(c: int): Octet { c % 256 }

  /**
   * What the loop prints for ch after any line-number prefix, and the value
   * ch holds afterwards (toascii may have changed it, and prev takes that
   * value): '$' before a newline under -e; "^I" for a tab under -t; under
   * -v "M-" and toascii for non-ASCII, then '^' and ch | 0100 for a control
   * character, "^?" for DEL; otherwise the character itself.
   */
  function Body(flags: bv8, ch: int): (r: (seq<Octet>, int))
    ensures |r.0| >= 1
  {
    if ch == NL then (if Has(flags, DOLLAR_EOL) then [DOLLAR_B, NL_B] else [NL_B], ch)
    else if ch == TAB then (if Has(flags, TAB_FLAG) then [CARET_B, I_B] else [TAB_B], ch)
    else if Has(flags, NON_PRINTING) then
      var m: seq<Octet> := if IsAscii(ch) then [] else [M_B, DASH_B];
      var c := if IsAscii(ch) then ch else ch % 128;
      if IsCntrl(c) then (m + [CARET_B, if c == 127 then QUESTION_B else Byte(c + 64)], c)
      else (m + [Byte(c)], c)
    else ([Byte(ch)], ch)
  }

  // ---------------------------------------------------------------------
  // The loop

  /** The loop's variables besides ch: the previous character, whether empty lines are being gobbled, the line counter. */
  datatype Cook = Cook(prev: int, gobble: bool, line: nat)

  /** prev starts as '\n', so the first character begins a line. */
  const Start := Cook(NL, false, 0)

  /** One turn of fsu_cook_buf's loop on ch: the new loop state and the bytes printed. */
  function CookStep(flags: bv8, st: Cook, ch: int): (Cook, seq<Octet>) {
    var bflag := Has(flags, NOT_NUMBER_BLANK);
    var eflag := Has(flags, DOLLAR_EOL);
    var nflag := Has(flags, NUMBER);
    if st.prev == NL && ch == NL && Has(flags, SINGLE_NL) then
      if st.gobble then (Cook(ch, true, st.line), [])
      else if nflag && !bflag then (Cook(ch, true, st.line + 1), Num6(st.line + 1) + [TAB_B, NL_B])
      else (Cook(ch, true, st.line), [NL_B])
    else
      var numbered := st.prev == NL && nflag && (ch != NL || !bflag);
      var pre :=
        if numbered then Num6(st.line + 1) + [TAB_B]
        else if st.prev == NL && ch == NL && nflag && eflag then Spaces(6) + [TAB_B]
        else [];
      var (body, c) := Body(flags, ch);
      (Cook(c, false, if numbered then st.line + 1 else st.line), pre + body)
  }

  /** The bytes the loop prints for the characters src from state st on. */
  function CookFrom(flags: bv8, st: Cook, src: seq<int>): seq<Octet>
    decreases |src|
  {
    if |src| == 0 then []
    else
      var (st1, o) := CookStep(flags, st, src[0]);
      o + CookFrom(flags, st1, src[1..])
  }

  /** What fsu_cook_buf prints for the characters it reads. */
  function CookF(flags: bv8, src: seq<int>): seq<Octet> {
    CookFrom(flags, Start, src)
  }

  /** The values getc(stdin) returns before EOF: every byte as an unsigned char. */
  function StdinChars(s: seq<bv8>): (r: seq<int>)
    ensures |r| == |s|
  {
    if |s| == 0 then [] else [s[0] as int] + StdinChars(s[1..])
  }

  lemma CookFromStep(flags: bv8, st: Cook, ch: int, rest: seq<int>)
    ensures CookFrom(flags, st, [ch] + rest) == CookStep(flags, st, ch).1 + CookFrom(flags, CookStep(flags, st, ch).0, rest)
  {
    assert ([ch] + rest)[1..] == rest;
  }

  /**
   * The body of fsu_cook_buf's loop for one character ch: the line-start
   * handling (-s gobbling, -n/-b numbering, the blank prefix of -b -e), then
   * the character itself.
   */
  method Turn(flags: bv8, st: Cook, ch: int) returns (st1: Cook, o: seq<Octet>)
    ensures (st1, o) == CookStep(flags, st, ch)
  {
    var bflag := Has(flags, NOT_NUMBER_BLANK);
    var eflag := Has(flags, DOLLAR_EOL);
    var nflag := Has(flags, NUMBER);
    var sflag := Has(flags, SINGLE_NL);
    var line := st.line;
    var gobble := st.gobble;
    var c := ch;
    o := [];
    if st.prev == NL && ch == NL && sflag {
      if !gobble && nflag && !bflag {
        line := line + 1;
        o := Num6(line) + [TAB_B, NL_B];
      } else if !gobble {
        o := [NL_B];
      }
      gobble := true;
    } else {
      if st.prev == NL {
        if ch == NL {
          if nflag {
            if !bflag {
              line := line + 1;
              o := Num6(line) + [TAB_B];
            } else if eflag {
              o := Spaces(6) + [TAB_B];
            }
          }
        } else if nflag {
          line := line + 1;
          o := Num6(line) + [TAB_B];
        }
      }
      gobble := false;
      var (body, c1) := Body(flags, ch);
      o := o + body;
      c := c1;
    }
    st1 := Cook(c, gobble, line);
  }

  /** The characters the loop has still to read: stdin's from position i, or the FSU_FILE's from fd_fpos. */
  ghost function Rest(f: File?, stdin: seq<bv8>, i: nat): seq<int>
    reads f
    requires i <= |stdin| && (f != null ==> f.fpos >= 0)
  {
    if f == null then StdinChars(stdin[i..]) else Stream(f.data, f.fpos)
  }

  /** How far the reading has still to go. */
  ghost function Left(f: File?, stdin: seq<bv8>, i: nat): int
    reads f
  {
    if f == null then |stdin| - i else |f.data| - f.fpos
  }

  /** The loop condition's read: getc(stdin) when f is null, else the corrected fsu_fgetc; EOF when nothing is left. */
  method NextChar(f: File?, stdin: seq<bv8>, i: nat) returns (ch: int, i1: nat)
    requires i <= |stdin|
    requires f != null ==> f.Valid() && Mirror(f.Now()) && Readable(f.dev) && f.mode == FSU_FILE_READ
    modifies if f == null then {} else {f, f.buf}
    ensures i1 <= |stdin|
    ensures f != null ==> f.Valid() && Mirror(f.Now()) && f.data == old(f.data)
    ensures ch == EOF ==> old(Rest(f, stdin, i)) == []
    ensures ch != EOF ==> old(Rest(f, stdin, i)) == [ch] + Rest(f, stdin, i1) && 0 <= Left(f, stdin, i1) < old(Left(f, stdin, i))
  {
    if f == null {
      if i == |stdin| {
        return EOF, i;
      }
      ch, i1 := stdin[i] as int, i + 1;
      assert stdin[i..][1..] == stdin[i + 1..];
    } else {
      ghost var s0 := f.Now();
      FgetcFixedReads(s0, f.dev, f.mode);
      var r := f.FgetcFixed();
      ch, i1 := r.v, i;
      if s0.fpos < |s0.data| {
        SignedEof(s0.data[s0.fpos]);
      }
    }
  }

  /**
   * fsu_cook_buf's loop. The characters come from stdin when f is null, and
   * through the corrected fsu_fgetc from the FSU_FILE otherwise; the bytes
   * written to stdout are returned.
   */
  method CookBuf(f: File?, stdin: seq<bv8>, flags: bv8) returns (out: seq<Octet>)
    requires f != null ==> f.Valid() && Mirror(f.Now()) && Readable(f.dev) && f.mode == FSU_FILE_READ
    modifies if f == null then {} else {f, f.buf}
    ensures f == null ==> out == CookF(flags, StdinChars(stdin))
    ensures f != null ==> out == CookF(flags, Stream(old(f.data), old(f.fpos)))
    ensures f != null ==> f.Valid() && Mirror(f.Now()) && f.data == old(f.data)
  {
    ghost var all := Rest(f, stdin, 0);
    assert stdin[0..] == stdin;
    var st := Start;
    var i: nat := 0;
    out := [];
    while true
      invariant i <= |stdin|
      invariant f != null ==> f.Valid() && Mirror(f.Now()) && f.data == old(f.data)
      invariant out + CookFrom(flags, st, Rest(f, stdin, i)) == CookFrom(flags, Start, all)
      decreases Left(f, stdin, i)
    {
      ghost var rest := Rest(f, stdin, i);
      var ch, i1 := NextChar(f, stdin, i);
      if ch == EOF {
        break;
      }
      CookFromStep(flags, st, ch, Rest(f, stdin, i1));
      var o;
      st, o := Turn(flags, st, ch);
      out := out + o;
      i := i1;
    }
  }

  // ---------------------------------------------------------------------
  // One operand

  /** What fsu_cat did with one operand: the raw copy (not modelled), the status and what it printed, or an abort. */
  datatype Catted = RawCopy | Printed(rv: int, out: seq<Octet>) | Crashed(out: seq<Octet>)

  /** The bytes fsu_fopen(name, "r") gives access to: the regular file's data, nothing for other objects. */
  function FileBytes(fs: Fs, name: string): seq<bv8> {
    match Resolve(fs, name, MAXSYMLINKS)
    case Ok(k) => if fs.files[k].content.Data? then fs.files[k].content.bytes else []
    case Fail(_) => []
  }

  /** The error open(2) gives for name, or NoError. */
  function OpenErr(fs: Fs, name: string): Errno {
    var r := OpenF(fs, name, O_RDONLY, 0);
    if r.Fail? then r.err else NoError
  }

  /** What fsu_cook_buf prints: stdin cooked for "-", the file cooked through fsu_fgetc, nothing when fsu_fopen fails. */
  function CookedOut(fs: Fs, name: string, flags: bv8, stdin: seq<bv8>): seq<Octet> {
    if name == "-" then CookF(flags, StdinChars(stdin))
    else if OpenErr(fs, name) != NoError then []
    else CookF(flags, Stream(FileBytes(fs, name), 0))
  }

  /**
   * fsu_cat, with fsu_cook_buf closing only the FSU_FILE it opened: a failed
   * stat is an error unless the operand is "-", a directory is rejected, no
   * flags means the raw copy, and otherwise the cooked bytes are printed and
   * stat's result is returned.
   */
  function CatF(fs: Fs, name: string, flags: bv8, stdin: seq<bv8>): Catted {
    var st := StatF(fs, name);
    if st.Fail? && name != "-" then Printed(-1, [])
    else if st.Ok? && IsDir(st.value.mode) then Printed(-1, [])
    else if flags == 0 then RawCopy
    else Printed(if st.Fail? then -1 else 0, CookedOut(fs, name, flags, stdin))
  }

  /**
   * fsu_cat as written: for "-" fsu_cook_buf leaves file NULL and still
   * ends with fsu_fclose(file), whose assert(file != NULL) aborts the
   * program after the cooked bytes were printed.
   */
  function CatAsWrittenF(fs: Fs, name: string, flags: bv8, stdin: seq<bv8>): Catted {
    var r := CatF(fs, name, flags, stdin);
    if name == "-" && r.Printed? && flags != 0 then Crashed(r.out) else r
  }

  /** fsu_cat on one operand, reading a file through an FSU_FILE whose buffer initially holds buf0. */
  method CatOne(fs: Fs, name: string, flags: bv8, stdin: seq<bv8>, buf0: seq<bv8>) returns (r: Catted)
    requires |buf0| == BUFSIZE
    ensures r == CatF(fs, name, flags, stdin)
  {
    var st := StatF(fs, name);
    if st.Fail? && name != "-" {
      return Printed(-1, []);
    }
    if st.Ok? && IsDir(st.value.mode) {
      return Printed(-1, []);
    }
    if flags == 0 {
      return RawCopy;
    }
    var out: seq<Octet>;
    if name == "-" {
      out := CookBuf(null, stdin, flags);
    } else {
      var f := File.Open("r", 0, FileBytes(fs, name), buf0, NoError, OpenErr(fs, name), 0, NoError);
      assert OpenFlags("r") == O_RDONLY;
      if f == null {
        out := [];
      } else {
        OpenedMirrors("r", 0, FileBytes(fs, name), buf0, NoError);
        out := CookBuf(f, [], flags);
        var _ := f.Fflush();
      }
    }
    r := Printed(if st.Fail? then -1 else 0, out);
  }

  // ---------------------------------------------------------------------
  // main

  /** The status fsu_cat returned for one operand; rawFails says whether fsu_raw_cat failed on it. */
  function RvOf(r: Catted, rawFails: bool): int {
    match r
    case RawCopy => if rawFails then -1 else 0
    case Printed(rv, _) => rv
    case Crashed(_) => -1
  }

  /** How main ends: usage() with status 1, or the status and each operand's result. */
  datatype CatRun = Usage | Ran(rv: int, results: seq<Catted>)

  /** rv |= fsu_cat(…) over the operands; each result is 0 or -1, so rv is -1 when one failed. */
  function CatAllF(fs: Fs, names: seq<string>, flags: bv8, stdin: seq<bv8>, rawFails: set<string>): (r: (int, seq<Catted>))
    ensures |r.1| == |names|
  {
    if |names| == 0 then (0, [])
    else
      var (rv, done) := CatAllF(fs, names[..|names| - 1], flags, stdin, rawFails);
      var last := names[|names| - 1];
      var one := CatF(fs, last, flags, stdin);
      (if RvOf(one, last in rawFails) == -1 then -1 else rv, done + [one])
  }

  /** main: usage() when an option is unknown or no operand is left, else every operand in order. */
  function CatMainF(fs: Fs, letters: string, names: seq<string>, stdin: seq<bv8>, rawFails: set<string>): CatRun {
    match ParseF(letters)
    case None => Usage
    case Some(flags) =>
      if |names| < 1 then Usage
      else
        var (rv, results) := CatAllF(fs, names, flags, stdin, rawFails);
        Ran(rv, results)
  }

  /** main's loop over the operands. */
  method CatMain(fs: Fs, letters: string, names: seq<string>, stdin: seq<bv8>, rawFails: set<string>,
                 buf0: seq<bv8>) returns (r: CatRun)
    requires |buf0| == BUFSIZE
    ensures r == CatMainF(fs, letters, names, stdin, rawFails)
  {
    var parsed := ParseArg(letters);
    if parsed.None? || |names| < 1 {
      return Usage;
    }
    var flags := parsed.value;
    var rv := 0;
    var results: seq<Catted> := [];
    var i := 0;
    while i < |names|
      invariant 0 <= i <= |names|
      invariant (rv, results) == CatAllF(fs, names[..i], flags, stdin, rawFails)
    {
      assert names[..i + 1][..i] == names[..i];
      var one := CatOne(fs, names[i], flags, stdin, buf0);
      if RvOf(one, names[i] in rawFails) == -1 {
        rv := -1;
      }
      results := results + [one];
      i := i + 1;
    }
    assert names[..i] == names;
    r := Ran(rv, results);
  }
}

=== FILE: cat_props.dfy ===
// What fsu_cat's options mean, proved about the cooking loop: the option
// implications, the line numbering of -n and -b against a line-by-line
// reference, the squeezing of -s against a per-position rule, the visible
// output of -v, the '$' of -e, where the input ends, and the exit status.

module CatProps {
  import opened Posix
  import opened Domain
  import opened FsuFile
  import opened FsuFileProps
  import opened Cat

  // ---------------------------------------------------------------------
  // Options

  /** The letter c is among the options. */
  predicate Gave(letters: string, c: char) {
    exists k :: 0 <= k < |letters| && letters[k] == c
  }

  lemma OrBit(a: bv8, b: bv8, bit: bv8)
    ensures (a | b) & bit != 0 <==> a & bit != 0 || b & bit != 0
  {
  }

  /** The letter c sets bit. */
  predicate Sets(c: char, bit: bv8) { LetterFlags(c) & bit != 0 }

  /** Some letter sets bit. */
  predicate SetIn(letters: string, bit: bv8) {
    exists k :: 0 <= k < |letters| && Sets(letters[k], bit)
  }

  lemma SetInSnoc(p: string, c: char, bit: bv8)
    ensures SetIn(p + [c], bit) <==> SetIn(p, bit) || Sets(c, bit)
  {
    var l := p + [c];
    if Sets(c, bit) {
      assert l[|p|] == c;
    }
    if SetIn(p, bit) {
      var k :| 0 <= k < |p| && Sets(p[k], bit);
      assert l[k] == p[k];
    }
    if SetIn(l, bit) {
      var k :| 0 <= k < |l| && Sets(l[k], bit);
      if k < |p| {
        assert p[k] == l[k];
      }
    }
  }

  /** A bit is set in the accumulated flags exactly when some letter sets it. */
  lemma {:induction false} FlagsBit(letters: string, bit: bv8)
    ensures FlagsOf(letters) & bit != 0 <==> SetIn(letters, bit)
  {
    if |letters| > 0 {
      var p := letters[..|letters| - 1];
      var c := letters[|letters| - 1];
      FlagsBit(p, bit);
      OrBit(FlagsOf(p), LetterFlags(c), bit);
      assert letters == p + [c];
      SetInSnoc(p, c, bit);
    }
  }

  /** Some letter sets the bit iff one of the letters cs is given. */
  lemma SetBy(letters: string, bit: bv8, cs: set<char>)
    requires forall c :: Sets(c, bit) <==> c in cs
    ensures FlagsOf(letters) & bit != 0 <==> exists c :: c in cs && Gave(letters, c)
  {
    FlagsBit(letters, bit);
    if SetIn(letters, bit) {
      var k :| 0 <= k < |letters| && Sets(letters[k], bit);
      assert Gave(letters, letters[k]);
    }
    if exists c :: c in cs && Gave(letters, c) {
      var c :| c in cs && Gave(letters, c);
      var k :| 0 <= k < |letters| && letters[k] == c;
      assert Sets(letters[k], bit);
    }
  }

  /** The flags are 0 exactly when no letter was given, as long as every letter is known. */
  lemma {:induction false} FlagsZero(letters: string)
    requires forall k :: 0 <= k < |letters| ==> Known(letters[k])
    ensures FlagsOf(letters) == 0 <==> |letters| == 0
  {
    if |letters| > 0 {
      var c := letters[|letters| - 1];
      assert LetterFlags(c) != 0;
      assert FlagsOf(letters) == FlagsOf(letters[..|letters| - 1]) | LetterFlags(c);
    }
  }

  /**
   * fsu_cat_parse_arg: an unknown letter ends in usage(); otherwise -b sets
   * NUMBER as well as NOT_NUMBER_BLANK, -e and -t set NON_PRINTING as well,
   * every bit is set only by its letters, and the flags are 0 only when no
   * option was given.
   */
  lemma ParseMeaning(letters: string)
    ensures ParseF(letters).None? <==> exists k :: 0 <= k < |letters| && !Known(letters[k])
    ensures ParseF(letters).Some? ==>
      var f := ParseF(letters).value;
      && (Has(f, NOT_NUMBER_BLANK) <==> Gave(letters, 'b'))
      && (Has(f, NUMBER) <==> Gave(letters, 'b') || Gave(letters, 'n'))
      && (Has(f, DOLLAR_EOL) <==> Gave(letters, 'e'))
      && (Has(f, SINGLE_NL) <==> Gave(letters, 's'))
      && (Has(f, TAB_FLAG) <==> Gave(letters, 't'))
      && (Has(f, NON_PRINTING) <==> Gave(letters, 'e') || Gave(letters, 't') || Gave(letters, 'v'))
      && (f == 0 <==> |letters| == 0)
  {
    if ParseF(letters).Some? {
      SetBy(letters, NOT_NUMBER_BLANK, {'b'});
      SetBy(letters, NUMBER, {'b', 'n'});
      SetBy(letters, DOLLAR_EOL, {'e'});
      SetBy(letters, SINGLE_NL, {'s'});
      SetBy(letters, TAB_FLAG, {'t'});
      SetBy(letters, NON_PRINTING, {'e', 't', 'v'});
      FlagsZero(letters);
    }
  }

  // ---------------------------------------------------------------------
  // "%6d"

  /** The value of one decimal digit, 0 for anything else. */
  function DigitOf(b: Octet): nat {
    if 48 <= b <= 57 then b - 48 else 0
  }

  /** The number a string of decimal digits denotes. */
  function DigitsValue(d: seq<Octet>): nat {
    if |d| == 0 then 0 else DigitsValue(d[..|d| - 1]) * 10 + DigitOf(d[|d| - 1])
  }

  /** The digits after the leading spaces. */
  function DropSpaces(s: seq<Octet>): seq<Octet> {
    if |s| > 0 && s[0] == SPACE_B then DropSpaces(s[1..]) else s
  }

  lemma {:induction false} DecimalDigits(n: nat)
    ensures forall i :: 0 <= i < |Decimal(n)| ==> 48 <= Decimal(n)[i] <= 57
  {
    if n >= 10 {
      DecimalDigits(n / 10);
    }
  }

  lemma {:induction false} DecimalValue(n: nat)
    ensures DigitsValue(Decimal(n)) == n
  {
    if n >= 10 {
      DecimalValue(n / 10);
      var d := Decimal(n);
      var r := n % 10;
      assert d == Decimal(n / 10) + [Byte(48 + r)];
      assert d[..|d| - 1] == Decimal(n / 10);
      assert DigitOf(d[|d| - 1]) == r;
      assert n == n / 10 * 10 + r;
    } else {
      assert DigitOf(Byte(48 + n)) == n;
    }
  }

  lemma {:induction false} DropSpacesOver(k: nat, d: seq<Octet>)
    requires |d| > 0 && d[0] != SPACE_B
    ensures DropSpaces(Spaces(k) + d) == d
  {
    if k > 0 {
      assert (Spaces(k) + d)[1..] == Spaces(k - 1) + d;
      DropSpacesOver(k - 1, d);
    }
  }

  /**
   * "%6d" is at least six columns of spaces and digits (so it holds no tab
   * and no newline), and reading the digits after the spaces gives the
   * number back.
   */
  lemma Num6Reads(n: nat)
    ensures |Num6(n)| >= 6
    ensures forall i :: 0 <= i < |Num6(n)| ==> Num6(n)[i] == SPACE_B || 48 <= Num6(n)[i] <= 57
    ensures DigitsValue(DropSpaces(Num6(n))) == n
  {
    DecimalDigits(n);
    DecimalValue(n);
    var d := Decimal(n);
    var k := if |d| < 6 then 6 - |d| else 0;
    assert Num6(n) == Spaces(k) + d;
    DropSpacesOver(k, d);
  }

  // ---------------------------------------------------------------------
  // Character by character

  /** The escapes of the characters src, one after the other. */
  function Escaped(flags: bv8, src: seq<int>): seq<Octet> {
    if |src| == 0 then [] else Body(flags, src[0]).0 + Escaped(flags, src[1..])
  }

  /** Without -n and -s the loop's state does not matter: each character is escaped on its own. */
  lemma {:induction false} CookCharWise(flags: bv8, st: Cook, src: seq<int>)
    requires !Has(flags, NUMBER) && !Has(flags, SINGLE_NL)
    ensures CookFrom(flags, st, src) == Escaped(flags, src)
    decreases |src|
  {
    if |src| > 0 {
      CookCharWise(flags, CookStep(flags, st, src[0]).0, src[1..]);
    }
  }

  /** A value getc can hand the loop: a signed char from an FSU_FILE or an unsigned char from stdin. */
  predicate InRange(src: seq<int>) {
    forall k :: 0 <= k < |src| ==> -128 <= src[k] < 256
  }

  lemma {:induction false} StreamInRange(data: seq<bv8>, i: nat)
    ensures InRange(Stream(data, i))
    decreases |data| - i
  {
    if i < |data| && data[i] != 0xFF {
      StreamInRange(data, i + 1);
    }
  }

  /** The characters of every operand are in range. */
  lemma CookedInRange(fs: Fs, name: string, stdin: seq<bv8>)
    ensures InRange(StdinChars(stdin)) && InRange(Stream(FileBytes(fs, name), 0))
  {
    StdinAll(stdin);
    StreamInRange(FileBytes(fs, name), 0);
  }

  predicate Printable(b: Octet) { 32 <= b < 127 }

  /** Every byte of s is printable or a newline, or a tab where tabs is set. */
  predicate Visible(s: seq<Octet>, tabs: bool) {
    forall i :: 0 <= i < |s| ==> Printable(s[i]) || s[i] == NL_B || (tabs && s[i] == TAB_B)
  }

  lemma VisibleConcat(a: seq<Octet>, b: seq<Octet>, tabs: bool)
    requires Visible(a, tabs) && Visible(b, tabs)
    ensures Visible(a + b, tabs)
  {
  }

  /** Under -v a character's escape is printable, a newline or a tab; under -t it is never a tab. */
  lemma BodyVisible(flags: bv8, ch: int)
    requires Has(flags, NON_PRINTING)
    ensures Visible(Body(flags, ch).0, !Has(flags, TAB_FLAG))
  {
    if ch != NL && ch != TAB {
      var c := if IsAscii(ch) then ch else ch % 128;
      if IsCntrl(c) {
        if c != 127 {
        }
      } else {
      }
    }
  }

  /** Whether tabs may be printed under flags with -v: unless -t is given without -n. */
  function TabsPrinted(flags: bv8): bool {
    !Has(flags, TAB_FLAG) || Has(flags, NUMBER)
  }

  lemma StepVisible(flags: bv8, st: Cook, ch: int)
    requires Has(flags, NON_PRINTING)
    ensures Visible(CookStep(flags, st, ch).1, TabsPrinted(flags))
  {
    var tabs := TabsPrinted(flags);
    var (st1, o) := CookStep(flags, st, ch);
    BodyVisible(flags, ch);
    var (body, c) := Body(flags, ch);
    Num6Reads(st.line + 1);
    if !(st.prev == NL && ch == NL && Has(flags, SINGLE_NL)) {
      var numbered := st.prev == NL && Has(flags, NUMBER) && (ch != NL || !Has(flags, NOT_NUMBER_BLANK));
      var pre :=
        if numbered then Num6(st.line + 1) + [TAB_B]
        else if st.prev == NL && ch == NL && Has(flags, NUMBER) && Has(flags, DOLLAR_EOL) then Spaces(6) + [TAB_B]
        else [];
      assert o == pre + body;
      assert Visible(pre, tabs);
      VisibleConcat(pre, body, tabs);
    }
  }

  /**
   * Under -v everything fsu_cook_buf prints is printable, a newline or a
   * tab, and under -t without -n not even a tab.
   */
  lemma {:induction false} CookVisible(flags: bv8, st: Cook, src: seq<int>)
    requires Has(flags, NON_PRINTING)
    ensures Visible(CookFrom(flags, st, src), TabsPrinted(flags))
    decreases |src|
  {
    if |src| > 0 {
      var (st1, o) := CookStep(flags, st, src[0]);
      StepVisible(flags, st, src[0]);
      CookVisible(flags, st1, src[1..]);
      VisibleConcat(o, CookFrom(flags, st1, src[1..]), TabsPrinted(flags));
    }
  }

  /** Every newline in s comes right after a '$'. */
  predicate DollarBeforeNewline(s: seq<Octet>) {
    forall i :: 0 <= i < |s| && s[i] == NL_B ==> i > 0 && s[i - 1] == DOLLAR_B
  }

  lemma DollarConcat(a: seq<Octet>, b: seq<Octet>)
    requires DollarBeforeNewline(a) && DollarBeforeNewline(b)
    ensures DollarBeforeNewline(a + b)
  {
    forall i | 0 <= i < |a + b| && (a + b)[i] == NL_B
      ensures i > 0 && (a + b)[i - 1] == DOLLAR_B
    {
      if i >= |a| {
        assert (a + b)[i] == b[i - |a|];
        assert i - |a| > 0 && (a + b)[i - 1] == b[i - |a| - 1];
      }
    }
  }

  /** Only a newline character is printed with a newline byte in its escape. */
  lemma BodyNoNewline(flags: bv8, ch: int)
    requires ch != NL && -128 <= ch < 256
    ensures forall i :: 0 <= i < |Body(flags, ch).0| ==> Body(flags, ch).0[i] != NL_B
  {
    if ch != TAB {
      if Has(flags, NON_PRINTING) {
        var c := if IsAscii(ch) then ch else ch % 128;
        if IsCntrl(c) {
          if c != 127 {
            }
        } else {
          }
      } else {
      }
    }
  }

  lemma StepDollar(flags: bv8, st: Cook, ch: int)
    requires Has(flags, DOLLAR_EOL) && !Has(flags, SINGLE_NL) && -128 <= ch < 256
    ensures DollarBeforeNewline(CookStep(flags, st, ch).1)
  {
    var (st1, o) := CookStep(flags, st, ch);
    var (body, c) := Body(flags, ch);
    Num6Reads(st.line + 1);
    var numbered := st.prev == NL && Has(flags, NUMBER) && (ch != NL || !Has(flags, NOT_NUMBER_BLANK));
    var pre :=
      if numbered then Num6(st.line + 1) + [TAB_B]
      else if st.prev == NL && ch == NL && Has(flags, NUMBER) then Spaces(6) + [TAB_B]
      else [];
    assert o == pre + body;
    assert DollarBeforeNewline(pre);
    if ch != NL {
      BodyNoNewline(flags, ch);
    }
    assert DollarBeforeNewline(body);
    DollarConcat(pre, body);
  }

  /** Under -e without -s every newline printed follows a '$'. */
  lemma {:induction false} CookDollar(flags: bv8, st: Cook, src: seq<int>)
    requires Has(flags, DOLLAR_EOL) && !Has(flags, SINGLE_NL) && InRange(src)
    ensures DollarBeforeNewline(CookFrom(flags, st, src))
    decreases |src|
  {
    if |src| > 0 {
      var (st1, o) := CookStep(flags, st, src[0]);
      StepDollar(flags, st, src[0]);
      CookDollar(flags, st1, src[1..]);
      DollarConcat(o, CookFrom(flags, st1, src[1..]));
    }
  }

  /** So under -e without -s every line fsu_cat prints for an operand ends in "$\n", and under -v the output is visible. */
  lemma CookedOutShape(fs: Fs, name: string, flags: bv8, stdin: seq<bv8>)
    ensures Has(flags, DOLLAR_EOL) && !Has(flags, SINGLE_NL) ==> DollarBeforeNewline(CookedOut(fs, name, flags, stdin))
    ensures Has(flags, NON_PRINTING) ==> Visible(CookedOut(fs, name, flags, stdin), TabsPrinted(flags))
  {
    CookedInRange(fs, name, stdin);
    if Has(flags, DOLLAR_EOL) && !Has(flags, SINGLE_NL) {
      CookDollar(flags, Start, StdinChars(stdin));
      CookDollar(flags, Start, Stream(FileBytes(fs, name), 0));
    }
    if Has(flags, NON_PRINTING) {
      CookVisible(flags, Start, StdinChars(stdin));
      CookVisible(flags, Start, Stream(FileBytes(fs, name), 0));
    }
  }

  /**
   * Under -s the empty line that is kept is printed without -e's '$': from
   * the start of the input, a lone newline comes out as a bare newline.
   */
  lemma SqueezedLineHasNoDollar()
    ensures CookF(SINGLE_NL | DOLLAR_EOL | NON_PRINTING, [NL]) == [NL_B]
    ensures CookF(DOLLAR_EOL | NON_PRINTING, [NL]) == [DOLLAR_B, NL_B]
  {
    var f := SINGLE_NL | DOLLAR_EOL | NON_PRINTING;
    var g := DOLLAR_EOL | NON_PRINTING;
    assert Has(f, SINGLE_NL) && !Has(f, NUMBER);
    assert !Has(g, SINGLE_NL) && !Has(g, NUMBER) && Has(g, DOLLAR_EOL);
    CookFromStep(f, Start, NL, []);
    CookFromStep(g, Start, NL, []);
    assert [NL] + [] == [NL];
    assert Body(g, NL).0 == [DOLLAR_B, NL_B];
    assert CookStep(f, Start, NL).1 == [NL_B];
    assert CookStep(g, Start, NL).1 == [DOLLAR_B, NL_B];
    assert CookFrom(f, CookStep(f, Start, NL).0, []) == [];
    assert CookFrom(g, CookStep(g, Start, NL).0, []) == [];
  }

  /**
   * -v changes ch before prev takes its value: the byte 0x8A (read as the
   * signed char -118) is printed as "M-^J" and, being '\n' once toascii'd,
   * makes the next character begin a numbered line.
   */
  lemma MetaNewlineStartsLine()
    ensures CookF(NUMBER | NON_PRINTING, [-118, 97]) ==
      Num6(1) + [TAB_B, M_B, DASH_B, CARET_B, 74] + Num6(2) + [TAB_B, 97]
  {
    var f := NUMBER | NON_PRINTING;
    assert Has(f, NUMBER) && Has(f, NON_PRINTING) && !Has(f, SINGLE_NL) && !Has(f, NOT_NUMBER_BLANK);
    assert !Has(f, DOLLAR_EOL) && !Has(f, TAB_FLAG);
    assert Body(f, -118).0 == [M_B, DASH_B, CARET_B, 74] && Body(f, -118).1 == NL;
    assert Body(f, 97).0 == [97] && Body(f, 97).1 == 97;
    var s1 := Cook(NL, false, 1);
    assert CookStep(f, Start, -118).0 == s1;
    assert CookStep(f, Start, -118).1 == Num6(1) + [TAB_B] + [M_B, DASH_B, CARET_B, 74];
    assert CookStep(f, s1, 97).0 == Cook(97, false, 2);
    assert CookStep(f, s1, 97).1 == Num6(2) + [TAB_B] + [97];
    assert [97] + [] == [97];
    assert CookFrom(f, Cook(97, false, 2), []) == [];
    CookFromStep(f, Start, -118, [97]);
    CookFromStep(f, s1, 97, []);
    assert [-118, 97] == [-118] + [97];
  }

  // ---------------------------------------------------------------------
  // Numbering

  /** The index just past the first newline of src, or |src| when there is none. */
  function LineEnd(src: seq<int>): (e: nat)
    ensures e <= |src| && (|src| > 0 ==> e > 0)
  {
    if |src| == 0 then 0 else if src[0] == NL then 1 else 1 + LineEnd(src[1..])
  }

  /** The bytes putchar writes for the characters src. */
  function Bytes(src: seq<int>): seq<Octet> {
    if |src| == 0 then [] else [Byte(src[0])] + Bytes(src[1..])
  }

  /**
   * The reference numbering, line by line: each line gets "%6d\t" and the
   * next number, starting from k; with blank, an empty line gets neither.
   */
  function NumberLines(src: seq<int>, k: nat, blank: bool): seq<Octet>
    decreases |src|
  {
    if |src| == 0 then []
    else if blank && src[0] == NL then [NL_B] + NumberLines(src[1..], k, blank)
    else
      var e := LineEnd(src);
      Num6(k) + [TAB_B] + Bytes(src[..e]) + NumberLines(src[e..], k + 1, blank)
  }

  /** The flags of -n, or of -b when blank. */
  function NumberFlags(blank: bool): bv8 {
    if blank then NOT_NUMBER_BLANK | NUMBER else NUMBER
  }

  /** Without -e, -t and -v a character is printed as itself. */
  lemma BodyPlain(flags: bv8, ch: int)
    requires !Has(flags, DOLLAR_EOL) && !Has(flags, TAB_FLAG) && !Has(flags, NON_PRINTING)
    ensures Body(flags, ch).0 == [Byte(ch)] && Body(flags, ch).1 == ch
  {
    assert Byte(NL) == NL_B && Byte(TAB) == TAB_B;
  }

  lemma NumberStep(blank: bool, st: Cook, ch: int)
    ensures var (st1, o) := CookStep(NumberFlags(blank), st, ch);
      var numbered := st.prev == NL && (ch != NL || !blank);
      && st1 == Cook(ch, false, if numbered then st.line + 1 else st.line)
      && o == (if numbered then Num6(st.line + 1) + [TAB_B] else []) + [Byte(ch)]
  {
    var f := NumberFlags(blank);
    assert Has(f, NUMBER) && !Has(f, SINGLE_NL) && !Has(f, DOLLAR_EOL);
    assert Has(f, NOT_NUMBER_BLANK) == blank;
    BodyPlain(f, ch);
  }

  /**
   * The numbering character by character: n lines numbered so far, start
   * when the previous character was a newline.
   */
  function NumberChars(src: seq<int>, n: nat, start: bool, blank: bool): seq<Octet>
    decreases |src|
  {
    if |src| == 0 then []
    else
      var ch := src[0];
      var numbered := start && (ch != NL || !blank);
      (if numbered then Num6(n + 1) + [TAB_B] else []) + [Byte(ch)]
        + NumberChars(src[1..], if numbered then n + 1 else n, ch == NL, blank)
  }

  /** Under -n or -b alone the loop prints what NumberChars does. */
  lemma {:induction false} CookNumberChars(blank: bool, st: Cook, src: seq<int>)
    ensures CookFrom(NumberFlags(blank), st, src) == NumberChars(src, st.line, st.prev == NL, blank)
    decreases |src|
  {
    if |src| > 0 {
      NumberStep(blank, st, src[0]);
      CookNumberChars(blank, CookStep(NumberFlags(blank), st, src[0]).0, src[1..]);
    }
  }

  /** Inside a line, the characters are copied up to the end of the line and then numbered from k on. */
  predicate InsideOk(blank: bool, k: nat, src: seq<int>)
    requires k >= 1
  {
    NumberChars(src, k - 1, false, blank) == Bytes(src[..LineEnd(src)]) + NumberLines(src[LineEnd(src)..], k, blank)
  }

  /** At the start of a line, the characters are numbered exactly as the line-by-line reference does from k on. */
  predicate StartOk(blank: bool, k: nat, src: seq<int>)
    requires k >= 1
  {
    NumberChars(src, k - 1, true, blank) == NumberLines(src, k, blank)
  }

  lemma BytesCons(ch: int, rest: seq<int>)
    ensures Bytes([ch] + rest) == [Byte(ch)] + Bytes(rest)
  {
    assert ([ch] + rest)[1..] == rest;
  }

  lemma InsideNewline(blank: bool, k: nat, src: seq<int>)
    requires k >= 1 && |src| > 0 && src[0] == NL && StartOk(blank, k, src[1..])
    ensures InsideOk(blank, k, src)
  {
    assert LineEnd(src) == 1 && src[..1] == [NL] + [];
    BytesCons(NL, []);
  }

  lemma InsideOther(blank: bool, k: nat, src: seq<int>)
    requires k >= 1 && |src| > 0 && src[0] != NL && InsideOk(blank, k, src[1..])
    ensures InsideOk(blank, k, src)
  {
    var ch := src[0];
    var e1 := LineEnd(src[1..]);
    var e := LineEnd(src);
    assert e == 1 + e1;
    assert src[..e] == [ch] + src[1..][..e1];
    assert src[1..][e1..] == src[e..];
    BytesCons(ch, src[1..][..e1]);
  }

  lemma StartBlank(k: nat, src: seq<int>)
    requires k >= 1 && |src| > 0 && src[0] == NL && StartOk(true, k, src[1..])
    ensures StartOk(true, k, src)
  {
  }

  lemma StartNewline(blank: bool, k: nat, src: seq<int>)
    requires k >= 1 && |src| > 0 && src[0] == NL && !blank && StartOk(blank, k + 1, src[1..])
    ensures StartOk(blank, k, src)
  {
    assert LineEnd(src) == 1 && src[..1] == [NL] + [];
    BytesCons(NL, []);
  }

  lemma StartOther(blank: bool, k: nat, src: seq<int>)
    requires k >= 1 && |src| > 0 && src[0] != NL && InsideOk(blank, k + 1, src[1..])
    ensures StartOk(blank, k, src)
  {
    var ch := src[0];
    var e1 := LineEnd(src[1..]);
    var e := LineEnd(src);
    assert e == 1 + e1;
    assert src[..e] == [ch] + src[1..][..e1];
    assert src[1..][e1..] == src[e..];
    BytesCons(ch, src[1..][..e1]);
  }

  lemma {:induction false} NumberInside(blank: bool, k: nat, src: seq<int>)
    requires k >= 1
    ensures InsideOk(blank, k, src)
    decreases |src|, 0
  {
    if |src| == 0 {
    } else if src[0] == NL {
      NumberStart(blank, k, src[1..]);
      InsideNewline(blank, k, src);
    } else {
      NumberInside(blank, k, src[1..]);
      InsideOther(blank, k, src);
    }
  }

  lemma {:induction false} NumberStart(blank: bool, k: nat, src: seq<int>)
    requires k >= 1
    ensures StartOk(blank, k, src)
    decreases |src|, 1
  {
    if |src| == 0 {
    } else if blank && src[0] == NL {
      NumberStart(blank, k, src[1..]);
      StartBlank(k, src);
    } else if src[0] == NL {
      NumberStart(blank, k + 1, src[1..]);
      StartNewline(blank, k, src);
    } else {
      NumberInside(blank, k + 1, src[1..]);
      StartOther(blank, k, src);
    }
  }

  lemma CookNumbers(blank: bool, src: seq<int>)
    ensures CookF(NumberFlags(blank), src) == NumberLines(src, 1, blank)
  {
    CookNumberChars(blank, Start, src);
    NumberStart(blank, 1, src);
  }

  /** Under -b -e an empty line at a line start gets six spaces and a tab, and no number. */
  lemma BlankLineUnderBE(st: Cook)
    requires st.prev == NL
    ensures var (st1, o) := CookStep(NOT_NUMBER_BLANK | NUMBER | DOLLAR_EOL | NON_PRINTING, st, NL);
      st1 == Cook(NL, false, st.line) && o == Spaces(6) + [TAB_B, DOLLAR_B, NL_B]
  {
    var f := NOT_NUMBER_BLANK | NUMBER | DOLLAR_EOL | NON_PRINTING;
    assert Has(f, NOT_NUMBER_BLANK) && Has(f, NUMBER) && Has(f, DOLLAR_EOL) && !Has(f, SINGLE_NL);
    assert Body(f, NL).0 == [DOLLAR_B, NL_B] && Body(f, NL).1 == NL;
  }

  // ---------------------------------------------------------------------
  // Squeezing

  /** Under -s the newline at i is not printed: it ends an empty line that follows another empty line (or the start). */
  predicate Dropped(src: seq<int>, i: nat)
    requires i < |src|
  {
    src[i] == NL && i >= 1 && src[i - 1] == NL && (i == 1 || src[i - 2] == NL)
  }

  /** The characters from i on that -s keeps. */
  function Squeezed(src: seq<int>, i: nat): seq<int>
    decreases |src| - i
  {
    if i >= |src| then [] else (if Dropped(src, i) then [] else [src[i]]) + Squeezed(src, i + 1)
  }

  /** The loop's state after the first i characters under -s alone. */
  function SqueezeState(src: seq<int>, i: nat): Cook
    requires i <= |src|
  {
    var prev := if i == 0 then NL else src[i - 1];
    Cook(prev, i >= 1 && src[i - 1] == NL && (i == 1 || src[i - 2] == NL), 0)
  }

  lemma {:induction false} SqueezeFrom(src: seq<int>, i: nat)
    requires i <= |src|
    ensures CookFrom(SINGLE_NL, SqueezeState(src, i), src[i..]) == Bytes(Squeezed(src, i))
    decreases |src| - i
  {
    if i < |src| {
      SqueezeStep(src, i);
      assert src[i..][1..] == src[i + 1..];
      SqueezeFrom(src, i + 1);
      BytesConcat(if Dropped(src, i) then [] else [src[i]], Squeezed(src, i + 1));
    }
  }

  lemma SqueezeStep(src: seq<int>, i: nat)
    requires i < |src|
    ensures var (st1, o) := CookStep(SINGLE_NL, SqueezeState(src, i), src[i]);
      st1 == SqueezeState(src, i + 1) && o == if Dropped(src, i) then [] else [Byte(src[i])]
  {
    assert Has(SINGLE_NL, SINGLE_NL) && !Has(SINGLE_NL, NUMBER);
    BodyPlain(SINGLE_NL, src[i]);
  }

  lemma {:induction false} BytesConcat(a: seq<int>, b: seq<int>)
    ensures Bytes(a + b) == Bytes(a) + Bytes(b)
    decreases |a|
  {
    if |a| > 0 {
      assert (a + b)[0] == a[0] && (a + b)[1..] == a[1..] + b;
      BytesConcat(a[1..], b);
      assert Bytes(a + b) == [Byte(a[0])] + Bytes(a[1..] + b);
    } else {
      assert a + b == b;
    }
  }

  /**
   * cat -s prints a newline unless it ends an empty line that follows
   * another empty line or the start of the input: a run of empty lines
   * comes out as one.
   */
  lemma CookSqueezes(src: seq<int>)
    ensures CookF(SINGLE_NL, src) == Bytes(Squeezed(src, 0))
  {
    assert src[0..] == src;
    SqueezeFrom(src, 0);
  }

  // ---------------------------------------------------------------------
  // Where the input ends

  /** The characters fsu_fgetc hands back are the file's bytes as signed chars up to the first 0xFF. */
  lemma {:induction false} StreamUpTo(data: seq<bv8>, i: nat, j: nat)
    requires i <= j <= |data| && (j == |data| || data[j] == 0xFF)
    requires forall k :: i <= k < j ==> data[k] != 0xFF
    ensures |Stream(data, i)| == j - i
    ensures forall k :: 0 <= k < j - i ==> Stream(data, i)[k] == Signed(data[i + k])
    decreases j - i
  {
    if i < j {
      StreamUpTo(data, i + 1, j);
    }
  }

  /** So the bytes from the first 0xFF on never reach the output: cat stops there as at the end of the file. */
  lemma CookStopsAtFF(flags: bv8, data: seq<bv8>, j: nat)
    requires j < |data| && data[j] == 0xFF && forall k :: 0 <= k < j ==> data[k] != 0xFF
    ensures CookF(flags, Stream(data, 0)) == CookF(flags, Stream(data[..j], 0))
  {
    StreamUpTo(data, 0, j);
    StreamUpTo(data[..j], 0, j);
    assert Stream(data, 0) == Stream(data[..j], 0);
  }

  /**
   * fsu_fgetc is declared to return char (fsu_utils.h:80), so the uint8_t
   * byte 0xFF comes back as the signed char -1, which equals EOF in fsu_cat's
   * int ch: "a\xFFb" under -v prints "a" and nothing after it.
   */
  lemma FfEndsFile()
    ensures Signed(0xFF) == EOF
    ensures Stream([97, 0xFF, 98], 0) == [97]
    ensures CookF(NON_PRINTING, Stream([97, 0xFF, 98], 0)) == [97]
  {
  }

  /** getc(stdin) has no such stop: every byte, 0xFF included, is a character, and none equals EOF. */
  lemma {:induction false} StdinAll(s: seq<bv8>)
    ensures forall k :: 0 <= k < |s| ==> StdinChars(s)[k] == s[k] as int && StdinChars(s)[k] != EOF
  {
    if |s| > 0 {
      StdinAll(s[1..]);
    }
  }

  // ---------------------------------------------------------------------
  // Operands and status

  /**
   * fsu_cat rejects a directory with -1 and prints nothing, whatever the
   * flags; no flags means the raw copy; any flag means the cooked bytes,
   * with status 0 unless stat failed (possible only for "-").
   */
  lemma CatDispatch(fs: Fs, name: string, flags: bv8, stdin: seq<bv8>)
    ensures var st := StatF(fs, name);
      var r := CatF(fs, name, flags, stdin);
      && (st.Ok? && IsDir(st.value.mode) ==> r == Printed(-1, []))
      && (st.Fail? && name != "-" ==> r == Printed(-1, []))
      && (r.RawCopy? <==> flags == 0 && (st.Ok? || name == "-") && !(st.Ok? && IsDir(st.value.mode)))
      && (r.Printed? && flags != 0 && !(st.Ok? && IsDir(st.value.mode)) && (st.Ok? || name == "-") ==>
            r.out == CookedOut(fs, name, flags, stdin) && (r.rv == -1 <==> st.Fail?))
      && (r.Printed? ==> r.rv == 0 || r.rv == -1)
  {
  }

  /** Some operand's status is -1. */
  predicate SomeFailed(names: seq<string>, results: seq<Catted>, rawFails: set<string>)
    requires |results| == |names|
  {
    exists k :: 0 <= k < |names| && RvOf(results[k], names[k] in rawFails) == -1
  }

  lemma SomeFailedSnoc(names: seq<string>, results: seq<Catted>, rawFails: set<string>, n: string, r: Catted)
    requires |results| == |names|
    ensures SomeFailed(names + [n], results + [r], rawFails) <==>
      SomeFailed(names, results, rawFails) || RvOf(r, n in rawFails) == -1
  {
    var ns := names + [n];
    var rs := results + [r];
    if RvOf(r, n in rawFails) == -1 {
      assert ns[|names|] == n && rs[|names|] == r;
    }
    if SomeFailed(names, results, rawFails) {
      var k :| 0 <= k < |names| && RvOf(results[k], names[k] in rawFails) == -1;
      assert ns[k] == names[k] && rs[k] == results[k];
    }
    if SomeFailed(ns, rs, rawFails) {
      var k :| 0 <= k < |ns| && RvOf(rs[k], ns[k] in rawFails) == -1;
      if k < |names| {
        assert ns[k] == names[k] && rs[k] == results[k];
      }
    }
  }

  /** main's status is -1 exactly when some operand's fsu_cat returned -1, else 0; each operand is catted in turn. */
  lemma {:induction false} CatAllStatus(fs: Fs, names: seq<string>, flags: bv8, stdin: seq<bv8>, rawFails: set<string>)
    ensures var (rv, results) := CatAllF(fs, names, flags, stdin, rawFails);
      && (rv == 0 || rv == -1)
      && (rv == -1 <==> SomeFailed(names, results, rawFails))
      && forall k :: 0 <= k < |names| ==> results[k] == CatF(fs, names[k], flags, stdin)
  {
    if |names| > 0 {
      var p := names[..|names| - 1];
      var n := names[|names| - 1];
      CatAllStatus(fs, p, flags, stdin, rawFails);
      var (rv0, done) := CatAllF(fs, p, flags, stdin, rawFails);
      var one := CatF(fs, n, flags, stdin);
      assert names == p + [n];
      SomeFailedSnoc(p, done, rawFails, n, one);
    }
  }

  /** No option letters and no operand both end in usage(). */
  lemma CatUsage(fs: Fs, letters: string, names: seq<string>, stdin: seq<bv8>, rawFails: set<string>)
    ensures CatMainF(fs, letters, names, stdin, rawFails).Usage? <==>
      (exists k :: 0 <= k < |letters| && !Known(letters[k])) || |names| == 0
  {
    ParseMeaning(letters);
  }

  // ---------------------------------------------------------------------
  // "-" with flags

  /**
   * As written, fsu_cat with any flag on the operand "-" (not a directory)
   * prints stdin cooked and then aborts in fsu_fclose(NULL); with the close
   * limited to an opened FSU_FILE it returns stat's status instead.
   */
  lemma StdinCookAborts(fs: Fs, flags: bv8, stdin: seq<bv8>)
    requires flags != 0
    requires !(StatF(fs, "-").Ok? && IsDir(StatF(fs, "-").value.mode))
    ensures CatAsWrittenF(fs, "-", flags, stdin) == Crashed(CookF(flags, StdinChars(stdin)))
    ensures CatF(fs, "-", flags, stdin) == Printed(if StatF(fs, "-").Fail? then -1 else 0, CookF(flags, StdinChars(stdin)))
  {
  }

  /** Every other operand is handled the same way by both. */
  lemma OthersUnaffected(fs: Fs, name: string, flags: bv8, stdin: seq<bv8>)
    requires name != "-" || flags == 0
    ensures CatAsWrittenF(fs, name, flags, stdin) == CatF(fs, name, flags, stdin)
  {
  }
}

=== FILE: cnum.dfy ===
// strtol(3) and strtoll(3) as ISO C (section 7.22.1.4 of ISO/IEC 9899:2011)
// describes them, for the parsers of option values: leading white space, an
// optional sign, the 0x/0X or 0 prefixes that base 0 and base 16 accept, the
// longest run of digits valid in the base, and clamping with ERANGE.

module CNum {
  import opened Posix

  // LP64: long and long long are both 64 bits wide.
  const LONG_MIN: int := -0x8000_0000_0000_0000
  const LONG_MAX: int := 0x7FFF_FFFF_FFFF_FFFF

  /** The 64-bit two's-complement value x wraps to. */
  function Wrap64(x: int): (r: int)
    ensures LONG_MIN <= r <= LONG_MAX
    ensures LONG_MIN <= x <= LONG_MAX ==> r == x
  {
    (x + 0x8000_0000_0000_0000) % 0x1_0000_0000_0000_0000 - 0x8000_0000_0000_0000
  }

  /** C's division, which truncates toward zero. */
  function CDiv(a: int, m: int): int
    requires m > 0
  {
    if a >= 0 then a / m else -((-a) / m)
  }

  /** The value of c as a digit, 36 (valid in no base) when it is none. */
  function DigitValue(c: char): nat {
    if '0' <= c <= '9' then c as nat - '0' as nat
    else if 'a' <= c <= 'z' then c as nat - 'a' as nat + 10
    else if 'A' <= c <= 'Z' then c as nat - 'A' as nat + 10
    else 36
  }

  /** The first index at or after i that does not hold white space. */
  function SkipSpace(s: string, i: nat): (r: nat)
    requires i <= |s|
    ensures i <= r <= |s| && (r < |s| ==> !IsSpace(s[r]))
    ensures forall k :: i <= k < r ==> IsSpace(s[k])
    decreases |s| - i
  {
    if i < |s| && IsSpace(s[i]) then SkipSpace(s, i + 1) else i
  }

  /** The length of the run of digits valid in base b that starts at i. */
  function Run(s: string, i: nat, b: nat): (r: nat)
    requires i <= |s|
    ensures i + r <= |s| && forall k :: i <= k < i + r ==> DigitValue(s[k]) < b
    ensures i + r < |s| ==> DigitValue(s[i + r]) >= b
    decreases |s| - i
  {
    if i < |s| && DigitValue(s[i]) < b then 1 + Run(s, i + 1, b) else 0
  }

  /** The number the digits d spell in base b, most significant first. */
  function Value(d: string, b: nat): nat
    decreases |d|
  {
    if d == [] then 0 else Value(d[..|d| - 1], b) * b + DigitValue(d[|d| - 1])
  }

  /** What a conversion yields: the value, where parsing stopped (0 when nothing was converted), and ERANGE. */
  datatype Conv = Conv(value: int, end: nat, erange: bool)

  /** Whether base 0 or 16 takes a 0x/0X prefix at i: only when a hex digit follows it. */
  predicate HexPrefix(s: string, i: nat, base: nat) {
    && (base == 0 || base == 16)
    && i + 2 < |s| && s[i] == '0' && (s[i + 1] == 'x' || s[i + 1] == 'X') && DigitValue(s[i + 2]) < 16
  }

  /** Where the digits start, in which base, and whether a minus sign came before them. */
  datatype Subject = Subject(neg: bool, base: nat, start: nat)

  function SubjectOf(s: string, base: nat): (r: Subject)
    requires base == 0 || 2 <= base <= 36
    ensures r.start <= |s| && 2 <= r.base <= 36
    ensures base != 0 && base != 16 ==> r.base == base
  {
    var i0 := SkipSpace(s, 0);
    var neg := i0 < |s| && s[i0] == '-';
    var i1 := if i0 < |s| && (s[i0] == '-' || s[i0] == '+') then i0 + 1 else i0;
    if HexPrefix(s, i1, base) then Subject(neg, 16, i1 + 2)
    else if base != 0 then Subject(neg, base, i1)
    else if i1 < |s| && s[i1] == '0' then Subject(neg, 8, i1)
    else Subject(neg, 10, i1)
  }

  /** strtol with the range [lo, hi] of its result type. */
  function Strto(s: string, base: nat, lo: int, hi: int): (r: Conv)
    requires base == 0 || 2 <= base <= 36
    requires lo <= 0 <= hi
    ensures r.end <= |s| && lo <= r.value <= hi
    ensures r.end == 0 ==> r.value == 0 && !r.erange
    ensures r.erange ==> r.value == lo || r.value == hi
  {
    var sub := SubjectOf(s, base);
    var n := Run(s, sub.start, sub.base);
    if n == 0 then Conv(0, 0, false)
    else
      var v: int := Value(s[sub.start..sub.start + n], sub.base);
      var sv := if sub.neg then -v else v;
      if sv > hi then Conv(hi, sub.start + n, true)
      else if sv < lo then Conv(lo, sub.start + n, true)
      else Conv(sv, sub.start + n, false)
  }

  function Strtol(s: string, base: nat): Conv
    requires base == 0 || 2 <= base <= 36
  {
    Strto(s, base, LONG_MIN, LONG_MAX)
  }

  // ---------------------------------------------------------------------
  // Writing numbers out, to state what the parsers accept

  function DigitChar(d: nat): char
    requires d < 10
  {
    ('0' as int + d) as char
  }

  /** The quotient and remainder facts Digits needs, by cases so that they stay linear. */
  lemma DivMod(n: nat, b: nat)
    requires (b == 8 || b == 10) && n >= b
    ensures 0 < n / b < n && n % b < b && n / b * b + n % b == n
  {
    if b == 8 {
      assert n / 8 * 8 + n % 8 == n;
    } else {
      assert n / 10 * 10 + n % 10 == n;
    }
  }

  /** n in base b (8 or 10), most significant digit first, with no leading zero. */
  function Digits(n: nat, b: nat): (r: string)
    requires b == 8 || b == 10
    ensures |r| >= 1 && forall k :: 0 <= k < |r| ==> DigitValue(r[k]) < b
    ensures n > 0 ==> r[0] != '0'
    ensures n == 0 ==> r == "0"
    decreases n
  {
    if n < b then [DigitChar(n)]
    else
      DivMod(n, b);
      Digits(n / b, b) + [DigitChar(n % b)]
  }

  /** Digits reads back as the number it writes. */
  lemma {:induction false} DigitsValue(n: nat, b: nat)
    requires b == 8 || b == 10
    ensures Value(Digits(n, b), b) == n
    decreases n
  {
    var d := Digits(n, b);
    if n < b {
      assert DigitValue(d[0]) == n;
      assert d[..0] == [];
    } else {
      var q, m := n / b, n % b;
      DivMod(n, b);
      DigitsValue(q, b);
      assert d == Digits(q, b) + [DigitChar(m)];
      assert d[..|d| - 1] == Digits(q, b);
      assert Value(d[..|d| - 1], b) == q;
      assert DigitValue(d[|d| - 1]) == m;
    }
  }

  /** A run of digits reaches the end of a string made only of digits. */
  lemma {:induction false} RunToEnd(s: string, i: nat, b: nat)
    requires i <= |s| && forall k :: i <= k < |s| ==> DigitValue(s[k]) < b
    ensures Run(s, i, b) == |s| - i
    decreases |s| - i
  {
    if i < |s| {
      RunToEnd(s, i + 1, b);
    }
  }

  /** A string that starts with a digit is its own subject. */
  lemma DigitFirst(s: string, base: nat)
    requires base == 0 || 2 <= base <= 36
    requires |s| > 0 && DigitValue(s[0]) < 10 && !HexPrefix(s, 0, base)
    ensures SubjectOf(s, base).start == 0 && !SubjectOf(s, base).neg
  {
    assert !IsSpace(s[0]);
    assert SkipSpace(s, 0) == 0;
  }

  /** A number written in base b, at most hi, converts back to itself in base b, using the whole string. */
  lemma DigitsRoundTrip(n: nat, b: nat, lo: int, hi: int)
    requires (b == 8 || b == 10) && lo <= 0 <= n <= hi
    ensures Strto(Digits(n, b), b, lo, hi) == Conv(n, |Digits(n, b)|, false)
  {
    var s := Digits(n, b);
    DigitFirst(s, b);
    RunToEnd(s, 0, b);
    DigitsValue(n, b);
    assert s[0..|s|] == s;
  }

  /** With base 0 a decimal numeral converts as decimal: only a leading 0 selects octal, and "0" is 0 either way. */
  lemma DecimalRoundTrip(n: nat, lo: int, hi: int)
    requires lo <= 0 <= n <= hi
    ensures Strto(Digits(n, 10), 0, lo, hi) == Conv(n, |Digits(n, 10)|, false)
  {
    var s := Digits(n, 10);
    assert s[0..|s|] == s;
    if n == 0 {
      assert !HexPrefix(s, 0, 0);
      DigitFirst(s, 0);
      assert SubjectOf(s, 0).base == 8;
      RunToEnd(s, 0, 8);
      assert Value(s, 8) == Value([], 8) * 8 + 0;
    } else {
      DigitFirst(s, 0);
      assert SubjectOf(s, 0).base == 10;
      RunToEnd(s, 0, 10);
      DigitsValue(n, 10);
    }
  }

  /** Nothing is converted from a string without a digit after its white space and sign. */
  lemma NoDigits(s: string, base: nat, lo: int, hi: int)
    requires base == 0 || 2 <= base <= 36
    requires lo <= 0 <= hi
    requires forall k :: 0 <= k < |s| ==> DigitValue(s[k]) >= 36
    ensures Strto(s, base, lo, hi) == Conv(0, 0, false)
  {
  }
}

=== FILE: cp.dfy ===
// cp(1) of fs-utils (bin/cp/cp.c), up to the walk: the getopt loop, the
// fts options the flags select, and main's checks on the operands that
// decide the kind of copy. mastercmp, the order fts is asked to sort
// siblings in, is here too. Every path is looked up in the image.

module Cp {
  import opened Posix
  import opened Domain
  import opened CpUtils
  import EcpTree

  // ---------------------------------------------------------------------
  // Options

  /** The option letters getopt is given. */
  const OPTCHARS: string := "HLNPRfiprv"

  /** Every flag starts cleared. */
  const NOFLAGS: CpFlags := CpFlags(false, false, false, false, false, false, false, false, false, false)

  /**
   * One option letter: -H, -L and -P each clear the other two, -f clears
   * -i and -i clears -f; -i is set only when stdin is a terminal (tty).
   * Any other letter is a usage error.
   */
  function OptionF(fl: CpFlags, ch: char, tty: bool): (r: Option<CpFlags>)
    ensures r.Some? <==> ch in OPTCHARS
    ensures r.Some? ==> var g := r.value;
      if ch == 'H' || ch == 'L' || ch == 'P' then g.H == (ch == 'H') && g.L == (ch == 'L') && g.P == (ch == 'P')
      else g.H == fl.H && g.L == fl.L && g.P == fl.P
    ensures r.Some? ==> var g := r.value;
      if ch == 'f' || ch == 'i' then g.f == (ch == 'f') && g.i == (tty && ch == 'i')
      else g.f == fl.f && g.i == fl.i
  {
    match ch
    case 'H' => Some(fl.(H := true, L := false, P := false))
    case 'L' => Some(fl.(L := true, H := false, P := false))
    case 'N' => Some(fl.(N := true))
    case 'P' => Some(fl.(P := true, H := false, L := false))
    case 'R' => Some(fl.(R := true))
    case 'f' => Some(fl.(f := true, i := false))
    case 'i' => Some(fl.(i := tty, f := false))
    case 'p' => Some(fl.(p := true))
    case 'r' => Some(fl.(r := true))
    case 'v' => Some(fl.(v := true))
    case _ => None
  }

  /** The getopt loop over the option letters in order; None is usage(). */
  function ParseF(opts: string, tty: bool): Option<CpFlags>
    decreases |opts|
  {
    if opts == [] then Some(NOFLAGS)
    else match ParseF(opts[..|opts| - 1], tty)
      case None => None
      case Some(fl) => OptionF(fl, opts[|opts| - 1], tty)
  }

  method Parse(opts: string, tty: bool) returns (r: Option<CpFlags>)
    ensures r == ParseF(opts, tty)
  {
    var fl := NOFLAGS;
    var n := 0;
    while n < |opts|
      invariant n <= |opts| && ParseF(opts[..n], tty) == Some(fl)
    {
      ParseSnoc(opts, tty, n);
      var o := OptionF(fl, opts[n], tty);
      if o.None? {
        ParseStopsAtUsage(opts, tty, n + 1);
        return None;
      }
      fl := o.value;
      n := n + 1;
    }
    assert opts[..n] == opts;
    r := Some(fl);
  }

  /** The getopt loop after the first n + 1 letters is one more step after the first n. */
  lemma ParseSnoc(opts: string, tty: bool, n: nat)
    requires n < |opts|
    ensures ParseF(opts[..n + 1], tty) ==
      match ParseF(opts[..n], tty) case None => None case Some(fl) => OptionF(fl, opts[n], tty)
  {
    assert opts[..n + 1][..n] == opts[..n];
  }

  /** Once a letter is refused, the rest of the letters do not matter. */
  lemma {:induction false} ParseStopsAtUsage(opts: string, tty: bool, n: nat)
    requires n <= |opts| && ParseF(opts[..n], tty).None?
    ensures ParseF(opts, tty).None?
    decreases |opts| - n
  {
    if n < |opts| {
      assert opts[..n + 1][..n] == opts[..n];
      ParseStopsAtUsage(opts, tty, n + 1);
    } else {
      assert opts[..n] == opts;
    }
  }

  /** The getopt loop ends in usage() exactly when some letter is not one of OPTCHARS. */
  lemma {:induction false} ParseUsage(opts: string, tty: bool)
    ensures ParseF(opts, tty).None? <==> exists k :: 0 <= k < |opts| && opts[k] !in OPTCHARS
  {
    if opts != [] {
      var init := opts[..|opts| - 1];
      ParseUsage(init, tty);
      if exists k :: 0 <= k < |init| && init[k] !in OPTCHARS {
        var k :| 0 <= k < |init| && init[k] !in OPTCHARS;
        assert opts[k] !in OPTCHARS;
      }
      if exists k :: 0 <= k < |opts| && opts[k] !in OPTCHARS {
        var k :| 0 <= k < |opts| && opts[k] !in OPTCHARS;
        if k < |init| {
          assert init[k] !in OPTCHARS;
        }
      }
    }
  }

  /** The last letter of s that is in cs, if any. */
  function LastOf(s: string, cs: set<char>): (r: Option<char>)
    ensures r.Some? ==> r.value in cs
    decreases |s|
  {
    if s == [] then None
    else if s[|s| - 1] in cs then Some(s[|s| - 1])
    else LastOf(s[..|s| - 1], cs)
  }

  /** Of -H, -L and -P the last one given wins and the other two end up cleared. */
  lemma {:induction false} ParseLastLink(opts: string, tty: bool)
    requires ParseF(opts, tty).Some?
    ensures var fl := ParseF(opts, tty).value; var last := LastOf(opts, {'H', 'L', 'P'});
      fl.H == (last == Some('H')) && fl.L == (last == Some('L')) && fl.P == (last == Some('P'))
    decreases |opts|
  {
    if opts != [] {
      var init, c := opts[..|opts| - 1], opts[|opts| - 1];
      ParseLastLink(init, tty);
      assert LastOf(opts, {'H', 'L', 'P'}) == if c in {'H', 'L', 'P'} then Some(c) else LastOf(init, {'H', 'L', 'P'});
    }
  }

  /** Of -f and -i the last one given wins, -i counting only on a terminal. */
  lemma {:induction false} ParseLastForce(opts: string, tty: bool)
    requires ParseF(opts, tty).Some?
    ensures var fl := ParseF(opts, tty).value; var last := LastOf(opts, {'f', 'i'});
      fl.f == (last == Some('f')) && fl.i == (tty && last == Some('i'))
    decreases |opts|
  {
    if opts != [] {
      var init, c := opts[..|opts| - 1], opts[|opts| - 1];
      ParseLastForce(init, tty);
      assert LastOf(opts, {'f', 'i'}) == if c in {'f', 'i'} then Some(c) else LastOf(init, {'f', 'i'});
    }
  }

  /** Under the lemma above, at most one of -H/-L/-P and at most one of -f/-i hold. */
  lemma ParseExclusive(opts: string, tty: bool)
    requires ParseF(opts, tty).Some?
    ensures var fl := ParseF(opts, tty).value;
      && (fl.H ==> !fl.L && !fl.P) && (fl.L ==> !fl.P) && !(fl.f && fl.i)
  {
    ParseLastLink(opts, tty);
    ParseLastForce(opts, tty);
  }

  // ---------------------------------------------------------------------
  // fts options

  /** The fts_open options cp uses (values of <fts.h>). */
  const FTS_COMFOLLOW: bv32 := 0x001
  const FTS_LOGICAL: bv32 := 0x002
  const FTS_NOCHDIR: bv32 := 0x004
  const FTS_PHYSICAL: bv32 := 0x010

  /** Switches o from a physical to a logical walk. */
  function ToLogical(o: bv32): bv32 { (o & !FTS_PHYSICAL) | FTS_LOGICAL }

  /**
   * main's fts options: NOCHDIR|PHYSICAL, made LOGICAL by -r; with -R, -H
   * adds COMFOLLOW and -L makes it LOGICAL; without -R and without -P it
   * is LOGICAL|COMFOLLOW. -r with -R, or with any of -H/-L/-P, is fatal
   * (None).
   */
  function FtsOptionsF(fl: CpFlags): Option<bv32> {
    if fl.r && (fl.R || fl.H || fl.L || fl.P) then None
    else
      var o1 := if fl.r then ToLogical(FTS_NOCHDIR | FTS_PHYSICAL) else FTS_NOCHDIR | FTS_PHYSICAL;
      if fl.R then
        var o2 := if fl.H then o1 | FTS_COMFOLLOW else o1;
        Some(if fl.L then ToLogical(o2) else o2)
      else if !fl.P then Some(ToLogical(o1) | FTS_COMFOLLOW)
      else Some(o1)
  }

  /** The four option words FtsOptionsF can produce, by what they contain. */
  lemma OptionWords()
    ensures ToLogical(FTS_NOCHDIR | FTS_PHYSICAL) == FTS_NOCHDIR | FTS_LOGICAL
    ensures ToLogical(FTS_NOCHDIR | FTS_LOGICAL) == FTS_NOCHDIR | FTS_LOGICAL
    ensures ToLogical(FTS_NOCHDIR | FTS_PHYSICAL | FTS_COMFOLLOW) == FTS_NOCHDIR | FTS_LOGICAL | FTS_COMFOLLOW
    ensures ToLogical(FTS_NOCHDIR | FTS_LOGICAL | FTS_COMFOLLOW) == FTS_NOCHDIR | FTS_LOGICAL | FTS_COMFOLLOW
  {
  }

  /**
   * The fatal combinations are exactly -r with -R/-H/-L/-P. Otherwise
   * exactly one of PHYSICAL and LOGICAL is set, NOCHDIR always is, the walk
   * is logical under -r, under -R -L, and without -R and -P, and
   * COMFOLLOW is set under -R -H and without -R and -P.
   */
  lemma FtsOptionsShape(fl: CpFlags)
    ensures FtsOptionsF(fl).None? <==> fl.r && (fl.R || fl.H || fl.L || fl.P)
    ensures FtsOptionsF(fl).Some? ==>
      var o := FtsOptionsF(fl).value;
      var logical := fl.r || (fl.R && fl.L) || (!fl.R && !fl.P);
      && o == (if logical then FTS_NOCHDIR | FTS_LOGICAL else FTS_NOCHDIR | FTS_PHYSICAL)
              | (if (fl.R && fl.H) || (!fl.R && !fl.P) then FTS_COMFOLLOW else 0)
      && ((o & FTS_PHYSICAL != 0) != (o & FTS_LOGICAL != 0))
      && o & FTS_NOCHDIR != 0
      && (o & FTS_LOGICAL != 0 <==> logical)
      && (o & FTS_COMFOLLOW != 0 <==> (fl.R && fl.H) || (!fl.R && !fl.P))
  {
    OptionWords();
  }

  // ---------------------------------------------------------------------
  // main

  /** The kind of copy main hands to copy(). */
  datatype Op = FileToFile | FileToDir | DirToDne

  /** What main ends in before the walk: usage(), a fatal err/errx, or copy() with its arguments. */
  datatype Plan = Usage | Fatal | Start(op: Op, fts: bv32, target: string, sources: seq<string>)

  /** sizeof(to.p_path): MAXPATHLEN + 1 bytes. */
  const PATHBUF: nat := MAXPATHLEN + 1

  /** have_trailing_slash; an empty target is taken to have none. */
  predicate TrailingSlash(t: string) { |t| > 0 && t[|t| - 1] == '/' }

  /** The sources after main's trim of trailing '/'. */
  function StripAll(srcs: seq<string>): (r: seq<string>)
    ensures |r| == |srcs| && forall k :: 0 <= k < |srcs| ==> r[k] == EcpTree.StripSlashes(srcs[k])
  {
    seq(|srcs|, k requires 0 <= k < |srcs| => EcpTree.StripSlashes(srcs[k]))
  }

  /**
   * The kind of copy for a target that is missing or not a directory, with
   * a single source: a missing target and a directory source under -R/-r
   * give DIR_TO_DNE. The source is stat-ed (following links under -r or
   * -R with -L/-H, lstat-ed otherwise) only when the target is missing; if
   * that fails, main stops (None).
   */
  function KindF(w: World, fl: CpFlags, src: string, missing: bool): (World, Option<Op>) {
    if missing then
      var ss := if fl.r || (fl.R && (fl.L || fl.H)) then StatF(w.image, src) else LstatF(w.image, src);
      (Looked(w, ss),
       if ss.Fail? then None
       else Some(if IsDir(ss.value.mode) && (fl.R || fl.r) then DirToDne else FileToFile))
    else (w, Some(FileToFile))
  }

  /**
   * main after getopt: at least two operands; the fts options; the last
   * operand is the target, which must fit the to buffer and loses its
   * trailing '/'; it is stat-ed (lstat-ed under -P), any failure but
   * ENOENT being fatal; a target that is an existing directory gives
   * FILE_TO_DIR, otherwise there must be one source, KindF decides, and a
   * trailing '/' on a FILE_TO_FILE target is fatal. The sources are trimmed
   * last.
   */
  function SetupF(w: World, fl: CpFlags, operands: seq<string>): (World, Plan) {
    if |operands| < 2 then (w, Usage)
    else match FtsOptionsF(fl)
      case None => (w, Fatal)
      case Some(fts) =>
        var target := operands[|operands| - 1];
        var srcs := operands[..|operands| - 1];
        if |target| >= PATHBUF then (w, Fatal)
        else
          var slash := TrailingSlash(target);
          var to := if slash then EcpTree.StripSlashes(target) else target;
          var ts := if fl.P then LstatF(w.image, to) else StatF(w.image, to);
          var w1 := Looked(w, ts);
          if ts.Fail? && ts.err != ENOENT then (w1, Fatal)
          else if ts.Ok? && IsDir(ts.value.mode) then (w1, Start(FileToDir, fts, to, StripAll(srcs)))
          else if |srcs| > 1 then (w1, Usage)
          else
            var (w2, kind) := KindF(w1, fl, srcs[0], ts.Fail?);
            if kind.None? || (slash && kind.value == FileToFile) then (w2, Fatal)
            else (w2, Start(kind.value, fts, to, StripAll(srcs)))
  }

  method Kind(sys: System, fl: CpFlags, src: string, missing: bool) returns (kind: Option<Op>)
    modifies sys
    ensures (sys.Now(), kind) == KindF(old(sys.Now()), fl, src, missing)
  {
    if !missing {
      return Some(FileToFile);
    }
    var ss;
    if fl.r || (fl.R && (fl.L || fl.H)) {
      ss := sys.Stat(Image, src);
    } else {
      ss := sys.Lstat(Image, src);
    }
    if ss.Fail? {
      return None;
    }
    kind := Some(if IsDir(ss.value.mode) && (fl.R || fl.r) then DirToDne else FileToFile);
  }

  method StripSources(srcs: seq<string>) returns (r: seq<string>)
    ensures r == StripAll(srcs)
  {
    r := [];
    for n := 0 to |srcs|
      invariant r == StripAll(srcs[..n])
    {
      var s := EcpTree.StripOperand(srcs[n]);
      r := r + [s];
    }
    assert srcs[..|srcs|] == srcs;
  }

  method Setup(sys: System, fl: CpFlags, operands: seq<string>) returns (su: Plan)
    modifies sys
    ensures (sys.Now(), su) == SetupF(old(sys.Now()), fl, operands)
  {
    if |operands| < 2 {
      return Usage;
    }
    var fts := FtsOptionsF(fl);
    if fts.None? {
      return Fatal;
    }
    var target := operands[|operands| - 1];
    var srcs := operands[..|operands| - 1];
    if |target| >= PATHBUF {
      return Fatal;
    }
    var slash := TrailingSlash(target);
    var to := target;
    if slash {
      to := EcpTree.StripOperand(target);
    }
    var ts;
    if fl.P {
      ts := sys.Lstat(Image, to);
    } else {
      ts := sys.Stat(Image, to);
    }
    if ts.Fail? && ts.err != ENOENT {
      return Fatal;
    }
    var op;
    if ts.Ok? && IsDir(ts.value.mode) {
      op := FileToDir;
    } else {
      if |srcs| > 1 {
        return Usage;
      }
      var kind := Kind(sys, fl, srcs[0], ts.Fail?);
      if kind.None? || (slash && kind.value == FileToFile) {
        return Fatal;
      }
      op := kind.value;
    }
    var sources := StripSources(srcs);
    su := Start(op, fts.value, to, sources);
  }

  /**
   * The target main keeps is the last operand without its trailing '/'s;
   * it fits the buffer, ends in '/' only if it is "/", and the sources are
   * the other operands trimmed the same way.
   */
  lemma SetupTarget(w: World, fl: CpFlags, operands: seq<string>)
    requires SetupF(w, fl, operands).1.Start?
    ensures var su := SetupF(w, fl, operands).1;
      && |operands| >= 2 && FtsOptionsF(fl) == Some(su.fts)
      && su.target == EcpTree.StripSlashes(operands[|operands| - 1]) && |su.target| < PATHBUF
      && (TrailingSlash(su.target) ==> su.target == "/")
      && su.sources == StripAll(operands[..|operands| - 1])
  {
    var target := operands[|operands| - 1];
    if !TrailingSlash(target) {
      assert EcpTree.StripSlashes(target) == target;
    }
  }

  /**
   * The kind of copy main settles on: FILE_TO_DIR exactly for a target that
   * stats as a directory; DIR_TO_DNE only for a missing target, a single
   * source and -R/-r; several sources only into a directory; never
   * FILE_TO_FILE onto a name written with a trailing '/'.
   */
  lemma SetupKinds(w: World, fl: CpFlags, operands: seq<string>)
    requires SetupF(w, fl, operands).1.Start?
    ensures var su := SetupF(w, fl, operands).1;
      var ts := if fl.P then LstatF(w.image, su.target) else StatF(w.image, su.target);
      && (su.op == FileToDir <==> ts.Ok? && IsDir(ts.value.mode))
      && (su.op == DirToDne ==> ts.Fail? && ts.err == ENOENT && (fl.R || fl.r) && |operands| == 2)
      && (|operands| > 2 ==> su.op == FileToDir)
      && (TrailingSlash(operands[|operands| - 1]) ==> su.op != FileToFile)
  {
  }

  /** A missing target for a single directory source under -R is DIR_TO_DNE. */
  lemma SetupDirToDne(w: World, fl: CpFlags, src: string, target: string)
    requires !fl.r && fl.R && !fl.P && !fl.L && !fl.H
    requires 0 < |target| < PATHBUF && !TrailingSlash(target)
    requires Norm(target) !in w.image.files
    requires Norm(src) in w.image.files && IsDir(w.image.files[Norm(src)].mode)
    ensures SetupF(w, fl, [src, target]).1 == Start(DirToDne, FTS_NOCHDIR | FTS_PHYSICAL, target, StripAll([src]))
  {
    FtsOptionsShape(fl);
    assert [src, target][..1] == [src];
  }

  // ---------------------------------------------------------------------
  // mastercmp

  /** fts_info, the kinds of visit cp tells apart; Other stands for the rest (FTS_F, FTS_SL, ...). */
  datatype Info = D | DP | DC | DNR | ERR | NS | Other

  predicate IsError(x: Info) { x == ERR || x == NS || x == DNR }

  /**
   * mastercmp as written: 0 when either entry is an error; -1 when a is a
   * pre-order directory, 1 when b is; 0 otherwise. Negative puts a first.
   */
  function MasterCmp(a: Info, b: Info): (r: int)
    ensures r == 0 || r == 1 || r == -1
  {
    if IsError(a) || IsError(b) then 0
    else if a == D then -1
    else if b == D then 1
    else 0
  }

  /**
   * As written, directories are ordered before files, the opposite of the
   * order the comment above mastercmp describes, and two directories are
   * each "less" than the other.
   */
  lemma MasterCmpDirsFirst()
    ensures MasterCmp(D, Other) < 0 && MasterCmp(Other, D) > 0
    ensures MasterCmp(D, D) == -1
  {
  }

  /** The order the comment describes: non-directories before directories. */
  function FilesFirstCmp(a: Info, b: Info): (r: int)
    ensures r == 0 || r == 1 || r == -1
  {
    if IsError(a) || IsError(b) then 0
    else if a == D && b != D then 1
    else if b == D && a != D then -1
    else 0
  }

  /**
   * FilesFirstCmp puts every non-directory, non-error entry before every
   * directory, and it is antisymmetric, so it is a consistent order.
   */
  lemma FilesFirstOrder(a: Info, b: Info)
    ensures FilesFirstCmp(a, b) == -FilesFirstCmp(b, a)
    ensures !IsError(a) && a != D && b == D ==> FilesFirstCmp(a, b) < 0
    ensures FilesFirstCmp(a, b) != 0 ==> !IsError(a) && !IsError(b) && (a == D) != (b == D)
  {
  }
}

=== FILE: cp_copy.dfy ===
// cp(1)'s copy(): the walk over the sources, each visit placed under the
// target, checked against what is there, and handed to the copy
// primitives; and main, which runs the option loop, the checks on the
// operands and the walk. The walk (the entries fts_read returns, in order,
// with their fts_info, paths, levels and stat) is an input of the model.

module CpCopy {
  import opened Posix
  import opened Domain
  import opened CpUtils
  import opened Cp
  import EcpTree

  /** FTS_ROOTLEVEL, the level of the operands themselves. */
  const ROOTLEVEL: int := 0

  /**
   * One entry of the walk: fts_info, fts_path, fts_name, fts_level, the
   * stat fts took, and the answer the user would give to -i's prompt for it.
   */
  datatype CpEnt = CpEnt(info: Info, path: string, name: string, level: int, st: Stat, answer: bool)

  /** What copy() is called with, plus the flags and credentials it reads. */
  datatype Ctx = Ctx(fl: CpFlags, cr: Creds, fts: bv32, op: Op, target: string)

  /**
   * copy()'s loop state: the index of the next entry, base, dne and
   * any_failed, and whether an err() has ended the program.
   */
  datatype Walk = Walk(i: nat, base: nat, dne: bool, failed: bool, fatal: bool)

  const START: Walk := Walk(0, 0, false, false, false)

  /** The visits copy() only reports: FTS_NS, FTS_DNR, FTS_ERR and FTS_DC. */
  predicate Unreadable(x: Info) { IsError(x) || x == DC }

  /** The exit status of a walk that has ended: 1 after any failure or a fatal error. */
  function Status(s: Walk): int { if s.fatal || s.failed then 1 else 0 }

  // ---------------------------------------------------------------------
  // Where an entry goes

  /**
   * The base computed at a root: DIR_TO_DNE drops the whole root path;
   * otherwise everything up to the last '/', and one more character when
   * what is left is "..", so that ".." becomes ".".
   */
  function RootBase(op: Op, path: string): (b: nat)
    ensures b <= |path|
    ensures op != DirToDne && AfterLastSlash(path) == ".." ==> path[b..] == "."
    ensures op != DirToDne && AfterLastSlash(path) != ".." ==> path[b..] == AfterLastSlash(path)
  {
    if op == DirToDne then |path|
    else
      var b := match LastIndexOf(path, '/') case None => 0 case Some(k) => k + 1;
      if path[b..] == ".." then b + 1 else b
  }

  /**
   * The target path for an entry when the target is a directory: the
   * first length check (name plus target plus '/'), the base (reset at
   * a root), the target, a '/' unless one is already there, the path
   * past the base, the second length check, and STRIP_TRAILING_SLASH.
   * Returns the base kept for the next entry and the path, None when a
   * length check fails.
   */
  function PlaceF(c: Ctx, e: CpEnt, base: nat): (nat, Option<string>) {
    if |e.name| + |c.target| + 1 > MAXPATHLEN then (base, None)
    else PlaceUnder(c, e, if e.level == ROOTLEVEL then RootBase(c.op, e.path) else base)
  }

  /** The entry's path from offset b on, appended to the target with one '/' between. */
  function PlaceUnder(c: Ctx, e: CpEnt, b: nat): (nat, Option<string>) {
    if b > |e.path| then (b, None)
    else
      var p := e.path[b..];
      var sep := if (p == [] || p[0] != '/') && !TrailingSlash(c.target) then "/" else "";
      if |c.target| + |sep| + |p| >= PATH_MAX then (b, None)
      else (b, Some(EcpTree.StripSlashes(c.target + sep + p)))
  }

  method Place(c: Ctx, e: CpEnt, base: nat) returns (b: nat, to: Option<string>)
    ensures (b, to) == PlaceF(c, e, base)
  {
    if |e.name| + |c.target| + 1 > MAXPATHLEN {
      return base, None;
    }
    b := if e.level == ROOTLEVEL then RootBase(c.op, e.path) else base;
    assert PlaceF(c, e, base) == PlaceUnder(c, e, b);
    if b > |e.path| {
      return b, None;
    }
    var p := e.path[b..];
    var sep := if (p == [] || p[0] != '/') && !TrailingSlash(c.target) then "/" else "";
    if |c.target| + |sep| + |p| >= PATH_MAX {
      return b, None;
    }
    var s := EcpTree.StripOperand(c.target + sep + p);
    to := Some(s);
  }

  /** The target path of an entry: the target itself for FILE_TO_FILE, PlaceF's otherwise. */
  function TargetOf(c: Ctx, e: CpEnt, base: nat): (nat, Option<string>) {
    if c.op == FileToFile then (base, Some(c.target)) else PlaceF(c, e, base)
  }

  // ---------------------------------------------------------------------
  // What is at the target

  /**
   * The outcome of stat-ing the target path (lstat under -P): missing,
   * the very file being copied, a directory about to be overwritten by a
   * non-directory, or present (and whether it is a directory).
   */
  datatype Found = Missing | Identical | OverDir | Present(tdir: bool)

  function ProbeF(w: World, c: Ctx, e: CpEnt, to: string): (r: (World, Found))
    ensures r.0.image == w.image && r.0.host == w.host
  {
    var ts := if c.fl.P then LstatF(w.image, to) else StatF(w.image, to);
    (Looked(w, ts),
     if ts.Fail? then Missing
     else if ts.value.dev == e.st.dev && ts.value.ino == e.st.ino then Identical
     else if !IsDir(e.st.mode) && IsDir(ts.value.mode) then OverDir
     else Present(IsDir(ts.value.mode)))
  }

  method Probe(sys: System, c: Ctx, e: CpEnt, to: string) returns (pr: Found)
    modifies sys
    ensures (sys.Now(), pr) == ProbeF(old(sys.Now()), c, e, to)
  {
    var ts;
    if c.fl.P {
      ts := sys.Lstat(Image, to);
    } else {
      ts := sys.Stat(Image, to);
    }
    if ts.Fail? {
      pr := Missing;
    } else if ts.value.dev == e.st.dev && ts.value.ino == e.st.ino {
      pr := Identical;
    } else if !IsDir(e.st.mode) && IsDir(ts.value.mode) {
      pr := OverDir;
    } else {
      pr := Present(IsDir(ts.value.mode));
    }
  }

  // ---------------------------------------------------------------------
  // The switch on the source's type

  /** What one visit did: this_failed, an err() exit, an fts_set FTS_SKIP, and dne after it. */
  datatype Act = Act(failed: bool, fatal: bool, skip: bool, dne: bool)

  /**
   * A directory: without -R/-r it is skipped and fails; at the pre-order
   * visit a missing target is made with the source's mode plus owner rwx
   * (its failure is fatal), and an existing one must be a directory
   * (fatal ENOTDIR otherwise); at the post-order visit -p runs setfile
   * (failing the visit when it fails) and otherwise, or when setfile
   * succeeded, a target that was missing is chmod-ed to the mode setfile
   * left; dne is cleared after it. Any other visit of a directory fails.
   */
  function DirF(w: World, c: Ctx, e: CpEnt, to: string, dne: bool, tdir: bool): (World, Act) {
    if !c.fl.R && !c.fl.r then (w, Act(true, false, true, dne))
    else if e.info == D then
      if dne then
        var (w1, rv) := Apply(w, Image, MkdirF(w.image, to, e.st.mode | S_IRWXU));
        (w1, Act(false, rv < 0, false, dne))
      else if !tdir then (w.(errno := ENOTDIR), Act(false, true, false, dne))
      else (w, Act(false, false, false, dne))
    else if e.info == DP then
      var (w1, rv, st1) := if c.fl.p then SetFileF(w, e.st, to, c.fl.N) else (w, 0, e.st);
      if rv != 0 then (w1, Act(true, false, false, false))
      else if dne then (Apply(w1, Image, ChmodF(w1.image, to, st1.mode, true)).0, Act(false, false, false, false))
      else (w1, Act(false, false, false, false))
    else (w, Act(true, false, false, dne))
  }

  /** Whether a symbolic link is followed: a logical walk, or COMFOLLOW at the roots. */
  predicate Follows(c: Ctx, e: CpEnt) {
    c.fts & FTS_LOGICAL != 0 || (c.fts & FTS_COMFOLLOW != 0 && e.level == 0)
  }

  /**
   * The switch on the source's file type: a link is copied as a file when
   * followed and as a link otherwise; directories go to DirF; devices and
   * fifos are re-created under -R and copied as files otherwise; anything
   * else is copied as a file.
   */
  function DispatchF(w: World, c: Ctx, e: CpEnt, to: string, dne: bool, tdir: bool): (World, Act) {
    var m := e.st.mode;
    if IsDir(m) then DirF(w, c, e, to, dne, tdir)
    else
      var (w1, rv) :=
        if IsLnk(m) then
          if Follows(c, e) then CopyFileF(w, c.fl, c.cr, e.path, e.st, to, dne, e.answer)
          else CopyLinkF(w, c.fl, e.path, e.st, to, !dne)
        else if (IsBlk(m) || IsChr(m)) && c.fl.R then CopySpecialF(w, c.fl, e.st, to, !dne)
        else if IsFifo(m) && c.fl.R then CopyFifoF(w, c.fl, e.st, to, !dne)
        else CopyFileF(w, c.fl, c.cr, e.path, e.st, to, dne, e.answer);
      (w1, Act(rv != 0, false, false, dne))
  }

  method Dir(sys: System, c: Ctx, e: CpEnt, to: string, dne: bool, tdir: bool) returns (a: Act)
    modifies sys
    ensures (sys.Now(), a) == DirF(old(sys.Now()), c, e, to, dne, tdir)
  {
    if !c.fl.R && !c.fl.r {
      return Act(true, false, true, dne);
    }
    if e.info == D {
      if dne {
        var rv := sys.Commit(Image, MkdirF(sys.image, to, e.st.mode | S_IRWXU));
        return Act(false, rv < 0, false, dne);
      } else if !tdir {
        sys.errno := ENOTDIR;
        return Act(false, true, false, dne);
      }
      return Act(false, false, false, dne);
    } else if e.info == DP {
      var rv, st1 := 0, e.st;
      if c.fl.p {
        rv, st1 := SetFile(sys, e.st, to, c.fl.N);
      }
      if rv != 0 {
        return Act(true, false, false, false);
      }
      if dne {
        var _ := sys.Commit(Image, ChmodF(sys.image, to, st1.mode, true));
      }
      return Act(false, false, false, false);
    }
    a := Act(true, false, false, dne);
  }

  method Dispatch(sys: System, c: Ctx, e: CpEnt, to: string, dne: bool, tdir: bool) returns (a: Act)
    modifies sys
    ensures (sys.Now(), a) == DispatchF(old(sys.Now()), c, e, to, dne, tdir)
  {
    var m := e.st.mode;
    if IsDir(m) {
      a := Dir(sys, c, e, to, dne, tdir);
      return;
    }
    var rv;
    if IsLnk(m) {
      if Follows(c, e) {
        rv := CopyFile(sys, c.fl, c.cr, e.path, e.st, to, dne, e.answer);
      } else {
        rv := CopyLink(sys, c.fl, e.path, e.st, to, !dne);
      }
    } else if (IsBlk(m) || IsChr(m)) && c.fl.R {
      rv := CopySpecial(sys, c.fl, e.st, to, !dne);
    } else if IsFifo(m) && c.fl.R {
      rv := CopyFifo(sys, c.fl, e.st, to, !dne);
    } else {
      rv := CopyFile(sys, c.fl, c.cr, e.path, e.st, to, dne, e.answer);
    }
    a := Act(rv != 0, false, false, dne);
  }

  // ---------------------------------------------------------------------
  // One visit, and the walk

  /**
   * The entry fts_read returns after a skip of entry i: the first later
   * entry at a level no deeper than i's, that is past i's subtree.
   */
  function SkipTo(es: seq<CpEnt>, i: nat, j: nat): (r: nat)
    requires i < j <= |es|
    ensures j <= r <= |es|
    ensures forall k :: j <= k < r ==> es[k].level > es[i].level
    ensures r < |es| ==> es[r].level <= es[i].level
    decreases |es| - j
  {
    if j == |es| then j
    else if es[j].level <= es[i].level then j
    else SkipTo(es, i, j + 1)
  }

  /** The next entry after visiting i: past i's subtree when a pre-order directory visit is skipped. */
  function Next(es: seq<CpEnt>, i: nat, skip: bool): (r: nat)
    requires i < |es|
    ensures i < r <= |es|
  {
    if skip && es[i].info == D then SkipTo(es, i, i + 1) else i + 1
  }

  /**
   * One pass of copy()'s loop: report an unreadable entry; place the entry
   * (unless FILE_TO_FILE, where the target is used as is); probe the
   * target and update dne (set when it is missing, cleared when it exists
   * and the source is not a directory); refuse the identical file
   * (skipping a directory's subtree) and a non-directory over a directory;
   * otherwise dispatch on the source's type.
   */
  function EntryF(w: World, c: Ctx, es: seq<CpEnt>, s: Walk): (r: (World, Walk))
    requires s.i < |es|
    ensures s.i < r.1.i <= |es|
    ensures s.failed ==> r.1.failed
  {
    var e := es[s.i];
    if Unreadable(e.info) then (w, s.(i := s.i + 1, failed := true))
    else
      var (b, to) := TargetOf(c, e, s.base);
      if to.None? then (w, s.(i := s.i + 1, base := b, failed := true))
      else
        var (w1, pr) := ProbeF(w, c, e, to.value);
        if pr == Identical then (w1, s.(i := Next(es, s.i, IsDir(e.st.mode)), base := b, failed := true))
        else if pr == OverDir then (w1, s.(i := s.i + 1, base := b, failed := true))
        else
          var dne := if pr == Missing then true else if !IsDir(e.st.mode) then false else s.dne;
          var (w2, a) := DispatchF(w1, c, e, to.value, dne, pr.Present? && pr.tdir);
          (w2, Walk(Next(es, s.i, a.skip), b, a.dne, s.failed || a.failed, a.fatal))
  }

  /** copy()'s loop from state s on: visit entries until the walk ends or an err() exits. */
  function CopyF(w: World, c: Ctx, es: seq<CpEnt>, s: Walk): (World, Walk)
    decreases |es| - s.i
  {
    if s.fatal || s.i >= |es| then (w, s)
    else
      var (w1, s1) := EntryF(w, c, es, s);
      CopyF(w1, c, es, s1)
  }

  method Entry(sys: System, c: Ctx, es: seq<CpEnt>, s: Walk) returns (s': Walk)
    requires s.i < |es|
    modifies sys
    ensures (sys.Now(), s') == EntryF(old(sys.Now()), c, es, s)
  {
    var e := es[s.i];
    if Unreadable(e.info) {
      return s.(i := s.i + 1, failed := true);
    }
    var b, to := s.base, Some(c.target);
    if c.op != FileToFile {
      b, to := Place(c, e, s.base);
    }
    if to.None? {
      return s.(i := s.i + 1, base := b, failed := true);
    }
    var pr := Probe(sys, c, e, to.value);
    if pr == Identical {
      return s.(i := Next(es, s.i, IsDir(e.st.mode)), base := b, failed := true);
    } else if pr == OverDir {
      return s.(i := s.i + 1, base := b, failed := true);
    }
    var dne := s.dne;
    if pr == Missing {
      dne := true;
    } else if !IsDir(e.st.mode) {
      dne := false;
    }
    var a := Dispatch(sys, c, e, to.value, dne, pr.Present? && pr.tdir);
    s' := Walk(Next(es, s.i, a.skip), b, a.dne, s.failed || a.failed, a.fatal);
  }

  /** copy(): the walk from its start; the exit status it returns (1 also for an err() exit). */
  method Copy(sys: System, c: Ctx, es: seq<CpEnt>) returns (status: int)
    modifies sys
    ensures var (w', s') := CopyF(old(sys.Now()), c, es, START); sys.Now() == w' && status == Status(s')
  {
    var s := START;
    while s.i < |es| && !s.fatal
      invariant CopyF(sys.Now(), c, es, s) == CopyF(old(sys.Now()), c, es, START)
      decreases |es| - s.i
    {
      s := Entry(sys, c, es, s);
    }
    status := Status(s);
  }

  // ---------------------------------------------------------------------
  // main

  /**
   * The whole of main: the option loop (usage exits 1), the checks on the
   * operands (usage and fatal errors exit 1), then copy() over the walk.
   * Returns the final world and the exit status.
   */
  function CpMainF(w: World, opts: string, tty: bool, cr: Creds, operands: seq<string>, es: seq<CpEnt>): (r: (World, int))
    ensures r.1 == 0 || r.1 == 1
  {
    match ParseF(opts, tty)
    case None => (w, 1)
    case Some(fl) =>
      var (w1, su) := SetupF(w, fl, operands);
      if !su.Start? then (w1, 1)
      else
        var (w2, s) := CopyF(w1, Ctx(fl, cr, su.fts, su.op, su.target), es, START);
        (w2, Status(s))
  }

  method CpMain(sys: System, opts: string, tty: bool, cr: Creds, operands: seq<string>, es: seq<CpEnt>)
    returns (status: int)
    modifies sys
    ensures (sys.Now(), status) == CpMainF(old(sys.Now()), opts, tty, cr, operands, es)
  {
    var fl := Parse(opts, tty);
    if fl.None? {
      return 1;
    }
    var su := Setup(sys, fl.value, operands);
    if !su.Start? {
      return 1;
    }
    status := Copy(sys, Ctx(fl.value, cr, su.fts, su.op, su.target), es);
  }
}

=== FILE: cp_copy_props.dfy ===
// Properties of cp's copy(): where entries land under the target, what
// the checks on an existing target prevent, and how failures reach the
// exit status.

module CpCopyProps {
  import opened Posix
  import opened Domain
  import opened CpUtils
  import opened Cp
  import opened CpCopy
  import EcpTree

  // ---------------------------------------------------------------------
  // Paths

  /** STRIP_TRAILING_SLASH leaves a path that does not end in '/' alone. */
  lemma StripKeeps(s: string)
    requires |s| <= 1 || s[|s| - 1] != '/'
    ensures EcpTree.StripSlashes(s) == s
  {
  }

  /** STRIP_TRAILING_SLASH takes back the '/' added to a trimmed path. */
  lemma StripAdded(t: string)
    requires |t| >= 1 && EcpTree.StripSlashes(t) == t && !TrailingSlash(t)
    ensures EcpTree.StripSlashes(t + "/") == t
  {
    assert (t + "/")[..|t + "/"| - 1] == t;
  }

  /**
   * Every path PlaceF builds starts with the (trimmed, non-empty) target and
   * fits in PATH_MAX: nothing is ever placed outside the target.
   */
  lemma PlaceUnderTarget(c: Ctx, e: CpEnt, base: nat)
    requires c.target == EcpTree.StripSlashes(c.target) && |c.target| >= 1
    requires PlaceF(c, e, base).1.Some?
    ensures var to := PlaceF(c, e, base).1.value;
      c.target <= to && |to| < PATH_MAX
  {
    var b := PlaceF(c, e, base).0;
    var p := e.path[b..];
    var sep := if (p == [] || p[0] != '/') && !TrailingSlash(c.target) then "/" else "";
    var s := c.target + sep + p;
    var r := EcpTree.StripSlashes(s);
    assert PlaceF(c, e, base).1.value == r;
    assert s[..|c.target|] == c.target;
    if |c.target| > 1 {
      assert s[|c.target| - 1] != '/';
    }
    assert |r| >= |c.target|;
    assert r[..|c.target|] == s[..|c.target|];
  }

  /** DIR_TO_DNE: the root itself goes to the target path. */
  lemma DirToDneRoot(c: Ctx, e: CpEnt, base: nat)
    requires c.op == DirToDne && e.level == ROOTLEVEL
    requires c.target == EcpTree.StripSlashes(c.target) && |c.target| >= 1
    requires |e.name| + |c.target| + 1 <= MAXPATHLEN && |c.target| + 1 < PATH_MAX
    ensures PlaceF(c, e, base) == (|e.path|, Some(c.target))
  {
    assert e.path[|e.path|..] == [];
    if !TrailingSlash(c.target) {
      assert c.target + "/" + [] == c.target + "/";
      StripAdded(c.target);
    } else {
      assert c.target + "" + [] == c.target;
    }
  }

  /** DIR_TO_DNE: an entry root + "/" + rest below the root goes to target + "/" + rest. */
  lemma DirToDneChild(c: Ctx, e: CpEnt, root: string, rest: string)
    requires c.op == DirToDne && e.level != ROOTLEVEL && e.path == root + "/" + rest
    requires c.target == EcpTree.StripSlashes(c.target) && |c.target| >= 1 && !TrailingSlash(c.target)
    requires rest != [] && rest[|rest| - 1] != '/'
    requires |e.name| + |c.target| + 1 <= MAXPATHLEN && |c.target| + 1 + |rest| < PATH_MAX
    ensures PlaceF(c, e, |root|) == (|root|, Some(c.target + "/" + rest))
  {
    assert e.path[|root|..] == "/" + rest;
    assert c.target + "" + ("/" + rest) == c.target + "/" + rest;
    StripKeeps(c.target + "/" + rest);
  }

  /**
   * FILE_TO_DIR: a root goes to target + "/" + its last component, ".."
   * going to target + "/." and a root ending in '/' to the target itself.
   */
  lemma FileToDirRoot(c: Ctx, e: CpEnt, base: nat)
    requires c.op == FileToDir && e.level == ROOTLEVEL
    requires c.target == EcpTree.StripSlashes(c.target) && |c.target| >= 1 && !TrailingSlash(c.target)
    requires |e.name| + |c.target| + 1 <= MAXPATHLEN && |c.target| + 1 + |AfterLastSlash(e.path)| < PATH_MAX
    ensures var last := AfterLastSlash(e.path);
      PlaceF(c, e, base).1 == Some(
        if last == [] then c.target
        else c.target + "/" + (if last == ".." then "." else last))
  {
    var last := AfterLastSlash(e.path);
    var b := RootBase(c.op, e.path);
    var p := e.path[b..];
    assert PlaceF(c, e, base) == PlaceUnder(c, e, b);
    if last == [] {
      assert p == [];
      assert c.target + "/" + p == c.target + "/";
      StripAdded(c.target);
    } else {
      var q := if last == ".." then "." else last;
      assert p == q;
      assert q[|q| - 1] != '/' by {
        if last != ".." {
          assert q[|q| - 1] in last;
        }
      }
      StripKeeps(c.target + "/" + q);
    }
  }

  // ---------------------------------------------------------------------
  // The walk

  /** Once a visit has failed, the walk ends with any_failed set. */
  lemma {:induction false} CopyKeepsFailure(w: World, c: Ctx, es: seq<CpEnt>, s: Walk)
    requires s.failed
    ensures CopyF(w, c, es, s).1.failed
    decreases |es| - s.i
  {
    if !s.fatal && s.i < |es| {
      var (w1, s1) := EntryF(w, c, es, s);
      CopyKeepsFailure(w1, c, es, s1);
    }
  }

  /** The walk stops only at its end or at an err() exit, and never goes back. */
  lemma {:induction false} CopyRunsToEnd(w: World, c: Ctx, es: seq<CpEnt>, s: Walk)
    ensures var s' := CopyF(w, c, es, s).1;
      s'.i >= s.i && (s'.fatal || s'.i >= |es|)
    decreases |es| - s.i
  {
    if !s.fatal && s.i < |es| {
      var (w1, s1) := EntryF(w, c, es, s);
      CopyRunsToEnd(w1, c, es, s1);
    }
  }

  /** An unreadable entry (NS, DNR, ERR, DC) is skipped and makes the exit status 1. */
  lemma UnreadableFails(w: World, c: Ctx, es: seq<CpEnt>, s: Walk)
    requires s.i < |es| && !s.fatal && Unreadable(es[s.i].info)
    ensures EntryF(w, c, es, s).0 == w
    ensures Status(CopyF(w, c, es, s).1) == 1
  {
    var (w1, s1) := EntryF(w, c, es, s);
    CopyKeepsFailure(w1, c, es, s1);
  }

  /**
   * A source whose target is the source itself is not copied: the files
   * are untouched, the visit fails, and for a directory at its pre-order
   * visit the walk moves past its whole subtree.
   */
  lemma IdenticalNotCopied(w: World, c: Ctx, es: seq<CpEnt>, s: Walk, to: string)
    requires s.i < |es| && !Unreadable(es[s.i].info)
    requires TargetOf(c, es[s.i], s.base).1 == Some(to) && ProbeF(w, c, es[s.i], to).1 == Identical
    ensures var (w', s') := EntryF(w, c, es, s);
      && w'.image == w.image && w'.host == w.host && s'.failed
      && (es[s.i].info == D && IsDir(es[s.i].st.mode) ==>
            s'.i == SkipTo(es, s.i, s.i + 1) && forall k :: s.i < k < s'.i ==> es[k].level > es[s.i].level)
  {
  }

  /** A non-directory is never copied over an existing directory: the files are untouched and the visit fails. */
  lemma DirNotOverwritten(w: World, c: Ctx, es: seq<CpEnt>, s: Walk, to: string)
    requires s.i < |es| && !Unreadable(es[s.i].info) && !IsDir(es[s.i].st.mode)
    requires TargetOf(c, es[s.i], s.base).1 == Some(to)
    requires var ts := if c.fl.P then LstatF(w.image, to) else StatF(w.image, to);
      ts.Ok? && IsDir(ts.value.mode)
    ensures var (w', s') := EntryF(w, c, es, s);
      w' == w && s'.failed && s'.i == s.i + 1
  {
    var e := es[s.i];
    var ts := if c.fl.P then LstatF(w.image, to) else StatF(w.image, to);
    assert ts.value.dev != e.st.dev || ts.value.ino != e.st.ino ==> ProbeF(w, c, e, to).1 == OverDir;
    if ts.value.dev == e.st.dev && ts.value.ino == e.st.ino {
      assert ProbeF(w, c, e, to).1 == Identical;
    }
  }

  /** Without -R or -r a directory is not copied: the files are untouched, the visit fails and its subtree is skipped. */
  lemma DirNeedsRecursion(w: World, c: Ctx, es: seq<CpEnt>, s: Walk)
    requires s.i < |es| && !Unreadable(es[s.i].info) && IsDir(es[s.i].st.mode)
    requires !c.fl.R && !c.fl.r && TargetOf(c, es[s.i], s.base).1.Some?
    ensures var (w', s') := EntryF(w, c, es, s);
      && w'.image == w.image && w'.host == w.host && s'.failed
      && (es[s.i].info == D ==> s'.i == SkipTo(es, s.i, s.i + 1))
  {
  }

  /**
   * The pre-order visit of a directory with a missing target under -R:
   * either the target is now a directory or the program exits.
   */
  lemma DirMadeBeforeChildren(w: World, c: Ctx, es: seq<CpEnt>, s: Walk, to: string)
    requires s.i < |es| && es[s.i].info == D && IsDir(es[s.i].st.mode) && c.fl.R
    requires TargetOf(c, es[s.i], s.base).1 == Some(to) && ProbeF(w, c, es[s.i], to).1 == Missing
    ensures var (w', s') := EntryF(w, c, es, s);
      s'.fatal || (Norm(to) in w'.image.files && IsDir(w'.image.files[Norm(to)].mode) && s'.dne)
  {
  }

  /** A successful exit status means every entry was visited and none failed. */
  lemma ExitZero(w: World, opts: string, tty: bool, cr: Creds, operands: seq<string>, es: seq<CpEnt>)
    requires CpMainF(w, opts, tty, cr, operands, es).1 == 0
    ensures ParseF(opts, tty).Some?
    ensures var fl := ParseF(opts, tty).value;
      var (w1, su) := SetupF(w, fl, operands);
      && su.Start?
      && var s := CopyF(w1, Ctx(fl, cr, su.fts, su.op, su.target), es, START).1;
         s.i >= |es| && !s.failed && !s.fatal
  {
    var fl := ParseF(opts, tty).value;
    var (w1, su) := SetupF(w, fl, operands);
    CopyRunsToEnd(w1, Ctx(fl, cr, su.fts, su.op, su.target), es, START);
  }
}

=== FILE: cp_utils.dfy ===
// The copy primitives of the cp(1) port (src/utils_cp.c): copy_file,
// copy_link, copy_fifo, copy_special and setfile. Every call goes into the
// image (rump_sys_*); the target is the path cp has built in its "to"
// buffer. Each primitive is a method on the System, stated as equal to a
// function of the world it starts from; lemmas below say what those
// functions do.

module CpUtils {
  import opened Posix
  import opened Domain
  import Str2Arg

  /** The flags cp's getopt loop sets, as copy_file and setfile read them. */
  datatype CpFlags = CpFlags(
    H: bool, L: bool, P: bool, R: bool, r: bool,
    f: bool, i: bool, p: bool, N: bool, v: bool)

  /** The rest of cp's globals the primitives read: getuid() and the umask. */
  datatype Creds = Creds(myuid: int, myumask: bv32)

  /** MAXBSIZE: the size of copy_file's static buffer. */
  const MAXBSIZE: nat := 65536

  /** MAXPATHLEN. */
  const MAXPATHLEN: nat := 1024

  /** The bits setfile keeps of st_mode: setuid, setgid and the rwx bits. */
  const KEEPBITS: bv32 := 0xDFF

  /** RETAINBITS: setuid, setgid, sticky and the rwx bits. */
  const RETAINBITS: bv32 := 0xFFF

  const SETID: bv32 := 0xC00

  /** A mode without its setuid and setgid bits. */
  function ClearSetid(m: bv32): bv32 { m & !SETID }

  // ---------------------------------------------------------------------
  // setfile

  /** A call that changes the image and whose failure makes the result 1. */
  function Check(w: World, r: Result<Fs>, rval: int): (World, int) {
    var (w1, c) := Apply(w, Image, r);
    (w1, if c == -1 then 1 else rval)
  }

  /** set_utimes: lutimes with the source's access and modification times; 1 when it fails. */
  function SetUtimesF(w: World, to: string, st: Stat): (World, int) {
    Check(w, UtimesF(w.image, to, st.atime, st.mtime, false), 0)
  }

  /** chflags, run unless the source is a link or -N was given; errno is cleared first. */
  function ChflagsStepF(w: World, to: string, st: Stat, nflag: bool, rval: int): (World, int) {
    if IsLnk(st.mode) || nflag then (w, rval)
    else
      var w1 := w.(errno := NoError);
      var (w2, c) := Apply(w1, Image, ChflagsF(w1.image, to, st.flags, true));
      (w2, if c == -1 && (w2.errno != EOPNOTSUPP || st.flags != 0) then 1 else rval)
  }

  /**
   * setfile's lchown to the source's owner: the world after, the result so
   * far (1 when it failed other than with EPERM) and the mode left to set
   * (setuid/setgid dropped when it failed).
   */
  function ChownStepF(w: World, to: string, st: Stat): (World, int, bv32) {
    var (w1, c) := Apply(w, Image, ChownF(w.image, to, st.uid, st.gid, false));
    (w1, if c == -1 && w1.errno != EPERM then 1 else 0,
     if c == -1 then ClearSetid(st.mode & KEEPBITS) else st.mode & KEEPBITS)
  }

  /**
   * setfile(fs, 0): st_mode is cut down to KEEPBITS; ChownStepF; lchmod to
   * what is left; ChflagsStepF; set_utimes. The new world, the result, and
   * the stat as setfile leaves it.
   */
  function SetFileF(w: World, st: Stat, to: string, nflag: bool): (r: (World, int, Stat))
    ensures r.1 == 0 || r.1 == 1
  {
    var (w1, r1, m1) := ChownStepF(w, to, st);
    var (w2, r2) := Check(w1, ChmodF(w1.image, to, m1, false), r1);
    var (w3, r3) := ChflagsStepF(w2, to, st, nflag, r2);
    var (w4, c4) := SetUtimesF(w3, to, st);
    (w4, if c4 == 1 then 1 else r3, st.(mode := m1))
  }

  method SetUtimes(sys: System, to: string, st: Stat) returns (rval: int)
    modifies sys
    ensures (sys.Now(), rval) == SetUtimesF(old(sys.Now()), to, st)
  {
    var c := sys.Commit(Image, UtimesF(sys.image, to, st.atime, st.mtime, false));
    rval := if c == -1 then 1 else 0;
  }

  method ChownStep(sys: System, to: string, st: Stat) returns (rval: int, mode: bv32)
    modifies sys
    ensures var t := ChownStepF(old(sys.Now()), to, st);
      sys.Now() == t.0 && rval == t.1 && mode == t.2
  {
    var c := sys.Commit(Image, ChownF(sys.image, to, st.uid, st.gid, false));
    rval := if c == -1 && sys.errno != EPERM then 1 else 0;
    mode := if c == -1 then ClearSetid(st.mode & KEEPBITS) else st.mode & KEEPBITS;
  }

  method ChflagsStep(sys: System, to: string, st: Stat, nflag: bool, rval: int) returns (rval': int)
    modifies sys
    ensures (sys.Now(), rval') == ChflagsStepF(old(sys.Now()), to, st, nflag, rval)
  {
    rval' := rval;
    if !IsLnk(st.mode) && !nflag {
      sys.errno := NoError;
      var c := sys.Commit(Image, ChflagsF(sys.image, to, st.flags, true));
      if c == -1 && (sys.errno != EOPNOTSUPP || st.flags != 0) {
        rval' := 1;
      }
    }
  }

  /** setfile; st is the caller's stat, which setfile rewrites, so the rewritten one is returned. */
  method SetFile(sys: System, st: Stat, to: string, nflag: bool) returns (rval: int, st': Stat)
    modifies sys
    ensures (sys.Now(), rval, st') == SetFileF(old(sys.Now()), st, to, nflag)
  {
    var mode;
    rval, mode := ChownStep(sys, to, st);
    st' := st.(mode := mode);
    var c := sys.Commit(Image, ChmodF(sys.image, to, st'.mode, false));
    if c == -1 {
      rval := 1;
    }
    rval := ChflagsStep(sys, to, st, nflag, rval);
    c := SetUtimes(sys, to, st);
    if c == 1 {
      rval := 1;
    }
  }

  /** A path naming an existing node that is not a link resolves to itself. */
  lemma ResolvesToItself(fs: Fs, p: string)
    requires Norm(p) in fs.files && !IsLnk(fs.files[Norm(p)].mode)
    ensures Resolve(fs, p, MAXSYMLINKS) == Ok(Norm(p))
  {
  }

  /** The mode setfile leaves: type and sticky bits always go, setuid/setgid go when lchown fails. */
  lemma SetFileMode(w: World, st: Stat, to: string, nflag: bool)
    ensures var m := SetFileF(w, st, to, nflag).2.mode;
      var ok := ChownF(w.image, to, st.uid, st.gid, false).Ok?;
      && m & (S_IFMT | S_ISVTX) == 0
      && m & (S_IRWXU | S_IRWXG | S_IRWXO) == st.mode & (S_IRWXU | S_IRWXG | S_IRWXO)
      && (m & SETID == if ok then st.mode & SETID else 0)
  {
  }

  /** The world with the image's node k replaced by n. */
  function Put(w: World, k: string, n: Inode): World {
    w.(image := w.image.(files := w.image.files[k := n]))
  }

  lemma ChownStepAllowed(w: World, to: string, st: Stat)
    requires Norm(to) in w.image.files && w.image.chownAllowed
    ensures var n := w.image.files[Norm(to)];
      ChownStepF(w, to, st) == (Put(w, Norm(to), n.(uid := st.uid, gid := st.gid)), 0, st.mode & KEEPBITS)
  {
    var k := Norm(to);
    var n := w.image.files[k];
    assert Target_(w.image, to, false) == Ok(k);
    var fs := w.image.(files := w.image.files[k := n.(uid := st.uid, gid := st.gid)]);
    assert ChownF(w.image, to, st.uid, st.gid, false) == Ok(fs);
    assert Apply(w, Image, Ok(fs)) == (w.(image := fs), 0);
    assert Put(w, k, n.(uid := st.uid, gid := st.gid)) == w.(image := fs);
  }

  lemma ChownStepRefused(w: World, to: string, st: Stat)
    requires Norm(to) in w.image.files && !w.image.chownAllowed
    ensures ChownStepF(w, to, st) == (w.(errno := EPERM), 0, ClearSetid(st.mode & KEEPBITS))
  {
    assert Target_(w.image, to, false) == Ok(Norm(to));
    assert ChownF(w.image, to, st.uid, st.gid, false) == Fail(EPERM);
    assert Apply(w, Image, Fail(EPERM)) == (w.(errno := EPERM), -1);
  }

  lemma ChmodStep(w: World, to: string, m: bv32, rval: int)
    requires Norm(to) in w.image.files
    ensures var n := w.image.files[Norm(to)];
      Check(w, ChmodF(w.image, to, m, false), rval)
        == (Put(w, Norm(to), n.(mode := WithPerms(n.mode, m))), rval)
  {
    var k := Norm(to);
    var n := w.image.files[k];
    assert Target_(w.image, to, false) == Ok(k);
    var fs := w.image.(files := w.image.files[k := n.(mode := WithPerms(n.mode, m))]);
    assert ChmodF(w.image, to, m, false) == Ok(fs);
    assert Apply(w, Image, Ok(fs)) == (w.(image := fs), 0);
    assert Check(w, Ok(fs), rval) == (w.(image := fs), rval);
    assert Put(w, k, n.(mode := WithPerms(n.mode, m))) == w.(image := fs);
  }

  lemma ChflagsStepAllowed(w: World, to: string, st: Stat, nflag: bool, rval: int)
    requires Norm(to) in w.image.files && !IsLnk(w.image.files[Norm(to)].mode)
    requires w.image.chownAllowed && !IsLnk(st.mode) && !nflag
    ensures var n := w.image.files[Norm(to)];
      ChflagsStepF(w, to, st, nflag, rval) == (Put(w.(errno := NoError), Norm(to), n.(flags := st.flags)), rval)
  {
    var k := Norm(to);
    var n := w.image.files[k];
    ResolvesToItself(w.image, to);
    assert Target_(w.image, to, true) == Ok(k);
    var fs := w.image.(files := w.image.files[k := n.(flags := st.flags)]);
    assert ChflagsF(w.image, to, st.flags, true) == Ok(fs);
    var w1 := w.(errno := NoError);
    assert Apply(w1, Image, Ok(fs)) == (w1.(image := fs), 0);
    assert Put(w1, k, n.(flags := st.flags)) == w1.(image := fs);
  }

  lemma ChflagsStepRefused(w: World, to: string, st: Stat, nflag: bool, rval: int)
    requires Norm(to) in w.image.files && !IsLnk(w.image.files[Norm(to)].mode)
    requires !w.image.chownAllowed && st.flags == 0
    ensures var (w', r') := ChflagsStepF(w, to, st, nflag, rval);
      w'.image == w.image && r' == rval
  {
    if !IsLnk(st.mode) && !nflag {
      ResolvesToItself(w.image, to);
      assert Target_(w.image, to, true) == Ok(Norm(to));
      assert ChflagsF(w.image, to, st.flags, true) == Fail(EOPNOTSUPP);
      var w1 := w.(errno := NoError);
      assert Apply(w1, Image, Fail(EOPNOTSUPP)) == (w1.(errno := EOPNOTSUPP), -1);
    }
  }

  lemma UtimesStep(w: World, to: string, st: Stat)
    requires Norm(to) in w.image.files
    ensures var n := w.image.files[Norm(to)];
      SetUtimesF(w, to, st) == (Put(w, Norm(to), n.(atime := st.atime, mtime := st.mtime)), 0)
  {
    var k := Norm(to);
    var n := w.image.files[k];
    assert Target_(w.image, to, false) == Ok(k);
    var fs := w.image.(files := w.image.files[k := n.(atime := st.atime, mtime := st.mtime)]);
    assert UtimesF(w.image, to, st.atime, st.mtime, false) == Ok(fs);
    assert Apply(w, Image, Ok(fs)) == (w.(image := fs), 0);
    assert Put(w, k, n.(atime := st.atime, mtime := st.mtime)) == w.(image := fs);
  }

  /** chmod keeps the node's type and takes the requested permission bits. */
  lemma WithPermsBits(m: bv32, perms: bv32)
    ensures WithPerms(m, perms) & ALLPERMS == perms & ALLPERMS
    ensures WithPerms(m, perms) & S_IFMT == m & S_IFMT
    ensures IsLnk(WithPerms(m, perms)) == IsLnk(m)
  {
  }

  /** The target node after a setfile where every call succeeds. */
  function Applied(n: Inode, st: Stat, nflag: bool): Inode {
    var n2 := n.(uid := st.uid, gid := st.gid, mode := WithPerms(n.mode, st.mode & KEEPBITS));
    var n3 := if !IsLnk(st.mode) && !nflag then n2.(flags := st.flags) else n2;
    n3.(atime := st.atime, mtime := st.mtime)
  }

  /** lchown then lchmod, both allowed: owner and permission bits replaced, result 0. */
  lemma OwnerModeAllowed(w: World, to: string, st: Stat)
    requires Norm(to) in w.image.files && w.image.chownAllowed
    ensures var n := w.image.files[Norm(to)];
      var (w1, r1, m1) := ChownStepF(w, to, st);
      var (w2, r2) := Check(w1, ChmodF(w1.image, to, m1, false), r1);
      && m1 == st.mode & KEEPBITS && r2 == 0
      && w2 == Put(w, Norm(to), n.(uid := st.uid, gid := st.gid, mode := WithPerms(n.mode, m1)))
  {
    var k := Norm(to);
    var n := w.image.files[k];
    ChownStepAllowed(w, to, st);
    ChmodStep(Put(w, k, n.(uid := st.uid, gid := st.gid)), to, st.mode & KEEPBITS, 0);
  }

  /** chflags (when it runs) then lutimes, both allowed: flags and times replaced, result 0. */
  lemma FlagsTimesAllowed(w: World, to: string, st: Stat, nflag: bool)
    requires Norm(to) in w.image.files && !IsLnk(w.image.files[Norm(to)].mode)
    requires w.image.chownAllowed
    ensures var n := w.image.files[Norm(to)];
      var n3 := if !IsLnk(st.mode) && !nflag then n.(flags := st.flags) else n;
      var (w3, r3) := ChflagsStepF(w, to, st, nflag, 0);
      var (w4, c4) := SetUtimesF(w3, to, st);
      && r3 == 0 && c4 == 0
      && w4.image.files == w.image.files[Norm(to) := n3.(atime := st.atime, mtime := st.mtime)]
  {
    var k := Norm(to);
    var n := w.image.files[k];
    if !IsLnk(st.mode) && !nflag {
      ChflagsStepAllowed(w, to, st, nflag, 0);
      UtimesStep(Put(w.(errno := NoError), k, n.(flags := st.flags)), to, st);
    } else {
      UtimesStep(w, to, st);
    }
  }

  /**
   * On an existing target that is not a link, with chown and chflags
   * allowed, setfile succeeds and changes only the target node, which
   * becomes Applied.
   */
  lemma SetFileAllowed(w: World, st: Stat, to: string, nflag: bool)
    requires Norm(to) in w.image.files && !IsLnk(w.image.files[Norm(to)].mode)
    requires w.image.chownAllowed
    ensures var r := SetFileF(w, st, to, nflag);
      && r.0.image.files == w.image.files[Norm(to) := Applied(w.image.files[Norm(to)], st, nflag)]
      && r.1 == 0
  {
    var k := Norm(to);
    var n := w.image.files[k];
    OwnerModeAllowed(w, to, st);
    var n2 := n.(uid := st.uid, gid := st.gid, mode := WithPerms(n.mode, st.mode & KEEPBITS));
    WithPermsBits(n.mode, st.mode & KEEPBITS);
    FlagsTimesAllowed(Put(w, k, n2), to, st, nflag);
  }

  /**
   * The node a successful setfile leaves takes the source's owner,
   * permission bits (setuid and setgid included, see WithPermsBits), flags
   * and times, and keeps its own type and contents.
   */
  lemma SetFileApplies(n: Inode, st: Stat, nflag: bool)
    ensures var n' := Applied(n, st, nflag);
      && n'.uid == st.uid && n'.gid == st.gid
      && n'.mode == WithPerms(n.mode, st.mode & KEEPBITS)
      && n'.atime == st.atime && n'.mtime == st.mtime
      && n'.flags == (if !IsLnk(st.mode) && !nflag then st.flags else n.flags)
      && n'.content == n.content
  {
  }

  /** lchown refused with EPERM, then lchmod: setuid and setgid dropped, result still 0. */
  lemma OwnerModeRefused(w: World, to: string, st: Stat)
    requires Norm(to) in w.image.files && !w.image.chownAllowed
    ensures var n := w.image.files[Norm(to)];
      var (w1, r1, m1) := ChownStepF(w, to, st);
      var (w2, r2) := Check(w1, ChmodF(w1.image, to, m1, false), r1);
      && m1 == ClearSetid(st.mode & KEEPBITS) && r2 == 0
      && w2 == Put(w.(errno := EPERM), Norm(to), n.(mode := WithPerms(n.mode, m1)))
  {
    ChownStepRefused(w, to, st);
    ChmodStep(w.(errno := EPERM), to, ClearSetid(st.mode & KEEPBITS), 0);
  }

  /** chflags refused with EOPNOTSUPP for a source without flags, then lutimes: result 0. */
  lemma FlagsTimesRefused(w: World, to: string, st: Stat, nflag: bool)
    requires Norm(to) in w.image.files && !IsLnk(w.image.files[Norm(to)].mode)
    requires !w.image.chownAllowed && st.flags == 0
    ensures var n := w.image.files[Norm(to)];
      var (w3, r3) := ChflagsStepF(w, to, st, nflag, 0);
      var (w4, c4) := SetUtimesF(w3, to, st);
      && r3 == 0 && c4 == 0
      && w4.image.files == w.image.files[Norm(to) := n.(atime := st.atime, mtime := st.mtime)]
  {
    ChflagsStepRefused(w, to, st, nflag, 0);
    UtimesStep(ChflagsStepF(w, to, st, nflag, 0).0, to, st);
  }

  /**
   * Where chown is refused (EPERM, and chflags then EOPNOTSUPP), setfile of
   * a source without flags still succeeds; the target takes the source's
   * permission bits without setuid and setgid (RefusedPerms) and its times.
   */
  lemma SetFileToleratesRefusal(w: World, st: Stat, to: string, nflag: bool)
    requires Norm(to) in w.image.files && !IsLnk(w.image.files[Norm(to)].mode)
    requires !w.image.chownAllowed && st.flags == 0
    ensures var r := SetFileF(w, st, to, nflag);
      var n := w.image.files[Norm(to)];
      && r.1 == 0
      && r.0.image.files == w.image.files[Norm(to) :=
           n.(mode := WithPerms(n.mode, ClearSetid(st.mode & KEEPBITS)), atime := st.atime, mtime := st.mtime)]
  {
    var k := Norm(to);
    var n := w.image.files[k];
    var m1 := ClearSetid(st.mode & KEEPBITS);
    OwnerModeRefused(w, to, st);
    WithPermsBits(n.mode, m1);
    FlagsTimesRefused(Put(w.(errno := EPERM), k, n.(mode := WithPerms(n.mode, m1))), to, st, nflag);
  }

  /** The permission bits a refused chown leaves: the rwx bits of the source, nothing else. */
  lemma RefusedPerms(m: bv32, mode: bv32)
    ensures WithPerms(m, ClearSetid(mode & KEEPBITS)) & ALLPERMS == mode & (S_IRWXU | S_IRWXG | S_IRWXO)
  {
    WithPermsBits(m, ClearSetid(mode & KEEPBITS));
  }

  // ---------------------------------------------------------------------
  // copy_file

  /** tolnk: -R without -L or -H, or -P. */
  predicate Tolnk(f: CpFlags) { (f.R && !(f.L || f.H)) || f.P }

  /**
   * copy_file's loop: read up to MAXBSIZE bytes from fdin; a positive count
   * is written to fdout, and a short or failed write ends it with 1; a
   * zero count ends it with 0, a negative one with 1.
   */
  function CopyLoopF(w: World, fdin: int, fdout: int): (r: (World, int))
    ensures r.1 == 0 || r.1 == 1
    decreases w.image.space
  {
    var (w1, rcount, buf) := ReadW(w, Image, fdin, MAXBSIZE);
    if rcount <= 0 then (w1, if rcount < 0 then 1 else 0)
    else
      var (w2, wcount) := WriteW(w1, Image, fdout, buf);
      if rcount != wcount || wcount == -1 then (w2, 1)
      else
        LoopSpends(w, fdin, fdout);
        CopyLoopF(w2, fdin, fdout)
  }

  /** A round that wrote all it read used up that much space in the image. */
  lemma LoopSpends(w: World, fdin: int, fdout: int)
    requires ReadW(w, Image, fdin, MAXBSIZE).1 > 0
    ensures var (w1, rcount, buf) := ReadW(w, Image, fdin, MAXBSIZE);
      WriteW(w1, Image, fdout, buf).1 == rcount ==>
        WriteW(w1, Image, fdout, buf).0.image.space < w.image.space
  {
    var (w1, rcount, buf) := ReadW(w, Image, fdin, MAXBSIZE);
    assert w1.image.space == w.image.space;
  }

  method CopyLoop(sys: System, fdin: int, fdout: int) returns (rval: int)
    modifies sys
    ensures (sys.Now(), rval) == CopyLoopF(old(sys.Now()), fdin, fdout)
  {
    ghost var w0 := sys.Now();
    while true
      invariant CopyLoopF(sys.Now(), fdin, fdout) == CopyLoopF(w0, fdin, fdout)
      decreases sys.image.space
    {
      ghost var wi := sys.Now();
      var rcount, buf := sys.Read(Image, fdin, MAXBSIZE);
      if rcount <= 0 {
        return if rcount < 0 then 1 else 0;
      }
      var wcount := sys.Write(Image, fdout, buf);
      if rcount != wcount || wcount == -1 {
        return 1;
      }
      LoopSpends(wi, fdin, fdout);
    }
  }

  /**
   * The end of copy_file after the data: setfile under -p; without -p, for
   * a target that did not exist and a setuid/setgid source owned by the
   * caller, stat the target and, if its group is the source's, chmod it to
   * mode & RETAINBITS & ~umask; set_utimes under -p.
   */
  function FinishF(w: World, fl: CpFlags, cr: Creds, st: Stat, to: string, dne: bool): (r: (World, int))
    ensures r.1 == 0 || r.1 == 1
  {
    var (w1, r1) := if fl.p then var (wa, ra, _) := SetFileF(w, st, to, fl.N); (wa, ra) else (w, 0);
    var (w2, r2) := RestoreSetidF(w1, fl, cr, st, to, dne, r1);
    if fl.p then
      var (w3, c3) := SetUtimesF(w2, to, st);
      (w3, if c3 == 1 then 1 else r2)
    else (w2, r2)
  }

  /** Whether copy_file tries to restore setuid/setgid: no -p, a new target, a setuid/setgid source of the caller's. */
  predicate Restores(fl: CpFlags, cr: Creds, st: Stat, dne: bool) {
    !fl.p && dne && st.mode & SETID != 0 && st.uid == cr.myuid
  }

  /** The mode it restores: the source's mode & RETAINBITS & ~umask. */
  function RestoredMode(cr: Creds, st: Stat): bv32 {
    st.mode & RETAINBITS & !cr.myumask
  }

  /**
   * Without -p, for a new target and a setuid/setgid source owned by the
   * caller: stat the target (1 when that fails) and, if its group is the
   * source's, chmod it to mode & RETAINBITS & ~umask (1 when that fails).
   */
  function RestoreSetidF(w: World, fl: CpFlags, cr: Creds, st: Stat, to: string, dne: bool, rval: int): (World, int) {
    if Restores(fl, cr, st, dne) then
      var ts := StatF(w.image, to);
      if ts.Fail? then (Looked(w, ts), 1)
      else if st.gid == ts.value.gid then
        Check(w, ChmodF(w.image, to, RestoredMode(cr, st), true), rval)
      else (w, rval)
    else (w, rval)
  }

  method RestoreSetid(sys: System, fl: CpFlags, cr: Creds, st: Stat, to: string, dne: bool, rval: int)
    returns (rval': int)
    modifies sys
    ensures (sys.Now(), rval') == RestoreSetidF(old(sys.Now()), fl, cr, st, to, dne, rval)
  {
    rval' := rval;
    if Restores(fl, cr, st, dne) {
      var ts := sys.Stat(Image, to);
      if ts.Fail? {
        rval' := 1;
      } else if st.gid == ts.value.gid {
        var c := sys.Commit(Image, ChmodF(sys.image, to, RestoredMode(cr, st), true));
        if c == -1 {
          rval' := 1;
        }
      }
    }
  }

  method Finish(sys: System, fl: CpFlags, cr: Creds, st: Stat, to: string, dne: bool) returns (rval: int)
    modifies sys
    ensures (sys.Now(), rval) == FinishF(old(sys.Now()), fl, cr, st, to, dne)
  {
    rval := 0;
    if fl.p {
      var c, st' := SetFile(sys, st, to, fl.N);
      if c != 0 {
        rval := 1;
      }
    }
    rval := RestoreSetid(sys, fl, cr, st, to, dne, rval);
    if fl.p {
      var c := SetUtimes(sys, to, st);
      if c == 1 {
        rval := 1;
      }
    }
  }

  /** The flags copy_file opens the target with: the source's st_mode without setuid/setgid. */
  function OpenFlags(st: Stat): bv32 { st.mode & !SETID }

  /**
   * copy_file's opens, with the target's open flags and creation mode as
   * parameters: the target, and once more after an unlink if that fails
   * under -f or tolnk; then the source O_RDONLY, unchecked. The world after,
   * whether the target open gave up for good, and both descriptors.
   */
  function OpenTargetWithF(w: World, fl: CpFlags, path: string, to: string, flags: bv32, mode: bv32)
    : (World, bool, int, int)
  {
    var (w1, rv) := OpenW(w, Image, to, flags, mode);
    var (w2, fdout) :=
      if rv == -1 && (fl.f || Tolnk(fl)) then
        var wu := Apply(w1, Image, UnlinkF(w1.image, to)).0;
        OpenW(wu, Image, to, flags, mode)
      else (w1, rv);
    if rv == -1 && (fl.f || Tolnk(fl)) && fdout == -1 then (w2, true, -1, -1)
    else
      var (w3, fdin) := OpenW(w2, Image, path, O_RDONLY, 0);
      (w3, false, fdin, fdout)
  }

  /** copy_file's opens as written: the target with OpenFlags and no mode argument, taken as 0. */
  function OpenTargetF(w: World, fl: CpFlags, st: Stat, path: string, to: string): (World, bool, int, int) {
    OpenTargetWithF(w, fl, path, to, OpenFlags(st), 0)
  }

  /**
   * copy_file(entp, dne) with the target's open flags and creation mode as
   * parameters: over an existing target under -i, declined (confirm false,
   * standing for the answer read from stdin) gives 0; an existing target is
   * unlinked first (unchecked); then the opens, the loop only for a source
   * of positive size, and FinishF. 1 on failure.
   */
  function CopyFileWithF(w: World, fl: CpFlags, cr: Creds, path: string, st: Stat, to: string,
                         dne: bool, confirm: bool, flags: bv32, mode: bv32): (r: (World, int))
    ensures r.1 == 0 || r.1 == 1
  {
    if !dne && fl.i && !confirm then (w, 0)
    else
      var w0 := if !dne then Apply(w, Image, UnlinkF(w.image, to)).0 else w;
      var (w1, gaveUp, fdin, fdout) := OpenTargetWithF(w0, fl, path, to, flags, mode);
      if gaveUp then (w1, 1)
      else
        var (w2, rval) := if st.size > 0 then CopyLoopF(w1, fdin, fdout) else (w1, 0);
        if rval == 1 then (w2, 1)
        else FinishF(w2, fl, cr, st, to, dne)
  }

  /** copy_file as written: the target opened with the source's mode as open flags. */
  function CopyFileF(w: World, fl: CpFlags, cr: Creds, path: string, st: Stat, to: string,
                     dne: bool, confirm: bool): (r: (World, int))
    ensures r.1 == 0 || r.1 == 1
  {
    CopyFileWithF(w, fl, cr, path, st, to, dne, confirm, OpenFlags(st), 0)
  }

  /**
   * copy_file as evidently intended: the target opened O_WRONLY|O_CREAT|O_TRUNC
   * with the source's mode less setuid/setgid as the creation mode.
   */
  function CopyFileFixedF(w: World, fl: CpFlags, cr: Creds, path: string, st: Stat, to: string,
                          dne: bool, confirm: bool): (r: (World, int))
    ensures r.1 == 0 || r.1 == 1
  {
    CopyFileWithF(w, fl, cr, path, st, to, dne, confirm, O_WRONLY | O_CREAT | O_TRUNC, ClearSetid(st.mode))
  }

  method OpenTarget(sys: System, fl: CpFlags, st: Stat, path: string, to: string)
    returns (gaveUp: bool, fdin: int, fdout: int)
    modifies sys
    ensures (sys.Now(), gaveUp, fdin, fdout) == OpenTargetF(old(sys.Now()), fl, st, path, to)
  {
    var rv := sys.Open(Image, to, OpenFlags(st), 0);
    fdout := rv;
    if rv == -1 && (fl.f || Tolnk(fl)) {
      var _ := sys.Commit(Image, UnlinkF(sys.image, to));
      fdout := sys.Open(Image, to, OpenFlags(st), 0);
      if fdout == -1 {
        return true, -1, -1;
      }
    }
    gaveUp := false;
    fdin := sys.Open(Image, path, O_RDONLY, 0);
  }

  method CopyFile(sys: System, fl: CpFlags, cr: Creds, path: string, st: Stat, to: string,
                  dne: bool, confirm: bool) returns (rval: int)
    modifies sys
    ensures (sys.Now(), rval) == CopyFileF(old(sys.Now()), fl, cr, path, st, to, dne, confirm)
  {
    ghost var w := sys.Now();
    assert CopyFileF(w, fl, cr, path, st, to, dne, confirm)
        == CopyFileWithF(w, fl, cr, path, st, to, dne, confirm, OpenFlags(st), 0);
    if !dne {
      if fl.i && !confirm {
        return 0;
      }
      var _ := sys.Commit(Image, UnlinkF(sys.image, to));
    }
    var gaveUp, fdin, fdout := OpenTarget(sys, fl, st, path, to);
    if gaveUp {
      return 1;
    }
    rval := 0;
    if st.size > 0 {
      rval := CopyLoop(sys, fdin, fdout);
    }
    if rval == 1 {
      return 1;
    }
    rval := Finish(sys, fl, cr, st, to, dne);
  }

  /** The copy loop adds and removes no names. */
  lemma {:induction false} CopyLoopKeepsNames(w: World, fdin: int, fdout: int)
    ensures CopyLoopF(w, fdin, fdout).0.image.files.Keys == w.image.files.Keys
    decreases w.image.space
  {
    var (w1, rcount, buf) := ReadW(w, Image, fdin, MAXBSIZE);
    if rcount > 0 {
      var (w2, wcount) := WriteW(w1, Image, fdout, buf);
      if rcount == wcount && wcount != -1 {
        LoopSpends(w, fdin, fdout);
        CopyLoopKeepsNames(w2, fdin, fdout);
      }
    }
  }

  /** setfile changes attributes only: no name is added or removed. */
  lemma SetFileKeepsNames(w: World, st: Stat, to: string, nflag: bool)
    ensures SetFileF(w, st, to, nflag).0.image.files.Keys == w.image.files.Keys
  {
    var (w1, r1, m1) := ChownStepF(w, to, st);
    assert w1.image.files.Keys == w.image.files.Keys;
    var (w2, r2) := Check(w1, ChmodF(w1.image, to, m1, false), r1);
    assert w2.image.files.Keys == w.image.files.Keys;
    var (w3, r3) := ChflagsStepF(w2, to, st, nflag, r2);
    assert w3.image.files.Keys == w.image.files.Keys;
  }

  /** Nor does the end of copy_file. */
  lemma FinishKeepsNames(w: World, fl: CpFlags, cr: Creds, st: Stat, to: string, dne: bool)
    ensures FinishF(w, fl, cr, st, to, dne).0.image.files.Keys == w.image.files.Keys
  {
    SetFileKeepsNames(w, st, to, fl.N);
    var w1 := if fl.p then SetFileF(w, st, to, fl.N).0 else w;
    var r1 := if fl.p then SetFileF(w, st, to, fl.N).1 else 0;
    RestoreSetidKeepsNames(w1, fl, cr, st, to, dne, r1);
    var w2 := RestoreSetidF(w1, fl, cr, st, to, dne, r1).0;
    assert SetUtimesF(w2, to, st).0.image.files.Keys == w.image.files.Keys;
  }

  lemma RestoreSetidKeepsNames(w: World, fl: CpFlags, cr: Creds, st: Stat, to: string, dne: bool, rval: int)
    ensures RestoreSetidF(w, fl, cr, st, to, dne, rval).0.image.files.Keys == w.image.files.Keys
  {
  }

  /** The opens of copy_file create nothing when the open flags lack O_CREAT. */
  lemma OpenTargetNoCreate(w: World, fl: CpFlags, path: string, to: string, flags: bv32, mode: bv32)
    requires flags & O_CREAT == 0
    requires Norm(to) !in w.image.files
    ensures Norm(to) !in OpenTargetWithF(w, fl, path, to, flags, mode).0.image.files
  {
    OpenNoCreate(w, to, flags, mode);
    var wa := OpenW(w, Image, to, flags, mode).0;
    var wu := Apply(wa, Image, UnlinkF(wa.image, to)).0;
    OpenNoCreate(wu, to, flags, mode);
    var wb := if fl.f || Tolnk(fl) then OpenW(wu, Image, to, flags, mode).0 else wa;
    OpenKeepsOthers(wb, path, to);
  }

  /** With open flags that lack O_CREAT, copy_file never creates its target. */
  lemma CopyFileNoCreate(w: World, fl: CpFlags, cr: Creds, path: string, st: Stat, to: string,
                         dne: bool, confirm: bool, flags: bv32, mode: bv32)
    requires flags & O_CREAT == 0
    requires Norm(to) !in w.image.files
    ensures Norm(to) !in CopyFileWithF(w, fl, cr, path, st, to, dne, confirm, flags, mode).0.image.files
  {
    var w0 := if !dne then Apply(w, Image, UnlinkF(w.image, to)).0 else w;
    assert Norm(to) !in w0.image.files;
    OpenTargetNoCreate(w0, fl, path, to, flags, mode);
    var (w1, gaveUp, fdin, fdout) := OpenTargetWithF(w0, fl, path, to, flags, mode);
    DataKeepsNames(w1, fl, cr, st, to, dne, fdin, fdout);
  }

  /** Nor does anything copy_file does after its opens. */
  lemma DataKeepsNames(w1: World, fl: CpFlags, cr: Creds, st: Stat, to: string, dne: bool, fdin: int, fdout: int)
    ensures var (w2, rval) := if st.size > 0 then CopyLoopF(w1, fdin, fdout) else (w1, 0);
      && w2.image.files.Keys == w1.image.files.Keys
      && FinishF(w2, fl, cr, st, to, dne).0.image.files.Keys == w1.image.files.Keys
  {
    if st.size > 0 {
      CopyLoopKeepsNames(w1, fdin, fdout);
    }
    var w2 := if st.size > 0 then CopyLoopF(w1, fdin, fdout).0 else w1;
    FinishKeepsNames(w2, fl, cr, st, to, dne);
  }

  /**
   * The target is opened with the source's mode bits as open flags, so
   * O_CREAT (0x200) is set only for a sticky source: for any other source
   * copy_file never creates the target. (Only names already present, or
   * left after the unlink, can receive data.)
   */
  lemma CopyFileNeedsStickySource(w: World, fl: CpFlags, cr: Creds, path: string, st: Stat, to: string,
                                  dne: bool, confirm: bool)
    requires st.mode & S_ISVTX == 0
    requires Norm(to) !in w.image.files
    ensures Norm(to) !in CopyFileF(w, fl, cr, path, st, to, dne, confirm).0.image.files
  {
    assert OpenFlags(st) & O_CREAT == 0;
    CopyFileNoCreate(w, fl, cr, path, st, to, dne, confirm, OpenFlags(st), 0);
  }

  /** open(2) without O_CREAT of a missing name fails and creates nothing. */
  lemma OpenNoCreate(w: World, to: string, flags: bv32, mode: bv32)
    requires flags & O_CREAT == 0 && Norm(to) !in w.image.files
    ensures OpenW(w, Image, to, flags, mode).1 == -1
    ensures Norm(to) !in OpenW(w, Image, to, flags, mode).0.image.files
  {
  }

  /** A read-only open adds no name. */
  lemma OpenKeepsOthers(w: World, path: string, to: string)
    requires Norm(to) !in w.image.files
    ensures Norm(to) !in OpenW(w, Image, path, O_RDONLY, 0).0.image.files
  {
  }

  /** Declining the -i prompt leaves everything as it was. */
  lemma CopyFileDeclined(w: World, fl: CpFlags, cr: Creds, path: string, st: Stat, to: string)
    requires fl.i
    ensures CopyFileF(w, fl, cr, path, st, to, false, false) == (w, 0)
  {
  }

  /**
   * Without -p, a new copy of a setuid/setgid source owned by the caller,
   * whose group the target got, is chmod-ed to the source's mode &
   * RETAINBITS & ~umask.
   */
  lemma FinishRestoresSetid(w: World, fl: CpFlags, cr: Creds, st: Stat, to: string)
    requires !fl.p && st.mode & SETID != 0 && st.uid == cr.myuid
    requires Norm(to) in w.image.files && !IsLnk(w.image.files[Norm(to)].mode)
    requires w.image.files[Norm(to)].gid == st.gid
    ensures var (w', rval) := FinishF(w, fl, cr, st, to, true);
      rval == 0 && w'.image.files[Norm(to)].mode & ALLPERMS == st.mode & !cr.myumask & ALLPERMS
  {
    assert Resolve(w.image, to, MAXSYMLINKS) == Ok(Norm(to));
  }

  /** With -p, or for a target that existed, or a source without setuid/setgid, FinishF never chmods. */
  lemma FinishKeepsSetidOtherwise(w: World, fl: CpFlags, cr: Creds, st: Stat, to: string, dne: bool)
    requires !fl.p && (!dne || st.mode & SETID == 0 || st.uid != cr.myuid)
    ensures FinishF(w, fl, cr, st, to, dne) == (w, 0)
  {
  }

  // ---------------------------------------------------------------------
  // copy_link, copy_fifo, copy_special

  /** The common start: when the target exists, unlink it; 1 when that fails. */
  function UnlinkTargetF(w: World, to: string, present: bool): (World, int) {
    if present then
      var (w1, c) := Apply(w, Image, UnlinkF(w.image, to));
      (w1, if c == -1 then 1 else 0)
    else (w, 0)
  }

  /** The common end: setfile under -p, else 0. */
  function AfterF(w: World, fl: CpFlags, st: Stat, to: string): (World, int) {
    if fl.p then var (w1, r, _) := SetFileF(w, st, to, fl.N); (w1, r) else (w, 0)
  }

  /**
   * copy_link(p, exists): readlink the source into a MAXPATHLEN buffer
   * (at most MAXPATHLEN - 1 bytes, NUL-terminated), unlink an existing
   * target, make the target a link holding the text up to the first NUL.
   */
  function CopyLinkF(w: World, fl: CpFlags, path: string, st: Stat, to: string, present: bool): (r: (World, int))
    ensures r.1 == 0 || r.1 == 1
  {
    var t := ReadlinkF(w.image, path, MAXPATHLEN - 1);
    if t.Fail? then (Looked(w, t), 1)
    else
      var (w1, u) := UnlinkTargetF(w, to, present);
      if u == 1 then (w1, 1)
      else
        var (w2, c) := Apply(w1, Image, SymlinkF(w1.image, Str2Arg.CStr(t.value, 0), to));
        if c == -1 then (w2, 1) else AfterF(w2, fl, st, to)
  }

  /** copy_fifo(from_stat, exists): unlink an existing target, mkfifo with the source's mode. */
  function CopyFifoF(w: World, fl: CpFlags, st: Stat, to: string, present: bool): (r: (World, int))
    ensures r.1 == 0 || r.1 == 1
  {
    var (w1, u) := UnlinkTargetF(w, to, present);
    if u == 1 then (w1, 1)
    else
      var (w2, c) := Apply(w1, Image, MkfifoF(w1.image, to, st.mode));
      if c == -1 then (w2, 1) else AfterF(w2, fl, st, to)
  }

  /** copy_special(from_stat, exists): unlink an existing target, mknod with the source's mode and rdev. */
  function CopySpecialF(w: World, fl: CpFlags, st: Stat, to: string, present: bool): (r: (World, int))
    ensures r.1 == 0 || r.1 == 1
  {
    var (w1, u) := UnlinkTargetF(w, to, present);
    if u == 1 then (w1, 1)
    else
      var (w2, c) := Apply(w1, Image, MknodF(w1.image, to, st.mode, st.rdev));
      if c == -1 then (w2, 1) else AfterF(w2, fl, st, to)
  }

  method UnlinkTarget(sys: System, to: string, present: bool) returns (rval: int)
    modifies sys
    ensures (sys.Now(), rval) == UnlinkTargetF(old(sys.Now()), to, present)
  {
    rval := 0;
    if present {
      var c := sys.Commit(Image, UnlinkF(sys.image, to));
      if c == -1 {
        rval := 1;
      }
    }
  }

  method After(sys: System, fl: CpFlags, st: Stat, to: string) returns (rval: int)
    modifies sys
    ensures (sys.Now(), rval) == AfterF(old(sys.Now()), fl, st, to)
  {
    rval := 0;
    if fl.p {
      var st';
      rval, st' := SetFile(sys, st, to, fl.N);
    }
  }

  method CopyLink(sys: System, fl: CpFlags, path: string, st: Stat, to: string, present: bool) returns (rval: int)
    modifies sys
    ensures (sys.Now(), rval) == CopyLinkF(old(sys.Now()), fl, path, st, to, present)
  {
    var t := sys.Readlink(Image, path, MAXPATHLEN - 1);
    if t.Fail? {
      return 1;
    }
    rval := UnlinkTarget(sys, to, present);
    if rval == 1 {
      return 1;
    }
    var c := sys.Commit(Image, SymlinkF(sys.image, Str2Arg.CStr(t.value, 0), to));
    if c == -1 {
      return 1;
    }
    rval := After(sys, fl, st, to);
  }

  method CopyFifo(sys: System, fl: CpFlags, st: Stat, to: string, present: bool) returns (rval: int)
    modifies sys
    ensures (sys.Now(), rval) == CopyFifoF(old(sys.Now()), fl, st, to, present)
  {
    rval := UnlinkTarget(sys, to, present);
    if rval == 1 {
      return 1;
    }
    var c := sys.Commit(Image, MkfifoF(sys.image, to, st.mode));
    if c == -1 {
      return 1;
    }
    rval := After(sys, fl, st, to);
  }

  method CopySpecial(sys: System, fl: CpFlags, st: Stat, to: string, present: bool) returns (rval: int)
    modifies sys
    ensures (sys.Now(), rval) == CopySpecialF(old(sys.Now()), fl, st, to, present)
  {
    rval := UnlinkTarget(sys, to, present);
    if rval == 1 {
      return 1;
    }
    var c := sys.Commit(Image, MknodF(sys.image, to, st.mode, st.rdev));
    if c == -1 {
      return 1;
    }
    rval := After(sys, fl, st, to);
  }

  /** When unlinking an existing target fails, the three node copies give 1 and create nothing. */
  lemma UnlinkFailureStops(w: World, fl: CpFlags, path: string, st: Stat, to: string)
    requires UnlinkF(w.image, to).Fail?
    ensures CopyFifoF(w, fl, st, to, true) == (w.(errno := UnlinkF(w.image, to).err), 1)
    ensures CopySpecialF(w, fl, st, to, true) == (w.(errno := UnlinkF(w.image, to).err), 1)
    ensures ReadlinkF(w.image, path, MAXPATHLEN - 1).Ok? ==>
      CopyLinkF(w, fl, path, st, to, true) == (w.(errno := UnlinkF(w.image, to).err), 1)
  {
  }

  /**
   * Without -p, copy_link over a free name makes the target a link whose
   * text is the source link's text, cut at MAXPATHLEN - 1 bytes and at the
   * first NUL.
   */
  lemma LinkCopiesText(w: World, fl: CpFlags, path: string, st: Stat, to: string)
    requires !fl.p
    requires Norm(path) in w.image.files && IsLnk(w.image.files[Norm(path)].mode)
    requires w.image.files[Norm(path)].content.Target?
    requires Norm(to) !in w.image.files && ParentErr(w.image, Norm(to)) == NoError
    ensures var (w', rval) := CopyLinkF(w, fl, path, st, to, false);
      var t := w.image.files[Norm(path)].content.link;
      && rval == 0
      && w'.image.files[Norm(to)].content
           == Target(Str2Arg.CStr(if |t| <= MAXPATHLEN - 1 then t else t[..MAXPATHLEN - 1], 0))
  {
  }

  /** Without -p, copy_fifo over a free name makes a FIFO with the source's permission bits. */
  lemma FifoCopiesMode(w: World, fl: CpFlags, st: Stat, to: string)
    requires !fl.p && Norm(to) !in w.image.files && ParentErr(w.image, Norm(to)) == NoError
    ensures var (w', rval) := CopyFifoF(w, fl, st, to, false);
      && rval == 0 && IsFifo(w'.image.files[Norm(to)].mode)
      && w'.image.files[Norm(to)].mode & ALLPERMS == st.mode & ALLPERMS
  {
  }

  /**
   * Without -p, copy_special of a device over a free name, as the
   * superuser, makes a node with the source's type, permission bits and rdev.
   */
  lemma SpecialCopiesNode(w: World, fl: CpFlags, st: Stat, to: string)
    requires !fl.p && Norm(to) !in w.image.files && ParentErr(w.image, Norm(to)) == NoError
    requires w.image.uid == 0 && (IsChr(st.mode) || IsBlk(st.mode))
    ensures var (w', rval) := CopySpecialF(w, fl, st, to, false);
      && rval == 0
      && w'.image.files[Norm(to)].mode == st.mode & (S_IFMT | ALLPERMS)
      && w'.image.files[Norm(to)].rdev == st.rdev
  {
    var k := Norm(to);
    var n := NewNode(w.image, st.mode & (S_IFMT | ALLPERMS), st.rdev, NoData);
    assert MknodF(w.image, to, st.mode, st.rdev) == Ok(Insert(w.image, k, n));
    assert CopySpecialF(w, fl, st, to, false) == (w.(image := Insert(w.image, k, n)), 0);
  }
}

=== FILE: cp_utils_props.dfy ===
// What copy_file of the cp(1) port (src/utils_cp.c) does with the bytes:
// its loop copies what is left of the source to the target's write
// position, ending in 1 exactly when the image runs out of space or a call
// fails; the attribute calls after it leave every file's bytes alone. As
// written, the target is opened with the source's mode bits as open flags;
// with a sticky source whose "others" bits spell a write access mode that
// open still creates and fills the target, and the evidently intended
// open (O_WRONLY|O_CREAT|O_TRUNC) does so for every source.

module CpUtilsProps {
  import opened Posix
  import opened Domain
  import opened DomainProps
  import opened CpUtils

  // ---------------------------------------------------------------------
  // The copy loop

  /**
   * copy_file's loop between a reader and a writer on two image files whose
   * write position is inside the target: 0 exactly when the image has space
   * for all the bytes left, and then the target holds them written at that
   * position.
   */
  lemma {:induction false} CopyLoopCopies(w: World, fdin: int, fdout: int)
    requires CopyEnds(w, Image, fdin, Image, fdout)
    requires WritePos(w.image, fdout) <= |Held(w.image, fdout)|
    ensures var (w', rv) := CopyLoopF(w, fdin, fdout);
      && (rv == 0 <==> |Rest(w.image, fdin)| <= w.image.space)
      && (rv == 0 ==>
            && Writer(w'.image, fdout) && w'.image.fds[fdout].path == w.image.fds[fdout].path
            && Held(w'.image, fdout) == Overwrite(Held(w.image, fdout), WritePos(w.image, fdout), Rest(w.image, fdin)))
    decreases |Rest(w.image, fdin)|
  {
    var h, p, rest := Held(w.image, fdout), WritePos(w.image, fdout), Rest(w.image, fdin);
    LoopRound(w, fdin, fdout);
    var (w1, rd, buf) := ReadW(w, Image, fdin, MAXBSIZE);
    var w2 := WriteW(w1, Image, fdout, buf).0;
    if rest == [] {
      OverwriteSame(h, p, []);
    } else if rd <= w.image.space {
      CopyLoopCopies(w2, fdin, fdout);
      OverwriteRest(h, p, rest, rd);
    }
  }

  /**
   * One round of copy_file's loop: with nothing left it ends with 0 and the
   * target as it was; a chunk the image has no space for ends it with 1;
   * otherwise the loop goes on from the world after the write, with the
   * chunk written and one chunk less to read.
   */
  lemma LoopRound(w: World, fdin: int, fdout: int)
    requires CopyEnds(w, Image, fdin, Image, fdout)
    requires WritePos(w.image, fdout) <= |Held(w.image, fdout)|
    ensures var (w1, rd, buf) := ReadW(w, Image, fdin, MAXBSIZE);
      var w2 := WriteW(w1, Image, fdout, buf).0;
      var h, p, rest := Held(w.image, fdout), WritePos(w.image, fdout), Rest(w.image, fdin);
      && 0 <= rd <= |rest| && (rest != [] ==> rd > 0)
      && (rest == [] ==>
            && CopyLoopF(w, fdin, fdout) == (w1, 0)
            && Writer(w1.image, fdout) && w1.image.fds[fdout] == w.image.fds[fdout] && Held(w1.image, fdout) == h)
      && (rest != [] && rd > w.image.space ==> CopyLoopF(w, fdin, fdout).1 == 1)
      && (rest != [] && rd <= w.image.space ==>
            && CopyLoopF(w, fdin, fdout) == CopyLoopF(w2, fdin, fdout)
            && CopyEnds(w2, Image, fdin, Image, fdout) && Rest(w2.image, fdin) == rest[rd..]
            && Held(w2.image, fdout) == Overwrite(h, p, rest[..rd]) && WritePos(w2.image, fdout) == p + rd
            && WritePos(w2.image, fdout) <= |Held(w2.image, fdout)|
            && w2.image.space == w.image.space - rd && w2.image.fds[fdout].path == w.image.fds[fdout].path)
  {
    CopyRound(w, Image, fdin, Image, fdout, MAXBSIZE);
    ReadSpares(w, Image, fdin, fdout, MAXBSIZE);
    var (w1, rd, buf) := ReadW(w, Image, fdin, MAXBSIZE);
    if rd > 0 && rd <= w.image.space {
      LoopSpends(w, fdin, fdout);
    }
  }

  /** A loop whose source descriptor cannot be read (an unchecked open that failed) ends at once with 1. */
  lemma CopyLoopNoReader(w: World, fdin: int, fdout: int)
    requires fdin < 0 || fdin !in w.image.fds || !w.image.fds[fdin].readable
    ensures CopyLoopF(w, fdin, fdout).1 == 1 && CopyLoopF(w, fdin, fdout).0.image == w.image
  {
  }

  /** A loop with bytes left to copy and a target descriptor that cannot be written ends with 1, the target untouched. */
  lemma CopyLoopNoWriter(w: World, fdin: int, fdout: int)
    requires Reader(w.image, fdin) && Rest(w.image, fdin) != []
    requires fdout < 0 || fdout !in w.image.fds || !w.image.fds[fdout].writable
    ensures CopyLoopF(w, fdin, fdout).1 == 1 && CopyLoopF(w, fdin, fdout).0.image.files == w.image.files
  {
    ReadChunk(w.image, fdin, MAXBSIZE);
  }

  // ---------------------------------------------------------------------
  // The attribute calls after the data

  /** fs' holds every file of fs with the same content. */
  predicate SameData(fs: Fs, fs': Fs) {
    forall k :: k in fs.files ==> k in fs'.files && fs'.files[k].content == fs.files[k].content
  }

  /** setfile sets owner, mode, flags and times, never content. */
  lemma SetFileKeepsData(w: World, st: Stat, to: string, nflag: bool)
    ensures SameData(w.image, SetFileF(w, st, to, nflag).0.image)
  {
    var (w1, r1, m1) := ChownStepF(w, to, st);
    ChownStepKeepsData(w, to, st);
    var (w2, r2) := Check(w1, ChmodF(w1.image, to, m1, false), r1);
    ChmodKeepsData(w1, to, m1, r1);
    SameDataChain(w.image, w1.image, w2.image);
    var (w3, r3) := ChflagsStepF(w2, to, st, nflag, r2);
    ChflagsStepKeepsData(w2, to, st, nflag, r2);
    SameDataChain(w.image, w2.image, w3.image);
    UtimesKeepsData(w3, to, st);
    SameDataChain(w.image, w3.image, SetUtimesF(w3, to, st).0.image);
  }

  lemma ChownStepKeepsData(w: World, to: string, st: Stat)
    ensures SameData(w.image, ChownStepF(w, to, st).0.image)
  {
  }

  lemma ChmodKeepsData(w: World, to: string, m: bv32, rval: int)
    ensures SameData(w.image, Check(w, ChmodF(w.image, to, m, false), rval).0.image)
  {
  }

  lemma ChflagsStepKeepsData(w: World, to: string, st: Stat, nflag: bool, rval: int)
    ensures SameData(w.image, ChflagsStepF(w, to, st, nflag, rval).0.image)
  {
  }

  /** Restoring setuid/setgid is a chmod: contents stay. */
  lemma RestoreSetidKeepsData(w: World, fl: CpFlags, cr: Creds, st: Stat, to: string, dne: bool, rval: int)
    ensures SameData(w.image, RestoreSetidF(w, fl, cr, st, to, dne, rval).0.image)
  {
  }

  /** set_utimes sets times only. */
  lemma UtimesKeepsData(w: World, to: string, st: Stat)
    ensures SameData(w.image, SetUtimesF(w, to, st).0.image)
  {
  }

  lemma SameDataChain(a: Fs, b: Fs, c: Fs)
    requires SameData(a, b) && SameData(b, c)
    ensures SameData(a, c)
  {
  }

  /** The end of copy_file after the data changes no file's content. */
  lemma FinishKeepsData(w: World, fl: CpFlags, cr: Creds, st: Stat, to: string, dne: bool)
    ensures SameData(w.image, FinishF(w, fl, cr, st, to, dne).0.image)
  {
    var w1 := if fl.p then SetFileF(w, st, to, fl.N).0 else w;
    var r1 := if fl.p then SetFileF(w, st, to, fl.N).1 else 0;
    if fl.p {
      SetFileKeepsData(w, st, to, fl.N);
    }
    RestoreSetidKeepsData(w1, fl, cr, st, to, dne, r1);
    var w2 := RestoreSetidF(w1, fl, cr, st, to, dne, r1).0;
    SameDataChain(w.image, w1.image, w2.image);
    if fl.p {
      UtimesKeepsData(w2, to, st);
      SameDataChain(w.image, w2.image, SetUtimesF(w2, to, st).0.image);
    }
  }

  // ---------------------------------------------------------------------
  // copy_file over a new target

  /**
   * The setting of copy_file over a new target: path leads to a regular
   * file t holding b; to is a target spot u other than t, holding h; the
   * open flags write, create, and leave u empty.
   */
  predicate NewCopy(w: World, path: string, to: string, flags: bv32, t: string, b: seq<bv8>, u: string, h: seq<bv8>) {
    && Resolve(w.image, path, MAXSYMLINKS) == Ok(t) && t in w.image.files && t !in w.image.denied
    && w.image.files[t].content == Data(b)
    && TargetSpot(w.image, to, u, h) && u != t
    && (flags & O_ACCMODE == O_WRONLY || flags & O_ACCMODE == O_RDWR) && flags & O_CREAT != 0
    && (flags & O_EXCL == 0 || Norm(to) !in w.image.files)
    && (flags & O_NOFOLLOW == 0 || Norm(to) !in w.image.files || !IsLnk(w.image.files[Norm(to)].mode))
    && (flags & O_TRUNC != 0 || h == [])
  }

  /**
   * copy_file's opens with write flags that create, at a target spot that
   * holds nothing once opened: the target open succeeds (so no retry), and
   * the source open then gives a reader on the source next to a writer at
   * the start of the empty target.
   */
  lemma OpensForCopy(w: World, fl: CpFlags, path: string, to: string, flags: bv32, mode: bv32,
                     t: string, b: seq<bv8>, u: string, h: seq<bv8>)
    requires NewCopy(w, path, to, flags, t, b, u, h)
    ensures var (w1, gaveUp, fdin, fdout) := OpenTargetWithF(w, fl, path, to, flags, mode);
      && !gaveUp && CopyEnds(w1, Image, fdin, Image, fdout) && Rest(w1.image, fdin) == b
      && w1.image.fds[fdout].path == u && Held(w1.image, fdout) == [] && WritePos(w1.image, fdout) == 0
      && w1.image.space == w.image.space
  {
    TargetOpens(w.image, to, flags, mode, u, h);
    TargetSpares(w.image, to, flags, mode, u, h, t);
    var (wa, fdout) := OpenW(w, Image, to, flags, mode);
    ResolveKept(w.image, wa.image, path, MAXSYMLINKS);
    SourceOpens(wa, Image, path, 0, t, b, fdout, u);
    FirstOpenHolds(w, fl, path, to, flags, mode);
  }

  /** When the first open of the target succeeds, copy_file goes straight on to open the source. */
  lemma FirstOpenHolds(w: World, fl: CpFlags, path: string, to: string, flags: bv32, mode: bv32)
    requires OpenW(w, Image, to, flags, mode).1 != -1
    ensures var (wa, fdout) := OpenW(w, Image, to, flags, mode);
      var (w1, fdin) := OpenW(wa, Image, path, O_RDONLY, 0);
      OpenTargetWithF(w, fl, path, to, flags, mode) == (w1, false, fdin, fdout)
  {
  }

  /**
   * copy_file of a regular source holding b over a new target (dne), with
   * target open flags that create and leave the target empty: when the
   * source has a positive size and its bytes do not fit in the image, 1;
   * otherwise the target holds the source's bytes, or nothing at all for a
   * source whose size was 0 when cp looked at it.
   */
  lemma CopyFileWithWrites(w: World, fl: CpFlags, cr: Creds, path: string, st: Stat, to: string,
                           confirm: bool, flags: bv32, mode: bv32, t: string, b: seq<bv8>, u: string, h: seq<bv8>)
    requires NewCopy(w, path, to, flags, t, b, u, h)
    ensures var (w', rv) := CopyFileWithF(w, fl, cr, path, st, to, true, confirm, flags, mode);
      && (st.size > 0 && |b| > w.image.space ==> rv == 1)
      && (!(st.size > 0 && |b| > w.image.space) ==>
            u in w'.image.files && w'.image.files[u].content == Data(if st.size > 0 then b else []))
  {
    OpensForCopy(w, fl, path, to, flags, mode, t, b, u, h);
    var (w1, gaveUp, fdin, fdout) := OpenTargetWithF(w, fl, path, to, flags, mode);
    if st.size > 0 {
      CopyLoopCopies(w1, fdin, fdout);
      OverwriteEmpty(b);
    }
    var (w2, rval) := if st.size > 0 then CopyLoopF(w1, fdin, fdout) else (w1, 0);
    FinishKeepsData(w2, fl, cr, st, to, true);
  }

  /**
   * copy_file as written over a new target: a sticky source whose "others"
   * execute or write bit (but not both) is set opens the target
   * O_CREAT|O_WRONLY or O_CREAT|O_RDWR, and then copies like the intended
   * copy_file; other sources never create the target (CopyFileNeedsStickySource).
   */
  lemma CopyFileWritesSource(w: World, fl: CpFlags, cr: Creds, path: string, st: Stat, to: string,
                             confirm: bool, t: string, b: seq<bv8>)
    requires Resolve(w.image, path, MAXSYMLINKS) == Ok(t) && t !in w.image.denied && w.image.files[t].content == Data(b)
    requires Norm(to) !in w.image.files && ParentErr(w.image, Norm(to)) == NoError && Norm(to) !in w.image.denied
    requires st.mode & S_ISVTX != 0 && (st.mode & O_ACCMODE == O_WRONLY || st.mode & O_ACCMODE == O_RDWR)
    ensures var (w', rv) := CopyFileF(w, fl, cr, path, st, to, true, confirm);
      && (st.size > 0 && |b| > w.image.space ==> rv == 1)
      && (!(st.size > 0 && |b| > w.image.space) ==>
            Norm(to) in w'.image.files && w'.image.files[Norm(to)].content == Data(if st.size > 0 then b else []))
  {
    var flags := OpenFlags(st);
    assert flags & O_CREAT != 0 && flags & O_ACCMODE == st.mode & O_ACCMODE;
    assert t in w.image.files;
    CopyFileWithWrites(w, fl, cr, path, st, to, confirm, flags, 0, t, b, Norm(to), []);
  }

  /**
   * The intended copy_file over a new target, for every source mode: the
   * same as CopyFileWritesSource, at any target spot, since O_TRUNC empties
   * a target that is already there.
   */
  lemma CopyFileFixedCopies(w: World, fl: CpFlags, cr: Creds, path: string, st: Stat, to: string,
                            confirm: bool, t: string, b: seq<bv8>, u: string, h: seq<bv8>)
    requires Resolve(w.image, path, MAXSYMLINKS) == Ok(t) && t !in w.image.denied && w.image.files[t].content == Data(b)
    requires TargetSpot(w.image, to, u, h) && u != t
    ensures var (w', rv) := CopyFileFixedF(w, fl, cr, path, st, to, true, confirm);
      && (st.size > 0 && |b| > w.image.space ==> rv == 1)
      && (!(st.size > 0 && |b| > w.image.space) ==>
            u in w'.image.files && w'.image.files[u].content == Data(if st.size > 0 then b else []))
  {
    var flags: bv32 := O_WRONLY | O_CREAT | O_TRUNC;
    assert flags & O_ACCMODE == O_WRONLY && flags & O_CREAT != 0 && flags & O_TRUNC != 0;
    assert flags & O_EXCL == 0 && flags & O_NOFOLLOW == 0;
    CopyFileWithWrites(w, fl, cr, path, st, to, confirm, flags, ClearSetid(st.mode), t, b, u, h);
  }
}

=== FILE: df.dfy ===
// fsu_df (src/fsu_df.c): the option rules of main, fsbtoblk's conversion
// of file-system blocks into display blocks, and prtstat, which picks the
// header on its first call and computes the used, available and capacity
// columns of the one file system the image holds.

module Df {
  import opened Posix
  import opened CNum

  const KB: int := 1024
  const MB: int := 1024 * 1024
  const GB: int := 1024 * 1024 * 1024

  // ---------------------------------------------------------------------
  // Options

  /** The global flags main sets: gflag, hflag, iflag, nflag, Pflag and usize. */
  datatype Flags = Flags(g: bool, h: bool, i: bool, n: bool, P: bool, usize: int)

  /** The flags before getopt: all zero. */
  const Unset := Flags(false, false, false, false, false, 0)

  /** One getopt letter of "aGghiklmnPt:"; None for one that ends in usage(). */
  function Apply(f: Flags, c: char): Option<Flags> {
    match c
    case 'a' => Some(f)
    case 'l' => Some(f)
    case 't' => Some(f)
    case 'g' => Some(f.(h := false, usize := GB))
    case 'G' => Some(f.(g := true))
    case 'h' => Some(f.(h := true, usize := 0))
    case 'i' => Some(f.(i := true))
    case 'k' => Some(f.(h := false, usize := KB))
    case 'm' => Some(f.(h := false, usize := MB))
    case 'n' => Some(f.(n := true))
    case 'P' => Some(f.(P := true))
    case _ => None
  }

  /** The flags after the option letters, in order; None once a letter is unknown. */
  function OptsF(letters: string): Option<Flags> {
    if |letters| == 0 then Some(Unset)
    else
      match OptsF(letters[..|letters| - 1])
      case None => None
      case Some(f) => Apply(f, letters[|letters| - 1])
  }

  /** How main's option handling ends: usage(), one of the two errx calls, or on to statvfs. */
  datatype Start = Usage | Clash(msg: string) | Go(flags: Flags)

  function StartF(letters: string): Start {
    match OptsF(letters)
    case None => Usage
    case Some(f) =>
      if f.g && (f.P || f.i) then Clash("only one of -G and -P or -i may be specified")
      else if f.P && f.i then Clash("only one of -P and -i may be specified")
      else Go(f)
  }

  lemma {:induction false} UnknownSticks(letters: string, j: nat)
    requires j <= |letters| && OptsF(letters[..j]) == None
    ensures OptsF(letters) == None
    decreases |letters| - j
  {
    if j < |letters| {
      assert letters[..j + 1][..j] == letters[..j];
      UnknownSticks(letters, j + 1);
    } else {
      assert letters[..j] == letters;
    }
  }

  // ---------------------------------------------------------------------
  // Arithmetic

  /**
   * fsbtoblk: num file-system blocks of fsbs bytes in blocks of bs bytes,
   * dividing by bs/fsbs when the file-system block is smaller and
   * multiplying by fsbs/bs otherwise, in int64 arithmetic.
   */
  function Fsbtoblk(num: int, fsbs: nat, bs: int): int
    requires bs > 0
  {
    if fsbs != 0 && fsbs < bs then CDiv(Wrap64(num), bs / fsbs)
    else Wrap64(Wrap64(num) * (fsbs / bs))
  }

  /** What statvfs1 reports about the file system; the counts are uint64. */
  datatype Statvfs = Statvfs(
    frsize: nat, blocks: nat, bfree: nat, bresvd: nat, files: nat, ffree: nat,
    fromname: string, onname: string)

  /** used, bavail and availblks: uint64 differences stored in int64 variables, and their sum. */
  function Used(s: Statvfs): int { Wrap64(s.blocks - s.bfree) }
  function Bavail(s: Statvfs): int { Wrap64(s.bfree - s.bresvd) }
  function Availblks(s: Statvfs): int { Wrap64(Bavail(s) + Used(s)) }

  /** A capacity column: "100", "  0", or strspct's percentage of num over den. */
  datatype Capacity = Full | Empty | Pct(num: int, den: int)

  /** The three size columns: in display blocks, or in bytes for humanize_number under -h. */
  datatype Sizes = Blocks(total: int, used: int, avail: int) | Human(total: int, used: int, avail: int)

  /** The inode columns of -i: used, free and their capacity. */
  datatype Inodes = Inodes(used: int, free: int, cap: Capacity)

  /** A data line: the -P form, or the usual one with the name padded to width. */
  datatype Row =
    | PosixRow(name: string, sizes: Sizes, cap: Capacity, on: string)
    | Row(width: int, name: string, sizes: Sizes, cap: Capacity, inodes: Option<Inodes>, on: string)

  function CapacityOf(used: int, availblks: int): Capacity {
    if availblks == 0 then Full else Pct(used, availblks)
  }

  function InodesOf(s: Statvfs): Inodes {
    var inodes := Wrap64(s.files);
    var used := Wrap64(inodes - s.ffree);
    Inodes(used, Wrap64(s.ffree), if inodes == 0 then (if used == 0 then Empty else Full) else Pct(used, inodes))
  }

  /** The three columns in display blocks of blocksize bytes. */
  function BlocksOf(s: Statvfs, blocksize: int): Sizes
    requires blocksize > 0
  {
    Blocks(Fsbtoblk(s.blocks, s.frsize, blocksize), Fsbtoblk(Used(s), s.frsize, blocksize),
           Fsbtoblk(Bavail(s), s.frsize, blocksize))
  }

  /** The line prtstat prints for s after the header, with the name column at least width wide. */
  function RowF(f: Flags, s: Statvfs, width: int, blocksize: int): Row
    requires (f.P || !f.h) ==> blocksize > 0
  {
    var cap := CapacityOf(Used(s), Availblks(s));
    if f.P then PosixRow(s.fromname, BlocksOf(s, blocksize), cap, s.onname)
    else
      var sizes := if f.h then Human(Wrap64(s.blocks * s.frsize), Wrap64(Used(s) * s.frsize), Wrap64(Bavail(s) * s.frsize))
        else BlocksOf(s, blocksize);
      Row(width, s.fromname, sizes, cap, if f.i then Some(InodesOf(s)) else None, s.onname)
  }

  // ---------------------------------------------------------------------
  // The header

  /** getbsize's answer from the environment: its header, the header's length and the block size. */
  datatype BlockSize = BlockSize(header: string, len: int, size: int)

  /** The header, its length and the block size prtstat settles on. */
  datatype Choice = Choice(header: string, len: int, blocksize: int)

  function HeaderF(f: Flags, env: BlockSize): (r: Choice)
    ensures !f.h && env.size > 0 ==> r.blocksize > 0
  {
    if f.usize == KB then
      var hd := if f.P then "1024-blocks" else "1K-blocks";
      Choice(hd, |hd|, KB)
    else if f.usize == MB then Choice("1M-blocks", 9, MB)
    else if f.usize == GB then Choice("1G-blocks", 9, GB)
    else if f.h then Choice("Size", 4, f.usize)
    else Choice(env.header, env.len, env.size)
  }

  /** The header line: -P's fixed one, or the usual one whose first column is padded to width. */
  datatype Head = PosixHead(header: string) | Head(width: int, header: string, inodes: bool)

  function Max12(w: int): int { if w < 12 then 12 else w }

  /** -P refuses any block size but 512 and 1024. */
  predicate PosixSize(blocksize: int) { blocksize == 512 || blocksize == 1024 }

  function HeadF(f: Flags, c: Choice, maxwidth: int): Head {
    if f.P then PosixHead(c.header) else Head(Max12(maxwidth) - (c.len - 10), c.header, f.i)
  }

  /** What one call of prtstat prints: the -G report, the errx of -P, or the header (first call only) and the line. */
  datatype Printed = GReport(s: Statvfs) | Fatal(msg: string) | Lines(head: Option<Head>, row: Row)

  // ---------------------------------------------------------------------
  // The program's state

  /** The globals main sets and the statics prtstat keeps between calls. */
  class DfState {
    var flags: Flags
    var timesthrough: int
    var blocksize: int
    var header: string
    var headerlen: int

    /** Once a header was chosen, the block size suits the columns that use it. */
    predicate Valid()
      reads this
    {
      timesthrough >= 0 &&
      (timesthrough >= 1 ==> (!flags.h ==> blocksize > 0) && (flags.P ==> PosixSize(blocksize)))
    }

    /** All statics and globals start at zero. */
    constructor ()
      ensures Valid() && flags == Unset && timesthrough == 0
      ensures blocksize == 0 && header == "" && headerlen == 0
    {
      flags := Unset;
      timesthrough := 0;
      blocksize := 0;
      header := "";
      headerlen := 0;
    }

    /**
     * main's getopt loop: each letter updates the global flags, an unknown
     * letter ends in usage(), and the combinations -G with -P or -i and -P
     * with -i end in errx.
     */
    method GetOpts(letters: string) returns (r: Start)
      requires flags == Unset
      modifies this
      ensures r == StartF(letters)
      ensures r.Go? ==> flags == r.flags
      ensures timesthrough == old(timesthrough) && blocksize == old(blocksize)
      ensures header == old(header) && headerlen == old(headerlen)
    {
      var i := 0;
      while i < |letters|
        invariant 0 <= i <= |letters|
        invariant OptsF(letters[..i]) == Some(flags)
        invariant timesthrough == old(timesthrough) && blocksize == old(blocksize)
        invariant header == old(header) && headerlen == old(headerlen)
      {
        var c := letters[i];
        assert letters[..i + 1][..i] == letters[..i];
        if c == 'g' {
          flags := flags.(h := false, usize := GB);
        } else if c == 'G' {
          flags := flags.(g := true);
        } else if c == 'h' {
          flags := flags.(h := true, usize := 0);
        } else if c == 'i' {
          flags := flags.(i := true);
        } else if c == 'k' {
          flags := flags.(h := false, usize := KB);
        } else if c == 'm' {
          flags := flags.(h := false, usize := MB);
        } else if c == 'n' {
          flags := flags.(n := true);
        } else if c == 'P' {
          flags := flags.(P := true);
        } else if c != 'a' && c != 'l' && c != 't' {
          UnknownSticks(letters, i + 1);
          return Usage;
        }
        i := i + 1;
      }
      assert letters[..i] == letters;
      if flags.g && (flags.P || flags.i) {
        r := Clash("only one of -G and -P or -i may be specified");
      } else if flags.P && flags.i {
        r := Clash("only one of -P and -i may be specified");
      } else {
        r := Go(flags);
      }
    }

    /** The switch on usize that picks the header and the block size, falling back to getbsize. */
    method Choose(env: BlockSize)
      modifies this
      ensures Choice(header, headerlen, blocksize) == HeaderF(flags, env)
      ensures flags == old(flags) && timesthrough == old(timesthrough)
    {
      blocksize := flags.usize;
      if blocksize == KB {
        header := if flags.P then "1024-blocks" else "1K-blocks";
        headerlen := |header|;
      } else if blocksize == MB {
        header := "1M-blocks";
        headerlen := |header|;
      } else if blocksize == GB {
        header := "1G-blocks";
        headerlen := |header|;
      } else if flags.h {
        header := "Size";
        headerlen := |header|;
      } else {
        header, headerlen, blocksize := env.header, env.len, env.size;
      }
    }

    /**
     * prtstat: -G prints the report and leaves the statics alone; otherwise
     * the call is counted, the first one chooses header and block size and
     * prints the header (or refuses -P's block size), and every call prints
     * the line for s with the name column at least 12 wide.
     */
    method PrtStat(s: Statvfs, maxwidth: int, env: BlockSize) returns (out: Printed)
      requires Valid() && env.size > 0
      modifies this
      ensures flags == old(flags)
      ensures flags.g ==> (out == GReport(s) && timesthrough == old(timesthrough)
        && blocksize == old(blocksize) && header == old(header) && headerlen == old(headerlen))
      ensures !flags.g ==> timesthrough == old(timesthrough) + 1
      ensures !flags.g && old(timesthrough) == 0 ==>
        Choice(header, headerlen, blocksize) == HeaderF(flags, env) &&
        out == (if flags.P && !PosixSize(blocksize) then Fatal("non-standard block size incompatible with -P")
                else Lines(Some(HeadF(flags, HeaderF(flags, env), maxwidth)), RowF(flags, s, Max12(maxwidth), blocksize)))
      ensures !flags.g && old(timesthrough) != 0 ==>
        blocksize == old(blocksize) && header == old(header) && headerlen == old(headerlen) &&
        out == Lines(None, RowF(flags, s, Max12(maxwidth), blocksize))
      ensures !out.Fatal? ==> Valid()
    {
      if flags.g {
        return GReport(s);
      }
      var width := maxwidth;
      if width < 12 {
        width := 12;
      }
      timesthrough := timesthrough + 1;
      var head: Option<Head> := None;
      if timesthrough == 1 {
        Choose(env);
        if flags.P {
          if blocksize != KB && blocksize != 512 {
            return Fatal("non-standard block size incompatible with -P");
          }
          head := Some(PosixHead(header));
        } else {
          head := Some(Head(width - (headerlen - 10), header, flags.i));
        }
      }
      out := Lines(head, RowF(flags, s, width, blocksize));
    }
  }

  /** How fsu_df ends. */
  datatype DfRun = DfUsage | DfClash(msg: string) | StatFailed | Reported(out: Printed)

  /**
   * main: the mount (whose failure is a usage error), the options, one
   * statvfs1 of the root, and one prtstat with the length of the mounted
   * device's name as the width.
   */
  method DfMain(mounted: bool, letters: string, stat: Option<Statvfs>, env: BlockSize) returns (r: DfRun)
    requires env.size > 0
    ensures !mounted ==> r == DfUsage
    ensures mounted && StartF(letters).Usage? ==> r == DfUsage
    ensures mounted && StartF(letters).Clash? ==> r == DfClash(StartF(letters).msg)
    ensures mounted && StartF(letters).Go? && stat.None? ==> r == StatFailed
    ensures mounted && StartF(letters).Go? && stat.Some? ==>
      var f := StartF(letters).flags;
      var s := stat.value;
      var c := HeaderF(f, env);
      r == Reported(
        if f.g then GReport(s)
        else if f.P && !PosixSize(c.blocksize) then Fatal("non-standard block size incompatible with -P")
        else Lines(Some(HeadF(f, c, |s.fromname|)), RowF(f, s, Max12(|s.fromname|), c.blocksize)))
  {
    if !mounted {
      return DfUsage;
    }
    var st := new DfState();
    var start := st.GetOpts(letters);
    match start {
      case Usage => return DfUsage;
      case Clash(msg) => return DfClash(msg);
      case Go(_) =>
    }
    if stat.None? {
      return StatFailed;
    }
    var out := st.PrtStat(stat.value, |stat.value.fromname|, env);
    r := Reported(out);
  }

  // ---------------------------------------------------------------------
  // Properties

  /** The letter c is among the options. */
  ghost predicate Gave(letters: string, c: char) {
    exists k :: 0 <= k < |letters| && letters[k] == c
  }

  /** The letters that set the block unit. */
  predicate IsUnit(c: char) { c == 'g' || c == 'h' || c == 'k' || c == 'm' }

  /** usize and hflag as the unit letter c leaves them. */
  function UnitOf(c: char): (int, bool) {
    if c == 'g' then (GB, false) else if c == 'h' then (0, true) else if c == 'k' then (KB, false) else (MB, false)
  }

  /** A unit letter at j is the last one. */
  ghost predicate LastUnitAt(letters: string, j: int) {
    0 <= j < |letters| && IsUnit(letters[j]) && forall q :: j < q < |letters| ==> !IsUnit(letters[q])
  }

  /** -G, -i, -n and -P are set exactly when given. */
  ghost predicate FlagsGiven(letters: string, f: Flags) {
    && (f.g <==> Gave(letters, 'G')) && (f.i <==> Gave(letters, 'i'))
    && (f.n <==> Gave(letters, 'n')) && (f.P <==> Gave(letters, 'P'))
  }

  /** The last unit letter decides usize and hflag; without one they stay 0. */
  ghost predicate UnitGiven(letters: string, f: Flags) {
    && ((forall q :: 0 <= q < |letters| ==> !IsUnit(letters[q])) ==> f.usize == 0 && !f.h)
    && (forall j :: LastUnitAt(letters, j) ==> (f.usize, f.h) == UnitOf(letters[j]))
  }

  /** Some letter is one getopt does not know. */
  ghost predicate SomeUnknown(letters: string) {
    exists k :: 0 <= k < |letters| && Apply(Unset, letters[k]).None?
  }

  lemma OptsSnoc(p: string, c: char)
    ensures OptsF(p + [c]) == if OptsF(p).None? then None else Apply(OptsF(p).value, c)
  {
    assert (p + [c])[..|p|] == p;
  }

  lemma UnknownSnoc(p: string, c: char)
    ensures SomeUnknown(p + [c]) <==> SomeUnknown(p) || Apply(Unset, c).None?
  {
    var l := p + [c];
    if Apply(Unset, c).None? {
      assert l[|p|] == c;
    }
    if SomeUnknown(p) {
      var k :| 0 <= k < |p| && Apply(Unset, p[k]).None?;
      assert l[k] == p[k];
    }
    if SomeUnknown(l) {
      var k :| 0 <= k < |l| && Apply(Unset, l[k]).None?;
      if k < |p| {
        assert p[k] == l[k];
      }
    }
  }

  lemma GaveSnoc(p: string, c: char, x: char)
    ensures Gave(p + [c], x) <==> Gave(p, x) || c == x
  {
    var l := p + [c];
    if c == x {
      assert l[|p|] == c;
    }
    if Gave(p, x) {
      var k :| 0 <= k < |p| && p[k] == x;
      assert l[k] == p[k];
    }
    if Gave(l, x) {
      var k :| 0 <= k < |l| && l[k] == x;
      if k < |p| {
        assert p[k] == l[k];
      }
    }
  }

  lemma FlagsStep(p: string, c: char, f: Flags)
    requires FlagsGiven(p, f) && Apply(f, c).Some?
    ensures FlagsGiven(p + [c], Apply(f, c).value)
  {
    GaveSnoc(p, c, 'G');
    GaveSnoc(p, c, 'i');
    GaveSnoc(p, c, 'n');
    GaveSnoc(p, c, 'P');
  }

  lemma UnitStep(p: string, c: char, f: Flags)
    requires UnitGiven(p, f) && Apply(f, c).Some?
    ensures UnitGiven(p + [c], Apply(f, c).value)
  {
    var f1 := Apply(f, c).value;
    if IsUnit(c) {
      assert (f1.usize, f1.h) == UnitOf(c);
      UnitLast(p, c, f1);
    } else {
      assert f1.usize == f.usize && f1.h == f.h;
      UnitKept(p, c, f1);
    }
  }

  /** A unit letter appended last decides the unit. */
  lemma UnitLast(p: string, c: char, f1: Flags)
    requires IsUnit(c) && (f1.usize, f1.h) == UnitOf(c)
    ensures UnitGiven(p + [c], f1)
  {
    var l := p + [c];
    assert l[|p|] == c;
    forall j | LastUnitAt(l, j)
      ensures j == |p|
    {
    }
  }

  /** Another letter appended leaves the unit as it was. */
  lemma UnitKept(p: string, c: char, f1: Flags)
    requires !IsUnit(c) && UnitGiven(p, f1)
    ensures UnitGiven(p + [c], f1)
  {
    var l := p + [c];
    assert l[|p|] == c;
    assert forall k :: 0 <= k < |p| ==> l[k] == p[k];
    forall j | LastUnitAt(l, j)
      ensures LastUnitAt(p, j)
    {
    }
  }

  /**
   * The options mean what getopt's cases say: usage() iff some letter is
   * unknown; -G, -i, -n and -P set their flags; the last of -g, -h, -k and
   * -m decides usize and hflag, and without one they stay 0.
   */
  lemma {:induction false} OptsMeaning(letters: string)
    ensures OptsF(letters).None? <==> SomeUnknown(letters)
    ensures OptsF(letters).Some? ==> FlagsGiven(letters, OptsF(letters).value) && UnitGiven(letters, OptsF(letters).value)
  {
    if |letters| > 0 {
      var p := letters[..|letters| - 1];
      var c := letters[|letters| - 1];
      assert letters == p + [c];
      OptsMeaning(p);
      OptsSnoc(p, c);
      UnknownSnoc(p, c);
      if OptsF(p).Some? && Apply(OptsF(p).value, c).Some? {
        FlagsStep(p, c, OptsF(p).value);
        UnitStep(p, c, OptsF(p).value);
      }
    }
  }

  /** main's option errors: usage() for an unknown letter, else errx for -G with -P or -i, and for -P with -i. */
  lemma StartRules(letters: string)
    ensures StartF(letters).Usage? <==> SomeUnknown(letters)
    ensures StartF(letters).Clash? <==> (!SomeUnknown(letters) &&
      ((Gave(letters, 'G') && (Gave(letters, 'P') || Gave(letters, 'i'))) || (Gave(letters, 'P') && Gave(letters, 'i'))))
  {
    OptsMeaning(letters);
  }

  /** fsbtoblk when the sizes divide each other: the bytes counted in display blocks, rounded down; 0 for an unknown block size. */
  lemma FsbtoblkScales(num: nat, fsbs: nat, bs: int)
    requires bs > 0 && num * fsbs <= LONG_MAX && num <= LONG_MAX
    requires fsbs < bs ==> fsbs == 0 || bs % fsbs == 0
    requires fsbs >= bs ==> fsbs % bs == 0
    ensures Fsbtoblk(num, fsbs, bs) == num * fsbs / bs
  {
    if fsbs != 0 && fsbs < bs {
      SmallFragments(num, fsbs, bs);
    } else if fsbs == 0 {
      assert num * fsbs == 0;
    } else {
      LargeFragments(num, fsbs, bs);
    }
  }

  lemma SmallFragments(num: nat, fsbs: nat, bs: int)
    requires bs > 0 && num <= LONG_MAX && 0 < fsbs < bs && bs % fsbs == 0
    ensures Fsbtoblk(num, fsbs, bs) == num * fsbs / bs
  {
    var q := bs / fsbs;
    assert bs == q * fsbs;
    assert Fsbtoblk(num, fsbs, bs) == CDiv(num, q);
    ScaleDown(num, fsbs, q);
  }

  lemma LargeFragments(num: nat, fsbs: nat, bs: int)
    requires bs > 0 && num * fsbs <= LONG_MAX && num <= LONG_MAX && fsbs >= bs && fsbs % bs == 0
    ensures Fsbtoblk(num, fsbs, bs) == num * fsbs / bs
  {
    var q := fsbs / bs;
    assert fsbs == q * bs;
    ScaleUp(num, bs, q);
    NoOverflow(num, q, bs);
    assert Fsbtoblk(num, fsbs, bs) == Wrap64(num * q);
  }

  lemma NoOverflow(num: nat, q: nat, bs: int)
    requires bs > 0 && num * (q * bs) <= LONG_MAX
    ensures num * q <= LONG_MAX
  {
    assert num * (q * bs) == (num * q) * bs;
    assert (num * q) * (bs - 1) >= 0;
  }

  /** Dividing by bs/fsbs is dividing the bytes by bs. */
  lemma ScaleDown(num: nat, fsbs: nat, q: nat)
    requires fsbs > 0 && q > 0
    ensures CDiv(num, q) == num * fsbs / (q * fsbs)
  {
    var d := num / q;
    var r := num % q;
    assert num == d * q + r;
    assert num * fsbs == d * (q * fsbs) + r * fsbs;
    assert r * fsbs < q * fsbs;
    DivUnique(num * fsbs, q * fsbs, d, r * fsbs);
  }

  /** Multiplying by fsbs/bs is dividing the bytes by bs. */
  lemma ScaleUp(num: nat, bs: nat, q: nat)
    requires bs > 0
    ensures num * q == num * (q * bs) / bs
  {
    assert num * (q * bs) == (num * q) * bs;
    DivUnique(num * (q * bs), bs, num * q, 0);
  }

  lemma MulBound(e: int, b: int, x: int)
    requires b > 0 && e * b == x && -b < x < b
    ensures e == 0
  {
  }

  lemma DivUnique(a: int, b: int, d: int, r: int)
    requires b > 0 && a == d * b + r && 0 <= r < b
    ensures a / b == d
  {
    var e := a / b - d;
    assert a == (a / b) * b + a % b;
    assert e * b == (a / b) * b - d * b;
    MulBound(e, b, r - a % b);
  }

  /**
   * For counts below 2^62 (any real file system) the int64 columns are the
   * plain differences: used is what is taken, bavail may go negative when
   * the reserve exceeds the free blocks, and availblks is the total less the
   * reserve; capacity is "100" exactly when that is 0.
   */
  lemma UsageColumns(s: Statvfs)
    requires s.blocks < 0x4000_0000_0000_0000 && s.bfree < 0x4000_0000_0000_0000 && s.bresvd < 0x4000_0000_0000_0000
    ensures Used(s) == s.blocks - s.bfree
    ensures Bavail(s) == s.bfree - s.bresvd
    ensures Availblks(s) == s.blocks - s.bresvd
    ensures CapacityOf(Used(s), Availblks(s)) == if s.blocks == s.bresvd then Full else Pct(s.blocks - s.bfree, s.blocks - s.bresvd)
  {
  }

  /** -i's capacity: with no inodes at all "  0" when none are used and "100" otherwise, else used over total. */
  lemma InodeColumns(s: Statvfs)
    requires s.files < 0x4000_0000_0000_0000 && s.ffree < 0x4000_0000_0000_0000
    ensures InodesOf(s).used == s.files - s.ffree && InodesOf(s).free == s.ffree
    ensures InodesOf(s).cap == if s.files == 0 then (if s.ffree == 0 then Empty else Full) else Pct(s.files - s.ffree, s.files)
  {
  }

  /**
   * The header: 1K-blocks (1024-blocks under -P), 1M-blocks or 1G-blocks
   * for the units, "Size" under -h, else getbsize's; -P goes on only with a
   * 512- or 1024-byte block, and the usual header's first column is padded
   * so that the header lines up with the name column, at least 12 wide.
   */
  lemma HeaderRules(f: Flags, env: BlockSize, maxwidth: int)
    requires f.h ==> f.usize == 0
    ensures f.usize == KB ==> HeaderF(f, env).header == (if f.P then "1024-blocks" else "1K-blocks")
    ensures f.usize == MB ==> HeaderF(f, env).header == "1M-blocks"
    ensures f.usize == GB ==> HeaderF(f, env).header == "1G-blocks"
    ensures f.h ==> HeaderF(f, env).header == "Size" && HeaderF(f, env).blocksize == 0
    ensures !f.h && f.usize == 0 ==> HeaderF(f, env) == Choice(env.header, env.len, env.size)
    ensures HeaderF(f, env).header != env.header ==> HeaderF(f, env).len == |HeaderF(f, env).header|
    ensures f.P && f.h ==> !PosixSize(HeaderF(f, env).blocksize)
    ensures f.P && f.usize == KB ==> PosixSize(HeaderF(f, env).blocksize)
    ensures f.P && (f.usize == MB || f.usize == GB) ==> !PosixSize(HeaderF(f, env).blocksize)
    ensures !f.P ==> HeadF(f, HeaderF(f, env), maxwidth).width + HeaderF(f, env).len == Max12(maxwidth) + 10
    ensures Max12(maxwidth) >= 12 && Max12(maxwidth) >= maxwidth
  {
  }

  /** Only the first line of output has a header: a second prtstat prints the line alone, with the same block size. */
  method TwoCalls(s1: Statvfs, s2: Statvfs, f: Flags, w: int, env: BlockSize) returns (a: Printed, b: Printed)
    requires env.size > 0 && !f.g && !(f.P && !PosixSize(HeaderF(f, env).blocksize))
    ensures a.Lines? && a.head.Some? && a.row == RowF(f, s1, Max12(w), HeaderF(f, env).blocksize)
    ensures b == Lines(None, RowF(f, s2, Max12(w), HeaderF(f, env).blocksize))
  {
    var st := new DfState();
    st.flags := f;
    a := st.PrtStat(s1, w, env);
    b := st.PrtStat(s2, w, env);
  }
}

=== FILE: diff.dfy ===
// fsu_diff (src/fsu_diff.c): two fts walks of the image, one from each
// path, advanced side by side. Entries whose names differ are reported as
// being "only on" one side; entries paired up are compared by
// fsu_diff_fent, which for regular files reads both in 8192-byte chunks.
//
// The walks themselves are fts's work: each is given as the sequence of
// entries fsu_fts_read returns, or None when fsu_fts_open fails. The files
// are read and readlink'ed through the image domain of the System.

module Diff {
  import opened Posix
  import opened Domain
  import opened DomainProps
  import Str2Arg

  /** BUFSIZE: the chunk fsu_diff_file reads from each file. */
  const BUFSIZE: nat := 8192

  /** FTS_ROOTLEVEL: the level of the entry fts_open was given. */
  const ROOTLEVEL: int := 0

  /** An FSU_FTSENT: its name, paths, level, whether it is a post-order visit (FTS_DP), and its stat. */
  datatype Ent = Ent(name: string, path: string, accpath: string, level: int, post: bool, st: Stat)

  /** A line fsu_diff prints on stderr. */
  datatype Line =
    | OnlyOn(accpath: string, root: string)
    | Differ(path1: string, path2: string)

  // ---------------------------------------------------------------------
  // fsu_diff_namecmp

  /** fsu_diff_namecmp: the order fts is asked to sort siblings in. */
  function NameCmp(a: Ent, b: Ent): (r: int)
    ensures r == 0 <==> a.name == b.name
  {
    Strcmp(a.name, b.name)
  }

  /** strcmp is antisymmetric, so NameCmp orders the names one way. */
  lemma {:induction false} StrcmpAntisymmetric(a: string, b: string)
    ensures Strcmp(a, b) == -Strcmp(b, a)
  {
    if |a| > 0 && |b| > 0 && a[0] == b[0] {
      StrcmpAntisymmetric(a[1..], b[1..]);
    }
  }

  // ---------------------------------------------------------------------
  // The chunk loop of fsu_diff_file

  /**
   * The do-while of fsu_diff_file: read a chunk from each file; -1 when a
   * read fails, 1 when the chunks differ in length or in bytes, 0 once
   * both reads return nothing.
   */
  function CmpF(w: World, fd1: int, fd2: int): (r: (World, int))
    requires fd1 != fd2 || fd1 < 0
    ensures -1 <= r.1 <= 1
    decreases Unread(w.image, fd1)
  {
    var (w1, rd1, buf1) := ReadW(w, Image, fd1, BUFSIZE);
    if rd1 == -1 then (w1, -1)
    else
      var (w2, rd2, buf2) := ReadW(w1, Image, fd2, BUFSIZE);
      if rd2 == -1 then (w2, -1)
      else if rd1 != rd2 || buf1 != buf2 then (w2, 1)
      else if rd1 == 0 then (w2, 0)
      else
        CmpProgress(w, fd1, fd2);
        CmpF(w2, fd1, fd2)
  }

  /** A read of another descriptor leaves fd1 as it was. */
  lemma ReadOther(fs: Fs, fd1: int, fd2: int)
    requires fd1 != fd2 && ReadF(fs, fd2, BUFSIZE).Ok?
    ensures var fs' := ReadF(fs, fd2, BUFSIZE).value.0;
      fs'.files == fs.files && (fd1 in fs.fds ==> fd1 in fs'.fds && fs'.fds[fd1] == fs.fds[fd1])
  {
  }

  /** A round that read something from fd1 leaves less to read there. */
  lemma CmpProgress(w: World, fd1: int, fd2: int)
    requires fd1 != fd2 || fd1 < 0
    requires ReadW(w, Image, fd1, BUFSIZE).1 > 0
    ensures var (w1, _, _) := ReadW(w, Image, fd1, BUFSIZE);
      ReadW(w1, Image, fd2, BUFSIZE).1 != -1 ==>
        Unread(ReadW(w1, Image, fd2, BUFSIZE).0.image, fd1) < Unread(w.image, fd1)
  {
    var (w1, rd1, _) := ReadW(w, Image, fd1, BUFSIZE);
    var fs := w.image;
    var of := fs.fds[fd1];
    assert w1.image.fds[fd1] == of.(offset := of.offset + rd1);
    assert w1.image.files == fs.files;
    if ReadW(w1, Image, fd2, BUFSIZE).1 != -1 {
      ReadOther(w1.image, fd1, fd2);
    }
  }

  /** read(2) of a readable descriptor: the next min(BUFSIZE, left) bytes, and the offset moves past them. */
  lemma ImageChunk(w: World, fd: int)
    requires Reader(w.image, fd)
    ensures var (w1, rd, buf) := ReadW(w, Image, fd, BUFSIZE);
      var r := Rest(w.image, fd);
      && rd == (if |r| < BUFSIZE then |r| else BUFSIZE) && buf == r[..rd]
      && w1.image.files == w.image.files && w1.host == w.host && w1.errno == w.errno
      && w1.image.fds == w.image.fds[fd := w.image.fds[fd].(offset := w.image.fds[fd].offset + rd)]
  {
    var fs := w.image;
    var of := fs.fds[fd];
    var b := fs.files[of.path].content.bytes;
    var r := Rest(fs, fd);
    var rd := if |r| < BUFSIZE then |r| else BUFSIZE;
    assert b[of.offset..of.offset + rd] == r[..rd];
  }

  /**
   * The chunk loop on two readable descriptors gives 0 when what is left in
   * both files is the same bytes, and 1 otherwise; no read fails.
   */
  lemma {:induction false} CmpMeaning(w: World, fd1: int, fd2: int)
    requires fd1 != fd2 && Reader(w.image, fd1) && Reader(w.image, fd2)
    ensures CmpF(w, fd1, fd2).1 == if Rest(w.image, fd1) == Rest(w.image, fd2) then 0 else 1
    decreases Unread(w.image, fd1)
  {
    var r1, r2 := Rest(w.image, fd1), Rest(w.image, fd2);
    ImageChunk(w, fd1);
    var (w1, rd1, buf1) := ReadW(w, Image, fd1, BUFSIZE);
    assert Reader(w1.image, fd2) && Rest(w1.image, fd2) == r2;
    ImageChunk(w1, fd2);
    var (w2, rd2, buf2) := ReadW(w1, Image, fd2, BUFSIZE);
    if rd1 != rd2 {
      assert |r1| != |r2|;
    } else if buf1 != buf2 {
      assert r1[..rd1] != r2[..rd1];
    } else if rd1 == 0 {
      assert r1 == [] && r2 == [];
    } else {
      assert Reader(w2.image, fd1) && Rest(w2.image, fd1) == r1[rd1..];
      assert Reader(w2.image, fd2) && Rest(w2.image, fd2) == r2[rd1..];
      CmpProgress(w, fd1, fd2);
      CmpMeaning(w2, fd1, fd2);
      assert r1 == r1[..rd1] + r1[rd1..] && r2 == r2[..rd1] + r2[rd1..];
    }
  }

  // ---------------------------------------------------------------------
  // fsu_diff_file, fsu_diff_link, fsu_diff_fent

  /**
   * fsu_diff_file: -1 when the sizes differ or, below the root, the names;
   * otherwise both files are opened read-only (unchecked) and the chunk
   * loop decides.
   */
  function DiffFileF(w: World, f1: Ent, f2: Ent): (r: (World, int))
    ensures -1 <= r.1 <= 1
  {
    if f1.st.size != f2.st.size then (w, -1)
    else if f1.level != ROOTLEVEL && Strcmp(f1.name, f2.name) != 0 then (w, -1)
    else
      var (w1, fd1) := OpenW(w, Image, f1.accpath, O_RDONLY, 0);
      var (w2, fd2) := OpenW(w1, Image, f2.accpath, O_RDONLY, 0);
      OpensApart(w, f1.accpath, f2.accpath);
      CmpF(w2, fd1, fd2)
  }

  /** Two opens in a row never give the same descriptor unless both fail. */
  lemma OpensApart(w: World, p1: string, p2: string)
    ensures var (w1, fd1) := OpenW(w, Image, p1, O_RDONLY, 0);
      var (w2, fd2) := OpenW(w1, Image, p2, O_RDONLY, 0);
      fd1 != fd2 || fd1 < 0
  {
  }

  /**
   * fsu_diff_link: -1 when the names differ, when either readlink fails, or
   * when the targets (at most PATH_MAX bytes each) differ in length or, as
   * strncmp sees them, in content; else 0.
   */
  function DiffLinkF(w: World, f1: Ent, f2: Ent): (r: (World, int))
    ensures r.1 == 0 || r.1 == -1
  {
    if Strcmp(f1.name, f2.name) != 0 then (w, -1)
    else
      var r1 := ReadlinkF(w.image, f1.accpath, PATH_MAX);
      if r1.Fail? then (w.(errno := r1.err), -1)
      else
        var r2 := ReadlinkF(w.image, f2.accpath, PATH_MAX);
        if r2.Fail? then (w.(errno := r2.err), -1)
        else if |r1.value| != |r2.value| || Str2Arg.CStr(r1.value, 0) != Str2Arg.CStr(r2.value, 0) then (w, -1)
        else (w, 0)
  }

  /**
   * fsu_diff_fent: the same inode number is equal; different file types
   * differ; FIFOs are equal; devices compare rdev; directories compare
   * link counts, then names; regular files and symbolic links go to
   * fsu_diff_file and fsu_diff_link; any other type differs.
   */
  function FentF(w: World, f1: Ent, f2: Ent): (r: (World, int))
    ensures -1 <= r.1 <= 1
  {
    var t := f1.st.mode & S_IFMT;
    if f1.st.ino == f2.st.ino then (w, 0)
    else if t != f2.st.mode & S_IFMT then (w, -1)
    else if t == S_IFIFO then (w, 0)
    else if t == S_IFCHR || t == S_IFBLK then (w, if f1.st.rdev != f2.st.rdev then 1 else 0)
    else if t == S_IFDIR then (w, if f1.st.nlink != f2.st.nlink then -1 else Strcmp(f1.name, f2.name))
    else if t == S_IFREG then DiffFileF(w, f1, f2)
    else if t == S_IFLNK then DiffLinkF(w, f1, f2)
    else (w, -1)
  }

  /**
   * What fsu_diff_fent decides from the stat data alone: entries with the
   * same inode number are equal, whatever their device; different types
   * differ; FIFOs are equal; devices are equal iff their rdev is;
   * directories are equal iff link counts and names are; and apart from
   * errno only regular files touch the image, through open and read.
   */
  lemma FentVerdict(w: World, f1: Ent, f2: Ent)
    ensures var (w', d) := FentF(w, f1, f2);
      var t1, t2 := TypeOf(f1.st.mode), TypeOf(f2.st.mode);
      && (f1.st.ino == f2.st.ino ==> d == 0 && w' == w)
      && (f1.st.ino != f2.st.ino && t1 != t2 ==> d == -1 && w' == w)
      && (f1.st.ino != f2.st.ino && t1 == t2 ==>
            && (t1 == Fifo ==> d == 0)
            && (t1 == Chr || t1 == Blk ==> (d == 0 <==> f1.st.rdev == f2.st.rdev))
            && (t1 == Dir ==> (d == 0 <==> f1.st.nlink == f2.st.nlink && f1.name == f2.name))
            && (t1 == Lnk ==> d == 0 ==> f1.name == f2.name)
            && (t1 == Sock || t1 == Unknown ==> d == -1)
            && (t1 != Reg ==> w'.image == w.image && w'.host == w.host))
  {
    TypesAgree(f1.st.mode, f2.st.mode);
  }

  /** Two modes have the same TypeOf iff their S_IFMT bits agree. */
  lemma TypesAgree(m1: bv32, m2: bv32)
    ensures TypeOf(m1) != TypeOf(m2) ==> m1 & S_IFMT != m2 & S_IFMT
    ensures TypeOf(m1) == Fifo <==> m1 & S_IFMT == S_IFIFO
    ensures TypeOf(m1) == Chr <==> m1 & S_IFMT == S_IFCHR
    ensures TypeOf(m1) == Blk <==> m1 & S_IFMT == S_IFBLK
    ensures TypeOf(m1) == Dir <==> m1 & S_IFMT == S_IFDIR
    ensures TypeOf(m1) == Reg <==> m1 & S_IFMT == S_IFREG
    ensures TypeOf(m1) == Lnk <==> m1 & S_IFMT == S_IFLNK
  {
  }

  /** fsu_diff_file's chunk loop, reading from the image. */
  method Cmp(sys: System, fd1: int, fd2: int) returns (rv: int)
    requires fd1 != fd2 || fd1 < 0
    modifies sys
    ensures (sys.Now(), rv) == CmpF(old(sys.Now()), fd1, fd2)
  {
    ghost var w0 := sys.Now();
    while true
      invariant CmpF(sys.Now(), fd1, fd2) == CmpF(w0, fd1, fd2)
      decreases Unread(sys.Now().image, fd1)
    {
      ghost var wi := sys.Now();
      var rd1, buf1 := sys.Read(Image, fd1, BUFSIZE);
      if rd1 == -1 {
        return -1;
      }
      var rd2, buf2 := sys.Read(Image, fd2, BUFSIZE);
      if rd2 == -1 {
        return -1;
      }
      if rd1 != rd2 || buf1 != buf2 {
        return 1;
      }
      if rd1 == 0 {
        return 0;
      }
      CmpProgress(wi, fd1, fd2);
    }
  }

  method DiffFile(sys: System, f1: Ent, f2: Ent) returns (rv: int)
    modifies sys
    ensures (sys.Now(), rv) == DiffFileF(old(sys.Now()), f1, f2)
  {
    if f1.st.size != f2.st.size {
      return -1;
    }
    if f1.level != ROOTLEVEL && Strcmp(f1.name, f2.name) != 0 {
      return -1;
    }
    OpensApart(sys.Now(), f1.accpath, f2.accpath);
    var fd1 := sys.Open(Image, f1.accpath, O_RDONLY, 0);
    var fd2 := sys.Open(Image, f2.accpath, O_RDONLY, 0);
    rv := Cmp(sys, fd1, fd2);
  }

  method DiffLink(sys: System, f1: Ent, f2: Ent) returns (rv: int)
    modifies sys
    ensures (sys.Now(), rv) == DiffLinkF(old(sys.Now()), f1, f2)
  {
    if Strcmp(f1.name, f2.name) != 0 {
      return -1;
    }
    var r1 := sys.Readlink(Image, f1.accpath, PATH_MAX);
    if r1.Fail? {
      return -1;
    }
    var r2 := sys.Readlink(Image, f2.accpath, PATH_MAX);
    if r2.Fail? {
      return -1;
    }
    if |r1.value| != |r2.value| || Str2Arg.CStr(r1.value, 0) != Str2Arg.CStr(r2.value, 0) {
      return -1;
    }
    return 0;
  }

  method Fent(sys: System, f1: Ent, f2: Ent) returns (rv: int)
    modifies sys
    ensures (sys.Now(), rv) == FentF(old(sys.Now()), f1, f2)
  {
    var t := f1.st.mode & S_IFMT;
    if f1.st.ino == f2.st.ino {
      return 0;
    }
    if t != f2.st.mode & S_IFMT {
      return -1;
    }
    if t == S_IFIFO {
      rv := 0;
    } else if t == S_IFCHR || t == S_IFBLK {
      rv := if f1.st.rdev != f2.st.rdev then 1 else 0;
    } else if t == S_IFDIR {
      rv := if f1.st.nlink != f2.st.nlink then -1 else Strcmp(f1.name, f2.name);
    } else if t == S_IFREG {
      rv := DiffFile(sys, f1, f2);
    } else if t == S_IFLNK {
      rv := DiffLink(sys, f1, f2);
    } else {
      rv := -1;
    }
  }

  // ---------------------------------------------------------------------
  // The merge of the two walks

  /** Which walk an entry comes from. */
  datatype Side = First | Second

  /**
   * One pass through fsu_diff's loop body, from the label "again" to the
   * next read: what happens to the current entries e1 and e2.
   */
  datatype Step =
    | RootDirs(e1: Ent, e2: Ent)     // both at the root level, e1 a directory: both skipped
    | Post(e: Ent, side: Side)       // a post-order visit: skipped
    | Alone(e: Ent, side: Side)      // the other walk has ended
    | Unpaired(e: Ent, side: Side)   // its name sorts before the other side's
    | Pair(e1: Ent, e2: Ent)         // compared by fsu_diff_fent

  /**
   * The step fsu_diff takes from the label "again" when a[i] and b[j] are
   * current; an index at the end of its walk stands for a NULL entry.
   */
  function Head(a: seq<Ent>, b: seq<Ent>, i: nat, j: nat): (s: Step)
    requires i <= |a| && j <= |b| && (i < |a| || j < |b|)
    ensures Advance(s, i, j).0 <= |a| && Advance(s, i, j).1 <= |b|
  {
    if i < |a| && j < |b| && IsDir(a[i].st.mode) && a[i].level == b[j].level && a[i].level == ROOTLEVEL then
      RootDirs(a[i], b[j])
    else if i < |a| && a[i].post then Post(a[i], First)
    else if j < |b| && b[j].post then Post(b[j], Second)
    else if i == |a| then Alone(b[j], Second)
    else if j == |b| then Alone(a[i], First)
    else if Strcmp(a[i].name, b[j].name) != 0 && a[i].level != ROOTLEVEL && b[j].level != ROOTLEVEL then
      if Strcmp(a[i].name, b[j].name) < 0 then Unpaired(a[i], First) else Unpaired(b[j], Second)
    else Pair(a[i], b[j])
  }

  /** The indices after a step: the entries it used up are read past. */
  function Advance(s: Step, i: nat, j: nat): (nat, nat) {
    match s
    case RootDirs(_, _) => (i + 1, j + 1)
    case Pair(_, _) => (i + 1, j + 1)
    case Post(_, side) => if side == First then (i + 1, j) else (i, j + 1)
    case Alone(_, side) => if side == First then (i + 1, j) else (i, j + 1)
    case Unpaired(_, side) => if side == First then (i + 1, j) else (i, j + 1)
  }

  /** All the steps from a[i] and b[j] on, until both walks return NULL. */
  function Plan(a: seq<Ent>, b: seq<Ent>, i: nat, j: nat): seq<Step>
    requires i <= |a| && j <= |b|
    decreases |a| - i + |b| - j
  {
    if i == |a| && j == |b| then []
    else
      var s := Head(a, b, i, j);
      [s] + Plan(a, b, Advance(s, i, j).0, Advance(s, i, j).1)
  }

  /** The result of running steps: the world, whether rv is still 0, and the lines printed. */
  datatype Outcome = Outcome(w: World, same: bool, lines: seq<Line>)

  /** The root path of a side. */
  function RootOf(side: Side, p1: string, p2: string): string {
    if side == First then p1 else p2
  }

  /**
   * One step's effect: an entry left alone below the root level or
   * unpaired is reported "only on" its side; a pair is compared, reported
   * when it differs, and rv |= diff keeps rv at 0 only while every diff is 0.
   */
  function StepF(w: World, p1: string, p2: string, s: Step): Outcome {
    match s
    case Alone(e, side) =>
      Outcome(w, true, if e.level != ROOTLEVEL then [OnlyOn(e.accpath, RootOf(side, p1, p2))] else [])
    case Unpaired(e, side) => Outcome(w, true, [OnlyOn(e.accpath, RootOf(side, p1, p2))])
    case Pair(e1, e2) =>
      var (w1, d) := FentF(w, e1, e2);
      Outcome(w1, d == 0, if d != 0 then [Differ(e1.path, e2.path)] else [])
    case _ => Outcome(w, true, [])
  }

  /** The steps one after the other. */
  function Run(w: World, p1: string, p2: string, steps: seq<Step>): Outcome
    decreases |steps|
  {
    if |steps| == 0 then Outcome(w, true, [])
    else
      var o := StepF(w, p1, p2, steps[0]);
      var rest := Run(o.w, p1, p2, steps[1..]);
      Outcome(rest.w, o.same && rest.same, o.lines + rest.lines)
  }

  /** The entries of one side a single step consumes. */
  function Took(s: Step, side: Side): seq<Ent> {
    match s
    case RootDirs(e1, e2) => [if side == First then e1 else e2]
    case Pair(e1, e2) => [if side == First then e1 else e2]
    case Post(e, sd) => if sd == side then [e] else []
    case Alone(e, sd) => if sd == side then [e] else []
    case Unpaired(e, sd) => if sd == side then [e] else []
  }

  /** The entries of one side the steps consume, in order. */
  function Consumed(steps: seq<Step>, side: Side): seq<Ent> {
    if |steps| == 0 then [] else Took(steps[0], side) + Consumed(steps[1..], side)
  }

  lemma ConsumedFirst(steps: seq<Step>, side: Side)
    requires |steps| > 0
    ensures Consumed(steps, side) == Took(steps[0], side) + Consumed(steps[1..], side)
  {
  }

  lemma SuffixSplits(x: seq<Ent>, i: nat, k: nat)
    requires i <= k <= |x|
    ensures x[i..] == x[i..k] + x[k..]
  {
  }

  /** The head step consumes exactly the entries it advances past. */
  lemma HeadTakes(a: seq<Ent>, b: seq<Ent>, i: nat, j: nat)
    requires i <= |a| && j <= |b| && (i < |a| || j < |b|)
    ensures var s := Head(a, b, i, j); var (i', j') := Advance(s, i, j);
      && i <= i' <= |a| && j <= j' <= |b|
      && Took(s, First) == a[i..i'] && Took(s, Second) == b[j..j']
  {
    assert a[i..i] == [] && b[j..j] == [];
    if i < |a| {
      assert a[i..i + 1] == [a[i]];
    }
    if j < |b| {
      assert b[j..j + 1] == [b[j]];
    }
  }

  /** Plan unfolded once: the head step, then the plan from the indices it advances to. */
  lemma PlanUnfold(a: seq<Ent>, b: seq<Ent>, i: nat, j: nat)
    requires i <= |a| && j <= |b| && (i < |a| || j < |b|)
    ensures var s := Head(a, b, i, j);
      |Plan(a, b, i, j)| > 0 && Plan(a, b, i, j)[0] == s
      && Plan(a, b, i, j)[1..] == Plan(a, b, Advance(s, i, j).0, Advance(s, i, j).1)
  {
    var s := Head(a, b, i, j);
    var rest := Plan(a, b, Advance(s, i, j).0, Advance(s, i, j).1);
    assert ([s] + rest)[1..] == rest;
  }

  /** Every entry of both walks is consumed exactly once, in walk order. */
  lemma {:induction false} PlanConsumes(a: seq<Ent>, b: seq<Ent>, i: nat, j: nat)
    requires i <= |a| && j <= |b|
    ensures Consumed(Plan(a, b, i, j), First) == a[i..]
    ensures Consumed(Plan(a, b, i, j), Second) == b[j..]
    decreases |a| - i + |b| - j
  {
    if i == |a| && j == |b| {
      assert a[i..] == [] && b[j..] == [];
    } else {
      var s := Head(a, b, i, j);
      var (i', j') := Advance(s, i, j);
      PlanUnfold(a, b, i, j);
      HeadTakes(a, b, i, j);
      PlanConsumes(a, b, i', j');
      var p := Plan(a, b, i, j);
      ConsumedFirst(p, First);
      ConsumedFirst(p, Second);
      SuffixSplits(a, i, i');
      SuffixSplits(b, j, j');
    }
  }

  /**
   * Only entries that are not post-order visits are compared, and a pair
   * has equal names unless one of them is at the root level; an entry is
   * reported unpaired only below the root.
   */
  lemma {:induction false} PlanPairs(a: seq<Ent>, b: seq<Ent>, i: nat, j: nat)
    requires i <= |a| && j <= |b|
    ensures forall k :: 0 <= k < |Plan(a, b, i, j)| && Plan(a, b, i, j)[k].Pair? ==>
      var s := Plan(a, b, i, j)[k];
      && !s.e1.post && !s.e2.post
      && (s.e1.name == s.e2.name || s.e1.level == ROOTLEVEL || s.e2.level == ROOTLEVEL)
    ensures forall k :: 0 <= k < |Plan(a, b, i, j)| && Plan(a, b, i, j)[k].Unpaired? ==>
      !Plan(a, b, i, j)[k].e.post && Plan(a, b, i, j)[k].e.level != ROOTLEVEL
    decreases |a| - i + |b| - j
  {
    if i < |a| || j < |b| {
      var p := Plan(a, b, i, j);
      var (i', j') := Advance(Head(a, b, i, j), i, j);
      PlanUnfold(a, b, i, j);
      PlanPairs(a, b, i', j');
      forall k | 1 <= k < |p|
        ensures p[k] == Plan(a, b, i', j')[k - 1]
      {
      }
    }
  }

  /** A step keeps rv at 0 iff it prints no "differ" line. */
  lemma StepSame(w: World, p1: string, p2: string, s: Step)
    ensures var o := StepF(w, p1, p2, s);
      o.same <==> forall k :: 0 <= k < |o.lines| ==> o.lines[k].OnlyOn?
  {
    if s.Pair? {
      var o := StepF(w, p1, p2, s);
      if !o.same {
        assert o.lines[0].Differ?;
      }
    }
  }

  /**
   * rv ends 0 iff no pair differed, that is iff no "differ" line was
   * printed; "only on" lines never change it.
   */
  lemma {:induction false} RunSame(w: World, p1: string, p2: string, steps: seq<Step>)
    ensures Run(w, p1, p2, steps).same <==> forall k :: 0 <= k < |Run(w, p1, p2, steps).lines| ==> Run(w, p1, p2, steps).lines[k].OnlyOn?
    decreases |steps|
  {
    if |steps| > 0 {
      var o := StepF(w, p1, p2, steps[0]);
      StepSame(w, p1, p2, steps[0]);
      RunSame(o.w, p1, p2, steps[1..]);
      var rest := Run(o.w, p1, p2, steps[1..]);
      assert forall k :: 0 <= k < |o.lines| ==> (o.lines + rest.lines)[k] == o.lines[k];
      assert forall k :: 0 <= k < |rest.lines| ==> (o.lines + rest.lines)[|o.lines| + k] == rest.lines[k];
    }
  }

  /** What fsu_diff returns and prints. */
  datatype Report = Report(rv: int, lines: seq<Line>)

  /**
   * fsu_diff on two paths: the same path is equal without walking; a
   * failed fsu_fts_open is -1; otherwise the steps of the merge are run
   * and the result is 0 iff rv stayed 0, else -1.
   */
  function DiffF(w: World, p1: string, p2: string, walk1: Option<seq<Ent>>, walk2: Option<seq<Ent>>): (World, Report) {
    if Strcmp(p1, p2) == 0 then (w, Report(0, []))
    else if walk1.None? || walk2.None? then (w, Report(-1, []))
    else
      var o := Run(w, p1, p2, Plan(walk1.value, walk2.value, 0, 0));
      (o.w, Report(if o.same then 0 else -1, o.lines))
  }

  /** The loop has reached a[i] and b[j], with the outcome so far. */
  ghost predicate Reached(w0: World, w: World, p1: string, p2: string, a: seq<Ent>, b: seq<Ent>,
                          i: nat, j: nat, same: bool, lines: seq<Line>)
    requires i <= |a| && j <= |b|
  {
    var all := Run(w0, p1, p2, Plan(a, b, 0, 0));
    var rest := Run(w, p1, p2, Plan(a, b, i, j));
    all.w == rest.w && all.same == (same && rest.same) && all.lines == lines + rest.lines
  }

  /** Taking the head step keeps Reached. */
  lemma ReachedStep(w0: World, w: World, p1: string, p2: string, a: seq<Ent>, b: seq<Ent>,
                    i: nat, j: nat, same: bool, lines: seq<Line>)
    requires i <= |a| && j <= |b| && (i < |a| || j < |b|)
    requires Reached(w0, w, p1, p2, a, b, i, j, same, lines)
    ensures var s := Head(a, b, i, j);
      var o := StepF(w, p1, p2, s);
      Reached(w0, o.w, p1, p2, a, b, Advance(s, i, j).0, Advance(s, i, j).1, same && o.same, lines + o.lines)
  {
    PlanUnfold(a, b, i, j);
  }

  /**
   * One step's work in fsu_diff's loop body: an entry alone below the root
   * level or unpaired is reported "only on" its side; a pair goes to
   * fsu_diff_fent, is reported when it differs, and its result is ORed
   * into rv (same says whether rv is still 0).
   */
  method Take(sys: System, p1: string, p2: string, s: Step, same: bool, lines: seq<Line>)
    returns (same': bool, lines': seq<Line>)
    modifies sys
    ensures var o := StepF(old(sys.Now()), p1, p2, s);
      sys.Now() == o.w && same' == (same && o.same) && lines' == lines + o.lines
  {
    same', lines' := same, lines;
    match s {
      case Alone(e, side) =>
        if e.level != ROOTLEVEL {
          lines' := lines + [OnlyOn(e.accpath, RootOf(side, p1, p2))];
        } else {
          assert lines + [] == lines;
        }
      case Unpaired(e, side) =>
        lines' := lines + [OnlyOn(e.accpath, RootOf(side, p1, p2))];
      case Pair(e1, e2) =>
        var diff := Fent(sys, e1, e2);
        if diff != 0 {
          lines' := lines + [Differ(e1.path, e2.path)];
        } else {
          assert lines + [] == lines;
        }
        same' := same && diff == 0;
      case RootDirs(_, _) =>
        assert lines + [] == lines;
      case Post(_, _) =>
        assert lines + [] == lines;
    }
  }

  /**
   * fsu_diff: the loop reads both walks and, from the label "again", takes
   * the step Head names: skipping, reporting an entry only on one side, or
   * comparing a pair with fsu_diff_fent and ORing the result into rv.
   */
  method DiffWalks(sys: System, p1: string, p2: string, walk1: Option<seq<Ent>>, walk2: Option<seq<Ent>>)
    returns (rv: int, lines: seq<Line>)
    modifies sys
    ensures (sys.Now(), Report(rv, lines)) == DiffF(old(sys.Now()), p1, p2, walk1, walk2)
  {
    if Strcmp(p1, p2) == 0 {
      return 0, [];
    }
    if walk1.None? || walk2.None? {
      return -1, [];
    }
    var a, b := walk1.value, walk2.value;
    ghost var w0 := sys.Now();
    var i: nat, j: nat := 0, 0;
    var same := true;
    lines := [];
    while i < |a| || j < |b|
      invariant i <= |a| && j <= |b|
      invariant Reached(w0, sys.Now(), p1, p2, a, b, i, j, same, lines)
      decreases |a| - i + |b| - j
    {
      var s := Head(a, b, i, j);
      ReachedStep(w0, sys.Now(), p1, p2, a, b, i, j, same, lines);
      same, lines := Take(sys, p1, p2, s, same, lines);
      i, j := Advance(s, i, j).0, Advance(s, i, j).1;
    }
    assert lines + [] == lines;
    rv := if same then 0 else -1;
  }

  /**
   * The first test after "again" looks only at the first walk's root: a
   * root directory beside a root file of any type is skipped as if both
   * were directories, so a lone directory and a file at the two paths
   * compare equal.
   */
  lemma RootDirBesideFile(w: World, p1: string, p2: string, d: Ent, f: Ent)
    requires Strcmp(p1, p2) != 0
    requires IsDir(d.st.mode) && !IsDir(f.st.mode) && d.level == ROOTLEVEL && f.level == ROOTLEVEL
    requires !d.post && !f.post
    ensures DiffF(w, p1, p2, Some([d, d.(post := true)]), Some([f])) == (w, Report(0, []))
  {
    var a, b := [d, d.(post := true)], [f];
    assert Plan(a, b, 2, 1) == [];
    assert Plan(a, b, 1, 1) == [Post(a[1], First)];
    var p := [RootDirs(d, f), Post(a[1], First)];
    assert Plan(a, b, 0, 0) == p;
    assert Run(w, p1, p2, p[1..]) == Outcome(w, true, []);
  }

  // ---------------------------------------------------------------------
  // The root test as evidently intended

  /**
   * The step from the label "again" when the root test also asks that the
   * second walk's root be a directory: a directory root beside a root of
   * another type goes on to the post-order tests and is then compared.
   */
  function HeadFixed(a: seq<Ent>, b: seq<Ent>, i: nat, j: nat): (s: Step)
    requires i <= |a| && j <= |b| && (i < |a| || j < |b|)
    ensures Advance(s, i, j).0 <= |a| && Advance(s, i, j).1 <= |b|
  {
    if i < |a| && j < |b| && IsDir(a[i].st.mode) && !IsDir(b[j].st.mode)
       && a[i].level == b[j].level && a[i].level == ROOTLEVEL then
      if a[i].post then Post(a[i], First)
      else if b[j].post then Post(b[j], Second)
      else Pair(a[i], b[j])
    else Head(a, b, i, j)
  }

  /** All the steps of the merge with the corrected root test. */
  function PlanFixed(a: seq<Ent>, b: seq<Ent>, i: nat, j: nat): seq<Step>
    requires i <= |a| && j <= |b|
    decreases |a| - i + |b| - j
  {
    if i == |a| && j == |b| then []
    else
      var s := HeadFixed(a, b, i, j);
      [s] + PlanFixed(a, b, Advance(s, i, j).0, Advance(s, i, j).1)
  }

  /** fsu_diff with the corrected root test. */
  function DiffFixedF(w: World, p1: string, p2: string, walk1: Option<seq<Ent>>, walk2: Option<seq<Ent>>): (World, Report) {
    if Strcmp(p1, p2) == 0 then (w, Report(0, []))
    else if walk1.None? || walk2.None? then (w, Report(-1, []))
    else
      var o := Run(w, p1, p2, PlanFixed(walk1.value, walk2.value, 0, 0));
      (o.w, Report(if o.same then 0 else -1, o.lines))
  }

  /**
   * With the corrected test, a pair of roots is skipped only when both are
   * directories, and the step differs from the program's only for a
   * directory root beside a root of another type.
   */
  lemma HeadFixedRoots(a: seq<Ent>, b: seq<Ent>, i: nat, j: nat)
    requires i <= |a| && j <= |b| && (i < |a| || j < |b|)
    ensures HeadFixed(a, b, i, j).RootDirs? ==> IsDir(a[i].st.mode) && IsDir(b[j].st.mode)
    ensures HeadFixed(a, b, i, j) != Head(a, b, i, j) ==>
      && i < |a| && j < |b| && IsDir(a[i].st.mode) && !IsDir(b[j].st.mode)
      && a[i].level == ROOTLEVEL && b[j].level == ROOTLEVEL
  {
  }

  /** The corrected merge on the input of RootDirBesideFile reports the pair as different. */
  lemma RootDirBesideFileFixed(w: World, p1: string, p2: string, d: Ent, f: Ent)
    requires Strcmp(p1, p2) != 0 && d.st.ino != f.st.ino
    requires IsDir(d.st.mode) && !IsDir(f.st.mode) && d.level == ROOTLEVEL && f.level == ROOTLEVEL
    requires !d.post && !f.post
    ensures DiffFixedF(w, p1, p2, Some([d, d.(post := true)]), Some([f])) == (w, Report(-1, [Differ(d.path, f.path)]))
  {
    var a, b := [d, d.(post := true)], [f];
    assert PlanFixed(a, b, 2, 1) == [];
    assert PlanFixed(a, b, 1, 1) == [Post(a[1], First)];
    var p := [Pair(d, f), Post(a[1], First)];
    assert PlanFixed(a, b, 0, 0) == p;
    assert d.st.mode & S_IFMT != f.st.mode & S_IFMT;
    assert FentF(w, d, f) == (w, -1);
    assert StepF(w, p1, p2, p[0]) == Outcome(w, false, [Differ(d.path, f.path)]);
    assert Run(w, p1, p2, p[1..]) == Outcome(w, true, []);
    assert Run(w, p1, p2, p) == Outcome(w, false, [Differ(d.path, f.path)]);
  }
}

=== FILE: domain.dfy ===
// The two filesystem domains the utilities work on -- the host and the
// mounted image -- as maps from normalised path strings to inode records, the
// system calls as functions on such a map, and a System object that holds both
// domains together with the process-wide errno.

module Domain {
  import opened Posix

  datatype Result<T> = Ok(value: T) | Fail(err: Errno)

  /** What an inode holds besides its attributes. */
  datatype Content =
    | Data(bytes: seq<bv8>)        // regular file
    | Entries(names: seq<string>)  // directory, names in read order
    | Target(link: string)         // symbolic link
    | NoData                       // FIFO or device node

  datatype Inode = Inode(
    mode: bv32, uid: int, gid: int, ino: int, nlink: int, rdev: int,
    atime: int, mtime: int, flags: int, content: Content)

  /** An open file description: resolved path, offset and access rights. */
  datatype OpenFile = OpenFile(
    path: string, offset: nat, readable: bool, writable: bool, append: bool)

  /**
   * One domain. Besides the files and descriptors it carries the properties
   * that decide which calls fail: the space left for data, whether the file
   * system supports hard links, whether chown is permitted, the paths the
   * caller may not open, and the caller's credentials.
   */
  datatype Fs = Fs(
    files: map<string, Inode>,
    fds: map<int, OpenFile>,
    nextFd: nat,
    nextIno: int,
    dev: int,
    uid: int,
    gid: int,
    space: nat,
    linkSupported: bool,
    chownAllowed: bool,
    denied: set<string>)

  // ---------------------------------------------------------------------
  // Path names

  /**
   * The key under which the kernel finds a path: repeated '/' collapse into
   * one and trailing '/' go, but a path made only of '/' is "/". "." and ".."
   * components are not interpreted.
   */
  function Norm(p: string): (r: string)
    ensures |r| <= |p|
    ensures p != "" ==> r != ""
    decreases |p|
  {
    if p == "" then ""
    else if p[|p| - 1] == '/' then
      var q := Norm(p[..|p| - 1]);
      if q == "" then "/" else q
    else match LastIndexOf(p, '/')
      case None => p
      case Some(i) => JoinPath(Norm(p[..i]), p[i + 1..])
  }

  /** Joining a '/'-free name commutes with normalisation. */
  lemma NormJoin(p: string, name: string)
    requires name != "" && '/' !in name
    ensures Norm(JoinPath(p, name)) == JoinPath(Norm(p), name)
  {
    var s := JoinPath(p, name);
    if p == "/" {
      assert s == "/" + name;
      assert LastIndexOf(s, '/') == Some(0) by {
        LastIndexOfAfter(s, 0);
      }
      assert s[..0] == "";
      assert s[1..] == name;
    } else {
      assert s == p + "/" + name;
      LastIndexOfAfter(s, |p|);
      assert s[..|p|] == p;
      assert s[|p| + 1..] == name;
    }
  }

  /** The last '/' of s is at i when s[i] is '/' and none follows it. */
  lemma LastIndexOfAfter(s: string, i: nat)
    requires i < |s| && s[i] == '/' && forall j :: i < j < |s| ==> s[j] != '/'
    ensures LastIndexOf(s, '/') == Some(i)
  {
    match LastIndexOf(s, '/')
    case None =>
    case Some(k) =>
  }

  /** The directory holding k, or None when k is "/" or has no '/'. */
  function ParentOf(k: string): Option<string> {
    match LastIndexOf(k, '/')
    case None => None
    case Some(i) => if i == 0 then (if |k| == 1 then None else Some("/")) else Some(k[..i])
  }

  /** A directory path joined with one name, as the kernel and the walker join them. */
  function JoinPath(dir: string, name: string): string {
    if dir == "/" then "/" + name else dir + "/" + name
  }

  // ---------------------------------------------------------------------
  // Lookup

  function SizeOf(c: Content): int {
    match c
    case Data(b) => |b|
    case Target(t) => |t|
    case Entries(ns) => |ns|
    case NoData => 0
  }

  function StatOf(fs: Fs, n: Inode): Stat {
    Stat(n.mode, n.uid, n.gid, fs.dev, n.ino, n.nlink, n.rdev, SizeOf(n.content),
         n.atime, n.mtime, n.flags)
  }

  /** Where a symbolic link stored at k with the given target points. */
  function LinkDest(k: string, target: string): string {
    if |target| > 0 && target[0] == '/' then target
    else match ParentOf(k)
      case None => target
      case Some(q) => JoinPath(q, target)
  }

  /** Follows symbolic links from p, at most fuel of them, to an existing key. */
  function Resolve(fs: Fs, p: string, fuel: nat): (r: Result<string>)
    ensures r.Ok? ==> Norm(p) in fs.files && r.value in fs.files && !IsLnk(fs.files[r.value].mode)
    decreases fuel
  {
    var k := Norm(p);
    if k !in fs.files then Fail(ENOENT)
    else if IsLnk(fs.files[k].mode) then
      if fs.files[k].content.Target? && fuel > 0 then
        Resolve(fs, LinkDest(k, fs.files[k].content.link), fuel - 1)
      else Fail(ELOOP)
    else Ok(k)
  }

  /** lstat(2). */
  function LstatF(fs: Fs, p: string): (r: Result<Stat>)
    ensures r.Ok? <==> Norm(p) in fs.files
  {
    var k := Norm(p);
    if k in fs.files then Ok(StatOf(fs, fs.files[k])) else Fail(ENOENT)
  }

  /** stat(2): lstat of the object reached by following symbolic links. */
  function StatF(fs: Fs, p: string): (r: Result<Stat>)
    ensures r.Ok? ==> Norm(p) in fs.files && !IsLnk(r.value.mode)
  {
    match Resolve(fs, p, MAXSYMLINKS)
    case Fail(e) => Fail(e)
    case Ok(k) => Ok(StatOf(fs, fs.files[k]))
  }

  /** opendir(3) followed by readdir(3) to the end: ".", ".." then the names. */
  function OpendirF(fs: Fs, p: string): Result<seq<string>> {
    match Resolve(fs, p, MAXSYMLINKS)
    case Fail(e) => Fail(e)
    case Ok(k) =>
      if k in fs.denied then Fail(EACCES)
      else if !fs.files[k].content.Entries? then Fail(ENOTDIR)
      else Ok([".", ".."] + fs.files[k].content.names)
  }

  // ---------------------------------------------------------------------
  // Creating and removing names

  /** Why k cannot be created in its parent directory, or NoError. */
  function ParentErr(fs: Fs, k: string): Errno {
    match ParentOf(k)
    case None => NoError
    case Some(q) =>
      if q !in fs.files then ENOENT
      else if !fs.files[q].content.Entries? then ENOTDIR
      else NoError
  }

  function RemoveAll(names: seq<string>, x: string): (r: seq<string>)
    ensures x !in r
    ensures forall n :: n in r ==> n in names
  {
    if |names| == 0 then []
    else if names[0] == x then RemoveAll(names[1..], x)
    else [names[0]] + RemoveAll(names[1..], x)
  }

  /** Adds a node at key k and records its name in the parent directory. */
  function Insert(fs: Fs, k: string, n: Inode): (r: Fs)
    ensures r.files.Keys == fs.files.Keys + {k}
    ensures k in r.files && r.files[k] == n
    ensures r.fds == fs.fds && r.space == fs.space && r.dev == fs.dev
    ensures r.linkSupported == fs.linkSupported && r.denied == fs.denied
  {
    var files :=
      match ParentOf(k)
      case Some(q) =>
        if q in fs.files && q != k && fs.files[q].content.Entries? then
          fs.files[q := fs.files[q].(content := Entries(fs.files[q].content.names + [AfterLastSlash(k)]))]
        else fs.files
      case None => fs.files;
    fs.(files := files[k := n], nextIno := fs.nextIno + 1)
  }

  /** Removes key k and its name in the parent directory. */
  function Unlinked(fs: Fs, k: string): (r: Fs)
    ensures r.files.Keys == fs.files.Keys - {k}
    ensures r.fds == fs.fds && r.space == fs.space && r.dev == fs.dev && r.uid == fs.uid
    ensures r.linkSupported == fs.linkSupported && r.denied == fs.denied
  {
    var files :=
      match ParentOf(k)
      case Some(q) =>
        if q in fs.files && q != k && fs.files[q].content.Entries? then
          fs.files[q := fs.files[q].(content := Entries(RemoveAll(fs.files[q].content.names, AfterLastSlash(k))))]
        else fs.files
      case None => fs.files;
    fs.(files := files - {k})
  }

  function NewNode(fs: Fs, mode: bv32, rdev: int, c: Content): Inode {
    Inode(mode, fs.uid, fs.gid, fs.nextIno, 1, rdev, 0, 0, 0, c)
  }

  /** mkdir(2): the permission bits of mode, on a new empty directory. */
  function MkdirF(fs: Fs, p: string, mode: bv32): (r: Result<Fs>)
    ensures r.Ok? <==> Norm(p) !in fs.files && ParentErr(fs, Norm(p)) == NoError
    ensures r.Ok? ==> r.value.files.Keys == fs.files.Keys + {Norm(p)}
    ensures r.Ok? ==> IsDir(r.value.files[Norm(p)].mode)
    ensures r.Fail? && Norm(p) in fs.files ==> r.err == EEXIST
  {
    var k := Norm(p);
    if k in fs.files then Fail(EEXIST)
    else if ParentErr(fs, k) != NoError then Fail(ParentErr(fs, k))
    else Ok(Insert(fs, k, NewNode(fs, S_IFDIR | (mode & ALLPERMS), 0, Entries([]))))
  }

  /** rmdir(2): only an empty directory goes. */
  function RmdirF(fs: Fs, p: string): (r: Result<Fs>)
    ensures r.Ok? <==> Norm(p) in fs.files && fs.files[Norm(p)].content == Entries([])
    ensures r.Ok? ==> r.value.files.Keys == fs.files.Keys - {Norm(p)}
  {
    var k := Norm(p);
    if k !in fs.files then Fail(ENOENT)
    else if !fs.files[k].content.Entries? then Fail(ENOTDIR)
    else if fs.files[k].content.names != [] then Fail(ENOTEMPTY)
    else Ok(Unlinked(fs, k))
  }

  /** unlink(2): any name but a directory's. */
  function UnlinkF(fs: Fs, p: string): (r: Result<Fs>)
    ensures r.Ok? <==> Norm(p) in fs.files && !fs.files[Norm(p)].content.Entries?
    ensures r.Ok? ==> r.value.files.Keys == fs.files.Keys - {Norm(p)}
  {
    var k := Norm(p);
    if k !in fs.files then Fail(ENOENT)
    else if fs.files[k].content.Entries? then Fail(EPERM)
    else Ok(Unlinked(fs, k))
  }

  /** remove(3): rmdir for a directory, unlink otherwise. */
  function RemoveF(fs: Fs, p: string): Result<Fs> {
    var k := Norm(p);
    if k in fs.files && fs.files[k].content.Entries? then RmdirF(fs, p) else UnlinkF(fs, p)
  }

  /**
   * link(2): b becomes a further name of a's inode. The new name gets a copy
   * of the record; later writes through one name are not seen through the
   * other.
   */
  function LinkF(fs: Fs, a: string, b: string): (r: Result<Fs>)
    ensures r.Fail? && r.err == EOPNOTSUPP ==> !fs.linkSupported
    ensures r.Ok? ==> Norm(b) in r.value.files && r.value.files.Keys == fs.files.Keys + {Norm(b)}
  {
    var ka := Norm(a);
    var kb := Norm(b);
    if ka !in fs.files then Fail(ENOENT)
    else if fs.files[ka].content.Entries? then Fail(EPERM)
    else if kb in fs.files then Fail(EEXIST)
    else if ParentErr(fs, kb) != NoError then Fail(ParentErr(fs, kb))
    else if !fs.linkSupported then Fail(EOPNOTSUPP)
    else
      var n := fs.files[ka].(nlink := fs.files[ka].nlink + 1);
      var fs1 := Insert(fs, kb, n);
      Ok(fs1.(files := fs1.files[ka := n], nextIno := fs.nextIno))
  }

  /** symlink(2): a new link at p holding exactly target. */
  function SymlinkF(fs: Fs, target: string, p: string): (r: Result<Fs>)
    ensures r.Ok? ==> Norm(p) in r.value.files && r.value.files[Norm(p)].content == Target(target)
    ensures r.Ok? ==> IsLnk(r.value.files[Norm(p)].mode)
    ensures r.Ok? <==> Norm(p) !in fs.files && ParentErr(fs, Norm(p)) == NoError
  {
    var k := Norm(p);
    if k in fs.files then Fail(EEXIST)
    else if ParentErr(fs, k) != NoError then Fail(ParentErr(fs, k))
    else Ok(Insert(fs, k, NewNode(fs, S_IFLNK | 0x1FF, 0, Target(target))))
  }

  /** readlink(2) into a buffer of size bytes; there is no terminating NUL. */
  function ReadlinkF(fs: Fs, p: string, size: nat): (r: Result<string>)
    ensures r.Ok? ==> Norm(p) in fs.files && fs.files[Norm(p)].content.Target?
    ensures r.Ok? ==> r.value == (var t := fs.files[Norm(p)].content.link; if |t| <= size then t else t[..size])
  {
    var k := Norm(p);
    if k !in fs.files then Fail(ENOENT)
    else if !IsLnk(fs.files[k].mode) || !fs.files[k].content.Target? then Fail(EINVAL)
    else
      var t := fs.files[k].content.link;
      Ok(if |t| <= size then t else t[..size])
  }

  /** mkfifo(2). */
  function MkfifoF(fs: Fs, p: string, mode: bv32): (r: Result<Fs>)
    ensures r.Ok? ==> Norm(p) in r.value.files && IsFifo(r.value.files[Norm(p)].mode)
    ensures r.Ok? ==> r.value.files[Norm(p)].mode & ALLPERMS == mode & ALLPERMS
    ensures r.Ok? <==> Norm(p) !in fs.files && ParentErr(fs, Norm(p)) == NoError
  {
    var k := Norm(p);
    if k in fs.files then Fail(EEXIST)
    else if ParentErr(fs, k) != NoError then Fail(ParentErr(fs, k))
    else Ok(Insert(fs, k, NewNode(fs, S_IFIFO | (mode & ALLPERMS), 0, NoData)))
  }

  /** mknod(2): character and block devices only, and only for the superuser. */
  function MknodF(fs: Fs, p: string, mode: bv32, rdev: int): (r: Result<Fs>)
    ensures r.Ok? ==> Norm(p) in r.value.files
    ensures r.Ok? ==> r.value.files[Norm(p)].mode == mode & (S_IFMT | ALLPERMS)
    ensures r.Ok? ==> r.value.files[Norm(p)].rdev == rdev
    ensures r.Ok? <==> Norm(p) !in fs.files && ParentErr(fs, Norm(p)) == NoError && fs.uid == 0 && (IsChr(mode) || IsBlk(mode))
  {
    var k := Norm(p);
    if k in fs.files then Fail(EEXIST)
    else if ParentErr(fs, k) != NoError then Fail(ParentErr(fs, k))
    else if fs.uid != 0 then Fail(EPERM)
    else if !IsChr(mode) && !IsBlk(mode) then Fail(EINVAL)
    else Ok(Insert(fs, k, NewNode(fs, mode & (S_IFMT | ALLPERMS), rdev, NoData)))
  }

  /** The key an attribute call acts on: the link itself, or what it leads to. */
  function Target_(fs: Fs, p: string, follow: bool): Result<string> {
    if follow then Resolve(fs, p, MAXSYMLINKS)
    else if Norm(p) in fs.files then Ok(Norm(p)) else Fail(ENOENT)
  }

  /** chown(2) (follow) and lchown(2). */
  function ChownF(fs: Fs, p: string, uid: int, gid: int, follow: bool): (r: Result<Fs>)
    ensures r.Ok? ==> r.value.files.Keys == fs.files.Keys
  {
    match Target_(fs, p, follow)
    case Fail(e) => Fail(e)
    case Ok(k) =>
      if !fs.chownAllowed then Fail(EPERM)
      else Ok(fs.(files := fs.files[k := fs.files[k].(uid := uid, gid := gid)]))
  }

  /** The mode a chmod to perms leaves on a node of mode m: m's type, perms' permission bits. */
  function WithPerms(m: bv32, perms: bv32): bv32 {
    (m & S_IFMT) | (perms & ALLPERMS)
  }

  /** chmod(2) (follow) and lchmod(2): sets the permission bits. */
  function ChmodF(fs: Fs, p: string, mode: bv32, follow: bool): (r: Result<Fs>)
    ensures r.Ok? ==> r.value.files.Keys == fs.files.Keys
  {
    match Target_(fs, p, follow)
    case Fail(e) => Fail(e)
    case Ok(k) =>
      var n := fs.files[k];
      Ok(fs.(files := fs.files[k := n.(mode := WithPerms(n.mode, mode))]))
  }

  /** chflags(2) (follow) and lchflags(2); a file system without flags refuses. */
  function ChflagsF(fs: Fs, p: string, flags: int, follow: bool): (r: Result<Fs>)
    ensures r.Ok? ==> r.value.files.Keys == fs.files.Keys
  {
    match Target_(fs, p, follow)
    case Fail(e) => Fail(e)
    case Ok(k) =>
      if !fs.chownAllowed then Fail(EOPNOTSUPP)
      else Ok(fs.(files := fs.files[k := fs.files[k].(flags := flags)]))
  }

  /** utimes(2) (follow) and lutimes(2). */
  function UtimesF(fs: Fs, p: string, atime: int, mtime: int, follow: bool): (r: Result<Fs>)
    ensures r.Ok? ==> r.value.files.Keys == fs.files.Keys
  {
    match Target_(fs, p, follow)
    case Fail(e) => Fail(e)
    case Ok(k) => Ok(fs.(files := fs.files[k := fs.files[k].(atime := atime, mtime := mtime)]))
  }

  // ---------------------------------------------------------------------
  // Descriptors

  function Zeros(n: nat): (r: seq<bv8>)
    ensures |r| == n
  {
    if n == 0 then [] else [0] + Zeros(n - 1)
  }

  /** The file bytes d after writing w at offset off. */
  function Overwrite(d: seq<bv8>, off: nat, w: seq<bv8>): (r: seq<bv8>)
    ensures |r| == if off + |w| <= |d| then |d| else off + |w|
    ensures off <= |d| ==> r[..off] == d[..off]
    ensures r[off..off + |w|] == w
  {
    var base := if off <= |d| then d else d + Zeros(off - |d|);
    base[..off] + w + (if off + |w| <= |base| then base[off + |w|..] else [])
  }

  /** open(2): the access mode is flags & O_ACCMODE; O_ACCMODE itself is refused. */
  function OpenF(fs: Fs, p: string, flags: bv32, mode: bv32): (r: Result<(Fs, int)>)
    ensures r.Ok? ==> r.value.1 == fs.nextFd && r.value.0.nextFd == fs.nextFd + 1
    ensures r.Ok? ==> fs.nextFd in r.value.0.fds && r.value.0.fds == fs.fds[fs.nextFd := r.value.0.fds[fs.nextFd]]
    ensures r.Ok? ==> r.value.0.space == fs.space
  {
    var acc := flags & O_ACCMODE;
    var k := Norm(p);
    if acc == O_ACCMODE then Fail(EINVAL)
    else if k in fs.files then
      if flags & O_CREAT != 0 && flags & O_EXCL != 0 then Fail(EEXIST)
      else if IsLnk(fs.files[k].mode) && flags & O_NOFOLLOW != 0 then Fail(ELOOP)
      else match Resolve(fs, p, MAXSYMLINKS)
        case Fail(e) => Fail(e)
        case Ok(t) => OpenNode(fs, t, acc, flags)
    else if flags & O_CREAT == 0 then Fail(ENOENT)
    else if ParentErr(fs, k) != NoError then Fail(ParentErr(fs, k))
    else OpenNode(Insert(fs, k, NewNode(fs, S_IFREG | (mode & ALLPERMS), 0, Data([]))), k, acc, flags)
  }

  function OpenNode(fs: Fs, t: string, acc: bv32, flags: bv32): (r: Result<(Fs, int)>)
    requires t in fs.files
    ensures r.Ok? ==> r.value.1 == fs.nextFd && r.value.0.nextFd == fs.nextFd + 1
    ensures r.Ok? ==> fs.nextFd in r.value.0.fds && r.value.0.fds == fs.fds[fs.nextFd := r.value.0.fds[fs.nextFd]]
    ensures r.Ok? ==> r.value.0.space == fs.space
    ensures r.Ok? ==> r.value.0.fds[fs.nextFd].path == t && r.value.0.fds[fs.nextFd].offset == 0
  {
    var n := fs.files[t];
    if t in fs.denied then Fail(EACCES)
    else if n.content.Entries? && acc != O_RDONLY then Fail(EISDIR)
    else
      var n' := if flags & O_TRUNC != 0 && acc != O_RDONLY && n.content.Data? then n.(content := Data([])) else n;
      var fd := fs.nextFd;
      var of := OpenFile(t, 0, acc != O_WRONLY, acc != O_RDONLY, flags & O_APPEND != 0);
      Ok((fs.(files := fs.files[t := n'], fds := fs.fds[fd := of], nextFd := fd + 1), fd))
  }

  /** read(2) of at most n bytes. */
  function ReadF(fs: Fs, fd: int, n: nat): (r: Result<(Fs, seq<bv8>)>)
    ensures r.Ok? ==> |r.value.1| <= n
    ensures r.Ok? ==> r.value.0.files == fs.files && r.value.0.space == fs.space
    ensures r.Ok? ==> r.value.0.fds.Keys == fs.fds.Keys && r.value.0.nextFd == fs.nextFd
  {
    if fd < 0 || fd !in fs.fds || !fs.fds[fd].readable then Fail(EBADF)
    else
      var of := fs.fds[fd];
      if of.path !in fs.files then Ok((fs, []))
      else match fs.files[of.path].content
        case Entries(_) => Fail(EISDIR)
        case Data(b) =>
          var lo := if of.offset <= |b| then of.offset else |b|;
          var hi := if lo + n <= |b| then lo + n else |b|;
          Ok((fs.(fds := fs.fds[fd := of.(offset := hi)]), b[lo..hi]))
        case _ => Ok((fs, []))
  }

  /** The bytes still to be read through fd: none unless it is an open regular file. */
  function Unread(fs: Fs, fd: int): nat {
    if fd < 0 || fd !in fs.fds || fs.fds[fd].path !in fs.files || !fs.files[fs.fds[fd].path].content.Data? then 0
    else
      var b := fs.files[fs.fds[fd].path].content.bytes;
      if fs.fds[fd].offset <= |b| then |b| - fs.fds[fd].offset else 0
  }

  /** write(2): as many bytes as there is space for; none at all is ENOSPC. */
  function WriteF(fs: Fs, fd: int, w: seq<bv8>): (r: Result<(Fs, nat)>)
    ensures r.Ok? ==> r.value.1 <= |w|
    ensures r.Ok? ==> r.value.0.fds.Keys == fs.fds.Keys && r.value.0.nextFd == fs.nextFd
    ensures r.Ok? ==> r.value.0.files.Keys == fs.files.Keys
    ensures r.Fail? && r.err == ENOSPC ==> fs.space == 0 && |w| > 0
  {
    if fd < 0 || fd !in fs.fds || !fs.fds[fd].writable then Fail(EBADF)
    else
      var of := fs.fds[fd];
      if of.path !in fs.files || !fs.files[of.path].content.Data? then Fail(EINVAL)
      else
        var b := fs.files[of.path].content.bytes;
        var off := if of.append then |b| else of.offset;
        var n := if |w| <= fs.space then |w| else fs.space;
        if n == 0 && |w| > 0 then Fail(ENOSPC)
        else
          var node := fs.files[of.path].(content := Data(Overwrite(b, off, w[..n])));
          Ok((fs.(files := fs.files[of.path := node],
                  fds := fs.fds[fd := of.(offset := off + n)],
                  space := fs.space - n), n))
  }

  /** close(2). */
  function CloseF(fs: Fs, fd: int): (r: Result<Fs>)
    ensures r.Ok? ==> r.value.files == fs.files
  {
    if 0 <= fd && fd in fs.fds then Ok(fs.(fds := fs.fds - {fd})) else Fail(EBADF)
  }

  // ---------------------------------------------------------------------
  // The process: both domains and errno

  /** Which domain a call goes to: the host's own calls, or rump_sys_* into the image. */
  datatype Dom = Host | Image {
    function Other(): Dom { if this == Host then Image else Host }
  }

  /** Everything a utility's calls can change: both domains and errno. */
  datatype World = World(host: Fs, image: Fs, errno: Errno) {
    function In(d: Dom): Fs { if d == Host then host else image }

    function Set(d: Dom, fs: Fs): (r: World)
      ensures r.In(d) == fs && r.In(d.Other()) == In(d.Other()) && r.errno == errno
    {
      if d == Host then this.(host := fs) else this.(image := fs)
    }
  }

  /** A call on d that reports r: the new state or errno, and the C return value 0 or -1. */
  function Apply(w: World, d: Dom, r: Result<Fs>): (World, int) {
    if r.Ok? then (w.Set(d, r.value), 0) else (w.(errno := r.err), -1)
  }

  /** A call that only looks: a failure sets errno. */
  function Looked<T>(w: World, r: Result<T>): World {
    if r.Ok? then w else w.(errno := r.err)
  }

  /** open(2) on d: the new world and the descriptor, or -1. */
  function OpenW(w: World, d: Dom, p: string, flags: bv32, mode: bv32): (World, int) {
    var r := OpenF(w.In(d), p, flags, mode);
    var count: int := if r.Fail? then -1 else r.value.1;
    (if r.Fail? then w.(errno := r.err) else w.Set(d, r.value.0), count)
  }

  /** read(2) on d: the new world, the count or -1, and the bytes read. */
  function ReadW(w: World, d: Dom, fd: int, n: nat): (World, int, seq<bv8>) {
    var r := ReadF(w.In(d), fd, n);
    var count: int := if r.Fail? then -1 else |r.value.1|;
    if r.Fail? then (w.(errno := r.err), count, []) else (w.Set(d, r.value.0), count, r.value.1)
  }

  /** write(2) on d: the new world and the count or -1. */
  function WriteW(w: World, d: Dom, fd: int, buf: seq<bv8>): (World, int) {
    var r := WriteF(w.In(d), fd, buf);
    var count: int := if r.Fail? then -1 else r.value.1;
    (if r.Fail? then w.(errno := r.err) else w.Set(d, r.value.0), count)
  }

  /** close(2) on d; the result is the new world (every caller ignores the return value). */
  function CloseW(w: World, d: Dom, fd: int): World {
    Apply(w, d, CloseF(w.In(d), fd)).0
  }

  /** The process state; each method is one system call on one domain. */
  class System {
    var host: Fs
    var image: Fs
    var errno: Errno

    constructor(w: World)
      ensures Now() == w
    {
      host := w.host;
      image := w.image;
      errno := w.errno;
    }

    function Now(): World
      reads this
    {
      World(host, image, errno)
    }

    /** Installs the outcome r of a call that changes d. */
    method Commit(d: Dom, r: Result<Fs>) returns (rv: int)
      modifies this
      ensures (Now(), rv) == Apply(old(Now()), d, r)
    {
      if r.Ok? {
        if d == Host { host := r.value; } else { image := r.value; }
        rv := 0;
      } else {
        errno := r.err;
        rv := -1;
      }
    }

    method Close(d: Dom, fd: int)
      modifies this
      ensures Now() == CloseW(old(Now()), d, fd)
    {
      var r := CloseF(Now().In(d), fd);
      if r.Ok? {
        if d == Host { host := r.value; } else { image := r.value; }
      } else {
        errno := r.err;
      }
    }

    method Lstat(d: Dom, p: string) returns (r: Result<Stat>)
      modifies this
      ensures r == LstatF(old(Now()).In(d), p) && Now() == Looked(old(Now()), r)
    {
      r := LstatF(Now().In(d), p);
      if r.Fail? { errno := r.err; }
    }

    method Stat(d: Dom, p: string) returns (r: Result<Stat>)
      modifies this
      ensures r == StatF(old(Now()).In(d), p) && Now() == Looked(old(Now()), r)
    {
      r := StatF(Now().In(d), p);
      if r.Fail? { errno := r.err; }
    }

    method Readlink(d: Dom, p: string, size: nat) returns (r: Result<string>)
      modifies this
      ensures r == ReadlinkF(old(Now()).In(d), p, size) && Now() == Looked(old(Now()), r)
    {
      r := ReadlinkF(Now().In(d), p, size);
      if r.Fail? { errno := r.err; }
    }

    method Open(d: Dom, p: string, flags: bv32, mode: bv32) returns (fd: int)
      modifies this
      ensures (Now(), fd) == OpenW(old(Now()), d, p, flags, mode)
    {
      var r := OpenF(Now().In(d), p, flags, mode);
      if r.Ok? {
        if d == Host { host := r.value.0; } else { image := r.value.0; }
        fd := r.value.1;
      } else {
        errno := r.err;
        fd := -1;
      }
    }

    method Read(d: Dom, fd: int, n: nat) returns (rd: int, buf: seq<bv8>)
      modifies this
      ensures (Now(), rd, buf) == ReadW(old(Now()), d, fd, n)
    {
      var r := ReadF(Now().In(d), fd, n);
      if r.Ok? {
        if d == Host { host := r.value.0; } else { image := r.value.0; }
        rd, buf := |r.value.1|, r.value.1;
      } else {
        errno := r.err;
        rd, buf := -1, [];
      }
    }

    method Write(d: Dom, fd: int, buf: seq<bv8>) returns (wr: int)
      modifies this
      ensures (Now(), wr) == WriteW(old(Now()), d, fd, buf)
    {
      var r := WriteF(Now().In(d), fd, buf);
      if r.Ok? {
        if d == Host { host := r.value.0; } else { image := r.value.0; }
        wr := r.value.1;
      } else {
        errno := r.err;
        wr := -1;
      }
    }
  }
}

=== FILE: domain_props.dfy ===
// Facts about the system-call model that every copy loop of the utilities
// relies on: what writing bytes over a file does, what a read or a write
// through a descriptor on a regular file hands back and leaves behind, and
// what open(2) makes of a target.

module DomainProps {
  import opened Posix
  import opened Domain

  // ---------------------------------------------------------------------
  // Writing bytes over a file

  lemma {:induction false} ZerosAt(n: nat, i: nat)
    requires i < n
    ensures Zeros(n)[i] == 0
  {
    if i > 0 {
      ZerosAt(n - 1, i - 1);
    }
  }

  /** Each byte of Overwrite(d, off, w): w's inside the written range, d's below |d|, 0 in a hole. */
  lemma OverwriteAt(d: seq<bv8>, off: nat, w: seq<bv8>, i: nat)
    requires i < |Overwrite(d, off, w)|
    ensures Overwrite(d, off, w)[i] ==
      if off <= i < off + |w| then w[i - off] else if i < |d| then d[i] else 0
  {
    if !(off <= i < off + |w|) && i >= |d| {
      ZerosAt(off - |d|, i - |d|);
    }
  }

  /** Writing x at a and then y right after it is writing x + y at a. */
  lemma OverwriteConcat(d: seq<bv8>, a: nat, x: seq<bv8>, y: seq<bv8>)
    ensures Overwrite(Overwrite(d, a, x), a + |x|, y) == Overwrite(d, a, x + y)
  {
    var d1 := Overwrite(d, a, x);
    var l := Overwrite(d1, a + |x|, y);
    var r := Overwrite(d, a, x + y);
    assert |l| == |r|;
    forall i | 0 <= i < |l|
      ensures l[i] == r[i]
    {
      OverwriteAt(d1, a + |x|, y, i);
      OverwriteAt(d, a, x + y, i);
      if i < |d1| {
        OverwriteAt(d, a, x, i);
      }
    }
  }

  /** Writing bytes the file already holds changes nothing. */
  lemma OverwriteSame(d: seq<bv8>, a: nat, x: seq<bv8>)
    requires a + |x| <= |d| && d[a..a + |x|] == x
    ensures Overwrite(d, a, x) == d
  {
    var r := Overwrite(d, a, x);
    forall i | 0 <= i < |r|
      ensures r[i] == d[i]
    {
      OverwriteAt(d, a, x, i);
      if a <= i < a + |x| {
        assert d[a..a + |x|][i - a] == d[i];
      }
    }
  }

  /** Writing into an empty file from its start leaves exactly the bytes written. */
  lemma OverwriteEmpty(b: seq<bv8>)
    ensures Overwrite([], 0, b) == b
  {
  }

  /** Writing the first n bytes of rest and then the others right after them is writing rest. */
  lemma OverwriteRest(h: seq<bv8>, p: nat, rest: seq<bv8>, n: nat)
    requires n <= |rest|
    ensures Overwrite(Overwrite(h, p, rest[..n]), p + n, rest[n..]) == Overwrite(h, p, rest)
  {
    SplitAt(rest, n);
    OverwriteConcat(h, p, rest[..n], rest[n..]);
  }

  lemma SplitAt(s: seq<bv8>, n: nat)
    requires n <= |s|
    ensures s == s[..n] + s[n..]
  {
  }

  // ---------------------------------------------------------------------
  // Reading and writing through descriptors

  /** fd is open for reading on a regular file, at most at its end. */
  predicate Reader(fs: Fs, fd: int) {
    && 0 <= fd && fd in fs.fds && fs.fds[fd].readable
    && fs.fds[fd].path in fs.files && fs.files[fs.fds[fd].path].content.Data?
    && fs.fds[fd].offset <= |fs.files[fs.fds[fd].path].content.bytes|
  }

  /** fd is open for writing on a regular file. */
  predicate Writer(fs: Fs, fd: int) {
    && 0 <= fd && fd in fs.fds && fs.fds[fd].writable
    && fs.fds[fd].path in fs.files && fs.files[fs.fds[fd].path].content.Data?
  }

  /** The bytes a reader has yet to read. */
  function Rest(fs: Fs, fd: int): (r: seq<bv8>)
    requires Reader(fs, fd)
    ensures |r| == Unread(fs, fd)
  {
    fs.files[fs.fds[fd].path].content.bytes[fs.fds[fd].offset..]
  }

  /** The bytes a writer's file holds. */
  function Held(fs: Fs, fd: int): seq<bv8>
    requires Writer(fs, fd)
  {
    fs.files[fs.fds[fd].path].content.bytes
  }

  /** Where the next write through fd lands: the end of the file for O_APPEND. */
  function WritePos(fs: Fs, fd: int): nat
    requires Writer(fs, fd)
  {
    if fs.fds[fd].append then |Held(fs, fd)| else fs.fds[fd].offset
  }

  /** A read of n bytes from a reader: the next bytes, as many as there are up to n. */
  lemma ReadChunk(fs: Fs, fd: int, n: nat)
    requires Reader(fs, fd)
    ensures ReadF(fs, fd, n).Ok?
    ensures var (fs1, buf) := ReadF(fs, fd, n).value;
      && buf == Rest(fs, fd)[..|buf|]
      && |buf| == (if |Rest(fs, fd)| <= n then |Rest(fs, fd)| else n)
      && Reader(fs1, fd) && Rest(fs1, fd) == Rest(fs, fd)[|buf|..]
      && fs1.files == fs.files
      && fs1.fds == fs.fds[fd := fs.fds[fd].(offset := fs.fds[fd].offset + |buf|)]
  {
    var of := fs.fds[fd];
    var b := fs.files[of.path].content.bytes;
    var hi := if of.offset + n <= |b| then of.offset + n else |b|;
    assert ReadF(fs, fd, n) == Ok((fs.(fds := fs.fds[fd := of.(offset := hi)]), b[of.offset..hi]));
    assert b[of.offset..hi] == b[of.offset..][..hi - of.offset];
    assert b[of.offset..][hi - of.offset..] == b[hi..];
  }

  /** A write to a writer: complete exactly when there is space, and then the bytes land at the write position. */
  lemma WriteChunk(fs: Fs, fd: int, buf: seq<bv8>)
    requires Writer(fs, fd)
    ensures var r := WriteF(fs, fd, buf);
      && ((r.Ok? && r.value.1 == |buf|) <==> |buf| <= fs.space)
      && (r.Ok? && r.value.1 == |buf| ==>
            && Writer(r.value.0, fd)
            && Held(r.value.0, fd) == Overwrite(Held(fs, fd), WritePos(fs, fd), buf)
            && WritePos(r.value.0, fd) == WritePos(fs, fd) + |buf|
            && r.value.0.space == fs.space - |buf|
            && r.value.0.fds[fd].path == fs.fds[fd].path)
  {
    var ot := fs.fds[fd];
    var c := fs.files[ot.path].content.bytes;
    var pos := if ot.append then |c| else ot.offset;
    if |buf| <= fs.space {
      assert buf[..|buf|] == buf;
      var node := fs.files[ot.path].(content := Data(Overwrite(c, pos, buf)));
      var fs2 := fs.(files := fs.files[ot.path := node], fds := fs.fds[fd := ot.(offset := pos + |buf|)],
                     space := fs.space - |buf|);
      var count: nat := |buf|;
      assert WriteF(fs, fd, buf) == Ok((fs2, count));
    }
  }

  /**
   * The two ends of a copy loop: a reader and a writer, in different
   * domains or, within one domain, on two different files.
   */
  predicate CopyEnds(w: World, sd: Dom, fdfrom: int, dd: Dom, fdto: int) {
    && Reader(w.In(sd), fdfrom) && Writer(w.In(dd), fdto)
    && (sd != dd || (fdfrom != fdto && w.In(sd).fds[fdfrom].path != w.In(dd).fds[fdto].path))
  }

  /** Within one domain, a read through one descriptor leaves a writer on another file as it was. */
  lemma ReadSpares(w: World, d: Dom, fdfrom: int, fdto: int, n: nat)
    requires CopyEnds(w, d, fdfrom, d, fdto)
    ensures var w1 := ReadW(w, d, fdfrom, n).0;
      && Writer(w1.In(d), fdto) && w1.In(d).fds[fdto] == w.In(d).fds[fdto]
      && Held(w1.In(d), fdto) == Held(w.In(d), fdto) && w1.In(d).space == w.In(d).space
  {
    ReadChunk(w.In(d), fdfrom, n);
  }

  /** Within one domain, a complete write through fdto leaves a reader on another file as it was. */
  lemma WriteSpares(fs: Fs, fdfrom: int, fdto: int, buf: seq<bv8>)
    requires Reader(fs, fdfrom) && Writer(fs, fdto) && fdfrom != fdto && fs.fds[fdfrom].path != fs.fds[fdto].path
    requires WriteF(fs, fdto, buf).Ok? && WriteF(fs, fdto, buf).value.1 == |buf|
    ensures var fs2 := WriteF(fs, fdto, buf).value.0;
      Reader(fs2, fdfrom) && fs2.fds[fdfrom] == fs.fds[fdfrom] && Rest(fs2, fdfrom) == Rest(fs, fdfrom)
  {
    var fs2 := WriteF(fs, fdto, buf).value.0;
    var ot := fs.fds[fdto];
    var c := fs.files[ot.path].content.bytes;
    var pos := if ot.append then |c| else ot.offset;
    assert buf[..|buf|] == buf;
    var node := fs.files[ot.path].(content := Data(Overwrite(c, pos, buf)));
    assert fs2 == fs.(files := fs.files[ot.path := node], fds := fs.fds[fdto := ot.(offset := pos + |buf|)],
                      space := fs.space - |buf|);
  }

  /**
   * One round of a copy loop with chunks of n bytes: the read hands back the
   * next bytes, the write is complete exactly when there is space for them,
   * and then both ends are still ends, one chunk further on.
   */
  lemma CopyRound(w: World, sd: Dom, fdfrom: int, dd: Dom, fdto: int, n: nat)
    requires CopyEnds(w, sd, fdfrom, dd, fdto)
    ensures var (w1, rd, buf) := ReadW(w, sd, fdfrom, n);
      var (w2, wr) := WriteW(w1, dd, fdto, buf);
      && rd == |buf| && buf == Rest(w.In(sd), fdfrom)[..rd]
      && (rd == 0 <==> Rest(w.In(sd), fdfrom) == [] || n == 0)
      && (rd < n ==> rd == |Rest(w.In(sd), fdfrom)|)
      && (wr == rd <==> rd <= w.In(dd).space)
      && (wr == rd ==>
            && CopyEnds(w2, sd, fdfrom, dd, fdto)
            && Rest(w2.In(sd), fdfrom) == Rest(w.In(sd), fdfrom)[rd..]
            && Held(w2.In(dd), fdto) == Overwrite(Held(w.In(dd), fdto), WritePos(w.In(dd), fdto), buf)
            && WritePos(w2.In(dd), fdto) == WritePos(w.In(dd), fdto) + rd
            && w2.In(dd).space == w.In(dd).space - rd
            && w2.In(dd).fds[fdto].path == w.In(dd).fds[fdto].path)
  {
    ReadChunk(w.In(sd), fdfrom, n);
    var (w1, rd, buf) := ReadW(w, sd, fdfrom, n);
    if sd != dd {
      assert w1.In(dd) == w.In(dd);
    } else {
      ReadSpares(w, sd, fdfrom, fdto, n);
    }
    WriteChunk(w1.In(dd), fdto, buf);
    var (w2, wr) := WriteW(w1, dd, fdto, buf);
    if wr == rd {
      if sd != dd {
        assert w2.In(sd) == w1.In(sd);
      } else {
        WriteSpares(w1.In(sd), fdfrom, fdto, buf);
      }
    }
  }

  // ---------------------------------------------------------------------
  // Opening and closing

  /** open(2) with O_CREAT of a name that is not there yet: an empty regular file, open at 0. */
  lemma OpenCreates(fs: Fs, p: string, flags: bv32, mode: bv32)
    requires Norm(p) !in fs.files && ParentErr(fs, Norm(p)) == NoError && Norm(p) !in fs.denied
    requires flags & O_CREAT != 0 && flags & O_ACCMODE != O_ACCMODE
    ensures OpenF(fs, p, flags, mode).Ok?
    ensures var (fs1, fd) := OpenF(fs, p, flags, mode).value;
      && fd == fs.nextFd && fd in fs1.fds && fs1.space == fs.space
      && fs1.fds[fd] == OpenFile(Norm(p), 0, flags & O_ACCMODE != O_WRONLY, flags & O_ACCMODE != O_RDONLY,
                                 flags & O_APPEND != 0)
      && Norm(p) in fs1.files && fs1.files[Norm(p)].content == Data([])
  {
  }

  /** open(2) without O_CREAT of a name that leads to a regular file: open at 0, nothing else changes but the table. */
  lemma OpenExisting(fs: Fs, p: string, t: string, flags: bv32, mode: bv32)
    requires Resolve(fs, p, MAXSYMLINKS) == Ok(t) && t !in fs.denied && fs.files[t].content.Data?
    requires flags & O_CREAT == 0 && flags & O_NOFOLLOW == 0 && flags & O_ACCMODE == O_RDONLY
    ensures OpenF(fs, p, flags, mode).Ok?
    ensures var (fs1, fd) := OpenF(fs, p, flags, mode).value;
      && fd == fs.nextFd && fs1.files == fs.files && fs1.space == fs.space
      && fs1.fds == fs.fds[fd := OpenFile(t, 0, true, false, flags & O_APPEND != 0)]
  {
    assert Norm(p) in fs.files;
  }

  /** What an open(2) that succeeded hands back is writable exactly when the access mode is not O_RDONLY. */
  lemma OpenAccess(fs: Fs, p: string, flags: bv32, mode: bv32)
    requires OpenF(fs, p, flags, mode).Ok?
    ensures var (fs1, fd) := OpenF(fs, p, flags, mode).value;
      fd in fs1.fds && (fs1.fds[fd].writable <==> flags & O_ACCMODE != O_RDONLY)
  {
  }

  /** close(2) never changes the files of either domain. */
  lemma CloseKeepsFiles(w: World, d: Dom, fd: int)
    ensures CloseW(w, d, fd).host.files == w.host.files && CloseW(w, d, fd).image.files == w.image.files
  {
  }

  // ---------------------------------------------------------------------
  // Hard links

  /**
   * link(2) succeeds exactly when a names an existing non-directory, b is free
   * in a directory, and the file system supports links. Both names then hold
   * the same record, a's inode with one more link; every other name keeps its
   * record except b's parent directory, which gains b's name.
   */
  lemma LinkShares(fs: Fs, a: string, b: string)
    ensures LinkF(fs, a, b).Ok? <==>
      && Norm(a) in fs.files && !fs.files[Norm(a)].content.Entries?
      && Norm(b) !in fs.files && ParentErr(fs, Norm(b)) == NoError && fs.linkSupported
    ensures LinkF(fs, a, b).Ok? ==>
      var fs', n := LinkF(fs, a, b).value, fs.files[Norm(a)];
      && Norm(a) in fs'.files
      && fs'.files[Norm(a)] == fs'.files[Norm(b)] == n.(nlink := n.nlink + 1)
      && (forall k :: k in fs.files && k != Norm(a) && Some(k) != ParentOf(Norm(b)) ==>
            k in fs'.files && fs'.files[k] == fs.files[k])
  {
  }

  // ---------------------------------------------------------------------
  // Targets of a write-only open

  /**
   * Where a write-only open of to without O_TRUNC lands: a name that is not
   * there yet and may be created (u is to itself, holding nothing), or a name
   * that leads to a regular file u that may be opened, holding h.
   */
  predicate TargetSpot(fs: Fs, to: string, u: string, h: seq<bv8>) {
    || (&& Norm(to) !in fs.files && ParentErr(fs, Norm(to)) == NoError && Norm(to) !in fs.denied
        && u == Norm(to) && h == [])
    || (&& Resolve(fs, to, MAXSYMLINKS) == Ok(u) && u !in fs.denied && fs.files[u].content == Data(h))
  }

  /** Lookups read only the files. */
  lemma {:induction false} ResolveReadsFiles(fs: Fs, fs': Fs, p: string, fuel: nat)
    requires fs.files == fs'.files
    ensures Resolve(fs, p, fuel) == Resolve(fs', p, fuel)
    decreases fuel
  {
    var k := Norm(p);
    if k in fs.files && IsLnk(fs.files[k].mode) && fs.files[k].content.Target? && fuel > 0 {
      ResolveReadsFiles(fs, fs', LinkDest(k, fs.files[k].content.link), fuel - 1);
    }
  }

  /** fs' keeps every name of fs, with its type and, for a symbolic link, its target. */
  predicate KeepsNames(fs: Fs, fs': Fs) {
    forall k :: k in fs.files ==>
      && k in fs'.files && fs'.files[k].mode == fs.files[k].mode
      && (fs.files[k].content.Target? ==> fs'.files[k].content == fs.files[k].content)
  }

  /** A lookup that succeeds still succeeds, at the same key, once names are only added. */
  lemma {:induction false} ResolveKept(fs: Fs, fs': Fs, p: string, fuel: nat)
    requires KeepsNames(fs, fs') && Resolve(fs, p, fuel).Ok?
    ensures Resolve(fs', p, fuel) == Resolve(fs, p, fuel)
    decreases fuel
  {
    var k := Norm(p);
    if IsLnk(fs.files[k].mode) {
      ResolveKept(fs, fs', LinkDest(k, fs.files[k].content.link), fuel - 1);
    }
  }

  /** A target spot stays one while the files and the denied paths stay. */
  lemma SpotKept(fs: Fs, fs': Fs, to: string, u: string, h: seq<bv8>)
    requires TargetSpot(fs, to, u, h) && fs.files == fs'.files && fs.denied == fs'.denied
    ensures TargetSpot(fs', to, u, h)
  {
    ResolveReadsFiles(fs, fs', to, MAXSYMLINKS);
  }

  /**
   * open(2) for writing with O_CREAT at a target spot: a writer at 0 on u,
   * which holds what it held, or nothing under O_TRUNC; every name stays
   * with its type.
   */
  lemma TargetOpens(fs: Fs, to: string, flags: bv32, mode: bv32, u: string, h: seq<bv8>)
    requires TargetSpot(fs, to, u, h)
    requires (flags & O_ACCMODE == O_WRONLY || flags & O_ACCMODE == O_RDWR) && flags & O_CREAT != 0
    requires flags & O_EXCL == 0 || Norm(to) !in fs.files
    requires flags & O_NOFOLLOW == 0 || Norm(to) !in fs.files || !IsLnk(fs.files[Norm(to)].mode)
    ensures OpenF(fs, to, flags, mode).Ok?
    ensures var (fs1, fd) := OpenF(fs, to, flags, mode).value;
      && fd == fs.nextFd && fs1.nextFd == fd + 1 && fs1.space == fs.space
      && fs1.fds == fs.fds[fd := OpenFile(u, 0, flags & O_ACCMODE == O_RDWR, true, flags & O_APPEND != 0)]
      && u in fs1.files && fs1.files[u].content == Data(if flags & O_TRUNC != 0 then [] else h)
      && KeepsNames(fs, fs1) && fs1.denied == fs.denied
  {
    if Norm(to) !in fs.files {
      TargetCreated(fs, to, flags, mode);
    } else {
      TargetReopened(fs, to, flags, mode, u, h);
    }
  }

  /** TargetOpens for a name that is not there yet. */
  lemma TargetCreated(fs: Fs, to: string, flags: bv32, mode: bv32)
    requires Norm(to) !in fs.files && ParentErr(fs, Norm(to)) == NoError && Norm(to) !in fs.denied
    requires (flags & O_ACCMODE == O_WRONLY || flags & O_ACCMODE == O_RDWR) && flags & O_CREAT != 0
    ensures OpenF(fs, to, flags, mode).Ok?
    ensures var (fs1, fd) := OpenF(fs, to, flags, mode).value;
      && fs1.fds == fs.fds[fd := OpenFile(Norm(to), 0, flags & O_ACCMODE == O_RDWR, true, flags & O_APPEND != 0)]
      && Norm(to) in fs1.files && fs1.files[Norm(to)].content == Data([])
      && KeepsNames(fs, fs1) && fs1.denied == fs.denied
  {
    var fs0 := Insert(fs, Norm(to), NewNode(fs, S_IFREG | (mode & ALLPERMS), 0, Data([])));
    assert KeepsNames(fs, fs0);
  }

  /** TargetOpens for a name that leads to a regular file u holding h. */
  lemma TargetReopened(fs: Fs, to: string, flags: bv32, mode: bv32, u: string, h: seq<bv8>)
    requires Resolve(fs, to, MAXSYMLINKS) == Ok(u) && u !in fs.denied && fs.files[u].content == Data(h)
    requires (flags & O_ACCMODE == O_WRONLY || flags & O_ACCMODE == O_RDWR)
    requires flags & O_CREAT == 0 || flags & O_EXCL == 0
    requires flags & O_NOFOLLOW == 0 || !IsLnk(fs.files[Norm(to)].mode)
    ensures OpenF(fs, to, flags, mode).Ok?
    ensures var (fs1, fd) := OpenF(fs, to, flags, mode).value;
      && fs1.fds == fs.fds[fd := OpenFile(u, 0, flags & O_ACCMODE == O_RDWR, true, flags & O_APPEND != 0)]
      && u in fs1.files && fs1.files[u].content == Data(if flags & O_TRUNC != 0 then [] else h)
      && KeepsNames(fs, fs1) && fs1.denied == fs.denied
  {
    assert Norm(to) in fs.files;
    if flags & O_TRUNC == 0 {
      assert fs.files[u := fs.files[u]] == fs.files;
    }
  }

  /** That open leaves a regular file t other than u as it was. */
  lemma TargetSpares(fs: Fs, to: string, flags: bv32, mode: bv32, u: string, h: seq<bv8>, t: string)
    requires TargetSpot(fs, to, u, h) && OpenF(fs, to, flags, mode).Ok?
    requires t in fs.files && fs.files[t].content.Data? && t != u
    ensures t in OpenF(fs, to, flags, mode).value.0.files && OpenF(fs, to, flags, mode).value.0.files[t] == fs.files[t]
  {
    if Norm(to) !in fs.files {
      var fs0 := Insert(fs, Norm(to), NewNode(fs, S_IFREG | (mode & ALLPERMS), 0, Data([])));
      assert fs0.files[t] == fs.files[t];
    }
  }

  /** An open of a regular source for reading after a writer was opened: a reader on the source, next to the writer. */
  lemma SourceOpens(w: World, d: Dom, from: string, mode: bv32, t: string, b: seq<bv8>, fdto: int, u: string)
    requires Resolve(w.In(d), from, MAXSYMLINKS) == Ok(t) && t !in w.In(d).denied && w.In(d).files[t].content == Data(b)
    requires fdto in w.In(d).fds && fdto < w.In(d).nextFd && Writer(w.In(d), fdto)
    requires w.In(d).fds[fdto].path == u && u != t
    ensures var (w1, fd) := OpenW(w, d, from, O_RDONLY, mode);
      && fd == w.In(d).nextFd && w1.In(d).files == w.In(d).files && w1.In(d).space == w.In(d).space
      && CopyEnds(w1, d, fd, d, fdto) && Rest(w1.In(d), fd) == b
      && w1.In(d).fds[fdto] == w.In(d).fds[fdto]
  {
    assert O_RDONLY & O_CREAT == 0 && O_RDONLY & O_NOFOLLOW == 0 && O_RDONLY & O_ACCMODE == O_RDONLY && O_RDONLY & O_APPEND == 0;
    OpenExisting(w.In(d), from, t, O_RDONLY, mode);
  }
}

=== FILE: ecp_args.dfy ===
// The options of get, put and fsu_emv (src/fsu_ecp.c): the program name picks
// a first direction, -g and -p each set their own bit and clear the other's, and
// the call is refused unless a direction ends up chosen.

module EcpArgs {
  import opened Posix

  // FSU_ECP_NO_COPY_LINK (0x01), FSU_ECP_RECURSIVE (0x02), FSU_ECP_VERBOSE
  // (0x04), FSU_ECP_GET (0x08), FSU_ECP_PUT (0x10) and FSU_ECP_DELETE (0x20),
  // tested as literals.
  predicate NoCopyLink(f: bv32) { f & 0x01 != 0 }
  predicate Recursive(f: bv32) { f & 0x02 != 0 }
  predicate Verbose(f: bv32) { f & 0x04 != 0 }
  predicate Get(f: bv32) { f & 0x08 != 0 }
  predicate Put(f: bv32) { f & 0x10 != 0 }
  predicate Delete(f: bv32) { f & 0x20 != 0 }

  /** Flags that copy in exactly one direction, as option parsing leaves them. */
  predicate OneWay(f: bv32) { Get(f) != Put(f) }

  /** The option letters getopt accepts ("dgLpRv"). */
  predicate Known(c: char) {
    c == 'd' || c == 'g' || c == 'L' || c == 'p' || c == 'R' || c == 'v'
  }

  predicate GetName(progname: string) { progname == "get" || progname == "fsu_get" }
  predicate PutName(progname: string) { progname == "put" || progname == "fsu_put" }

  /** The last of -g and -p among opts, if either is there. */
  function LastWay(opts: seq<char>): (r: Option<char>)
    ensures r.Some? ==> r.value == 'g' || r.value == 'p'
    ensures r.None? <==> 'g' !in opts && 'p' !in opts
  {
    if |opts| == 0 then None
    else if opts[|opts| - 1] == 'g' || opts[|opts| - 1] == 'p' then Some(opts[|opts| - 1])
    else
      assert opts == opts[..|opts| - 1] + [opts[|opts| - 1]];
      LastWay(opts[..|opts| - 1])
  }

  /** GET ends up set: -g came last, or neither was given and the name is get. */
  predicate GetChosen(progname: string, opts: seq<char>) {
    LastWay(opts) == Some('g') || (LastWay(opts).None? && GetName(progname))
  }

  /** PUT ends up set: -p came last, or neither was given and the name is put. */
  predicate PutChosen(progname: string, opts: seq<char>) {
    LastWay(opts) == Some('p') || (LastWay(opts).None? && PutName(progname))
  }

  /** What the flags say after the name and the options opts. */
  predicate FlagsAfter(f: bv32, progname: string, opts: seq<char>) {
    && f & 0xFFFF_FFC0 == 0
    && (Get(f) <==> GetChosen(progname, opts))
    && (Put(f) <==> PutChosen(progname, opts))
    && (Delete(f) <==> progname == "fsu_emv" || 'd' in opts)
    && (Recursive(f) <==> 'R' in opts)
    && (NoCopyLink(f) <==> 'L' in opts)
    && (Verbose(f) <==> 'v' in opts)
  }

  /** The flags the program name alone sets. */
  function NameFlags(progname: string): bv32 {
    if GetName(progname) then 0x08
    else if PutName(progname) then 0x10
    else if progname == "fsu_emv" then 0x20
    else 0
  }

  /** What one known option letter does to the flags. */
  function OptionFlags(f: bv32, c: char): bv32 {
    if c == 'd' then f | 0x20
    else if c == 'g' then (f | 0x08) & !0x10
    else if c == 'L' then f | 0x01
    else if c == 'p' then (f | 0x10) & !0x08
    else if c == 'R' then f | 0x02
    else if c == 'v' then f | 0x04
    else f
  }

  /** The flags after the name and then each of opts in turn. */
  function FlagsOf(progname: string, opts: seq<char>): bv32 {
    if |opts| == 0 then NameFlags(progname)
    else OptionFlags(FlagsOf(progname, opts[..|opts| - 1]), opts[|opts| - 1])
  }

  /** An option letter other than -g and -p leaves the last direction alone. */
  lemma LastWayOther(opts: seq<char>, c: char)
    requires c != 'g' && c != 'p'
    ensures LastWay(opts + [c]) == LastWay(opts)
  {
    assert (opts + [c])[..|opts|] == opts;
  }

  /** One option letter keeps FlagsAfter. */
  lemma OptionStep(f: bv32, progname: string, opts: seq<char>, c: char)
    requires FlagsAfter(f, progname, opts) && Known(c)
    ensures FlagsAfter(OptionFlags(f, c), progname, opts + [c])
  {
    var f' := OptionFlags(f, c);
    assert (opts + [c])[..|opts|] == opts;
    if c == 'g' {
      assert f' & 0xFFFF_FFC0 == 0 && Get(f') && !Put(f') && (Delete(f') == Delete(f));
      assert (Recursive(f') == Recursive(f)) && (NoCopyLink(f') == NoCopyLink(f)) && (Verbose(f') == Verbose(f));
    } else if c == 'p' {
      assert f' & 0xFFFF_FFC0 == 0 && !Get(f') && Put(f') && (Delete(f') == Delete(f));
      assert (Recursive(f') == Recursive(f)) && (NoCopyLink(f') == NoCopyLink(f)) && (Verbose(f') == Verbose(f));
    } else {
      LastWayOther(opts, c);
      assert f' & 0xFFFF_FFC0 == 0 && (Get(f') == Get(f)) && (Put(f') == Put(f));
      assert (Delete(f') <==> Delete(f) || c == 'd') && (Recursive(f') <==> Recursive(f) || c == 'R');
      assert (NoCopyLink(f') <==> NoCopyLink(f) || c == 'L') && (Verbose(f') <==> Verbose(f) || c == 'v');
    }
  }

  /** The flags after known options say what each letter asked for. */
  lemma {:induction false} FlagsOfMeaning(progname: string, opts: seq<char>)
    requires forall i :: 0 <= i < |opts| ==> Known(opts[i])
    ensures FlagsAfter(FlagsOf(progname, opts), progname, opts)
  {
    if |opts| > 0 {
      var init := opts[..|opts| - 1];
      FlagsOfMeaning(progname, init);
      OptionStep(FlagsOf(progname, init), progname, init, opts[|opts| - 1]);
      assert init + [opts[|opts| - 1]] == opts;
    }
  }

  /** What fsu_ecp_parse_arg returns for the name and the option letters: None stands for -1. */
  function ParsedFlags(progname: string, opts: seq<char>): (r: Option<bv32>)
    ensures r.Some? ==> OneWay(r.value) && FlagsAfter(r.value, progname, opts)
    ensures r.None? <==>
      (exists i :: 0 <= i < |opts| && !Known(opts[i])) || (LastWay(opts).None? && !GetName(progname) && !PutName(progname))
  {
    if exists i :: 0 <= i < |opts| && !Known(opts[i]) then None
    else
      FlagsOfMeaning(progname, opts);
      var f := FlagsOf(progname, opts);
      if f & (0x08 | 0x10) == 0 then None else Some(f)
  }

  /** The switch on one letter getopt returned: the new flags, or None for -1. */
  method ApplyOption(flags: bv32, c: char) returns (r: Option<bv32>)
    ensures r.None? <==> !Known(c)
    ensures r.Some? ==> r.value == OptionFlags(flags, c)
  {
    var f := flags;
    if c == 'd' {
      f := f | 0x20;
    } else if c == 'g' {
      f := f | 0x08;
      f := f & !0x10;
    } else if c == 'L' {
      f := f | 0x01;
    } else if c == 'p' {
      f := f | 0x10;
      f := f & !0x08;
    } else if c == 'R' {
      f := f | 0x02;
    } else if c == 'v' {
      f := f | 0x04;
    } else {
      return None;
    }
    r := Some(f);
  }

  /**
   * fsu_ecp_parse_arg, over the letters getopt hands back in order (an
   * unknown option comes back as itself or as '?'). None stands for -1: an
   * unknown letter, or no direction chosen. Otherwise exactly one of GET and
   * PUT is set, the one the last -g/-p chose, else the one the name chose.
   */
  method ParseArg(progname: string, opts: seq<char>) returns (r: Option<bv32>)
    ensures r.None? <==>
      (exists i :: 0 <= i < |opts| && !Known(opts[i])) || (LastWay(opts).None? && !GetName(progname) && !PutName(progname))
    ensures r.Some? ==> FlagsAfter(r.value, progname, opts) && OneWay(r.value)
    ensures r == ParsedFlags(progname, opts)
  {
    var flags: bv32 := 0;
    if GetName(progname) {
      flags := flags | 0x08;
    } else if PutName(progname) {
      flags := flags | 0x10;
    } else if progname == "fsu_emv" {
      flags := flags | 0x20;
    }
    var i := 0;
    while i < |opts|
      invariant 0 <= i <= |opts|
      invariant forall j :: 0 <= j < i ==> Known(opts[j])
      invariant flags == FlagsOf(progname, opts[..i])
    {
      assert opts[..i + 1][..i] == opts[..i];
      var next := ApplyOption(flags, opts[i]);
      if next.None? {
        return None;
      }
      flags := next.value;
      i := i + 1;
    }
    assert opts[..i] == opts;
    FlagsOfMeaning(progname, opts);
    if flags & (0x08 | 0x10) == 0 {
      return None;
    }
    r := Some(flags);
  }
}

=== FILE: ecp_copy.dfy ===
// The per-file copy primitives of src/fsu_ecp.c. Each takes a source path in
// one domain and a target path in the other (or, for copy_filein and
// copy_fileout, both in one domain). Each is a method on the System, stated
// as equal to a function of the world it starts from; the meaning of those
// functions is proved in ecp_copy_props.dfy.

module EcpCopy {
  import opened Posix
  import opened Domain
  import opened EcpArgs

  /** BUFSIZE: the chunk every copy loop reads and writes. */
  const BUFSIZE: nat := 8192

  /** Where a copy's source is looked up: the host for put, the image otherwise. */
  function FromDom(flags: bv32): Dom { if Put(flags) then Host else Image }

  /** Where a copy's target is made: the host for get, the image otherwise. */
  function ToDom(flags: bv32): Dom { if Get(flags) then Host else Image }

  // ---------------------------------------------------------------------
  // The read/write loop

  /**
   * Writing through fdto cannot feed what is read through fdfrom: they are in
   * different domains, or on different files, or the writer trails the reader
   * on the same file.
   */
  predicate Apart(w: World, sd: Dom, fdfrom: int, dd: Dom, fdto: int) {
    || sd != dd || fdfrom < 0 || fdto < 0
    || (&& fdfrom != fdto
        && (|| fdfrom !in w.In(sd).fds || fdto !in w.In(dd).fds
            || w.In(sd).fds[fdfrom].path != w.In(dd).fds[fdto].path
            || (!w.In(dd).fds[fdto].append && w.In(dd).fds[fdto].offset <= w.In(sd).fds[fdfrom].offset)))
  }

  /** A round that read and wrote a non-empty chunk leaves less to read, and the descriptors apart. */
  lemma PumpStep(w: World, sd: Dom, fdfrom: int, dd: Dom, fdto: int)
    requires Apart(w, sd, fdfrom, dd, fdto)
    requires ReadW(w, sd, fdfrom, BUFSIZE).1 > 0
    requires var (w1, rd, buf) := ReadW(w, sd, fdfrom, BUFSIZE); WriteW(w1, dd, fdto, buf).1 == rd
    ensures var (w1, rd, buf) := ReadW(w, sd, fdfrom, BUFSIZE);
      var w2 := WriteW(w1, dd, fdto, buf).0;
      Apart(w2, sd, fdfrom, dd, fdto) && Unread(w2.In(sd), fdfrom) < Unread(w.In(sd), fdfrom)
  {
    var (w1, rd, buf) := ReadW(w, sd, fdfrom, BUFSIZE);
    var fs := w.In(sd);
    var of := fs.fds[fdfrom];
    var b := fs.files[of.path].content.bytes;
    var fs1 := w1.In(sd);
    assert fs1.files == fs.files && fs1.fds == fs.fds[fdfrom := of.(offset := of.offset + rd)];
    assert of.offset + rd <= |b|;
    var w2 := WriteW(w1, dd, fdto, buf).0;
    if sd != dd {
      assert w2.In(sd) == fs1;
    } else {
      var of2 := fs1.fds[fdto];
      var b2 := fs1.files[of2.path].content.bytes;
      var fs2 := w2.In(sd);
      assert fs2.fds[fdfrom] == fs1.fds[fdfrom];
      assert fs2.fds[fdto] == of2.(offset := (if of2.append then |b2| else of2.offset) + rd);
      if of2.path == of.path {
        assert !of2.append && of2.offset <= of.offset;
        assert |fs2.files[of.path].content.bytes| == |b|;
      } else {
        assert fs2.files[of.path] == fs.files[of.path];
      }
    }
  }

  /**
   * The loop copy_file, copy_filein and copy_fileout each run: read up to
   * BUFSIZE bytes, write them all, until a read returns nothing. -1 when a
   * read fails or a write fails or falls short, else 0.
   */
  function PumpF(w: World, sd: Dom, fdfrom: int, dd: Dom, fdto: int): (r: (World, int))
    requires Apart(w, sd, fdfrom, dd, fdto)
    ensures r.1 == 0 || r.1 == -1
    decreases Unread(w.In(sd), fdfrom)
  {
    var (w1, rd, buf) := ReadW(w, sd, fdfrom, BUFSIZE);
    if rd == -1 then (w1, -1)
    else
      var (w2, wr) := WriteW(w1, dd, fdto, buf);
      if wr == -1 || wr != rd then (w2, -1)
      else if rd == 0 then (w2, 0)
      else
        PumpStep(w, sd, fdfrom, dd, fdto);
        PumpF(w2, sd, fdfrom, dd, fdto)
  }

  method Pump(sys: System, sd: Dom, fdfrom: int, dd: Dom, fdto: int) returns (rv: int)
    requires Apart(sys.Now(), sd, fdfrom, dd, fdto)
    modifies sys
    ensures (sys.Now(), rv) == PumpF(old(sys.Now()), sd, fdfrom, dd, fdto)
  {
    ghost var w0 := sys.Now();
    while true
      invariant Apart(sys.Now(), sd, fdfrom, dd, fdto)
      invariant PumpF(sys.Now(), sd, fdfrom, dd, fdto) == PumpF(w0, sd, fdfrom, dd, fdto)
      decreases Unread(sys.Now().In(sd), fdfrom)
    {
      ghost var wi := sys.Now();
      var rd, buf := sys.Read(sd, fdfrom, BUFSIZE);
      if rd == -1 {
        return -1;
      }
      var wr := sys.Write(dd, fdto, buf);
      if wr == -1 || wr != rd {
        return -1;
      }
      if rd == 0 {
        return 0;
      }
      PumpStep(wi, sd, fdfrom, dd, fdto);
    }
  }

  // ---------------------------------------------------------------------
  // copy_file, copy_filein, copy_fileout

  /**
   * copy_file's opens: for get the target O_WRONLY|O_CREAT|O_EXCL on the host
   * and then the source in the image; for put the source on the host and then
   * the target in the image, with the source's st_mode | O_CREAT as the open
   * flags, so that its access mode is st_mode & O_ACCMODE. Neither is checked.
   * The world after, and the source and target descriptors.
   */
  function OpenEndsF(w: World, from: string, to: string, flags: bv32, mode: bv32): (World, int, int) {
    if Get(flags) then
      var (w1, fdto) := OpenW(w, Host, to, O_WRONLY | O_CREAT | O_EXCL, 0x1FF);
      var (w2, fdfrom) := OpenW(w1, Image, from, O_RDONLY, 0);
      (w2, fdfrom, fdto)
    else
      var (w1, fdfrom) := OpenW(w, Host, from, O_RDONLY, 0);
      var (w2, fdto) := OpenW(w1, Image, to, mode | O_CREAT, 0x1FF);
      (w2, fdfrom, fdto)
  }

  method OpenEnds(sys: System, from: string, to: string, flags: bv32, mode: bv32) returns (fdfrom: int, fdto: int)
    modifies sys
    ensures (sys.Now(), fdfrom, fdto) == OpenEndsF(old(sys.Now()), from, to, flags, mode)
  {
    if Get(flags) {
      fdto := sys.Open(Host, to, O_WRONLY | O_CREAT | O_EXCL, 0x1FF);
      fdfrom := sys.Open(Image, from, O_RDONLY, 0);
    } else {
      fdfrom := sys.Open(Host, from, O_RDONLY, 0);
      fdto := sys.Open(Image, to, mode | O_CREAT, 0x1FF);
    }
  }

  /** copy_file's closes: the host's descriptor, then the image's. */
  function CloseEndsF(w: World, flags: bv32, fdfrom: int, fdto: int): World {
    if Get(flags) then CloseW(CloseW(w, Host, fdto), Image, fdfrom)
    else CloseW(CloseW(w, Host, fdfrom), Image, fdto)
  }

  method CloseEnds(sys: System, flags: bv32, fdfrom: int, fdto: int)
    modifies sys
    ensures sys.Now() == CloseEndsF(old(sys.Now()), flags, fdfrom, fdto)
  {
    if Get(flags) {
      sys.Close(Host, fdto);
      sys.Close(Image, fdfrom);
    } else {
      sys.Close(Host, fdfrom);
      sys.Close(Image, fdto);
    }
  }

  /**
   * copy_file: stat the source, open both ends, run the loop from the
   * source's domain to the target's, close both ends. Only the stat result
   * is checked, not the opens.
   */
  function CopyFileF(w: World, from: string, to: string, flags: bv32): (r: (World, int))
    requires OneWay(flags)
    ensures r.1 == 0 || r.1 == -1
  {
    var st := StatF(w.In(FromDom(flags)), from);
    if st.Fail? then (Looked(w, st), -1)
    else
      var (w1, fdfrom, fdto) := OpenEndsF(w, from, to, flags, st.value.mode);
      var (w2, rv) := PumpF(w1, FromDom(flags), fdfrom, ToDom(flags), fdto);
      (CloseEndsF(w2, flags, fdfrom, fdto), rv)
  }

  method CopyFile(sys: System, from: string, to: string, flags: bv32) returns (rv: int)
    requires OneWay(flags)
    modifies sys
    ensures (sys.Now(), rv) == CopyFileF(old(sys.Now()), from, to, flags)
  {
    var st := sys.Stat(FromDom(flags), from);
    if st.Fail? {
      return -1;
    }
    var fdfrom, fdto := OpenEnds(sys, from, to, flags, st.value.mode);
    rv := Pump(sys, FromDom(flags), fdfrom, ToDom(flags), fdto);
    CloseEnds(sys, flags, fdfrom, fdto);
  }

  /**
   * copy_file for put as evidently intended: the image target opened
   * O_WRONLY|O_CREAT|O_TRUNC, with the source's st_mode as the creation mode,
   * where the code passes st_mode | O_CREAT as the open flags.
   */
  function PutFixedF(w: World, from: string, to: string): (r: (World, int))
    ensures r.1 == 0 || r.1 == -1
  {
    var st := StatF(w.host, from);
    if st.Fail? then (Looked(w, st), -1)
    else
      var (w1, fdfrom) := OpenW(w, Host, from, O_RDONLY, 0);
      var (w2, fdto) := OpenW(w1, Image, to, O_WRONLY | O_CREAT | O_TRUNC, st.value.mode);
      var (w3, rv) := PumpF(w2, Host, fdfrom, Image, fdto);
      (CloseW(CloseW(w3, Host, fdfrom), Image, fdto), rv)
  }

  /**
   * copy_filein: both ends in the image; the target is opened O_WRONLY|O_CREAT
   * and not checked. A failed read or write returns -1 at once, leaving both
   * descriptors open.
   */
  function CopyFileInF(w: World, from: string, to: string): (r: (World, int))
    ensures r.1 == 0 || r.1 == -1
  {
    var st := StatF(w.image, from);
    if st.Fail? then (Looked(w, st), -1)
    else
      var (w1, fd1) := OpenW(w, Image, from, O_RDONLY, 0);
      if fd1 == -1 then (w1, -1)
      else
        var (w2, fd2) := OpenW(w1, Image, to, O_WRONLY | O_CREAT, 0x1FF);
        FreshApart(w1, from, to, fd1, fd2);
        var (w3, rv) := PumpF(w2, Image, fd1, Image, fd2);
        if rv == -1 then (w3, -1)
        else (CloseW(CloseW(w3, Image, fd1), Image, fd2), 0)
  }

  /** Two descriptors just opened, the second write-only, start apart. */
  lemma FreshApart(w1: World, from: string, to: string, fd1: int, fd2: int)
    requires OpenW(w1, Image, to, O_WRONLY | O_CREAT, 0x1FF).1 == fd2
    requires fd1 >= 0 && fd1 in w1.image.fds && w1.image.fds[fd1].offset == 0 && w1.image.nextFd == fd1 + 1
    ensures Apart(OpenW(w1, Image, to, O_WRONLY | O_CREAT, 0x1FF).0, Image, fd1, Image, fd2)
  {
  }

  method CopyFileIn(sys: System, from: string, to: string) returns (rv: int)
    modifies sys
    ensures (sys.Now(), rv) == CopyFileInF(old(sys.Now()), from, to)
  {
    var st := sys.Stat(Image, from);
    if st.Fail? {
      return -1;
    }
    var fd1 := sys.Open(Image, from, O_RDONLY, 0);
    if fd1 == -1 {
      return -1;
    }
    ghost var w1 := sys.Now();
    var fd2 := sys.Open(Image, to, O_WRONLY | O_CREAT, 0x1FF);
    FreshApart(w1, from, to, fd1, fd2);
    rv := Pump(sys, Image, fd1, Image, fd2);
    if rv == -1 {
      return -1;
    }
    sys.Close(Image, fd1);
    sys.Close(Image, fd2);
    rv := 0;
  }

  /**
   * copy_fileout: both ends on the host; the target is opened O_CREAT|O_WRONLY
   * with the source's mode, and a failure to open either end is -1.
   */
  function CopyFileOutF(w: World, from: string, to: string): (r: (World, int))
    ensures r.1 == 0 || r.1 == -1
  {
    var st := StatF(w.host, from);
    if st.Fail? then (Looked(w, st), -1)
    else
      var (w1, fdto) := OpenW(w, Host, to, O_CREAT | O_WRONLY, st.value.mode);
      if fdto == -1 then (w1, -1)
      else
        var (w2, fdfrom) := OpenW(w1, Host, from, O_RDONLY, st.value.mode);
        if fdfrom == -1 then (CloseW(w2, Host, fdto), -1)
        else
          OutApart(w1, from, st.value.mode, fdto, fdfrom);
          var (w3, rv) := PumpF(w2, Host, fdfrom, Host, fdto);
          (CloseW(CloseW(w3, Host, fdfrom), Host, fdto), rv)
  }

  /** The target opened first and write-only, the source opened next, start apart. */
  lemma OutApart(w1: World, from: string, mode: bv32, fdto: int, fdfrom: int)
    requires OpenW(w1, Host, from, O_RDONLY, mode).1 == fdfrom && fdfrom != -1
    requires fdto >= 0 && fdto in w1.host.fds && w1.host.fds[fdto].offset == 0 && !w1.host.fds[fdto].append
    requires w1.host.nextFd == fdto + 1
    ensures Apart(OpenW(w1, Host, from, O_RDONLY, mode).0, Host, fdfrom, Host, fdto)
  {
  }

  method CopyFileOut(sys: System, from: string, to: string) returns (rv: int)
    modifies sys
    ensures (sys.Now(), rv) == CopyFileOutF(old(sys.Now()), from, to)
  {
    var st := sys.Stat(Host, from);
    if st.Fail? {
      return -1;
    }
    var fdto := sys.Open(Host, to, O_CREAT | O_WRONLY, st.value.mode);
    if fdto == -1 {
      return -1;
    }
    ghost var w1 := sys.Now();
    var fdfrom := sys.Open(Host, from, O_RDONLY, st.value.mode);
    if fdfrom == -1 {
      sys.Close(Host, fdto);
      return -1;
    }
    OutApart(w1, from, st.value.mode, fdto, fdfrom);
    rv := Pump(sys, Host, fdfrom, Host, fdto);
    sys.Close(Host, fdfrom);
    sys.Close(Host, fdto);
  }

  // ---------------------------------------------------------------------
  // copy_fifo, copy_special, copy_link

  /**
   * The first step of copy_fifo, copy_special and copy_link: if to exists
   * (lstat on look), take it away, with remove(3) on the host or
   * rump_sys_unlink in the image as via says. -1 when that fails, else 0.
   */
  function ClearTargetF(w: World, to: string, look: Dom, via: Dom): (r: (World, int))
    ensures r.1 == 0 || r.1 == -1
  {
    var st := LstatF(w.In(look), to);
    if st.Fail? then (Looked(w, st), 0)
    else if via == Host then Apply(w, Host, RemoveF(w.host, to))
    else Apply(w, Image, UnlinkF(w.image, to))
  }

  method ClearTarget(sys: System, to: string, look: Dom, via: Dom) returns (rv: int)
    modifies sys
    ensures (sys.Now(), rv) == ClearTargetF(old(sys.Now()), to, look, via)
  {
    var st := sys.Lstat(look, to);
    if st.Fail? {
      return 0;
    }
    if via == Host {
      rv := sys.Commit(Host, RemoveF(sys.host, to));
    } else {
      rv := sys.Commit(Image, UnlinkF(sys.image, to));
    }
  }

  /**
   * copy_fifo: clear the target (remove(3) for get), lstat the source, and
   * mkfifo the target with the source's mode. -1 when a step fails.
   */
  function CopyFifoF(w: World, from: string, to: string, flags: bv32): (r: (World, int))
    ensures r.1 == 0 || r.1 == -1
  {
    var (w1, c) := ClearTargetF(w, to, ToDom(flags), ToDom(flags));
    if c == -1 then (w1, -1)
    else
      var st := LstatF(w1.In(FromDom(flags)), from);
      if st.Fail? then (Looked(w1, st), -1)
      else Apply(w1, ToDom(flags), MkfifoF(w1.In(ToDom(flags)), to, st.value.mode))
  }

  method CopyFifo(sys: System, from: string, to: string, flags: bv32) returns (rv: int)
    modifies sys
    ensures (sys.Now(), rv) == CopyFifoF(old(sys.Now()), from, to, flags)
  {
    rv := ClearTarget(sys, to, ToDom(flags), ToDom(flags));
    if rv == -1 {
      return -1;
    }
    var st := sys.Lstat(FromDom(flags), from);
    if st.Fail? {
      return -1;
    }
    rv := sys.Commit(ToDom(flags), MknodOrFifo(sys.Now().In(ToDom(flags)), to, st.value, false));
  }

  /** mkfifo(2), or mknod(2) with the source's mode and rdev. */
  function MknodOrFifo(fs: Fs, to: string, st: Stat, special: bool): Result<Fs> {
    if special then MknodF(fs, to, st.mode, st.rdev) else MkfifoF(fs, to, st.mode)
  }

  /**
   * copy_special: as copy_fifo, but the existing target is always taken away
   * with rump_sys_unlink, even for get where the lstat looked on the host,
   * and the new node is made with mknod and the source's rdev.
   */
  function CopySpecialF(w: World, from: string, to: string, flags: bv32): (r: (World, int))
    ensures r.1 == 0 || r.1 == -1
  {
    var (w1, c) := ClearTargetF(w, to, ToDom(flags), Image);
    if c == -1 then (w1, -1)
    else
      var st := LstatF(w1.In(FromDom(flags)), from);
      if st.Fail? then (Looked(w1, st), -1)
      else Apply(w1, ToDom(flags), MknodF(w1.In(ToDom(flags)), to, st.value.mode, st.value.rdev))
  }

  /**
   * copy_special as evidently intended: the existing target is taken away in
   * the domain where it was found (remove(3) on the host for get).
   */
  function CopySpecialFixedF(w: World, from: string, to: string, flags: bv32): (r: (World, int))
    ensures r.1 == 0 || r.1 == -1
  {
    var (w1, c) := ClearTargetF(w, to, ToDom(flags), ToDom(flags));
    if c == -1 then (w1, -1)
    else
      var st := LstatF(w1.In(FromDom(flags)), from);
      if st.Fail? then (Looked(w1, st), -1)
      else Apply(w1, ToDom(flags), MknodF(w1.In(ToDom(flags)), to, st.value.mode, st.value.rdev))
  }

  method CopySpecial(sys: System, from: string, to: string, flags: bv32) returns (rv: int)
    modifies sys
    ensures (sys.Now(), rv) == CopySpecialF(old(sys.Now()), from, to, flags)
  {
    rv := ClearTarget(sys, to, ToDom(flags), Image);
    if rv == -1 {
      return -1;
    }
    var st := sys.Lstat(FromDom(flags), from);
    if st.Fail? {
      return -1;
    }
    rv := sys.Commit(ToDom(flags), MknodOrFifo(sys.Now().In(ToDom(flags)), to, st.value, true));
  }

  /**
   * copy_link: read the source link (at most PATH_MAX bytes), clear the
   * target (remove(3) for get), and make the target a link to the same text.
   */
  function CopyLinkF(w: World, from: string, to: string, flags: bv32): (r: (World, int))
    ensures r.1 == 0 || r.1 == -1
  {
    var t := ReadlinkF(w.In(FromDom(flags)), from, PATH_MAX);
    if t.Fail? then (Looked(w, t), -1)
    else
      var (w1, c) := ClearTargetF(w, to, ToDom(flags), ToDom(flags));
      if c == -1 then (w1, -1)
      else Apply(w1, ToDom(flags), SymlinkF(w1.In(ToDom(flags)), t.value, to))
  }

  method CopyLink(sys: System, from: string, to: string, flags: bv32) returns (rv: int)
    modifies sys
    ensures (sys.Now(), rv) == CopyLinkF(old(sys.Now()), from, to, flags)
  {
    var t := sys.Readlink(FromDom(flags), from, PATH_MAX);
    if t.Fail? {
      return -1;
    }
    rv := ClearTarget(sys, to, ToDom(flags), ToDom(flags));
    if rv == -1 {
      return -1;
    }
    rv := sys.Commit(ToDom(flags), SymlinkF(sys.Now().In(ToDom(flags)), t.value, to));
  }

  // ---------------------------------------------------------------------
  // copy_to_file, copy_to_dir

  /** The copy copy_to_file picks by the source's type; -1 for a type it does not copy. */
  function CopyByTypeF(w: World, from: string, frstat: Stat, to: string, flags: bv32): (r: (World, int))
    requires OneWay(flags)
    ensures r.1 == 0 || r.1 == -1
  {
    match TypeOf(frstat.mode)
    case Fifo => CopyFifoF(w, from, to, flags)
    case Lnk => if !NoCopyLink(flags) then CopyLinkF(w, from, to, flags) else CopyFileF(w, from, to, flags)
    case Chr => CopySpecialF(w, from, to, flags)
    case Blk => CopySpecialF(w, from, to, flags)
    case Reg => CopyFileF(w, from, to, flags)
    case _ => (w, -1)
  }

  method CopyByType(sys: System, from: string, frstat: Stat, to: string, flags: bv32) returns (rv: int)
    requires OneWay(flags)
    modifies sys
    ensures (sys.Now(), rv) == CopyByTypeF(old(sys.Now()), from, frstat, to, flags)
  {
    match TypeOf(frstat.mode)
    case Fifo =>
      rv := CopyFifo(sys, from, to, flags);
    case Lnk =>
      if !NoCopyLink(flags) {
        rv := CopyLink(sys, from, to, flags);
      } else {
        rv := CopyFile(sys, from, to, flags);
      }
    case Chr =>
      rv := CopySpecial(sys, from, to, flags);
    case Blk =>
      rv := CopySpecial(sys, from, to, flags);
    case Reg =>
      rv := CopyFile(sys, from, to, flags);
    case _ =>
      rv := -1;
  }

  /**
   * copy_to_file: copy by type; a failure is returned as is. Then, with
   * DELETE, unlink the source (in its own domain). Get returns that unlink's
   * result; put sets the target's owner to the source's (lchown, or chown
   * with NO_COPY_LINK), only warning when that fails, and returns 0.
   */
  function CopyToFileF(w: World, from: string, frstat: Stat, to: string, flags: bv32): (r: (World, int))
    requires OneWay(flags)
    ensures r.1 == 0 || r.1 == -1
  {
    var (w1, rv) := CopyByTypeF(w, from, frstat, to, flags);
    if rv != 0 then (w1, rv)
    else
      var (w2, rv2) :=
        if Delete(flags) then Apply(w1, FromDom(flags), UnlinkF(w1.In(FromDom(flags)), from)) else (w1, rv);
      if Get(flags) then (w2, rv2)
      else (Apply(w2, Image, ChownF(w2.image, to, frstat.uid, frstat.gid, NoCopyLink(flags))).0, 0)
  }

  method CopyToFile(sys: System, from: string, frstat: Stat, to: string, flags: bv32) returns (rv: int)
    requires OneWay(flags)
    modifies sys
    ensures (sys.Now(), rv) == CopyToFileF(old(sys.Now()), from, frstat, to, flags)
  {
    rv := CopyByType(sys, from, frstat, to, flags);
    if rv != 0 {
      return rv;
    }
    if Delete(flags) {
      rv := sys.Commit(FromDom(flags), UnlinkF(sys.Now().In(FromDom(flags)), from));
    }
    if Get(flags) {
      return rv;
    }
    var _ := sys.Commit(Image, ChownF(sys.image, to, frstat.uid, frstat.gid, NoCopyLink(flags)));
    rv := 0;
  }

  /** The path copy_to_dir copies to: the source's last name under the directory to. */
  function IntoDir(from: string, to: string): (r: string)
  {
    to + "/" + AfterLastSlash(from)
  }

  /** copy_to_dir: copy_to_file onto to/<last name of from>. */
  function CopyToDirF(w: World, from: string, frstat: Stat, to: string, flags: bv32): (r: (World, int))
    requires OneWay(flags)
  {
    CopyToFileF(w, from, frstat, IntoDir(from, to), flags)
  }

  method CopyToDir(sys: System, from: string, frstat: Stat, to: string, flags: bv32) returns (rv: int)
    requires OneWay(flags)
    modifies sys
    ensures (sys.Now(), rv) == CopyToDirF(old(sys.Now()), from, frstat, to, flags)
  {
    rv := CopyToFile(sys, from, frstat, IntoDir(from, to), flags);
  }
}

=== FILE: ecp_copy_props.dfy ===
// What the copy primitives of src/fsu_ecp.c achieve: the read/write loop
// leaves the target holding the source's remaining bytes exactly when they fit,
// and the per-type copies recreate what they copy.

module EcpCopyProps {
  import opened Posix
  import opened Domain
  import opened EcpArgs
  import opened EcpCopy
  import opened DomainProps

  // ---------------------------------------------------------------------
  // The read/write loop

  /**
   * One round of the loop: an empty read (nothing left) ends it with 0; a
   * chunk the target domain has no space for ends it with -1; otherwise the
   * loop goes on from the world after the write, with the chunk written and
   * one chunk less to read.
   */
  lemma PumpRound(w: World, sd: Dom, fdfrom: int, dd: Dom, fdto: int)
    requires CopyEnds(w, sd, fdfrom, dd, fdto)
    ensures var (w1, rd, buf) := ReadW(w, sd, fdfrom, BUFSIZE);
      var w2 := WriteW(w1, dd, fdto, buf).0;
      var h, p, rest := Held(w.In(dd), fdto), WritePos(w.In(dd), fdto), Rest(w.In(sd), fdfrom);
      && 0 <= rd <= |rest| && buf == rest[..rd] && (rd == 0 <==> rest == [])
      && (rd > w.In(dd).space ==> PumpF(w, sd, fdfrom, dd, fdto).1 == -1)
      && (rd <= w.In(dd).space ==>
            && CopyEnds(w2, sd, fdfrom, dd, fdto) && Rest(w2.In(sd), fdfrom) == rest[rd..]
            && Held(w2.In(dd), fdto) == Overwrite(h, p, buf) && WritePos(w2.In(dd), fdto) == p + rd
            && w2.In(dd).space == w.In(dd).space - rd && w2.In(dd).fds[fdto].path == w.In(dd).fds[fdto].path)
      && (rd == 0 ==> PumpF(w, sd, fdfrom, dd, fdto) == (w2, 0))
      && (0 < rd <= w.In(dd).space ==> PumpF(w, sd, fdfrom, dd, fdto) == PumpF(w2, sd, fdfrom, dd, fdto))
  {
    CopyRound(w, sd, fdfrom, dd, fdto, BUFSIZE);
    var (w1, rd, buf) := ReadW(w, sd, fdfrom, BUFSIZE);
    if 0 < rd <= w.In(dd).space {
      PumpStep(w, sd, fdfrom, dd, fdto);
    }
  }

  /**
   * From a reader on a regular file to a writer on a
   * regular file, the loop returns 0 exactly when the target domain has space
   * for all the bytes left to read.
   */
  lemma {:induction false} PumpFits(w: World, sd: Dom, fdfrom: int, dd: Dom, fdto: int)
    requires CopyEnds(w, sd, fdfrom, dd, fdto)
    ensures PumpF(w, sd, fdfrom, dd, fdto).1 == 0 <==> |Rest(w.In(sd), fdfrom)| <= w.In(dd).space
    decreases Unread(w.In(sd), fdfrom)
  {
    PumpRound(w, sd, fdfrom, dd, fdto);
    var (w1, rd, buf) := ReadW(w, sd, fdfrom, BUFSIZE);
    if 0 < rd <= w.In(dd).space {
      var w2 := WriteW(w1, dd, fdto, buf).0;
      PumpFits(w2, sd, fdfrom, dd, fdto);
    }
  }

  /**
   * When that loop returns 0, the target holds the bytes that were left to
   * read (rest), written at its write position p over what it held (h).
   */
  lemma {:induction false} PumpCopies(w: World, sd: Dom, fdfrom: int, dd: Dom, fdto: int,
                                      h: seq<bv8>, p: nat, rest: seq<bv8>)
    requires CopyEnds(w, sd, fdfrom, dd, fdto)
    requires h == Held(w.In(dd), fdto) && p == WritePos(w.In(dd), fdto) && rest == Rest(w.In(sd), fdfrom)
    ensures var (w', rv) := PumpF(w, sd, fdfrom, dd, fdto);
      rv == 0 ==>
        && Writer(w'.In(dd), fdto) && w'.In(dd).fds[fdto].path == w.In(dd).fds[fdto].path
        && Held(w'.In(dd), fdto) == Overwrite(h, p, rest)
    decreases Unread(w.In(sd), fdfrom)
  {
    PumpRound(w, sd, fdfrom, dd, fdto);
    var (w1, rd, buf) := ReadW(w, sd, fdfrom, BUFSIZE);
    if 0 < rd <= w.In(dd).space {
      var w2 := WriteW(w1, dd, fdto, buf).0;
      PumpCopies(w2, sd, fdfrom, dd, fdto, Overwrite(h, p, buf), p + rd, rest[rd..]);
      OverwriteRest(h, p, rest, rd);
    }
  }

  /** The loop fails whenever the target descriptor is not open for writing. */
  lemma PumpNeedsWriter(w: World, sd: Dom, fdfrom: int, dd: Dom, fdto: int)
    requires sd != dd
    requires fdto < 0 || fdto !in w.In(dd).fds || !w.In(dd).fds[fdto].writable
    ensures PumpF(w, sd, fdfrom, dd, fdto).1 == -1
  {
    var (w1, rd, buf) := ReadW(w, sd, fdfrom, BUFSIZE);
    assert w1.In(dd) == w.In(dd);
  }

  // ---------------------------------------------------------------------
  // copy_file

  /** The opens of get, for a source that leads to a regular file and a target that can be created. */
  lemma GetOpens(w: World, from: string, to: string, flags: bv32, mode: bv32, t: string, b: seq<bv8>)
    requires Get(flags)
    requires Resolve(w.image, from, MAXSYMLINKS) == Ok(t) && t !in w.image.denied && w.image.files[t].content == Data(b)
    requires Norm(to) !in w.host.files && ParentErr(w.host, Norm(to)) == NoError && Norm(to) !in w.host.denied
    ensures var (w2, fdfrom, fdto) := OpenEndsF(w, from, to, flags, mode);
      && CopyEnds(w2, Image, fdfrom, Host, fdto)
      && Rest(w2.image, fdfrom) == b && Held(w2.host, fdto) == [] && WritePos(w2.host, fdto) == 0
      && w2.host.fds[fdto].path == Norm(to) && w2.host.space == w.host.space
  {
    var f: bv32 := O_WRONLY | O_CREAT | O_EXCL;
    assert f & O_CREAT != 0 && f & O_ACCMODE == O_WRONLY && f & O_APPEND == 0;
    OpenCreates(w.host, to, f, 0x1FF);
    var (w1, fdto) := OpenW(w, Host, to, f, 0x1FF);
    assert O_RDONLY & O_CREAT == 0 && O_RDONLY & O_NOFOLLOW == 0 && O_RDONLY & O_ACCMODE == O_RDONLY && O_RDONLY & O_APPEND == 0;
    OpenExisting(w1.image, from, t, O_RDONLY, 0);
    var (w2, fdfrom) := OpenW(w1, Image, from, O_RDONLY, 0);
    assert w2.host == w1.host;
  }

  /**
   * get copies a regular image file exactly: when the host target is not
   * there yet and may be created, copy_file succeeds exactly when the host
   * has space for the file, and then the target holds the source's bytes.
   */
  lemma GetCopiesExactly(w: World, from: string, to: string, flags: bv32, t: string, b: seq<bv8>)
    requires OneWay(flags) && Get(flags)
    requires Resolve(w.image, from, MAXSYMLINKS) == Ok(t) && t !in w.image.denied && w.image.files[t].content == Data(b)
    requires Norm(to) !in w.host.files && ParentErr(w.host, Norm(to)) == NoError && Norm(to) !in w.host.denied
    ensures var (w', rv) := CopyFileF(w, from, to, flags);
      && (rv == 0 <==> |b| <= w.host.space)
      && (rv == 0 ==> Norm(to) in w'.host.files && w'.host.files[Norm(to)].content == Data(b))
  {
    var st := StatF(w.image, from);
    assert st.Ok?;
    GetOpens(w, from, to, flags, st.value.mode, t, b);
    var (w2, fdfrom, fdto) := OpenEndsF(w, from, to, flags, st.value.mode);
    PumpFits(w2, Image, fdfrom, Host, fdto);
    PumpCopies(w2, Image, fdfrom, Host, fdto, [], 0, b);
    var (w3, rv) := PumpF(w2, Image, fdfrom, Host, fdto);
    assert Overwrite([], 0, b) == b;
    CloseKeepsFiles(w3, Host, fdto);
    CloseKeepsFiles(CloseW(w3, Host, fdto), Image, fdfrom);
  }

  /** put's target descriptor is -1 or read-only unless st_mode's low bits are O_WRONLY or O_RDWR. */
  lemma PutTargetAccess(w: World, from: string, to: string, flags: bv32, mode: bv32)
    requires Put(flags) && !Get(flags)
    requires mode & O_ACCMODE != O_WRONLY && mode & O_ACCMODE != O_RDWR
    ensures var (w2, fdfrom, fdto) := OpenEndsF(w, from, to, flags, mode);
      fdto < 0 || fdto !in w2.image.fds || !w2.image.fds[fdto].writable
  {
    var (w1, fdfrom) := OpenW(w, Host, from, O_RDONLY, 0);
    var r := OpenF(w1.image, to, mode | O_CREAT, 0x1FF);
    assert (mode | O_CREAT) & O_ACCMODE == mode & O_ACCMODE;
    if r.Ok? {
      OpenAccess(w1.image, to, mode | O_CREAT, 0x1FF);
    }
  }

  /**
   * put opens the image target with the source's st_mode as the open flags,
   * so it can only succeed when st_mode's two low bits happen to name a
   * writable access mode; for a file of mode 0644 (low bits 0) it fails.
   */
  lemma PutNeedsWritableModeBits(w: World, from: string, to: string, flags: bv32)
    requires OneWay(flags) && Put(flags)
    ensures var st := StatF(w.host, from);
      CopyFileF(w, from, to, flags).1 == 0 ==>
        st.Ok? && (st.value.mode & O_ACCMODE == O_WRONLY || st.value.mode & O_ACCMODE == O_RDWR)
  {
    var st := StatF(w.host, from);
    if st.Ok? && st.value.mode & O_ACCMODE != O_WRONLY && st.value.mode & O_ACCMODE != O_RDWR {
      PutTargetAccess(w, from, to, flags, st.value.mode);
      var (w2, fdfrom, fdto) := OpenEndsF(w, from, to, flags, st.value.mode);
      PumpNeedsWriter(w2, Host, fdfrom, Image, fdto);
    }
  }

  /**
   * The corrected put copies a regular host file exactly: whatever the
   * source's mode and whatever regular file the target spot held, it
   * returns 0 exactly when the image has space for the source's bytes, and
   * then the target holds them and nothing else.
   */
  lemma PutFixedCopiesExactly(w: World, from: string, to: string, t: string, b: seq<bv8>, u: string, h: seq<bv8>)
    requires Resolve(w.host, from, MAXSYMLINKS) == Ok(t) && t !in w.host.denied && w.host.files[t].content == Data(b)
    requires TargetSpot(w.image, to, u, h)
    ensures var (w', rv) := PutFixedF(w, from, to);
      && (rv == 0 <==> |b| <= w.image.space)
      && (rv == 0 ==> u in w'.image.files && w'.image.files[u].content == Data(b))
  {
    var mode := StatF(w.host, from).value.mode;
    assert O_RDONLY & O_CREAT == 0 && O_RDONLY & O_NOFOLLOW == 0 && O_RDONLY & O_ACCMODE == O_RDONLY && O_RDONLY & O_APPEND == 0;
    OpenExisting(w.host, from, t, O_RDONLY, 0);
    var (w1, fdfrom) := OpenW(w, Host, from, O_RDONLY, 0);
    var f: bv32 := O_WRONLY | O_CREAT | O_TRUNC;
    assert f & O_ACCMODE == O_WRONLY && f & O_CREAT != 0 && f & O_EXCL == 0;
    assert f & O_TRUNC != 0 && f & O_APPEND == 0 && f & O_NOFOLLOW == 0;
    assert w1.image == w.image;
    TargetOpens(w1.image, to, f, mode, u, h);
    var (w2, fdto) := OpenW(w1, Image, to, f, mode);
    assert CopyEnds(w2, Host, fdfrom, Image, fdto) && Rest(w2.host, fdfrom) == b;
    PumpFits(w2, Host, fdfrom, Image, fdto);
    PumpCopies(w2, Host, fdfrom, Image, fdto, [], 0, b);
    var (w3, rv) := PumpF(w2, Host, fdfrom, Image, fdto);
    OverwriteEmpty(b);
    CloseKeepsFiles(w3, Host, fdfrom);
    CloseKeepsFiles(CloseW(w3, Host, fdfrom), Image, fdto);
  }

  // ---------------------------------------------------------------------
  // copy_filein, copy_fileout

  /**
   * The loop of copy_filein and copy_fileout, and the closes after it, within
   * one domain: 0 exactly when the domain has space for the bytes left, and
   * then the writer's file holds them, written from 0 over what it held.
   */
  lemma PumpThenClose(w: World, d: Dom, fdfrom: int, fdto: int, u: string, h: seq<bv8>, b: seq<bv8>)
    requires CopyEnds(w, d, fdfrom, d, fdto)
    requires w.In(d).fds[fdto].path == u && Held(w.In(d), fdto) == h && WritePos(w.In(d), fdto) == 0
    requires Rest(w.In(d), fdfrom) == b
    ensures var (w3, rv) := PumpF(w, d, fdfrom, d, fdto);
      && (rv == 0 <==> |b| <= w.In(d).space)
      && (rv == 0 ==> u in w3.In(d).files && w3.In(d).files[u].content == Data(Overwrite(h, 0, b)))
      && CloseW(CloseW(w3, d, fdfrom), d, fdto).In(d).files == w3.In(d).files
  {
    PumpFits(w, d, fdfrom, d, fdto);
    PumpCopies(w, d, fdfrom, d, fdto, h, 0, b);
    var (w3, rv) := PumpF(w, d, fdfrom, d, fdto);
    CloseKeepsFiles(w3, d, fdfrom);
    CloseKeepsFiles(CloseW(w3, d, fdfrom), d, fdto);
  }

  /**
   * copy_filein copies a regular image file into a target spot in the image:
   * it returns 0 exactly when the image has space for the source's bytes,
   * and then the target holds them, written from its start over what it held
   * (the target is not truncated, so a longer target keeps its tail).
   */
  lemma FileInCopies(w: World, from: string, to: string, t: string, b: seq<bv8>, u: string, h: seq<bv8>)
    requires Resolve(w.image, from, MAXSYMLINKS) == Ok(t) && t !in w.image.denied && w.image.files[t].content == Data(b)
    requires TargetSpot(w.image, to, u, h) && u != t
    ensures var (w', rv) := CopyFileInF(w, from, to);
      && (rv == 0 <==> |b| <= w.image.space)
      && (rv == 0 ==> u in w'.image.files && w'.image.files[u].content == Data(Overwrite(h, 0, b)))
  {
    InOpens(w, from, to, t, b, u, h);
    var (w1, fd1) := OpenW(w, Image, from, O_RDONLY, 0);
    var (w2, fd2) := OpenW(w1, Image, to, O_WRONLY | O_CREAT, 0x1FF);
    PumpThenClose(w2, Image, fd1, fd2, u, h, b);
    FileInSteps(w, from, to, w1, fd1, w2, fd2);
  }

  /** copy_filein's two opens: a reader at the source's start and a writer at the target's. */
  lemma InOpens(w: World, from: string, to: string, t: string, b: seq<bv8>, u: string, h: seq<bv8>)
    requires Resolve(w.image, from, MAXSYMLINKS) == Ok(t) && t !in w.image.denied && w.image.files[t].content == Data(b)
    requires TargetSpot(w.image, to, u, h) && u != t
    ensures var (w1, fd1) := OpenW(w, Image, from, O_RDONLY, 0);
      var (w2, fd2) := OpenW(w1, Image, to, O_WRONLY | O_CREAT, 0x1FF);
      && fd1 != -1 && CopyEnds(w2, Image, fd1, Image, fd2) && Rest(w2.image, fd1) == b
      && w2.image.fds[fd2].path == u && Held(w2.image, fd2) == h && WritePos(w2.image, fd2) == 0
      && w2.image.space == w.image.space
  {
    assert O_RDONLY & O_CREAT == 0 && O_RDONLY & O_NOFOLLOW == 0 && O_RDONLY & O_ACCMODE == O_RDONLY && O_RDONLY & O_APPEND == 0;
    OpenExisting(w.image, from, t, O_RDONLY, 0);
    var (w1, fd1) := OpenW(w, Image, from, O_RDONLY, 0);
    assert w1.image.files == w.image.files && fd1 == w.image.nextFd;
    var f: bv32 := O_WRONLY | O_CREAT;
    assert f & O_ACCMODE == O_WRONLY && f & O_CREAT != 0 && f & O_EXCL == 0;
    assert f & O_TRUNC == 0 && f & O_APPEND == 0 && f & O_NOFOLLOW == 0;
    SpotKept(w.image, w1.image, to, u, h);
    TargetOpens(w1.image, to, f, 0x1FF, u, h);
    TargetSpares(w1.image, to, f, 0x1FF, u, h, t);
  }

  /** copy_filein, once its source is open and its target opened. */
  lemma FileInSteps(w: World, from: string, to: string, w1: World, fd1: int, w2: World, fd2: int)
    requires StatF(w.image, from).Ok?
    requires (w1, fd1) == OpenW(w, Image, from, O_RDONLY, 0) && fd1 != -1
    requires (w2, fd2) == OpenW(w1, Image, to, O_WRONLY | O_CREAT, 0x1FF)
    requires CopyEnds(w2, Image, fd1, Image, fd2)
    ensures var (w3, rv) := PumpF(w2, Image, fd1, Image, fd2);
      CopyFileInF(w, from, to) == if rv == -1 then (w3, -1) else (CloseW(CloseW(w3, Image, fd1), Image, fd2), 0)
  {
  }

  /**
   * copy_fileout copies a regular host file into a target spot on the host:
   * 0 exactly when the host has space for the source's bytes, and then the
   * target holds them, written from its start over what it held.
   */
  lemma FileOutCopies(w: World, from: string, to: string, t: string, b: seq<bv8>, u: string, h: seq<bv8>)
    requires Resolve(w.host, from, MAXSYMLINKS) == Ok(t) && t !in w.host.denied && w.host.files[t].content == Data(b)
    requires TargetSpot(w.host, to, u, h) && u != t
    ensures var (w', rv) := CopyFileOutF(w, from, to);
      && (rv == 0 <==> |b| <= w.host.space)
      && (rv == 0 ==> u in w'.host.files && w'.host.files[u].content == Data(Overwrite(h, 0, b)))
  {
    var mode := StatF(w.host, from).value.mode;
    var f: bv32 := O_CREAT | O_WRONLY;
    assert f & O_ACCMODE == O_WRONLY && f & O_CREAT != 0 && f & O_EXCL == 0;
    assert f & O_TRUNC == 0 && f & O_APPEND == 0 && f & O_NOFOLLOW == 0;
    TargetOpens(w.host, to, f, mode, u, h);
    TargetSpares(w.host, to, f, mode, u, h, t);
    var (w1, fdto) := OpenW(w, Host, to, f, mode);
    ResolveKept(w.host, w1.host, from, MAXSYMLINKS);
    SourceOpens(w1, Host, from, mode, t, b, fdto, u);
    var (w2, fdfrom) := OpenW(w1, Host, from, O_RDONLY, mode);
    PumpThenClose(w2, Host, fdfrom, fdto, u, h, b);
    FileOutSteps(w, from, to, mode, w1, fdto, w2, fdfrom);
  }

  /** copy_fileout, once its target and its source are open. */
  lemma FileOutSteps(w: World, from: string, to: string, mode: bv32, w1: World, fdto: int, w2: World, fdfrom: int)
    requires StatF(w.host, from).Ok? && StatF(w.host, from).value.mode == mode
    requires (w1, fdto) == OpenW(w, Host, to, O_CREAT | O_WRONLY, mode) && fdto != -1
    requires (w2, fdfrom) == OpenW(w1, Host, from, O_RDONLY, mode) && fdfrom != -1
    requires CopyEnds(w2, Host, fdfrom, Host, fdto)
    ensures var (w3, rv) := PumpF(w2, Host, fdfrom, Host, fdto);
      CopyFileOutF(w, from, to) == (CloseW(CloseW(w3, Host, fdfrom), Host, fdto), rv)
  {
  }

  // ---------------------------------------------------------------------
  // copy_fifo, copy_special, copy_link

  /**
   * Clearing a target changes only the domain it removes from. When it looks
   * where it removes, success leaves no target behind, and failure means
   * there was one that could not go.
   */
  lemma ClearTargetClears(w: World, to: string, look: Dom, via: Dom)
    ensures var (w', rv) := ClearTargetF(w, to, look, via);
      && w'.In(via.Other()) == w.In(via.Other())
      && (look == via && rv == 0 ==> Norm(to) !in w'.In(via).files)
      && (rv == -1 ==> Norm(to) in w.In(look).files)
  {
  }

  /** A name that is there and is not a directory is cleared, and its parent can take a new name after. */
  lemma ClearTargetRemoves(w: World, to: string, d: Dom)
    requires ParentErr(w.In(d), Norm(to)) == NoError
    requires Norm(to) in w.In(d).files ==> !w.In(d).files[Norm(to)].content.Entries?
    ensures var (w', rv) := ClearTargetF(w, to, d, d);
      rv == 0 && Norm(to) !in w'.In(d).files && ParentErr(w'.In(d), Norm(to)) == NoError && w'.In(d).uid == w.In(d).uid
  {
    var k := Norm(to);
    if k in w.In(d).files {
      var fs := w.In(d);
      match ParentOf(k)
      case None =>
      case Some(q) =>
        assert q != k by {
          ParentShorter(k);
        }
        assert q in Unlinked(fs, k).files && Unlinked(fs, k).files[q].content.Entries?;
    }
  }

  /** A parent directory's key is shorter than the key. */
  lemma ParentShorter(k: string)
    requires ParentOf(k).Some?
    ensures |ParentOf(k).value| < |k|
  {
  }

  /**
   * copy_link recreates the source link: on success the target is a symbolic
   * link holding exactly what readlink returned for the source.
   */
  lemma LinkCopiesTarget(w: World, from: string, to: string, flags: bv32)
    requires OneWay(flags)
    ensures var t := ReadlinkF(w.In(FromDom(flags)), from, PATH_MAX);
      var (w', rv) := CopyLinkF(w, from, to, flags);
      rv == 0 ==> t.Ok? && Norm(to) in w'.In(ToDom(flags)).files
                  && w'.In(ToDom(flags)).files[Norm(to)].content == Target(t.value)
                  && IsLnk(w'.In(ToDom(flags)).files[Norm(to)].mode)
  {
  }

  /**
   * copy_link replaces whatever non-directory is at the target: with a
   * readable source link and a target directory that exists, it succeeds.
   */
  lemma LinkReplacesTarget(w: World, from: string, to: string, flags: bv32)
    requires OneWay(flags)
    requires ReadlinkF(w.In(FromDom(flags)), from, PATH_MAX).Ok?
    requires ParentErr(w.In(ToDom(flags)), Norm(to)) == NoError
    requires Norm(to) in w.In(ToDom(flags)).files ==> !w.In(ToDom(flags)).files[Norm(to)].content.Entries?
    ensures CopyLinkF(w, from, to, flags).1 == 0
  {
    ClearTargetRemoves(w, to, ToDom(flags));
  }

  /**
   * copy_fifo makes a FIFO with the source's permission bits, read after the
   * target was cleared, in the source domain that clearing does not touch.
   */
  lemma FifoCopiesMode(w: World, from: string, to: string, flags: bv32)
    requires OneWay(flags)
    ensures var st := LstatF(w.In(FromDom(flags)), from);
      var (w', rv) := CopyFifoF(w, from, to, flags);
      rv == 0 ==> st.Ok? && Norm(to) in w'.In(ToDom(flags)).files
                  && IsFifo(w'.In(ToDom(flags)).files[Norm(to)].mode)
                  && w'.In(ToDom(flags)).files[Norm(to)].mode & ALLPERMS == st.value.mode & ALLPERMS
  {
    ClearTargetClears(w, to, ToDom(flags), ToDom(flags));
  }

  /**
   * copy_special takes an existing target away through the image even for
   * get, where it found the target on the host: so a get of a device node
   * onto a host path that exists always fails, and the image loses its own
   * file of that name if it had one.
   */
  lemma SpecialGetOverExisting(w: World, from: string, to: string, flags: bv32)
    requires OneWay(flags) && Get(flags) && Norm(to) in w.host.files
    ensures var (w', rv) := CopySpecialF(w, from, to, flags);
      && rv == -1
      && (Norm(to) in w.image.files && !w.image.files[Norm(to)].content.Entries? ==> Norm(to) !in w'.image.files)
  {
    var (w1, c) := ClearTargetF(w, to, Host, Image);
    ClearTargetClears(w, to, Host, Image);
    assert w1.host == w.host;
  }

  /**
   * The corrected copy_special replaces an existing host target on get: when
   * the target is no directory, its parent is there, the image source is a
   * device node and the host lets the caller make one, it returns 0 and the
   * host holds a node of the source's type, permission bits and rdev.
   */
  lemma SpecialFixedGetReplaces(w: World, from: string, to: string, flags: bv32)
    requires OneWay(flags) && Get(flags)
    requires ParentErr(w.host, Norm(to)) == NoError
    requires Norm(to) in w.host.files ==> !w.host.files[Norm(to)].content.Entries?
    requires LstatF(w.image, from).Ok? && w.host.uid == 0
    requires IsChr(LstatF(w.image, from).value.mode) || IsBlk(LstatF(w.image, from).value.mode)
    ensures var st := LstatF(w.image, from).value;
      var (w', rv) := CopySpecialFixedF(w, from, to, flags);
      && rv == 0 && Norm(to) in w'.host.files
      && w'.host.files[Norm(to)].mode == st.mode & (S_IFMT | ALLPERMS)
      && w'.host.files[Norm(to)].rdev == st.rdev
  {
    assert FromDom(flags) == Image && ToDom(flags) == Host;
    SpecialFixedCopiesNode(w, from, to, flags);
    SpecialFixedGetSucceeds(w, from, to, flags);
  }

  lemma SpecialFixedGetSucceeds(w: World, from: string, to: string, flags: bv32)
    requires OneWay(flags) && Get(flags)
    requires ParentErr(w.host, Norm(to)) == NoError
    requires Norm(to) in w.host.files ==> !w.host.files[Norm(to)].content.Entries?
    requires LstatF(w.image, from).Ok? && w.host.uid == 0
    requires IsChr(LstatF(w.image, from).value.mode) || IsBlk(LstatF(w.image, from).value.mode)
    ensures CopySpecialFixedF(w, from, to, flags).1 == 0
  {
    assert FromDom(flags) == Image && ToDom(flags) == Host;
    ClearTargetRemoves(w, to, Host);
    ClearTargetClears(w, to, Host, Host);
    var (w1, c) := ClearTargetF(w, to, Host, Host);
    assert w1.image == w.image;
    var st := LstatF(w1.image, from);
    assert MknodF(w1.host, to, st.value.mode, st.value.rdev).Ok?;
  }

  /** On success, either way, the corrected copy_special leaves a node of the source's type, permission bits and rdev. */
  lemma SpecialFixedCopiesNode(w: World, from: string, to: string, flags: bv32)
    requires OneWay(flags)
    ensures var st := LstatF(w.In(FromDom(flags)), from);
      var (w', rv) := CopySpecialFixedF(w, from, to, flags);
      rv == 0 ==> st.Ok? && Norm(to) in w'.In(ToDom(flags)).files
                  && w'.In(ToDom(flags)).files[Norm(to)].mode == st.value.mode & (S_IFMT | ALLPERMS)
                  && w'.In(ToDom(flags)).files[Norm(to)].rdev == st.value.rdev
  {
    var (w1, c) := ClearTargetF(w, to, ToDom(flags), ToDom(flags));
    ClearTargetClears(w, to, ToDom(flags), ToDom(flags));
    assert FromDom(flags) == ToDom(flags).Other();
    if c != -1 {
      assert w1.In(FromDom(flags)) == w.In(FromDom(flags));
    }
  }

  /** copy_special on success: a node of the source's type, permission bits and rdev. */
  lemma SpecialCopiesNode(w: World, from: string, to: string, flags: bv32)
    requires OneWay(flags) && Put(flags)
    ensures var st := LstatF(w.host, from);
      var (w', rv) := CopySpecialF(w, from, to, flags);
      rv == 0 ==> st.Ok? && Norm(to) in w'.image.files
                  && w'.image.files[Norm(to)].mode == st.value.mode & (S_IFMT | ALLPERMS)
                  && w'.image.files[Norm(to)].rdev == st.value.rdev
  {
    assert !Get(flags) && FromDom(flags) == Host && ToDom(flags) == Image;
    var (w1, c) := ClearTargetF(w, to, Image, Image);
    ClearTargetClears(w, to, Image, Image);
    if c != -1 {
      var st := LstatF(w1.host, from);
      assert w1.host == w.host;
      if st.Ok? {
        var m := MknodF(w1.image, to, st.value.mode, st.value.rdev);
        assert CopySpecialF(w, from, to, flags) == Apply(w1, Image, m);
      }
    }
  }

  // ---------------------------------------------------------------------
  // copy_to_file

  /** A source that is no FIFO, link, device or regular file is refused, and nothing changes. */
  lemma OtherTypeRefused(w: World, from: string, frstat: Stat, to: string, flags: bv32)
    requires OneWay(flags)
    requires TypeOf(frstat.mode) in {Dir, Sock, Unknown}
    ensures CopyToFileF(w, from, frstat, to, flags) == (w, -1)
  {
  }

  /**
   * The result of copy_to_file: a failed copy is returned as it is; after a
   * copy that worked, put reports 0 whatever the unlink and the chown did,
   * and get reports 0 unless DELETE's unlink of the image source failed.
   */
  lemma ToFileResult(w: World, from: string, frstat: Stat, to: string, flags: bv32)
    requires OneWay(flags)
    ensures var (w1, c) := CopyByTypeF(w, from, frstat, to, flags);
      var rv := CopyToFileF(w, from, frstat, to, flags).1;
      && (c != 0 ==> rv == -1)
      && (c == 0 && Put(flags) ==> rv == 0)
      && (c == 0 && Get(flags) ==> (rv == 0 <==> !Delete(flags) || UnlinkF(w1.image, from).Ok?))
  {
  }

  /** read(2) and open(2) for reading only, without O_CREAT, leave the files alone. */
  lemma ReadOpenKeepsFiles(w: World, d: Dom, p: string, mode: bv32)
    ensures OpenW(w, d, p, O_RDONLY, mode).0.In(d).files == w.In(d).files
    ensures OpenW(w, d, p, O_RDONLY, mode).0.In(d.Other()) == w.In(d.Other())
  {
    var r := OpenF(w.In(d), p, O_RDONLY, mode);
    if r.Ok? {
      var fs := w.In(d);
      var t := Resolve(fs, p, MAXSYMLINKS).value;
      assert fs.files[t := fs.files[t]] == fs.files;
    }
  }

  /** Between two domains the loop leaves the source domain's files alone. */
  lemma {:induction false} PumpKeepsSource(w: World, sd: Dom, fdfrom: int, dd: Dom, fdto: int)
    requires sd != dd
    ensures PumpF(w, sd, fdfrom, dd, fdto).0.In(sd).files == w.In(sd).files
    decreases Unread(w.In(sd), fdfrom)
  {
    var (w1, rd, buf) := ReadW(w, sd, fdfrom, BUFSIZE);
    var (w2, wr) := WriteW(w1, dd, fdto, buf);
    assert w2.In(sd).files == w.In(sd).files;
    if rd != -1 && wr != -1 && wr == rd && rd != 0 {
      PumpStep(w, sd, fdfrom, dd, fdto);
      PumpKeepsSource(w2, sd, fdfrom, dd, fdto);
    }
  }

  /** copy_file leaves the source domain's files alone. */
  lemma FileKeepsSource(w: World, from: string, to: string, flags: bv32)
    requires OneWay(flags)
    ensures CopyFileF(w, from, to, flags).0.In(FromDom(flags)).files == w.In(FromDom(flags)).files
  {
    var d := FromDom(flags);
    var st := StatF(w.In(d), from);
    if st.Ok? {
      var (w2, fdfrom, fdto) := OpenEndsF(w, from, to, flags, st.value.mode);
      if Get(flags) {
        var (w1, fdto') := OpenW(w, Host, to, O_WRONLY | O_CREAT | O_EXCL, 0x1FF);
        ReadOpenKeepsFiles(w1, Image, from, 0);
      } else {
        ReadOpenKeepsFiles(w, Host, from, 0);
      }
      assert w2.In(d).files == w.In(d).files;
      PumpKeepsSource(w2, d, fdfrom, ToDom(flags), fdto);
      var (w3, rv) := PumpF(w2, d, fdfrom, ToDom(flags), fdto);
      CloseKeepsFiles(w3, Host, fdto);
      CloseKeepsFiles(w3, Host, fdfrom);
      CloseKeepsFiles(CloseW(w3, Host, fdto), Image, fdfrom);
      CloseKeepsFiles(CloseW(w3, Host, fdfrom), Image, fdto);
    }
  }

  /** copy_fifo, copy_link and (for put) copy_special change only the target domain's files. */
  lemma NodeCopiesKeepSource(w: World, from: string, to: string, flags: bv32)
    requires OneWay(flags)
    ensures CopyFifoF(w, from, to, flags).0.In(FromDom(flags)).files == w.In(FromDom(flags)).files
    ensures CopyLinkF(w, from, to, flags).0.In(FromDom(flags)).files == w.In(FromDom(flags)).files
    ensures Put(flags) ==> CopySpecialF(w, from, to, flags).0.In(FromDom(flags)).files == w.In(FromDom(flags)).files
  {
    ClearTargetClears(w, to, ToDom(flags), ToDom(flags));
    ClearTargetClears(w, to, ToDom(flags), Image);
  }

  /**
   * Without DELETE, copy_to_file leaves the source domain's files as they
   * were, except for a get of a device node, which unlinks through the image
   * (where its source is) a name that is there under the target's path.
   */
  lemma ToFileKeepsSource(w: World, from: string, frstat: Stat, to: string, flags: bv32)
    requires OneWay(flags) && !Delete(flags)
    requires Get(flags) ==> TypeOf(frstat.mode) != Chr && TypeOf(frstat.mode) != Blk
    ensures CopyToFileF(w, from, frstat, to, flags).0.In(FromDom(flags)).files == w.In(FromDom(flags)).files
  {
    ByTypeKeepsSource(w, from, frstat, to, flags);
  }

  lemma ByTypeKeepsSource(w: World, from: string, frstat: Stat, to: string, flags: bv32)
    requires OneWay(flags)
    requires Get(flags) ==> TypeOf(frstat.mode) != Chr && TypeOf(frstat.mode) != Blk
    ensures CopyByTypeF(w, from, frstat, to, flags).0.In(FromDom(flags)).files == w.In(FromDom(flags)).files
  {
    NodeCopiesKeepSource(w, from, to, flags);
    FileKeepsSource(w, from, to, flags);
  }
}

=== FILE: ecp_tree.dfy ===
// copy_dir_rec and what leads to it in src/fsu_ecp.c: the walker's listing of
// the source tree, the grouping of hard links, the creation of the destination
// root, the copy loop, the removal of the source in move mode, and the
// relinking of the grouped names. Each stage is a function of the world it
// starts from and a method on the System proved equal to it.

module EcpTree {
  import opened Posix
  import opened Domain
  import opened EcpArgs
  import opened EcpCopy
  import Flist
  import FlistProps

  type Entry = Flist.Entry

  // ---------------------------------------------------------------------
  // Hard-link grouping

  /** A hard-link group: the representative's path and the aliases found for it. */
  datatype Group = Group(from: string, aliases: seq<string>)

  /** An entry grouping passes over: a directory, or a file with one link. */
  predicate Single(e: Entry) { IsDir(e.sb.mode) || e.sb.nlink == 1 }

  /** Both entries name the same inode. */
  predicate SameFile(a: Entry, b: Entry) { a.sb.ino == b.sb.ino && a.sb.dev == b.sb.dev }

  function Paths(l: seq<Entry>): (r: seq<string>)
    ensures |r| == |l| && forall k :: 0 <= k < |l| ==> r[k] == l[k].path
  {
    if l == [] then [] else [l[0].path] + Paths(l[1..])
  }

  /** l without its entry at j. */
  function Without(l: seq<Entry>, j: nat): (r: seq<Entry>)
    requires j < |l|
    ensures |r| == |l| - 1 && r[..j] == l[..j]
    ensures forall k :: j <= k < |r| ==> r[k] == l[k + 1]
  {
    l[..j] + l[j + 1..]
  }

  /**
   * The lstat of a candidate, in the domain the copy comes from: the world
   * after it, and the stat buffer, which a failure leaves as it was.
   */
  function ProbeF(w: World, p: string, sb: Option<Stat>, flags: bv32): (World, Option<Stat>) {
    var st := LstatF(w.In(FromDom(flags)), p);
    (Looked(w, st), if st.Ok? then Some(st.value) else sb)
  }

  /** The symbolic link test on the stat buffer; None, no stat yet, is taken to show no link. */
  predicate ShowsLink(sb: Option<Stat>) { sb.Some? && IsLnk(sb.value.mode) }

  /**
   * The inner loop of the grouping for the representative l[i], at the
   * candidate l[j]. It yields the world (a failed lstat sets errno), the list
   * with the aliases removed, the aliases in list order, and the struct stat
   * the last successful lstat left behind (None while there has been none).
   * A failed lstat leaves that struct as it was, and it is what the symbolic
   * link test reads.
   */
  function AliasesF(w: World, l: seq<Entry>, i: nat, j: nat, sb: Option<Stat>, found: seq<string>, flags: bv32)
    : (r: (World, seq<Entry>, seq<string>, Option<Stat>))
    requires i < j <= |l|
    ensures j <= |r.1| <= |l| && r.1[..j] == l[..j]
    decreases |l| - j
  {
    if j == |l| then (w, l, found, sb)
    else if Single(l[j]) then AliasesF(w, l, i, j + 1, sb, found, flags)
    else
      var (w1, sb1) := ProbeF(w, l[j].path, sb, flags);
      if ShowsLink(sb1) then AliasesF(w1, l, i, j + 1, sb1, found, flags)
      else if SameFile(l[i], l[j]) then
        var found1 := found + [l[j].path];
        if |found1| + 1 == l[i].sb.nlink then (w1, Without(l, j), found1, sb1)
        else AliasesF(w1, Without(l, j), i, j, sb1, found1, flags)
      else AliasesF(w1, l, i, j + 1, sb1, found, flags)
  }

  /** What the grouping leaves: the world, whether it got to the end, the list, the groups and the stat buffer. */
  datatype Grouping = Grouping(w: World, ok: bool, l: seq<Entry>, groups: seq<Group>, sb: Option<Stat>)

  /**
   * The outer loop of the grouping, at entry l[i]. Every entry that is not
   * Single starts a group, put in front of the earlier ones; a link count of
   * 0 makes the allocation of its alias array fail, and copy_dir_rec returns -1.
   */
  function GroupF(w: World, l: seq<Entry>, i: nat, sb: Option<Stat>, groups: seq<Group>, flags: bv32): (r: Grouping)
    requires i <= |l|
    ensures i <= |r.l| <= |l| && r.l[..i] == l[..i]
    ensures i < |l| ==> i < |r.l| && r.l[i] == l[i]
    decreases |l| - i
  {
    if i == |l| then Grouping(w, true, l, groups, sb)
    else if Single(l[i]) then GroupF(w, l, i + 1, sb, groups, flags)
    else if l[i].sb.nlink < 1 then Grouping(w, false, l, groups, sb)
    else
      var (w1, l1, found, sb1) := AliasesF(w, l, i, i + 1, sb, [], flags);
      GroupF(w1, l1, i + 1, sb1, [Group(l[i].path, found)] + groups, flags)
  }

  method Probe(sys: System, p: string, sb0: Option<Stat>, flags: bv32) returns (sb: Option<Stat>)
    modifies sys
    ensures (sys.Now(), sb) == ProbeF(old(sys.Now()), p, sb0, flags)
  {
    var st := sys.Lstat(FromDom(flags), p);
    sb := if st.Ok? then Some(st.value) else sb0;
  }

  /** The inner loop of the grouping for l0[i]: the list it leaves, the aliases and the stat buffer. */
  method Aliases(sys: System, l0: seq<Entry>, i: nat, sb0: Option<Stat>, flags: bv32)
    returns (l: seq<Entry>, found: seq<string>, sb: Option<Stat>)
    requires i < |l0|
    modifies sys
    ensures (sys.Now(), l, found, sb) == AliasesF(old(sys.Now()), l0, i, i + 1, sb0, [], flags)
  {
    l, found, sb := l0, [], sb0;
    var j := i + 1;
    while j < |l|
      invariant i < j <= |l|
      invariant AliasesF(sys.Now(), l, i, j, sb, found, flags) == AliasesF(old(sys.Now()), l0, i, i + 1, sb0, [], flags)
      decreases |l| - j
    {
      if Single(l[j]) {
        j := j + 1;
        continue;
      }
      sb := Probe(sys, l[j].path, sb, flags);
      if ShowsLink(sb) {
        j := j + 1;
      } else if SameFile(l[i], l[j]) {
        found := found + [l[j].path];
        if |found| + 1 == l[i].sb.nlink {
          l := Without(l, j);
          return;
        }
        l := Without(l, j);
      } else {
        j := j + 1;
      }
    }
  }

  /** The grouping loop over the walker's listing l0. */
  method GroupLinks(sys: System, l0: seq<Entry>, flags: bv32) returns (ok: bool, l: seq<Entry>, groups: seq<Group>, sb: Option<Stat>)
    modifies sys
    ensures Grouping(sys.Now(), ok, l, groups, sb) == GroupF(old(sys.Now()), l0, 0, None, [], flags)
  {
    l, groups, sb := l0, [], None;
    var i := 0;
    while i < |l|
      invariant i <= |l|
      invariant GroupF(sys.Now(), l, i, sb, groups, flags) == GroupF(old(sys.Now()), l0, 0, None, [], flags)
      decreases |l| - i
    {
      if !Single(l[i]) {
        if l[i].sb.nlink < 1 {
          return false, l, groups, sb;
        }
        var rep := l[i].path;
        var found;
        l, found, sb := Aliases(sys, l, i, sb, flags);
        groups := [Group(rep, found)] + groups;
      }
      i := i + 1;
    }
    ok := true;
  }

  // ---------------------------------------------------------------------
  // The destination root and the copy loop

  /**
   * The chown that follows a successful mkdir of a destination directory:
   * through the image, to the owner in st, unless getting; a failure only
   * warns.
   */
  function ChownDirF(w: World, to: string, st: Stat, flags: bv32): World {
    if Get(flags) then w else Apply(w, Image, ChownF(w.image, to, st.uid, st.gid, true)).0
  }

  /**
   * Creating the destination root to with the source root's mode: true to go
   * on to the copy loop, false to go to the cleanup. An existing name is
   * accepted when stat shows a directory; a failed stat leaves the stat
   * buffer sb as the grouping left it, and no stat at all (None) is taken to
   * show no directory. A non-directory sets errno to ENOTDIR.
   */
  function MakeRootF(w: World, to: string, root: Stat, sb: Option<Stat>, flags: bv32): (World, bool) {
    var d := ToDom(flags);
    var (w1, rv) := Apply(w, d, MkdirF(w.In(d), to, root.mode));
    if rv == 0 then (ChownDirF(w1, to, root, flags), true)
    else if w1.errno != EEXIST then (w1, false)
    else
      var st := StatF(w1.In(d), to);
      var w2 := Looked(w1, st);
      var sb2 := if st.Ok? then Some(st.value) else sb;
      if sb2.None? || !IsDir(sb2.value.mode) then (w2.(errno := ENOTDIR), false)
      else (ChownDirF(w2, to, root, flags), true)
  }

  /** s without its first off characters (nothing when it is shorter). */
  function Tail(s: string, off: nat): string {
    if off <= |s| then s[off..] else ""
  }

  /** How the copy loop ended: at the end of the list, at a break, or at ENOSPC. */
  datatype Stop = Completed | Broke | NoSpace

  /**
   * One turn of the copy loop, for the entry e going to dest followed by its
   * path without the first off characters. The length check compares
   * strlcat's result with the one pathlen predicts. A directory is made (a
   * failure sets res to -1 and ends the loop) and chowned; anything else goes
   * through copy_to_file, whose result is OR-ed into res, and errno ENOSPC
   * after it ends the loop. None means the loop goes on.
   */
  function EntryF(w: World, e: Entry, dest: string, off: nat, res: int, flags: bv32): (r: (World, int, Option<Stop>))
    requires OneWay(flags) && (res == 0 || res == -1)
    ensures r.1 == 0 || r.1 == -1
    ensures r.2 == Some(Broke) ==> r.1 == -1
    ensures r.2 != Some(Completed)
  {
    var to := dest + Tail(e.path, off);
    if |Tail(e.path, off)| != e.pathlen - off then (w, -1, Some(Broke))
    else if IsDir(e.sb.mode) then
      var (w1, rv) := Apply(w, ToDom(flags), MkdirF(w.In(ToDom(flags)), to, e.sb.mode));
      if rv == -1 then (w1, -1, Some(Broke))
      else (ChownDirF(w1, to, e.sb, flags), res, None)
    else
      var (w1, rv) := CopyToFileF(w, e.path, e.sb, to, flags);
      var res1 := if res == 0 && rv == 0 then 0 else -1;
      (w1, res1, if w1.errno == ENOSPC then Some(NoSpace) else None)
  }

  /** The copy loop from entry l[k] on. */
  function CopyLoopF(w: World, l: seq<Entry>, k: nat, dest: string, off: nat, res: int, flags: bv32)
    : (r: (World, int, Stop))
    requires OneWay(flags) && k <= |l| && (res == 0 || res == -1)
    ensures r.1 == 0 || r.1 == -1
    ensures r.2 == Broke ==> r.1 == -1
    decreases |l| - k
  {
    if k == |l| then (w, res, Completed)
    else
      var (w1, res1, stop) := EntryF(w, l[k], dest, off, res, flags);
      if stop.Some? then (w1, res1, stop.value)
      else CopyLoopF(w1, l, k + 1, dest, off, res1, flags)
  }

  // ---------------------------------------------------------------------
  // Move mode and relinking

  /**
   * fsu_remove_directory_tree from l[k] back to the root l[0]: rmdir for a
   * directory, unlink otherwise, in d (the image when getting and the host
   * otherwise); the first failure ends it.
   */
  function RemoveBackF(w: World, l: seq<Entry>, k: nat, d: Dom): (r: (World, int))
    requires k < |l|
    ensures r.1 == 0 || r.1 == -1
    decreases k
  {
    var (w1, rv) := RemoveEntryF(w, d, l[k]);
    if rv == -1 || k == 0 then (w1, rv) else RemoveBackF(w1, l, k - 1, d)
  }

  /** The domain the source is removed from. */
  function SourceDom(flags: bv32): Dom { if Get(flags) then Image else Host }

  /** One removal: rmdir for a directory, unlink otherwise. */
  function RemoveEntryF(w: World, d: Dom, e: Entry): (World, int) {
    Apply(w, d, if IsDir(e.sb.mode) then RmdirF(w.In(d), e.path) else UnlinkF(w.In(d), e.path))
  }

  /** The content copy that stands in for a link: copy_fileout when getting, copy_filein otherwise. */
  function FallbackF(w: World, from: string, to: string, flags: bv32): World {
    if Get(flags) then CopyFileOutF(w, from, to).0 else CopyFileInF(w, from, to).0
  }

  /**
   * Relinking one group: each alias's destination (dest and the alias without
   * its first off characters) becomes a link to hlfrom while links are
   * supported; the first EOPNOTSUPP turns that off, and from that alias on
   * each one is a content copy. Other link errors are ignored.
   */
  function RelinkGroupF(w: World, hlfrom: string, aliases: seq<string>, dest: string, off: nat,
                        supported: bool, flags: bv32): (r: (World, bool))
    decreases |aliases|
  {
    if aliases == [] then (w, supported)
    else
      var hlto := dest + Tail(aliases[0], off);
      var d := ToDom(flags);
      if supported then
        var (w1, rv) := Apply(w, d, LinkF(w.In(d), hlfrom, hlto));
        if rv != 0 && w1.errno == EOPNOTSUPP then
          RelinkGroupF(FallbackF(w1, hlfrom, hlto, flags), hlfrom, aliases[1..], dest, off, false, flags)
        else RelinkGroupF(w1, hlfrom, aliases[1..], dest, off, true, flags)
      else RelinkGroupF(FallbackF(w, hlfrom, hlto, flags), hlfrom, aliases[1..], dest, off, false, flags)
  }

  /** Relinking the groups in list order, the most recently created first. */
  function RelinkF(w: World, groups: seq<Group>, dest: string, off: nat, supported: bool, flags: bv32): World
    decreases |groups|
  {
    if groups == [] then w
    else
      var hlfrom := dest + Tail(groups[0].from, off);
      var (w1, s1) := RelinkGroupF(w, hlfrom, groups[0].aliases, dest, off, supported, flags);
      RelinkF(w1, groups[1..], dest, off, s1, flags)
  }

  // ---------------------------------------------------------------------
  // copy_dir_rec, copy_dir and fsu_ecp

  /** The walker's options: STATLINK unless NO_COPY_LINK, RECURSIVE and, when putting, REALFS. */
  function WalkOptions(flags: bv32): bv32 {
    (if NoCopyLink(flags) then 0 else 0x02) | (if Recursive(flags) then 0x01 else 0) | (if Put(flags) then 0x04 else 0)
  }

  /** The walker's listing of the host tree at from, or None. */
  function ListingF(host: Fs, from: string, flags: bv32): (r: Option<seq<Entry>>)
    ensures r.Some? ==> |r.value| >= 1
  {
    if !Flist.NamesWellFormed(host) then None
    else
      FlistProps.BuildShape(host, Some(from), WalkOptions(flags));
      Flist.Build(host, Some(from), WalkOptions(flags))
  }

  /**
   * What follows the copy loop when it did not end at ENOSPC: in move mode
   * with res 0 the source is removed back from the last entry of l (a
   * listing of the root alone leaves no last entry, and nothing is removed),
   * then the groups are relinked.
   */
  function AfterLoopF(w: World, l: seq<Entry>, groups: seq<Group>, to: string, off: nat, res: int,
                      doDelete: bool, flags: bv32): World
  {
    var w1 := if doDelete && res == 0 && |l| > 1 then RemoveBackF(w, l, |l| - 1, SourceDom(flags)).0 else w;
    RelinkF(w1, groups, to, off, true, flags)
  }

  /**
   * copy_dir_rec after a grouping that got to the end, with the grouped list
   * l, whose root was stat-ed as root and lies off characters deep.
   */
  function TreeCopyF(w: World, l: seq<Entry>, groups: seq<Group>, sb: Option<Stat>, root: Stat, off: nat,
                     to: string, doDelete: bool, flags: bv32): (r: (World, int))
    requires OneWay(flags) && |l| >= 1
    ensures r.1 == 0 || r.1 == -1
  {
    var (w1, go) := MakeRootF(w, to, root, sb, flags);
    if !go then (w1, 0)
    else
      var (w2, res, stop) := CopyLoopF(w1, l, 1, to, off, 0, flags);
      if stop == NoSpace then (w2, res)
      else (AfterLoopF(w2, l, groups, to, off, res, doDelete, flags), res)
  }

  /**
   * copy_dir_rec from the tree at from to the destination root to. DELETE is
   * taken out of the flags the entries are copied with and only decides the
   * removal of the source; ENOSPC skips both the removal and the relinking.
   */
  function CopyDirRecF(w: World, from: string, to: string, flags: bv32): (r: (World, int))
    requires OneWay(flags)
    ensures r.1 == 0 || r.1 == -1
  {
    var fl := flags & !0x20;
    assert OneWay(fl);
    match ListingF(w.host, from, fl)
    case None => (w, -1)
    case Some(l) =>
      var g := GroupF(w, l, 0, None, [], fl);
      if !g.ok then (g.w, -1)
      else TreeCopyF(g.w, g.l, g.groups, g.sb, l[0].sb, l[0].pathlen, to, Delete(flags), fl)
  }

  /** to with a '/' added unless it already ends in one. */
  function WithSlash(to: string): string {
    if to != "" && to[|to| - 1] == '/' then to else to + "/"
  }

  /**
   * copy_dir: an existing non-directory to is refused; a missing to is made
   * with mode 0777; the tree then goes to WithSlash(to) followed by the last
   * name of from.
   */
  function CopyDirF(w: World, from: string, to: string, flags: bv32): (r: (World, int))
    requires OneWay(flags)
    ensures r.1 == 0 || r.1 == -1
  {
    var d := ToDom(flags);
    var root := WithSlash(to) + AfterLastSlash(from);
    var st := LstatF(w.In(d), to);
    var w1 := Looked(w, st);
    if st.Ok? then
      if !IsDir(st.value.mode) then (w1, -1) else CopyDirRecF(w1, from, root, flags)
    else
      var (w2, rv) := Apply(w1, d, MkdirF(w1.In(d), to, 0x1FF));
      if rv == -1 then (w2, -1)
      else
        var st2 := LstatF(w2.In(d), to);
        if st2.Fail? then (Looked(w2, st2), -1) else CopyDirRecF(w2, from, root, flags)
  }

  /**
   * fsu_ecp: the source is lstat-ed where it lives; a directory needs -R and
   * goes to copy_dir; anything else goes into to when stat shows a directory
   * there, and onto to otherwise.
   */
  function EcpF(w: World, from: string, to: string, flags: bv32): (r: (World, int))
    requires OneWay(flags)
    ensures r.1 == 0 || r.1 == -1
  {
    var fst := LstatF(w.In(FromDom(flags)), from);
    if fst.Fail? then (Looked(w, fst), -1)
    else if IsDir(fst.value.mode) then
      if !Recursive(flags) then (w, -1) else CopyDirF(w, from, to, flags)
    else
      var tst := StatF(w.In(ToDom(flags)), to);
      var w1 := Looked(w, tst);
      if tst.Ok? && IsDir(tst.value.mode) then CopyToDirF(w1, from, fst.value, to, flags)
      else CopyToFileF(w1, from, fst.value, to, flags)
  }

  // ---------------------------------------------------------------------
  // The stages on the System

  method ChownDir(sys: System, to: string, st: Stat, flags: bv32)
    modifies sys
    ensures sys.Now() == ChownDirF(old(sys.Now()), to, st, flags)
  {
    if !Get(flags) {
      var _ := sys.Commit(Image, ChownF(sys.image, to, st.uid, st.gid, true));
    }
  }

  method MakeRoot(sys: System, to: string, root: Stat, sb: Option<Stat>, flags: bv32) returns (go: bool)
    modifies sys
    ensures (sys.Now(), go) == MakeRootF(old(sys.Now()), to, root, sb, flags)
  {
    var d := ToDom(flags);
    var rv := sys.Commit(d, MkdirF(sys.Now().In(d), to, root.mode));
    if rv == -1 {
      if sys.errno != EEXIST {
        return false;
      }
      var st := sys.Stat(d, to);
      var sb2 := if st.Ok? then Some(st.value) else sb;
      if sb2.None? || !IsDir(sb2.value.mode) {
        sys.errno := ENOTDIR;
        return false;
      }
    }
    ChownDir(sys, to, root, flags);
    go := true;
  }

  method CopyEntry(sys: System, e: Entry, dest: string, off: nat, res0: int, flags: bv32)
    returns (res: int, stop: Option<Stop>)
    requires OneWay(flags) && (res0 == 0 || res0 == -1)
    modifies sys
    ensures (sys.Now(), res, stop) == EntryF(old(sys.Now()), e, dest, off, res0, flags)
  {
    var to := dest + Tail(e.path, off);
    if |Tail(e.path, off)| != e.pathlen - off {
      return -1, Some(Broke);
    }
    if IsDir(e.sb.mode) {
      var rv := sys.Commit(ToDom(flags), MkdirF(sys.Now().In(ToDom(flags)), to, e.sb.mode));
      if rv == -1 {
        return -1, Some(Broke);
      }
      ChownDir(sys, to, e.sb, flags);
      return res0, None;
    }
    var rv := CopyToFile(sys, e.path, e.sb, to, flags);
    res := if res0 == 0 && rv == 0 then 0 else -1;
    stop := if sys.errno == ENOSPC then Some(NoSpace) else None;
  }

  method CopyLoop(sys: System, l: seq<Entry>, dest: string, off: nat, flags: bv32) returns (res: int, stop: Stop)
    requires OneWay(flags) && 1 <= |l|
    modifies sys
    ensures (sys.Now(), res, stop) == CopyLoopF(old(sys.Now()), l, 1, dest, off, 0, flags)
  {
    res := 0;
    var k := 1;
    while k < |l|
      invariant 1 <= k <= |l| && (res == 0 || res == -1)
      invariant CopyLoopF(sys.Now(), l, k, dest, off, res, flags) == CopyLoopF(old(sys.Now()), l, 1, dest, off, 0, flags)
      decreases |l| - k
    {
      var next;
      res, next := CopyEntry(sys, l[k], dest, off, res, flags);
      if next.Some? {
        return res, next.value;
      }
      k := k + 1;
    }
    stop := Completed;
  }

  method RemoveBack(sys: System, l: seq<Entry>, last: nat, flags: bv32) returns (rv: int)
    requires last < |l|
    modifies sys
    ensures (sys.Now(), rv) == RemoveBackF(old(sys.Now()), l, last, SourceDom(flags))
  {
    var d := SourceDom(flags);
    var k: nat := last;
    ghost var w0 := sys.Now();
    rv := RemoveStep(sys, l, k, d);
    while rv != -1 && k != 0
      invariant k <= last
      invariant rv == -1 || k == 0 ==> RemoveBackF(w0, l, last, d) == (sys.Now(), rv)
      invariant rv != -1 && k != 0 ==> RemoveBackF(w0, l, last, d) == RemoveBackF(sys.Now(), l, k - 1, d)
      decreases k
    {
      k := k - 1;
      rv := RemoveStep(sys, l, k, d);
    }
  }

  /** The removal of l[k], and what is left of RemoveBackF after it. */
  method RemoveStep(sys: System, l: seq<Entry>, k: nat, d: Dom) returns (rv: int)
    requires k < |l|
    modifies sys
    ensures rv == -1 || k == 0 ==> RemoveBackF(old(sys.Now()), l, k, d) == (sys.Now(), rv)
    ensures rv != -1 && k != 0 ==> RemoveBackF(old(sys.Now()), l, k, d) == RemoveBackF(sys.Now(), l, k - 1, d)
  {
    rv := RemoveEntry(sys, d, l[k]);
  }

  method RemoveEntry(sys: System, d: Dom, e: Entry) returns (rv: int)
    modifies sys
    ensures (sys.Now(), rv) == RemoveEntryF(old(sys.Now()), d, e)
  {
    if IsDir(e.sb.mode) {
      rv := sys.Commit(d, RmdirF(sys.Now().In(d), e.path));
    } else {
      rv := sys.Commit(d, UnlinkF(sys.Now().In(d), e.path));
    }
  }

  method Fallback(sys: System, from: string, to: string, flags: bv32)
    modifies sys
    ensures sys.Now() == FallbackF(old(sys.Now()), from, to, flags)
  {
    if Get(flags) {
      var _ := CopyFileOut(sys, from, to);
    } else {
      var _ := CopyFileIn(sys, from, to);
    }
  }

  method RelinkGroup(sys: System, hlfrom: string, aliases: seq<string>, dest: string, off: nat,
                     supported0: bool, flags: bv32) returns (supported: bool)
    modifies sys
    ensures (sys.Now(), supported) == RelinkGroupF(old(sys.Now()), hlfrom, aliases, dest, off, supported0, flags)
  {
    supported := supported0;
    var c := 0;
    while c < |aliases|
      invariant c <= |aliases|
      invariant RelinkGroupF(sys.Now(), hlfrom, aliases[c..], dest, off, supported, flags)
        == RelinkGroupF(old(sys.Now()), hlfrom, aliases, dest, off, supported0, flags)
    {
      assert aliases[c..][1..] == aliases[c + 1..];
      var hlto := dest + Tail(aliases[c], off);
      if supported {
        var d := ToDom(flags);
        var rv := sys.Commit(d, LinkF(sys.Now().In(d), hlfrom, hlto));
        if rv != 0 && sys.errno == EOPNOTSUPP {
          supported := false;
          Fallback(sys, hlfrom, hlto, flags);
        }
      } else {
        Fallback(sys, hlfrom, hlto, flags);
      }
      c := c + 1;
    }
  }

  method Relink(sys: System, groups: seq<Group>, dest: string, off: nat, flags: bv32)
    modifies sys
    ensures sys.Now() == RelinkF(old(sys.Now()), groups, dest, off, true, flags)
  {
    var supported := true;
    var n := 0;
    while n < |groups|
      invariant n <= |groups|
      invariant RelinkF(sys.Now(), groups[n..], dest, off, supported, flags) == RelinkF(old(sys.Now()), groups, dest, off, true, flags)
    {
      assert groups[n..][1..] == groups[n + 1..];
      var hlfrom := dest + Tail(groups[n].from, off);
      supported := RelinkGroup(sys, hlfrom, groups[n].aliases, dest, off, supported, flags);
      n := n + 1;
    }
  }

  method AfterLoop(sys: System, l: seq<Entry>, groups: seq<Group>, to: string, off: nat, res: int,
                   doDelete: bool, flags: bv32)
    modifies sys
    ensures sys.Now() == AfterLoopF(old(sys.Now()), l, groups, to, off, res, doDelete, flags)
  {
    if doDelete && res == 0 && |l| > 1 {
      var _ := RemoveBack(sys, l, |l| - 1, flags);
    }
    Relink(sys, groups, to, off, flags);
  }

  method TreeCopy(sys: System, l: seq<Entry>, groups: seq<Group>, sb: Option<Stat>, root: Stat, off: nat,
                  to: string, doDelete: bool, flags: bv32) returns (res: int)
    requires OneWay(flags) && |l| >= 1
    modifies sys
    ensures (sys.Now(), res) == TreeCopyF(old(sys.Now()), l, groups, sb, root, off, to, doDelete, flags)
  {
    var go := MakeRoot(sys, to, root, sb, flags);
    if !go {
      return 0;
    }
    var stop;
    res, stop := CopyLoop(sys, l, to, off, flags);
    if stop != NoSpace {
      AfterLoop(sys, l, groups, to, off, res, doDelete, flags);
    }
  }

  /** The walk; it only reads the host. */
  method Listing(host: Fs, from: string, flags: bv32) returns (r: Option<seq<Entry>>)
    ensures r == ListingF(host, from, flags)
  {
    r := None;
    if Flist.NamesWellFormed(host) {
      r := Flist.FlistBuild(host, Some(from), WalkOptions(flags));
    }
  }

  method CopyDirRec(sys: System, from: string, to: string, flags: bv32) returns (res: int)
    requires OneWay(flags)
    modifies sys
    ensures (sys.Now(), res) == CopyDirRecF(old(sys.Now()), from, to, flags)
  {
    var fl := flags & !0x20;
    assert OneWay(fl);
    var listing := Listing(sys.host, from, fl);
    if listing.None? {
      return -1;
    }
    var l0 := listing.value;
    var ok, l, groups, sb := GroupLinks(sys, l0, fl);
    if !ok {
      return -1;
    }
    res := TreeCopy(sys, l, groups, sb, l0[0].sb, l0[0].pathlen, to, Delete(flags), fl);
  }

  method CopyDir(sys: System, from: string, to: string, flags: bv32) returns (rv: int)
    requires OneWay(flags)
    modifies sys
    ensures (sys.Now(), rv) == CopyDirF(old(sys.Now()), from, to, flags)
  {
    var d := ToDom(flags);
    var root := WithSlash(to) + AfterLastSlash(from);
    var st := sys.Lstat(d, to);
    if st.Ok? && !IsDir(st.value.mode) {
      return -1;
    }
    if st.Fail? {
      rv := sys.Commit(d, MkdirF(sys.Now().In(d), to, 0x1FF));
      if rv == -1 {
        return -1;
      }
      st := sys.Lstat(d, to);
      if st.Fail? {
        return -1;
      }
    }
    rv := CopyDirRec(sys, from, root, flags);
  }

  method Ecp(sys: System, from: string, to: string, flags: bv32) returns (rv: int)
    requires OneWay(flags)
    modifies sys
    ensures (sys.Now(), rv) == EcpF(old(sys.Now()), from, to, flags)
  {
    var fst := sys.Lstat(FromDom(flags), from);
    if fst.Fail? {
      return -1;
    }
    if IsDir(fst.value.mode) {
      if !Recursive(flags) {
        return -1;
      }
      rv := CopyDir(sys, from, to, flags);
      return;
    }
    var tst := sys.Stat(ToDom(flags), to);
    if tst.Ok? && IsDir(tst.value.mode) {
      rv := CopyToDir(sys, from, fst.value, to, flags);
    } else {
      rv := CopyToFile(sys, from, fst.value, to, flags);
    }
  }

  // ---------------------------------------------------------------------
  // main

  /** A source operand without its trailing '/', never cut below one character. */
  function StripSlashes(s: string): (r: string)
    ensures |r| <= |s| && r == s[..|r|] && (|s| >= 1 ==> |r| >= 1)
    ensures |r| > 1 ==> r[|r| - 1] != '/'
    ensures forall k :: |r| <= k < |s| ==> s[k] == '/'
    decreases |s|
  {
    if |s| > 1 && s[|s| - 1] == '/' then StripSlashes(s[..|s| - 1]) else s
  }

  /** main's cut of an operand, one '/' at a time. */
  method StripOperand(s: string) returns (r: string)
    ensures r == StripSlashes(s)
  {
    var len := |s|;
    assert s[..len] == s;
    while len > 1 && s[len - 1] == '/'
      invariant len <= |s| && StripSlashes(s[..len]) == StripSlashes(s)
    {
      assert s[..len][..len - 1] == s[..len - 1];
      len := len - 1;
    }
    assert s[..len][..len] == s[..len];
    r := s[..len];
  }

  /** One more source for main's loop: its copy to target, its result OR-ed into the earlier ones. */
  function NextSource(prev: (World, int), src: string, target: string, flags: bv32): (World, int)
    requires OneWay(flags)
  {
    var (w1, rv1) := EcpF(prev.0, StripSlashes(src), target, flags);
    (w1, if prev.1 == 0 && rv1 == 0 then 0 else -1)
  }

  /** main's loop: each source in turn copied to target. */
  function EcpAllF(w: World, srcs: seq<string>, target: string, flags: bv32): (r: (World, int))
    requires OneWay(flags)
    ensures r.1 == 0 || r.1 == -1
    decreases |srcs|
  {
    if srcs == [] then (w, 0)
    else NextSource(EcpAllF(w, srcs[..|srcs| - 1], target, flags), srcs[|srcs| - 1], target, flags)
  }

  lemma EcpAllNext(w: World, srcs: seq<string>, n: nat, target: string, flags: bv32)
    requires OneWay(flags) && n < |srcs|
    ensures EcpAllF(w, srcs[..n + 1], target, flags) == NextSource(EcpAllF(w, srcs[..n], target, flags), srcs[n], target, flags)
  {
    assert srcs[..n + 1][..n] == srcs[..n];
  }

  method EcpAll(sys: System, srcs: seq<string>, target: string, flags: bv32) returns (status: int)
    requires OneWay(flags)
    modifies sys
    ensures (sys.Now(), status) == EcpAllF(old(sys.Now()), srcs, target, flags)
  {
    status := 0;
    var n := 0;
    while n < |srcs|
      invariant n <= |srcs|
      invariant (sys.Now(), status) == EcpAllF(old(sys.Now()), srcs[..n], target, flags)
    {
      EcpAllNext(old(sys.Now()), srcs, n, target, flags);
      var from := StripOperand(srcs[n]);
      var rv := Ecp(sys, from, target, flags);
      status := if status == 0 && rv == 0 then 0 else -1;
      n := n + 1;
    }
    assert srcs[..n] == srcs;
  }

  /**
   * main once the image is mounted: refused options or fewer than two
   * operands end in usage(), whose exit status is 1; otherwise every operand
   * but the last is copied to the last.
   */
  method EcpMain(sys: System, progname: string, opts: seq<char>, operands: seq<string>) returns (status: int)
    modifies sys
    ensures ParsedFlags(progname, opts).None? || |operands| < 2 ==> status == 1 && sys.Now() == old(sys.Now())
    ensures ParsedFlags(progname, opts).Some? && |operands| >= 2 ==>
      (sys.Now(), status) == EcpAllF(old(sys.Now()), operands[..|operands| - 1], operands[|operands| - 1],
                                     ParsedFlags(progname, opts).value)
  {
    var parsed := ParseArg(progname, opts);
    if parsed.None? || |operands| < 2 {
      return 1;
    }
    status := EcpAll(sys, operands[..|operands| - 1], operands[|operands| - 1], parsed.value);
  }
}

=== FILE: ecp_tree_props.dfy ===
// What the stages of copy_dir_rec (src/fsu_ecp.c) do to the listing and to
// the two domains: the hard-link grouping, the paths the entries go to, the
// removal of the source in move mode, the relinking, and main's exit status.

module EcpTreeProps {
  import opened Posix
  import opened Domain
  import opened EcpArgs
  import opened EcpCopy
  import opened EcpTree
  import Flist
  import FlistProps

  // ---------------------------------------------------------------------
  // The inner loop of the grouping

  /** The grouping only looks: both domains stay as they are. */
  lemma {:induction false} AliasesOnlyLook(w: World, l: seq<Entry>, i: nat, j: nat, sb: Option<Stat>,
                                            found: seq<string>, flags: bv32)
    requires i < j <= |l|
    ensures var r := AliasesF(w, l, i, j, sb, found, flags); r.0.host == w.host && r.0.image == w.image
    decreases |l| - j
  {
    if j < |l| {
      var (w1, sb1) := ProbeF(w, l[j].path, sb, flags);
      if Single(l[j]) {
        AliasesOnlyLook(w, l, i, j + 1, sb, found, flags);
      } else if ShowsLink(sb1) || !SameFile(l[i], l[j]) {
        AliasesOnlyLook(w1, l, i, j + 1, sb1, found, flags);
      } else if |found + [l[j].path]| + 1 != l[i].sb.nlink {
        AliasesOnlyLook(w1, Without(l, j), i, j, sb1, found + [l[j].path], flags);
      }
    }
  }

  /**
   * Each alias found is one entry taken out of the list, and the count stops
   * at nlink - 1: with fewer found so far, at most nlink - 1 are found in all.
   */
  lemma {:induction false} AliasesCount(w: World, l: seq<Entry>, i: nat, j: nat, sb: Option<Stat>,
                                         found: seq<string>, flags: bv32)
    requires i < j <= |l|
    ensures var r := AliasesF(w, l, i, j, sb, found, flags);
      && |found| <= |r.2| && r.2[..|found|] == found
      && |r.2| - |found| == |l| - |r.1|
      && (|found| + 1 < l[i].sb.nlink ==> |r.2| + 1 <= l[i].sb.nlink)
    decreases |l| - j
  {
    if j < |l| {
      var (w1, sb1) := ProbeF(w, l[j].path, sb, flags);
      var found1 := found + [l[j].path];
      if Single(l[j]) {
        AliasesCount(w, l, i, j + 1, sb, found, flags);
      } else if ShowsLink(sb1) || !SameFile(l[i], l[j]) {
        AliasesCount(w1, l, i, j + 1, sb1, found, flags);
      } else if |found1| + 1 != l[i].sb.nlink {
        AliasesCount(w1, Without(l, j), i, j, sb1, found1, flags);
        var r := AliasesF(w1, Without(l, j), i, j, sb1, found1, flags);
        assert r.2[..|found|] == r.2[..|found1|][..|found|];
      }
    }
  }

  /** What stays in the list was in it before. */
  lemma {:induction false} AliasesKept(w: World, l: seq<Entry>, i: nat, j: nat, sb: Option<Stat>,
                                        found: seq<string>, flags: bv32)
    requires i < j <= |l|
    ensures forall x :: x in AliasesF(w, l, i, j, sb, found, flags).1 ==> x in l
    decreases |l| - j
  {
    if j < |l| {
      var (w1, sb1) := ProbeF(w, l[j].path, sb, flags);
      var found1 := found + [l[j].path];
      if Single(l[j]) {
        AliasesKept(w, l, i, j + 1, sb, found, flags);

      } else if ShowsLink(sb1) || !SameFile(l[i], l[j]) {
        AliasesKept(w1, l, i, j + 1, sb1, found, flags);
      } else {
        var l1 := Without(l, j);
        if |found1| + 1 != l[i].sb.nlink {
          AliasesKept(w1, l1, i, j, sb1, found1, flags);
        }
        forall x | x in l1
          ensures x in l
        {
          var k :| 0 <= k < |l1| && l1[k] == x;
          if k < j {
            assert l1[k] == l[k];
          } else {
            assert l1[k] == l[k + 1];
          }
        }
      }
    }
  }

  /** a is the path of an entry from l[j] on naming l[i]'s inode, neither a directory nor singly linked. */
  predicate AliasAt(l: seq<Entry>, i: nat, j: nat, a: string)
    requires i < |l|
  {
    exists k :: j <= k < |l| && l[k].path == a && SameFile(l[i], l[k]) && !Single(l[k])
  }

  /**
   * Every alias found is the path of a later entry naming the same inode as
   * l[i] (equal st_ino and st_dev) that is neither a directory nor singly
   * linked.
   */
  lemma {:induction false} AliasesSameFile(w: World, l: seq<Entry>, i: nat, j: nat, sb: Option<Stat>,
                                            found: seq<string>, flags: bv32)
    requires i < j <= |l|
    ensures var r := AliasesF(w, l, i, j, sb, found, flags);
      && |found| <= |r.2|
      && (forall a :: a in r.2[|found|..] ==> AliasAt(l, i, j, a))
    decreases |l| - j, 1
  {
    AliasesCount(w, l, i, j, sb, found, flags);
    if j < |l| {
      var sb1 := ProbeF(w, l[j].path, sb, flags).1;
      if Single(l[j]) || ShowsLink(sb1) || !SameFile(l[i], l[j]) {
        AliasesSameFileSkip(w, l, i, j, sb, found, flags);
      } else if |found + [l[j].path]| + 1 != l[i].sb.nlink {
        AliasesSameFileTaken(w, l, i, j, sb, found, flags);
      }
    }
  }

  /** The case where l[j] is passed over. */
  lemma {:induction false} AliasesSameFileSkip(w: World, l: seq<Entry>, i: nat, j: nat, sb: Option<Stat>,
                                                found: seq<string>, flags: bv32)
    requires i < j < |l|
    requires Single(l[j]) || ShowsLink(ProbeF(w, l[j].path, sb, flags).1) || !SameFile(l[i], l[j])
    ensures var r := AliasesF(w, l, i, j, sb, found, flags);
      && |found| <= |r.2|
      && (forall a :: a in r.2[|found|..] ==> AliasAt(l, i, j, a))
    decreases |l| - j, 0
  {
    var (w1, sb1) := ProbeF(w, l[j].path, sb, flags);
    var w' := if Single(l[j]) then w else w1;
    var sb' := if Single(l[j]) then sb else sb1;
    assert AliasesF(w', l, i, j + 1, sb', found, flags) == AliasesF(w, l, i, j, sb, found, flags);
    AliasesSameFile(w', l, i, j + 1, sb', found, flags);
    AliasAtLater(l, i, j);
  }

  /** An alias at or after j + 1 is one at or after j. */
  lemma AliasAtLater(l: seq<Entry>, i: nat, j: nat)
    requires i < j < |l|
    ensures forall a :: AliasAt(l, i, j + 1, a) ==> AliasAt(l, i, j, a)
  {
  }

  /** The case where l[j] is taken as an alias and the loop goes on. */
  lemma {:induction false} AliasesSameFileTaken(w: World, l: seq<Entry>, i: nat, j: nat, sb: Option<Stat>,
                                                 found: seq<string>, flags: bv32)
    requires i < j < |l|
    requires var sb1 := ProbeF(w, l[j].path, sb, flags).1;
      !Single(l[j]) && !ShowsLink(sb1) && SameFile(l[i], l[j]) && |found + [l[j].path]| + 1 != l[i].sb.nlink
    ensures var r := AliasesF(w, l, i, j, sb, found, flags);
      && |found| <= |r.2|
      && (forall a :: a in r.2[|found|..] ==> AliasAt(l, i, j, a))
    decreases |l| - j, 0
  {
    var (w1, sb1) := ProbeF(w, l[j].path, sb, flags);
    var found1 := found + [l[j].path];
    var l1 := Without(l, j);
    var r := AliasesF(w1, l1, i, j, sb1, found1, flags);
    assert r == AliasesF(w, l, i, j, sb, found, flags);
    AliasesCount(w1, l1, i, j, sb1, found1, flags);
    assert r.2[|found|..] == [l[j].path] + r.2[|found1|..];
    AliasesSameFile(w1, l1, i, j, sb1, found1, flags);
    assert AliasAt(l, i, j, l[j].path);
    forall a | a in r.2[|found1|..]
      ensures AliasAt(l, i, j, a)
    {
      assert AliasAt(l1, i, j, a);
      var k' :| j <= k' < |l1| && l1[k'].path == a && SameFile(l1[i], l1[k']) && !Single(l1[k']);
      assert l1[k'] == l[k' + 1];
    }
  }

  /** The stat the grouping's symbolic link test can see for p: an lstat that failed, or one showing a link. */
  predicate NotTaken(fs: Fs, p: string) {
    LstatF(fs, p).Fail? || IsLnk(LstatF(fs, p).value.mode)
  }

  /** Every entry of ls from j on that is another name of e0's file shows no file, or a link, in fs. */
  predicate Complete(fs: Fs, e0: Entry, ls: seq<Entry>, j: nat) {
    forall k :: j <= k < |ls| && SameFile(e0, ls[k]) && !Single(ls[k]) ==> NotTaken(fs, ls[k].path)
  }

  /**
   * When the count did not stop the loop, every later entry still in the list
   * that is another name of the representative's file was passed over because
   * its lstat failed or showed a symbolic link.
   */
  lemma {:induction false} AliasesComplete(w: World, l: seq<Entry>, i: nat, j: nat, sb: Option<Stat>,
                                            found: seq<string>, flags: bv32)
    requires i < j <= |l|
    ensures var r := AliasesF(w, l, i, j, sb, found, flags);
      |r.2| + 1 != l[i].sb.nlink ==> Complete(w.In(FromDom(flags)), l[i], r.1, j)
    decreases |l| - j, 1
  {
    if j < |l| {
      var (w1, sb1) := ProbeF(w, l[j].path, sb, flags);
      if Single(l[j]) || ShowsLink(sb1) || !SameFile(l[i], l[j]) {
        AliasesCompleteSkip(w, l, i, j, sb, found, flags);
      } else if |found + [l[j].path]| + 1 != l[i].sb.nlink {
        AliasesComplete(w1, Without(l, j), i, j, sb1, found + [l[j].path], flags);
      }
    }
  }

  lemma {:induction false} AliasesCompleteSkip(w: World, l: seq<Entry>, i: nat, j: nat, sb: Option<Stat>,
                                                found: seq<string>, flags: bv32)
    requires i < j < |l|
    requires Single(l[j]) || ShowsLink(ProbeF(w, l[j].path, sb, flags).1) || !SameFile(l[i], l[j])
    ensures var r := AliasesF(w, l, i, j, sb, found, flags);
      |r.2| + 1 != l[i].sb.nlink ==> Complete(w.In(FromDom(flags)), l[i], r.1, j)
    decreases |l| - j, 0
  {
    var (w1, sb1) := ProbeF(w, l[j].path, sb, flags);
    var fs := w.In(FromDom(flags));
    var w' := if Single(l[j]) then w else w1;
    var sb' := if Single(l[j]) then sb else sb1;
    var r := AliasesF(w', l, i, j + 1, sb', found, flags);
    assert r == AliasesF(w, l, i, j, sb, found, flags);
    assert w'.In(FromDom(flags)) == fs;
    AliasesComplete(w', l, i, j + 1, sb', found, flags);
    assert r.1[j] == r.1[..j + 1][j];
    assert !Single(l[j]) && SameFile(l[i], l[j]) ==> NotTaken(fs, l[j].path);
    if |r.2| + 1 != l[i].sb.nlink {
      CompleteFrom(fs, l[i], r.1, j);
    }
  }

  /** Complete from j + 1 on, and l[j] not another name of e0's file or not taken. */
  lemma CompleteFrom(fs: Fs, e0: Entry, ls: seq<Entry>, j: nat)
    requires j < |ls| && Complete(fs, e0, ls, j + 1)
    requires SameFile(e0, ls[j]) && !Single(ls[j]) ==> NotTaken(fs, ls[j].path)
    ensures Complete(fs, e0, ls, j)
  {
  }

  // ---------------------------------------------------------------------
  // The outer loop of the grouping

  /** The representatives' paths, the last entry's first, as the groups are stacked. */
  function Reps(l: seq<Entry>): seq<string> {
    if l == [] then [] else Reps(l[1..]) + (if Single(l[0]) then [] else [l[0].path])
  }

  function Froms(gs: seq<Group>): seq<string> {
    if gs == [] then [] else [gs[0].from] + Froms(gs[1..])
  }

  lemma FromsCons(g: Group, gs: seq<Group>)
    ensures Froms([g] + gs) == [g.from] + Froms(gs)
  {
    assert ([g] + gs)[1..] == gs;
  }

  /** The grouping only looks: both domains stay as they are. */
  lemma {:induction false} GroupOnlyLooks(w: World, l: seq<Entry>, i: nat, sb: Option<Stat>, groups: seq<Group>, flags: bv32)
    requires i <= |l|
    ensures var r := GroupF(w, l, i, sb, groups, flags); r.w.host == w.host && r.w.image == w.image
    decreases |l| - i
  {
    if i < |l| {
      if Single(l[i]) {
        GroupOnlyLooks(w, l, i + 1, sb, groups, flags);
      } else if l[i].sb.nlink >= 1 {
        var (w1, l1, found, sb1) := AliasesF(w, l, i, i + 1, sb, [], flags);
        AliasesOnlyLook(w, l, i, i + 1, sb, [], flags);
        GroupOnlyLooks(w1, l1, i + 1, sb1, [Group(l[i].path, found)] + groups, flags);
      }
    }
  }

  /** The grouped list holds only entries of the listing, and the first i stay in place. */
  lemma {:induction false} GroupKept(w: World, l: seq<Entry>, i: nat, sb: Option<Stat>, groups: seq<Group>, flags: bv32)
    requires i <= |l|
    ensures forall x :: x in GroupF(w, l, i, sb, groups, flags).l ==> x in l
    decreases |l| - i
  {
    if i < |l| {
      if Single(l[i]) {
        GroupKept(w, l, i + 1, sb, groups, flags);
      } else if l[i].sb.nlink >= 1 {
        var (w1, l1, found, sb1) := AliasesF(w, l, i, i + 1, sb, [], flags);
        AliasesKept(w, l, i, i + 1, sb, [], flags);
        GroupKept(w1, l1, i + 1, sb1, [Group(l[i].path, found)] + groups, flags);
      }
    }
  }

  /**
   * When the grouping gets to the end, every entry of the grouped list from
   * i on that is neither a directory nor singly linked has started one group,
   * put in front of the groups there were: the newest group comes first.
   */
  lemma RepsAt(ls: seq<Entry>, i: nat)
    requires i < |ls|
    ensures Reps(ls[i..]) == Reps(ls[i + 1..]) + (if Single(ls[i]) then [] else [ls[i].path])
  {
    assert ls[i..][1..] == ls[i + 1..];
  }

  lemma {:induction false} GroupReps(w: World, l: seq<Entry>, i: nat, sb: Option<Stat>, groups: seq<Group>, flags: bv32)
    requires i <= |l|
    ensures var r := GroupF(w, l, i, sb, groups, flags); r.ok ==> Froms(r.groups) == Reps(r.l[i..]) + Froms(groups)
    decreases |l| - i
  {
    if i == |l| {
      assert GroupF(w, l, i, sb, groups, flags).l[i..] == [];
    } else if Single(l[i]) {
      GroupReps(w, l, i + 1, sb, groups, flags);
      RepsAt(GroupF(w, l, i, sb, groups, flags).l, i);
    } else if l[i].sb.nlink >= 1 {
      GroupRepsNext(w, l, i, sb, groups, flags);
    }
  }

  lemma {:induction false} GroupRepsNext(w: World, l: seq<Entry>, i: nat, sb: Option<Stat>, groups: seq<Group>, flags: bv32)
    requires i < |l| && !Single(l[i]) && l[i].sb.nlink >= 1
    ensures var r := GroupF(w, l, i, sb, groups, flags); r.ok ==> Froms(r.groups) == Reps(r.l[i..]) + Froms(groups)
    decreases |l| - i, 0
  {
    var (w1, l1, found, sb1) := AliasesF(w, l, i, i + 1, sb, [], flags);
    var g := Group(l[i].path, found);
    var r := GroupF(w1, l1, i + 1, sb1, [g] + groups, flags);
    assert r == GroupF(w, l, i, sb, groups, flags);
    GroupReps(w1, l1, i + 1, sb1, [g] + groups, flags);
    FromsCons(g, groups);
    assert r.l[..i + 1] == l1[..i + 1];
    assert r.l[i] == l[i];
    RepsAt(r.l, i);
  }

  /** The grouping gets to the end exactly when no entry it starts a group at has a link count of 0. */
  lemma {:induction false} GroupOk(w: World, l: seq<Entry>, i: nat, sb: Option<Stat>, groups: seq<Group>, flags: bv32)
    requires i <= |l|
    ensures var r := GroupF(w, l, i, sb, groups, flags);
      r.ok <==> forall k :: i <= k < |r.l| && !Single(r.l[k]) ==> r.l[k].sb.nlink >= 1
    decreases |l| - i
  {
    if i < |l| {
      var r := GroupF(w, l, i, sb, groups, flags);
      if Single(l[i]) {
        GroupOk(w, l, i + 1, sb, groups, flags);
      } else if l[i].sb.nlink >= 1 {
        var (w1, l1, found, sb1) := AliasesF(w, l, i, i + 1, sb, [], flags);
        GroupOk(w1, l1, i + 1, sb1, [Group(l[i].path, found)] + groups, flags);
        assert r.l[i] == l[i];
      } else {
        assert r.l[i] == l[i];
      }
    }
  }

  // ---------------------------------------------------------------------
  // Where the entries go

  /** The shape of a walker's listing that the copy relies on. */
  predicate Rooted(l: seq<Entry>) {
    && |l| >= 1
    && l[0].pathlen == |l[0].path|
    && (forall k :: 0 < k < |l| ==> 0 <= l[k].parent < k && FlistProps.Named(l[k]))
    && (forall k :: 0 < k < |l| ==> l[k].path == JoinPath(l[l[k].parent].path, l[k].filename))
  }

  lemma ListingRooted(host: Fs, from: string, flags: bv32)
    ensures ListingF(host, from, flags).Some? ==>
      Rooted(ListingF(host, from, flags).value) && ListingF(host, from, flags).value[0].path == from
  {
    if Flist.NamesWellFormed(host) {
      FlistProps.BuildShape(host, Some(from), WalkOptions(flags));
    }
  }

  lemma JoinExtends(dir: string, name: string)
    ensures |dir| <= |JoinPath(dir, name)| && JoinPath(dir, name)[..|dir|] == dir
  {
  }

  /** Every path of a rooted listing starts with the root's path, and its pathlen is its length. */
  lemma {:induction false} UnderRoot(l: seq<Entry>, k: nat)
    requires Rooted(l) && k < |l|
    ensures l[k].pathlen == |l[k].path|
    ensures |l[0].path| <= |l[k].path| && l[k].path[..|l[0].path|] == l[0].path
    decreases k
  {
    if k > 0 {
      var q := l[k].parent;
      UnderRoot(l, q);
      JoinExtends(l[q].path, l[k].filename);
      assert l[k].path[..|l[q].path|][..|l[0].path|] == l[k].path[..|l[0].path|];
    }
  }

  /**
   * For a walker's listing of from, grouped or not, the length check in the
   * copy loop never fires, and every entry is from followed by the part of
   * its path the destination gets.
   */
  lemma DestinationsUnderRoot(w: World, from: string, flags: bv32)
    requires ListingF(w.host, from, flags).Some?
    ensures var l := ListingF(w.host, from, flags).value;
      var g := GroupF(w, l, 0, None, [], flags);
      forall e :: e in g.l ==>
        && |Tail(e.path, l[0].pathlen)| == e.pathlen - l[0].pathlen
        && e.path == from + Tail(e.path, l[0].pathlen)
  {
    var l := ListingF(w.host, from, flags).value;
    ListingRooted(w.host, from, flags);
    GroupKept(w, l, 0, None, [], flags);
    forall e | e in GroupF(w, l, 0, None, [], flags).l
      ensures |Tail(e.path, l[0].pathlen)| == e.pathlen - l[0].pathlen
      ensures e.path == l[0].path + Tail(e.path, l[0].pathlen)
    {
      EntryUnderRoot(l, e);
    }
  }

  lemma EntryUnderRoot(l: seq<Entry>, e: Entry)
    requires Rooted(l) && e in l
    ensures |Tail(e.path, l[0].pathlen)| == e.pathlen - l[0].pathlen
    ensures e.path == l[0].path + Tail(e.path, l[0].pathlen)
  {
    var k :| 0 <= k < |l| && l[k] == e;
    UnderRoot(l, k);
    PrefixTail(e.path, l[0].path);
  }

  /** A string that starts with r is r followed by its tail after |r| characters. */
  lemma PrefixTail(p: string, r: string)
    requires |r| <= |p| && p[..|r|] == r
    ensures |Tail(p, |r|)| == |p| - |r| && p == r + Tail(p, |r|)
  {
    assert p == p[..|r|] + p[|r|..];
  }

  /** Nothing is copied under GET: the walker only lists a tree with REALFS, which only PUT asks for. */
  lemma GetDirFails(w: World, from: string, to: string, flags: bv32)
    requires OneWay(flags) && Get(flags)
    ensures CopyDirRecF(w, from, to, flags) == (w, -1)
  {
    var fl := flags & !0x20;
    assert !Put(fl);
    assert !Flist.RealFs(WalkOptions(fl));
    if Flist.NamesWellFormed(w.host) {
      FlistProps.BuildShape(w.host, Some(from), WalkOptions(fl));
    }
  }

  // ---------------------------------------------------------------------
  // The destination root

  /** A root that does not exist yet, in a directory that does, is made as a directory and the copy goes on. */
  lemma RootMade(w: World, to: string, root: Stat, sb: Option<Stat>, flags: bv32)
    requires var fs := w.In(ToDom(flags)); Norm(to) !in fs.files && ParentErr(fs, Norm(to)) == NoError
    ensures var r := MakeRootF(w, to, root, sb, flags);
      r.1 && Norm(to) in r.0.In(ToDom(flags)).files && IsDir(r.0.In(ToDom(flags)).files[Norm(to)].mode)
  {
    var d := ToDom(flags);
    var w1 := Apply(w, d, MkdirF(w.In(d), to, root.mode)).0;
    if !Get(flags) {
      assert d == Image;
      var c := ChownF(w1.image, to, root.uid, root.gid, true);
      ChownKeepsDir(w1.image, to, root.uid, root.gid);
    }
  }

  lemma ChownKeepsDir(fs: Fs, p: string, uid: int, gid: int)
    requires Norm(p) in fs.files && IsDir(fs.files[Norm(p)].mode)
    ensures var c := ChownF(fs, p, uid, gid, true);
      c.Ok? ==> Norm(p) in c.value.files && IsDir(c.value.files[Norm(p)].mode)
  {
  }

  /** An existing directory is taken as the root as it is. */
  lemma RootReused(w: World, to: string, root: Stat, sb: Option<Stat>, flags: bv32)
    requires var fs := w.In(ToDom(flags)); Norm(to) in fs.files && StatF(fs, to).Ok? && IsDir(StatF(fs, to).value.mode)
    ensures MakeRootF(w, to, root, sb, flags).1
  {
  }

  /**
   * An existing root that stat does not show as a directory: errno becomes
   * ENOTDIR, nothing changes in either domain, and copy_dir_rec goes
   * straight to its cleanup and returns 0, the result it started with.
   */
  lemma RootNotDir(w: World, l: seq<Entry>, groups: seq<Group>, sb: Option<Stat>, root: Stat, off: nat,
                   to: string, doDelete: bool, flags: bv32)
    requires OneWay(flags) && |l| >= 1
    requires var fs := w.In(ToDom(flags)); Norm(to) in fs.files && StatF(fs, to).Ok? && !IsDir(StatF(fs, to).value.mode)
    ensures MakeRootF(w, to, root, sb, flags) == (w.(errno := ENOTDIR), false)
    ensures TreeCopyF(w, l, groups, sb, root, off, to, doDelete, flags) == (w.(errno := ENOTDIR), 0)
  {
  }

  /** A root that cannot be made for another reason than EEXIST stops the copy with 0, and changes no domain. */
  lemma RootUnmade(w: World, l: seq<Entry>, groups: seq<Group>, sb: Option<Stat>, root: Stat, off: nat,
                   to: string, doDelete: bool, flags: bv32)
    requires OneWay(flags) && |l| >= 1
    requires var fs := w.In(ToDom(flags)); Norm(to) !in fs.files && ParentErr(fs, Norm(to)) != NoError
    ensures var r := TreeCopyF(w, l, groups, sb, root, off, to, doDelete, flags);
      r.1 == 0 && r.0.host == w.host && r.0.image == w.image
  {
    var fs := w.In(ToDom(flags));
    assert MkdirF(fs, to, root.mode) == Fail(ParentErr(fs, Norm(to)));
    assert ParentErr(fs, Norm(to)) != EEXIST;
  }

  // ---------------------------------------------------------------------
  // The result of copy_dir_rec

  /** The result is the copy loop's: relinking never changes it. */
  lemma ResultIgnoresGroups(w: World, l: seq<Entry>, groups1: seq<Group>, groups2: seq<Group>, sb: Option<Stat>,
                            root: Stat, off: nat, to: string, doDelete: bool, flags: bv32)
    requires OneWay(flags) && |l| >= 1
    ensures TreeCopyF(w, l, groups1, sb, root, off, to, doDelete, flags).1
         == TreeCopyF(w, l, groups2, sb, root, off, to, doDelete, flags).1
  {
  }

  /** Nor does the removal of the source in move mode. */
  lemma ResultIgnoresDelete(w: World, l: seq<Entry>, groups: seq<Group>, sb: Option<Stat>,
                            root: Stat, off: nat, to: string, flags: bv32)
    requires OneWay(flags) && |l| >= 1
    ensures TreeCopyF(w, l, groups, sb, root, off, to, true, flags).1
         == TreeCopyF(w, l, groups, sb, root, off, to, false, flags).1
  {
  }

  /**
   * One entry of the copy loop: an entry that passes the length check and is
   * not a directory never breaks the loop; it stops only on ENOSPC, and a
   * failure of its copy makes res -1 without stopping.
   */
  lemma FileEntryGoesOn(w: World, e: Entry, dest: string, off: nat, res: int, flags: bv32)
    requires OneWay(flags) && (res == 0 || res == -1)
    requires |Tail(e.path, off)| == e.pathlen - off && !IsDir(e.sb.mode)
    ensures var r := EntryF(w, e, dest, off, res, flags);
      && r.2 != Some(Broke)
      && (r.2 == Some(NoSpace) <==> r.0.errno == ENOSPC)
      && (r.1 == 0 <==> res == 0 && CopyToFileF(w, e.path, e.sb, dest + Tail(e.path, off), flags).1 == 0)
  {
  }

  /** A directory whose mkdir fails ends the loop with -1. */
  lemma DirEntryBreaks(w: World, e: Entry, dest: string, off: nat, res: int, flags: bv32)
    requires OneWay(flags) && (res == 0 || res == -1)
    requires |Tail(e.path, off)| == e.pathlen - off && IsDir(e.sb.mode)
    requires Norm(dest + Tail(e.path, off)) in w.In(ToDom(flags)).files
    ensures EntryF(w, e, dest, off, res, flags) == (w.(errno := EEXIST), -1, Some(Broke))
  {
  }

  /** Once res is -1 it stays -1 to the end of the loop. */
  lemma {:induction false} LoopKeepsFailure(w: World, l: seq<Entry>, k: nat, dest: string, off: nat, flags: bv32)
    requires OneWay(flags) && k <= |l|
    ensures CopyLoopF(w, l, k, dest, off, -1, flags).1 == -1
    decreases |l| - k
  {
    if k < |l| {
      var (w1, res1, stop) := EntryF(w, l[k], dest, off, -1, flags);
      if stop.None? {
        assert res1 == -1;
        LoopKeepsFailure(w1, l, k + 1, dest, off, flags);
      }
    }
  }

  // ---------------------------------------------------------------------
  // Removing the source in move mode

  /** One removal: the entry's name goes on success, nothing changes otherwise. */
  lemma RemoveOne(w: World, d: Dom, e: Entry)
    ensures var (w1, rv) := RemoveEntryF(w, d, e);
      && (forall x :: x in w1.In(d).files <==> x in w.In(d).files && (rv == -1 || x != Norm(e.path)))
      && w1.In(d.Other()) == w.In(d.Other())
  {
    var (w1, rv) := RemoveEntryF(w, d, e);
    assert rv != -1 ==> w1.In(d).files.Keys == w.In(d).files.Keys - {Norm(e.path)};
  }

  /**
   * The removal touches only the domain d, and there only the names of
   * entries l[0..k]: a name no such entry has, such as an alias the grouping
   * took out of the list, is still there afterwards if it was before.
   */
  lemma RemoveBackSpares(w: World, l: seq<Entry>, k: nat, d: Dom, x: string)
    requires k < |l| && forall m :: 0 <= m <= k ==> Norm(l[m].path) != x
    ensures var r := RemoveBackF(w, l, k, d);
      && (x in r.0.In(d).files <==> x in w.In(d).files)
      && r.0.In(d.Other()) == w.In(d.Other())
  {
    PathsOnly(l, k, x);
    RemoveBackKeeps(w, l, k, d, x);
  }

  /** RemoveBackSpares for a name outside the set of the entries' names. */
  lemma {:induction false} RemoveBackKeeps(w: World, l: seq<Entry>, k: nat, d: Dom, x: string)
    requires k < |l| && x !in Paths(l, k)
    ensures var r := RemoveBackF(w, l, k, d);
      && (x in r.0.In(d).files <==> x in w.In(d).files)
      && r.0.In(d.Other()) == w.In(d.Other())
    decreases k
  {
    var (w1, rv) := RemoveEntryF(w, d, l[k]);
    RemoveOne(w, d, l[k]);
    if rv != -1 && k != 0 {
      RemoveBackKeeps(w1, l, k - 1, d, x);
    }
  }

  /**
   * The removal never adds a name, and when it returns 0 every entry from
   * l[k] back to the root is gone.
   */
  lemma RemoveBackRemoves(w: World, l: seq<Entry>, k: nat, d: Dom)
    requires k < |l|
    ensures var r := RemoveBackF(w, l, k, d);
      && r.0.In(d).files.Keys <= w.In(d).files.Keys
      && (r.1 == 0 ==> forall m :: 0 <= m <= k ==> Norm(l[m].path) !in r.0.In(d).files)
  {
    RemoveBackClears(w, l, k, d);
    PathsHas(l, k);
  }

  /** The names of entries l[0..k]. */
  function Paths(l: seq<Entry>, k: nat): set<string>
    requires k < |l|
  {
    if k == 0 then {Norm(l[0].path)} else Paths(l, k - 1) + {Norm(l[k].path)}
  }

  lemma {:induction false} PathsHas(l: seq<Entry>, k: nat)
    requires k < |l|
    ensures forall m :: 0 <= m <= k ==> Norm(l[m].path) in Paths(l, k)
  {
    if k > 0 {
      PathsHas(l, k - 1);
    }
  }

  lemma {:induction false} PathsOnly(l: seq<Entry>, k: nat, x: string)
    requires k < |l| && forall m :: 0 <= m <= k ==> Norm(l[m].path) != x
    ensures x !in Paths(l, k)
  {
    if k > 0 {
      PathsOnly(l, k - 1, x);
    }
  }

  /** RemoveBackRemoves on the set of the entries' names. */
  lemma {:induction false} RemoveBackClears(w: World, l: seq<Entry>, k: nat, d: Dom)
    requires k < |l|
    ensures var r := RemoveBackF(w, l, k, d);
      && r.0.In(d).files.Keys <= w.In(d).files.Keys
      && (r.1 == 0 ==> Paths(l, k) !! r.0.In(d).files.Keys)
    decreases k
  {
    var (w1, rv) := RemoveEntryF(w, d, l[k]);
    RemoveOne(w, d, l[k]);
    if rv != -1 && k != 0 {
      RemoveBackClears(w1, l, k - 1, d);
    }
  }

  // ---------------------------------------------------------------------
  // Relinking

  /** A successful link keeps every name with its inode number and kind, and gives b a's inode number. */
  lemma LinkKeeps(fs: Fs, a: string, b: string)
    requires LinkF(fs, a, b).Ok?
    ensures var r := LinkF(fs, a, b).value;
      && r.linkSupported == fs.linkSupported
      && Norm(a) in fs.files && Norm(b) !in fs.files && Norm(b) in r.files
      && r.files[Norm(b)].ino == fs.files[Norm(a)].ino
      && forall k :: k in fs.files ==>
           k in r.files && r.files[k].ino == fs.files[k].ino && (r.files[k].content.Entries? <==> fs.files[k].content.Entries?)
  {
  }

  /**
   * fs is fs0 with further names of the file at src only: every name of fs0
   * is still there with its inode number and kind, every other name has
   * src's inode number, and links are supported.
   */
  predicate LinkedFrom(fs0: Fs, fs: Fs, src: string) {
    && src in fs0.files && !fs0.files[src].content.Entries?
    && fs.linkSupported
    && (forall k :: k in fs0.files ==>
          k in fs.files && fs.files[k].ino == fs0.files[k].ino
          && (fs.files[k].content.Entries? <==> fs0.files[k].content.Entries?))
    && (forall k :: k in fs.files && k !in fs0.files ==> fs.files[k].ino == fs0.files[src].ino)
  }

  /** The destination of an alias. */
  function AliasDest(dest: string, a: string, off: nat): string { Norm(dest + Tail(a, off)) }

  /** A creatable name under fs0 stays creatable once fs has only added names and kept their kinds. */
  lemma ParentKept(fs0: Fs, fs: Fs, src: string, k: string)
    requires LinkedFrom(fs0, fs, src) && ParentErr(fs0, k) == NoError
    ensures ParentErr(fs, k) == NoError
  {
  }

  /** One link of the relinking, where links are supported. */
  lemma RelinkOne(w0: World, w: World, hlfrom: string, hlto: string, flags: bv32)
    requires LinkedFrom(w0.In(ToDom(flags)), w.In(ToDom(flags)), Norm(hlfrom))
    requires ParentErr(w0.In(ToDom(flags)), Norm(hlto)) == NoError
    ensures var d := ToDom(flags);
      var (w1, rv) := Apply(w, d, LinkF(w.In(d), hlfrom, hlto));
      && !(rv != 0 && w1.errno == EOPNOTSUPP)
      && LinkedFrom(w0.In(d), w1.In(d), Norm(hlfrom))
      && Norm(hlto) in w1.In(d).files
      && w.In(d).files.Keys <= w1.In(d).files.Keys
      && w1.In(d.Other()) == w.In(d.Other())
  {
    var d := ToDom(flags);
    var fs0, fs := w0.In(d), w.In(d);
    ParentKept(fs0, fs, Norm(hlfrom), Norm(hlto));
    var link := LinkF(fs, hlfrom, hlto);
    if link.Ok? {
      LinkKeeps(fs, hlfrom, hlto);
    }
  }

  /**
   * Where links are supported, relinking a group whose representative's copy
   * exists and is not a directory keeps links on, leaves the other domain
   * alone, and leaves every alias's destination in place: it was there
   * already or is now a further name of the representative's copy.
   */
  lemma {:induction false} RelinkGroupLinks(w0: World, w: World, hlfrom: string, aliases: seq<string>, dest: string,
                                            off: nat, flags: bv32)
    requires LinkedFrom(w0.In(ToDom(flags)), w.In(ToDom(flags)), Norm(hlfrom))
    requires forall a :: a in aliases ==> ParentErr(w0.In(ToDom(flags)), AliasDest(dest, a, off)) == NoError
    ensures var r := RelinkGroupF(w, hlfrom, aliases, dest, off, true, flags);
      && r.1
      && LinkedFrom(w0.In(ToDom(flags)), r.0.In(ToDom(flags)), Norm(hlfrom))
      && r.0.In(ToDom(flags).Other()) == w.In(ToDom(flags).Other())
      && w.In(ToDom(flags)).files.Keys <= r.0.In(ToDom(flags)).files.Keys
      && forall a :: a in aliases ==> AliasDest(dest, a, off) in r.0.In(ToDom(flags)).files
    decreases |aliases|
  {
    if aliases != [] {
      var d := ToDom(flags);
      var hlto := dest + Tail(aliases[0], off);
      var w1 := Apply(w, d, LinkF(w.In(d), hlfrom, hlto)).0;
      assert aliases[0] in aliases;
      assert forall a :: a in aliases[1..] ==> a in aliases;
      RelinkOne(w0, w, hlfrom, hlto, flags);
      RelinkGroupLinks(w0, w1, hlfrom, aliases[1..], dest, off, flags);
      var r := RelinkGroupF(w1, hlfrom, aliases[1..], dest, off, true, flags);
      RelinkLinked(w, hlfrom, aliases, dest, off, flags);
      forall a | a in aliases
        ensures AliasDest(dest, a, off) in r.0.In(d).files
      {
        if a != aliases[0] {
          assert a in aliases[1..];
        }
      }
    }
  }

  /** A link that did not come back EOPNOTSUPP leaves links on for the next alias. */
  lemma RelinkLinked(w: World, hlfrom: string, aliases: seq<string>, dest: string, off: nat, flags: bv32)
    requires aliases != []
    requires var d := ToDom(flags);
      var (w1, rv) := Apply(w, d, LinkF(w.In(d), hlfrom, dest + Tail(aliases[0], off)));
      !(rv != 0 && w1.errno == EOPNOTSUPP)
    ensures var d := ToDom(flags);
      var w1 := Apply(w, d, LinkF(w.In(d), hlfrom, dest + Tail(aliases[0], off))).0;
      RelinkGroupF(w, hlfrom, aliases, dest, off, true, flags) == RelinkGroupF(w1, hlfrom, aliases[1..], dest, off, true, flags)
  {
  }

  /**
   * With links supported, an alias whose destination did not exist before
   * relinking ends up as a further name of the representative's copy.
   */
  lemma RelinkGroupShares(w: World, hlfrom: string, aliases: seq<string>, dest: string, off: nat, flags: bv32)
    requires var fs := w.In(ToDom(flags));
      fs.linkSupported && Norm(hlfrom) in fs.files && !fs.files[Norm(hlfrom)].content.Entries?
    requires forall a :: a in aliases ==> ParentErr(w.In(ToDom(flags)), AliasDest(dest, a, off)) == NoError
    ensures var fs := w.In(ToDom(flags));
      var r := RelinkGroupF(w, hlfrom, aliases, dest, off, true, flags);
      forall a :: a in aliases && AliasDest(dest, a, off) !in fs.files ==>
        && AliasDest(dest, a, off) in r.0.In(ToDom(flags)).files
        && r.0.In(ToDom(flags)).files[AliasDest(dest, a, off)].ino == fs.files[Norm(hlfrom)].ino
  {
    RelinkGroupLinks(w, w, hlfrom, aliases, dest, off, flags);
  }

  /** Once a link came back EOPNOTSUPP, every later alias of the run is a copy. */
  lemma {:induction false} RelinkStaysOff(w: World, hlfrom: string, aliases: seq<string>, dest: string, off: nat, flags: bv32)
    ensures !RelinkGroupF(w, hlfrom, aliases, dest, off, false, flags).1
    decreases |aliases|
  {
    if aliases != [] {
      var hlto := dest + Tail(aliases[0], off);
      RelinkStaysOff(FallbackF(w, hlfrom, hlto, flags), hlfrom, aliases[1..], dest, off, flags);
    }
  }

  /**
   * A domain without hard links: the first alias whose destination could be
   * made turns links off, for the rest of the group.
   */
  lemma RelinkFallsBack(w: World, hlfrom: string, aliases: seq<string>, dest: string, off: nat, flags: bv32)
    requires var fs := w.In(ToDom(flags));
      !fs.linkSupported && Norm(hlfrom) in fs.files && !fs.files[Norm(hlfrom)].content.Entries?
    requires aliases != [] &&
      var k := AliasDest(dest, aliases[0], off);
      k !in w.In(ToDom(flags)).files && ParentErr(w.In(ToDom(flags)), k) == NoError
    ensures !RelinkGroupF(w, hlfrom, aliases, dest, off, true, flags).1
  {
    var d := ToDom(flags);
    var hlto := dest + Tail(aliases[0], off);
    var w1 := Apply(w, d, LinkF(w.In(d), hlfrom, hlto)).0;
    assert LinkF(w.In(d), hlfrom, hlto) == Fail(EOPNOTSUPP);
    RelinkStaysOff(FallbackF(w1, hlfrom, hlto, flags), hlfrom, aliases[1..], dest, off, flags);
  }

  // ---------------------------------------------------------------------
  // copy_dir, fsu_ecp and main

  /** A target that exists and is not a directory is refused, and nothing changes. */
  lemma CopyDirRefusesFile(w: World, from: string, to: string, flags: bv32)
    requires OneWay(flags)
    requires var st := LstatF(w.In(ToDom(flags)), to); st.Ok? && !IsDir(st.value.mode)
    ensures CopyDirF(w, from, to, flags) == (w, -1)
  {
  }

  /** A directory source without -R is refused before anything is done. */
  lemma DirNeedsRecursive(w: World, from: string, to: string, flags: bv32)
    requires OneWay(flags) && !Recursive(flags)
    requires var st := LstatF(w.In(FromDom(flags)), from); st.Ok? && IsDir(st.value.mode)
    ensures EcpF(w, from, to, flags) == (w, -1)
  {
  }

  /** A source that does not exist fails with ENOENT, and nothing else changes. */
  lemma MissingSource(w: World, from: string, to: string, flags: bv32)
    requires OneWay(flags) && Norm(from) !in w.In(FromDom(flags)).files
    ensures EcpF(w, from, to, flags) == (w.(errno := ENOENT), -1)
  {
  }

  /** The result fsu_ecp gives for srcs[n], in the world the earlier sources left. */
  function SourceStatus(w: World, srcs: seq<string>, n: nat, target: string, flags: bv32): int
    requires OneWay(flags) && n < |srcs|
  {
    EcpF(EcpAllF(w, srcs[..n], target, flags).0, StripSlashes(srcs[n]), target, flags).1
  }

  /** The loop's result after one more source. */
  lemma EcpAllLast(w: World, srcs: seq<string>, target: string, flags: bv32)
    requires OneWay(flags) && srcs != []
    ensures EcpAllF(w, srcs, target, flags).1 == 0 <==>
      EcpAllF(w, srcs[..|srcs| - 1], target, flags).1 == 0 && SourceStatus(w, srcs, |srcs| - 1, target, flags) == 0
  {
  }

  /** The status of an earlier source does not depend on the later ones. */
  lemma SourceStatusPrefix(w: World, srcs: seq<string>, m: nat, n: nat, target: string, flags: bv32)
    requires OneWay(flags) && n < m <= |srcs|
    ensures SourceStatus(w, srcs[..m], n, target, flags) == SourceStatus(w, srcs, n, target, flags)
  {
    assert srcs[..m][..n] == srcs[..n];
  }

  /** The results of each source in turn. */
  function Statuses(w: World, srcs: seq<string>, target: string, flags: bv32): (r: seq<int>)
    requires OneWay(flags)
    ensures |r| == |srcs| && forall n :: 0 <= n < |srcs| ==> r[n] == SourceStatus(w, srcs, n, target, flags)
  {
    seq(|srcs|, n requires 0 <= n < |srcs| => SourceStatus(w, srcs, n, target, flags))
  }

  lemma AllZeroSplit(a: seq<int>, b: seq<int>)
    requires |b| == |a| + 1 && forall n :: 0 <= n < |a| ==> a[n] == b[n]
    ensures (forall n :: 0 <= n < |b| ==> b[n] == 0) <==> (forall n :: 0 <= n < |a| ==> a[n] == 0) && b[|a|] == 0
  {
  }

  /** main's loop tries every source, and its result is 0 exactly when every source's copy gave 0. */
  lemma {:induction false} EcpAllStatus(w: World, srcs: seq<string>, target: string, flags: bv32)
    requires OneWay(flags)
    ensures EcpAllF(w, srcs, target, flags).1 == 0 <==>
      forall n :: 0 <= n < |srcs| ==> SourceStatus(w, srcs, n, target, flags) == 0
    decreases |srcs|
  {
    if srcs != [] {
      var m := |srcs| - 1;
      var init := srcs[..m];
      EcpAllStatus(w, init, target, flags);
      EcpAllLast(w, srcs, target, flags);
      var a, b := Statuses(w, init, target, flags), Statuses(w, srcs, target, flags);
      forall n | 0 <= n < m
        ensures a[n] == b[n]
      {
        SourceStatusPrefix(w, srcs, m, n, target, flags);
      }
      AllZeroSplit(a, b);
      assert (forall n :: 0 <= n < |init| ==> SourceStatus(w, init, n, target, flags) == 0)
        == (forall n :: 0 <= n < |a| ==> a[n] == 0);
      assert (forall n :: 0 <= n < |srcs| ==> SourceStatus(w, srcs, n, target, flags) == 0)
        == (forall n :: 0 <= n < |b| ==> b[n] == 0);
    }
  }
}

=== FILE: ext2fs.dfy ===
// The ext2 back end of the makefs size estimator
// (makefs-analyzetree/ext2fs.c): the ext2fs_opt_t options with their
// preparation, parsing and defaults, and ext2fs_makefs, which sizes a
// revision 0 ext2 image for a tree and prints the newfs_ext2fs command
// that would create it.

module Ext2fs {
  import opened Posix
  import opened Makefs

  // Constants of ext2fs.c itself and of <ufs/ext2fs/ext2fs.h>,
  // <ufs/ext2fs/ext2fs_dinode.h> and <ufs/ffs/fs.h> as NetBSD defines them.
  const INT_MAX: int := 0x7fff_ffff
  const DFL_BLKSIZE: int := 4096
  const DFL_SECSIZE: int := 512
  const DFL_NSECTORS: int := 64
  const MINFREE: int := 5
  const EXT2_FIRSTINO: nat := 11
  const SBSIZE: nat := 1024
  const EXT2_REV0_DINODE_SIZE: nat := 128
  const EXT2_MAXSYMLINKLEN: nat := 60
  /** The divisor of fsopts->size >> DEV_BSHIFT (DEV_BSHIFT is 9). */
  const DEV_BSIZE: nat := 512

  /** The fields of ext2fs_opt_t this back end uses, -1 meaning "not given". */
  datatype Ext2Params = Ext2Params(bsize: int, density: int, minfree: int, nsectors: int)

  /**
   * ext2fs_prep_opts: the structure comes zeroed from calloc and block
   * size, density and minfree are set to -1. nsectors keeps calloc's 0.
   */
  const PREP: Ext2Params := Ext2Params(bsize := -1, density := -1, minfree := -1, nsectors := 0)

  /** What prep and parse leave: each field either unset (-1) or in the range its table entry allows. */
  predicate Sane(p: Ext2Params) {
    && (p.bsize == -1 || p.bsize >= 1)
    && (p.density == -1 || p.density >= 1)
    && (p.minfree == -1 || 0 <= p.minfree <= 99)
  }

  /** The option table of ext2fs_parse_opts, in its order. */
  const EXT2_OPTIONS: seq<OptSpec> := [
    OptSpec("bsize", 1, INT_MAX),
    OptSpec("density", 1, INT_MAX),
    OptSpec("minfree", 0, 99)
  ]

  /** The field table entry k points at receives v. */
  function Assign(p: Ext2Params, k: nat, v: int): Ext2Params {
    if k == 0 then p.(bsize := v)
    else if k == 1 then p.(density := v)
    else p.(minfree := v)
  }

  /** ext2fs_parse_opts on name=value: no '=' is refused; the rest goes to set_option with the table. */
  function ParseOptF(p: Ext2Params, option: string): Parsed<Ext2Params> {
    match EqualsAt(option)
    case None => Refused
    case Some(e) =>
      match SetOptionF(EXT2_OPTIONS, option[..e], option[e + 1..])
      case UnknownName => Refused
      case BadValue => Exit
      case Value(k, v) => Accepted(Assign(p, k, v))
  }

  /** The sector size ext2fs_makefs settles on. */
  function SectorSize(ss: int): int { if ss == -1 then DFL_SECSIZE else ss }

  /** A field left at -1 takes its default. */
  function Or(x: int, d: int): int { if x == -1 then d else x }

  /** The defaults block of ext2fs_makefs; density stays unset for the estimate. */
  function Defaults(p: Ext2Params): Ext2Params {
    Ext2Params(Or(p.bsize, DFL_BLKSIZE), p.density, Or(p.minfree, MINFREE), Or(p.nsectors, DFL_NSECTORS))
  }

  /** What the estimate needs of the options: a block size. */
  predicate Settled(p: Ext2Params) { Sane(p) && p.bsize >= 1 }

  /** traverse_tree's constants: ext2fs_direct entries packed into blocks, sizes in blocks. */
  function GeometryOf(p: Ext2Params): (g: Geometry)
    requires Settled(p)
    ensures Usable(g)
  {
    Geometry(Ext2, p.bsize, p.bsize, EXT2_MAXSYMLINKLEN)
  }

  /** The estimate of ext2fs_makefs after the walk, with EXT2_FIRSTINO, one superblock and rev0 inodes. */
  function Ext2Estimate(p: Ext2Params, lim: Bounds, size: nat, inodes: nat): Estimate
    requires Settled(p)
  {
    EstimateF(lim, size, inodes, EXT2_FIRSTINO, SBSIZE, EXT2_REV0_DINODE_SIZE, p.bsize, p.minfree, p.density)
  }

  /** The command ext2fs_makefs prints: size in sectors plus one, inodes and block size. */
  datatype NewfsExt2 = NewfsExt2(sectors: nat, inodes: nat, bsize: nat)

  /** What parse_opts answers: its return value, or the exit of strsuftoll. */
  datatype Reply = Rv(rv: int) | Errx

  /** ext2fs_opt_t as the back end updates it field by field. */
  class Ext2Opts {
    var bsize: int
    var density: int
    var minfree: int
    var nsectors: int

    function Params(): Ext2Params
      reads this
    {
      Ext2Params(bsize, density, minfree, nsectors)
    }

    /** ext2fs_prep_opts. */
    constructor Prep()
      ensures Params() == PREP
    {
      bsize, density, minfree, nsectors := -1, -1, -1, 0;
    }

    /** ext2fs_parse_opts: 0 for a refused option, 1 for a taken one, or strsuftoll's exit. */
    method ParseOpt(option: string) returns (r: Reply)
      modifies this
      ensures match ParseOptF(old(Params()), option)
        case Refused => r == Rv(0) && Params() == old(Params())
        case Accepted(q) => r == Rv(1) && Params() == q
        case Exit => r == Errx
    {
      var e := EqualsAt(option);
      if e.None? {
        return Rv(0);
      }
      var s := SetOption(EXT2_OPTIONS, option[..e.value], option[e.value + 1..]);
      match s
      case UnknownName => r := Rv(0);
      case BadValue => r := Errx;
      case Value(k, v) =>
        Store(k, v);
        r := Rv(1);
    }

    /** The store through the table entry's pointer. */
    method Store(k: nat, v: int)
      modifies this
      ensures Params() == Assign(old(Params()), k, v)
    {
      if k == 0 { bsize := v; }
      else if k == 1 { density := v; }
      else { minfree := v; }
    }

    /** The defaults block at the top of ext2fs_makefs. */
    method SetDefaults(fi: FsInfo)
      modifies this, fi
      ensures Params() == Defaults(old(Params()))
      ensures fi.sectorsize == SectorSize(old(fi.sectorsize))
      ensures fi.size == old(fi.size) && fi.inodes == old(fi.inodes) && fi.Limits() == old(fi.Limits())
    {
      if fi.sectorsize == -1 {
        fi.sectorsize := DFL_SECSIZE;
      }
      if bsize == -1 {
        bsize := DFL_BLKSIZE;
      }
      if nsectors == -1 {
        nsectors := DFL_NSECTORS;
      }
      if minfree == -1 {
        minfree := MINFREE;
      }
    }
  }

  /**
   * The arithmetic of ext2fs_makefs after traverse_tree, step by step on
   * fsopts: reserved inodes, slop, the superblock, the inode table
   * (refused when a block holds no inode), minfree, minsize, rounding and
   * density; None is an errx.
   */
  method Size(fi: FsInfo, opts: Ext2Opts) returns (cmd: Option<NewfsExt2>)
    requires Settled(opts.Params())
    modifies fi, opts
    ensures var e := Ext2Estimate(old(opts.Params()), old(fi.Limits()), old(fi.size), old(fi.inodes));
      && (e.Sized? ==>
            && cmd == Some(NewfsExt2(e.size / DEV_BSIZE + 1, e.inodes, old(opts.bsize)))
            && fi.size == e.size && fi.inodes == e.inodes
            && opts.Params() == old(opts.Params()).(density := e.density))
      && (!e.Sized? ==> cmd.None?)
    ensures fi.sectorsize == old(fi.sectorsize) && fi.Limits() == old(fi.Limits())
  {
    ghost var e := Ext2Estimate(opts.Params(), fi.Limits(), fi.size, fi.inodes);
    AddSlack(fi, EXT2_FIRSTINO, SBSIZE);
    if opts.bsize / EXT2_REV0_DINODE_SIZE == 0 {
      assert e.BlockTooSmall?;
      return None;
    }
    fi.size := fi.size + InodeTableBytes(fi.inodes, opts.bsize, EXT2_REV0_DINODE_SIZE);
    assert e == Finish(fi.Limits(), fi.size, fi.inodes, opts.bsize, opts.minfree, opts.density);
    var ok, dens := FinishSize(fi, opts.bsize, opts.minfree, opts.density);
    opts.density := dens;
    if !ok {
      return None;
    }
    return Some(NewfsExt2(fi.size / DEV_BSIZE + 1, fi.inodes, opts.bsize));
  }

  /**
   * ext2fs_makefs: defaults, the walk of the tree, and the estimate; the
   * image size, the inode count and the density it settles on, and the
   * newfs_ext2fs command, or an exit.
   */
  method Ext2Makefs(root: seq<FsNode>, fi: FsInfo, opts: Ext2Opts, tab: Inodes) returns (cmd: Option<NewfsExt2>)
    requires Sane(opts.Params())
    modifies fi, opts, tab
    ensures var p := Defaults(old(opts.Params()));
      var t := TreeF(GeometryOf(p), root, old(Tally(fi.size, fi.inodes, tab.sized)));
      var e := Ext2Estimate(p, old(fi.Limits()), t.size, t.inodes);
      && tab.sized == t.sized
      && fi.sectorsize == SectorSize(old(fi.sectorsize))
      && (e.Sized? ==>
            && cmd == Some(NewfsExt2(e.size / DEV_BSIZE + 1, e.inodes, p.bsize))
            && fi.size == e.size && fi.inodes == e.inodes
            && opts.Params() == p.(density := e.density))
      && (!e.Sized? ==> cmd.None?)
  {
    ghost var t0 := Tally(fi.size, fi.inodes, tab.sized);
    opts.SetDefaults(fi);
    ghost var p := opts.Params();
    Traverse(GeometryOf(opts.Params()), root, fi, tab);
    assert Tally(fi.size, fi.inodes, tab.sized) == TreeF(GeometryOf(p), root, t0);
    cmd := Size(fi, opts);
  }

  // ---------------------------------------------------------------------
  // Properties

  /** ext2fs_prep_opts leaves every field the table sets unset. */
  lemma PrepIsSane()
    ensures Sane(PREP) && PREP.bsize == -1 && PREP.density == -1 && PREP.minfree == -1
  {
  }

  /**
   * Parsing keeps the options sane: whatever a taken option sets is in its
   * table range, so prep followed by any run of parse_opts calls is sane.
   */
  lemma ParseKeepsSane(p: Ext2Params, option: string)
    requires Sane(p)
    ensures var r := ParseOptF(p, option); r.Accepted? ==> Sane(r.opts)
  {
    match EqualsAt(option)
    case None =>
    case Some(e) =>
      SetOptionRange(EXT2_OPTIONS, option[..e], option[e + 1..]);
  }

  /** An option with no '=' is refused and changes nothing. */
  lemma NoValueRefused(p: Ext2Params, option: string)
    requires '=' !in option
    ensures ParseOptF(p, option) == Refused
  {
  }

  /**
   * name=value, for a name with no '=' in it: a name outside the table is
   * refused; a name in the table with a decimal value in its range sets
   * that field and nothing else, and any other value exits.
   */
  lemma ParseOptCases(p: Ext2Params, name: string, val: string)
    requires '=' !in name
    ensures var r := ParseOptF(p, name + "=" + val);
      && ((forall j :: 0 <= j < |EXT2_OPTIONS| ==> EXT2_OPTIONS[j].name != name) ==> r.Refused?)
      && (forall j :: 0 <= j < |EXT2_OPTIONS| && EXT2_OPTIONS[j].name == name ==>
            match DecimalF(val)
            case None => r.Exit?
            case Some(v) =>
              if EXT2_OPTIONS[j].min <= v <= EXT2_OPTIONS[j].max then r == Accepted(Assign(p, j, v)) else r.Exit?)
  {
    var option := name + "=" + val;
    EqualsAtJoin(name, val);
    assert option[..|name|] == name && option[|name| + 1..] == val;
    forall j | 0 <= j < |EXT2_OPTIONS| && EXT2_OPTIONS[j].name == name
      ensures Lookup(EXT2_OPTIONS, name, 0) == Some(j)
    {
      DistinctNames(j);
    }
  }

  /** The table's names are distinct, so a name selects one entry. */
  lemma DistinctNames(j: nat)
    requires j < |EXT2_OPTIONS|
    ensures Lookup(EXT2_OPTIONS, EXT2_OPTIONS[j].name, 0) == Some(j)
  {
  }

  /**
   * ext2fs_makefs's defaults: a block size or minfree given is kept, an
   * unset one becomes 4096 bytes or 5 percent; nsectors is never -1 after
   * prep, so its default is never taken; density stays unset for the
   * estimate; the result is settled.
   */
  lemma DefaultsSettle(p: Ext2Params)
    requires Sane(p)
    ensures var r := Defaults(p);
      && Settled(r)
      && r.bsize == (if p.bsize == -1 then DFL_BLKSIZE else p.bsize)
      && r.minfree == (if p.minfree == -1 then MINFREE else p.minfree)
      && r.density == p.density
      && (p.nsectors != -1 ==> r.nsectors == p.nsectors)
  {
  }

  /**
   * ext2fs_makefs never reports an image smaller than the tree: the image
   * is a whole number of blocks, holds the walked tree, the EXT2_FIRSTINO
   * reserved inodes and a rev0 inode for each, and the printed sector
   * count covers it.
   */
  lemma ImageHoldsTree(p: Ext2Params, lim: Bounds, root: seq<FsNode>, t0: Tally)
    requires Sane(p)
    ensures var q := Defaults(p);
      var t := TreeF(GeometryOf(q), root, t0);
      var e := Ext2Estimate(q, lim, t.size, t.inodes);
      && (e.BlockTooSmall? <==> q.bsize < EXT2_REV0_DINODE_SIZE)
      && (e.Sized? ==>
            && e.size % q.bsize == 0
            && e.size >= t.size + lim.freeblocks + SBSIZE + e.inodes * EXT2_REV0_DINODE_SIZE
            && e.inodes >= t0.inodes + |Inos(root) - t0.sized| + EXT2_FIRSTINO
            && (e.size / DEV_BSIZE + 1) * DEV_BSIZE > e.size)
  {
    DefaultsSettle(p);
    var q := Defaults(p);
    var t := TreeF(GeometryOf(q), root, t0);
    TreeCountsInodesOnce(GeometryOf(q), root, t0);
    EstimateBounds(lim, t.size, t.inodes, EXT2_FIRSTINO, SBSIZE, EXT2_REV0_DINODE_SIZE, q.bsize, q.minfree, q.density);
  }

  /**
   * `-o bsize=64` is taken, and leaves a block that holds no rev0 inode:
   * the divisor of the inode table's roundup is zero. The corrected
   * estimate refuses it.
   */
  lemma SmallBlockDividesByZero()
    ensures var r := ParseOptF(PREP, "bsize=64");
      && r == Accepted(PREP.(bsize := 64)) && Defaults(r.opts).bsize / EXT2_REV0_DINODE_SIZE == 0
      && Ext2Estimate(Defaults(r.opts), Bounds(0, 0, 0, 0, 0, 0), 0, 0).BlockTooSmall?
  {
    ParseSmall("bsize", "64", 0, 64);
    assert "bsize" + "=" + "64" == "bsize=64";
    assert Assign(PREP, 0, 64) == PREP.(bsize := 64);
    assert Defaults(PREP.(bsize := 64)) == Ext2Params(64, -1, MINFREE, 0);
  }

  /** Parsing name=digits for table entry k, when the digits' value is in range. */
  lemma ParseSmall(name: string, val: string, k: nat, v: int)
    requires k < |EXT2_OPTIONS| && EXT2_OPTIONS[k].name == name && '=' !in name
    requires DecimalF(val) == Some(v) && EXT2_OPTIONS[k].min <= v <= EXT2_OPTIONS[k].max
    ensures ParseOptF(PREP, name + "=" + val) == Accepted(Assign(PREP, k, v))
  {
    EqualsAtJoin(name, val);
    var option := name + "=" + val;
    assert option[..|name|] == name && option[|name| + 1..] == val;
    DistinctNames(k);
  }
}

=== FILE: fattr.dfy ===
// Owner, group and mode arguments of the mount programs
// (lib/libfsu_mount/fattr.c), as built for the rump kernel: a bad argument
// gives -1 after a warning instead of ending the program. long is 64 bits
// wide (LP64) and int 32 bits, so storing strtol's result in an int keeps
// its low 32 bits as a two's-complement number.

module Fattr {
  import opened CNum

  const INT_MAX: int := 0x7FFF_FFFF

  /** The int that a conversion from a wider integer keeps: the low 32 bits, as two's complement. */
  function Int32(x: int): (r: int)
    ensures -0x8000_0000 <= r <= INT_MAX
    ensures (r - x) % 0x1_0000_0000 == 0
    ensures -0x8000_0000 <= x <= INT_MAX ==> r == x
  {
    (x + 0x8000_0000) % 0x1_0000_0000 - 0x8000_0000
  }

  /** A uid_t, gid_t or mode_t (32-bit unsigned) holding the int x. */
  function Unsigned32(x: int): (r: nat)
    ensures r < 0x1_0000_0000 && (r - x) % 0x1_0000_0000 == 0
  {
    x % 0x1_0000_0000
  }

  /** strtol consumed all of s, and at least one character. */
  predicate WhollyConverted(s: string, base: nat)
    requires base == 0 || 2 <= base <= 36
  {
    0 < Strtol(s, base).end == |s|
  }

  /** a_num: s in C's notation for base 0 (decimal, 0 octal, 0x hex), or -1. */
  function ANum(s: string): (r: int)
    ensures r == -1 || (0 <= r <= INT_MAX && WhollyConverted(s, 0) && r == Int32(Strtol(s, 0).value))
    ensures !WhollyConverted(s, 0) ==> r == -1
  {
    var c := Strtol(s, 0);
    var id := Int32(c.value);
    if c.end < |s| || c.end == 0 || id < 0 then -1 else id
  }

  /** a_mask: s in octal, or -1. */
  function AMask(s: string): (r: int)
    ensures r == -1 || (0 <= r <= INT_MAX && WhollyConverted(s, 8) && r == Int32(Strtol(s, 8).value))
    ensures !WhollyConverted(s, 8) ==> r == -1
  {
    var c := Strtol(s, 8);
    var rv := Int32(c.value);
    if c.end == 0 || c.end < |s| || rv < 0 then -1 else rv
  }

  /**
   * a_gid and a_uid: the id of the name in the group or password database
   * (a map here), else the checked a_num of the string (a number beyond an
   * int is refused rather than wrapped); the int becomes an unsigned
   * 32-bit id, so a bad argument gives 0xFFFFFFFF.
   */
  function AId(s: string, names: map<string, nat>): (r: nat)
    ensures s in names ==> r == names[s]
    ensures s !in names && !WhollyConverted(s, 0) ==> r == 0xFFFF_FFFF
    ensures s !in names && WhollyConverted(s, 0) ==> r == 0xFFFF_FFFF || r <= INT_MAX
    ensures s !in names && WhollyConverted(s, 0) && 0 <= Strtol(s, 0).value <= INT_MAX ==> r == Strtol(s, 0).value
  {
    if s in names then names[s] else Unsigned32(ANumChecked(s))
  }

  /** A decimal id up to INT_MAX that names no group or user is read back as itself. */
  lemma ANumDecimal(n: nat)
    requires n <= INT_MAX
    ensures ANum(Digits(n, 10)) == n
  {
    DecimalRoundTrip(n, LONG_MIN, LONG_MAX);
  }

  /** An octal mode up to INT_MAX is read back as itself. */
  lemma AMaskOctal(m: nat)
    requires m <= INT_MAX
    ensures AMask(Digits(m, 8)) == m
  {
    DigitsRoundTrip(m, 8, LONG_MIN, LONG_MAX);
  }

  /** The empty string is no id and no mode. */
  lemma EmptyRejected()
    ensures ANum("") == -1 && AMask("") == -1
  {
  }

  /**
   * As written, a decimal number from 2^32 to 2^32 + INT_MAX is accepted as
   * that number less 2^32: "4294967296" names uid 0.
   */
  lemma ANumWraps(n: nat)
    requires 0x1_0000_0000 <= n <= 0x1_0000_0000 + INT_MAX
    ensures ANum(Digits(n, 10)) == n - 0x1_0000_0000
  {
    DecimalRoundTrip(n, LONG_MIN, LONG_MAX);
  }

  /** The same holds for modes, in octal. */
  lemma AMaskWraps(m: nat)
    requires 0x1_0000_0000 <= m <= 0x1_0000_0000 + INT_MAX
    ensures AMask(Digits(m, 8)) == m - 0x1_0000_0000
  {
    DigitsRoundTrip(m, 8, LONG_MIN, LONG_MAX);
  }

  /** a_num as evidently intended: a number that does not fit an int is refused, not truncated. */
  function ANumChecked(s: string): (r: int)
    ensures r == -1 || (0 <= r <= INT_MAX && WhollyConverted(s, 0) && r == Strtol(s, 0).value)
    ensures WhollyConverted(s, 0) && 0 <= Strtol(s, 0).value <= INT_MAX ==> r == Strtol(s, 0).value
  {
    var c := Strtol(s, 0);
    if c.end < |s| || c.end == 0 || c.value < 0 || c.value > INT_MAX then -1 else c.value
  }

  /** a_mask as evidently intended. */
  function AMaskChecked(s: string): (r: int)
    ensures r == -1 || (0 <= r <= INT_MAX && WhollyConverted(s, 8) && r == Strtol(s, 8).value)
    ensures WhollyConverted(s, 8) && 0 <= Strtol(s, 8).value <= INT_MAX ==> r == Strtol(s, 8).value
  {
    var c := Strtol(s, 8);
    if c.end < |s| || c.end == 0 || c.value < 0 || c.value > INT_MAX then -1 else c.value
  }

  /** The checked a_num reads a decimal id back exactly when it fits an int. */
  lemma ANumCheckedDecimal(n: nat)
    ensures ANumChecked(Digits(n, 10)) == (if n <= INT_MAX then n else -1)
  {
    if n <= LONG_MAX {
      DecimalRoundTrip(n, LONG_MIN, LONG_MAX);
    } else {
      var s := Digits(n, 10);
      DecimalRoundTrip(n, LONG_MIN, n);
      ClampBeyond(s, 0, n);
    }
  }

  /** The checked a_mask reads an octal mode back exactly when it fits an int. */
  lemma AMaskCheckedOctal(m: nat)
    ensures AMaskChecked(Digits(m, 8)) == (if m <= INT_MAX then m else -1)
  {
    if m <= LONG_MAX {
      DigitsRoundTrip(m, 8, LONG_MIN, LONG_MAX);
    } else {
      var s := Digits(m, 8);
      DigitsRoundTrip(m, 8, LONG_MIN, m);
      ClampBeyond(s, 8, m);
    }
  }

  /** A string that converts to v > LONG_MAX under an unbounded range is clamped to LONG_MAX by strtol. */
  lemma ClampBeyond(s: string, base: nat, v: int)
    requires base == 0 || 2 <= base <= 36
    requires LONG_MAX < v && Strto(s, base, LONG_MIN, v).value == v && !Strto(s, base, LONG_MIN, v).erange
    ensures Strtol(s, base).value == LONG_MAX && Strtol(s, base).erange
    ensures Strtol(s, base).end == Strto(s, base, LONG_MIN, v).end
  {
  }
}

=== FILE: ffs.dfy ===
// The FFS back end of the makefs size estimator (makefs-analyzetree/ffs.c):
// the ffs_opt_t options with their preparation, parsing and defaults, and
// ffs_makefs, which sizes a UFS1 or UFS2 image for a tree and prints the
// newfs command that would create it.

module Ffs {
  import opened Posix
  import opened Makefs

  // Constants of <ufs/ffs/fs.h>, <ufs/ufs/dinode.h>, <ufs/ufs/dir.h> and
  // <sys/param.h> as NetBSD defines them.
  const INT_MAX: int := 0x7fff_ffff
  const DFL_FRAGSIZE: int := 1024
  const DFL_BLKSIZE: int := 8192
  const DFL_SECSIZE: int := 512
  const DFL_CYLSPERGROUP: int := 65536
  const DFL_NSECTORS: int := 64
  const MINFREE: int := 5
  const FS_OPTTIME: int := 0
  const FS_OPTSPACE: int := 1
  const DEFAULTOPT: int := FS_OPTTIME
  const MAXPHYS: int := 65536
  const FFS_MAXBSIZE: int := 65536
  const AVFILESIZ: int := 16384
  const AFPDIR: int := 64
  const ROOTINO: nat := 2
  const SBLOCK_UFS1: nat := 8192
  const SBLOCKSIZE: nat := 8192
  const DINODE1_SIZE: nat := 128
  const DINODE2_SIZE: nat := 256
  const MAXSYMLINKLEN_UFS1: nat := 60
  const MAXSYMLINKLEN_UFS2: nat := 120
  const DIRBLKSIZ: nat := 512
  /** The divisor of fsopts->size >> DEV_BSHIFT (DEV_BSHIFT is 9). */
  const DEV_BSIZE: nat := 512

  /** The fields of ffs_opt_t this back end uses, -1 meaning "not given". */
  datatype FfsParams = FfsParams(
    bsize: int, fsize: int, cpg: int, cpgflg: int, density: int, nsectors: int,
    minfree: int, optimization: int, maxcontig: int, maxbpg: int,
    avgfilesize: int, avgfpdir: int, maxbsize: int, maxblkspercg: int, version: int)

  /**
   * ffs_prep_opts: the structure comes zeroed from calloc and the usual
   * fields are set to -1; the version is 1. nsectors keeps calloc's 0.
   */
  const PREP: FfsParams := FfsParams(
    bsize := -1, fsize := -1, cpg := -1, cpgflg := 0, density := -1, nsectors := 0,
    minfree := -1, optimization := -1, maxcontig := -1, maxbpg := -1,
    avgfilesize := -1, avgfpdir := -1, maxbsize := 0, maxblkspercg := 0, version := 1)

  /**
   * What prep and parse leave: each size either unset (-1) or in the range
   * its table entry allows, and a version of 1 or 2.
   */
  predicate Sane(p: FfsParams) {
    && (p.bsize == -1 || p.bsize >= 1)
    && (p.fsize == -1 || p.fsize >= 1)
    && (p.density == -1 || p.density >= 1)
    && (p.minfree == -1 || 0 <= p.minfree <= 99)
    && 1 <= p.version <= 2
  }

  /** The option table of ffs_parse_opts, in its order. */
  const FFS_OPTIONS: seq<OptSpec> := [
    OptSpec("bsize", 1, INT_MAX),
    OptSpec("fsize", 1, INT_MAX),
    OptSpec("density", 1, INT_MAX),
    OptSpec("minfree", 0, 99),
    OptSpec("maxbpf", 1, INT_MAX),
    OptSpec("avgfilesize", 1, INT_MAX),
    OptSpec("avgfpdir", 1, INT_MAX),
    OptSpec("extent", 1, INT_MAX),
    OptSpec("maxbpcg", 1, INT_MAX),
    OptSpec("version", 1, 2)
  ]

  /** The field table entry k points at receives v. */
  function Assign(p: FfsParams, k: nat, v: int): FfsParams {
    if k == 0 then p.(bsize := v)
    else if k == 1 then p.(fsize := v)
    else if k == 2 then p.(density := v)
    else if k == 3 then p.(minfree := v)
    else if k == 4 then p.(maxbpg := v)
    else if k == 5 then p.(avgfilesize := v)
    else if k == 6 then p.(avgfpdir := v)
    else if k == 7 then p.(maxbsize := v)
    else if k == 8 then p.(maxblkspercg := v)
    else p.(version := v)
  }

  /**
   * ffs_parse_opts on name=value: no '=' is refused; "optimization" takes
   * "time" or "space" and refuses anything else; any other name goes to
   * set_option with the table.
   */
  function ParseOptF(p: FfsParams, option: string): Parsed<FfsParams> {
    match EqualsAt(option)
    case None => Refused
    case Some(e) =>
      var name, val := option[..e], option[e + 1..];
      if name == "optimization" then
        if val == "time" then Accepted(p.(optimization := FS_OPTTIME))
        else if val == "space" then Accepted(p.(optimization := FS_OPTSPACE))
        else Refused
      else
        match SetOptionF(FFS_OPTIONS, name, val)
        case UnknownName => Refused
        case BadValue => Exit
        case Value(k, v) => Accepted(Assign(p, k, v))
  }

  function Max(a: int, b: int): int { if a > b then a else b }
  function Min(a: int, b: int): int { if a < b then a else b }

  /** The sector size ffs_makefs settles on. */
  function SectorSize(ss: int): int { if ss == -1 then DFL_SECSIZE else ss }

  /** A field left at -1 takes its default. */
  function Or(x: int, d: int): int { if x == -1 then d else x }

  /**
   * The defaults ffs_makefs fills in before the walk, sizes first; density
   * waits for the estimate.
   */
  function Defaults(p: FfsParams, ss: int): (r: FfsParams)
    requires Sane(p)
    ensures Settled(r)
  {
    TuningDefaults(SizeDefaults(p, ss))
  }

  /** An unset fragment is 1024 bytes or a sector; an unset block eight fragments, at most 8192. */
  function SizeDefaults(p: FfsParams, ss: int): (r: FfsParams)
    requires Sane(p)
    ensures r.bsize >= 1 && r.fsize >= 1
  {
    var fsize := Or(p.fsize, Max(DFL_FRAGSIZE, SectorSize(ss)));
    p.(fsize := fsize, bsize := Or(p.bsize, Min(DFL_BLKSIZE, 8 * fsize)))
  }

  /** MAX(1, MIN(MAXPHYS, FFS_MAXBSIZE) / bsize): blocks in one transfer. */
  function MaxContig(bsize: int): int
    requires bsize >= 1
  {
    Max(1, Min(MAXPHYS, FFS_MAXBSIZE) / bsize)
  }

  /** bsize / sizeof(int32_t): block pointers in one block. */
  function MaxBpg(bsize: int): int
    requires bsize >= 1
  {
    bsize / 4
  }

  /** The layout defaults, some of which follow from the block size. */
  function TuningDefaults(p: FfsParams): FfsParams
    requires p.bsize >= 1
  {
    AllocDefaults(LayoutDefaults(p))
  }

  /** Cylinder groups, sectors per track, minfree and optimization; a cpg given marks cpgflg. */
  function LayoutDefaults(p: FfsParams): (r: FfsParams)
    ensures r.bsize == p.bsize
  {
    FfsParams(
      bsize := p.bsize,
      fsize := p.fsize,
      cpg := Or(p.cpg, DFL_CYLSPERGROUP),
      cpgflg := if p.cpg == -1 then p.cpgflg else 1,
      density := p.density,
      nsectors := Or(p.nsectors, DFL_NSECTORS),
      minfree := Or(p.minfree, MINFREE),
      optimization := Or(p.optimization, DEFAULTOPT),
      maxcontig := p.maxcontig,
      maxbpg := p.maxbpg,
      avgfilesize := p.avgfilesize,
      avgfpdir := p.avgfpdir,
      maxbsize := p.maxbsize,
      maxblkspercg := p.maxblkspercg,
      version := p.version)
  }

  /** The allocation defaults: contiguous blocks and blocks per group follow from the block size. */
  function AllocDefaults(p: FfsParams): FfsParams
    requires p.bsize >= 1
  {
    FfsParams(
      bsize := p.bsize,
      fsize := p.fsize,
      cpg := p.cpg,
      cpgflg := p.cpgflg,
      density := p.density,
      nsectors := p.nsectors,
      minfree := p.minfree,
      optimization := p.optimization,
      maxcontig := Or(p.maxcontig, MaxContig(p.bsize)),
      maxbpg := Or(p.maxbpg, MaxBpg(p.bsize)),
      avgfilesize := Or(p.avgfilesize, AVFILESIZ),
      avgfpdir := Or(p.avgfpdir, AFPDIR),
      maxbsize := p.maxbsize,
      maxblkspercg := p.maxblkspercg,
      version := p.version)
  }

  /** What the estimate needs of the options: both sizes set. */
  predicate Settled(p: FfsParams) { Sane(p) && p.bsize >= 1 && p.fsize >= 1 }

  /** traverse_tree's constants: struct direct entries in DIRBLKSIZ blocks, sizes in fragments. */
  function GeometryOf(p: FfsParams): (g: Geometry)
    requires Settled(p)
    ensures Usable(g)
  {
    Geometry(Ufs, DIRBLKSIZ, p.fsize, if p.version == 1 then MAXSYMLINKLEN_UFS1 else MAXSYMLINKLEN_UFS2)
  }

  function DinodeSize(p: FfsParams): nat {
    if p.version == 1 then DINODE1_SIZE else DINODE2_SIZE
  }

  /** The estimate of ffs_makefs after the walk, with ROOTINO and both superblock areas. */
  function FfsEstimate(p: FfsParams, lim: Bounds, size: nat, inodes: nat): Estimate
    requires Settled(p)
  {
    EstimateF(lim, size, inodes, ROOTINO, SBLOCK_UFS1 + SBLOCKSIZE, DinodeSize(p), p.bsize, p.minfree, p.density)
  }

  /** The command ffs_makefs prints: size in sectors plus one, inodes, block and fragment size. */
  datatype Newfs = Newfs(sectors: nat, inodes: nat, bsize: nat, fsize: nat)

  /** ffs_opt_t as the back end updates it field by field. */
  class FfsOpts {
    var bsize: int
    var fsize: int
    var cpg: int
    var cpgflg: int
    var density: int
    var nsectors: int
    var minfree: int
    var optimization: int
    var maxcontig: int
    var maxbpg: int
    var avgfilesize: int
    var avgfpdir: int
    var maxbsize: int
    var maxblkspercg: int
    var version: int

    function Params(): FfsParams
      reads this
    {
      FfsParams(bsize, fsize, cpg, cpgflg, density, nsectors, minfree, optimization,
                maxcontig, maxbpg, avgfilesize, avgfpdir, maxbsize, maxblkspercg, version)
    }

    /** ffs_prep_opts. */
    constructor Prep()
      ensures Params() == PREP
    {
      bsize, fsize, cpg, cpgflg, density, nsectors := -1, -1, -1, 0, -1, 0;
      minfree, optimization, maxcontig, maxbpg := -1, -1, -1, -1;
      avgfilesize, avgfpdir, maxbsize, maxblkspercg, version := -1, -1, 0, 0, 1;
    }

    /** ffs_parse_opts: 0 for a refused option, 1 for a taken one, or strsuftoll's exit. */
    method ParseOpt(option: string) returns (r: Reply)
      modifies this
      ensures match ParseOptF(old(Params()), option)
        case Refused => r == Rv(0) && Params() == old(Params())
        case Accepted(q) => r == Rv(1) && Params() == q
        case Exit => r == Errx
    {
      var e := EqualsAt(option);
      if e.None? {
        return Rv(0);
      }
      var name, val := option[..e.value], option[e.value + 1..];
      if name == "optimization" {
        if val == "time" {
          optimization := FS_OPTTIME;
        } else if val == "space" {
          optimization := FS_OPTSPACE;
        } else {
          return Rv(0);
        }
        return Rv(1);
      }
      var s := SetOption(FFS_OPTIONS, name, val);
      match s
      case UnknownName => r := Rv(0);
      case BadValue => r := Errx;
      case Value(k, v) =>
        Store(k, v);
        r := Rv(1);
    }

    /** The store through the table entry's pointer. */
    method Store(k: nat, v: int)
      modifies this
      ensures Params() == Assign(old(Params()), k, v)
    {
      if k == 0 { bsize := v; }
      else if k == 1 { fsize := v; }
      else if k == 2 { density := v; }
      else if k == 3 { minfree := v; }
      else if k == 4 { maxbpg := v; }
      else if k == 5 { avgfilesize := v; }
      else if k == 6 { avgfpdir := v; }
      else if k == 7 { maxbsize := v; }
      else if k == 8 { maxblkspercg := v; }
      else { version := v; }
    }

    /** The defaults block at the top of ffs_makefs. */
    method SetDefaults(fi: FsInfo)
      requires Sane(Params())
      modifies this, fi
      ensures Params() == Defaults(old(Params()), old(fi.sectorsize))
      ensures fi.sectorsize == SectorSize(old(fi.sectorsize))
      ensures fi.size == old(fi.size) && fi.inodes == old(fi.inodes) && fi.Limits() == old(fi.Limits())
    {
      if fi.sectorsize == -1 {
        fi.sectorsize := DFL_SECSIZE;
      }
      ApplySizeDefaults(fi.sectorsize);
      ApplyTuningDefaults();
    }

    /** Each `if (x == -1) x = d;` is an Or. */
    method ApplySizeDefaults(ss: int)
      requires Sane(Params())
      modifies this
      ensures Params() == SizeDefaults(old(Params()), ss)
    {
      fsize := Or(fsize, Max(DFL_FRAGSIZE, ss));
      bsize := Or(bsize, Min(DFL_BLKSIZE, 8 * fsize));
    }

    method ApplyTuningDefaults()
      requires bsize >= 1
      modifies this
      ensures Params() == TuningDefaults(old(Params()))
    {
      ApplyLayoutDefaults();
      ApplyAllocDefaults();
    }

    method ApplyLayoutDefaults()
      modifies this
      ensures Params() == LayoutDefaults(old(Params()))
    {
      cpgflg := if cpg == -1 then cpgflg else 1;
      cpg := Or(cpg, DFL_CYLSPERGROUP);
      nsectors := Or(nsectors, DFL_NSECTORS);
      minfree := Or(minfree, MINFREE);
      optimization := Or(optimization, DEFAULTOPT);
    }

    method ApplyAllocDefaults()
      requires bsize >= 1
      modifies this
      ensures Params() == AllocDefaults(old(Params()))
    {
      maxcontig := Or(maxcontig, MaxContig(bsize));
      maxbpg := Or(maxbpg, MaxBpg(bsize));
      avgfilesize := Or(avgfilesize, AVFILESIZ);
      avgfpdir := Or(avgfpdir, AFPDIR);
    }
  }

  /** What parse_opts answers: its return value, or the exit of strsuftoll. */
  datatype Reply = Rv(rv: int) | Errx

  /**
   * The arithmetic of ffs_makefs after traverse_tree, step by step on
   * fsopts: reserved inodes, slop, superblocks, the inode table (refused
   * when a block holds no inode), minfree, minsize, rounding and density;
   * None is an errx.
   */
  method Size(fi: FsInfo, opts: FfsOpts) returns (cmd: Option<Newfs>)
    requires Settled(opts.Params())
    modifies fi, opts
    ensures var e := FfsEstimate(old(opts.Params()), old(fi.Limits()), old(fi.size), old(fi.inodes));
      && (e.Sized? ==>
            && cmd == Some(Newfs(e.size / DEV_BSIZE + 1, e.inodes, old(opts.bsize), old(opts.fsize)))
            && fi.size == e.size && fi.inodes == e.inodes
            && opts.Params() == old(opts.Params()).(density := e.density))
      && (!e.Sized? ==> cmd.None?)
    ensures fi.sectorsize == old(fi.sectorsize) && fi.Limits() == old(fi.Limits())
  {
    ghost var e := FfsEstimate(opts.Params(), fi.Limits(), fi.size, fi.inodes);
    AddSlack(fi, ROOTINO, SBLOCK_UFS1 + SBLOCKSIZE);
    var dinode := if opts.version == 1 then DINODE1_SIZE else DINODE2_SIZE;
    if opts.bsize / dinode == 0 {
      assert e.BlockTooSmall?;
      return None;
    }
    fi.size := fi.size + InodeTableBytes(fi.inodes, opts.bsize, dinode);
    assert e == Finish(fi.Limits(), fi.size, fi.inodes, opts.bsize, opts.minfree, opts.density);
    var ok, dens := FinishSize(fi, opts.bsize, opts.minfree, opts.density);
    opts.density := dens;
    if !ok {
      return None;
    }
    return Some(Newfs(fi.size / DEV_BSIZE + 1, fi.inodes, opts.bsize, opts.fsize));
  }

  /**
   * ffs_makefs: defaults, the walk of the tree, and the estimate; the
   * image size, the inode count and the density it settles on, and the
   * newfs command, or an exit.
   */
  method FfsMakefs(root: seq<FsNode>, fi: FsInfo, opts: FfsOpts, tab: Inodes) returns (cmd: Option<Newfs>)
    requires Sane(opts.Params())
    modifies fi, opts, tab
    ensures var p := Defaults(old(opts.Params()), old(fi.sectorsize));
      var t := TreeF(GeometryOf(p), root, old(Tally(fi.size, fi.inodes, tab.sized)));
      var e := FfsEstimate(p, old(fi.Limits()), t.size, t.inodes);
      && tab.sized == t.sized
      && fi.sectorsize == SectorSize(old(fi.sectorsize))
      && (e.Sized? ==>
            && cmd == Some(Newfs(e.size / DEV_BSIZE + 1, e.inodes, p.bsize, p.fsize))
            && fi.size == e.size && fi.inodes == e.inodes
            && opts.Params() == p.(density := e.density))
      && (!e.Sized? ==> cmd.None?)
  {
    ghost var t0 := Tally(fi.size, fi.inodes, tab.sized);
    ghost var lim := fi.Limits();
    opts.SetDefaults(fi);
    ghost var p := opts.Params();
    Traverse(GeometryOf(opts.Params()), root, fi, tab);
    assert Tally(fi.size, fi.inodes, tab.sized) == TreeF(GeometryOf(p), root, t0);
    cmd := Size(fi, opts);
  }

  // ---------------------------------------------------------------------
  // Properties

  /** ffs_prep_opts leaves every size unset and the version at 1. */
  lemma PrepIsSane()
    ensures Sane(PREP) && PREP.bsize == -1 && PREP.fsize == -1 && PREP.density == -1 && PREP.version == 1
  {
  }

  /**
   * Parsing keeps the options sane: whatever a taken option sets is in its
   * table range, so prep followed by any run of parse_opts calls is sane.
   */
  lemma ParseKeepsSane(p: FfsParams, option: string)
    requires Sane(p)
    ensures var r := ParseOptF(p, option); r.Accepted? ==> Sane(r.opts)
  {
    match EqualsAt(option)
    case None =>
    case Some(e) =>
      var name, val := option[..e], option[e + 1..];
      if name != "optimization" {
        var s := SetOptionF(FFS_OPTIONS, name, val);
        SetOptionRange(FFS_OPTIONS, name, val);
        if s.Value? {
          AssignSane(p, s.index, s.v);
        }
      }
  }

  /** A value within its table entry's range keeps the options sane. */
  lemma AssignSane(p: FfsParams, k: nat, v: int)
    requires Sane(p) && k < |FFS_OPTIONS| && FFS_OPTIONS[k].min <= v <= FFS_OPTIONS[k].max
    ensures Sane(Assign(p, k, v))
  {
  }

  /** An option with no '=' is refused and changes nothing. */
  lemma NoValueRefused(p: FfsParams, option: string)
    requires '=' !in option
    ensures ParseOptF(p, option) == Refused
  {
  }

  /**
   * name=value, for a name with no '=' in it: "optimization" takes exactly
   * "time" and "space" and never exits; a name outside the table is
   * refused; a name in the table with a decimal value in its range sets
   * that field and nothing else, and any other value exits.
   */
  lemma ParseOptCases(p: FfsParams, name: string, val: string)
    requires '=' !in name
    ensures var r := ParseOptF(p, name + "=" + val);
      && (name == "optimization" ==>
            && (r.Accepted? <==> val == "time" || val == "space")
            && (r.Accepted? ==> r.opts == p.(optimization := if val == "time" then FS_OPTTIME else FS_OPTSPACE))
            && !r.Exit?)
      && (name != "optimization" && (forall j :: 0 <= j < |FFS_OPTIONS| ==> FFS_OPTIONS[j].name != name) ==> r.Refused?)
      && (forall j :: 0 <= j < |FFS_OPTIONS| && FFS_OPTIONS[j].name == name ==>
            match DecimalF(val)
            case None => r.Exit?
            case Some(v) =>
              if FFS_OPTIONS[j].min <= v <= FFS_OPTIONS[j].max then r == Accepted(Assign(p, j, v)) else r.Exit?)
  {
    var option := name + "=" + val;
    EqualsAtJoin(name, val);
    assert option[..|name|] == name && option[|name| + 1..] == val;
    forall j | 0 <= j < |FFS_OPTIONS| && FFS_OPTIONS[j].name == name
      ensures Lookup(FFS_OPTIONS, name, 0) == Some(j)
    {
      DistinctNames(j);
    }
  }

  /** The table's names are distinct, so a name selects one entry. */
  lemma DistinctNames(j: nat)
    requires j < |FFS_OPTIONS|
    ensures Lookup(FFS_OPTIONS, FFS_OPTIONS[j].name, 0) == Some(j)
  {
  }

  /**
   * ffs_makefs's defaults: sizes given are kept; an unset fragment is
   * 1024 bytes or the sector size if larger; an unset block is eight
   * fragments but at most 8192; every other unset field gets its default
   * and density stays unset for the estimate.
   */
  lemma DefaultsSettle(p: FfsParams, ss: int)
    requires Sane(p)
    ensures var r := Defaults(p, ss);
      && (p.fsize != -1 ==> r.fsize == p.fsize)
      && (p.fsize == -1 ==> r.fsize >= DFL_FRAGSIZE && r.fsize >= SectorSize(ss))
      && (p.bsize != -1 ==> r.bsize == p.bsize)
      && (p.bsize == -1 ==> r.bsize <= DFL_BLKSIZE && r.bsize <= 8 * r.fsize)
      && r.cpg != -1 && r.minfree != -1 && r.optimization != -1
      && (p.maxcontig == -1 ==> r.maxcontig >= 1) && (p.maxbpg == -1 ==> r.maxbpg == r.bsize / 4)
      && r.avgfilesize != -1 && r.avgfpdir != -1 && r.density == p.density && r.version == p.version
      && r.cpgflg == (if p.cpg == -1 then p.cpgflg else 1)
  {
  }

  /**
   * ffs_makefs never reports an image smaller than the tree: the image
   * is a whole number of blocks, holds the walked tree, the ROOTINO
   * reserved inodes and a UFS inode for each, and the printed sector count
   * covers it.
   */
  lemma ImageHoldsTree(p: FfsParams, ss: int, lim: Bounds, root: seq<FsNode>, t0: Tally)
    requires Sane(p)
    ensures var q := Defaults(p, ss);
      var t := TreeF(GeometryOf(q), root, t0);
      var e := FfsEstimate(q, lim, t.size, t.inodes);
      && (e.BlockTooSmall? <==> q.bsize < DinodeSize(q))
      && (e.Sized? ==>
            && e.size % q.bsize == 0
            && e.size >= t.size + lim.freeblocks + (SBLOCK_UFS1 + SBLOCKSIZE) + e.inodes * DinodeSize(q)
            && e.inodes >= t0.inodes + |Inos(root) - t0.sized| + ROOTINO
            && (e.size / DEV_BSIZE + 1) * DEV_BSIZE > e.size)
  {
    DefaultsSettle(p, ss);
    var q := Defaults(p, ss);
    var t := TreeF(GeometryOf(q), root, t0);
    TreeCountsInodesOnce(GeometryOf(q), root, t0);
    EstimateBounds(lim, t.size, t.inodes, ROOTINO, SBLOCK_UFS1 + SBLOCKSIZE, DinodeSize(q), q.bsize, q.minfree, q.density);
  }

  /**
   * `-o bsize=64` is taken, and leaves a block that holds no UFS1 inode:
   * the divisor of the inode table's roundup is zero. The corrected
   * estimate refuses it.
   */
  lemma SmallBlockDividesByZero()
    ensures var r := ParseOptF(PREP, "bsize=64");
      && r == Accepted(PREP.(bsize := 64)) && Defaults(r.opts, -1).bsize / DINODE1_SIZE == 0
      && FfsEstimate(Defaults(r.opts, -1), Bounds(0, 0, 0, 0, 0, 0), 0, 0).BlockTooSmall?
  {
    ParseSmall("bsize", "64", 0, 64);
    assert "bsize" + "=" + "64" == "bsize=64";
    assert Assign(PREP, 0, 64) == PREP.(bsize := 64);
  }

  /** `-o fsize=8` is taken, and its default block is 64 bytes, which holds no UFS1 inode either. */
  lemma SmallFragmentDividesByZero()
    ensures var r := ParseOptF(PREP, "fsize=8");
      && r == Accepted(PREP.(fsize := 8)) && Defaults(r.opts, -1).bsize == 64
      && Defaults(r.opts, -1).bsize / DINODE1_SIZE == 0
  {
    ParseSmall("fsize", "8", 1, 8);
    assert "fsize" + "=" + "8" == "fsize=8";
    assert Assign(PREP, 1, 8) == PREP.(fsize := 8);
  }

  /** Parsing name=digits for table entry k, when the digits' value is in range. */
  lemma ParseSmall(name: string, val: string, k: nat, v: int)
    requires k < |FFS_OPTIONS| && FFS_OPTIONS[k].name == name && '=' !in name
    requires DecimalF(val) == Some(v) && FFS_OPTIONS[k].min <= v <= FFS_OPTIONS[k].max
    ensures ParseOptF(PREP, name + "=" + val) == Accepted(Assign(PREP, k, v))
  {
    EqualsAtJoin(name, val);
    var option := name + "=" + val;
    assert option[..|name|] == name && option[|name| + 1..] == val;
    DistinctNames(k);
  }
}

=== FILE: flist.dfy ===
// The list-based tree walker of src/fsu_flist.c: a flat list of entries that
// grows while it is being iterated, each directory's children being inserted
// right after it, so that the list ends up as a pre-order listing of the tree.

module Flist {
  import opened Posix
  import opened Domain

  // The walker's flag bits, FSU_FLIST_RECURSIVE (0x01), FSU_FLIST_STATLINK (0x02)
  // and FSU_FLIST_REALFS (0x04), tested as literals.
  predicate Recursive(flags: bv32) { flags & 0x01 != 0 }
  predicate StatLink(flags: bv32) { flags & 0x02 != 0 }
  predicate RealFs(flags: bv32) { flags & 0x04 != 0 }

  /**
   * FSU_FENT. The parent pointer is the parent's index in the list (-1 for
   * the root): entries are only ever inserted after the one being expanded,
   * so an index, once given, never moves.
   */
  datatype Entry = Entry(
    path: string, filename: string, pathlen: nat, sb: Stat, parent: int, childno: nat)

  /** No directory entry name holds '/', as the kernel hands them out; an empty name is allowed (the walker skips it). */
  predicate NamesWellFormed(fs: Fs) {
    forall k, n :: k in fs.files && fs.files[k].content.Entries? && n in fs.files[k].content.names ==>
      '/' !in n
  }

  /** ISDOT, and the empty name the walker skips beside it. */
  predicate Skipped(name: string) {
    name == "." || name == ".." || name == ""
  }

  /** The root entry's filename: the text after the last '/', or all of "/" or a '/'-free path. */
  function RootName(p: string): (r: string)
    ensures '/' in p && p != "/" ==> r == AfterLastSlash(p)
    ensures '/' !in p || p == "/" ==> r == p
  {
    if p == "/" then p else AfterLastSlash(p)
  }

  /** fsu_flist_alloc_root: the root is always stat-ed, following symbolic links. */
  function AllocRoot(fs: Fs, p: string): (r: Option<Entry>)
    ensures r.Some? <==> StatF(fs, p).Ok?
    ensures r.Some? ==> r.value == Entry(p, RootName(p), |p|, StatF(fs, p).value, -1, 0)
  {
    match StatF(fs, p)
    case Fail(_) => None
    case Ok(sb) => Some(Entry(p, RootName(p), |p|, sb, -1, 0))
  }

  /** The stat call the walker uses for children: lstat under STATLINK, else stat. */
  function ChildStat(fs: Fs, p: string, flags: bv32): Result<Stat> {
    if StatLink(flags) then LstatF(fs, p) else StatF(fs, p)
  }

  /** fsu_flist_alloc: the child entry for name under parent (at index pos), or None if stat fails. */
  function AllocChild(fs: Fs, parent: Entry, pos: int, name: string, flags: bv32): (r: Option<Entry>)
    ensures r.Some? <==> ChildStat(fs, JoinPath(parent.path, name), flags).Ok?
    ensures r.Some? ==> r.value.path == JoinPath(parent.path, name) && r.value.filename == name
    ensures r.Some? ==> r.value.parent == pos && r.value.childno == 0
    ensures r.Some? ==> r.value.pathlen == |r.value.path| && Norm(r.value.path) in fs.files
  {
    var path := JoinPath(parent.path, name);
    match ChildStat(fs, path, flags)
    case Fail(_) => None
    case Ok(sb) => Some(Entry(path, name, |path|, sb, pos, 0))
  }

  /** What the read loop inserts for one directory entry: nothing for "." and "..", or when stat fails. */
  function Accepted(fs: Fs, parent: Entry, pos: int, name: string, flags: bv32): (r: seq<Entry>)
    ensures |r| <= 1
    ensures r == [] <==> Skipped(name) || AllocChild(fs, parent, pos, name, flags).None?
  {
    if Skipped(name) then []
    else match AllocChild(fs, parent, pos, name, flags)
      case None => []
      case Some(c) => [c]
  }

  /** The children the read loop inserts for the directory entries names, in read order. */
  function Kids(fs: Fs, parent: Entry, pos: int, names: seq<string>, flags: bv32): (r: seq<Entry>)
    ensures |r| <= |names|
  {
    if |names| == 0 then []
    else Kids(fs, parent, pos, names[..|names| - 1], flags) + Accepted(fs, parent, pos, names[|names| - 1], flags)
  }

  /** Every inserted child is a named, stat-able entry under parent, at index pos. */
  lemma {:induction false} KidsFacts(fs: Fs, parent: Entry, pos: int, names: seq<string>, flags: bv32)
    ensures forall i :: 0 <= i < |Kids(fs, parent, pos, names, flags)| ==>
      var c := Kids(fs, parent, pos, names, flags)[i];
      && c.parent == pos && !Skipped(c.filename) && c.filename in names
      && c.path == JoinPath(parent.path, c.filename) && c.pathlen == |c.path|
      && c.childno == 0 && Norm(c.path) in fs.files
  {
    if |names| > 0 {
      KidsFacts(fs, parent, pos, names[..|names| - 1], flags);
    }
  }

  /**
   * What happens to entry e, at index pos, when the loop reaches it: a
   * directory that opens gets its children (and their count in childno);
   * anything else stays as it is.
   */
  function Expand(fs: Fs, e: Entry, pos: int, flags: bv32): (r: (Entry, seq<Entry>))
    ensures r.0 == e.(childno := r.0.childno)
    ensures r.1 != [] ==> IsDir(e.sb.mode) && r.0.childno == e.childno + |r.1|
    ensures r.1 == [] ==> r.0 == e
  {
    if !IsDir(e.sb.mode) then (e, [])
    else match OpendirF(fs, e.path)
      case Fail(_) => (e, [])
      case Ok(names) =>
        var ks := Kids(fs, e, pos, names, flags);
        (e.(childno := e.childno + |ks|), ks)
  }

  /** Children of a directory have strictly longer normalised paths than the directory. */
  lemma KidsLonger(fs: Fs, e: Entry, pos: int, names: seq<string>, flags: bv32)
    requires NamesWellFormed(fs)
    requires OpendirF(fs, e.path).Ok? && names == OpendirF(fs, e.path).value
    ensures Norm(e.path) in fs.files
    ensures forall i :: 0 <= i < |Kids(fs, e, pos, names, flags)| ==>
      |Norm(Kids(fs, e, pos, names, flags)[i].path)| > |Norm(e.path)|
  {
    var k := Resolve(fs, e.path, MAXSYMLINKS).value;
    var ks := Kids(fs, e, pos, names, flags);
    KidsFacts(fs, e, pos, names, flags);
    forall i | 0 <= i < |ks|
      ensures |Norm(ks[i].path)| > |Norm(e.path)|
    {
      assert ks[i].filename in fs.files[k].content.names;
      NormJoin(e.path, ks[i].filename);
    }
  }

  /** Keys at least n characters long. */
  function AtLeast(fs: Fs, n: int): set<string> {
    set k | k in fs.files.Keys && |k| >= n
  }

  // The pre-order listing is defined for any expansion step whose children
  // rank strictly below their parent; the walker's step is one of them.

  /** How an entry at a given index is expanded: the entry as updated, and its new children. */
  type Expander = (Entry, int) -> (Entry, seq<Entry>)

  ghost predicate Shrinks(exp: Expander, rank: Entry -> nat) {
    forall e, pos, i :: 0 <= i < |exp(e, pos).1| ==> rank(exp(e, pos).1[i]) < rank(e)
  }

  /** The highest rank among xs. */
  function MaxRank(rank: Entry -> nat, xs: seq<Entry>): (r: nat)
    ensures forall i :: 0 <= i < |xs| ==> rank(xs[i]) <= r
  {
    if xs == [] then 0
    else
      var m := MaxRank(rank, xs[1..]);
      assert forall i :: 1 <= i < |xs| ==> xs[i] == xs[1..][i - 1];
      if rank(xs[0]) <= m then m else rank(xs[0])
  }

  /** The listing produced from e, placed at index pos: e, then the subtrees of its children. */
  function Subtree(exp: Expander, rank: Entry -> nat, e: Entry, pos: int): (r: seq<Entry>)
    requires Shrinks(exp, rank)
    ensures |r| >= 1
    decreases rank(e), 0, 0
  {
    var (e', ks) := exp(e, pos);
    if ks == [] then [e']
    else
      assert MaxRank(rank, ks) < rank(e) by {
        assert rank(ks[0]) < rank(e);
        MaxRankBound(rank, ks, rank(e) - 1);
      }
      [e'] + Expanded(exp, rank, ks, pos + 1)
  }

  /** The listing of the consecutive subtrees of xs, the first at index pos. */
  function Expanded(exp: Expander, rank: Entry -> nat, xs: seq<Entry>, pos: int): (r: seq<Entry>)
    requires Shrinks(exp, rank) && xs != []
    ensures |r| >= |xs|
    decreases MaxRank(rank, xs), 1, |xs|
  {
    var t := Subtree(exp, rank, xs[0], pos);
    if |xs| == 1 then t
    else
      assert MaxRank(rank, xs[1..]) <= MaxRank(rank, xs) by {
        assert forall i :: 0 <= i < |xs[1..]| ==> xs[1..][i] == xs[i + 1];
        MaxRankBound(rank, xs[1..], MaxRank(rank, xs));
      }
      t + Expanded(exp, rank, xs[1..], pos + |t|)
  }

  lemma {:induction false} MaxRankBound(rank: Entry -> nat, xs: seq<Entry>, m: nat)
    requires forall i :: 0 <= i < |xs| ==> rank(xs[i]) <= m
    ensures MaxRank(rank, xs) <= m
  {
    if xs != [] {
      MaxRankBound(rank, xs[1..], m);
    }
  }

  /** The listing still owed from index i of a list being walked. */
  function Rest(exp: Expander, rank: Entry -> nat, list: seq<Entry>, i: nat): seq<Entry>
    requires Shrinks(exp, rank) && i <= |list|
  {
    if i == |list| then [] else Expanded(exp, rank, list[i..], i)
  }

  /** One unfolding of Expanded. */
  lemma ExpandedCons(exp: Expander, rank: Entry -> nat, xs: seq<Entry>, pos: int)
    requires Shrinks(exp, rank) && |xs| > 1
    ensures var t := Subtree(exp, rank, xs[0], pos);
      Expanded(exp, rank, xs, pos) == t + Expanded(exp, rank, xs[1..], pos + |t|)
  {
  }

  lemma SeqAssoc<T>(t: seq<T>, a: seq<T>, b: seq<T>)
    ensures t + (a + b) == (t + a) + b && |t + a| == |t| + |a|
  {
  }

  /** The listing of consecutive subtrees splits at any point. */
  lemma {:induction false} ExpandedAppend(exp: Expander, rank: Entry -> nat, xs: seq<Entry>, ys: seq<Entry>, pos: int)
    requires Shrinks(exp, rank) && xs != [] && ys != []
    ensures Expanded(exp, rank, xs + ys, pos)
         == Expanded(exp, rank, xs, pos) + Expanded(exp, rank, ys, pos + |Expanded(exp, rank, xs, pos)|)
    decreases |xs|, 1
  {
    var zs := xs + ys;
    assert zs[0] == xs[0];
    ExpandedCons(exp, rank, zs, pos);
    if |xs| == 1 {
      assert zs[1..] == ys;
    } else {
      assert zs[1..] == xs[1..] + ys;
      ExpandedAppendStep(exp, rank, xs, ys, pos);
    }
  }

  /** The inductive step of ExpandedAppend, for more than one subtree in front. */
  lemma {:induction false} ExpandedAppendStep(exp: Expander, rank: Entry -> nat, xs: seq<Entry>, ys: seq<Entry>, pos: int)
    requires Shrinks(exp, rank) && |xs| > 1 && ys != []
    requires var t := Subtree(exp, rank, xs[0], pos);
      Expanded(exp, rank, xs + ys, pos) == t + Expanded(exp, rank, xs[1..] + ys, pos + |t|)
    ensures Expanded(exp, rank, xs + ys, pos)
         == Expanded(exp, rank, xs, pos) + Expanded(exp, rank, ys, pos + |Expanded(exp, rank, xs, pos)|)
    decreases |xs|, 0
  {
    var t := Subtree(exp, rank, xs[0], pos);
    ExpandedCons(exp, rank, xs, pos);
    ExpandedAppend(exp, rank, xs[1..], ys, pos + |t|);
    var a := Expanded(exp, rank, xs[1..], pos + |t|);
    assert Expanded(exp, rank, xs, pos) == t + a;
    assert pos + |t + a| == pos + |t| + |a|;
    SeqAssoc(t, a, Expanded(exp, rank, ys, pos + |t| + |a|));
  }

  /** One step of the walk: the entry at i is replaced by its expansion. */
  lemma RestStep(exp: Expander, rank: Entry -> nat, list: seq<Entry>, i: nat)
    requires Shrinks(exp, rank) && i < |list|
    ensures var (e', ks) := exp(list[i], i);
      var list' := list[..i] + [e'] + ks + list[i + 1..];
      list[..i] + Rest(exp, rank, list, i) == list'[..i + 1] + Rest(exp, rank, list', i + 1)
  {
    var (e', ks) := exp(list[i], i);
    var list' := list[..i] + [e'] + ks + list[i + 1..];
    var tail := list[i + 1..];
    var t := Subtree(exp, rank, list[i], i);
    assert list[i..] == [list[i]] + tail;
    assert list'[..i + 1] == list[..i] + [e'];
    assert list'[i + 1..] == ks + tail;
    // What the walk still owes after the step, and the subtree of list[i].
    var owed := if ks + tail == [] then [] else Expanded(exp, rank, ks + tail, i + 1);
    assert Rest(exp, rank, list', i + 1) == owed;
    var r := Rest(exp, rank, list, i);
    if tail == [] {
      assert r == t;
      if ks == [] {
        assert t == [e'];
        assert r == [e'] + owed;
      } else {
        assert ks + tail == ks;
        assert r == [e'] + owed;
      }
    } else {
      assert list[i..][1..] == tail;
      ExpandedCons(exp, rank, list[i..], i);
      assert r == t + Expanded(exp, rank, tail, i + |t|);
      if ks == [] {
        assert t == [e'];
        assert ks + tail == tail;
        assert r == [e'] + owed;
      } else {
        assert t == [e'] + Expanded(exp, rank, ks, i + 1);
        assert |ks + tail| > 0;
        ExpandedBoth(exp, rank, e', ks, tail, i, t);
        assert r == [e'] + owed;
      }
    }
    SeqAssoc(list[..i], [e'], owed);
  }

  /** A subtree whose root has children, followed by more of the list, is the root and then the children and the rest expanded together. */
  lemma ExpandedBoth(exp: Expander, rank: Entry -> nat, e': Entry, ks: seq<Entry>, tail: seq<Entry>, i: int,
                     t: seq<Entry>)
    requires Shrinks(exp, rank) && ks != [] && tail != []
    requires t == [e'] + Expanded(exp, rank, ks, i + 1)
    ensures t + Expanded(exp, rank, tail, i + |t|) == [e'] + Expanded(exp, rank, ks + tail, i + 1)
  {
    var eks := Expanded(exp, rank, ks, i + 1);
    ExpandedAppend(exp, rank, ks, tail, i + 1);
    assert i + |t| == i + 1 + |eks|;
    SeqAssoc([e'], eks, Expanded(exp, rank, tail, i + 1 + |eks|));
  }

  /** The walk invariant survives replacing the entry at i by its expansion. */
  lemma WalkStep(exp: Expander, rank: Entry -> nat, list0: seq<Entry>, list: seq<Entry>, i: nat, s: seq<Entry>)
    requires Shrinks(exp, rank) && i < |list0|
    requires list0[..i] + Rest(exp, rank, list0, i) == s
    requires list == list0[..i] + [exp(list0[i], i).0] + exp(list0[i], i).1 + list0[i + 1..]
    ensures i + 1 <= |list| <= |s|
    ensures list[..i + 1] + Rest(exp, rank, list, i + 1) == s
  {
    RestStep(exp, rank, list0, i);
    if i + 1 < |list| {
      assert |Rest(exp, rank, list, i + 1)| >= |list[i + 1..]|;
    }
  }

  /** The walker's own expansion step and rank: the keys at least as long as the entry's. */
  function Step(fs: Fs, flags: bv32): Expander {
    (e: Entry, pos: int) => Expand(fs, e, pos, flags)
  }

  function Rank(fs: Fs): Entry -> nat {
    (e: Entry) => |AtLeast(fs, |Norm(e.path)|)|
  }

  lemma ProperSubsetCard<T>(a: set<T>, b: set<T>, x: T)
    requires a <= b && x in b && x !in a
    ensures |a| < |b|
  {
    assert b == a + (b - a);
    assert {x} <= b - a;
  }

  /** With well-formed directory names the walk terminates: children rank below their directory. */
  lemma StepShrinks(fs: Fs, flags: bv32)
    requires NamesWellFormed(fs)
    ensures Shrinks(Step(fs, flags), Rank(fs))
  {
    forall e, pos, i | 0 <= i < |Step(fs, flags)(e, pos).1|
      ensures Rank(fs)(Step(fs, flags)(e, pos).1[i]) < Rank(fs)(e)
    {
      var ks := Expand(fs, e, pos, flags).1;
      var names := OpendirF(fs, e.path).value;
      KidsLonger(fs, e, pos, names, flags);
      var c := ks[i];
      ProperSubsetCard(AtLeast(fs, |Norm(c.path)|), AtLeast(fs, |Norm(e.path)|), Norm(e.path));
    }
  }

  /** fsu_flist_build: None, or the listing with the root first. */
  function Build(fs: Fs, rootp: Option<string>, flags: bv32): Option<seq<Entry>>
    requires NamesWellFormed(fs)
  {
    if !RealFs(flags) || rootp.None? then None
    else match AllocRoot(fs, rootp.value)
      case None => None
      case Some(root) =>
        if !Recursive(flags) then
          var (root', ks) := Expand(fs, root, 0, flags);
          Some([root'] + ks)
        else
          StepShrinks(fs, flags);
          Some(Subtree(Step(fs, flags), Rank(fs), root, 0))
  }

  /**
   * Build from a root that was stat-ed, as one walk over a generic expansion
   * step and rank, which stand for Step(fs, flags) and Rank(fs).
   */
  lemma BuildFromRoot(fs: Fs, rootp: Option<string>, flags: bv32, root: Entry)
    returns (exp: Expander, rank: Entry -> nat)
    requires NamesWellFormed(fs)
    requires RealFs(flags) && rootp.Some? && AllocRoot(fs, rootp.value) == Some(root)
    ensures Shrinks(exp, rank) && StepOf(fs, flags, exp)
    ensures Recursive(flags) ==> Build(fs, rootp, flags) == Some(Subtree(exp, rank, root, 0))
    ensures !Recursive(flags) ==> Build(fs, rootp, flags) == Some([exp(root, 0).0] + exp(root, 0).1)
  {
    exp := Step(fs, flags);
    rank := Rank(fs);
    StepShrinks(fs, flags);
  }

  /** Inserting c after the last child of x, then counting it in x. */
  lemma InsertAfterLast(head: seq<Entry>, x: Entry, ks: seq<Entry>, tail: seq<Entry>, c: Entry)
    ensures var l := head + [x] + ks + tail;
      var p := |head| + |ks|;
      var l' := l[..p + 1] + [c] + l[p + 1..];
      |head| < |l'| && l'[|head|] == x
      && l'[|head| := x.(childno := x.childno + 1)] == head + [x.(childno := x.childno + 1)] + (ks + [c]) + tail
  {
    var l := head + [x] + ks + tail;
    var p := |head| + |ks|;
    assert l[..p + 1] == head + [x] + ks;
    assert l[p + 1..] == tail;
  }

  /** The read loop over one more name inserts what it inserted before, then what that name gives. */
  lemma KidsNext(fs: Fs, parent: Entry, pos: int, names: seq<string>, j: nat, flags: bv32)
    requires j < |names|
    ensures Kids(fs, parent, pos, names[..j + 1], flags)
         == Kids(fs, parent, pos, names[..j], flags) + Accepted(fs, parent, pos, names[j], flags)
  {
    assert names[..j + 1][..j] == names[..j];
  }

  /**
   * One pass of the readdir loop: a name other than "." and ".." whose child
   * can be stat-ed is inserted after prev, and the directory at index i
   * counts it; ks are the children inserted before, ks' those after.
   */
  method ReadEntry(fs: Fs, cur: Entry, i: nat, name: string, flags: bv32, list: seq<Entry>, prev: nat,
                   ghost head: seq<Entry>, ghost ks: seq<Entry>, ghost tail: seq<Entry>)
    returns (list': seq<Entry>, prev': nat, ghost ks': seq<Entry>)
    requires |head| == i && prev == i + |ks|
    requires list == head + [cur.(childno := cur.childno + |ks|)] + ks + tail
    ensures ks' == ks + Accepted(fs, cur, i, name, flags)
    ensures prev' == i + |ks'|
    ensures list' == head + [cur.(childno := cur.childno + |ks'|)] + ks' + tail
  {
    ghost var acc := Accepted(fs, cur, i, name, flags);
    ks' := ks + acc;
    list', prev' := list, prev;
    if !Skipped(name) {
      var child := AllocChild(fs, cur, i, name, flags);
      if child.Some? {
        assert acc == [child.value];
        ghost var x := cur.(childno := cur.childno + |ks|);
        assert x.(childno := x.childno + 1) == cur.(childno := cur.childno + |ks + acc|);
        InsertAfterLast(head, x, ks, tail, child.value);
        list' := list'[..prev + 1] + [child.value] + list'[prev + 1..];
        prev' := prev + 1;
        list' := list'[i := list'[i].(childno := list'[i].childno + 1)];
        return;
      }
    }
    assert acc == [] && ks + acc == ks;
  }

  /**
   * The readdir loop of fsu_flist_build for the directory at index i: each
   * accepted child goes right after the previously inserted one (prev), and
   * the directory's childno counts them.
   */
  method InsertChildren(fs: Fs, list: seq<Entry>, i: nat, names: seq<string>, flags: bv32)
    returns (list': seq<Entry>)
    requires i < |list|
    ensures var ks := Kids(fs, list[i], i, names, flags);
      list' == list[..i] + [list[i].(childno := list[i].childno + |ks|)] + ks + list[i + 1..]
  {
    var cur := list[i];
    ghost var head := list[..i];
    ghost var tail := list[i + 1..];
    list' := list;
    assert list' == head + [cur.(childno := cur.childno + 0)] + [] + tail;
    var prev := i;
    var j := 0;
    ghost var ks: seq<Entry> := [];
    while j < |names|
      invariant 0 <= j <= |names|
      invariant ks == Kids(fs, cur, i, names[..j], flags)
      invariant prev == i + |ks|
      invariant list' == head + [cur.(childno := cur.childno + |ks|)] + ks + tail
    {
      KidsNext(fs, cur, i, names, j, flags);
      list', prev, ks := ReadEntry(fs, cur, i, names[j], flags, list', prev, head, ks, tail);
      j := j + 1;
    }
    assert names[..|names|] == names;
  }

  /**
   * One iteration of the walk loop at index i: a directory that opens gets its
   * children inserted after it; any other entry is left alone.
   */
  method Visit(fs: Fs, list: seq<Entry>, i: nat, flags: bv32) returns (list': seq<Entry>, expanded: bool)
    requires i < |list|
    ensures expanded <==> IsDir(list[i].sb.mode) && OpendirF(fs, list[i].path).Ok?
    ensures !expanded ==> list' == list && Expand(fs, list[i], i, flags) == (list[i], [])
    ensures var next := Expand(fs, list[i], i, flags);
      list' == list[..i] + [next.0] + next.1 + list[i + 1..]
  {
    var cur := list[i];
    ghost var next := Expand(fs, cur, i, flags);
    expanded := false;
    list' := list;
    if IsDir(cur.sb.mode) {
      var dir := OpendirF(fs, cur.path);
      if dir.Ok? {
        ExpandOpened(fs, cur, i, flags, dir.value);
        list' := InsertChildren(fs, list, i, dir.value, flags);
        expanded := true;
        return;
      }
    }
    ExpandClosed(fs, cur, i, flags);
    assert list == list[..i] + [cur] + list[i + 1..];
  }

  /** An entry that is not a directory, or one that does not open, expands to itself alone. */
  lemma ExpandClosed(fs: Fs, e: Entry, pos: int, flags: bv32)
    requires !IsDir(e.sb.mode) || OpendirF(fs, e.path).Fail?
    ensures Expand(fs, e, pos, flags) == (e, [])
  {
  }

  /** The expansion of a directory that opens: its children by Kids, counted in its childno. */
  lemma ExpandOpened(fs: Fs, e: Entry, pos: int, flags: bv32, names: seq<string>)
    requires IsDir(e.sb.mode) && OpendirF(fs, e.path) == Ok(names)
    ensures var ks := Kids(fs, e, pos, names, flags);
      Expand(fs, e, pos, flags) == (e.(childno := e.childno + |ks|), ks)
  {
  }

  /** exp is the walker's expansion step over fs, Expand. */
  ghost predicate StepOf(fs: Fs, flags: bv32, exp: Expander) {
    forall e, pos {:trigger Expand(fs, e, pos, flags)} :: exp(e, pos) == Expand(fs, e, pos, flags)
  }

  /** Visit, stated through the expansion step exp. */
  method VisitWith(fs: Fs, list: seq<Entry>, i: nat, flags: bv32, ghost exp: Expander)
    returns (list': seq<Entry>, expanded: bool)
    requires i < |list| && StepOf(fs, flags, exp)
    ensures !expanded ==> list' == list && exp(list[i], i) == (list[i], [])
    ensures list' == list[..i] + [exp(list[i], i).0] + exp(list[i], i).1 + list[i + 1..]
  {
    list', expanded := Visit(fs, list, i, flags);
    assert exp(list[i], i) == Expand(fs, list[i], i, flags);
  }

  /**
   * The state of the walk loop before it visits index i. With RECURSIVE, the
   * visited prefix followed by the expansion of the rest is the whole
   * pre-order listing; without it, nothing has been inserted yet, and a
   * visited root did not expand.
   */
  ghost predicate Walked(exp: Expander, rank: Entry -> nat, root: Entry, recursive: bool,
                         list: seq<Entry>, i: nat)
    requires Shrinks(exp, rank)
  {
    && i <= |list|
    && (recursive ==>
         list[..i] + Rest(exp, rank, list, i) == Subtree(exp, rank, root, 0)
         && |list| <= |Subtree(exp, rank, root, 0)|)
    && (!recursive ==> list == [root] && (i == 1 ==> exp(root, 0) == (root, [])))
  }

  /** The measure the walk loop decreases. */
  ghost function WalkLeft(exp: Expander, rank: Entry -> nat, root: Entry, recursive: bool, i: nat): int
    requires Shrinks(exp, rank)
  {
    if recursive then |Subtree(exp, rank, root, 0)| - i else 1 - i
  }

  /** A visit that does not end the walk keeps Walked, one index further on. */
  lemma WalkAdvance(exp: Expander, rank: Entry -> nat, root: Entry, recursive: bool,
                    list0: seq<Entry>, list: seq<Entry>, i: nat, expanded: bool)
    requires Shrinks(exp, rank) && Walked(exp, rank, root, recursive, list0, i) && i < |list0|
    requires list == list0[..i] + [exp(list0[i], i).0] + exp(list0[i], i).1 + list0[i + 1..]
    requires !expanded ==> list == list0 && exp(list0[i], i) == (list0[i], [])
    requires recursive || !expanded
    ensures Walked(exp, rank, root, recursive, list, i + 1)
    ensures 0 <= WalkLeft(exp, rank, root, recursive, i + 1) < WalkLeft(exp, rank, root, recursive, i)
  {
    if recursive {
      WalkStep(exp, rank, list0, list, i, Subtree(exp, rank, root, 0));
    }
  }

  /** The walk without RECURSIVE stops after the root expands: root, then its children. */
  lemma WalkStopsAtRoot(exp: Expander, rank: Entry -> nat, root: Entry,
                        list0: seq<Entry>, list: seq<Entry>, i: nat)
    requires Shrinks(exp, rank) && Walked(exp, rank, root, false, list0, i) && i < |list0|
    requires list == list0[..i] + [exp(list0[i], i).0] + exp(list0[i], i).1 + list0[i + 1..]
    ensures list == [exp(root, 0).0] + exp(root, 0).1
  {
    assert i == 0 && list0[..0] == [] && list0[1..] == [];
  }

  /** A walk that visited every entry has produced its listing. */
  lemma WalkEnds(exp: Expander, rank: Entry -> nat, root: Entry, recursive: bool, list: seq<Entry>)
    requires Shrinks(exp, rank) && Walked(exp, rank, root, recursive, list, |list|)
    ensures recursive ==> list == Subtree(exp, rank, root, 0)
    ensures !recursive ==> list == [exp(root, 0).0] + exp(root, 0).1
  {
    if recursive {
      assert list[..|list|] == list;
    } else {
      assert list == [root] + [];
    }
  }

  /**
   * The main loop of fsu_flist_build, from a list holding only the root. The
   * list grows while it is iterated: a directory's children are inserted right
   * after it, and iteration then continues into them. Without RECURSIVE the
   * loop stops after the first directory it expands.
   */
  method WalkFrom(fs: Fs, root: Entry, flags: bv32, ghost exp: Expander, ghost rank: Entry -> nat)
    returns (list: seq<Entry>)
    requires Shrinks(exp, rank) && StepOf(fs, flags, exp)
    ensures Recursive(flags) ==> list == Subtree(exp, rank, root, 0)
    ensures !Recursive(flags) ==> list == [exp(root, 0).0] + exp(root, 0).1
  {
    list := [root];
    var recursive := Recursive(flags);
    var i := 0;
    while i < |list|
      invariant Walked(exp, rank, root, recursive, list, i)
      decreases WalkLeft(exp, rank, root, recursive, i)
    {
      ghost var list0 := list;
      var expanded;
      list, expanded := VisitWith(fs, list, i, flags, exp);
      if !recursive && expanded {
        WalkStopsAtRoot(exp, rank, root, list0, list, i);
        return;
      }
      WalkAdvance(exp, rank, root, recursive, list0, list, i, expanded);
      i := i + 1;
    }
    WalkEnds(exp, rank, root, recursive, list);
  }

  /** fsu_flist_build: no list without REALFS, without a root path, or when the root cannot be stat-ed. */
  method FlistBuild(fs: Fs, rootp: Option<string>, flags: bv32) returns (r: Option<seq<Entry>>)
    requires NamesWellFormed(fs)
    ensures r == Build(fs, rootp, flags)
  {
    if !RealFs(flags) || rootp.None? {
      return None;
    }
    var root := AllocRoot(fs, rootp.value);
    if root.None? {
      return None;
    }
    ghost var exp, rank := BuildFromRoot(fs, rootp, flags, root.value);
    var list := WalkFrom(fs, root.value, flags, exp, rank);
    r := Some(list);
  }
}

=== FILE: flist_props.dfy ===
// What the walker's listing looks like: the root first, then every other
// entry a child of an entry listed before it, joined to its parent's path by
// one well-formed name.

module FlistProps {
  import opened Posix
  import opened Domain
  import opened Flist

  /** How a child's path is formed from its parent's path and its name. */
  type Join = (string, string) -> string

  /** The walker's join: JoinPath, as fsu_flist_alloc formats it. */
  function WalkerJoin(): Join {
    (dir: string, name: string) => JoinPath(dir, name)
  }

  /** c's name is one the walker accepts, and pathlen is the length of its path. */
  predicate Named(c: Entry) {
    !Skipped(c.filename) && c.pathlen == |c.path|
  }

  /** c as fsu_flist_alloc fills it in under a parent at index p whose path is ppath. */
  predicate ChildOf(join: Join, c: Entry, p: int, ppath: string) {
    c.parent == p && c.path == join(ppath, c.filename) && Named(c)
  }

  /** An expansion step that only updates the entry's childno and yields well-formed children. */
  ghost predicate Links(join: Join, exp: Expander) {
    && (forall e, pos :: exp(e, pos).0 == e.(childno := exp(e, pos).0.childno))
    && (forall e, pos, i :: 0 <= i < |exp(e, pos).1| ==>
          ChildOf(join, exp(e, pos).1[i], pos, e.path) && exp(e, pos).1[i].childno == 0)
  }

  /**
   * Every entry of r after the first is a child of an earlier entry of r; r
   * starts at index pos of the whole list, so the parent index q sits at r[q - pos].
   */
  ghost predicate Linked(join: Join, r: seq<Entry>, pos: int) {
    && (forall k :: 0 < k < |r| ==> pos <= r[k].parent < pos + k && Named(r[k]))
    && (forall k, j :: 0 < k < |r| && 0 <= j < |r| && j == r[k].parent - pos ==>
          r[k].path == join(r[j].path, r[k].filename))
  }

  /**
   * As Linked, for a run of subtrees, at index pos, whose roots are children
   * of the entry at the earlier index p, whose path is ppath.
   */
  ghost predicate RunLinked(join: Join, r: seq<Entry>, pos: int, p: int, ppath: string) {
    && (forall k :: 0 <= k < |r| ==> ChildOf(join, r[k], p, ppath) || (pos <= r[k].parent < pos + k && Named(r[k])))
    && (forall k, j :: 0 <= k < |r| && 0 <= j < |r| && j == r[k].parent - pos ==>
          r[k].path == join(r[j].path, r[k].filename))
  }

  /** The walker's step, Expand, is such a step. */
  lemma StepLinks(fs: Fs, flags: bv32)
    ensures Links(WalkerJoin(), Step(fs, flags))
  {
    forall e, pos, i | 0 <= i < |Step(fs, flags)(e, pos).1|
      ensures ChildOf(WalkerJoin(), Step(fs, flags)(e, pos).1[i], pos, e.path)
      ensures Step(fs, flags)(e, pos).1[i].childno == 0
    {
      var names := OpendirF(fs, e.path).value;
      KidsFacts(fs, e, pos, names, flags);
    }
  }

  /** An entry followed by a run of subtrees of its children is Linked. */
  lemma LinkedCons(join: Join, x: Entry, t: seq<Entry>, pos: int)
    requires RunLinked(join, t, pos + 1, pos, x.path)
    ensures Linked(join, [x] + t, pos)
  {
    var r := [x] + t;
    forall k | 0 < k < |r|
      ensures pos <= r[k].parent < pos + k && Named(r[k])
    {
      assert r[k] == t[k - 1];
    }
    forall k, j | 0 < k < |r| && 0 <= j < |r| && j == r[k].parent - pos
      ensures r[k].path == join(r[j].path, r[k].filename)
    {
      assert r[k] == t[k - 1];
      if j > 0 {
        assert r[j] == t[j - 1];
      }
    }
  }

  /** A subtree whose root is a child of the entry at index p, then a run of further such subtrees. */
  lemma RunConcat(join: Join, t: seq<Entry>, rest: seq<Entry>, pos: int, p: int, ppath: string)
    requires p < pos && |t| >= 1 && ChildOf(join, t[0], p, ppath) && Linked(join, t, pos)
    requires RunLinked(join, rest, pos + |t|, p, ppath)
    ensures RunLinked(join, t + rest, pos, p, ppath)
  {
    var r := t + rest;
    forall k | 0 <= k < |r|
      ensures ChildOf(join, r[k], p, ppath) || (pos <= r[k].parent < pos + k && Named(r[k]))
    {
      if k < |t| {
        assert r[k] == t[k];
      } else {
        assert r[k] == rest[k - |t|];
      }
    }
    forall k, j | 0 <= k < |r| && 0 <= j < |r| && j == r[k].parent - pos
      ensures r[k].path == join(r[j].path, r[k].filename)
    {
      if k < |t| {
        assert r[k] == t[k];
        if 0 < k {
          assert r[j] == t[j];
        }
      } else {
        assert r[k] == rest[k - |t|];
        if r[k].parent != p {
          assert r[j] == rest[j - |t|];
        }
      }
    }
  }

  /** The listing from e: e as expanded, then entries each of which follows its parent. */
  lemma {:induction false} SubtreeLinked(join: Join, exp: Expander, rank: Entry -> nat, e: Entry, pos: int)
    requires Shrinks(exp, rank) && Links(join, exp)
    ensures Subtree(exp, rank, e, pos)[0] == exp(e, pos).0
    ensures Linked(join, Subtree(exp, rank, e, pos), pos)
    decreases rank(e), 0, 0
  {
    var (e', ks) := exp(e, pos);
    if ks != [] {
      assert MaxRank(rank, ks) < rank(e) by {
        assert rank(ks[0]) < rank(e);
        MaxRankBound(rank, ks, rank(e) - 1);
      }
      ExpandedLinked(join, exp, rank, ks, pos + 1, pos, e.path);
      LinkedCons(join, e', Expanded(exp, rank, ks, pos + 1), pos);
    }
  }

  /** The run of subtrees of xs, children of the entry at index p: each entry follows its parent. */
  lemma {:induction false} ExpandedLinked(join: Join, exp: Expander, rank: Entry -> nat, xs: seq<Entry>, pos: int,
                                          p: int, ppath: string)
    requires Shrinks(exp, rank) && Links(join, exp) && xs != [] && p < pos
    requires forall i :: 0 <= i < |xs| ==> ChildOf(join, xs[i], p, ppath)
    ensures RunLinked(join, Expanded(exp, rank, xs, pos), pos, p, ppath)
    decreases MaxRank(rank, xs), 1, |xs|
  {
    var t := Subtree(exp, rank, xs[0], pos);
    SubtreeLinked(join, exp, rank, xs[0], pos);
    assert ChildOf(join, t[0], p, ppath);
    if |xs| == 1 {
      RunConcat(join, t, [], pos, p, ppath);
      assert Expanded(exp, rank, xs, pos) == t + [];
    } else {
      assert MaxRank(rank, xs[1..]) <= MaxRank(rank, xs) by {
        assert forall i :: 0 <= i < |xs[1..]| ==> xs[1..][i] == xs[i + 1];
        MaxRankBound(rank, xs[1..], MaxRank(rank, xs));
      }
      var rest := Expanded(exp, rank, xs[1..], pos + |t|);
      ExpandedLinked(join, exp, rank, xs[1..], pos + |t|, p, ppath);
      RunConcat(join, t, rest, pos, p, ppath);
      ExpandedCons(exp, rank, xs, pos);
    }
  }

  /**
   * The listing from root at index 0 is Linked: recursively expanded, or,
   * when only the root is expanded, the root followed by its children.
   */
  lemma ListingLinked(join: Join, exp: Expander, rank: Entry -> nat, root: Entry, recursive: bool)
    requires Shrinks(exp, rank) && Links(join, exp) && root.childno == 0
    ensures recursive ==> Linked(join, Subtree(exp, rank, root, 0), 0)
    ensures !recursive ==>
      var (root', ks) := exp(root, 0);
      && Linked(join, [root'] + ks, 0)
      && (forall k :: 0 <= k < |ks| ==> ks[k].parent == 0 && ks[k].childno == 0)
  {
    if recursive {
      SubtreeLinked(join, exp, rank, root, 0);
    } else {
      var (root', ks) := exp(root, 0);
      assert root'.path == root.path;
      LinkedCons(join, root', ks, 0);
    }
  }

  /**
   * fsu_flist_build: no list exactly when REALFS is off, there is no root
   * path, or the root cannot be stat-ed (following symbolic links). Otherwise
   * the root comes first, and every later entry is a well-named child of an
   * earlier one, its path joined from the parent's path and its name. Without
   * RECURSIVE only the root is expanded: everything after it is its child
   * and was not expanded itself.
   */
  lemma BuildShape(fs: Fs, rootp: Option<string>, flags: bv32)
    requires NamesWellFormed(fs)
    ensures Build(fs, rootp, flags).Some? <==> RealFs(flags) && rootp.Some? && StatF(fs, rootp.value).Ok?
    ensures Build(fs, rootp, flags).Some? ==>
      var l := Build(fs, rootp, flags).value;
      && |l| >= 1
      && l[0].path == rootp.value && l[0].filename == RootName(rootp.value)
      && l[0].pathlen == |rootp.value| && l[0].sb == StatF(fs, rootp.value).value && l[0].parent == -1
      && (forall k :: 0 < k < |l| ==> 0 <= l[k].parent < k && Named(l[k]))
      && (forall k :: 0 < k < |l| ==> l[k].path == JoinPath(l[l[k].parent].path, l[k].filename))
    ensures Build(fs, rootp, flags).Some? && !Recursive(flags) ==>
      var l := Build(fs, rootp, flags).value;
      l[0].childno == |l| - 1 && forall k :: 0 < k < |l| ==> l[k].parent == 0 && l[k].childno == 0
  {
    if RealFs(flags) && rootp.Some? && StatF(fs, rootp.value).Ok? {
      var root := AllocRoot(fs, rootp.value).value;
      var l := Build(fs, rootp, flags).value;
      var join, exp, rank := WalkerJoin(), Step(fs, flags), Rank(fs);
      StepShrinks(fs, flags);
      StepLinks(fs, flags);
      ListingLinked(join, exp, rank, root, Recursive(flags));
      assert l[0] == exp(root, 0).0;
      if !Recursive(flags) {
        assert l == [exp(root, 0).0] + exp(root, 0).1;
      }
      assert Linked(join, l, 0);
      forall k | 0 < k < |l|
        ensures l[k].path == JoinPath(l[l[k].parent].path, l[k].filename)
      {
        var j := l[k].parent;
        assert l[k].path == join(l[j].path, l[k].filename);
      }
    }
  }

  // ---------------------------------------------------------------------
  // childno

  /** How many entries of r name the entry at index q as their parent. */
  function ChildCount(r: seq<Entry>, q: int): (n: nat)
    ensures n <= |r|
  {
    if r == [] then 0 else (if r[0].parent == q then 1 else 0) + ChildCount(r[1..], q)
  }

  lemma {:induction false} ChildCountConcat(a: seq<Entry>, b: seq<Entry>, q: int)
    ensures ChildCount(a + b, q) == ChildCount(a, q) + ChildCount(b, q)
  {
    if a == [] {
      assert a + b == b;
    } else {
      assert (a + b)[0] == a[0] && (a + b)[1..] == a[1..] + b;
      ChildCountConcat(a[1..], b, q);
    }
  }

  lemma {:induction false} ChildCountAll(r: seq<Entry>, q: int)
    requires forall k :: 0 <= k < |r| ==> r[k].parent == q
    ensures ChildCount(r, q) == |r|
  {
    if r != [] {
      assert forall k :: 0 <= k < |r[1..]| ==> r[1..][k] == r[k + 1];
      ChildCountAll(r[1..], q);
    }
  }

  lemma {:induction false} ChildCountNone(r: seq<Entry>, q: int)
    requires forall k :: 0 <= k < |r| ==> r[k].parent != q
    ensures ChildCount(r, q) == 0
  {
    if r != [] {
      assert forall k :: 0 <= k < |r[1..]| ==> r[1..][k] == r[k + 1];
      ChildCountNone(r[1..], q);
    }
  }

  /** Each entry of r, which starts at index pos of the whole list, counts in childno the entries of r that are its children. */
  ghost predicate Tallied(r: seq<Entry>, pos: int) {
    forall i :: 0 <= i < |r| ==> r[i].childno == ChildCount(r, pos + i)
  }

  /** Every entry of r after the first has its parent earlier in r, which starts at index pos. */
  ghost predicate Below(r: seq<Entry>, pos: int) {
    forall k :: 0 < k < |r| ==> pos <= r[k].parent < pos + k
  }

  /** As Below, for a run of subtrees whose roots are children of the entry at index p. */
  ghost predicate RunBelow(r: seq<Entry>, pos: int, p: int) {
    forall k :: 0 <= k < |r| ==> r[k].parent == p || pos <= r[k].parent < pos + k
  }

  /**
   * An expansion step that keeps the entry's parent, adds the number of new
   * children to its childno, and gives each child the entry's index as
   * parent and a zero childno.
   */
  ghost predicate Counts(exp: Expander) {
    && (forall e, pos :: exp(e, pos).0.parent == e.parent)
    && (forall e, pos :: exp(e, pos).0.childno == e.childno + |exp(e, pos).1|)
    && (forall e, pos, i :: 0 <= i < |exp(e, pos).1| ==>
          exp(e, pos).1[i].parent == pos && exp(e, pos).1[i].childno == 0)
  }

  /** The walker's step, Expand, is such a step. */
  lemma StepCounts(fs: Fs, flags: bv32)
    ensures Counts(Step(fs, flags))
  {
    StepLinks(fs, flags);
  }

  /** An entry whose parent lies before it, then a run of subtrees of its children. */
  lemma ConsTallied(x: Entry, run: seq<Entry>, pos: int)
    requires x.parent < pos && x.childno == ChildCount(run, pos)
    requires Tallied(run, pos + 1) && RunBelow(run, pos + 1, pos)
    ensures Tallied([x] + run, pos) && Below([x] + run, pos)
  {
    var r := [x] + run;
    assert r[1..] == run;
    forall i | 0 <= i < |r|
      ensures r[i].childno == ChildCount(r, pos + i)
    {
      if i > 0 {
        assert r[i] == run[i - 1];
      }
    }
    assert forall k :: 0 < k < |r| ==> r[k] == run[k - 1];
  }

  /** A subtree whose root is a child of the entry at index p, followed by more of that entry's subtrees. */
  lemma ConcatTallied(t: seq<Entry>, rest: seq<Entry>, pos: int, p: int)
    requires p < pos && |t| >= 1 && t[0].parent == p
    requires Below(t, pos) && RunBelow(rest, pos + |t|, p)
    requires Tallied(t, pos) && Tallied(rest, pos + |t|)
    ensures Tallied(t + rest, pos) && RunBelow(t + rest, pos, p)
    ensures ChildCount(t + rest, p) == 1 + ChildCount(rest, p)
  {
    var r := t + rest;
    forall i | 0 <= i < |r|
      ensures r[i].childno == ChildCount(r, pos + i)
    {
      ChildCountConcat(t, rest, pos + i);
      if i < |t| {
        assert r[i] == t[i];
        ChildCountNone(rest, pos + i);
      } else {
        assert r[i] == rest[i - |t|];
        ChildCountNone(t, pos + i);
      }
    }
    assert forall k :: 0 <= k < |r| ==> r[k] == if k < |t| then t[k] else rest[k - |t|];
    ChildCountConcat(t, rest, p);
    assert forall k :: 0 <= k < |t[1..]| ==> t[1..][k] == t[k + 1];
    ChildCountNone(t[1..], p);
    assert t == [t[0]] + t[1..];
  }

  /** The listing from e, placed at index pos after e's parent: every childno counts its entry's children. */
  lemma {:induction false} SubtreeTallied(exp: Expander, rank: Entry -> nat, e: Entry, pos: int)
    requires Shrinks(exp, rank) && Counts(exp) && e.childno == 0 && e.parent < pos
    ensures var t := Subtree(exp, rank, e, pos);
      Tallied(t, pos) && Below(t, pos) && t[0].parent == e.parent
    decreases rank(e), 0, 0
  {
    var (e', ks) := exp(e, pos);
    if ks == [] {
      assert Subtree(exp, rank, e, pos) == [e'];
    } else {
      assert MaxRank(rank, ks) < rank(e) by {
        assert rank(ks[0]) < rank(e);
        MaxRankBound(rank, ks, rank(e) - 1);
      }
      ExpandedTallied(exp, rank, ks, pos + 1, pos);
      ConsTallied(e', Expanded(exp, rank, ks, pos + 1), pos);
    }
  }

  lemma TalliedSame(r: seq<Entry>, r': seq<Entry>, pos: int, p: int)
    requires r == r' && Tallied(r', pos) && RunBelow(r', pos, p)
    ensures Tallied(r, pos) && RunBelow(r, pos, p) && ChildCount(r, p) == ChildCount(r', p)
  {
  }

  /** The run of subtrees of xs, children of the entry at index p: tallied, and holding exactly |xs| children of p. */
  lemma {:induction false} ExpandedTallied(exp: Expander, rank: Entry -> nat, xs: seq<Entry>, pos: int, p: int)
    requires Shrinks(exp, rank) && Counts(exp) && xs != [] && p < pos
    requires forall i :: 0 <= i < |xs| ==> xs[i].parent == p && xs[i].childno == 0
    ensures var r := Expanded(exp, rank, xs, pos);
      Tallied(r, pos) && RunBelow(r, pos, p) && ChildCount(r, p) == |xs|
    decreases MaxRank(rank, xs), 1, |xs|
  {
    var t := Subtree(exp, rank, xs[0], pos);
    SubtreeTallied(exp, rank, xs[0], pos);
    if |xs| == 1 {
      ConcatTallied(t, [], pos, p);
      assert Expanded(exp, rank, xs, pos) == t + [];
      TalliedSame(Expanded(exp, rank, xs, pos), t + [], pos, p);
    } else {
      assert MaxRank(rank, xs[1..]) <= MaxRank(rank, xs) by {
        assert forall i :: 0 <= i < |xs[1..]| ==> xs[1..][i] == xs[i + 1];
        MaxRankBound(rank, xs[1..], MaxRank(rank, xs));
      }
      var rest := Expanded(exp, rank, xs[1..], pos + |t|);
      ExpandedCons(exp, rank, xs, pos);
      ExpandedTallied(exp, rank, xs[1..], pos + |t|, p);
      ConcatTallied(t, rest, pos, p);
      TalliedSame(Expanded(exp, rank, xs, pos), t + rest, pos, p);
    }
  }

  /** The listing from root at index 0, recursively expanded or not: every childno counts its entry's children. */
  lemma ListingTallied(exp: Expander, rank: Entry -> nat, root: Entry, recursive: bool)
    requires Shrinks(exp, rank) && Counts(exp) && root.childno == 0 && root.parent == -1
    ensures recursive ==> Tallied(Subtree(exp, rank, root, 0), 0)
    ensures !recursive ==> Tallied([exp(root, 0).0] + exp(root, 0).1, 0)
  {
    if recursive {
      SubtreeTallied(exp, rank, root, 0);
    } else {
      var (root', ks) := exp(root, 0);
      forall i | 0 <= i < |ks|
        ensures ks[i].childno == ChildCount(ks, 1 + i)
      {
        ChildCountNone(ks, 1 + i);
      }
      assert RunBelow(ks, 1, 0);
      ChildCountAll(ks, 0);
      ConsTallied(root', ks, 0);
    }
  }

  /**
   * fsu_flist_build: every entry's childno is the number of entries of the
   * listing whose parent index is that entry's index, with or without
   * RECURSIVE.
   */
  lemma BuildChildCounts(fs: Fs, rootp: Option<string>, flags: bv32)
    requires NamesWellFormed(fs)
    ensures Build(fs, rootp, flags).Some? ==>
      var l := Build(fs, rootp, flags).value;
      forall k :: 0 <= k < |l| ==> l[k].childno == ChildCount(l, k)
  {
    if RealFs(flags) && rootp.Some? && StatF(fs, rootp.value).Ok? {
      var root := AllocRoot(fs, rootp.value).value;
      StepShrinks(fs, flags);
      StepCounts(fs, flags);
      ListingTallied(Step(fs, flags), Rank(fs), root, Recursive(flags));
    }
    BuildShape(fs, rootp, flags);
  }

  // ---------------------------------------------------------------------
  // Paths below the root

  /**
   * No symbolic link leads to a directory. Resolve follows a link only in the
   * last component of a path, so these are the states in which a path the
   * walker builds never needs a link followed in an earlier component.
   */
  ghost predicate NoDirLinks(fs: Fs) {
    forall p: string :: Norm(p) in fs.files && IsLnk(fs.files[Norm(p)].mode) ==>
      match Resolve(fs, p, MAXSYMLINKS)
      case Fail(_) => true
      case Ok(k) => !fs.files[k].content.Entries?
  }

  /** With no link to a directory, a path opendir accepts is itself a directory's key. */
  lemma OpendirKey(fs: Fs, p: string)
    requires NoDirLinks(fs) && OpendirF(fs, p).Ok?
    ensures var q := Norm(p); q in fs.files && !IsLnk(fs.files[q].mode) && fs.files[q].content.Entries?
  {
  }

  /** Every entry of r that has children passes ok. */
  ghost predicate Opened(r: seq<Entry>, ok: Entry -> bool) {
    forall i :: 0 <= i < |r| && r[i].childno > 0 ==> ok(r[i])
  }

  /** An expansion step that gives children only to entries that pass ok once expanded. */
  ghost predicate OpensOnly(exp: Expander, ok: Entry -> bool) {
    forall e, pos :: exp(e, pos).1 != [] ==> ok(exp(e, pos).0)
  }

  lemma {:induction false} SubtreeOpened(exp: Expander, rank: Entry -> nat, ok: Entry -> bool, e: Entry, pos: int)
    requires Shrinks(exp, rank) && Counts(exp) && OpensOnly(exp, ok) && e.childno == 0
    ensures Opened(Subtree(exp, rank, e, pos), ok)
    decreases rank(e), 0, 0
  {
    var (e', ks) := exp(e, pos);
    if ks == [] {
      assert Subtree(exp, rank, e, pos) == [e'];
    } else {
      assert MaxRank(rank, ks) < rank(e) by {
        assert rank(ks[0]) < rank(e);
        MaxRankBound(rank, ks, rank(e) - 1);
      }
      var run := Expanded(exp, rank, ks, pos + 1);
      ExpandedOpened(exp, rank, ok, ks, pos + 1);
      assert Subtree(exp, rank, e, pos) == [e'] + run;
      assert forall i :: 0 < i < |[e'] + run| ==> ([e'] + run)[i] == run[i - 1];
    }
  }

  lemma {:induction false} ExpandedOpened(exp: Expander, rank: Entry -> nat, ok: Entry -> bool, xs: seq<Entry>, pos: int)
    requires Shrinks(exp, rank) && Counts(exp) && OpensOnly(exp, ok) && xs != []
    requires forall i :: 0 <= i < |xs| ==> xs[i].childno == 0
    ensures Opened(Expanded(exp, rank, xs, pos), ok)
    decreases MaxRank(rank, xs), 1, |xs|
  {
    var t := Subtree(exp, rank, xs[0], pos);
    SubtreeOpened(exp, rank, ok, xs[0], pos);
    if |xs| == 1 {
      assert Expanded(exp, rank, xs, pos) == t;
    } else {
      assert MaxRank(rank, xs[1..]) <= MaxRank(rank, xs) by {
        assert forall i :: 0 <= i < |xs[1..]| ==> xs[1..][i] == xs[i + 1];
        MaxRankBound(rank, xs[1..], MaxRank(rank, xs));
      }
      var rest := Expanded(exp, rank, xs[1..], pos + |t|);
      ExpandedOpened(exp, rank, ok, xs[1..], pos + |t|);
      ExpandedCons(exp, rank, xs, pos);
      assert forall i :: 0 <= i < |t + rest| ==> (t + rest)[i] == if i < |t| then t[i] else rest[i - |t|];
    }
  }

  lemma {:induction false} ChildCountSome(r: seq<Entry>, q: int, j: nat)
    requires j < |r| && r[j].parent == q
    ensures ChildCount(r, q) >= 1
  {
    if j > 0 {
      assert r[1..][j - 1] == r[j];
      ChildCountSome(r[1..], q, j - 1);
    }
  }

  /** The listing from root at index 0, recursively expanded or not: every entry with children passes ok. */
  lemma ListingOpened(exp: Expander, rank: Entry -> nat, ok: Entry -> bool, root: Entry, recursive: bool)
    requires Shrinks(exp, rank) && Counts(exp) && OpensOnly(exp, ok) && root.childno == 0
    ensures recursive ==> Opened(Subtree(exp, rank, root, 0), ok)
    ensures !recursive ==> Opened([exp(root, 0).0] + exp(root, 0).1, ok)
  {
    if recursive {
      SubtreeOpened(exp, rank, ok, root, 0);
    } else {
      var (root', ks) := exp(root, 0);
      assert forall i :: 0 < i < |[root'] + ks| ==> ([root'] + ks)[i] == ks[i - 1];
    }
  }

  /** In a tallied listing, an entry some later entry names as its parent has children, so it passes ok. */
  lemma ParentsOpened(l: seq<Entry>, ok: Entry -> bool)
    requires Opened(l, ok) && Tallied(l, 0)
    requires forall k :: 0 < k < |l| ==> 0 <= l[k].parent < k
    ensures forall k :: 0 < k < |l| ==> ok(l[l[k].parent])
  {
    forall k | 0 < k < |l|
      ensures ok(l[l[k].parent])
    {
      ChildCountSome(l, l[k].parent, k);
    }
  }

  /**
   * fsu_flist_build, in a state with no symbolic link to a directory: the
   * parent of every listed entry after the root is a directory under its own
   * key, not reached through a link, so each path below the root is a
   * directory's key joined with one name.
   */
  lemma BuildThroughDirs(fs: Fs, rootp: Option<string>, flags: bv32)
    requires NamesWellFormed(fs) && NoDirLinks(fs)
    ensures Build(fs, rootp, flags).Some? ==>
      var l := Build(fs, rootp, flags).value;
      forall k :: 0 < k < |l| ==>
        && 0 <= l[k].parent < k
        && var q := Norm(l[l[k].parent].path);
           q in fs.files && !IsLnk(fs.files[q].mode) && fs.files[q].content.Entries?
  {
    if Build(fs, rootp, flags).Some? {
      var l := Build(fs, rootp, flags).value;
      var ok := (x: Entry) => OpendirF(fs, x.path).Ok?;
      StepShrinks(fs, flags);
      StepCounts(fs, flags);
      assert OpensOnly(Step(fs, flags), ok);
      ListingOpened(Step(fs, flags), Rank(fs), ok, AllocRoot(fs, rootp.value).value, Recursive(flags));
      BuildShape(fs, rootp, flags);
      BuildChildCounts(fs, rootp, flags);
      ParentsOpened(l, ok);
      forall k | 0 < k < |l|
        ensures var q := Norm(l[l[k].parent].path);
          q in fs.files && !IsLnk(fs.files[q].mode) && fs.files[q].content.Entries?
      {
        OpendirKey(fs, l[l[k].parent].path);
      }
    }
  }
}

=== FILE: fsu_file.dfy ===
// The buffered file of lib/fsu_file.c: an FSU_FILE keeps one 8192-byte
// buffer over a descriptor, a logical position fd_fpos, the position fd_bpos
// inside the buffer, the logical end fd_last of the buffered bytes, and the
// eof/err/dirty flags. The descriptor underneath is a small device: the bytes
// of the open file, its own read offset (which no FSU_FILE call ever moves
// except by reading), and the way it fails.

module FsuFile {
  import opened Posix
  import opened Domain

  const BUFSIZE: int := 8192
  const FSU_FILE_READ: int := 1
  const FSU_FILE_WRITE: int := 2
  const FSU_FILE_READWRITE: int := 3
  const EOF: int := -1
  const SEEK_SET: int := 0
  const SEEK_CUR: int := 1
  const SEEK_END: int := 2

  predicate CanRead(mode: int) { mode == FSU_FILE_READ || mode == FSU_FILE_READWRITE }
  predicate CanWrite(mode: int) { mode == FSU_FILE_WRITE || mode == FSU_FILE_READWRITE }

  /**
   * What open(2) granted and how the device behaves: reads fail with fault
   * when it is not NoError, and the file cannot grow past limit bytes (a
   * full disk), so a pwrite there is cut short or refused with ENOSPC.
   */
  datatype Dev = Dev(readable: bool, writable: bool, limit: nat, fault: Errno)

  /**
   * Everything the calls change: fd_buf, fd_bpos, fd_fpos, fd_last, fd_eof,
   * fd_err, fd_dirty, the file's bytes, the descriptor's read offset and errno.
   * A negative fpos stands for the wrapped size_t a seek before offset 0 leaves.
   */
  datatype St = St(buf: seq<bv8>, bpos: int, fpos: int, last: int, eof: bool, err: Errno,
                   dirty: bool, data: seq<bv8>, off: nat, errno: Errno)

  /** Overrun: C would touch fd_buf outside its 8192 bytes (undefined behaviour); the model stops there. */
  datatype Outcome<T> = Value(v: T) | Overrun

  predicate Shaped(st: St) { |st.buf| == BUFSIZE && 0 <= st.bpos <= BUFSIZE }

  /** A byte as the `char` fsu_fgetc returns, on a platform where char is signed. */
  function Signed(b: bv8): int { if b < 0x80 then b as int else b as int - 256 }

  // ---------------------------------------------------------------------
  // The descriptor

  /** read(2) of up to n bytes at the descriptor's own offset. */
  function ReadSys(st: St, dev: Dev, n: nat): (r: (St, int, seq<bv8>))
    ensures r.1 == -1 || (r.1 == |r.2| <= n && r.0 == st.(off := r.0.off))
    ensures r.1 == -1 ==> r.0 == st.(errno := r.0.errno)
    ensures r.1 != -1 && st.off <= |st.data| ==> st.off + r.1 <= |st.data| && r.2 == st.data[st.off..st.off + r.1]
    ensures r.1 != -1 && st.off <= |st.data| ==> (r.1 < n ==> st.off + r.1 == |st.data|) && (st.off + r.1 < |st.data| ==> r.1 == n)
  {
    if !dev.readable then (st.(errno := EBADF), -1, [])
    else if dev.fault != NoError then (st.(errno := dev.fault), -1, [])
    else if st.off >= |st.data| then (st, 0, [])
    else
      var hi := if st.off + n <= |st.data| then st.off + n else |st.data|;
      (st.(off := hi), hi - st.off, st.data[st.off..hi])
  }

  /** pwrite(2) of w at offset at. */
  function PwriteSys(st: St, dev: Dev, at: int, w: seq<bv8>): (r: (St, int))
    ensures r.1 == -1 || (0 <= r.1 <= |w| && (|w| > 0 ==> r.1 > 0))
    ensures r.1 == -1 ==> r.0 == st.(errno := r.0.errno)
    ensures r.1 != -1 ==> r.0 == st.(data := r.0.data)
  {
    if !dev.writable then (st.(errno := EBADF), -1)
    else if at < 0 then (st.(errno := EINVAL), -1)
    else if |w| == 0 then (st, 0)
    else
      var k := if at >= dev.limit then 0 else if |w| <= dev.limit - at then |w| else dev.limit - at;
      if k == 0 then (st.(errno := ENOSPC), -1)
      else (st.(data := Overwrite(st.data, at, w[..k])), k)
  }

  // ---------------------------------------------------------------------
  // The library calls, one function each

  /** fsu_fflush: write the fd_bpos buffered bytes back at fd_fpos - fd_bpos when dirty. */
  function FlushF(st: St, dev: Dev, mode: int): (r: (St, int))
    requires Shaped(st)
    ensures Shaped(r.0) && r.0.buf == st.buf && r.0.bpos == st.bpos && r.0.fpos == st.fpos
    ensures r.0.last == st.last && r.0.eof == st.eof && r.0.off == st.off
  {
    if !CanWrite(mode) then (st.(errno := EBADF), EOF)
    else if st.dirty then
      var (s1, rv) := PwriteSys(st, dev, st.fpos - st.bpos, st.buf[..st.bpos]);
      (s1.(err := if rv != st.bpos then s1.errno else s1.err, dirty := false), 0)
    else (st, 0)
  }

  /** fsu_fill_buffer: flush, then read up to 8192 bytes into the buffer. */
  function FillF(st: St, dev: Dev, mode: int): (r: St)
    requires Shaped(st)
    ensures Shaped(r) && r.fpos == st.fpos
    ensures r.eof || r.last > r.fpos
    ensures r.last - r.fpos <= BUFSIZE || r.last == st.last
  {
    var s1 := FlushF(st, dev, mode).0;
    var (s2, rv, bytes) := ReadSys(s1, dev, BUFSIZE);
    if rv == -1 then s2.(err := s2.errno, eof := true)
    else s2.(eof := s2.eof || rv < BUFSIZE, last := s2.fpos + rv, bpos := 0, buf := bytes + s2.buf[rv..])
  }

  /** The refill fsu_fgetc and fsu_fputc do when fd_fpos has reached fd_last. */
  function RefilledF(st: St, dev: Dev, mode: int): (r: St)
    requires Shaped(st)
    ensures Shaped(r)
  {
    if st.fpos == st.last then FillF(st, dev, mode) else st
  }

  /** Take the byte at fd_bpos, advancing both positions. */
  function TakeF(s1: St): (r: (St, Outcome<int>))
    requires Shaped(s1)
    ensures r.1.Value? ==> Shaped(r.0)
  {
    if s1.bpos == BUFSIZE then (s1, Overrun)
    else (s1.(fpos := s1.fpos + 1, bpos := s1.bpos + 1), Value(Signed(s1.buf[s1.bpos])))
  }

  /** Store c's low byte at fd_bpos, advancing both positions and marking the buffer dirty. */
  function PutF(s1: St, c: int): (r: (St, Outcome<int>))
    requires Shaped(s1)
    ensures r.1.Value? ==> Shaped(r.0)
  {
    if s1.bpos == BUFSIZE then (s1, Overrun)
    else
      (s1.(fpos := s1.fpos + 1, dirty := true, buf := s1.buf[s1.bpos := (c % 256) as bv8], bpos := s1.bpos + 1),
       Value(c % 256))
  }

  /** fsu_fgetc as written: after a refill it takes the next buffered byte without looking at what the read brought. */
  function FgetcF(st: St, dev: Dev, mode: int): (r: (St, Outcome<int>))
    requires Shaped(st)
    ensures r.1.Value? ==> Shaped(r.0)
  {
    if !CanRead(mode) then (st.(errno := EBADF), Value(EOF))
    else if st.fpos == st.last && (st.eof || st.err != NoError) then (st, Value(EOF))
    else TakeF(RefilledF(st, dev, mode))
  }

  /** fsu_fgetc as evidently intended: a refill that brought nothing is the end of the file. */
  function FgetcFixedF(st: St, dev: Dev, mode: int): (r: (St, Outcome<int>))
    requires Shaped(st)
    ensures r.1.Value? ==> Shaped(r.0)
  {
    if !CanRead(mode) then (st.(errno := EBADF), Value(EOF))
    else if st.fpos == st.last && (st.eof || st.err != NoError) then (st, Value(EOF))
    else
      var s1 := RefilledF(st, dev, mode);
      if s1.fpos == s1.last then (s1, Value(EOF)) else TakeF(s1)
  }

  /** fsu_fputc: store c's low byte at fd_bpos and return it; a refill happens first at fd_last. */
  function FputcF(st: St, dev: Dev, mode: int, c: int): (r: (St, Outcome<int>))
    requires Shaped(st)
    ensures r.1.Value? ==> Shaped(r.0)
  {
    if !CanWrite(mode) then (st.(errno := EBADF), Value(EOF))
    else if st.fpos == st.last && (st.eof || st.err != NoError) then (st, Value(EOF))
    else PutF(RefilledF(st, dev, mode), c)
  }

  /**
   * The loop of fsu_fwrite over a request larger than the buffer: full
   * 8192-byte pwrites at fd_fpos while more than 8192 bytes remain. The
   * result is the state, what is left, and whether no pwrite failed.
   */
  function ChunksF(st: St, dev: Dev, w: seq<bv8>): (r: (St, seq<bv8>, bool))
    requires Shaped(st)
    ensures Shaped(r.0) && r.0.buf == st.buf && r.0.bpos == st.bpos && r.0.last == st.last
    ensures r.0.eof == st.eof && r.0.off == st.off && r.0.dirty == st.dirty && r.0.err == st.err
    ensures r.2 ==> |r.1| <= BUFSIZE
    decreases |w|
  {
    if |w| <= BUFSIZE then (st, w, true)
    else
      var (s1, rv) := PwriteSys(st, dev, st.fpos, w[..BUFSIZE]);
      if rv == -1 then (s1, w, false)
      else ChunksF(s1.(fpos := s1.fpos + rv), dev, w[rv..])
  }

  /**
   * The part of fsu_fwrite after the flush for a request larger than what is
   * left of the buffer: the chunks, the last pwrite, and then either a
   * refill (all written) or the count of members that were not written.
   */
  function WriteThroughF(s1: St, dev: Dev, mode: int, w: seq<bv8>, size: nat, nmemb: nat): (r: (St, int))
    requires Shaped(s1) && size > 0
    ensures Shaped(r.0)
  {
    var (s2, rest, ok) := ChunksF(s1, dev, w);
    if !ok then (s2.(err := s2.errno), 0)
    else
      var (s3, rv) := PwriteSys(s2, dev, s2.fpos, rest);
      if rv == -1 then (s3.(err := s3.errno), 0)
      else
        var s4 := s3.(fpos := s3.fpos + rv);
        if rv == |rest| then (FillF(s4.(last := s4.fpos), dev, mode), nmemb)
        else (s4, (|rest| - rv) / size)
  }

  /** fsu_fwrite of nmemb members of size bytes, w holding their size * nmemb bytes. */
  function FwriteF(st: St, dev: Dev, mode: int, w: seq<bv8>, size: nat, nmemb: nat): (r: (St, int))
    requires Shaped(st) && |w| == size * nmemb
    ensures Shaped(r.0)
  {
    if |w| == 0 then (st, 0)
    else if !CanWrite(mode) then (st.(errno := EBADF), 0)
    else if st.err != NoError then (st, 0)
    else if |w| > BUFSIZE - st.bpos then WriteThroughF(FlushF(st, dev, mode).0, dev, mode, w, size, nmemb)
    else
      (st.(buf := st.buf[..st.bpos] + w + st.buf[st.bpos + |w|..], fpos := st.fpos + |w|,
           bpos := st.bpos + |w|, dirty := true), nmemb)
  }

  /**
   * The write-through part of fsu_fwrite as evidently intended: after a
   * full write the buffer is refilled only on a file that reads; a
   * write-only file just restarts its empty buffer at fd_fpos.
   */
  function WriteThroughFixedF(s1: St, dev: Dev, mode: int, w: seq<bv8>, size: nat, nmemb: nat): (r: (St, int))
    requires Shaped(s1) && size > 0
    ensures Shaped(r.0)
  {
    var (s2, rest, ok) := ChunksF(s1, dev, w);
    if !ok then (s2.(err := s2.errno), 0)
    else
      var (s3, rv) := PwriteSys(s2, dev, s2.fpos, rest);
      if rv == -1 then (s3.(err := s3.errno), 0)
      else
        var s4 := s3.(fpos := s3.fpos + rv);
        if rv != |rest| then (s4, (|rest| - rv) / size)
        else if CanRead(mode) then (FillF(s4.(last := s4.fpos), dev, mode), nmemb)
        else (s4.(last := s4.fpos, bpos := 0), nmemb)
  }

  /** fsu_fwrite with the corrected write-through part; every other branch is fsu_fwrite's own. */
  function FwriteFixedF(st: St, dev: Dev, mode: int, w: seq<bv8>, size: nat, nmemb: nat): (r: (St, int))
    requires Shaped(st) && |w| == size * nmemb
    ensures Shaped(r.0)
  {
    if |w| > 0 && CanWrite(mode) && st.err == NoError && |w| > BUFSIZE - st.bpos then
      WriteThroughFixedF(FlushF(st, dev, mode).0, dev, mode, w, size, nmemb)
    else FwriteF(st, dev, mode, w, size, nmemb)
  }

  /** The measure the loop of fsu_fread decreases. */
  function ReadMeasure(st: St, resid: nat): nat {
    4 * resid + (if st.last - st.fpos > 0 then 0 else 2) + (if st.eof then 0 else 1)
  }

  /** Where one turn of the loop of fsu_fread leaves it: finished with a result, or the next state, resid and bytes. */
  datatype Step = Done(r: Outcome<(St, int, seq<bv8>)>) | Next(st: St, resid: nat, got: seq<bv8>)

  /**
   * One turn of the loop of fsu_fread, with resid of the total bytes still
   * wanted and got the bytes copied so far: when more is wanted than is
   * buffered, take the buffered bytes and stop at eof or refill; otherwise
   * take resid bytes and return count.
   */
  function ReadStepF(st: St, dev: Dev, mode: int, total: nat, size: nat, count: nat, resid: nat,
                     got: seq<bv8>): (r: Step)
    requires Shaped(st) && size > 0 && resid <= total
    ensures r.Next? ==> Shaped(r.st) && r.resid <= total && ReadMeasure(r.st, r.resid) < ReadMeasure(st, resid)
    ensures r.Done? && r.r.Value? ==> Shaped(r.r.v.0)
  {
    var n := st.last - st.fpos;
    if n >= 0 && resid > n then
      if st.bpos + n > BUFSIZE then Done(Overrun)
      else
        var got' := got + st.buf[st.bpos..st.bpos + n];
        var s1 := st.(fpos := st.fpos + n);
        if s1.eof then Done(Value((s1, (total - (resid - n)) / size, got')))
        else Next(FillF(s1, dev, mode), resid - n, got')
    else if st.bpos + resid > BUFSIZE then Done(Overrun)
    else
      Done(Value((st.(fpos := st.fpos + resid, bpos := st.bpos + resid), count,
                  got + st.buf[st.bpos..st.bpos + resid])))
  }

  /** The loop of fsu_fread run to its end. */
  function ReadLoopF(st: St, dev: Dev, mode: int, total: nat, size: nat, count: nat, resid: nat,
                     got: seq<bv8>): (r: Outcome<(St, int, seq<bv8>)>)
    requires Shaped(st) && size > 0 && resid <= total
    ensures r.Value? ==> Shaped(r.v.0)
    decreases ReadMeasure(st, resid)
  {
    match ReadStepF(st, dev, mode, total, size, count, resid, got)
    case Done(r) => r
    case Next(s1, resid', got') => ReadLoopF(s1, dev, mode, total, size, count, resid', got')
  }

  /** fsu_fread of count members of size bytes. */
  function FreadF(st: St, dev: Dev, mode: int, size: nat, count: nat): (r: Outcome<(St, int, seq<bv8>)>)
    requires Shaped(st)
    ensures r.Value? ==> Shaped(r.v.0)
  {
    if size * count == 0 then Value((st, 0, []))
    else ReadLoopF(FlushF(st, dev, mode).0, dev, mode, size * count, size, count, size * count, [])
  }

  /** fsu_fseeko: flush, clear the error, move fd_fpos; refill only inside the file. */
  function FseekoF(st: St, dev: Dev, mode: int, off: int, whence: int): (r: (St, int))
    requires Shaped(st)
    ensures Shaped(r.0)
  {
    var s1 := FlushF(st, dev, mode).0.(err := NoError);
    var size := |s1.data|;
    if whence != SEEK_CUR && whence != SEEK_SET && whence != SEEK_END then (s1.(errno := EINVAL), -1)
    else
      var pos := if whence == SEEK_CUR then s1.fpos + off else if whence == SEEK_SET then off else size + off;
      var s2 := s1.(fpos := pos);
      if pos < 0 || pos >= size then (s2.(last := pos, bpos := 0), 0)
      else (FillF(s2, dev, mode), 0)
  }

  /** fsu_rewind: flush, reset the three positions to 0, refill. */
  function RewindF(st: St, dev: Dev, mode: int): (r: St)
    requires Shaped(st)
    ensures Shaped(r)
  {
    FillF(FlushF(st, dev, mode).0.(fpos := 0, bpos := 0, last := 0), dev, mode)
  }

  // ---------------------------------------------------------------------
  // Opening

  /** The open(2) flags fsu_fopen builds from its mode string. */
  function OpenFlags(mode: string): bv32 {
    var base: bv32 :=
      if |mode| == 0 then O_RDONLY
      else if mode[0] == 'w' then O_WRONLY | O_CREAT | O_TRUNC
      else if mode[0] == 'a' then O_WRONLY | O_CREAT | O_APPEND
      else O_RDONLY;
    if '+' in mode then base | O_RDWR else base
  }

  /** fd_mode: FSU_FILE_WRITE iff the O_WRONLY bit is set, else FSU_FILE_READ. */
  function ModeOf(flags: bv32): int {
    if flags & O_WRONLY != 0 then FSU_FILE_WRITE else FSU_FILE_READ
  }

  /** The descriptor open(2) hands back for these flags, or None when it refuses them. */
  function DevOf(flags: bv32, openErr: Errno, limit: nat, fault: Errno): Option<Dev> {
    var acc := flags & O_ACCMODE;
    if openErr != NoError || acc == O_ACCMODE then None
    else Some(Dev(acc != O_WRONLY, acc != O_RDONLY, limit, fault))
  }

  /**
   * The state fsu_fopen starts from: positions 0, or fd_fpos = fd_last = the
   * stat-ed size for mode "a"; no error, no eof, nothing dirty. O_TRUNC empties
   * the file.
   */
  function Opened(mode: string, size: int, data: seq<bv8>, buf0: seq<bv8>, errno: Errno): St {
    var start := if |mode| > 0 && mode[0] == 'a' then size else 0;
    var flags := OpenFlags(mode);
    St(buf0, 0, start, start, false, NoError, false, if flags & O_TRUNC != 0 then [] else data, 0, errno)
  }

  // ---------------------------------------------------------------------
  // The FSU_FILE object

  /** An open FSU_FILE: fd_buf is the array, the rest are its fields and the descriptor's state. */
  class File {
    const buf: array<bv8>
    const mode: int
    const dev: Dev
    var bpos: int
    var fpos: int
    var last: int
    var eof: bool
    var err: Errno
    var dirty: bool
    var data: seq<bv8>
    var off: nat
    var errno: Errno

    /** The whole state as a value. */
    function Now(): St
      reads this, buf
    {
      St(buf[..], bpos, fpos, last, eof, err, dirty, data, off, errno)
    }

    predicate Valid()
      reads this
    {
      buf.Length == BUFSIZE && 0 <= bpos <= BUFSIZE
    }

    constructor Init(st: St, mode: int, dev: Dev)
      requires Shaped(st)
      ensures Valid() && Now() == st && this.mode == mode && this.dev == dev && fresh(buf)
    {
      buf := new bv8[BUFSIZE](i requires 0 <= i < BUFSIZE => st.buf[i]);
      this.mode := mode;
      this.dev := dev;
      bpos, fpos, last, eof, err := st.bpos, st.fpos, st.last, st.eof, st.err;
      dirty, data, off, errno := st.dirty, st.data, st.off, st.errno;
      new;
      assert buf[..] == st.buf;
    }

    /**
     * fsu_fopen: the flags come from the mode string, open(2) may refuse them
     * (openErr, or O_ACCMODE), and the state starts as Opened says. size is
     * what stat reported, or whatever the stat buffer held when it failed.
     */
    static method Open(mode: string, size: int, data: seq<bv8>, buf0: seq<bv8>, errno0: Errno,
                       openErr: Errno, limit: nat, fault: Errno) returns (f: File?)
      requires |buf0| == BUFSIZE
      ensures f == null <==> DevOf(OpenFlags(mode), openErr, limit, fault).None?
      ensures f != null ==> fresh(f) && fresh(f.buf) && f.Valid() && f.Now() == Opened(mode, size, data, buf0, errno0)
      ensures f != null ==> f.mode == ModeOf(OpenFlags(mode)) && f.dev == DevOf(OpenFlags(mode), openErr, limit, fault).value
    {
      var flags := OpenFlags(mode);
      var dev := DevOf(flags, openErr, limit, fault);
      if dev.None? {
        return null;
      }
      f := new File.Init(Opened(mode, size, data, buf0, errno0), ModeOf(flags), dev.value);
    }

    /** read(2) on the descriptor. */
    method Read(n: nat) returns (rv: int, bytes: seq<bv8>)
      modifies this
      ensures (Now(), rv, bytes) == ReadSys(old(Now()), dev, n)
    {
      var r := ReadSys(Now(), dev, n);
      off, errno := r.0.off, r.0.errno;
      rv, bytes := r.1, r.2;
    }

    /** pwrite(2) on the descriptor. */
    method Pwrite(at: int, w: seq<bv8>) returns (rv: int)
      modifies this
      ensures (Now(), rv) == PwriteSys(old(Now()), dev, at, w)
    {
      var r := PwriteSys(Now(), dev, at, w);
      data, errno := r.0.data, r.0.errno;
      rv := r.1;
    }

    /** fsu_fflush. */
    method Fflush() returns (r: int)
      requires Valid()
      modifies this
      ensures Valid() && (Now(), r) == FlushF(old(Now()), dev, mode)
    {
      if !CanWrite(mode) {
        errno := EBADF;
        return EOF;
      }
      if dirty {
        var rv := Pwrite(fpos - bpos, buf[..bpos]);
        if rv != bpos {
          err := errno;
        }
        dirty := false;
      }
      return 0;
    }

    /** fsu_fill_buffer. */
    method FillBuffer()
      requires Valid()
      modifies this, buf
      ensures Valid() && Now() == FillF(old(Now()), dev, mode)
    {
      var _ := Fflush();
      var rv, bytes := Read(BUFSIZE);
      if rv == -1 {
        err := errno;
        eof := true;
        return;
      } else if rv < BUFSIZE {
        eof := true;
      }
      ghost var before := buf[..];
      forall i | 0 <= i < rv {
        buf[i] := bytes[i];
      }
      assert buf[..] == bytes + before[rv..];
      last := fpos + rv;
      bpos := 0;
    }

    /** The refill at fd_last that fsu_fgetc and fsu_fputc share. */
    method Refill()
      requires Valid()
      modifies this, buf
      ensures Valid() && Now() == RefilledF(old(Now()), dev, mode)
    {
      if fpos == last {
        FillBuffer();
      }
    }

    /** Return the byte at fd_bpos. */
    method Take() returns (r: Outcome<int>)
      requires Valid()
      modifies this
      ensures Valid() && (Now(), r) == TakeF(old(Now()))
    {
      if bpos == BUFSIZE {
        return Overrun;
      }
      fpos := fpos + 1;
      r := Value(Signed(buf[bpos]));
      bpos := bpos + 1;
    }

    /** Store c at fd_bpos. */
    method Put(c: int) returns (r: Outcome<int>)
      requires Valid()
      modifies this, buf
      ensures Valid() && (Now(), r) == PutF(old(Now()), c)
    {
      if bpos == BUFSIZE {
        return Overrun;
      }
      ghost var before := buf[..];
      fpos := fpos + 1;
      dirty := true;
      buf[bpos] := (c % 256) as bv8;
      assert buf[..] == before[bpos := (c % 256) as bv8];
      bpos := bpos + 1;
      r := Value(c % 256);
    }

    /** fsu_fgetc, as written. */
    method Fgetc() returns (r: Outcome<int>)
      requires Valid()
      modifies this, buf
      ensures Valid() && (Now(), r) == FgetcF(old(Now()), dev, mode)
    {
      if !CanRead(mode) {
        errno := EBADF;
        return Value(EOF);
      }
      if fpos == last && (eof || err != NoError) {
        return Value(EOF);
      }
      Refill();
      r := Take();
    }

    /** fsu_fgetc with the end-of-file test after a refill. */
    method FgetcFixed() returns (r: Outcome<int>)
      requires Valid()
      modifies this, buf
      ensures Valid() && (Now(), r) == FgetcFixedF(old(Now()), dev, mode)
    {
      if !CanRead(mode) {
        errno := EBADF;
        return Value(EOF);
      }
      if fpos == last && (eof || err != NoError) {
        return Value(EOF);
      }
      Refill();
      if fpos == last {
        return Value(EOF);
      }
      r := Take();
    }

    /** fsu_fputc. */
    method Fputc(c: int) returns (r: Outcome<int>)
      requires Valid()
      modifies this, buf
      ensures Valid() && (Now(), r) == FputcF(old(Now()), dev, mode, c)
    {
      if !CanWrite(mode) {
        errno := EBADF;
        return Value(EOF);
      }
      if fpos == last && (eof || err != NoError) {
        return Value(EOF);
      }
      Refill();
      r := Put(c);
    }

    /** The loop of fsu_fwrite: whole-buffer pwrites while more than 8192 bytes remain. */
    method Chunks(w: seq<bv8>) returns (rest: seq<bv8>, ok: bool)
      requires Valid()
      modifies this
      ensures Valid() && (Now(), rest, ok) == ChunksF(old(Now()), dev, w)
    {
      ghost var s1 := Now();
      rest := w;
      while |rest| > BUFSIZE
        invariant Valid() && ChunksF(Now(), dev, rest) == ChunksF(s1, dev, w)
        invariant buf[..] == s1.buf
        decreases |rest|
      {
        var rv := Pwrite(fpos, rest[..BUFSIZE]);
        if rv == -1 {
          return rest, false;
        }
        rest := rest[rv..];
        fpos := fpos + rv;
      }
      ok := true;
    }

    /** The large-request path of fsu_fwrite, after its flush. */
    method WriteThrough(w: seq<bv8>, size: nat, nmemb: nat) returns (n: int)
      requires Valid() && size > 0
      modifies this, buf
      ensures Valid() && (Now(), n) == WriteThroughF(old(Now()), dev, mode, w, size, nmemb)
    {
      var p, ok := Chunks(w);
      if !ok {
        err := errno;
        return 0;
      }
      var rv := Pwrite(fpos, p);
      if rv == -1 {
        err := errno;
        return 0;
      }
      fpos := fpos + rv;
      if rv == |p| {
        last := fpos;
        FillBuffer();
        n := nmemb;
      } else {
        n := (|p| - rv) / size;
      }
    }

    /** fsu_fwrite. */
    method Fwrite(w: seq<bv8>, size: nat, nmemb: nat) returns (n: int)
      requires Valid() && |w| == size * nmemb
      modifies this, buf
      ensures Valid() && (Now(), n) == FwriteF(old(Now()), dev, mode, w, size, nmemb)
    {
      if |w| == 0 {
        return 0;
      }
      if !CanWrite(mode) {
        errno := EBADF;
        return 0;
      }
      if err != NoError {
        return 0;
      }
      if |w| > BUFSIZE - bpos {
        var _ := Fflush();
        n := WriteThrough(w, size, nmemb);
      } else {
        ghost var before := buf[..];
        forall i | 0 <= i < |w| {
          buf[bpos + i] := w[i];
        }
        assert buf[..] == before[..bpos] + w + before[bpos + |w|..];
        fpos := fpos + |w|;
        bpos := bpos + |w|;
        dirty := true;
        n := nmemb;
      }
    }

    /**
     * One turn of the loop of fsu_fread: done says whether it returned (with
     * r), else resid' and got' carry on.
     */
    method ReadStep(total: nat, size: nat, count: nat, resid: nat, got: seq<bv8>)
      returns (done: bool, r: Outcome<(int, seq<bv8>)>, resid': nat, got': seq<bv8>)
      requires Valid() && size > 0 && resid <= total
      modifies this, buf
      ensures Valid()
      ensures var step := ReadStepF(old(Now()), dev, mode, total, size, count, resid, got);
        && (done <==> step.Done?)
        && (!done ==> Now() == step.st && resid' == step.resid && got' == step.got)
        && (done ==> (r.Overrun? <==> step.r.Overrun?) && (r.Value? ==> Now() == step.r.v.0 && r.v == (step.r.v.1, step.r.v.2)))
    {
      var n := last - fpos;
      if n >= 0 && resid > n {
        if bpos + n > BUFSIZE {
          return true, Overrun, resid, got;
        }
        got' := got + buf[bpos..bpos + n];
        fpos := fpos + n;
        resid' := resid - n;
        if eof {
          return true, Value(((total - resid') / size, got')), resid', got';
        }
        FillBuffer();
        return false, Overrun, resid', got';
      }
      if bpos + resid > BUFSIZE {
        return true, Overrun, resid, got;
      }
      got' := got + buf[bpos..bpos + resid];
      fpos := fpos + resid;
      bpos := bpos + resid;
      return true, Value((count, got')), 0, got';
    }

    /** fsu_fread: the members read and the bytes copied to the caller, or an overrun. */
    method Fread(size: nat, count: nat) returns (r: Outcome<(int, seq<bv8>)>)
      requires Valid()
      modifies this, buf
      ensures Valid()
      ensures var f := FreadF(old(Now()), dev, mode, size, count);
        (r.Overrun? <==> f.Overrun?) && (r.Value? ==> Now() == f.v.0 && r.v == (f.v.1, f.v.2))
    {
      if size * count == 0 {
        return Value((0, []));
      }
      var total := size * count;
      var resid: nat := total;
      var got: seq<bv8> := [];
      var _ := Fflush();
      ghost var s1 := Now();
      while true
        invariant Valid() && resid <= total
        invariant ReadLoopF(Now(), dev, mode, total, size, count, resid, got)
               == ReadLoopF(s1, dev, mode, total, size, count, total, [])
        decreases ReadMeasure(Now(), resid)
      {
        var done;
        done, r, resid, got := ReadStep(total, size, count, resid, got);
        if done {
          return;
        }
      }
    }

    /** fsu_fseeko. */
    method Fseeko(offset: int, whence: int) returns (r: int)
      requires Valid()
      modifies this, buf
      ensures Valid() && (Now(), r) == FseekoF(old(Now()), dev, mode, offset, whence)
    {
      var _ := Fflush();
      err := NoError;
      var size := |data|;
      if whence == SEEK_CUR {
        fpos := fpos + offset;
      } else if whence == SEEK_SET {
        fpos := offset;
      } else if whence == SEEK_END {
        fpos := size + offset;
      } else {
        errno := EINVAL;
        return -1;
      }
      if fpos < 0 || fpos >= size {
        last := fpos;
        bpos := 0;
      } else {
        FillBuffer();
      }
      return 0;
    }

    /** fsu_rewind. */
    method Rewind()
      requires Valid()
      modifies this, buf
      ensures Valid() && Now() == RewindF(old(Now()), dev, mode)
    {
      var _ := Fflush();
      fpos, bpos, last := 0, 0, 0;
      FillBuffer();
    }
  }
}

=== FILE: fsu_file_props.dfy ===
// What the FSU_FILE calls guarantee. A file opened for reading keeps its
// buffer a faithful window on the file (Mirror), so the corrected fsu_fgetc
// and fsu_fread hand back the file's bytes in order; a file opened for
// writing keeps "what the file will hold once flushed" (Pending), so buffered
// writes land at their positions. Two defects of the code as written are
// exhibited beside their corrections: fsu_fgetc reads past the end of the
// data, and a write that goes through to the descriptor poisons fd_err on a
// write-only file.

module FsuFileProps {
  import opened Posix
  import opened Domain
  import opened FsuFile
  import opened DomainProps

  // ---------------------------------------------------------------------
  // Opening

  /** fd_mode is FSU_FILE_WRITE exactly for "w…" and "a…"; it is never FSU_FILE_READWRITE, so "r+" only reads. */
  lemma ModeRule(mode: string)
    ensures ModeOf(OpenFlags(mode)) == FSU_FILE_WRITE <==> |mode| > 0 && (mode[0] == 'w' || mode[0] == 'a')
    ensures ModeOf(OpenFlags(mode)) != FSU_FILE_READWRITE
    ensures ModeOf(OpenFlags("r+")) == FSU_FILE_READ
  {
    var f := OpenFlags(mode);
    if |mode| > 0 && (mode[0] == 'w' || mode[0] == 'a') {
      assert f & O_WRONLY != 0;
    } else {
      assert f == O_RDONLY || f == O_RDONLY | O_RDWR;
    }
    assert OpenFlags("r+") == O_RDWR;
  }

  /** "w+" and "a+" ask open(2) for O_WRONLY | O_RDWR, which it refuses: fsu_fopen fails on them. */
  lemma PlusWriteRefused(openErr: Errno, limit: nat, fault: Errno)
    ensures DevOf(OpenFlags("w+"), openErr, limit, fault).None?
    ensures DevOf(OpenFlags("a+"), openErr, limit, fault).None?
  {
    assert OpenFlags("w+") & O_ACCMODE == O_ACCMODE;
    assert OpenFlags("a+") & O_ACCMODE == O_ACCMODE;
  }

  // ---------------------------------------------------------------------
  // Reading

  /** A descriptor that reads without failing. */
  predicate Readable(dev: Dev) { dev.readable && dev.fault == NoError }

  /**
   * The buffer is a faithful window: the bytes between fd_bpos and the
   * buffered end are the file's bytes from fd_fpos to fd_last, the
   * descriptor stands at fd_last, and eof is only recorded at the end.
   */
  predicate Mirror(st: St) {
    && Shaped(st)
    && 0 <= st.fpos <= st.last == st.off <= |st.data|
    && st.bpos + (st.last - st.fpos) <= BUFSIZE
    && st.buf[st.bpos..st.bpos + (st.last - st.fpos)] == st.data[st.fpos..st.last]
    && (st.eof ==> st.last == |st.data|)
    && st.err == NoError && !st.dirty
  }

  /** A file fsu_fopen opened for reading starts as a faithful (empty) window. */
  lemma OpenedMirrors(mode: string, size: int, data: seq<bv8>, buf0: seq<bv8>, errno: Errno)
    requires |buf0| == BUFSIZE && (|mode| == 0 || (mode[0] != 'w' && mode[0] != 'a'))
    ensures Mirror(Opened(mode, size, data, buf0, errno))
  {
    var flags := OpenFlags(mode);
    assert flags == O_RDONLY || flags == O_RDONLY | O_RDWR;
    assert flags & O_TRUNC == 0;
  }

  /** A refill at fd_last keeps the window faithful; it brings nothing exactly at the end of the file. */
  lemma FillMirror(st: St, dev: Dev, mode: int)
    requires Mirror(st) && Readable(dev) && !CanWrite(mode) && st.fpos == st.last && !st.eof
    ensures var s1 := FillF(st, dev, mode);
      Mirror(s1) && s1.data == st.data && s1.fpos == st.fpos
      && (s1.last == s1.fpos <==> st.fpos == |st.data|)
  {
    var s1 := FlushF(st, dev, mode).0;
    assert s1 == st.(errno := EBADF);
    var (s2, rv, bytes) := ReadSys(s1, dev, BUFSIZE);
    var r := FillF(st, dev, mode);
    assert r.buf[..rv] == bytes;
    assert r.buf[r.bpos..r.bpos + (r.last - r.fpos)] == r.buf[..rv];
  }

  /** The refill fsu_fgetc does at fd_last keeps the window faithful; after it the window is empty only at the end of the file. */
  lemma RefilledMirror(st: St, dev: Dev, mode: int)
    requires Mirror(st) && Readable(dev) && !CanWrite(mode) && !(st.fpos == st.last && st.eof)
    ensures var s1 := RefilledF(st, dev, mode);
      Mirror(s1) && s1.data == st.data && s1.fpos == st.fpos
      && (s1.last == s1.fpos <==> st.fpos == |st.data|)
  {
    if st.fpos == st.last {
      FillMirror(st, dev, mode);
    }
  }

  /** Taking from a non-empty faithful window yields the file's byte at fd_fpos. */
  lemma TakeMirror(st: St)
    requires Mirror(st) && st.fpos < st.last
    ensures var (s1, r) := TakeF(st);
      r == Value(Signed(st.data[st.fpos])) && Mirror(s1) && s1.data == st.data && s1.fpos == st.fpos + 1
  {
    var window := st.buf[st.bpos..st.bpos + (st.last - st.fpos)];
    assert window[0] == st.data[st.fpos..st.last][0];
    var s1 := TakeF(st).0;
    assert s1.buf[s1.bpos..s1.bpos + (s1.last - s1.fpos)] == window[1..];
  }

  /**
   * The corrected fsu_fgetc over a faithful window returns the byte at
   * fd_fpos as a signed char and moves on, or EOF at the end of the file,
   * and keeps the window faithful.
   */
  lemma FgetcFixedReads(st: St, dev: Dev, mode: int)
    requires Mirror(st) && Readable(dev) && CanRead(mode) && !CanWrite(mode)
    ensures var (s1, r) := FgetcFixedF(st, dev, mode);
      && Mirror(s1) && s1.data == st.data
      && (st.fpos < |st.data| ==> r == Value(Signed(st.data[st.fpos])) && s1.fpos == st.fpos + 1)
      && (st.fpos == |st.data| ==> r == Value(EOF) && s1.fpos == st.fpos)
  {
    if !(st.fpos == st.last && st.eof) {
      RefilledMirror(st, dev, mode);
      var s0 := RefilledF(st, dev, mode);
      if s0.fpos != s0.last {
        TakeMirror(s0);
      }
    }
  }

  /**
   * The values successive fsu_fgetc calls return from position i on, up to
   * the first one equal to EOF: a 0xFF byte reads as the signed char -1,
   * which is EOF, so the stream stops there as it does at the end.
   */
  function Stream(data: seq<bv8>, i: nat): (r: seq<int>)
    ensures forall k :: 0 <= k < |r| ==> r[k] != EOF
    ensures |r| <= |data| - i || i > |data|
    decreases |data| - i
  {
    if i >= |data| || data[i] == 0xFF then [] else [Signed(data[i])] + Stream(data, i + 1)
  }

  /**
   * A byte reads as EOF exactly when it is 0xFF. Signed is the conversion
   * of the uint8_t byte to a signed char: the one value from -128 to 127
   * that is congruent to the byte modulo 256.
   */
  lemma SignedEof(b: bv8)
    ensures Signed(b) == EOF <==> b == 0xFF
    ensures -128 <= Signed(b) <= 127 && (Signed(b) - b as int) % 256 == 0
  {
  }

  // ---------------------------------------------------------------------
  // The end of the data, as written and as intended

  /**
   * As written: at the end of a file whose size is a multiple of 8192
   * (every empty file among them), the refill reads nothing, yet fsu_fgetc
   * still advances and returns the stale first byte of the buffer; fd_fpos
   * is then past fd_last, where the EOF test can never fire again.
   */
  lemma FgetcPastEnd(st: St, dev: Dev, mode: int)
    requires Mirror(st) && Readable(dev) && CanRead(mode) && !CanWrite(mode)
    requires st.fpos == st.last == |st.data| && !st.eof
    ensures var (s1, r) := FgetcF(st, dev, mode);
      r == Value(Signed(st.buf[0])) && s1.fpos == |st.data| + 1 && s1.last == |st.data|
  {
    FillMirror(st, dev, mode);
  }

  /** Once fd_fpos is past fd_last, fsu_fgetc just takes the next buffered byte: it never reports EOF on its own. */
  lemma FgetcPastEndStays(st: St, dev: Dev, mode: int)
    requires Shaped(st) && CanRead(mode) && st.fpos > st.last
    ensures var (s1, r) := FgetcF(st, dev, mode);
      (s1, r) == TakeF(st) && (r.Value? ==> s1.fpos > s1.last)
  {
  }

  /** The smallest case: fsu_fopen(…, "r") on an empty file, then fsu_fgetc, returns whatever fd_buf[0] held. */
  lemma EmptyFileAsWritten(buf0: seq<bv8>, errno: Errno, limit: nat)
    requires |buf0| == BUFSIZE
    ensures var dev := DevOf(OpenFlags("r"), NoError, limit, NoError).value;
      var st := Opened("r", 0, [], buf0, errno);
      FgetcF(st, dev, ModeOf(OpenFlags("r"))).1 == Value(Signed(buf0[0]))
  {
    assert OpenFlags("r") == O_RDONLY;
    OpenedMirrors("r", 0, [], buf0, errno);
    FgetcPastEnd(Opened("r", 0, [], buf0, errno), DevOf(OpenFlags("r"), NoError, limit, NoError).value, FSU_FILE_READ);
  }

  /** The same call with the end-of-file test after the refill returns EOF. */
  lemma EmptyFileFixed(buf0: seq<bv8>, errno: Errno, limit: nat)
    requires |buf0| == BUFSIZE
    ensures var dev := DevOf(OpenFlags("r"), NoError, limit, NoError).value;
      var st := Opened("r", 0, [], buf0, errno);
      FgetcFixedF(st, dev, ModeOf(OpenFlags("r"))).1 == Value(EOF)
  {
    assert OpenFlags("r") == O_RDONLY;
    OpenedMirrors("r", 0, [], buf0, errno);
    FgetcFixedReads(Opened("r", 0, [], buf0, errno), DevOf(OpenFlags("r"), NoError, limit, NoError).value, FSU_FILE_READ);
  }

  // ---------------------------------------------------------------------
  // fsu_fread

  /**
   * What fsu_fread's loop promises from state st with resid bytes still
   * wanted and got copied: the next min(resid, bytes left) bytes of the file
   * are appended, count is returned when all resid came, else the whole
   * members among the total bytes got, and the window stays faithful.
   */
  predicate ReadsOn(st: St, total: nat, size: nat, count: nat, resid: nat, got: seq<bv8>,
                    r: Outcome<(St, int, seq<bv8>)>)
    requires 0 <= st.fpos <= |st.data| && size > 0
  {
    var k := if resid <= |st.data| - st.fpos then resid else |st.data| - st.fpos;
    && r.Value?
    && Mirror(r.v.0) && r.v.0.data == st.data && r.v.0.fpos == st.fpos + k
    && r.v.2 == got + st.data[st.fpos..st.fpos + k]
    && r.v.1 == if k == resid then count else (total - resid + k) / size
  }

  /** One turn of fsu_fread's loop over a faithful window either finishes as ReadsOn says or moves to fd_last, copying the window. */
  lemma ReadStepReads(st: St, dev: Dev, mode: int, total: nat, size: nat, count: nat, resid: nat, got: seq<bv8>)
    requires Mirror(st) && Readable(dev) && !CanWrite(mode) && size > 0 && resid <= total
    ensures match ReadStepF(st, dev, mode, total, size, count, resid, got)
      case Done(r) => ReadsOn(st, total, size, count, resid, got, r)
      case Next(s2, resid2, got2) =>
        && Mirror(s2) && s2.data == st.data && s2.fpos == st.last && st.last - st.fpos < resid
        && resid2 == resid - (st.last - st.fpos) && got2 == got + st.data[st.fpos..st.last]
  {
    if resid > st.last - st.fpos {
      ReadStepMoves(st, dev, mode, total, size, count, resid, got);
    } else {
      ReadStepEnds(st, dev, mode, total, size, count, resid, got);
    }
  }

  /** A request larger than the window takes the window and refills, or stops at eof. */
  lemma ReadStepMoves(st: St, dev: Dev, mode: int, total: nat, size: nat, count: nat, resid: nat, got: seq<bv8>)
    requires Mirror(st) && Readable(dev) && !CanWrite(mode) && size > 0 && resid <= total
    requires resid > st.last - st.fpos
    ensures match ReadStepF(st, dev, mode, total, size, count, resid, got)
      case Done(r) => ReadsOn(st, total, size, count, resid, got, r)
      case Next(s2, resid2, got2) =>
        && Mirror(s2) && s2.data == st.data && s2.fpos == st.last
        && resid2 == resid - (st.last - st.fpos) && got2 == got + st.data[st.fpos..st.last]
  {
    var n := st.last - st.fpos;
    var s1 := st.(fpos := st.fpos + n);
    assert Mirror(s1);
    if !s1.eof {
      FillMirror(s1, dev, mode);
    }
  }

  /** Taking resid bytes from a faithful window yields the file's next resid bytes and leaves the window faithful. */
  lemma ServeMirror(st: St, resid: nat)
    requires Mirror(st) && resid <= st.last - st.fpos
    ensures var s1 := st.(fpos := st.fpos + resid, bpos := st.bpos + resid);
      Mirror(s1) && st.buf[st.bpos..st.bpos + resid] == st.data[st.fpos..st.fpos + resid]
  {
    var n := st.last - st.fpos;
    WindowSplit(st.buf, st.data, st.bpos, st.fpos, n, resid);
    var s1 := st.(fpos := st.fpos + resid, bpos := st.bpos + resid);
    assert s1.bpos + (s1.last - s1.fpos) == st.bpos + n;
  }

  /** A request the window covers is served from the buffer and ends the loop. */
  lemma ReadStepEnds(st: St, dev: Dev, mode: int, total: nat, size: nat, count: nat, resid: nat, got: seq<bv8>)
    requires Mirror(st) && size > 0 && resid <= total
    requires resid <= st.last - st.fpos
    ensures match ReadStepF(st, dev, mode, total, size, count, resid, got)
      case Done(r) => ReadsOn(st, total, size, count, resid, got, r)
      case Next(_, _, _) => false
  {
    var s1 := st.(fpos := st.fpos + resid, bpos := st.bpos + resid);
    ServeMirror(st, resid);
    assert ReadStepF(st, dev, mode, total, size, count, resid, got)
        == Done(Value((s1, count, got + st.buf[st.bpos..st.bpos + resid])));
  }

  /** Copying the window and moving to fd_last, then keeping ReadsOn from there, keeps ReadsOn from the start. */
  lemma ReadsOnChain(st: St, s2: St, total: nat, size: nat, count: nat, resid: nat, got: seq<bv8>,
                     r: Outcome<(St, int, seq<bv8>)>)
    requires 0 <= st.fpos <= st.last <= |st.data| && size > 0
    requires s2.data == st.data && s2.fpos == st.last && st.last - st.fpos < resid
    requires ReadsOn(s2, total, size, count, resid - (st.last - st.fpos), got + st.data[st.fpos..st.last], r)
    ensures ReadsOn(st, total, size, count, resid, got, r)
  {
    var n := st.last - st.fpos;
    var resid2 := resid - n;
    var k2 := if resid2 <= |st.data| - s2.fpos then resid2 else |st.data| - s2.fpos;
    var k := if resid <= |st.data| - st.fpos then resid else |st.data| - st.fpos;
    assert k == n + k2;
    assert total - resid + k == total - resid2 + k2;
    assert r.v.2 == got + st.data[st.fpos..st.last] + st.data[st.last..st.last + k2];
    AppendSlices(got, st.data, st.fpos, st.last, st.last + k2);
  }

  /** The loop of fsu_fread over a faithful window keeps the promise of ReadsOn. */
  lemma {:induction false} ReadLoopReads(st: St, dev: Dev, mode: int, total: nat, size: nat, count: nat,
                                          resid: nat, got: seq<bv8>)
    requires Mirror(st) && Readable(dev) && !CanWrite(mode) && size > 0 && resid <= total
    ensures ReadsOn(st, total, size, count, resid, got, ReadLoopF(st, dev, mode, total, size, count, resid, got))
    decreases ReadMeasure(st, resid)
  {
    var step := ReadStepF(st, dev, mode, total, size, count, resid, got);
    ReadStepReads(st, dev, mode, total, size, count, resid, got);
    if step.Next? {
      ReadLoopReads(step.st, dev, mode, total, size, count, step.resid, step.got);
      ReadsOnChain(st, step.st, total, size, count, resid, got,
                   ReadLoopF(step.st, dev, mode, total, size, count, step.resid, step.got));
    }
  }

  /** fsu_fread over a faithful window: the next bytes of the file, count when all came, and the window stays faithful. */
  lemma FreadReads(st: St, dev: Dev, mode: int, size: nat, count: nat)
    requires Mirror(st) && Readable(dev) && !CanWrite(mode)
    ensures var total := size * count;
      var k := if total <= |st.data| - st.fpos then total else |st.data| - st.fpos;
      var r := FreadF(st, dev, mode, size, count);
      && r.Value?
      && Mirror(r.v.0) && r.v.0.data == st.data && r.v.0.fpos == st.fpos + k
      && r.v.2 == st.data[st.fpos..st.fpos + k]
      && r.v.1 == if total == 0 then 0 else if k == total then count else k / size
  {
    if size * count != 0 {
      FreadLoopReads(st, dev, mode, size, count);
    }
  }

  /** A read of a positive number of bytes runs the loop from a faithful window. */
  lemma FreadLoopReads(st: St, dev: Dev, mode: int, size: nat, count: nat)
    requires Mirror(st) && Readable(dev) && !CanWrite(mode) && size * count != 0
    ensures size > 0 && ReadsOn(st, size * count, size, count, size * count, [], FreadF(st, dev, mode, size, count))
  {
    var total := size * count;
    var s1 := FlushF(st, dev, mode).0;
    assert s1 == st.(errno := EBADF);
    ReadLoopReads(s1, dev, mode, total, size, count, total, []);
  }

  // ---------------------------------------------------------------------
  // fsu_fseeko

  /**
   * fsu_fseeko always flushes and clears fd_err; an unknown whence gives
   * EINVAL and -1; a position at or past the size (or before 0) just sets
   * fd_last = fd_fpos and fd_bpos = 0 without reading; inside the file the
   * refill reads at the descriptor's own offset, which the seek never moves.
   */
  lemma FseekoRules(st: St, dev: Dev, mode: int, off: int, whence: int)
    requires Shaped(st)
    ensures var (s1, r) := FseekoF(st, dev, mode, off, whence);
      var pos := if whence == SEEK_CUR then st.fpos + off else if whence == SEEK_SET then off else |s1.data| + off;
      && (s1.err == NoError || (s1.err == s1.errno && s1.eof))
      && (r == -1 <==> whence != SEEK_CUR && whence != SEEK_SET && whence != SEEK_END)
      && (r == -1 ==> s1.errno == EINVAL && s1.fpos == st.fpos)
      && (r == 0 ==> s1.fpos == pos)
      && (r == 0 && (pos < 0 || pos >= |s1.data|) ==> s1.last == pos && s1.bpos == 0 && s1.off == st.off)
  {
  }

  /**
   * So on a faithful window whose descriptor has read past the first 8192
   * bytes, seeking back to 0 fills the buffer from the descriptor's offset:
   * the byte then offered at position 0 is the one at that offset.
   */
  lemma SeekReadsAtDescriptor(st: St, dev: Dev, mode: int)
    requires Mirror(st) && Readable(dev) && !CanWrite(mode) && 0 < st.off < |st.data|
    ensures var s1 := FseekoF(st, dev, mode, 0, SEEK_SET).0;
      s1.fpos == 0 && s1.bpos == 0 && s1.buf[0] == st.data[st.off]
  {
    var s0 := FlushF(st, dev, mode).0.(err := NoError).(fpos := 0);
    var (s2, rv, bytes) := ReadSys(s0, dev, BUFSIZE);
    assert bytes[0] == st.data[st.off];
  }

  // ---------------------------------------------------------------------
  // Writing

  /** A descriptor that writes and has room for every byte up to position room. */
  predicate Roomy(dev: Dev, room: int) { dev.writable && room <= dev.limit }

  /**
   * The buffered bytes sit right below fd_fpos; a clean buffer agrees with the
   * file there; nothing is dirty without a byte to write; no error is recorded.
   */
  predicate WInv(st: St) {
    && Shaped(st) && st.err == NoError && st.fpos - st.bpos >= 0
    && (st.dirty ==> st.bpos > 0)
    && (!st.dirty ==> st.fpos <= |st.data| && st.data[st.fpos - st.bpos..st.fpos] == st.buf[..st.bpos])
  }

  /** What the file will hold once the buffer is flushed. */
  function Pending(st: St): seq<bv8>
    requires WInv(st)
  {
    if st.dirty then Overwrite(st.data, st.fpos - st.bpos, st.buf[..st.bpos]) else st.data
  }

  /** A file fsu_fopen opened with "w" starts empty with nothing pending; "a" starts at the stat-ed size. */
  lemma OpenedWriting(mode: string, size: int, data: seq<bv8>, buf0: seq<bv8>, errno: Errno)
    requires |buf0| == BUFSIZE && |mode| > 0 && (mode[0] == 'w' || (mode[0] == 'a' && size == |data|))
    ensures var st := Opened(mode, size, data, buf0, errno);
      WInv(st) && Pending(st) == (if mode[0] == 'w' then [] else data) && st.fpos == |Pending(st)|
  {
    var flags := OpenFlags(mode);
    if mode[0] == 'w' {
      assert flags & O_TRUNC != 0;
    } else {
      assert flags & O_TRUNC == 0;
    }
  }

  /** A request that fits the buffer is copied there: the pending file gains w at fd_fpos and nmemb is returned. */
  lemma FwriteBuffered(st: St, dev: Dev, mode: int, w: seq<bv8>, size: nat, nmemb: nat)
    requires WInv(st) && CanWrite(mode) && |w| == size * nmemb && 0 < |w| <= BUFSIZE - st.bpos
    ensures var (s1, n) := FwriteF(st, dev, mode, w, size, nmemb);
      && n == nmemb && WInv(s1) && s1.fpos == st.fpos + |w| && s1.bpos == st.bpos + |w|
      && Pending(s1) == Overwrite(Pending(st), st.fpos, w)
  {
    var s1 := Buffered(st, w);
    assert FwriteF(st, dev, mode, w, size, nmemb) == (s1, nmemb);
    BufferedPending(st, w);
  }

  /** The buffer after a copy of w at fd_bpos. */
  function Buffered(st: St, w: seq<bv8>): St
    requires Shaped(st) && |w| <= BUFSIZE - st.bpos
  {
    st.(buf := st.buf[..st.bpos] + w + st.buf[st.bpos + |w|..], fpos := st.fpos + |w|,
        bpos := st.bpos + |w|, dirty := true)
  }

  /** Copying w into the buffer writes it at fd_fpos of the pending file. */
  lemma BufferedPending(st: St, w: seq<bv8>)
    requires WInv(st) && 0 < |w| <= BUFSIZE - st.bpos
    ensures WInv(Buffered(st, w)) && Pending(Buffered(st, w)) == Overwrite(Pending(st), st.fpos, w)
  {
    BufferedInv(st, w);
    var a := st.fpos - st.bpos;
    var x := st.buf[..st.bpos];
    BufferedOverwrites(st, w);
    OverwriteConcat(st.data, a, x, w);
    if !st.dirty {
      OverwriteSame(st.data, a, x);
    }
  }

  lemma BufferedInv(st: St, w: seq<bv8>)
    requires WInv(st) && 0 < |w| <= BUFSIZE - st.bpos
    ensures WInv(Buffered(st, w))
  {
  }

  lemma BufferedOverwrites(st: St, w: seq<bv8>)
    requires WInv(st) && 0 < |w| <= BUFSIZE - st.bpos && WInv(Buffered(st, w))
    ensures Pending(Buffered(st, w)) == Overwrite(st.data, st.fpos - st.bpos, st.buf[..st.bpos] + w)
  {
    var s1 := Buffered(st, w);
    assert s1.buf[..s1.bpos] == st.buf[..st.bpos] + w;
    assert Pending(s1) == Overwrite(s1.data, s1.fpos - s1.bpos, s1.buf[..s1.bpos]);
  }

  /** fsu_fflush of a dirty buffer with room on the device: the file becomes what was pending. */
  lemma FlushCommits(st: St, dev: Dev, mode: int)
    requires WInv(st) && CanWrite(mode) && Roomy(dev, st.fpos)
    ensures var (s1, r) := FlushF(st, dev, mode);
      r == 0 && WInv(s1) && !s1.dirty && s1.data == Pending(st) && s1.fpos == st.fpos && s1.bpos == st.bpos
  {
    if st.dirty {
      var s1 := FlushF(st, dev, mode).0;
      assert s1.data[st.fpos - st.bpos..st.fpos] == st.buf[..st.bpos];
    }
  }

  /** fsu_fwrite refuses with 0 a zero-sized request, a file without FSU_FILE_WRITE (EBADF), and a recorded error. */
  lemma FwriteRefusals(st: St, dev: Dev, mode: int, w: seq<bv8>, size: nat, nmemb: nat)
    requires Shaped(st) && |w| == size * nmemb
    ensures |w| == 0 ==> FwriteF(st, dev, mode, w, size, nmemb) == (st, 0)
    ensures |w| > 0 && !CanWrite(mode) ==> FwriteF(st, dev, mode, w, size, nmemb) == (st.(errno := EBADF), 0)
    ensures |w| > 0 && CanWrite(mode) && st.err != NoError ==> FwriteF(st, dev, mode, w, size, nmemb) == (st, 0)
  {
  }

  /** Cutting w at a and the remainder at b. */
  /** Appending two adjacent slices is appending the slice they make up together. */
  lemma AppendSlices<T>(g: seq<T>, w: seq<T>, a: nat, b: nat, c: nat)
    requires a <= b <= c <= |w|
    ensures g + w[a..b] + w[b..c] == g + w[a..c]
  {
    assert w[a..b] + w[b..c] == w[a..c];
  }

  /** Two equal windows of n elements stay equal when both are cut c elements in. */
  lemma WindowSplit<T>(u: seq<T>, v: seq<T>, a: nat, b: nat, n: nat, c: nat)
    requires a + n <= |u| && b + n <= |v| && c <= n && u[a..a + n] == v[b..b + n]
    ensures u[a..a + c] == v[b..b + c] && u[a + c..a + n] == v[b + c..b + n]
  {
    assert u[a..a + n][..c] == u[a..a + c] && u[a..a + n][c..] == u[a + c..a + n];
    assert v[b..b + n][..c] == v[b..b + c] && v[b..b + n][c..] == v[b + c..b + n];
  }

  lemma SliceSplit<T>(w: seq<T>, a: nat, b: nat)
    requires a + b <= |w|
    ensures w[..a] + w[a..][..b] == w[..a + b] && w[a..][b..] == w[a + b..]
  {
  }

  /** One turn of fsu_fwrite's loop with room on the device writes a whole 8192-byte chunk at fd_fpos. */
  lemma ChunkStep(st: St, dev: Dev, w: seq<bv8>)
    requires Shaped(st) && dev.writable && 0 <= st.fpos && st.fpos + |w| <= dev.limit && |w| > BUFSIZE
    ensures ChunksF(st, dev, w) ==
      ChunksF(st.(data := Overwrite(st.data, st.fpos, w[..BUFSIZE]), fpos := st.fpos + BUFSIZE), dev, w[BUFSIZE..])
  {
    var x := w[..BUFSIZE];
    assert x[..BUFSIZE] == x;
    assert PwriteSys(st, dev, st.fpos, x) == (st.(data := Overwrite(st.data, st.fpos, x)), BUFSIZE);
  }

  /** What fsu_fwrite's loop leaves when no pwrite fails: w[..m] written at fd_fpos, fd_fpos moved past it, the non-empty tail w[m..] left. */
  predicate ChunksWrote(st: St, w: seq<bv8>, r: (St, seq<bv8>, bool))
    requires 0 <= st.fpos
  {
    var m := |w| - |r.1|;
    && r.2 && 0 <= m <= |w| && r.1 == w[m..] && (|w| > 0 ==> |r.1| > 0)
    && r.0 == st.(fpos := st.fpos + m, data := Overwrite(st.data, st.fpos, w[..m]))
  }

  /** A whole chunk written at fd_fpos followed by what the rest of the loop wrote is what the loop wrote. */
  lemma ChunksChain(st: St, w: seq<bv8>, r: (St, seq<bv8>, bool))
    requires 0 <= st.fpos && |w| > BUFSIZE
    requires ChunksWrote(st.(data := Overwrite(st.data, st.fpos, w[..BUFSIZE]), fpos := st.fpos + BUFSIZE), w[BUFSIZE..], r)
    ensures ChunksWrote(st, w, r)
  {
    var m2 := |w| - BUFSIZE - |r.1|;
    OverwriteConcat(st.data, st.fpos, w[..BUFSIZE], w[BUFSIZE..][..m2]);
    SliceSplit(w, BUFSIZE, m2);
  }

  /** The pwrites of fsu_fwrite's loop, with room on the device, write every chunk in turn and leave a non-empty tail of at most 8192 bytes. */
  lemma {:induction false} ChunksWrite(st: St, dev: Dev, w: seq<bv8>)
    requires Shaped(st) && dev.writable && 0 <= st.fpos <= |st.data| && st.fpos + |w| <= dev.limit
    ensures ChunksWrote(st, w, ChunksF(st, dev, w))
    decreases |w|
  {
    if |w| <= BUFSIZE {
      assert w[..0] == [];
      OverwriteSame(st.data, st.fpos, []);
    } else {
      var s2 := st.(data := Overwrite(st.data, st.fpos, w[..BUFSIZE]), fpos := st.fpos + BUFSIZE);
      ChunkStep(st, dev, w);
      ChunksWrite(s2, dev, w[BUFSIZE..]);
      ChunksChain(st, w, ChunksF(s2, dev, w[BUFSIZE..]));
    }
  }

  /** With room on the device, the chunks and the last pwrite of a write-through put all of w at fd_fpos. */
  lemma ThroughWrites(st: St, dev: Dev, w: seq<bv8>)
    requires Shaped(st) && dev.writable && 0 <= st.fpos <= |st.data| && st.fpos + |w| <= dev.limit && |w| > 0
    ensures var (s2, rest, ok) := ChunksF(st, dev, w);
      var (s3, rv) := PwriteSys(s2, dev, s2.fpos, rest);
      && ok && rv == |rest|
      && s3.(fpos := s3.fpos + rv) == st.(fpos := st.fpos + |w|, data := Overwrite(st.data, st.fpos, w))
  {
    ChunksWrite(st, dev, w);
    var (s2, rest, ok) := ChunksF(st, dev, w);
    assert ChunksWrote(st, w, (s2, rest, ok));
    var m := |w| - |rest|;
    OverwriteConcat(st.data, st.fpos, w[..m], rest);
    assert w[..m] + rest == w;
  }

  /**
   * As written: on a write-only file, a request larger than what is left of
   * the buffer is written in full and nmemb is returned, but the refill that
   * follows reads a write-only descriptor and records EBADF in fd_err.
   */
  lemma WriteThroughPoisons(st: St, dev: Dev, mode: int, w: seq<bv8>, size: nat, nmemb: nat)
    requires WInv(st) && mode == FSU_FILE_WRITE && !dev.readable && Roomy(dev, st.fpos + |w|)
    requires |w| == size * nmemb && |w| > BUFSIZE - st.bpos
    ensures var (s1, n) := FwriteF(st, dev, mode, w, size, nmemb);
      n == nmemb && s1.data == Overwrite(Pending(st), st.fpos, w) && s1.err == EBADF
  {
    FlushCommits(st, dev, mode);
    ThroughWrites(FlushF(st, dev, mode).0, dev, w);
  }

  /**
   * The corrected fsu_fwrite on a write-only file with room on the device:
   * every request is accepted in full and lands at fd_fpos of what is
   * pending, and the pending-content invariant is kept.
   */
  lemma FwriteFixedWrites(st: St, dev: Dev, mode: int, w: seq<bv8>, size: nat, nmemb: nat)
    requires WInv(st) && CanWrite(mode) && !CanRead(mode) && Roomy(dev, st.fpos + |w|)
    requires |w| == size * nmemb && |w| > 0
    ensures var (s1, n) := FwriteFixedF(st, dev, mode, w, size, nmemb);
      && n == nmemb && WInv(s1) && s1.fpos == st.fpos + |w|
      && Pending(s1) == Overwrite(Pending(st), st.fpos, w)
  {
    if |w| > BUFSIZE - st.bpos {
      FlushCommits(st, dev, mode);
      ThroughWrites(FlushF(st, dev, mode).0, dev, w);
    } else {
      FwriteBuffered(st, dev, mode, w, size, nmemb);
    }
  }

  /**
   * The smallest case, fsu_write's loop on input of three reads: with
   * fsu_fopen(…, "w"), two 8192-byte fsu_fwrite calls succeed and the
   * third is refused with 0, whatever it asks for and however much room
   * is left.
   */
  lemma ThirdWriteAsWritten(buf0: seq<bv8>, w1: seq<bv8>, w2: seq<bv8>, w3: seq<bv8>, limit: nat)
    requires |buf0| == BUFSIZE && |w1| == BUFSIZE && |w2| == BUFSIZE && |w3| > 0 && limit >= 3 * BUFSIZE + |w3|
    ensures var dev := DevOf(OpenFlags("w"), NoError, limit, NoError).value;
      var mode := ModeOf(OpenFlags("w"));
      var (s1, n1) := FwriteF(Opened("w", 0, [], buf0, NoError), dev, mode, w1, 1, |w1|);
      var (s2, n2) := FwriteF(s1, dev, mode, w2, 1, |w2|);
      var (s3, n3) := FwriteF(s2, dev, mode, w3, 1, |w3|);
      n1 == BUFSIZE && n2 == BUFSIZE && s2.data == w1 + w2 && n3 == 0
  {
    var flags := OpenFlags("w");
    assert flags == O_WRONLY | O_CREAT | O_TRUNC;
    var dev := DevOf(flags, NoError, limit, NoError).value;
    var mode := ModeOf(flags);
    assert mode == FSU_FILE_WRITE;
    var s0 := Opened("w", 0, [], buf0, NoError);
    OpenedWriting("w", 0, [], buf0, NoError);
    assert s0.bpos == 0 && s0.fpos == 0 && Pending(s0) == [];
    FwriteBuffered(s0, dev, mode, w1, 1, |w1|);
    var (s1, n1) := FwriteF(s0, dev, mode, w1, 1, |w1|);
    assert s1.bpos == BUFSIZE && s1.fpos == BUFSIZE;
    WriteThroughPoisons(s1, dev, mode, w2, 1, |w2|);
    var (s2, n2) := FwriteF(s1, dev, mode, w2, 1, |w2|);
    OverwriteConcat([], 0, w1, w2);
    assert Overwrite([], 0, w1) == w1;
    assert Overwrite([], 0, w1 + w2) == w1 + w2;
    assert s2.err != NoError;
    assert FwriteF(s2, dev, mode, w3, 1, |w3|).1 == 0;
  }

  /** The same three calls with the corrected fsu_fwrite are all accepted, and the file will hold w1 + w2 + w3. */
  lemma ThirdWriteFixed(buf0: seq<bv8>, w1: seq<bv8>, w2: seq<bv8>, w3: seq<bv8>, limit: nat)
    requires |buf0| == BUFSIZE && |w1| == BUFSIZE && |w2| == BUFSIZE && |w3| > 0 && limit >= 3 * BUFSIZE + |w3|
    ensures var dev := DevOf(OpenFlags("w"), NoError, limit, NoError).value;
      var mode := ModeOf(OpenFlags("w"));
      var (s1, n1) := FwriteFixedF(Opened("w", 0, [], buf0, NoError), dev, mode, w1, 1, |w1|);
      var (s2, n2) := FwriteFixedF(s1, dev, mode, w2, 1, |w2|);
      var (s3, n3) := FwriteFixedF(s2, dev, mode, w3, 1, |w3|);
      n1 == BUFSIZE && n2 == BUFSIZE && n3 == |w3| && WInv(s3) && Pending(s3) == w1 + w2 + w3
  {
    var flags := OpenFlags("w");
    assert flags == O_WRONLY | O_CREAT | O_TRUNC;
    var dev := DevOf(flags, NoError, limit, NoError).value;
    var s0 := Opened("w", 0, [], buf0, NoError);
    OpenedWriting("w", 0, [], buf0, NoError);
    FwriteFixedWrites(s0, dev, FSU_FILE_WRITE, w1, 1, |w1|);
    var s1 := FwriteFixedF(s0, dev, FSU_FILE_WRITE, w1, 1, |w1|).0;
    FwriteFixedWrites(s1, dev, FSU_FILE_WRITE, w2, 1, |w2|);
    var s2 := FwriteFixedF(s1, dev, FSU_FILE_WRITE, w2, 1, |w2|).0;
    FwriteFixedWrites(s2, dev, FSU_FILE_WRITE, w3, 1, |w3|);
    OverwriteConcat([], 0, w1, w2);
    OverwriteConcat([], 0, w1 + w2, w3);
    assert Overwrite([], 0, w1) == w1;
    assert Overwrite([], 0, w1 + w2 + w3) == w1 + w2 + w3;
  }
}

=== FILE: makefs.dfy ===
// What the two makefs image-size estimators (makefs-analyzetree/ffs.c and
// makefs-analyzetree/ext2fs.c) have in common: the tree of nodes they
// walk, traverse_tree with its ADDDIRENT and ADDSIZE macros, set_option,
// and the arithmetic that turns the tree's size into an image size. The
// two files differ only in their constants, which a Geometry and the
// arguments of EstimateF carry.

module Makefs {
  import opened Posix

  // ---------------------------------------------------------------------
  // Arithmetic

  /** roundup(x, y) of <sys/param.h>: ((x + y - 1) / y) * y. */
  function Roundup(x: nat, y: nat): (r: nat)
    requires y > 0
    ensures r % y == 0 && x <= r < x + y
  {
    var q := (x + y - 1) / y;
    DivMod(q * y, y, q, 0);
    q * y
  }

  /** The multiple of y that lies in [x, x + y) is the one roundup finds. */
  lemma RoundupIs(x: nat, y: nat, q: nat)
    requires y > 0 && x <= q * y < x + y
    ensures Roundup(x, y) == q * y
  {
    DivMod(x + y - 1, y, q, x + y - 1 - q * y);
  }

  /** Quotient and remainder are the only ones: x == q * y + m with 0 <= m < y. */
  lemma DivMod(x: int, y: int, q: int, m: int)
    requires y > 0 && 0 <= m < y && x == q * y + m
    ensures x / y == q && x % y == m
  {
    var q0, m0 := x / y, x % y;
    assert x == q0 * y + m0;
    if q0 > q {
      assert (q0 - q) * y == m - m0;
      AtLeastOnce(q0 - q, y);
    } else if q0 < q {
      assert (q - q0) * y == m0 - m;
      AtLeastOnce(q - q0, y);
    }
  }

  lemma AtLeastOnce(d: int, y: int)
    requires d >= 1 && y > 0
    ensures d * y >= y
  {
  }

  /** x enlarged by pc percent, x * (100 + pc) / 100, when pc is positive; x otherwise. */
  function Slop(x: nat, pc: int): (r: nat)
    ensures pc > 0 ==> r == x * (100 + pc) / 100 && r >= x
    ensures pc <= 0 ==> r == x
  {
    if pc > 0 then
      assert x * (100 + pc) == x * 100 + x * pc;
      x * (100 + pc) / 100
    else x
  }

  // ---------------------------------------------------------------------
  // The tree

  /** fsnode's type, as traverse_tree tells them apart. */
  datatype NodeType = Regular | Directory | Symlink | Special

  /**
   * An fsnode: its name, type, inode number (names of one file share it),
   * the inode's st_size, the link text, and for a directory the list of
   * its entries, which starts with the "." node.
   */
  datatype FsNode = FsNode(name: string, kind: NodeType, ino: nat, size: nat, symlink: string, child: seq<FsNode>)

  /** The directory entry format: struct direct (FFS) or struct ext2fs_direct. */
  datatype DirFormat = Ufs | Ext2

  /**
   * DIRSIZ(0, dp, 0) for FFS, 8 bytes of header and the name with its NUL
   * rounded up to 4; EXT2FS_DIRSIZ, 8 bytes of header and the name rounded
   * up to 4.
   */
  function DirentSize(f: DirFormat, namlen: nat): (r: nat)
    ensures r % 4 == 0 && r >= 8 + namlen
    ensures f == Ufs ==> r > 8 + namlen
  {
    if f == Ufs then 8 + ((namlen + 1 + 3) / 4) * 4 else ((8 + namlen + 3) / 4) * 4
  }

  /**
   * The constants a traverse_tree uses: the entry format, the block no
   * entry may straddle (DIRBLKSIZ, or the block size for ext2), the unit
   * sizes are rounded to (the fragment size, or the block size for ext2),
   * and the link length from which a symbolic link takes space.
   */
  datatype Geometry = Geometry(format: DirFormat, dirblk: nat, unit: nat, symmax: nat)

  predicate Usable(g: Geometry) { g.dirblk > 0 && g.unit > 0 }

  /**
   * ADDDIRENT: an entry that would cross past the end of the current
   * directory block starts at the next block; the directory grows by the
   * entry's size.
   */
  function AddDirent(g: Geometry, cur: nat, namlen: nat): nat
    requires Usable(g)
  {
    var ent := DirentSize(g.format, namlen);
    var start := if ent + cur > Roundup(cur, g.dirblk) then Roundup(cur, g.dirblk) else cur;
    start + ent
  }

  /** What traverse_tree accumulates: fsopts->size, fsopts->inodes and the inodes marked FI_SIZED. */
  datatype Tally = Tally(size: nat, inodes: nat, sized: set<nat>)

  /**
   * ADDSIZE for the first name of an inode: a regular file's size, a
   * symbolic link's text with its NUL when at or over symmax (shorter
   * links live in the inode), nothing for anything else; rounded to the unit.
   */
  function NodeBytes(g: Geometry, n: FsNode): (r: nat)
    requires Usable(g)
    ensures r % g.unit == 0
  {
    DivMod(0, g.unit, 0, 0);
    if n.kind == Regular then Roundup(n.size, g.unit)
    else if n.kind == Symlink && |n.symlink| + 1 >= g.symmax then Roundup(|n.symlink| + 1, g.unit)
    else 0
  }

  /**
   * traverse_tree(nodes): the loop over the list, then the directory's
   * own size rounded to the unit.
   */
  function TreeF(g: Geometry, nodes: seq<FsNode>, t: Tally): Tally
    requires Usable(g)
    decreases nodes, 1
  {
    var (t1, cur) := ListF(g, nodes, 0, 0, t);
    t1.(size := t1.size + Roundup(cur, g.unit))
  }

  /**
   * The loop from entry k with curdirsize cur: each name is an entry; the
   * first node is "." and adds ".." as well. Returns the tally and the
   * final curdirsize.
   */
  function ListF(g: Geometry, nodes: seq<FsNode>, k: nat, cur: nat, t: Tally): (Tally, nat)
    requires Usable(g)
    decreases nodes, 0, |nodes| - k
  {
    if k >= |nodes| then (t, cur)
    else ListF(g, nodes, k + 1, Entries(g, nodes, k, cur), Visit(g, nodes, k, t))
  }

  /** curdirsize after the entry of node k (and "..", for the first). */
  function Entries(g: Geometry, nodes: seq<FsNode>, k: nat, cur: nat): nat
    requires Usable(g) && k < |nodes|
  {
    var cur1 := AddDirent(g, cur, |nodes[k].name|);
    if k == 0 then AddDirent(g, cur1, 2) else cur1
  }

  /**
   * The tally after node k: a node other than the first whose inode is
   * not yet FI_SIZED marks it, counts an inode and adds NodeBytes; a
   * directory is walked in turn.
   */
  function Visit(g: Geometry, nodes: seq<FsNode>, k: nat, t: Tally): Tally
    requires Usable(g) && k < |nodes|
    decreases nodes, 0, 0
  {
    var n := nodes[k];
    var t1 := Mark(g, k, n, t);
    if n.kind == Directory then TreeF(g, n.child, t1) else t1
  }

  /** The FI_SIZED test of node k and what passing it adds. */
  function Mark(g: Geometry, k: nat, n: FsNode, t: Tally): (r: Tally)
    requires Usable(g)
    ensures r.sized == t.sized + (if k == 0 then {} else {n.ino})
    ensures r.inodes == t.inodes + |(if k == 0 then {} else {n.ino}) - t.sized|
    ensures r.size >= t.size && (r.size - t.size) % g.unit == 0
  {
    DivMod(0, g.unit, 0, 0);
    if k != 0 && n.ino !in t.sized
    then Tally(t.size + NodeBytes(g, n), t.inodes + 1, t.sized + {n.ino})
    else
      assert k != 0 ==> {n.ino} - t.sized == {};
      t
  }

  /** The inodes a walk of nodes meets under a name other than a list's first ("."). */
  function Inos(nodes: seq<FsNode>): set<nat>
    decreases nodes, 1
  {
    ListInos(nodes, 0)
  }

  function ListInos(nodes: seq<FsNode>, k: nat): set<nat>
    decreases nodes, 0, |nodes| - k
  {
    if k >= |nodes| then {}
    else VisitInos(nodes, k) + ListInos(nodes, k + 1)
  }

  /** fsinfo_t: the running size and inode count, and the limits and slop makefs was given. */
  class FsInfo {
    var size: nat
    var inodes: nat
    var sectorsize: int
    var minsize: nat
    var maxsize: int
    var freefiles: nat
    var freefilepc: int
    var freeblocks: nat
    var freeblockpc: int

    function Limits(): Bounds
      reads this
    {
      Bounds(minsize, maxsize, freefiles, freefilepc, freeblocks, freeblockpc)
    }
  }

  /** The fields of fsinfo_t the estimate reads but never changes. */
  datatype Bounds = Bounds(minsize: nat, maxsize: int, freefiles: nat, freefilepc: int, freeblocks: nat, freeblockpc: int)

  /** The FI_SIZED flags of the inodes, as the set of inode numbers that carry it. */
  class Inodes {
    var sized: set<nat>
  }

  /** traverse_tree: the loop over one list, recursing into directories. */
  method Traverse(g: Geometry, nodes: seq<FsNode>, fi: FsInfo, tab: Inodes)
    requires Usable(g)
    modifies fi, tab
    ensures Tally(fi.size, fi.inodes, tab.sized) == TreeF(g, nodes, old(Tally(fi.size, fi.inodes, tab.sized)))
    ensures fi.sectorsize == old(fi.sectorsize) && fi.Limits() == old(fi.Limits())
    decreases nodes, 1
  {
    var cur: nat := 0;
    var k: nat := 0;
    while k < |nodes|
      invariant k <= |nodes|
      invariant ListF(g, nodes, k, cur, Tally(fi.size, fi.inodes, tab.sized))
             == ListF(g, nodes, 0, 0, old(Tally(fi.size, fi.inodes, tab.sized)))
      invariant fi.sectorsize == old(fi.sectorsize) && fi.Limits() == old(fi.Limits())
    {
      cur := AddDirent(g, cur, |nodes[k].name|);
      if k == 0 {
        cur := AddDirent(g, cur, 2);
      }
      VisitNode(g, nodes, k, fi, tab);
      k := k + 1;
    }
    fi.size := fi.size + Roundup(cur, g.unit);
  }

  /** One pass of traverse_tree's loop, past the ADDDIRENT of the node's name. */
  method VisitNode(g: Geometry, nodes: seq<FsNode>, k: nat, fi: FsInfo, tab: Inodes)
    requires Usable(g) && k < |nodes|
    modifies fi, tab
    ensures Tally(fi.size, fi.inodes, tab.sized) == Visit(g, nodes, k, old(Tally(fi.size, fi.inodes, tab.sized)))
    ensures fi.sectorsize == old(fi.sectorsize) && fi.Limits() == old(fi.Limits())
    decreases nodes, 0
  {
    var n := nodes[k];
    if k != 0 && n.ino !in tab.sized {
      tab.sized := tab.sized + {n.ino};
      fi.inodes := fi.inodes + 1;
      fi.size := fi.size + NodeBytes(g, n);
    }
    if n.kind == Directory {
      Traverse(g, n.child, fi, tab);
    }
  }

  // ---------------------------------------------------------------------
  // Properties of the walk

  /**
   * An entry no larger than a directory block never straddles two: it
   * starts at or after the old end of the directory and its first and last
   * bytes lie in the same block; the directory only grows.
   */
  lemma DirentInOneBlock(g: Geometry, cur: nat, namlen: nat)
    requires Usable(g) && DirentSize(g.format, namlen) <= g.dirblk
    ensures var r := AddDirent(g, cur, namlen); var start := r - DirentSize(g.format, namlen);
      cur <= start && cur < r && start / g.dirblk == (r - 1) / g.dirblk
  {
    var b, ent := g.dirblk, DirentSize(g.format, namlen);
    var up := Roundup(cur, b);
    var p := up / b;
    assert up == p * b;
    if ent + cur > up {
      DivMod(up, b, p, 0);
      DivMod(up + ent - 1, b, p, ent - 1);
    } else {
      assert (p - 1) * b == up - b;
      DivMod(cur, b, p - 1, cur - (up - b));
      DivMod(cur + ent - 1, b, p - 1, cur + ent - 1 - (up - b));
    }
  }

  /** Sets: what B adds to S after A did. */
  lemma UnionCount(a: set<nat>, b: set<nat>, s: set<nat>)
    ensures |(a + b) - s| == |a - s| + |b - (s + a)|
  {
    assert (a + b) - s == (a - s) + (b - (s + a));
    assert (a - s) * (b - (s + a)) == {};
  }

  /**
   * traverse_tree marks exactly the inodes the tree names (other than
   * through "."), and counts each of them once, however many names it
   * has: the inode count grows by the number of inodes not marked before.
   */
  lemma {:induction false} TreeCountsInodesOnce(g: Geometry, nodes: seq<FsNode>, t: Tally)
    requires Usable(g)
    ensures var t' := TreeF(g, nodes, t);
      t'.sized == t.sized + Inos(nodes) && t'.inodes == t.inodes + |Inos(nodes) - t.sized|
    decreases nodes, 1
  {
    ListCountsInodesOnce(g, nodes, 0, 0, t);
  }

  lemma {:induction false} ListCountsInodesOnce(g: Geometry, nodes: seq<FsNode>, k: nat, cur: nat, t: Tally)
    requires Usable(g)
    ensures var t' := ListF(g, nodes, k, cur, t).0;
      t'.sized == t.sized + ListInos(nodes, k) && t'.inodes == t.inodes + |ListInos(nodes, k) - t.sized|
    decreases nodes, 0, |nodes| - k
  {
    if k < |nodes| {
      var t2 := Visit(g, nodes, k, t);
      VisitCountsInodesOnce(g, nodes, k, t);
      ListCountsInodesOnce(g, nodes, k + 1, Entries(g, nodes, k, cur), t2);
      var t3 := ListF(g, nodes, k, cur, t).0;
      Accumulate(t, t2, t3, VisitInos(nodes, k), ListInos(nodes, k + 1));
    } else {
      assert ListInos(nodes, k) - t.sized == {};
    }
  }

  /** The inodes node k brings: its own unless it is the first, and its subtree's. */
  function VisitInos(nodes: seq<FsNode>, k: nat): set<nat>
    requires k < |nodes|
    decreases nodes, 0, 0
  {
    var n := nodes[k];
    (if k == 0 then {} else {n.ino}) + (if n.kind == Directory then Inos(n.child) else {})
  }

  lemma {:induction false} VisitCountsInodesOnce(g: Geometry, nodes: seq<FsNode>, k: nat, t: Tally)
    requires Usable(g) && k < |nodes|
    ensures var t' := Visit(g, nodes, k, t);
      t'.sized == t.sized + VisitInos(nodes, k) && t'.inodes == t.inodes + |VisitInos(nodes, k) - t.sized|
    decreases nodes, 0, 0
  {
    var n := nodes[k];
    var own: set<nat> := if k == 0 then {} else {n.ino};
    var t1 := Mark(g, k, n, t);
    if n.kind == Directory {
      TreeCountsInodesOnce(g, n.child, t1);
      Accumulate(t, t1, Visit(g, nodes, k, t), own, Inos(n.child));
    } else {
      assert VisitInos(nodes, k) == own;
    }
  }

  /** Two steps that each mark a set of inodes and count the new ones make one such step. */
  lemma Accumulate(t: Tally, t1: Tally, t2: Tally, a: set<nat>, b: set<nat>)
    requires t1.sized == t.sized + a && t1.inodes == t.inodes + |a - t.sized|
    requires t2.sized == t1.sized + b && t2.inodes == t1.inodes + |b - t1.sized|
    ensures t2.sized == t.sized + (a + b) && t2.inodes == t.inodes + |(a + b) - t.sized|
  {
    UnionCount(a, b, t.sized);
    assert t.sized + a == t1.sized;
  }

  /**
   * traverse_tree only adds to the size, and only whole units: every
   * ADDSIZE is rounded to the unit.
   */
  lemma {:induction false} TreeAddsWholeUnits(g: Geometry, nodes: seq<FsNode>, t: Tally)
    requires Usable(g)
    ensures var t' := TreeF(g, nodes, t);
      t'.size >= t.size && (t'.size - t.size) % g.unit == 0
    decreases nodes, 1
  {
    var (t1, cur) := ListF(g, nodes, 0, 0, t);
    ListAddsWholeUnits(g, nodes, 0, 0, t);
    SumMod(t1.size - t.size, Roundup(cur, g.unit), g.unit);
  }

  lemma {:induction false} ListAddsWholeUnits(g: Geometry, nodes: seq<FsNode>, k: nat, cur: nat, t: Tally)
    requires Usable(g)
    ensures var t' := ListF(g, nodes, k, cur, t).0;
      t'.size >= t.size && (t'.size - t.size) % g.unit == 0
    decreases nodes, 0, |nodes| - k
  {
    if k < |nodes| {
      var n := nodes[k];
      var t1 := Mark(g, k, n, t);
      var t2 := Visit(g, nodes, k, t);
      if n.kind == Directory {
        TreeAddsWholeUnits(g, n.child, t1);
        SumMod(t1.size - t.size, t2.size - t1.size, g.unit);
      }
      ListAddsWholeUnits(g, nodes, k + 1, Entries(g, nodes, k, cur), t2);
      var t3 := ListF(g, nodes, k, cur, t).0;
      SumMod(t2.size - t.size, t3.size - t2.size, g.unit);
    } else {
      DivMod(0, g.unit, 0, 0);
    }
  }

  lemma SumMod(a: nat, b: nat, m: nat)
    requires m > 0 && a % m == 0 && b % m == 0
    ensures (a + b) % m == 0
  {
    assert a == (a / m) * m && b == (b / m) * m;
    assert a + b == (a / m + b / m) * m;
    DivMod(a + b, m, a / m + b / m, 0);
  }

  /**
   * An empty directory (its list holds only ".") adds two entries, one
   * inode-free "." and "..", and a directory size of one unit when the two
   * entries fit in it.
   */
  lemma EmptyDirectory(g: Geometry, dot: FsNode, t: Tally)
    requires Usable(g) && dot.kind != Directory
    requires DirentSize(g.format, |dot.name|) + DirentSize(g.format, 2) <= g.unit
    requires DirentSize(g.format, |dot.name|) + DirentSize(g.format, 2) <= g.dirblk
    ensures TreeF(g, [dot], t) == t.(size := t.size + g.unit)
  {
    var a, b := DirentSize(g.format, |dot.name|), DirentSize(g.format, 2);
    RoundupIs(0, g.dirblk, 0);
    assert AddDirent(g, 0, |dot.name|) == a;
    RoundupIs(a, g.dirblk, 1);
    assert AddDirent(g, a, 2) == a + b;
    RoundupIs(a + b, g.unit, 1);
    assert ListF(g, [dot], 1, a + b, t) == (t, a + b);
    assert ListF(g, [dot], 0, 0, t) == (t, a + b);
  }

  // ---------------------------------------------------------------------
  // set_option

  /** An entry of an option table: its name and the range strsuftoll enforces. */
  datatype OptSpec = OptSpec(name: string, min: int, max: int)

  /**
   * What set_option does with name=value: an unknown name is refused
   * (warnx, 0); a known one gets the value (the index of its entry), and a
   * value that is not a number or is out of range ends the program
   * (strsuftoll's errx).
   */
  datatype SetResult = UnknownName | Value(index: nat, v: int) | BadValue

  /** The value of a non-empty string of decimal digits. */
  function DecimalF(s: string): (r: Option<nat>)
    ensures r.Some? <==> |s| > 0 && forall k :: 0 <= k < |s| ==> '0' <= s[k] <= '9'
    decreases |s|
  {
    if |s| == 0 || !('0' <= s[|s| - 1] <= '9') then None
    else if |s| == 1 then Some(s[0] as int - '0' as int)
    else match DecimalF(s[..|s| - 1])
      case None => None
      case Some(v) => Some(v * 10 + (s[|s| - 1] as int - '0' as int))
  }

  /** The first entry named name. */
  function Lookup(table: seq<OptSpec>, name: string, k: nat): (r: Option<nat>)
    requires k <= |table|
    ensures r.Some? ==>
              && k <= r.value < |table| && table[r.value].name == name
              && forall j :: k <= j < r.value ==> table[j].name != name
    ensures r.None? ==> forall j :: k <= j < |table| ==> table[j].name != name
    decreases |table| - k
  {
    if k == |table| then None
    else if table[k].name == name then Some(k)
    else Lookup(table, name, k + 1)
  }

  function SetOptionF(table: seq<OptSpec>, name: string, val: string): SetResult {
    match Lookup(table, name, 0)
    case None => UnknownName
    case Some(k) =>
      match DecimalF(val)
      case None => BadValue
      case Some(v) => if v < table[k].min || v > table[k].max then BadValue else Value(k, v)
  }

  /** set_option: the loop over the table. */
  method SetOption(table: seq<OptSpec>, name: string, val: string) returns (r: SetResult)
    ensures r == SetOptionF(table, name, val)
  {
    var k := 0;
    while k < |table|
      invariant k <= |table| && Lookup(table, name, k) == Lookup(table, name, 0)
    {
      if table[k].name == name {
        var v := DecimalF(val);
        if v.None? || v.value < table[k].min || v.value > table[k].max {
          return BadValue;
        }
        return Value(k, v.value);
      }
      k := k + 1;
    }
    r := UnknownName;
  }

  /** A value set_option accepts is in its entry's range, and exactly those are. */
  lemma SetOptionRange(table: seq<OptSpec>, name: string, val: string)
    ensures var r := SetOptionF(table, name, val);
      && (r.Value? ==> r.index < |table| && table[r.index].name == name
                       && table[r.index].min <= r.v <= table[r.index].max && DecimalF(val) == Some(r.v))
      && (r.UnknownName? <==> forall j :: 0 <= j < |table| ==> table[j].name != name)
  {
  }

  /** The first '=' of an option, if any. */
  function EqualsAt(s: string): (r: Option<nat>)
    ensures r.Some? ==> r.value < |s| && s[r.value] == '=' && '=' !in s[..r.value]
    ensures r.None? ==> '=' !in s
    decreases |s|
  {
    if |s| == 0 then None
    else if s[0] == '=' then Some(0)
    else match EqualsAt(s[1..])
      case None => None
      case Some(k) => Some(k + 1)
  }

  /** The first '=' of name=value is the one after name, when name has none. */
  lemma EqualsAtJoin(name: string, val: string)
    requires '=' !in name
    ensures EqualsAt(name + "=" + val) == Some(|name|)
  {
    var s := name + "=" + val;
    assert s[|name|] == '=';
    assert s[..|name|] == name;
  }

  /** What a parse_opts hands to the caller: 0 (refused), 1 with the new options, or an exit. */
  datatype Parsed<T> = Refused | Accepted(opts: T) | Exit

  // ---------------------------------------------------------------------
  // The estimate

  /** ncg, a single cylinder group. */
  const NCG: nat := 1

  /** What the estimate ends in: the image size, inode count and density, or an errx. */
  datatype Estimate =
    | Sized(size: nat, inodes: nat, density: int)
    | BlockTooSmall
    | TooLarge(size: nat)

  /**
   * The inode table: ncg * dinode * roundup(inodes / ncg, bsize / dinode),
   * whole blocks of inodes. The source divides by zero when bsize is less
   * than dinode.
   */
  function InodeTableBytes(inodes: nat, bsize: nat, dinode: nat): (r: nat)
    requires dinode > 0 && bsize / dinode > 0
    ensures r >= inodes * dinode
  {
    var n := Roundup(inodes / NCG, bsize / dinode);
    assert n >= inodes;
    NCG * dinode * n
  }

  /** The inode count after the walk: the first firstino inodes and the requested spare ones, absolute then in percent. */
  function InodesWanted(lim: Bounds, inodes: nat, firstino: nat): nat {
    Slop(inodes + firstino + lim.freefiles, lim.freefilepc)
  }

  /** The byte count after the walk: the requested free space, absolute then in percent, and the superblocks. */
  function BytesWanted(lim: Bounds, size: nat, sbbytes: nat): nat {
    Slop(size + lim.freeblocks, lim.freeblockpc) + sbbytes * NCG
  }

  /**
   * The last steps: minfree percent, at least minsize, rounded up to the
   * block; density defaults to size / inodes + 1; a size over a positive
   * maxsize is fatal.
   */
  function Finish(lim: Bounds, size: nat, inodes: nat, bsize: nat, minfree: int, density: int): Estimate
    requires bsize > 0 && inodes > 0
  {
    var size2 := Slop(size, minfree);
    var size3 := Roundup(if size2 < lim.minsize then lim.minsize else size2, bsize);
    if lim.maxsize > 0 && size3 > lim.maxsize then TooLarge(size3)
    else Sized(size3, inodes, if density == -1 then size3 / inodes + 1 else density)
  }

  /**
   * The estimate after the walk: the wanted inodes and bytes, the inode
   * table, then Finish. A block smaller than one inode ends it before the
   * inode table.
   */
  function EstimateF(lim: Bounds, size: nat, inodes: nat, firstino: nat, sbbytes: nat, dinode: nat,
                     bsize: nat, minfree: int, density: int): (r: Estimate)
    requires dinode > 0 && bsize > 0 && firstino > 0
  {
    var wanted := InodesWanted(lim, inodes, firstino);
    if bsize / dinode == 0 then BlockTooSmall
    else Finish(lim, BytesWanted(lim, size, sbbytes) + InodeTableBytes(wanted, bsize, dinode), wanted, bsize, minfree, density)
  }

  /** The slop and superblock steps after traverse_tree, on fsopts. */
  method AddSlack(fi: FsInfo, firstino: nat, sbbytes: nat)
    modifies fi
    ensures fi.inodes == InodesWanted(old(fi.Limits()), old(fi.inodes), firstino)
    ensures fi.size == BytesWanted(old(fi.Limits()), old(fi.size), sbbytes)
    ensures fi.sectorsize == old(fi.sectorsize) && fi.Limits() == old(fi.Limits())
  {
    fi.inodes := fi.inodes + firstino;
    fi.size := fi.size + fi.freeblocks;
    fi.inodes := fi.inodes + fi.freefiles;
    if fi.freefilepc > 0 {
      fi.inodes := Slop(fi.inodes, fi.freefilepc);
    }
    if fi.freeblockpc > 0 {
      fi.size := Slop(fi.size, fi.freeblockpc);
    }
    fi.size := fi.size + sbbytes * NCG;
  }

  /** The steps after the inode table, on fsopts; returns the density and whether the size is within maxsize. */
  method FinishSize(fi: FsInfo, bsize: nat, minfree: int, density: int) returns (ok: bool, dens: int)
    requires bsize > 0 && fi.inodes > 0
    modifies fi
    ensures var e := Finish(old(fi.Limits()), old(fi.size), old(fi.inodes), bsize, minfree, density);
      && (ok <==> e.Sized?)
      && (ok ==> fi.size == e.size && dens == e.density)
    ensures fi.inodes == old(fi.inodes) && fi.sectorsize == old(fi.sectorsize) && fi.Limits() == old(fi.Limits())
  {
    if minfree > 0 {
      fi.size := Slop(fi.size, minfree);
    }
    if fi.size < fi.minsize {
      fi.size := fi.minsize;
    }
    fi.size := Roundup(fi.size, bsize);
    dens := density;
    if dens == -1 {
      dens := fi.size / fi.inodes + 1;
    }
    ok := !(fi.maxsize > 0 && fi.size > fi.maxsize);
  }

  /**
   * The estimate is a whole number of blocks, at least minsize, at most a
   * positive maxsize, and holds the tree, the slop, the superblocks and an
   * inode table for every inode; the inode count covers the tree, the
   * reserved inodes and the requested spare ones; an unset density is
   * size / inodes + 1. It fails for a block smaller than an inode, and for
   * a result over a positive maxsize, and only then.
   */
  lemma EstimateBounds(lim: Bounds, size: nat, inodes: nat, firstino: nat, sbbytes: nat, dinode: nat,
                       bsize: nat, minfree: int, density: int)
    requires dinode > 0 && bsize > 0 && firstino > 0
    ensures var r := EstimateF(lim, size, inodes, firstino, sbbytes, dinode, bsize, minfree, density);
      && (r.BlockTooSmall? <==> bsize < dinode)
      && (r.TooLarge? ==> lim.maxsize > 0 && r.size > lim.maxsize)
      && (r.Sized? ==>
            && r.size % bsize == 0 && r.size >= lim.minsize
            && (lim.maxsize > 0 ==> r.size <= lim.maxsize)
            && r.inodes >= inodes + firstino + lim.freefiles
            && r.size >= size + lim.freeblocks + sbbytes * NCG + r.inodes * dinode
            && r.density == (if density == -1 then r.size / r.inodes + 1 else density))
  {
    if bsize >= dinode {
      assert bsize / dinode >= 1;
    }
  }
}

=== FILE: posix.dfy ===
// Values shared by every component: C error codes, NetBSD mode and open-flag
// bits, the stat record, and the C string helpers the utilities rely on.

module Posix {

  datatype Option<T> = None | Some(value: T)

  /** The errno values the modelled code produces or tests. */
  datatype Errno =
    | NoError
    | EPERM | ENOENT | EIO | EBADF | EACCES | EEXIST | ENOTDIR | EISDIR
    | EINVAL | ENOSPC | ERANGE | ELOOP | ENOTEMPTY | EOPNOTSUPP

  // File-type and permission bits of st_mode (octal values written in hex).
  const S_IFMT: bv32 := 0xF000
  const S_IFIFO: bv32 := 0x1000
  const S_IFCHR: bv32 := 0x2000
  const S_IFDIR: bv32 := 0x4000
  const S_IFBLK: bv32 := 0x6000
  const S_IFREG: bv32 := 0x8000
  const S_IFLNK: bv32 := 0xA000
  const S_IFSOCK: bv32 := 0xC000
  const S_ISUID: bv32 := 0x800
  const S_ISGID: bv32 := 0x400
  const S_ISVTX: bv32 := 0x200
  const S_IRWXU: bv32 := 0x1C0
  const S_IRWXG: bv32 := 0x38
  const S_IRWXO: bv32 := 0x7
  /** ALLPERMS: every bit chmod can set (07777). */
  const ALLPERMS: bv32 := 0xFFF

  // S_ISDIR and friends: the file-type field (S_IFMT) holds one S_IF* value.
  predicate IsDir(m: bv32) { m & 0xF000 == 0x4000 }
  predicate IsLnk(m: bv32) { m & 0xF000 == 0xA000 }
  predicate IsReg(m: bv32) { m & 0xF000 == 0x8000 }
  predicate IsFifo(m: bv32) { m & 0xF000 == 0x1000 }
  predicate IsChr(m: bv32) { m & 0xF000 == 0x2000 }
  predicate IsBlk(m: bv32) { m & 0xF000 == 0x6000 }

  /** The file type st_mode & S_IFMT names, for code that switches on it. */
  datatype FileType = Fifo | Chr | Dir | Blk | Reg | Lnk | Sock | Unknown

  function TypeOf(m: bv32): (r: FileType)
    ensures r == Fifo <==> IsFifo(m)
    ensures r == Lnk <==> IsLnk(m)
    ensures r == Reg <==> IsReg(m)
    ensures r == Dir <==> IsDir(m)
    ensures r == Chr <==> IsChr(m)
    ensures r == Blk <==> IsBlk(m)
  {
    var t := m & 0xF000;
    if t == 0x1000 then Fifo
    else if t == 0x2000 then Chr
    else if t == 0x4000 then Dir
    else if t == 0x6000 then Blk
    else if t == 0x8000 then Reg
    else if t == 0xA000 then Lnk
    else if t == 0xC000 then Sock
    else Unknown
  }

  // NetBSD open(2) flags.
  const O_RDONLY: bv32 := 0x0
  const O_WRONLY: bv32 := 0x1
  const O_RDWR: bv32 := 0x2
  const O_ACCMODE: bv32 := 0x3
  const O_APPEND: bv32 := 0x8
  const O_NOFOLLOW: bv32 := 0x100
  const O_CREAT: bv32 := 0x200
  const O_TRUNC: bv32 := 0x400
  const O_EXCL: bv32 := 0x800

  const PATH_MAX: nat := 1024
  const MAXSYMLINKS: nat := 32

  /** struct stat, restricted to the fields the utilities read. */
  datatype Stat = Stat(
    mode: bv32, uid: int, gid: int, dev: int, ino: int, nlink: int,
    rdev: int, size: int, atime: int, mtime: int, flags: int)

  predicate IsSpace(c: char) {
    c == ' ' || c == '\t' || c == '\n' || c == '\U{B}' || c == '\U{C}' || c == '\r'
  }

  predicate IsDigit(c: char) { '0' <= c <= '9' }

  /** strrchr: index of the last occurrence of c in s. */
  function LastIndexOf(s: string, c: char): (r: Option<nat>)
    ensures r.Some? ==> r.value < |s| && s[r.value] == c
    ensures r.Some? ==> forall j :: r.value < j < |s| ==> s[j] != c
    ensures r.None? ==> forall j :: 0 <= j < |s| ==> s[j] != c
  {
    if |s| == 0 then None
    else if s[|s| - 1] == c then Some(|s| - 1)
    else LastIndexOf(s[..|s| - 1], c)
  }

  /** The text after the last '/', or the whole string when it holds none. */
  function AfterLastSlash(s: string): (r: string)
    ensures '/' !in r
    ensures |r| <= |s| && r == s[|s| - |r|..]
    ensures '/' !in s ==> r == s
  {
    match LastIndexOf(s, '/')
    case None => s
    case Some(i) => s[i + 1..]
  }

  /** Sign of strcmp over two strings compared character by character. */
  function Strcmp(a: string, b: string): (r: int)
    ensures r == 0 <==> a == b
    ensures -1 <= r <= 1
  {
    if |a| == 0 && |b| == 0 then 0
    else if |a| == 0 then -1
    else if |b| == 0 then 1
    else if a[0] < b[0] then -1
    else if a[0] > b[0] then 1
    else Strcmp(a[1..], b[1..])
  }
}

=== FILE: progname.dfy ===
// The program name kept by setprogname and returned by getprogname
// (lib/libfsu_utils/progname.c): one module-level string that
// setprogname overwrites with the last component of its argument.

module Progname {
  import opened Posix

  /** What getprogname returns before any setprogname. */
  const UNSET: string := "<unset_progname>"

  /** The last component of s: what follows its last '/', or s itself. */
  lemma AfterLastSlashFacts(s: string)
    ensures var r := AfterLastSlash(s);
      && '/' !in r && |r| <= |s| && r == s[|s| - |r|..]
      && ('/' in s ==> |r| < |s| && s[|s| - |r| - 1] == '/')
      && ('/' !in s ==> r == s)
  {
    match LastIndexOf(s, '/')
    case None =>
    case Some(i) =>
      assert s[i] == '/';
      assert |s| - |s[i + 1..]| - 1 == i;
  }

  /** Setting the name to what it already is changes nothing. */
  lemma AfterLastSlashIdempotent(s: string)
    ensures AfterLastSlash(AfterLastSlash(s)) == AfterLastSlash(s)
  {
  }

  /** The holder of __progname. */
  class ProgName {
    var name: string

    /** The stored name never holds a '/'. */
    predicate Valid()
      reads this
    {
      '/' !in name
    }

    constructor()
      ensures name == UNSET && Valid()
    {
      name := UNSET;
    }

    /** getprogname. */
    function Get(): string
      reads this
    {
      name
    }

    /**
     * setprogname: the name becomes the suffix of s after its last '/', or
     * all of s when it has none.
     */
    method Set(s: string)
      modifies this
      ensures Valid()
      ensures |name| <= |s| && name == s[|s| - |name|..]
      ensures '/' in s ==> |name| < |s| && s[|s| - |name| - 1] == '/'
      ensures '/' !in s ==> name == s
    {
      AfterLastSlashFacts(s);
      var p := LastIndexOf(s, '/');
      if p.None? {
        name := s;
      } else {
        name := s[p.value + 1..];
      }
    }
  }

  /** setprogname(getprogname()) leaves the name as it is. */
  method SetOwnName(pn: ProgName)
    requires pn.Valid()
    modifies pn
    ensures pn.Get() == old(pn.Get())
  {
    pn.Set(pn.Get());
  }
}

=== FILE: rmdir.dfy ===
// rmdir(1) with -p (src/rmdir.c), removing directories in the image. rm_path
// cuts the path at its last '/' again and again and removes what is left,
// longest prefix first; a cut that leaves a trailing '/' removes nothing.

module Rmdir {
  import opened Posix
  import opened Domain

  /**
   * The positions rm_path cuts at and then removes the prefix before, in the
   * order it does so: the last '/' of what is left each time, skipped when
   * nothing followed it.
   */
  function Cuts(s: string): (r: seq<nat>)
    ensures forall k :: 0 <= k < |r| ==> r[k] < |s|
    decreases |s|
  {
    match LastIndexOf(s, '/')
    case None => []
    case Some(i) => (if i + 1 == |s| then [] else [i]) + Cuts(s[..i])
  }

  /** rm_path on s: 1 at the first rmdir that fails, 0 when there is none. */
  function RmPathF(w: World, s: string): (r: (World, int))
    ensures r.1 == 0 || r.1 == 1
    decreases |s|
  {
    match LastIndexOf(s, '/')
    case None => (w, 0)
    case Some(i) =>
      if i + 1 == |s| then RmPathF(w, s[..i])
      else
        var (w1, rv) := Apply(w, Image, RmdirF(w.In(Image), s[..i]));
        if rv < 0 then (w1, 1) else RmPathF(w1, s[..i])
  }

  /** rm_path: the buffer is the prefix path[..len], cut at each '/' found. */
  method RmPath(sys: System, path: string) returns (rv: int)
    modifies sys
    ensures (sys.Now(), rv) == RmPathF(old(sys.Now()), path)
  {
    var len := |path|;
    assert path[..len] == path;
    while true
      invariant len <= |path|
      invariant RmPathF(sys.Now(), path[..len]) == RmPathF(old(sys.Now()), path)
      decreases len
    {
      var p := LastIndexOf(path[..len], '/');
      if p.None? {
        return 0;
      }
      var i := p.value;
      var trailing := i + 1 == len;
      assert path[..len][..i] == path[..i];
      len := i;
      if !trailing {
        var r := sys.Commit(Image, RmdirF(sys.Now().In(Image), path[..len]));
        if r < 0 {
          return 1;
        }
      }
    }
  }

  /** The prefixes rm_path removes, in order. */
  function Attempts(s: string): seq<string>
    decreases |s|
  {
    match LastIndexOf(s, '/')
    case None => []
    case Some(i) => (if i + 1 == |s| then [] else [s[..i]]) + Attempts(s[..i])
  }

  /** The attempts are the prefixes before the cut positions. */
  lemma {:induction false} AttemptsAtCuts(s: string)
    ensures |Attempts(s)| == |Cuts(s)|
    ensures forall k :: 0 <= k < |Cuts(s)| ==> Attempts(s)[k] == s[..Cuts(s)[k]]
    decreases |s|
  {
    match LastIndexOf(s, '/')
    case None =>
    case Some(i) =>
      var t := s[..i];
      AttemptsAtCuts(t);
      forall k | 0 <= k < |Cuts(t)|
        ensures t[..Cuts(t)[k]] == s[..Cuts(t)[k]]
      {
      }
  }

  /** The reference reading: rmdir of each path of ps in turn, 1 at the first failure. */
  function TryEach(w: World, ps: seq<string>): (World, int)
    decreases |ps|
  {
    if ps == [] then (w, 0)
    else
      var (w1, rv) := Apply(w, Image, RmdirF(w.In(Image), ps[0]));
      if rv < 0 then (w1, 1) else TryEach(w1, ps[1..])
  }

  /** rm_path removes exactly the prefixes Attempts(s), longest first, and stops at the first failure. */
  lemma {:induction false} RmPathTries(w: World, s: string)
    ensures RmPathF(w, s) == TryEach(w, Attempts(s))
    decreases |s|
  {
    match LastIndexOf(s, '/')
    case None =>
    case Some(i) =>
      var t := s[..i];
      if i + 1 == |s| {
        RmPathTries(w, t);
        assert Attempts(s) == [] + Attempts(t) == Attempts(t);
      } else {
        var (w1, rv) := Apply(w, Image, RmdirF(w.In(Image), t));
        if rv >= 0 {
          RmPathTries(w1, t);
        }
        assert ([t] + Attempts(t))[1..] == Attempts(t);
      }
  }

  /**
   * The cut positions are the '/' of s that some other character than '/'
   * follows: trailing and repeated slashes cause no removal.
   */
  lemma {:induction false} CutsAre(s: string, c: nat)
    ensures c in Cuts(s) <==> c + 1 < |s| && s[c] == '/' && s[c + 1] != '/'
    decreases |s|
  {
    match LastIndexOf(s, '/')
    case None =>
    case Some(i) =>
      var t := s[..i];
      CutsAre(t, c);
      if c < i {
        assert c + 1 < |t| ==> t[c + 1] == s[c + 1];
        if c + 1 == i {
          assert s[c + 1] == '/';
        }
      }
  }

  /** The cuts come longest prefix first. */
  lemma {:induction false} CutsDescend(s: string)
    ensures forall a, b :: 0 <= a < b < |Cuts(s)| ==> Cuts(s)[a] > Cuts(s)[b]
    decreases |s|
  {
    match LastIndexOf(s, '/')
    case None =>
    case Some(i) =>
      var t := s[..i];
      CutsDescend(t);
      if i + 1 < |s| {
        assert Cuts(s) == [i] + Cuts(t);
        forall a, b | 0 <= a < b < |Cuts(s)|
          ensures Cuts(s)[a] > Cuts(s)[b]
        {
          assert Cuts(s)[b] == Cuts(t)[b - 1] && Cuts(t)[b - 1] in Cuts(t);
          if a > 0 {
            assert Cuts(s)[a] == Cuts(t)[a - 1];
          }
        }
      }
  }

  function SlashCount(s: string): nat
    decreases |s|
  {
    if s == [] then 0 else SlashCount(s[..|s| - 1]) + (if s[|s| - 1] == '/' then 1 else 0)
  }

  lemma {:induction false} SlashCountAt(s: string, i: nat)
    requires i < |s| && s[i] == '/' && forall j :: i < j < |s| ==> s[j] != '/'
    ensures SlashCount(s) == SlashCount(s[..i]) + 1
    decreases |s|
  {
    if i + 1 < |s| {
      assert s[..|s| - 1][..i] == s[..i];
      SlashCountAt(s[..|s| - 1], i);
    } else {
      assert s[..|s| - 1] == s[..i];
    }
  }

  /** rm_path tries at most as many rmdirs as the path has '/'. */
  lemma {:induction false} CutsBounded(s: string)
    ensures |Cuts(s)| <= SlashCount(s)
    decreases |s|
  {
    match LastIndexOf(s, '/')
    case None =>
    case Some(i) =>
      CutsBounded(s[..i]);
      SlashCountAt(s, i);
  }

  // ---------------------------------------------------------------------
  // main

  /** One operand: its own rmdir, then with -p rm_path, only when that succeeded. */
  function OperandF(w: World, op: string, pflag: bool): (r: (World, int))
    ensures r.1 == 0 || r.1 == 1
  {
    var (w1, rv) := Apply(w, Image, RmdirF(w.In(Image), op));
    if rv < 0 then (w1, 1)
    else if pflag then RmPathF(w1, op)
    else (w1, 0)
  }

  /** The loop over the operands: errors is 1 once any of them failed. */
  function RmdirAllF(w: World, ops: seq<string>, pflag: bool): (r: (World, int))
    ensures r.1 == 0 || r.1 == 1
    decreases |ops|
  {
    if ops == [] then (w, 0)
    else
      var (w1, e1) := RmdirAllF(w, ops[..|ops| - 1], pflag);
      var (w2, e2) := OperandF(w1, ops[|ops| - 1], pflag);
      (w2, if e1 == 1 || e2 == 1 then 1 else 0)
  }

  lemma RmdirAllNext(w: World, ops: seq<string>, n: nat, pflag: bool)
    requires n < |ops|
    ensures var (w1, e1) := RmdirAllF(w, ops[..n], pflag);
      var (w2, e2) := OperandF(w1, ops[n], pflag);
      RmdirAllF(w, ops[..n + 1], pflag) == (w2, if e1 == 1 || e2 == 1 then 1 else 0)
  {
    assert ops[..n + 1][..n] == ops[..n];
  }

  /**
   * main after the image is mounted: -p is the only option (any other is
   * a usage error, exit status 1), at least one operand is needed, and the
   * exit status is 1 exactly when some operand failed.
   */
  method RmdirMain(sys: System, opts: seq<char>, operands: seq<string>) returns (status: int)
    modifies sys
    ensures (exists i :: 0 <= i < |opts| && opts[i] != 'p') || operands == [] ==>
      status == 1 && sys.Now() == old(sys.Now())
    ensures (forall i :: 0 <= i < |opts| ==> opts[i] == 'p') && operands != [] ==>
      (sys.Now(), status) == RmdirAllF(old(sys.Now()), operands, 'p' in opts)
  {
    var pflag := false;
    var k := 0;
    while k < |opts|
      invariant k <= |opts| && (forall i :: 0 <= i < k ==> opts[i] == 'p')
      invariant pflag <==> 'p' in opts[..k]
    {
      if opts[k] != 'p' {
        return 1;
      }
      pflag := true;
      assert opts[k] in opts[..k + 1];
      k := k + 1;
    }
    assert opts[..k] == opts;
    if operands == [] {
      return 1;
    }
    var errors := 0;
    var n := 0;
    while n < |operands|
      invariant n <= |operands|
      invariant (sys.Now(), errors) == RmdirAllF(old(sys.Now()), operands[..n], pflag)
    {
      RmdirAllNext(old(sys.Now()), operands, n, pflag);
      var rv := sys.Commit(Image, RmdirF(sys.Now().In(Image), operands[n]));
      if rv < 0 {
        errors := 1;
      } else if pflag {
        var e := RmPath(sys, operands[n]);
        errors := if errors == 1 || e == 1 then 1 else 0;
      }
      n := n + 1;
    }
    assert operands[..n] == operands;
    status := errors;
  }

  /** The status of operand n, in the image the earlier operands left. */
  function OperandStatus(w: World, ops: seq<string>, n: nat, pflag: bool): int
    requires n < |ops|
  {
    OperandF(RmdirAllF(w, ops[..n], pflag).0, ops[n], pflag).1
  }

  function OperandStatuses(w: World, ops: seq<string>, pflag: bool): (r: seq<int>)
    ensures |r| == |ops| && forall n :: 0 <= n < |ops| ==> r[n] == OperandStatus(w, ops, n, pflag)
  {
    seq(|ops|, n requires 0 <= n < |ops| => OperandStatus(w, ops, n, pflag))
  }

  lemma AnyOneSplit(a: seq<int>, b: seq<int>)
    requires |b| == |a| + 1 && forall n :: 0 <= n < |a| ==> a[n] == b[n]
    ensures (exists n :: 0 <= n < |b| && b[n] == 1) <==> (exists n :: 0 <= n < |a| && a[n] == 1) || b[|a|] == 1
  {
    if exists n :: 0 <= n < |b| && b[n] == 1 {
      var n :| 0 <= n < |b| && b[n] == 1;
      if n < |a| {
        assert a[n] == 1;
      }
    }
  }

  /** The exit status is 1 exactly when some operand's rmdir, or its rm_path, failed. */
  lemma {:induction false} RmdirAllStatus(w: World, ops: seq<string>, pflag: bool)
    ensures RmdirAllF(w, ops, pflag).1 == 1 <==> exists n :: 0 <= n < |ops| && OperandStatus(w, ops, n, pflag) == 1
    decreases |ops|
  {
    if ops != [] {
      var m := |ops| - 1;
      var init := ops[..m];
      RmdirAllStatus(w, init, pflag);
      RmdirAllNext(w, ops, m, pflag);
      var a, b := OperandStatuses(w, init, pflag), OperandStatuses(w, ops, pflag);
      forall n | 0 <= n < m
        ensures a[n] == b[n]
      {
        assert init[..n] == ops[..n];
      }
      AnyOneSplit(a, b);
      assert ops[..m] == init;
    }
  }

  /** rm_path only runs after the operand's own rmdir succeeded: a failure there leaves the image as it was. */
  lemma OperandFailureStops(w: World, op: string, pflag: bool)
    requires RmdirF(w.In(Image), op).Fail?
    ensures OperandF(w, op, pflag) == (w.(errno := RmdirF(w.In(Image), op).err), 1)
  {
  }
}

=== FILE: str2arg.dfy ===
// The command-line splitter of lib/fsu_str2arg.c: fsu_str2arg rewrites a
// string in place into NUL-separated arguments, honouring backslash escapes
// and single or double quotes; fsu_str2argc counts the arguments the same
// rules give, without the escapes.
//
// A C string is a seq<char> without NUL; its terminator follows it. The
// loop's state is what it has written through the output cursor p (so p is
// |out|), the quote that is open (inquote with its delim), and where the
// arguments start (argv, as offsets from the start of the buffer). The
// specification consumes the input from the input cursor lp on: rest is the
// string from lp.

module Str2Arg {
  import opened Posix

  datatype St = St(out: seq<char>, quote: Option<char>, argv: seq<nat>)

  predicate IsQuote(c: char) { c == '"' || c == '\'' }

  /** The length of the run of white space that starts rest (the inner while loop stops at its last character). */
  function SpaceRun(rest: string): (r: nat)
    ensures r <= |rest|
  {
    if |rest| > 0 && IsSpace(rest[0]) then 1 + SpaceRun(rest[1..]) else 0
  }

  /** The run is white space throughout and stops at the first character that is not. */
  lemma {:induction false} SpaceRunFacts(rest: string)
    ensures forall k :: 0 <= k < SpaceRun(rest) ==> IsSpace(rest[k])
    ensures SpaceRun(rest) < |rest| ==> !IsSpace(rest[SpaceRun(rest)])
    decreases |rest|
  {
    if |rest| > 0 && IsSpace(rest[0]) {
      SpaceRunFacts(rest[1..]);
      forall k | 1 <= k < SpaceRun(rest)
        ensures IsSpace(rest[k])
      {
        assert rest[k] == rest[1..][k - 1];
      }
    }
  }

  /**
   * One pass of the loop, at the first character of rest: the input left and
   * the new state. A backslash copies the next character; a backslash with
   * nothing after it is dropped and ends the scan (EscapeAsWritten models
   * what the code does instead). The open quote's own character closes it;
   * either quote character opens a quote (switching the delimiter inside
   * another); unquoted white space writes a NUL and skips the rest of its run,
   * and an argument starts after the run unless the string ends there.
   * Anything else is copied.
   */
  function Step(rest: string, st: St): (r: (string, St))
    requires |rest| > 0
    ensures |r.0| < |rest|
  {
    var c := rest[0];
    if c == '\\' then
      if |rest| > 1 then (rest[2..], Wrote(st, [rest[1]]))
      else (rest[1..], st)
    else if st.quote == Some(c) then (rest[1..], st.(quote := None))
    else if IsQuote(c) then (rest[1..], st.(quote := Some(c)))
    else if IsSpace(c) && st.quote.None? then
      var n := SpaceRun(rest);
      (rest[n..], Ended(st, rest[n..]))
    else (rest[1..], Wrote(st, [c]))
  }

  /** The state once t has been copied through p. */
  function Wrote(st: St, t: string): St {
    st.(out := st.out + t)
  }

  /** The state after a run of white space outside quotes with more after it: a NUL, and an argument starts unless nothing is left. */
  function Ended(st: St, more: string): St {
    st.(out := st.out + ['\0'], argv := if |more| > 0 then st.argv + [|st.out| + 1] else st.argv)
  }

  /** The loop from rest and st: it runs while input is left and fewer than vsize arguments have started. */
  function Scan(rest: string, st: St, vsize: int): (string, St)
    decreases |rest|
  {
    if |rest| > 0 && |st.argv| < vsize then
      var (rest', st') := Step(rest, st);
      Scan(rest', st', vsize)
    else (rest, st)
  }

  /** argc = 1, argv[0] = str, nothing written, no quote open. */
  const Start: St := St([], None, [0])

  /** The loop's outcome for the string s and the bound vsize: the input it left unread and its state. */
  function Split(s: string, vsize: int): (string, St) {
    Scan(s, Start, vsize)
  }

  /** The buffer after the call: what was written, then the NUL stored at p. */
  function Buffer(st: St): string {
    st.out + ['\0']
  }

  /** The C string at index i of buf. */
  function CStr(buf: string, i: nat): string
    decreases |buf| - i
  {
    if i >= |buf| || buf[i] == '\0' then [] else [buf[i]] + CStr(buf, i + 1)
  }

  /** The strings argv[0], ..., argv[argc - 1] point to. */
  function Arguments(st: St): seq<string> {
    seq(|st.argv|, k requires 0 <= k < |st.argv| => CStr(Buffer(st), st.argv[k]))
  }

  // ---------------------------------------------------------------------
  // The shape of every state the loop reaches

  /**
   * For a string of length n with rest left: p is at most lp (the output
   * never overtakes the input), argv[0] is the start of the buffer, and every
   * later argument starts, in increasing order, just after a NUL that was
   * written.
   */
  predicate Shaped(n: nat, rest: string, st: St) {
    && |st.out| + |rest| <= n
    && |st.argv| >= 1 && st.argv[0] == 0
    && (forall k :: 0 <= k < |st.argv| ==> st.argv[k] <= |st.out|)
    && (forall k :: 1 <= k < |st.argv| ==> st.argv[k - 1] < st.argv[k] && st.out[st.argv[k] - 1] == '\0')
  }

  /** A step consumes a suffix of the input, writes at most as much as it consumed, and only appends to the output. */
  lemma StepFacts(rest: string, st: St)
    requires |rest| > 0
    ensures var (rest', st') := Step(rest, st);
      && rest' == rest[|rest| - |rest'|..]
      && |st'.out| - |st.out| <= |rest| - |rest'|
      && |st.out| <= |st'.out| && st'.out[..|st.out|] == st.out
  {
  }

  /** Copying some of the input keeps the shape. */
  lemma WroteShaped(n: nat, rest: string, rest': string, st: St, t: string)
    requires Shaped(n, rest, st) && |t| + |rest'| <= |rest|
    ensures Shaped(n, rest', Wrote(st, t))
  {
    var r := Wrote(st, t);
    assert forall k :: 0 <= k < |st.out| ==> r.out[k] == st.out[k];
  }

  /** Ending an argument at a run of white space keeps the shape. */
  lemma EndedShaped(n: nat, rest: string, rest': string, st: St)
    requires Shaped(n, rest, st) && |rest'| < |rest|
    ensures Shaped(n, rest', Ended(st, rest'))
  {
    var r := Ended(st, rest');
    assert forall k :: 0 <= k < |st.out| ==> r.out[k] == st.out[k];
  }

  /** Every step keeps the shape and starts at most one argument. */
  lemma StepShaped(n: nat, rest: string, st: St)
    requires Shaped(n, rest, st) && |rest| > 0
    ensures Shaped(n, Step(rest, st).0, Step(rest, st).1)
    ensures |Step(rest, st).1.argv| <= |st.argv| + 1
  {
    var c := rest[0];
    if c == '\\' {
      if |rest| > 1 {
        WroteShaped(n, rest, rest[2..], st, [rest[1]]);
      }
    } else if st.quote == Some(c) || IsQuote(c) {
    } else if IsSpace(c) && st.quote.None? {
      var m := SpaceRun(rest);
      EndedShaped(n, rest, rest[m..], st);
    } else {
      WroteShaped(n, rest, rest[1..], st, [c]);
    }
  }

  lemma {:induction false} ScanShaped(n: nat, rest: string, st: St, vsize: int)
    requires Shaped(n, rest, st)
    ensures var (rest', r) := Scan(rest, st, vsize);
      && Shaped(n, rest', r)
      && |r.argv| <= (if |st.argv| < vsize then vsize else |st.argv|)
      && (|rest'| > 0 ==> |r.argv| >= vsize)
    decreases |rest|
  {
    if |rest| > 0 && |st.argv| < vsize {
      StepShaped(n, rest, st);
      ScanShaped(n, Step(rest, st).0, Step(rest, st).1, vsize);
    }
  }

  /**
   * After the loop: p has not overtaken lp, argc is at least 1 and at most
   * vsize (when vsize is at least 1), argv[0] is the buffer's start, later
   * arguments follow NUL separators in increasing order, and the loop stopped
   * short of the terminator only because argc reached vsize.
   */
  lemma SplitShape(s: string, vsize: int)
    ensures var (rest, r) := Split(s, vsize);
      && Shaped(|s|, rest, r)
      && 1 <= |r.argv| <= (if vsize < 1 then 1 else vsize)
      && (|rest| > 0 ==> |r.argv| == (if vsize < 1 then 1 else vsize))
  {
    ScanShaped(|s|, s, Start, vsize);
  }

  // ---------------------------------------------------------------------
  // What the arguments are, for lines built from words, quotes and escapes

  /** A piece of an argument: an ordinary character, a quoted run, or an escaped character. */
  datatype Piece = Plain(c: char) | Quoted(q: char, w: string) | Escaped(e: char)

  predicate PieceOk(pc: Piece) {
    match pc
    case Plain(c) => c != '\0' && c != '\\' && !IsQuote(c) && !IsSpace(c)
    case Quoted(q, w) => IsQuote(q) && forall k :: 0 <= k < |w| ==> w[k] != '\0' && w[k] != '\\' && !IsQuote(w[k])
    case Escaped(e) => e != '\0'
  }

  /** How the piece is written on the line. */
  function PieceSrc(pc: Piece): string {
    match pc
    case Plain(c) => [c]
    case Quoted(q, w) => [q] + w + [q]
    case Escaped(e) => ['\\', e]
  }

  /** What the piece means in its argument. */
  function PieceText(pc: Piece): string {
    match pc
    case Plain(c) => [c]
    case Quoted(_, w) => w
    case Escaped(e) => [e]
  }

  function ArgSrc(a: seq<Piece>): string {
    if |a| == 0 then [] else PieceSrc(a[0]) + ArgSrc(a[1..])
  }

  function ArgText(a: seq<Piece>): string {
    if |a| == 0 then [] else PieceText(a[0]) + ArgText(a[1..])
  }

  predicate PiecesOk(a: seq<Piece>) {
    forall k :: 0 <= k < |a| ==> PieceOk(a[k])
  }

  predicate Spaces(g: string) {
    forall k :: 0 <= k < |g| ==> IsSpace(g[k])
  }

  // ---------------------------------------------------------------------
  // The scan over each part of such a line

  /** Inside an open quote, characters other than quotes and backslashes are copied, white space included. */
  lemma {:induction false} ScanQuotedRun(w: string, more: string, st: St, q: char, vsize: int)
    requires IsQuote(q) && st.quote == Some(q) && |st.argv| < vsize
    requires forall k :: 0 <= k < |w| ==> w[k] != '\\' && !IsQuote(w[k])
    ensures Scan(w + more, st, vsize) == Scan(more, Wrote(st, w), vsize)
    decreases |w|
  {
    if |w| == 0 {
      assert w + more == more && st.out + w == st.out;
    } else {
      var st' := st.(out := st.out + [w[0]]);
      assert (w + more)[0] == w[0] && (w + more)[1..] == w[1..] + more;
      assert Step(w + more, st) == (w[1..] + more, st');
      ScanQuotedRun(w[1..], more, st', q, vsize);
      assert st'.out + w[1..] == st.out + w;
    }
  }

  /** A piece is consumed from the input and its text written. */
  lemma ScanPiece(pc: Piece, more: string, st: St, vsize: int)
    requires PieceOk(pc) && st.quote.None? && |st.argv| < vsize
    ensures Scan(PieceSrc(pc) + more, st, vsize) == Scan(more, Wrote(st, PieceText(pc)), vsize)
  {
    match pc
    case Plain(c) =>
      assert Step(PieceSrc(pc) + more, st) == (more, st.(out := st.out + [c]));
    case Escaped(e) =>
      assert Step(PieceSrc(pc) + more, st) == (more, st.(out := st.out + [e]));
    case Quoted(q, w) =>
      var st1 := st.(quote := Some(q));
      assert PieceSrc(pc) + more == [q] + (w + ([q] + more));
      assert Step(PieceSrc(pc) + more, st) == (w + ([q] + more), st1);
      ScanQuotedRun(w, [q] + more, st1, q, vsize);
      var st2 := st1.(out := st.out + w);
      assert Step([q] + more, st2) == (more, st.(out := st.out + w));
  }

  /** Splitting the first piece off an argument, on the line and in the text. */
  lemma ArgCons(a: seq<Piece>, more: string, out: string)
    requires |a| > 0
    ensures ArgSrc(a) + more == PieceSrc(a[0]) + (ArgSrc(a[1..]) + more)
    ensures out + PieceText(a[0]) + ArgText(a[1..]) == out + ArgText(a)
  {
  }

  /** An argument is consumed from the input and its text written. */
  lemma {:induction false} ScanArg(a: seq<Piece>, more: string, st: St, vsize: int)
    requires PiecesOk(a) && st.quote.None? && |st.argv| < vsize
    ensures Scan(ArgSrc(a) + more, st, vsize) == Scan(more, Wrote(st, ArgText(a)), vsize)
    decreases |a|
  {
    if |a| == 0 {
      assert ArgSrc(a) + more == more && st.out + ArgText(a) == st.out;
    } else {
      ArgCons(a, more, st.out);
      assert PieceOk(a[0]) && PiecesOk(a[1..]);
      ScanPiece(a[0], ArgSrc(a[1..]) + more, st, vsize);
      ScanArg(a[1..], more, Wrote(st, PieceText(a[0])), vsize);
    }
  }

  lemma {:induction false} SpaceRunIs(g: string, more: string)
    requires Spaces(g) && (|more| > 0 ==> !IsSpace(more[0]))
    ensures SpaceRun(g + more) == |g|
    decreases |g|
  {
    if |g| > 0 {
      assert (g + more)[1..] == g[1..] + more;
      SpaceRunIs(g[1..], more);
    } else {
      assert g + more == more;
    }
  }

  /**
   * A run of white space outside quotes writes one NUL, and an argument
   * starts after it unless the string ends there.
   */
  lemma ScanGap(g: string, more: string, st: St, vsize: int)
    requires |g| >= 1 && Spaces(g) && (|more| > 0 ==> !IsSpace(more[0]))
    requires st.quote.None? && |st.argv| < vsize
    ensures Scan(g + more, st, vsize) == Scan(more, Ended(st, more), vsize)
  {
    SpaceRunIs(g, more);
    assert (g + more)[0] == g[0];
    assert (g + more)[|g|..] == more;
  }

  // ---------------------------------------------------------------------
  // Whole lines

  /** An argument as written: at least one piece, each well formed. */
  predicate ArgOk(a: seq<Piece>) {
    |a| >= 1 && PiecesOk(a)
  }

  /** The arguments written one after another, separated by the runs of white space in gaps. */
  function Body(args: seq<seq<Piece>>, gaps: seq<string>): string
    requires |args| >= 1 && |gaps| == |args| - 1
  {
    if |args| == 1 then ArgSrc(args[0]) else ArgSrc(args[0]) + (gaps[0] + Body(args[1..], gaps[1..]))
  }

  predicate GapsOk(gaps: seq<string>) {
    forall k :: 0 <= k < |gaps| ==> |gaps[k]| >= 1 && Spaces(gaps[k])
  }

  predicate ArgsOk(args: seq<seq<Piece>>) {
    forall k :: 0 <= k < |args| ==> ArgOk(args[k])
  }

  /** The text of each argument. */
  function Texts(args: seq<seq<Piece>>): (r: seq<string>)
    ensures |r| == |args| && forall k :: 0 <= k < |args| ==> r[k] == ArgText(args[k])
  {
    if |args| == 0 then [] else [ArgText(args[0])] + Texts(args[1..])
  }

  /** The texts, each followed by a NUL but the last. */
  function JoinNul(ts: seq<string>): string
    requires |ts| >= 1
  {
    if |ts| == 1 then ts[0] else ts[0] + ['\0'] + JoinNul(ts[1..])
  }

  /** Where each text starts in JoinNul(ts) placed at base. */
  function Starts(ts: seq<string>, base: nat): (r: seq<nat>)
    ensures |r| == |ts|
  {
    if |ts| == 0 then [] else [base] + Starts(ts[1..], base + |ts[0]| + 1)
  }

  /** An argument's line starts with neither white space nor a NUL. */
  lemma ArgSrcFirst(a: seq<Piece>, more: string)
    requires ArgOk(a)
    ensures |ArgSrc(a) + more| > 0
    ensures !IsSpace((ArgSrc(a) + more)[0]) && (ArgSrc(a) + more)[0] != '\0'
  {
    assert PieceOk(a[0]);
    assert (ArgSrc(a) + more)[0] == PieceSrc(a[0])[0];
  }

  lemma BodyCons(args: seq<seq<Piece>>, gaps: seq<string>, trail: string)
    requires |args| >= 2 && |gaps| == |args| - 1
    ensures Body(args, gaps) + trail == ArgSrc(args[0]) + (gaps[0] + (Body(args[1..], gaps[1..]) + trail))
  {
  }

  /** An argument and the gap after it: the text, a NUL, and the next argument's start. */
  lemma ScanHead(a: seq<Piece>, g: string, more: string, st: St, vsize: int)
    requires ArgOk(a) && |g| >= 1 && Spaces(g) && |more| > 0 && !IsSpace(more[0])
    requires st.quote.None? && |st.argv| < vsize
    ensures Scan(ArgSrc(a) + (g + more), st, vsize) == Scan(more, Ended(Wrote(st, ArgText(a)), more), vsize)
  {
    ScanArg(a, g + more, st, vsize);
    ScanGap(g, more, Wrote(st, ArgText(a)), vsize);
  }

  /** Copying t and then a run of white space with more after it. */
  lemma EndedAfter(st: St, t: string, more: string)
    requires st.quote.None? && |more| > 0
    ensures Ended(Wrote(st, t), more) == St(st.out + t + ['\0'], None, st.argv + [|st.out| + |t| + 1])
  {
  }

  /** A body starts with an argument, so with neither white space nor a NUL. */
  lemma BodyFirst(args: seq<seq<Piece>>, gaps: seq<string>, trail: string)
    requires |args| >= 1 && |gaps| == |args| - 1 && ArgsOk(args)
    ensures |Body(args, gaps) + trail| > 0
    ensures !IsSpace((Body(args, gaps) + trail)[0]) && (Body(args, gaps) + trail)[0] != '\0'
  {
    assert ArgOk(args[0]);
    if |args| == 1 {
      ArgSrcFirst(args[0], trail);
    } else {
      BodyCons(args, gaps, trail);
      ArgSrcFirst(args[0], gaps[0] + (Body(args[1..], gaps[1..]) + trail));
    }
  }

  /** How the output and the argument starts of a body are put together from its first argument and the rest. */
  lemma JoinCons(ts: seq<string>, out: string, tail: string, argv: seq<nat>)
    requires |ts| >= 2
    ensures out + ts[0] + ['\0'] + JoinNul(ts[1..]) + tail == out + JoinNul(ts) + tail
    ensures argv + [|out| + |ts[0]| + 1] + Starts(ts[1..], |out| + |ts[0]| + 1)[1..] == argv + Starts(ts, |out|)[1..]
  {
    JoinConsText(ts, out, tail);
    JoinConsStarts(ts, |out|, argv);
  }

  lemma JoinConsText(ts: seq<string>, out: string, tail: string)
    requires |ts| >= 2
    ensures out + ts[0] + ['\0'] + JoinNul(ts[1..]) + tail == out + JoinNul(ts) + tail
  {
    var j := JoinNul(ts[1..]);
    assert JoinNul(ts) == ts[0] + ['\0'] + j;
    assert out + ts[0] + ['\0'] + j == out + (ts[0] + ['\0'] + j);
  }

  lemma JoinConsStarts(ts: seq<string>, base: nat, argv: seq<nat>)
    requires |ts| >= 2
    ensures argv + [base + |ts[0]| + 1] + Starts(ts[1..], base + |ts[0]| + 1)[1..] == argv + Starts(ts, base)[1..]
  {
    var b := base + |ts[0]| + 1;
    var r := Starts(ts[1..], b);
    assert Starts(ts, base) == [base] + r;
    assert Starts(ts, base)[1..] == r;
    assert r == [b] + Starts(ts[1..][1..], b + |ts[1]| + 1);
    assert r == [b] + r[1..];
  }

  /** The first argument of a body of several and the gap after it. */
  lemma ScanBodyStep(args: seq<seq<Piece>>, gaps: seq<string>, trail: string, st: St, vsize: int)
    requires |args| >= 2 && |gaps| == |args| - 1 && ArgsOk(args) && GapsOk(gaps)
    requires st.quote.None? && |st.argv| < vsize
    ensures Scan(Body(args, gaps) + trail, st, vsize) ==
      Scan(Body(args[1..], gaps[1..]) + trail, St(st.out + ArgText(args[0]) + ['\0'], None, st.argv + [|st.out| + |ArgText(args[0])| + 1]), vsize)
  {
    BodyCons(args, gaps, trail);
    assert ArgOk(args[0]) && ArgsOk(args[1..]) && |gaps[0]| >= 1 && Spaces(gaps[0]);
    var more := Body(args[1..], gaps[1..]) + trail;
    BodyFirst(args[1..], gaps[1..], trail);
    ScanHead(args[0], gaps[0], more, st, vsize);
    EndedAfter(st, ArgText(args[0]), more);
  }

  /** The last argument, and the white space after it if there is any. */
  lemma ScanLast(a: seq<Piece>, trail: string, st: St, vsize: int)
    requires ArgOk(a) && Spaces(trail) && st.quote.None? && |st.argv| < vsize
    ensures Scan(ArgSrc(a) + trail, st, vsize) ==
      ([], St(st.out + ArgText(a) + (if |trail| > 0 then ['\0'] else []), None, st.argv))
  {
    var t := ArgText(a);
    ScanArg(a, trail, st, vsize);
    if |trail| > 0 {
      assert trail + [] == trail;
      ScanGap(trail, [], Wrote(st, t), vsize);
      assert Ended(Wrote(st, t), []) == St(st.out + t + ['\0'], None, st.argv);
    } else {
      assert Wrote(st, t) == St(st.out + t + [], None, st.argv);
    }
  }

  /**
   * The state after a body whose arguments have the texts ts, from st with
   * no quote open: each text is copied and followed by a NUL and the start
   * of the next argument, and the last by tail.
   */
  function Laid(st: St, ts: seq<string>, tail: string): St
    requires |ts| >= 1
    decreases |ts|
  {
    if |ts| == 1 then St(st.out + ts[0] + tail, None, st.argv)
    else Laid(St(st.out + ts[0] + ['\0'], None, st.argv + [|st.out| + |ts[0]| + 1]), ts[1..], tail)
  }

  /** The texts laid out one after another with NUL separators, and where each after the first starts. */
  lemma {:induction false} LaidIs(st: St, ts: seq<string>, tail: string)
    requires |ts| >= 1
    ensures Laid(st, ts, tail) == St(st.out + JoinNul(ts) + tail, None, st.argv + Starts(ts, |st.out|)[1..])
    decreases |ts|
  {
    if |ts| == 1 {
      assert st.argv + Starts(ts, |st.out|)[1..] == st.argv;
    } else {
      var st2 := St(st.out + ts[0] + ['\0'], None, st.argv + [|st.out| + |ts[0]| + 1]);
      LaidIs(st2, ts[1..], tail);
      JoinCons(ts, st.out, tail, st.argv);
    }
  }

  /** A body of one argument. */
  lemma ScanBodyOne(args: seq<seq<Piece>>, gaps: seq<string>, trail: string, st: St, vsize: int)
    requires |args| == 1 && |gaps| == 0 && ArgsOk(args) && Spaces(trail)
    requires st.quote.None? && |st.argv| < vsize
    ensures Scan(Body(args, gaps) + trail, st, vsize) == ([], Laid(st, Texts(args), if |trail| > 0 then ['\0'] else []))
  {
    assert ArgOk(args[0]);
    ScanLast(args[0], trail, st, vsize);
  }

  /**
   * The arguments of a body are copied with a NUL between each two, and an
   * argument starts after each gap; trailing white space writes one more NUL
   * and starts nothing.
   */
  lemma {:induction false} ScanBody(args: seq<seq<Piece>>, gaps: seq<string>, trail: string, st: St, vsize: int)
    requires |args| >= 1 && |gaps| == |args| - 1 && ArgsOk(args) && GapsOk(gaps) && Spaces(trail)
    requires st.quote.None? && |st.argv| + |args| - 1 < vsize
    ensures Scan(Body(args, gaps) + trail, st, vsize) == ([], Laid(st, Texts(args), if |trail| > 0 then ['\0'] else []))
    decreases |args|
  {
    if |args| == 1 {
      ScanBodyOne(args, gaps, trail, st, vsize);
    } else {
      var t0 := ArgText(args[0]);
      ScanBodyStep(args, gaps, trail, st, vsize);
      var st2 := St(st.out + t0 + ['\0'], None, st.argv + [|st.out| + |t0| + 1]);
      assert GapsOk(gaps[1..]) && ArgsOk(args[1..]);
      ScanBody(args[1..], gaps[1..], trail, st2, vsize);
      assert Texts(args)[1..] == Texts(args[1..]);
    }
  }

  // ---------------------------------------------------------------------
  // Reading the arguments back

  /** The text of a well-formed argument holds no NUL. */
  lemma {:induction false} ArgTextNoNul(a: seq<Piece>)
    requires PiecesOk(a)
    ensures '\0' !in ArgText(a)
    decreases |a|
  {
    if |a| > 0 {
      assert PieceOk(a[0]) && PiecesOk(a[1..]);
      ArgTextNoNul(a[1..]);
      assert '\0' !in PieceText(a[0]);
    }
  }

  /** A string without NUL followed by a NUL reads back as itself. */
  lemma {:induction false} CStrAt(pre: string, t: string, post: string)
    requires '\0' !in t
    ensures CStr(pre + t + ['\0'] + post, |pre|) == t
    decreases |t|
  {
    var buf := pre + t + ['\0'] + post;
    if |t| == 0 {
      assert buf[|pre|] == '\0';
    } else {
      assert buf[|pre|] == t[0];
      assert buf == (pre + [t[0]]) + t[1..] + ['\0'] + post;
      CStrAt(pre + [t[0]], t[1..], post);
    }
  }

  /** Each text laid out by JoinNul reads back from where Starts says it starts. */
  lemma {:induction false} CStrJoin(pre: string, ts: seq<string>, post: string, k: nat)
    requires |ts| >= 1 && k < |ts| && forall j :: 0 <= j < |ts| ==> '\0' !in ts[j]
    ensures CStr(pre + JoinNul(ts) + ['\0'] + post, Starts(ts, |pre|)[k]) == ts[k]
    decreases k
  {
    if |ts| == 1 {
      CStrAt(pre, ts[0], post);
    } else if k == 0 {
      assert pre + JoinNul(ts) + ['\0'] + post == pre + ts[0] + ['\0'] + (JoinNul(ts[1..]) + ['\0'] + post);
      CStrAt(pre, ts[0], JoinNul(ts[1..]) + ['\0'] + post);
    } else {
      var pre' := pre + ts[0] + ['\0'];
      assert pre + JoinNul(ts) + ['\0'] + post == pre' + JoinNul(ts[1..]) + ['\0'] + post;
      CStrJoin(pre', ts[1..], post, k - 1);
    }
  }

  /** The texts of well-formed arguments hold no NUL. */
  lemma TextsNoNul(args: seq<seq<Piece>>)
    requires ArgsOk(args)
    ensures forall j :: 0 <= j < |Texts(args)| ==> '\0' !in Texts(args)[j]
  {
    forall j | 0 <= j < |args|
      ensures '\0' !in Texts(args)[j]
    {
      assert ArgOk(args[j]);
      ArgTextNoNul(args[j]);
    }
  }

  /**
   * The last argument of st starts at p, and each earlier one is empty: it
   * starts at a NUL already written.
   */
  predicate Open(st: St) {
    && |st.argv| >= 1 && st.argv[|st.argv| - 1] == |st.out|
    && forall j :: 0 <= j < |st.argv| - 1 ==> st.argv[j] < |st.out| && st.out[st.argv[j]] == '\0'
  }

  /** The arguments of a state laid out from st0: those st0 had, then the texts. */
  lemma LaidArguments(st0: St, ts: seq<string>, tail: string)
    requires |ts| >= 1 && (tail == [] || tail == ['\0'])
    requires forall j :: 0 <= j < |ts| ==> '\0' !in ts[j]
    requires Open(st0)
    ensures Arguments(Laid(st0, ts, tail)) == Arguments(st0)[..|st0.argv| - 1] + ts
  {
    LaidIs(st0, ts, tail);
    var st := Laid(st0, ts, tail);
    var buf := st0.out + JoinNul(ts) + ['\0'] + tail;
    assert Buffer(st) == buf;
    var m := |st0.argv| - 1;
    assert st.argv == st0.argv[..m] + Starts(ts, |st0.out|);
    forall j | 0 <= j < |st.argv|
      ensures Arguments(st)[j] == (Arguments(st0)[..m] + ts)[j]
    {
      if j < m {
        assert buf[st0.argv[j]] == '\0';
        assert Arguments(st0)[j] == "";
      } else {
        CStrJoin(st0.out, ts, tail, j - m);
      }
    }
  }

  /** The state once the white space lead at the head of a line has been read. */
  function Opened(lead: string): St {
    if |lead| > 0 then St(['\0'], None, [0, 1]) else Start
  }

  /** The white space at the head of the line, if any, ends an empty first argument. */
  lemma SplitLead(lead: string, more: string, vsize: int)
    requires Spaces(lead) && |more| > 0 && !IsSpace(more[0]) && 1 < vsize
    ensures Split(lead + more, vsize) == Scan(more, Opened(lead), vsize)
  {
    if |lead| == 0 {
      assert lead + more == more;
    } else {
      ScanGap(lead, more, Start, vsize);
      assert Ended(Start, more) == St(['\0'], None, [0, 1]);
    }
  }

  /** The loop reads such a line to the end. */
  lemma SplitScan(lead: string, args: seq<seq<Piece>>, gaps: seq<string>, trail: string, vsize: int)
    requires Spaces(lead) && |args| >= 1 && |gaps| == |args| - 1 && ArgsOk(args) && GapsOk(gaps) && Spaces(trail)
    requires |args| + (if |lead| > 0 then 1 else 0) < vsize
    ensures Split(lead + Body(args, gaps) + trail, vsize) ==
      ([], Laid(Opened(lead), Texts(args), if |trail| > 0 then ['\0'] else []))
  {
    var more := Body(args, gaps) + trail;
    assert lead + Body(args, gaps) + trail == lead + more;
    BodyFirst(args, gaps, trail);
    SplitLead(lead, more, vsize);
    ScanBody(args, gaps, trail, Opened(lead), vsize);
  }

  /** After white space at the head of the line, the first argument is empty. */
  lemma OpenedEmpty()
    ensures Arguments(St(['\0'], None, [0, 1]))[..1] == [""]
  {
    assert CStr(Buffer(St(['\0'], None, [0, 1])), 0) == "";
  }

  /** What the arguments are once the line is read. */
  lemma OpenedArguments(lead: string, args: seq<seq<Piece>>, tail: string)
    requires |args| >= 1 && ArgsOk(args) && (tail == [] || tail == ['\0'])
    ensures Arguments(Laid(Opened(lead), Texts(args), tail)) == (if |lead| > 0 then [""] else []) + Texts(args)
  {
    TextsNoNul(args);
    var st0 := Opened(lead);
    assert Open(st0);
    LaidArguments(st0, Texts(args), tail);
    if |lead| > 0 {
      OpenedEmpty();
    }
  }

  /**
   * A line made of white space lead, the arguments args separated by the
   * runs of white space gaps, and white space trail, with room for all of its
   * arguments (argc < vsize throughout), is read to the end, and argv holds
   * the text of each argument: backslashes removed before the character they
   * escape, quotes removed around the text they enclose. White space at the
   * head of the line makes an empty first argument, as the code stores
   * argv[0] before skipping anything.
   */
  lemma SplitLine(lead: string, args: seq<seq<Piece>>, gaps: seq<string>, trail: string, vsize: int)
    requires Spaces(lead) && |args| >= 1 && |gaps| == |args| - 1 && ArgsOk(args) && GapsOk(gaps) && Spaces(trail)
    requires |args| + (if |lead| > 0 then 1 else 0) < vsize
    ensures Split(lead + Body(args, gaps) + trail, vsize).0 == []
    ensures Arguments(Split(lead + Body(args, gaps) + trail, vsize).1) == (if |lead| > 0 then [""] else []) + Texts(args)
  {
    SplitScan(lead, args, gaps, trail, vsize);
    OpenedArguments(lead, args, if |trail| > 0 then ['\0'] else []);
  }

  // ---------------------------------------------------------------------
  // The escape branch as written

  /**
   * The escape branch as the code has it, over the memory mem the cursor lp
   * walks: it copies the character after the backslash whatever it is, and the
   * loop's ++lp makes the next test read the character after that.
   */
  function EscapeAsWritten(mem: seq<char>, lp: nat): (nat, char)
    requires lp + 1 < |mem| && mem[lp] == '\\'
  {
    (lp + 2, mem[lp + 1])
  }

  /**
   * A line ending in a backslash, as written: the escape copies the terminator
   * and the next test of the loop reads the memory beyond it.
   */
  lemma TrailingBackslashOverruns(s: string, beyond: seq<char>)
    requires |s| > 0 && s[|s| - 1] == '\\' && |beyond| > 0
    ensures var (next, copied) := EscapeAsWritten(s + ['\0'] + beyond, |s| - 1);
      copied == '\0' && next == |s| + 1 && (s + ['\0'] + beyond)[next] == beyond[0]
  {
  }

  /** With the correction a trailing backslash is dropped and the scan ends at the terminator, its state unchanged. */
  lemma TrailingBackslashDropped(s: string, st: St, vsize: int)
    requires |s| > 0 && s[|s| - 1] == '\\' && |st.argv| < vsize
    ensures Scan(s[|s| - 1..], st, vsize) == ([], st)
  {
    var (r, st') := Step(s[|s| - 1..], st);
    assert r == [] && st' == st;
  }

  // fsu_str2arg on the buffer

  /** The value stored for a NULL pointer in argv. */
  const NULL: int := -1

  /**
   * The loop's invariant. The buffer held orig when the call began, and s,
   * its string, ends at the first NUL. What is written so far is st.out,
   * below p; from p on the buffer is as it was, so the input from lp on is
   * unread; argv holds the argument starts; inquote and delim are the open
   * quote.
   */
  predicate Holds(buf: array<char>, argv: array<int>, orig: seq<char>, s: string,
                  lp: int, p: int, argc: int, inquote: bool, delim: char, st: St)
    reads buf, argv
  {
    && buf.Length == |orig| && |s| < |orig| && orig[..|s|] == s && orig[|s|] == '\0' && '\0' !in s
    && 0 <= p <= lp <= |s|
    && buf[..p] == st.out && buf[p..] == orig[p..]
    && argc == |st.argv| && argc < argv.Length && argv[..argc] == st.argv
    && st.quote == (if inquote then Some(delim) else None)
  }

  /** What is unread in the buffer is the rest of the string. */
  lemma HoldsRest(buf: array<char>, argv: array<int>, orig: seq<char>, s: string,
                  lp: int, p: int, argc: int, inquote: bool, delim: char, st: St)
    requires Holds(buf, argv, orig, s, lp, p, argc, inquote, delim, st)
    ensures buf[lp..|s|] == s[lp..] && buf[|s|] == '\0'
    ensures forall k :: lp <= k < |s| ==> buf[k] == s[k]
  {
    assert buf[lp..|s|] == orig[p..][lp - p..|s| - p];
    assert buf[|s|] == orig[p..][|s| - p];
  }

  /** Inside the inner loop: the run from lp0 is as long as the part read so far and the run from lp. */
  lemma SpaceRunFrom(s: string, lp0: int, lp: int)
    requires 0 <= lp0 <= lp < |s| && IsSpace(s[lp])
    ensures SpaceRun(s[lp..]) == 1 + SpaceRun(s[lp + 1..])
  {
    assert s[lp..][1..] == s[lp + 1..];
  }

  /**
   * The inner loop `while (isspace(lp[1])) ++lp`: from a white-space
   * character at lp, the index of the last character of its run. It reads
   * only past lp, where the buffer still holds the string.
   */
  method RunEnd(buf: array<char>, ghost s: string, lp: int) returns (last: int)
    requires 0 <= lp < |s| < buf.Length && IsSpace(s[lp]) && buf[|s|] == '\0'
    requires forall k :: lp < k < |s| ==> buf[k] == s[k]
    ensures last == lp + SpaceRun(s[lp..]) - 1 && lp <= last < |s|
  {
    last := lp;
    while IsSpace(buf[last + 1])
      invariant lp <= last < |s| && IsSpace(s[last])
      invariant SpaceRun(s[lp..]) == last - lp + SpaceRun(s[last..])
      decreases |s| - last
    {
      SpaceRunFrom(s, lp, last);
      last := last + 1;
    }
    SpaceRunFrom(s, lp, last);
    assert SpaceRun(s[last + 1..]) == 0;
  }

  /**
   * The white-space branch of the loop body: a NUL at p, the inner loop over
   * the rest of the run, and a new argument at p unless the string ends
   * after the run.
   */
  method PassSpace(buf: array<char>, argv: array<int>, ghost orig: seq<char>, ghost s: string,
                   lp: int, p: int, argc: int, inquote: bool, delim: char, ghost st: St)
    returns (lp': int, p': int, argc': int, ghost st': St)
    requires Holds(buf, argv, orig, s, lp, p, argc, inquote, delim, st) && lp < |s|
    requires IsSpace(s[lp]) && !inquote && argc + 1 < argv.Length
    modifies buf, argv
    ensures Holds(buf, argv, orig, s, lp', p', argc', inquote, delim, st')
    ensures lp' == lp + SpaceRun(s[lp..]) && st' == Ended(st, s[lp'..])
  {
    HoldsRest(buf, argv, orig, s, lp, p, argc, inquote, delim, st);
    ghost var rest := s[lp..];
    ghost var b0 := buf[..];
    buf[p] := '\0';
    assert buf[..p + 1] == b0[..p] + ['\0'];
    assert buf[p + 1..] == b0[p + 1..];
    p' := p + 1;
    lp' := RunEnd(buf, s, lp);
    assert rest[SpaceRun(rest)..] == s[lp' + 1..];
    argc' := argc;
    ghost var a0 := argv[..];
    if buf[lp' + 1] != '\0' {
      argv[argc] := p';
      assert argv[..argc + 1] == a0[..argc] + [p'];
      argc' := argc + 1;
    }
    lp' := lp' + 1;
    st' := Ended(st, s[lp'..]);
    assert |s[lp'..]| > 0 <==> argc' == argc + 1;
    assert buf.Length == |orig| && |s| < |orig| && orig[..|s|] == s && orig[|s|] == '\0' && '\0' !in s;
    assert 0 <= p' <= lp' <= |s|;
    assert buf[..p'] == st'.out;
    assert buf[p'..] == orig[p'..];
    assert argc' == |st'.argv| && argc' < argv.Length;
    assert argv[..argc'] == st'.argv;
    assert st'.quote == (if inquote then Some(delim) else None);
  }

  /**
   * One pass of the loop body at lp, in place: it does to the buffer, argv
   * and the quote what Step does to the state, and leaves lp where the loop
   * increment takes it.
   */
  method Pass(buf: array<char>, argv: array<int>, ghost orig: seq<char>, ghost s: string,
              lp: int, p: int, argc: int, inquote: bool, delim: char, ghost st: St)
    returns (lp': int, p': int, argc': int, inquote': bool, delim': char, ghost st': St)
    requires Holds(buf, argv, orig, s, lp, p, argc, inquote, delim, st) && lp < |s| && argc + 1 < argv.Length
    modifies buf, argv
    ensures Holds(buf, argv, orig, s, lp', p', argc', inquote', delim', st')
    ensures (s[lp'..], st') == Step(s[lp..], st)
  {
    HoldsRest(buf, argv, orig, s, lp, p, argc, inquote, delim, st);
    ghost var rest := s[lp..];
    assert rest[0] == buf[lp];
    lp', p', argc', inquote', delim' := lp, p, argc, inquote, delim;
    if buf[lp] == '\\' {
      if buf[lp + 1] != '\0' {
        assert rest[1] == buf[lp + 1] && rest[2..] == s[lp + 2..];
        buf[p] := buf[lp + 1];
        p', lp' := p + 1, lp + 2;
        st' := Wrote(st, [rest[1]]);
      } else {
        lp' := lp + 1;
        st' := st;
      }
    } else if inquote && buf[lp] == delim {
      inquote' := false;
      lp' := lp + 1;
      st' := st.(quote := None);
    } else if buf[lp] == '"' || buf[lp] == '\'' {
      delim' := buf[lp];
      inquote' := true;
      lp' := lp + 1;
      st' := st.(quote := Some(delim'));
    } else if IsSpace(buf[lp]) && !inquote {
      lp', p', argc', st' := PassSpace(buf, argv, orig, s, lp, p, argc, inquote, delim, st);
      assert rest[SpaceRun(rest)..] == s[lp'..];
    } else {
      buf[p] := buf[lp];
      p', lp' := p + 1, lp + 1;
      st' := Wrote(st, [rest[0]]);
    }
  }

  /**
   * fsu_str2arg: splits the NUL-terminated string in buf (its terminator at
   * n) into arguments in place, for an argv with room for vsize pointers and
   * the NULL after them. Returns argc; argv[0..argc-1] hold the offsets of
   * the arguments in buf and argv[argc] is NULL. The buffer is what the loop
   * wrote followed by a NUL, and is unchanged after that.
   */
  method StrToArg(buf: array<char>, ghost n: nat, argv: array<int>, vsize: int) returns (argc: int)
    requires n < buf.Length && buf[n] == '\0' && '\0' !in buf[..n]
    requires argv.Length > vsize && argv.Length > 1
    modifies buf, argv
    ensures var (_, st) := Split(old(buf[..n]), vsize);
      && argc == |st.argv| < argv.Length && argv[..argc] == st.argv && argv[argc] == NULL
      && |st.out| <= n && buf[..|st.out| + 1] == Buffer(st) && buf[|st.out| + 1..] == old(buf[|st.out| + 1..])
  {
    ghost var orig := buf[..];
    ghost var s := buf[..n];
    assert orig[..n] == s;
    var inquote := false;
    var delim := '\0';
    argc := 1;
    argv[0] := 0;
    var lp, p := 0, 0;
    ghost var st := Start;
    assert argv[..1] == [0];
    while buf[lp] != '\0' && argc < vsize
      invariant Holds(buf, argv, orig, s, lp, p, argc, inquote, delim, st)
      invariant Scan(s[lp..], st, vsize) == Split(s, vsize)
      decreases |s| - lp
    {
      HoldsRest(buf, argv, orig, s, lp, p, argc, inquote, delim, st);
      ghost var rest, st0 := s[lp..], st;
      lp, p, argc, inquote, delim, st := Pass(buf, argv, orig, s, lp, p, argc, inquote, delim, st);
      assert Scan(rest, st0, vsize) == Scan(s[lp..], st, vsize);
    }
    HoldsRest(buf, argv, orig, s, lp, p, argc, inquote, delim, st);
    assert lp < |s| ==> buf[lp] == s[lp] && s[lp] in s;
    assert Split(s, vsize) == (s[lp..], st);
    ghost var b0 := buf[..];
    assert b0[p + 1..] == orig[p..][1..] == orig[p + 1..];
    argv[argc] := NULL;
    buf[p] := '\0';
    assert buf[..p + 1] == b0[..p] + ['\0'];
    assert buf[p + 1..] == b0[p + 1..];
  }

  // ---------------------------------------------------------------------
  // fsu_str2argc

  /**
   * How many arguments fsu_str2argc sees start in rest with the quote open:
   * the same quote and white-space rules as fsu_str2arg, but a backslash is
   * an ordinary character.
   */
  function Counted(rest: string, quote: Option<char>): nat
    decreases |rest|
  {
    if |rest| == 0 then 0
    else
      var c := rest[0];
      if quote == Some(c) then Counted(rest[1..], None)
      else if IsQuote(c) then Counted(rest[1..], Some(c))
      else if IsSpace(c) && quote.None? then
        var m := SpaceRun(rest);
        (if m < |rest| then 1 else 0) + Counted(rest[m..], None)
      else Counted(rest[1..], quote)
  }

  /** The count for the whole string: argv[0] and every argument started after it. */
  function Argc(s: string): nat {
    1 + Counted(s, None)
  }

  /**
   * Without backslashes the two functions agree: from any state, a scan with
   * room for the arguments still to come starts exactly as many as the count
   * says.
   */
  lemma CountedScan(rest: string, st: St, vsize: int)
    requires '\\' !in rest && |st.argv| + Counted(rest, st.quote) <= vsize
    ensures |Scan(rest, st, vsize).1.argv| == |st.argv| + Counted(rest, st.quote)
  {
    CountedAgree(rest, st.quote);
    CountedEscapedScan(rest, st, vsize);
  }

  /**
   * fsu_mount.c sizes argv by fsu_str2argc and passes fsu_str2arg a vsize
   * one above it; for a line without backslashes fsu_str2arg then finds
   * exactly that many arguments.
   */
  lemma ArgcMatches(s: string, vsize: int)
    requires '\\' !in s && Argc(s) <= vsize
    ensures |Split(s, vsize).1.argv| == Argc(s)
  {
    CountedScan(s, Start, vsize);
  }

  // The count with the escape rule

  /** The count as fsu_str2arg would need it: Counted, with a backslash taking the character after it as a plain one. */
  function CountedEscaped(rest: string, quote: Option<char>): nat
    decreases |rest|
  {
    if |rest| == 0 then 0
    else
      var c := rest[0];
      if c == '\\' then (if |rest| > 1 then CountedEscaped(rest[2..], quote) else 0)
      else if quote == Some(c) then CountedEscaped(rest[1..], None)
      else if IsQuote(c) then CountedEscaped(rest[1..], Some(c))
      else if IsSpace(c) && quote.None? then
        var m := SpaceRun(rest);
        (if m < |rest| then 1 else 0) + CountedEscaped(rest[m..], None)
      else CountedEscaped(rest[1..], quote)
  }

  /** The corrected count for the whole string. */
  function ArgcEscaped(s: string): nat {
    1 + CountedEscaped(s, None)
  }

  /** From any state, a scan with room for the arguments still to come starts exactly as many as the corrected count says. */
  lemma {:induction false} CountedEscapedScan(rest: string, st: St, vsize: int)
    requires |st.argv| + CountedEscaped(rest, st.quote) <= vsize
    ensures |Scan(rest, st, vsize).1.argv| == |st.argv| + CountedEscaped(rest, st.quote)
    decreases |rest|
  {
    if |rest| > 0 && |st.argv| < vsize {
      var (rest', st') := Step(rest, st);
      CountedEscapedScan(rest', st', vsize);
    }
  }

  /** fsu_str2arg with vsize at least the corrected count finds exactly that many arguments, backslashes or not. */
  lemma ArgcEscapedMatches(s: string, vsize: int)
    requires ArgcEscaped(s) <= vsize
    ensures |Split(s, vsize).1.argv| == ArgcEscaped(s)
  {
    CountedEscapedScan(s, Start, vsize);
  }

  /** Without backslashes the count as written and the corrected count agree. */
  lemma {:induction false} CountedAgree(rest: string, quote: Option<char>)
    requires '\\' !in rest
    ensures Counted(rest, quote) == CountedEscaped(rest, quote)
    decreases |rest|
  {
    if |rest| > 0 {
      var c := rest[0];
      var m := if IsSpace(c) && quote != Some(c) && !IsQuote(c) && quote.None? then SpaceRun(rest) else 1;
      assert '\\' !in rest[m..] by {
        assert forall k :: 0 <= k < |rest[m..]| ==> rest[m..][k] == rest[m + k];
      }
      if quote == Some(c) {
        CountedAgree(rest[1..], None);
      } else if IsQuote(c) {
        CountedAgree(rest[1..], Some(c));
      } else if IsSpace(c) && quote.None? {
        CountedAgree(rest[m..], None);
      } else {
        CountedAgree(rest[1..], quote);
      }
    }
  }

  /** A line whose first option is an escaped quote. */
  const EscapedQuoteLine: string := ['\\', '"', ' ', 'a', ' ', 'b']

  /**
   * The escaped quote, as written: fsu_str2argc takes it for an opening
   * quote and counts one argument, so fsu_mount.c passes vsize 2, and
   * fsu_str2arg stops as the second argument starts: the options a and b are
   * lost and an empty argument stands in their place.
   */
  lemma EscapedQuoteTruncates()
    ensures Argc(EscapedQuoteLine) == 1
    ensures Arguments(Split(EscapedQuoteLine, 1 + Argc(EscapedQuoteLine)).1) == ["\"", ""]
  {
    var s := EscapedQuoteLine;
    assert s[1..] == ['"', ' ', 'a', ' ', 'b'] && s[2..] == [' ', 'a', ' ', 'b'] && s[3..] == ['a', ' ', 'b'];
    assert s[2..][1..] == s[3..] && s[3..][1..] == [' ', 'b'] && s[3..][1..][1..] == ['b'];
    assert Argc(s) == 1;
    var st1 := Wrote(Start, ['"']);
    assert Step(s, Start) == (s[2..], st1);
    assert SpaceRun(s[2..][1..]) == 0;
    assert SpaceRun(s[2..]) == 1;
    var st2 := Ended(st1, s[3..]);
    assert Step(s[2..], st1) == (s[3..], st2);
    assert st2 == St(['"', '\0'], None, [0, 2]);
    assert Scan(s[2..], st1, 2) == Scan(s[3..], st2, 2) == (s[3..], st2);
    var b := Buffer(st2);
    assert b == ['"', '\0', '\0'];
    assert CStr(b, 1) == [] && CStr(b, 2) == [];
    assert CStr(b, 0) == ['"'];
  }

  /** EscapedQuoteLine as pieces: its arguments and the gaps between them. */
  const EscapedQuoteArgs: seq<seq<Piece>> := [[Escaped('"')], [Plain('a')], [Plain('b')]]
  const EscapedQuoteGaps: seq<string> := [" ", " "]

  lemma EscapedQuotePieces()
    ensures ArgsOk(EscapedQuoteArgs) && GapsOk(EscapedQuoteGaps)
    ensures Body(EscapedQuoteArgs, EscapedQuoteGaps) == EscapedQuoteLine
    ensures Texts(EscapedQuoteArgs) == ["\"", "a", "b"]
  {
    var args, gaps := EscapedQuoteArgs, EscapedQuoteGaps;
    assert ArgSrc(args[0]) == ['\\', '"'] && ArgText(args[0]) == "\"";
    assert ArgSrc(args[1]) == "a" && ArgText(args[1]) == "a";
    assert ArgSrc(args[2]) == "b" && ArgText(args[2]) == "b";
    assert Body(args[2..], gaps[2..]) == "b";
    assert args[1..][1..] == args[2..] && gaps[1..][1..] == gaps[2..];
    assert Body(args[1..], gaps[1..]) == "a b";
  }

  lemma EscapedQuoteCount()
    ensures ArgcEscaped(EscapedQuoteLine) == 3
  {
    var s := EscapedQuoteLine;
    assert s[2..] == [' ', 'a', ' ', 'b'] && s[3..] == ['a', ' ', 'b'];
    assert s[2..][1..] == s[3..] && s[3..][1..] == [' ', 'b'] && s[3..][1..][1..] == ['b'];
    assert SpaceRun(s[2..][1..]) == 0 && SpaceRun(s[2..]) == 1;
    assert SpaceRun(s[3..][1..][1..]) == 0 && SpaceRun(s[3..][1..]) == 1;
  }

  /** With the corrected count, vsize is 4 and the same line gives its three arguments. */
  lemma EscapedQuoteCounted()
    ensures ArgcEscaped(EscapedQuoteLine) == 3
    ensures Arguments(Split(EscapedQuoteLine, 1 + ArgcEscaped(EscapedQuoteLine)).1) == ["\"", "a", "b"]
  {
    EscapedQuoteCount();
    EscapedQuotePieces();
    assert [] + Body(EscapedQuoteArgs, EscapedQuoteGaps) + [] == EscapedQuoteLine;
    SplitLine([], EscapedQuoteArgs, EscapedQuoteGaps, [], 4);
  }

  /** One pass of fsu_str2argc's loop body at lp: the count it adds and the count still to come make up the count from lp. */
  method CountPass(buf: array<char>, ghost s: string, lp: int, argc: int, inquote: bool, delim: char)
    returns (lp': int, argc': int, inquote': bool, delim': char)
    requires 0 <= lp < |s| < buf.Length && buf[|s|] == '\0' && buf[..|s|] == s && '\0' !in s
    ensures lp < lp' <= |s|
    ensures argc' + Counted(s[lp'..], if inquote' then Some(delim') else None)
      == argc + Counted(s[lp..], if inquote then Some(delim) else None)
  {
    assert forall k :: 0 <= k < |s| ==> buf[k] == s[k];
    assert s[lp..][0] == buf[lp] && s[lp..][1..] == s[lp + 1..];
    lp', argc', inquote', delim' := lp, argc, inquote, delim;
    if inquote && buf[lp] == delim {
      inquote' := false;
    } else if buf[lp] == '"' || buf[lp] == '\'' {
      delim' := buf[lp];
      inquote' := true;
    } else if IsSpace(buf[lp]) && !inquote {
      lp' := RunEnd(buf, s, lp);
      assert s[lp..][SpaceRun(s[lp..])..] == s[lp' + 1..];
      assert buf[lp' + 1] != '\0' <==> lp' + 1 < |s|;
      if buf[lp' + 1] != '\0' {
        argc' := argc + 1;
      }
    }
    lp' := lp' + 1;
  }

  /**
   * fsu_str2argc: counts the arguments of the NUL-terminated string in buf
   * (its terminator at n). The output cursor p of the code is advanced but
   * never read, so it is left out.
   */
  method StrToArgc(buf: array<char>, ghost n: nat) returns (argc: int)
    requires n < buf.Length && buf[n] == '\0' && '\0' !in buf[..n]
    ensures argc == Argc(buf[..n])
  {
    ghost var s := buf[..n];
    var inquote := false;
    var delim := '\0';
    argc := 1;
    var lp := 0;
    while buf[lp] != '\0'
      invariant 0 <= lp <= n
      invariant argc + Counted(s[lp..], if inquote then Some(delim) else None) == Argc(s)
      decreases n - lp
    {
      assert '\0' !in s;
      lp, argc, inquote, delim := CountPass(buf, s, lp, argc, inquote, delim);
    }
    assert lp == n;
  }

}

=== FILE: tmpfs.dfy ===
// The argument parser of mount_tmpfs (lib/mount_tmpfs.c): dehumanize_number,
// which reads a size with an optional b/k/m/g suffix, and
// mount_tmpfs_parseargs, which fills struct tmpfs_args from the options and
// falls back to the mount point's owner, group and mode.

module Tmpfs {
  import opened Posix
  import opened CNum
  import opened Fattr

  const LLONG_MIN: int := -0x8000_0000_0000_0000
  const LLONG_MAX: int := 0x7FFF_FFFF_FFFF_FFFF

  predicate IsAlpha(c: char) { 'a' <= c <= 'z' || 'A' <= c <= 'Z' }

  /** The multiplier a unit letter stands for, in either case. */
  function Multiplier(c: char): (r: Option<int>)
    ensures r.Some? ==> r.value == 1 || r.value == 1024 || r.value == 1024 * 1024 || r.value == 1024 * 1024 * 1024
  {
    if c == 'b' || c == 'B' then Some(1)
    else if c == 'k' || c == 'K' then Some(1024)
    else if c == 'm' || c == 'M' then Some(1024 * 1024)
    else if c == 'g' || c == 'G' then Some(1024 * 1024 * 1024)
    else None
  }

  /** What dehumanize_number gives: 0 and the size, or -1 and errno. */
  datatype Dehumanized = Parsed(size: int) | Failed(errno: Errno)

  /**
   * The product of a long long and one of the multipliers survives the
   * wrapped multiply-then-divide test exactly when it fits a long long: the
   * test catches every overflow and no more.
   */
  lemma OverflowTest(tmp: int, m: int)
    requires LLONG_MIN <= tmp <= LLONG_MAX
    requires m == 1 || m == 1024 || m == 1024 * 1024 || m == 1024 * 1024 * 1024
    ensures CDiv(Wrap64(tmp * m), m) == tmp <==> LLONG_MIN <= tmp * m <= LLONG_MAX
  {
    if m == 1 {
    } else if m == 1024 {
      assert tmp * m == tmp * 1024;
    } else if m == 1024 * 1024 {
      assert tmp * m == tmp * 0x10_0000;
    } else {
      assert tmp * m == tmp * 0x4000_0000;
    }
  }

  /** dehumanize_number. */
  function DehumanizeNumber(s: string): (r: Dehumanized)
    ensures r.Parsed? ==> LLONG_MIN <= r.size <= LLONG_MAX
    ensures r.Failed? ==> r.errno == EINVAL || r.errno == ERANGE || r.errno == NoError
    ensures |s| == 0 ==> r == Failed(EINVAL)
    ensures |s| > 0 && IsAlpha(s[|s| - 1]) && Multiplier(s[|s| - 1]).None? ==> r == Failed(EINVAL)
  {
    if |s| == 0 then Failed(EINVAL)
    else
      var unit := s[|s| - 1];
      if IsAlpha(unit) && Multiplier(unit).None? then Failed(EINVAL)
      else
        var multiplier := if IsAlpha(unit) then Multiplier(unit).value else 1;
        var delimit: Option<nat> := if IsAlpha(unit) then Some(|s| - 1) else None;
        var c := Strto(s, 10, LLONG_MIN, LLONG_MAX);
        if s[0] == '\0' || (Some(c.end) != delimit && c.end < |s|) then
          Failed(if c.erange then ERANGE else NoError)
        else if c.erange && (c.value == LLONG_MAX || c.value == LLONG_MIN) then Failed(ERANGE)
        else Scale(c.value, multiplier)
  }

  /** The last step of dehumanize_number: multiply, and test for overflow by dividing back. */
  function Scale(tmp: int, m: int): Dehumanized
    requires m > 0
  {
    var tmp2 := Wrap64(tmp * m);
    if CDiv(tmp2, m) != tmp then Failed(ERANGE) else Parsed(Wrap64(tmp * m))
  }

  /** Scaling gives the exact product when it fits a long long and ERANGE when it does not. */
  lemma ScaleExact(tmp: int, m: int)
    requires LLONG_MIN <= tmp <= LLONG_MAX
    requires m == 1 || m == 1024 || m == 1024 * 1024 || m == 1024 * 1024 * 1024
    ensures Scale(tmp, m) == if LLONG_MIN <= tmp * m <= LLONG_MAX then Parsed(tmp * m) else Failed(ERANGE)
  {
    OverflowTest(tmp, m);
  }

  /** The decimal string of n, that long long, with an optional unit letter. */
  function Sized(n: nat, unit: Option<char>): string {
    Digits(n, 10) + (if unit.Some? then [unit.value] else [])
  }

  /** The multiplier of an optional unit letter. */
  function UnitMultiplier(unit: Option<char>): int
    requires unit.Some? ==> Multiplier(unit.value).Some?
  {
    if unit.Some? then Multiplier(unit.value).value else 1
  }

  /**
   * A decimal number with an optional b/k/m/g suffix reads back as the number
   * times the multiplier when that fits a long long, and is refused with
   * ERANGE when it does not.
   */
  lemma DehumanizeSized(n: nat, unit: Option<char>)
    requires unit.Some? ==> Multiplier(unit.value).Some?
    ensures DehumanizeNumber(Sized(n, unit)) ==
      (if n * UnitMultiplier(unit) <= LLONG_MAX then Parsed(n * UnitMultiplier(unit)) else Failed(ERANGE))
  {
    if n <= LLONG_MAX {
      SizedFits(n, unit);
    } else {
      SizedTooLong(n, unit);
    }
  }

  lemma SizedFits(n: nat, unit: Option<char>)
    requires unit.Some? ==> Multiplier(unit.value).Some?
    requires n <= LLONG_MAX
    ensures DehumanizeNumber(Sized(n, unit)) ==
      (if n * UnitMultiplier(unit) <= LLONG_MAX then Parsed(n * UnitMultiplier(unit)) else Failed(ERANGE))
  {
    SizedScales(n, unit);
    ScaleExact(n, UnitMultiplier(unit));
    NoSmallerProduct(n, UnitMultiplier(unit));
  }

  lemma SizedScales(n: nat, unit: Option<char>)
    requires unit.Some? ==> Multiplier(unit.value).Some?
    requires n <= LLONG_MAX
    ensures DehumanizeNumber(Sized(n, unit)) == Scale(n, UnitMultiplier(unit))
  {
    SizedConverts(n, unit, LLONG_MAX);
    Converted(Sized(n, unit), UnitMultiplier(unit));
  }

  lemma SizedTooLong(n: nat, unit: Option<char>)
    requires unit.Some? ==> Multiplier(unit.value).Some?
    requires n > LLONG_MAX
    ensures DehumanizeNumber(Sized(n, unit)) == Failed(ERANGE) && n * UnitMultiplier(unit) > LLONG_MAX
  {
    var m := UnitMultiplier(unit);
    SizedConverts(n, unit, n);
    StrtoClamps(Sized(n, unit), n);
    Converted(Sized(n, unit), m);
    NoSmallerProduct(n, m);
  }

  /** The conversion of Sized(n, unit) reads n, up to the unit letter. */
  lemma SizedConverts(n: nat, unit: Option<char>, hi: int)
    requires unit.Some? ==> Multiplier(unit.value).Some?
    requires n <= hi
    ensures var s := Sized(n, unit);
      |s| > 0 && s[0] != '\0' && (IsAlpha(s[|s| - 1]) <==> unit.Some?) &&
      Strto(s, 10, LLONG_MIN, hi) == Conv(n, |Digits(n, 10)|, false) &&
      |s| == |Digits(n, 10)| + (if unit.Some? then 1 else 0)
  {
    SizedShape(n, unit);
    var s := Sized(n, unit);
    var d := Digits(n, 10);
    DigitsRoundTrip(n, 10, LLONG_MIN, hi);
    StrtoPrefix(s, d, LLONG_MIN, hi);
  }

  lemma SizedShape(n: nat, unit: Option<char>)
    requires unit.Some? ==> Multiplier(unit.value).Some?
    ensures var s := Sized(n, unit); var d := Digits(n, 10);
      && |s| == |d| + (if unit.Some? then 1 else 0) && d <= s
      && s[0] != '\0' && (IsAlpha(s[|s| - 1]) <==> unit.Some?)
      && (|s| > |d| ==> IsAlpha(s[|d|]))
  {
    var s := Sized(n, unit);
    var d := Digits(n, 10);
    assert s[..|d|] == d;
    assert DigitValue(s[|s| - 1]) < 10 || unit.Some?;
  }

  lemma NoSmallerProduct(n: nat, m: int)
    requires m == 1 || m == 1024 || m == 1024 * 1024 || m == 1024 * 1024 * 1024
    ensures n * m >= n
  {
  }

  /** A string whose conversion reaches its end or a valid unit letter at its end goes on to be scaled. */
  lemma Converted(s: string, m: int)
    requires |s| > 0 && s[0] != '\0'
    requires IsAlpha(s[|s| - 1]) ==> Multiplier(s[|s| - 1]) == Some(m)
    requires !IsAlpha(s[|s| - 1]) ==> m == 1
    requires var end := Strto(s, 10, LLONG_MIN, LLONG_MAX).end; end == |s| || (end == |s| - 1 && IsAlpha(s[|s| - 1]))
    ensures var c := Strto(s, 10, LLONG_MIN, LLONG_MAX);
      DehumanizeNumber(s) == if c.erange then Failed(ERANGE) else Scale(c.value, m)
  {
  }

  /** A unit letter is not a decimal digit, so conversion stops in front of it. */
  lemma StrtoPrefix(s: string, d: string, lo: int, hi: int)
    requires lo <= 0 <= hi
    requires |d| > 0 && d <= s && (|s| > |d| ==> IsAlpha(s[|d|]))
    requires forall k :: 0 <= k < |d| ==> DigitValue(d[k]) < 10
    ensures Strto(s, 10, lo, hi) == Strto(d, 10, lo, hi)
  {
    assert !IsSpace(s[0]) && s[0] != '-' && s[0] != '+';
    assert SkipSpace(s, 0) == 0 && SkipSpace(d, 0) == 0;
    RunToEnd(d, 0, 10);
    RunPrefix(s, d, 0);
    assert s[0..|d|] == d[0..|d|];
  }

  /** The run of decimal digits of s from i is that of its digit prefix d. */
  lemma {:induction false} RunPrefix(s: string, d: string, i: nat)
    requires i <= |d| && d <= s && (|s| > |d| ==> IsAlpha(s[|d|]))
    requires forall k :: 0 <= k < |d| ==> DigitValue(d[k]) < 10
    ensures Run(s, i, 10) == |d| - i
    decreases |d| - i
  {
    if i < |d| {
      RunPrefix(s, d, i + 1);
    }
  }

  /** A conversion whose unbounded value is beyond LLONG_MAX is clamped, with ERANGE. */
  lemma StrtoClamps(s: string, v: int)
    requires LLONG_MAX < v && Strto(s, 10, LLONG_MIN, v).value == v && !Strto(s, 10, LLONG_MIN, v).erange
    ensures Strto(s, 10, LLONG_MIN, LLONG_MAX) == Conv(LLONG_MAX, Strto(s, 10, LLONG_MIN, v).end, true)
  {
  }

  /**
   * A lone unit letter is accepted as 0: nothing converts, so the conversion
   * ends where the unit starts.
   */
  lemma UnitAlone(c: char)
    requires IsAlpha(c) && Multiplier(c).Some?
    ensures DehumanizeNumber([c]) == Parsed(0)
  {
    assert SkipSpace([c], 0) == 0;
  }

  /** Anything after the number other than one unit letter at the very end is refused. */
  lemma TrailingRejected(n: nat, rest: string)
    requires n <= LLONG_MAX && |rest| >= 2 && IsAlpha(rest[0])
    ensures DehumanizeNumber(Digits(n, 10) + rest).Failed?
  {
    var d := Digits(n, 10);
    var s := d + rest;
    assert s[..|d|] == d;
    DigitsRoundTrip(n, 10, LLONG_MIN, LLONG_MAX);
    StrtoPrefix(s, d, LLONG_MIN, LLONG_MAX);
    StopsEarly(s);
  }

  /** A conversion that stops two or more characters short of the end is refused. */
  lemma StopsEarly(s: string)
    requires |s| > 0 && s[0] != '\0' && Strto(s, 10, LLONG_MIN, LLONG_MAX).end < |s| - 1
    ensures DehumanizeNumber(s).Failed?
  {
  }

  // ---------------------------------------------------------------------
  // mount_tmpfs_parseargs

  /** One option as getopt hands it back: its letter ('?' when unknown or missing its argument) and optarg. */
  datatype Opt = Opt(letter: char, arg: string)

  /** struct tmpfs_args. */
  datatype TmpfsArgs = TmpfsArgs(version: int, nodesMax: nat, sizeMax: nat, rootUid: nat, rootGid: nat, rootMode: nat)

  const TMPFS_ARGS_VERSION: int := 1

  /**
   * What the parser consults: the password and group databases, whether
   * getmntopts accepts an -o argument, and stat of the mount point named by
   * the second operand (None when stat fails).
   */
  datatype MountEnv = MountEnv(
    users: map<string, nat>, groups: map<string, nat>,
    mntopts: string -> bool, statOf: string -> Option<Stat>)

  /** A uint64_t holding the int64_t x. */
  function Unsigned64(x: int): (r: nat)
    ensures r < 0x1_0000_0000_0000_0000
    ensures 0 <= x < 0x1_0000_0000_0000_0000 ==> r == x
  {
    x % 0x1_0000_0000_0000_0000
  }

  /** The argument of the last option with letter c. */
  function LastArg(opts: seq<Opt>, c: char): (r: Option<string>)
    ensures r.None? <==> forall j :: 0 <= j < |opts| ==> opts[j].letter != c
    ensures r.Some? ==> exists j :: 0 <= j < |opts| && opts[j] == Opt(c, r.value) &&
                                    (forall k :: j < k < |opts| ==> opts[k].letter != c)
  {
    if |opts| == 0 then None
    else if opts[|opts| - 1].letter == c then Some(opts[|opts| - 1].arg)
    else
      var r := LastArg(opts[..|opts| - 1], c);
      LastArgExtends(opts, c, r);
      r
  }

  /** The last option with letter c among all of opts, when the final one does not have it. */
  lemma LastArgExtends(opts: seq<Opt>, c: char, r: Option<string>)
    requires |opts| > 0 && opts[|opts| - 1].letter != c
    requires var p := opts[..|opts| - 1];
      && (r.None? <==> forall j :: 0 <= j < |p| ==> p[j].letter != c)
      && (r.Some? ==> exists j :: 0 <= j < |p| && p[j] == Opt(c, r.value) &&
                                  (forall k :: j < k < |p| ==> p[k].letter != c))
    ensures r.None? <==> forall j :: 0 <= j < |opts| ==> opts[j].letter != c
    ensures r.Some? ==> exists j :: 0 <= j < |opts| && opts[j] == Opt(c, r.value) &&
                                    (forall k :: j < k < |opts| ==> opts[k].letter != c)
  {
    var p := opts[..|opts| - 1];
    assert forall j :: 0 <= j < |p| ==> p[j] == opts[j];
    if r.Some? {
      var j :| 0 <= j < |p| && p[j] == Opt(c, r.value) && (forall k :: j < k < |p| ==> p[k].letter != c);
      assert opts[j] == Opt(c, r.value);
    }
  }

  lemma LastArgStep(opts: seq<Opt>, o: Opt, c: char)
    ensures LastArg(opts + [o], c) == if o.letter == c then Some(o.arg) else LastArg(opts, c)
  {
    assert (opts + [o])[..|opts|] == opts;
  }

  /** An option getopt returned that the switch accepts. */
  predicate OptOk(o: Opt, env: MountEnv) {
    || o.letter == 'g' || o.letter == 'm' || o.letter == 'u'
    || ((o.letter == 'n' || o.letter == 's') && DehumanizeNumber(o.arg).Parsed?)
    || (o.letter == 'o' && env.mntopts(o.arg))
  }

  /** The -n or -s value in ta_nodes_max or ta_size_max: the last one given, or 0. */
  function CountArg(opts: seq<Opt>, c: char): nat {
    match LastArg(opts, c)
    case None => 0
    case Some(a) => if DehumanizeNumber(a).Parsed? then Unsigned64(DehumanizeNumber(a).size) else 0
  }

  /** The -u or -g value, if one was given: the last one, through the database names. */
  function IdArg(opts: seq<Opt>, c: char, names: map<string, nat>): Option<nat> {
    match LastArg(opts, c)
    case None => None
    case Some(a) => Some(AId(a, names))
  }

  /** The -m value, if one was given. */
  function ModeArg(opts: seq<Opt>): Option<nat> {
    match LastArg(opts, 'm')
    case None => None
    case Some(a) => Some(Unsigned32(AMaskChecked(a)))
  }

  /** Every option is one the switch accepts. */
  predicate OptsOk(opts: seq<Opt>, env: MountEnv) {
    forall j :: 0 <= j < |opts| ==> OptOk(opts[j], env)
  }

  /** The call succeeds: every option is accepted, there are two operands, and the mount point can be stat'ed. */
  predicate Accepted(opts: seq<Opt>, operands: seq<string>, env: MountEnv) {
    && OptsOk(opts, env)
    && |operands| == 2
    && env.statOf(operands[1]).Some?
  }

  /** strlcpy into a MAXPATHLEN buffer. */
  function Strlcpy(s: string): (r: string)
    ensures |r| < PATH_MAX && r <= s && (|s| < PATH_MAX ==> r == s)
  {
    if |s| < PATH_MAX then s else s[..PATH_MAX - 1]
  }

  /**
   * What the options have set so far: ta_nodes_max, ta_size_max, and the
   * gid, uid and mode with their gidset, uidset and modeset flags (None when
   * unset).
   */
  datatype Settings = Settings(nodes: nat, size: nat, gid: Option<nat>, uid: Option<nat>, mode: Option<nat>)

  /** The settings that options opts leave, each from the last option of its letter. */
  function SettingsOf(opts: seq<Opt>, env: MountEnv): Settings {
    Settings(CountArg(opts, 'n'), CountArg(opts, 's'), IdArg(opts, 'g', env.groups), IdArg(opts, 'u', env.users), ModeArg(opts))
  }

  /**
   * The arguments a successful call fills in: the last -n and -s values (0
   * without them), and the root's owner, group and mode from the last -u, -g
   * and -m, each falling back to the mount point's own.
   */
  function Configured(opts: seq<Opt>, env: MountEnv, sb: Stat): TmpfsArgs {
    var st := SettingsOf(opts, env);
    TmpfsArgs(
      TMPFS_ARGS_VERSION, st.nodes, st.size,
      match st.uid case Some(u) => u case None => Unsigned32(sb.uid),
      match st.gid case Some(g) => g case None => Unsigned32(sb.gid),
      match st.mode case Some(m) => m case None => sb.mode as nat)
  }

  /** One more option is accepted along with the earlier ones exactly when the switch accepts it. */
  lemma OptsOkStep(done: seq<Opt>, o: Opt, env: MountEnv)
    ensures OptsOk(done + [o], env) <==> OptsOk(done, env) && OptOk(o, env)
  {
    assert forall j :: 0 <= j < |done| ==> (done + [o])[j] == done[j];
    assert (done + [o])[|done|] == o;
  }

  /** One more option changes only the setting of its own letter, to its own value. */
  lemma SettingsStep(done: seq<Opt>, o: Opt, env: MountEnv)
    ensures var st := SettingsOf(done, env);
      var d := DehumanizeNumber(o.arg);
      var v := if d.Parsed? then Unsigned64(d.size) else 0;
      SettingsOf(done + [o], env) ==
        if o.letter == 'g' then st.(gid := Some(AId(o.arg, env.groups)))
        else if o.letter == 'u' then st.(uid := Some(AId(o.arg, env.users)))
        else if o.letter == 'm' then st.(mode := Some(Unsigned32(AMaskChecked(o.arg))))
        else if o.letter == 'n' then st.(nodes := v)
        else if o.letter == 's' then st.(size := v)
        else st
  {
    var d := DehumanizeNumber(o.arg);
    var v := if d.Parsed? then Unsigned64(d.size) else 0;
    var ext := done + [o];
    LastArgStep(done, o, 'g');
    assert IdArg(ext, 'g', env.groups) == if o.letter == 'g' then Some(AId(o.arg, env.groups)) else IdArg(done, 'g', env.groups);
    LastArgStep(done, o, 'u');
    assert IdArg(ext, 'u', env.users) == if o.letter == 'u' then Some(AId(o.arg, env.users)) else IdArg(done, 'u', env.users);
    LastArgStep(done, o, 'm');
    assert ModeArg(ext) == if o.letter == 'm' then Some(Unsigned32(AMaskChecked(o.arg))) else ModeArg(done);
    LastArgStep(done, o, 'n');
    assert CountArg(ext, 'n') == if o.letter == 'n' then v else CountArg(done, 'n');
    LastArgStep(done, o, 's');
    assert CountArg(ext, 's') == if o.letter == 's' then v else CountArg(done, 's');
  }

  /**
   * The body of the getopt loop for one option: false for the options that
   * make the call return 1, otherwise the settings with this option applied.
   */
  method Switch(st: Settings, o: Opt, env: MountEnv, ghost done: seq<Opt>) returns (ok: bool, st': Settings)
    requires st == SettingsOf(done, env)
    ensures ok <==> OptOk(o, env)
    ensures ok ==> st' == SettingsOf(done + [o], env)
    ensures OptsOk(done, env) ==> (OptsOk(done + [o], env) <==> ok)
  {
    OptsOkStep(done, o, env);
    SettingsStep(done, o, env);
    ok, st' := true, st;
    if o.letter == 'g' {
      st' := st.(gid := Some(AId(o.arg, env.groups)));
    } else if o.letter == 'm' {
      st' := st.(mode := Some(Unsigned32(AMaskChecked(o.arg))));
    } else if o.letter == 'n' {
      var d := DehumanizeNumber(o.arg);
      if d.Failed? {
        return false, st;
      }
      st' := st.(nodes := Unsigned64(d.size));
    } else if o.letter == 'o' {
      if !env.mntopts(o.arg) {
        return false, st;
      }
    } else if o.letter == 's' {
      var d := DehumanizeNumber(o.arg);
      if d.Failed? {
        return false, st;
      }
      st' := st.(size := Unsigned64(d.size));
    } else if o.letter == 'u' {
      st' := st.(uid := Some(AId(o.arg, env.users)));
    } else {
      ok := false;
    }
  }

  /**
   * mount_tmpfs_parseargs over what getopt returned and the operands after
   * them. It returns 0 exactly when the call is accepted, and then args is
   * Configured from the options and the mount point's stat, and dev is the
   * first operand. It returns 1 otherwise.
   */
  method ParseArgs(opts: seq<Opt>, operands: seq<string>, env: MountEnv) returns (rv: int, args: TmpfsArgs, dev: string)
    ensures rv == 0 || rv == 1
    ensures rv == 0 <==> Accepted(opts, operands, env)
    ensures rv == 0 ==> args == Configured(opts, env, env.statOf(operands[1]).value) && dev == Strlcpy(operands[0])
  {
    args := TmpfsArgs(TMPFS_ARGS_VERSION, 0, 0, 0, 0, 0);
    dev := "";
    var st := Settings(0, 0, None, None, None);
    assert opts[..0] == [];
    var i := 0;
    while i < |opts|
      invariant 0 <= i <= |opts|
      invariant OptsOk(opts[..i], env)
      invariant st == SettingsOf(opts[..i], env)
    {
      var ok;
      ok, st := Switch(st, opts[i], env, opts[..i]);
      assert opts[..i + 1] == opts[..i] + [opts[i]];
      if !ok {
        assert !OptsOk(opts[..i + 1], env);
        assert !OptsOk(opts, env) by {
          assert !OptOk(opts[i], env);
        }
        return 1, args, dev;
      }
      i := i + 1;
    }
    assert opts[..i] == opts;
    if |operands| != 2 {
      return 1, args, dev;
    }
    dev := Strlcpy(operands[0]);
    var sb := env.statOf(operands[1]);
    if sb.None? {
      return 1, args, dev;
    }
    args := TmpfsArgs(TMPFS_ARGS_VERSION, st.nodes, st.size,
      if st.uid.Some? then st.uid.value else Unsigned32(sb.value.uid),
      if st.gid.Some? then st.gid.value else Unsigned32(sb.value.gid),
      if st.mode.Some? then st.mode.value else sb.value.mode as nat);
    rv := 0;
  }

  /** Without -u, -g or -m the root takes the mount point's owner, group and mode. */
  lemma DefaultsFromMountPoint(opts: seq<Opt>, env: MountEnv, sb: Stat)
    requires forall j :: 0 <= j < |opts| ==> opts[j].letter != 'u' && opts[j].letter != 'g' && opts[j].letter != 'm'
    ensures var a := Configured(opts, env, sb);
      a.rootUid == Unsigned32(sb.uid) && a.rootGid == Unsigned32(sb.gid) && a.rootMode == sb.mode as nat
  {
  }

  /** A later option of the same letter overrides an earlier one. */
  lemma LastOptionWins(opts: seq<Opt>, o: Opt, env: MountEnv, sb: Stat)
    requires o.letter == 'u' && o.arg in env.users
    ensures Configured(opts + [o], env, sb).rootUid == env.users[o.arg]
  {
    LastArgStep(opts, o, 'u');
  }
}

=== FILE: touch.dfy ===
// fsu_touch (usr.bin/fsu_touch/fsu_touch.c): its options, the decoder of the
// [[CC]YY]MMDDhhmm[.SS] time argument, and the choice of the two times each
// operand gets in the image.

module Touch {
  import opened Posix
  import opened Domain

  // FSU_TOUCH_ACCESS_TIME and the flags defined by shifting it left.
  const ACCESS_TIME: bv32 := 0x01
  const NO_CREAT: bv32 := 0x02
  const CHANGE_LINK: bv32 := 0x04
  const CHANGE_MOD_TIME: bv32 := 0x08
  const USE_FILE_TIME: bv32 := 0x10
  const USE_USER_TIME: bv32 := 0x20

  /** TM_YEAR_BASE: tm_year counts years from 1900. */
  const TM_YEAR_BASE: int := 1900

  /** DEFFILEMODE (0666), which the code hands to open(2) as its flags. */
  const DEFFILEMODE: bv32 := 0x1B6

  // ---------------------------------------------------------------------
  // fsu_touch_parse_arg

  /** One option as getopt hands it back: its letter and, for -r and -t, its argument. */
  datatype Opt = Opt(letter: char, arg: string)

  /** What option parsing leaves: the flags and the -r and -t arguments (None for NULL). */
  datatype Parsed = Parsed(flags: bv32, rtime: Option<string>, ttime: Option<string>)

  /** The letters of "achmr:t:". */
  predicate Known(c: char) {
    c == 'a' || c == 'c' || c == 'h' || c == 'm' || c == 'r' || c == 't'
  }

  /** The flags each letter of the switch sets; -h sets two. */
  function Mask(c: char): bv32 {
    if c == 'a' then ACCESS_TIME
    else if c == 'c' then NO_CREAT
    else if c == 'h' then CHANGE_LINK | NO_CREAT
    else if c == 'm' then CHANGE_MOD_TIME
    else if c == 'r' then USE_FILE_TIME
    else if c == 't' then USE_USER_TIME
    else 0
  }

  /** The flags after one option. */
  function WithOption(f: bv32, c: char): bv32 {
    f | Mask(c)
  }

  /** The flags after each option of opts in turn, from none. */
  function FlagsOf(opts: seq<Opt>): bv32 {
    if |opts| == 0 then 0 else WithOption(FlagsOf(opts[..|opts| - 1]), opts[|opts| - 1].letter)
  }

  /** Whether some option among opts has letter c. */
  predicate Given(opts: seq<Opt>, c: char) {
    exists k :: 0 <= k < |opts| && opts[k].letter == c
  }

  /** The argument of the last option with letter c, if any. */
  function LastArg(opts: seq<Opt>, c: char): (r: Option<string>)
    ensures r.None? <==> !Given(opts, c)
  {
    if |opts| == 0 then None
    else if opts[|opts| - 1].letter == c then Some(opts[|opts| - 1].arg)
    else
      var r := LastArg(opts[..|opts| - 1], c);
      assert Given(opts, c) ==> Given(opts[..|opts| - 1], c) by {
        if Given(opts, c) {
          var k :| 0 <= k < |opts| && opts[k].letter == c;
          assert opts[..|opts| - 1][k].letter == c;
        }
      }
      r
  }

  lemma LastArgStep(opts: seq<Opt>, i: nat, c: char)
    requires i < |opts|
    ensures LastArg(opts[..i + 1], c) == if opts[i].letter == c then Some(opts[i].arg) else LastArg(opts[..i], c)
  {
    assert opts[..i + 1][..i] == opts[..i] && opts[..i + 1][i] == opts[i];
  }

  /** The default the loop's end applies: neither -a nor -m means both. */
  function Defaulted(f: bv32): bv32 {
    if f & (ACCESS_TIME | CHANGE_MOD_TIME) == 0 then f | ACCESS_TIME | CHANGE_MOD_TIME else f
  }

  /**
   * fsu_touch_parse_arg's result over the options: None (for -1) when a
   * letter is unknown, else the flags with the default applied and the last
   * -r and -t arguments.
   */
  function ParseF(opts: seq<Opt>): Option<Parsed> {
    if exists k :: 0 <= k < |opts| && !Known(opts[k].letter) then None
    else Some(Parsed(Defaulted(FlagsOf(opts)), LastArg(opts, 'r'), LastArg(opts, 't')))
  }

  /** The switch on one option letter: the new flags, or None for the '?' case. */
  method ApplyOption(flags: bv32, c: char) returns (r: Option<bv32>)
    ensures r.None? <==> !Known(c)
    ensures r.Some? ==> r.value == WithOption(flags, c)
  {
    var f := flags;
    if c == 'a' {
      f := f | ACCESS_TIME;
    } else if c == 'c' {
      f := f | NO_CREAT;
    } else if c == 'h' {
      f := f | (CHANGE_LINK | NO_CREAT);
    } else if c == 'm' {
      f := f | CHANGE_MOD_TIME;
    } else if c == 'r' {
      f := f | USE_FILE_TIME;
    } else if c == 't' {
      f := f | USE_USER_TIME;
    } else {
      return None;
    }
    r := Some(f);
  }

  /** fsu_touch_parse_arg over the options getopt hands back in order. */
  method ParseArg(opts: seq<Opt>) returns (r: Option<Parsed>)
    ensures r == ParseF(opts)
  {
    var flags: bv32 := 0;
    var rtime: Option<string> := None;
    var ttime: Option<string> := None;
    var i := 0;
    while i < |opts|
      invariant 0 <= i <= |opts|
      invariant forall k :: 0 <= k < i ==> Known(opts[k].letter)
      invariant flags == FlagsOf(opts[..i])
      invariant rtime == LastArg(opts[..i], 'r') && ttime == LastArg(opts[..i], 't')
    {
      assert opts[..i + 1][..i] == opts[..i] && opts[..i + 1][i] == opts[i];
      ghost var want := FlagsOf(opts[..i + 1]);
      assert want == WithOption(flags, opts[i].letter);
      var next := ApplyOption(flags, opts[i].letter);
      if next.None? {
        return None;
      }
      flags := next.value;
      assert flags == want;
      LastArgStep(opts, i, 'r');
      LastArgStep(opts, i, 't');
      if opts[i].letter == 'r' {
        rtime := Some(opts[i].arg);
      } else if opts[i].letter == 't' {
        ttime := Some(opts[i].arg);
      }
      i := i + 1;
    }
    assert opts[..i] == opts;
    if flags & (ACCESS_TIME | CHANGE_MOD_TIME) == 0 {
      flags := flags | ACCESS_TIME | CHANGE_MOD_TIME;
    }
    r := Some(Parsed(flags, rtime, ttime));
  }

  /** What the flags say about the options before the default is applied. */
  predicate Meaning(f: bv32, opts: seq<Opt>) {
    && f & 0xFFFF_FFC0 == 0
    && (f & ACCESS_TIME != 0 <==> Given(opts, 'a'))
    && (f & NO_CREAT != 0 <==> Given(opts, 'c') || Given(opts, 'h'))
    && (f & CHANGE_LINK != 0 <==> Given(opts, 'h'))
    && (f & CHANGE_MOD_TIME != 0 <==> Given(opts, 'm'))
    && (f & USE_FILE_TIME != 0 <==> Given(opts, 'r'))
    && (f & USE_USER_TIME != 0 <==> Given(opts, 't'))
  }

  /** Given for opts + [o]: given before, or o has the letter. */
  lemma GivenSnoc(opts: seq<Opt>, o: Opt, c: char)
    ensures Given(opts + [o], c) <==> Given(opts, c) || o.letter == c
  {
    if Given(opts + [o], c) && o.letter != c {
      var k :| 0 <= k < |opts + [o]| && (opts + [o])[k].letter == c;
      assert opts[k].letter == c;
    }
    if Given(opts, c) {
      var k :| 0 <= k < |opts| && opts[k].letter == c;
      assert (opts + [o])[k].letter == c;
    }
    if o.letter == c {
      assert (opts + [o])[|opts|].letter == c;
    }
  }

  /** Or-ing a mask of the six flags in: each flag is set afterwards iff it was set before or is in the mask. */
  lemma OrBits(f: bv32, m: bv32)
    requires f & 0xFFFF_FFC0 == 0 && m & 0xFFFF_FFC0 == 0
    ensures (f | m) & 0xFFFF_FFC0 == 0
    ensures (f | m) & 0x01 != 0 <==> f & 0x01 != 0 || m & 0x01 != 0
    ensures (f | m) & 0x02 != 0 <==> f & 0x02 != 0 || m & 0x02 != 0
    ensures (f | m) & 0x04 != 0 <==> f & 0x04 != 0 || m & 0x04 != 0
    ensures (f | m) & 0x08 != 0 <==> f & 0x08 != 0 || m & 0x08 != 0
    ensures (f | m) & 0x10 != 0 <==> f & 0x10 != 0 || m & 0x10 != 0
    ensures (f | m) & 0x20 != 0 <==> f & 0x20 != 0 || m & 0x20 != 0
  {
  }

  /** Over known options, the flags say which letters were given. */
  lemma {:induction false} FlagsMeaning(opts: seq<Opt>)
    requires forall k :: 0 <= k < |opts| ==> Known(opts[k].letter)
    ensures Meaning(FlagsOf(opts), opts)
  {
    if |opts| > 0 {
      var init := opts[..|opts| - 1];
      var o := opts[|opts| - 1];
      FlagsMeaning(init);
      assert init + [o] == opts;
      GivenSnoc(init, o, 'a');
      GivenSnoc(init, o, 'c');
      GivenSnoc(init, o, 'h');
      GivenSnoc(init, o, 'm');
      GivenSnoc(init, o, 'r');
      GivenSnoc(init, o, 't');
      OrBits(FlagsOf(init), Mask(o.letter));
    }
  }

  /**
   * fsu_touch_parse_arg: -1 exactly when some letter is unknown. Otherwise -h
   * has set CHANGE_LINK and NO_CREAT, -r and -t have set their flags and
   * kept the last argument given, and ACCESS_TIME and CHANGE_MOD_TIME are
   * both set when neither -a nor -m was given, each set alone when only it was.
   */
  lemma ParseMeaning(opts: seq<Opt>)
    ensures ParseF(opts).None? <==> exists k :: 0 <= k < |opts| && !Known(opts[k].letter)
    ensures ParseF(opts).Some? ==>
      var p := ParseF(opts).value;
      && (p.flags & ACCESS_TIME != 0 <==> Given(opts, 'a') || !Given(opts, 'm'))
      && (p.flags & CHANGE_MOD_TIME != 0 <==> Given(opts, 'm') || !Given(opts, 'a'))
      && (p.flags & NO_CREAT != 0 <==> Given(opts, 'c') || Given(opts, 'h'))
      && (p.flags & CHANGE_LINK != 0 <==> Given(opts, 'h'))
      && (p.flags & USE_FILE_TIME != 0 <==> p.rtime.Some?)
      && (p.flags & USE_USER_TIME != 0 <==> p.ttime.Some?)
      && p.rtime == LastArg(opts, 'r') && p.ttime == LastArg(opts, 't')
  {
    if !exists k :: 0 <= k < |opts| && !Known(opts[k].letter) {
      FlagsMeaning(opts);
      var f := FlagsOf(opts);
      var g := Defaulted(f);
      if f & 0x09 == 0 {
        assert g & 0x01 != 0 && g & 0x08 != 0 && (g & 0x02 == f & 0x02) && (g & 0x04 == f & 0x04);
        assert (g & 0x10 == f & 0x10) && (g & 0x20 == f & 0x20);
      }
    }
  }

  // ---------------------------------------------------------------------
  // stime_arg1

  /** The fields of struct tm the decoder reads or writes. */
  datatype Tm = Tm(sec: int, min: int, hour: int, mday: int, mon: int, year: int, isdst: int)

  /** strchr: the index of the first c in s. */
  function IndexOf(s: string, c: char): (r: Option<nat>)
    ensures r.Some? ==> r.value < |s| && s[r.value] == c && c !in s[..r.value]
    ensures r.None? <==> c !in s
  {
    if |s| == 0 then None
    else if s[0] == c then Some(0)
    else match IndexOf(s[1..], c)
      case None => None
      case Some(i) =>
        assert s[..i + 1] == [s[0]] + s[1..][..i];
        Some(i + 1)
  }

  /** The first c in s is at i when s[i] is c and none comes before it. */
  lemma {:induction false} IndexOfAt(s: string, c: char, i: nat)
    requires i < |s| && s[i] == c && c !in s[..i]
    ensures IndexOf(s, c) == Some(i)
  {
    if i > 0 {
      assert s[0] == s[..i][0];
      assert s[1..][..i - 1] == s[..i][1..];
      IndexOfAt(s[1..], c, i - 1);
    }
  }

  /** ATOI2: the two characters at i read as decimal digits, with no check that they are digits. */
  function Atoi2(s: string, i: nat): int
    requires i + 2 <= |s|
  {
    (s[i] as int - '0' as int) * 10 + (s[i + 1] as int - '0' as int)
  }

  /** tm_year for a two-digit year: below 69 it is 20YY, otherwise 19YY. */
  function Year2(yy: int): int {
    if yy < 69 then yy + 2000 - TM_YEAR_BASE else yy + 1900 - TM_YEAR_BASE
  }

  /**
   * The fields a time argument of 2, 4, ..., 12 characters sets: minutes in
   * the last pair, hours, day and month (01-12 made 00-11) in the pairs before,
   * then a two-digit year or a four-digit one; every other field keeps its
   * value in t. None for any other length.
   */
  function Fields(body: string, t: Tm): (r: Option<Tm>)
    ensures r.Some? <==> |body| in {2, 4, 6, 8, 10, 12}
  {
    var n := |body|;
    if n !in {2, 4, 6, 8, 10, 12} then None
    else
      Some(t.(
        min := Atoi2(body, n - 2),
        hour := if n >= 4 then Atoi2(body, n - 4) else t.hour,
        mday := if n >= 6 then Atoi2(body, n - 6) else t.mday,
        mon := if n >= 8 then Atoi2(body, n - 8) - 1 else t.mon,
        year := if n == 12 then Atoi2(body, 0) * 100 - TM_YEAR_BASE + Atoi2(body, 2)
                else if n == 10 then Year2(Atoi2(body, 0))
                else t.year))
  }

  /**
   * stime_arg1 up to mktime: from the current local time t, the struct tm
   * the argument asks for, or None for the "illegal time specification" exit.
   * A '.' must be followed by exactly two characters, the seconds; without
   * one the seconds are 0. The rest must have an even length up to 12.
   */
  function TimeArg(arg: string, t: Tm): Option<Tm> {
    match IndexOf(arg, '.')
    case None =>
      (match Fields(arg, t)
       case None => None
       case Some(u) => Some(u.(sec := 0, isdst := -1)))
    case Some(i) =>
      if |arg| - (i + 1) != 2 then None
      else match Fields(arg[..i], t)
        case None => None
        case Some(u) => Some(u.(sec := Atoi2(arg, i + 1), isdst := -1))
  }

  /**
   * stime_arg1's decoding: the cursor moves two characters per ATOI2 through
   * the fall-through switch on the length, from the widest field present.
   */
  method StimeArg1(arg: string, t0: Tm) returns (r: Option<Tm>)
    ensures r == TimeArg(arg, t0)
  {
    var t := t0;
    var body := arg;
    var dot := IndexOf(arg, '.');
    if dot.None? {
      t := t.(sec := 0);
    } else {
      var p := dot.value;
      if |arg| - (p + 1) != 2 {
        return None;
      }
      body := arg[..p];
      t := t.(sec := Atoi2(arg, p + 1));
    }
    var n := |body|;
    if n != 12 && n != 10 && n != 8 && n != 6 && n != 4 && n != 2 {
      return None;
    }
    var i := 0;
    var yearset := 0;
    if n == 12 {
      t := t.(year := Atoi2(body, i) * 100 - TM_YEAR_BASE);
      i := i + 2;
      yearset := 1;
    }
    if n >= 10 {
      if yearset != 0 {
        t := t.(year := t.year + Atoi2(body, i));
      } else {
        yearset := Atoi2(body, i);
        if yearset < 69 {
          t := t.(year := yearset + 2000 - TM_YEAR_BASE);
        } else {
          t := t.(year := yearset + 1900 - TM_YEAR_BASE);
        }
      }
      i := i + 2;
    }
    assert i == if n >= 10 then n - 8 else 0;
    if n >= 8 {
      t := t.(mon := Atoi2(body, i));
      t := t.(mon := t.mon - 1);
      i := i + 2;
    }
    if n >= 6 {
      t := t.(mday := Atoi2(body, i));
      i := i + 2;
    }
    if n >= 4 {
      t := t.(hour := Atoi2(body, i));
      i := i + 2;
    }
    t := t.(min := Atoi2(body, i));
    assert i == n - 2;
    t := t.(isdst := -1);
    r := Some(t);
  }

  // ---------------------------------------------------------------------
  // Writing a time argument, and reading it back

  /** The two decimal digits of v. */
  function Digits2(v: int): (r: string)
    requires 0 <= v < 100
    ensures |r| == 2 && Atoi2(r, 0) == v
  {
    [('0' as int + v / 10) as char, ('0' as int + v % 10) as char]
  }

  /** The numbers the pairs of an argument for t hold, most significant first: minutes last, the year's two pairs first. */
  function PairValues(t: Tm, pairs: nat): (r: seq<int>)
    requires 1 <= pairs <= 6
    ensures |r| == pairs
  {
    var y := t.year + TM_YEAR_BASE;
    if pairs == 1 then [t.min]
    else if pairs == 2 then [t.hour, t.min]
    else if pairs == 3 then [t.mday, t.hour, t.min]
    else if pairs == 4 then [t.mon + 1, t.mday, t.hour, t.min]
    else if pairs == 5 then [y % 100, t.mon + 1, t.mday, t.hour, t.min]
    else [y / 100, y % 100, t.mon + 1, t.mday, t.hour, t.min]
  }

  /** The fields of t fit the pairs written: two digits each, four for a year, a two-digit year within 1969-2068. */
  predicate Writable(t: Tm, pairs: nat, withSec: bool) {
    && 1 <= pairs <= 6
    && 0 <= t.min < 100
    && (pairs >= 2 ==> 0 <= t.hour < 100)
    && (pairs >= 3 ==> 0 <= t.mday < 100)
    && (pairs >= 4 ==> 0 <= t.mon + 1 < 100)
    && (pairs == 6 ==> 0 <= t.year + TM_YEAR_BASE < 10000)
    && (pairs == 5 ==> 1969 <= t.year + TM_YEAR_BASE < 2069)
    && (withSec ==> 0 <= t.sec < 100)
  }

  /** Each number written as its two digits. */
  function Write(vs: seq<int>): (r: string)
    requires forall k :: 0 <= k < |vs| ==> 0 <= vs[k] < 100
    ensures |r| == 2 * |vs|
  {
    if |vs| == 0 then [] else Write(vs[..|vs| - 1]) + Digits2(vs[|vs| - 1])
  }

  /** Atoi2 reads back the k-th number written, and Write puts down digits only. */
  lemma {:induction false} WriteRead(vs: seq<int>, k: nat)
    requires forall j :: 0 <= j < |vs| ==> 0 <= vs[j] < 100
    requires k < |vs|
    ensures Atoi2(Write(vs), 2 * k) == vs[k]
  {
    var init := vs[..|vs| - 1];
    var w := Write(init);
    var d := Digits2(vs[|vs| - 1]);
    assert Write(vs) == w + d;
    if k < |vs| - 1 {
      WriteRead(init, k);
      assert (w + d)[2 * k] == w[2 * k] && (w + d)[2 * k + 1] == w[2 * k + 1];
    } else {
      assert (w + d)[2 * k] == d[0] && (w + d)[2 * k + 1] == d[1];
    }
  }

  lemma {:induction false} WriteDigits(vs: seq<int>)
    requires forall j :: 0 <= j < |vs| ==> 0 <= vs[j] < 100
    ensures '.' !in Write(vs)
  {
    if |vs| > 0 {
      WriteDigits(vs[..|vs| - 1]);
      var d := Digits2(vs[|vs| - 1]);
      assert '0' <= d[0] <= '9' && '0' <= d[1] <= '9';
    }
  }

  /** The argument that asks for t in 1 to 6 pairs, with ".SS" when withSec: the input the decoder is written for. */
  function Format(t: Tm, pairs: nat, withSec: bool): string
    requires Writable(t, pairs, withSec)
  {
    Write(PairValues(t, pairs)) + (if withSec then "." + Digits2(t.sec) else [])
  }

  /** now with the fields pairs pairs hold taken from t: minutes, then hours, day, month and year as more pairs are written. */
  function Asked(t: Tm, pairs: nat, now: Tm): Tm {
    now.(min := t.min,
         hour := if pairs >= 2 then t.hour else now.hour,
         mday := if pairs >= 3 then t.mday else now.mday,
         mon := if pairs >= 4 then t.mon else now.mon,
         year := if pairs >= 5 then t.year else now.year)
  }

  /** The pairs written for t read back through Fields as t's own fields, the others kept from now. */
  lemma FormatFields(t: Tm, pairs: nat, now: Tm)
    requires Writable(t, pairs, false)
    ensures Fields(Write(PairValues(t, pairs)), now) == Some(Asked(t, pairs, now))
  {
    var vs := PairValues(t, pairs);
    var body := Write(vs);
    var n := |body|;
    assert n == 2 * pairs;
    WriteRead(vs, pairs - 1);
    assert Atoi2(body, n - 2) == t.min;
    if pairs >= 2 {
      WriteRead(vs, pairs - 2);
      assert Atoi2(body, n - 4) == t.hour;
    }
    if pairs >= 3 {
      WriteRead(vs, pairs - 3);
      assert Atoi2(body, n - 6) == t.mday;
    }
    if pairs >= 4 {
      WriteRead(vs, pairs - 4);
      assert Atoi2(body, n - 8) - 1 == t.mon;
    }
    if pairs == 5 {
      WriteRead(vs, 0);
      Year2Reads(t.year);
      assert Year2(Atoi2(body, 0)) == t.year;
    }
    if pairs == 6 {
      WriteRead(vs, 0);
      WriteRead(vs, 1);
      var y := t.year + TM_YEAR_BASE;
      assert (y / 100) * 100 + y % 100 == y;
      assert Atoi2(body, 0) * 100 - TM_YEAR_BASE + Atoi2(body, 2) == t.year;
    }
    FieldsRead(body, pairs, t, now);
  }

  /** Fields of an argument whose pairs hold t's fields sets exactly those fields. */
  lemma FieldsRead(body: string, pairs: nat, t: Tm, now: Tm)
    requires 1 <= pairs <= 6 && |body| == 2 * pairs
    requires Atoi2(body, 2 * pairs - 2) == t.min
    requires pairs >= 2 ==> Atoi2(body, 2 * pairs - 4) == t.hour
    requires pairs >= 3 ==> Atoi2(body, 2 * pairs - 6) == t.mday
    requires pairs >= 4 ==> Atoi2(body, 2 * pairs - 8) - 1 == t.mon
    requires pairs == 5 ==> Year2(Atoi2(body, 0)) == t.year
    requires pairs == 6 ==> Atoi2(body, 0) * 100 - TM_YEAR_BASE + Atoi2(body, 2) == t.year
    ensures Fields(body, now) == Some(Asked(t, pairs, now))
  {
    assert |body| in {2, 4, 6, 8, 10, 12};
  }

  /** A year 1969-2068 written as its last two digits reads back as itself. */
  lemma Year2Reads(year: int)
    requires 1969 <= year + TM_YEAR_BASE < 2069
    ensures Year2((year + TM_YEAR_BASE) % 100) == year
  {
  }

  /**
   * Round trip: the argument written for t in any of the six widths, with or
   * without seconds, decodes to t's fields in the pairs written and keeps the
   * current time's other fields; seconds are 0 without ".SS" and isdst is -1.
   */
  lemma FormatRoundTrip(t: Tm, pairs: nat, withSec: bool, now: Tm)
    requires Writable(t, pairs, withSec)
    ensures TimeArg(Format(t, pairs, withSec), now) == Some(Asked(t, pairs, now).(sec := if withSec then t.sec else 0, isdst := -1))
  {
    FormatFields(t, pairs, now);
    WriteDigits(PairValues(t, pairs));
    if withSec {
      SecondsRoundTrip(t, pairs, now);
    } else {
      assert Format(t, pairs, false) == Write(PairValues(t, pairs));
    }
  }

  /** The ".SS" case of the round trip. */
  lemma SecondsRoundTrip(t: Tm, pairs: nat, now: Tm)
    requires Writable(t, pairs, true)
    requires Fields(Write(PairValues(t, pairs)), now) == Some(Asked(t, pairs, now))
    requires '.' !in Write(PairValues(t, pairs))
    ensures TimeArg(Format(t, pairs, true), now) == Some(Asked(t, pairs, now).(sec := t.sec, isdst := -1))
  {
    var body := Write(PairValues(t, pairs));
    assert Format(t, pairs, true) == body + ['.'] + Digits2(t.sec);
    DotSeconds(body, t.sec, now, Asked(t, pairs, now));
  }

  /** An argument with one '.' followed by two digits: the seconds come from those digits, the rest from Fields. */
  lemma DotSeconds(body: string, v: int, now: Tm, u: Tm)
    requires '.' !in body && 0 <= v < 100 && Fields(body, now) == Some(u)
    ensures TimeArg(body + ['.'] + Digits2(v), now) == Some(u.(sec := v, isdst := -1))
  {
    var s := body + ['.'] + Digits2(v);
    assert s[..|body|] == body;
    IndexOfAt(s, '.', |body|);
    Atoi2At(body + ['.'], v, []);
    assert Atoi2(s, |body| + 1) == v;
  }

  /** Atoi2 reads a pair where it was written, whatever comes before and after it. */
  lemma Atoi2At(a: string, v: int, b: string)
    requires 0 <= v < 100
    ensures Atoi2(a + Digits2(v) + b, |a|) == v
  {
    var s := a + Digits2(v) + b;
    assert s[|a|] == Digits2(v)[0] && s[|a| + 1] == Digits2(v)[1];
  }

  // ---------------------------------------------------------------------
  // fsu_touch

  /** What stime_file leaves in tv: the times of the reference file, or of the stale stat buffer when stat fails. */
  function FileTimes(w: World, rfile: string, stale: Stat): (World, (int, int)) {
    match StatF(w.image, rfile)
    case Ok(sb) => (w, (sb.atime, sb.mtime))
    case Fail(e) => (w.(errno := e), (stale.atime, stale.mtime))
  }

  /** How fsu_touch ends for one operand: a return value, or the process exiting with a status. */
  datatype Touched = Returned(rv: int) | Exited(status: int)

  /**
   * The times tv gets before the operand is looked at, or None when
   * stime_arg1 exits: the reference file's with -r (even with -t), the
   * decoded argument's with -t, else the clock's.
   */
  function Times(w: World, p: Parsed, now: int, local: Tm, mktime: Tm -> int, stale: Stat): Option<(World, (int, int))>
    requires p.flags & USE_FILE_TIME != 0 ==> p.rtime.Some?
    requires p.flags & USE_USER_TIME != 0 ==> p.ttime.Some?
  {
    if p.flags & USE_FILE_TIME != 0 then Some(FileTimes(w, p.rtime.value, stale))
    else if p.flags & USE_USER_TIME != 0 then
      match TimeArg(p.ttime.value, local)
      case None => None
      case Some(t) => if mktime(t) == -1 then None else Some((w, (mktime(t), mktime(t))))
    else Some((w, (now, now)))
  }

  /**
   * fsu_touch on one operand in the image, with open(2) given openFlags and
   * openMode where the code creates a missing file: the times are chosen,
   * the operand is stat-ed (lstat under -h), a missing one is left alone
   * under NO_CREAT and otherwise opened, and then utimes (lutimes under -h)
   * sets the chosen times, the access time only with ACCESS_TIME and the
   * modification time only with CHANGE_MOD_TIME, the others being kept.
   * stale stands for the stat buffer's contents when no stat filled it.
   */
  function TouchWith(w: World, file: string, p: Parsed, now: int, local: Tm, mktime: Tm -> int, stale: Stat,
                     openFlags: bv32, openMode: bv32): (World, Touched)
    requires p.flags & USE_FILE_TIME != 0 ==> p.rtime.Some?
    requires p.flags & USE_USER_TIME != 0 ==> p.ttime.Some?
  {
    match Times(w, p, now, local, mktime, stale)
    case None => (w, Exited(1))
    case Some((w1, tv)) =>
      var timeset := p.flags & (USE_FILE_TIME | USE_USER_TIME) != 0;
      var link := p.flags & CHANGE_LINK != 0;
      var st := if link then LstatF(w1.image, file) else StatF(w1.image, file);
      var w2 := Looked(w1, st);
      if st.Fail? && p.flags & NO_CREAT != 0 then (w2, Returned(0))
      else
        var (w3, fd) := if st.Fail? then OpenW(w2, Image, file, openFlags, openMode) else (w2, 0);
        if st.Fail? && fd == -1 then (w3, Returned(-1))
        else if st.Fail? && !timeset then (w3, Returned(0))
        else
          var sb := if st.Ok? then st.value else stale;
          var atime := if p.flags & ACCESS_TIME == 0 then sb.atime else tv.0;
          var mtime := if p.flags & CHANGE_MOD_TIME == 0 then sb.mtime else tv.1;
          var (w4, rv) := Apply(w3, Image, UtimesF(w3.image, file, atime, mtime, !link));
          (w4, Returned(rv))
  }

  /** fsu_touch as written: open(2) gets DEFFILEMODE as its flags and no mode. */
  function TouchF(w: World, file: string, p: Parsed, now: int, local: Tm, mktime: Tm -> int, stale: Stat): (World, Touched)
    requires p.flags & USE_FILE_TIME != 0 ==> p.rtime.Some?
    requires p.flags & USE_USER_TIME != 0 ==> p.ttime.Some?
  {
    TouchWith(w, file, p, now, local, mktime, stale, DEFFILEMODE, 0)
  }

  /** The first part of fsu_touch: stime_file, stime_arg1 and mktime, or the clock, fill tv. */
  method ChooseTimes(sys: System, p: Parsed, now: int, local: Tm, mktime: Tm -> int, stale: Stat)
    returns (r: Option<(int, int)>)
    requires p.flags & USE_FILE_TIME != 0 ==> p.rtime.Some?
    requires p.flags & USE_USER_TIME != 0 ==> p.ttime.Some?
    modifies sys
    ensures var tv := Times(old(sys.Now()), p, now, local, mktime, stale);
      if tv.None? then r.None? && sys.Now() == old(sys.Now()) else r == Some(tv.value.1) && sys.Now() == tv.value.0
  {
    if p.flags & USE_FILE_TIME != 0 {
      var sb := sys.Stat(Image, p.rtime.value);
      if sb.Ok? {
        return Some((sb.value.atime, sb.value.mtime));
      } else {
        return Some((stale.atime, stale.mtime));
      }
    } else if p.flags & USE_USER_TIME != 0 {
      var t := StimeArg1(p.ttime.value, local);
      if t.None? {
        return None;
      }
      var sec := mktime(t.value);
      if sec == -1 {
        return None;
      }
      return Some((sec, sec));
    }
    r := Some((now, now));
  }

  /**
   * fsu_touch step by step: tv is filled, then the stat and the open, then
   * the kept times overwrite tv before utimes.
   */
  method FsuTouch(sys: System, file: string, p: Parsed, now: int, local: Tm, mktime: Tm -> int, stale: Stat)
    returns (r: Touched)
    requires p.flags & USE_FILE_TIME != 0 ==> p.rtime.Some?
    requires p.flags & USE_USER_TIME != 0 ==> p.ttime.Some?
    modifies sys
    ensures (sys.Now(), r) == TouchF(old(sys.Now()), file, p, now, local, mktime, stale)
  {
    var tv := ChooseTimes(sys, p, now, local, mktime, stale);
    if tv.None? {
      return Exited(1);
    }
    var (atime, mtime) := tv.value;
    var timeset := p.flags & (USE_FILE_TIME | USE_USER_TIME) != 0;
    var link := p.flags & CHANGE_LINK != 0;
    var st;
    if link {
      st := sys.Lstat(Image, file);
    } else {
      st := sys.Stat(Image, file);
    }
    var sb := stale;
    if st.Fail? {
      if p.flags & NO_CREAT == 0 {
        var fd := sys.Open(Image, file, DEFFILEMODE, 0);
        if fd == -1 {
          return Returned(-1);
        }
        if !timeset {
          return Returned(0);
        }
      } else {
        return Returned(0);
      }
    } else {
      sb := st.value;
    }
    if p.flags & ACCESS_TIME == 0 {
      atime := sb.atime;
    }
    if p.flags & CHANGE_MOD_TIME == 0 {
      mtime := sb.mtime;
    }
    var rv := sys.Commit(Image, UtimesF(sys.image, file, atime, mtime, !link));
    r := Returned(rv);
  }

  // ---------------------------------------------------------------------
  // What fsu_touch does to an operand

  /** The flags parsing can leave: -r and -t each came with their argument. */
  predicate Coherent(p: Parsed) {
    && (p.flags & USE_FILE_TIME != 0 ==> p.rtime.Some?)
    && (p.flags & USE_USER_TIME != 0 ==> p.ttime.Some?)
  }

  /** Parsing leaves coherent flags. */
  lemma ParseCoherent(opts: seq<Opt>)
    requires ParseF(opts).Some?
    ensures Coherent(ParseF(opts).value)
  {
    ParseMeaning(opts);
  }

  /** The key utimes acts on: the operand itself under -h, else what its links lead to. */
  function Touched_(fs: Fs, file: string, p: Parsed): Result<string> {
    Target_(fs, file, p.flags & CHANGE_LINK == 0)
  }

  /**
   * An existing operand gets the chosen times where the flags ask for them
   * and keeps its own otherwise: the access time only with ACCESS_TIME, the
   * modification time only with CHANGE_MOD_TIME. Without -r and -t the
   * chosen times are both the clock's. Nothing else in the image changes.
   */
  lemma TouchExisting(w: World, file: string, p: Parsed, now: int, local: Tm, mktime: Tm -> int, stale: Stat)
    requires Coherent(p)
    requires Times(w, p, now, local, mktime, stale).Some?
    requires Touched_(Times(w, p, now, local, mktime, stale).value.0.image, file, p).Ok?
    ensures var (w1, tv) := Times(w, p, now, local, mktime, stale).value;
      var k := Touched_(w1.image, file, p).value;
      var n := w1.image.files[k];
      var (w', r) := TouchF(w, file, p, now, local, mktime, stale);
      && r == Returned(0)
      && w'.image.files == w1.image.files[k := n.(
           atime := if p.flags & ACCESS_TIME != 0 then tv.0 else n.atime,
           mtime := if p.flags & CHANGE_MOD_TIME != 0 then tv.1 else n.mtime)]
      && w'.host == w.host
      && (p.flags & (USE_FILE_TIME | USE_USER_TIME) == 0 ==> tv == (now, now))
  {
    var (w1, tv) := Times(w, p, now, local, mktime, stale).value;
    var link := p.flags & CHANGE_LINK != 0;
    var k := Touched_(w1.image, file, p).value;
    if link {
      assert LstatF(w1.image, file) == Ok(StatOf(w1.image, w1.image.files[k]));
    } else {
      assert StatF(w1.image, file) == Ok(StatOf(w1.image, w1.image.files[k]));
    }
    if p.flags & USE_FILE_TIME != 0 {
      assert w1.host == w.host;
    }
  }

  /** A missing operand under NO_CREAT (-c or -h) is left alone: 0 is returned and only errno changes. */
  lemma TouchMissingNoCreate(w: World, file: string, p: Parsed, now: int, local: Tm, mktime: Tm -> int, stale: Stat)
    requires Coherent(p) && p.flags & NO_CREAT != 0
    requires Times(w, p, now, local, mktime, stale).Some?
    requires Norm(file) !in Times(w, p, now, local, mktime, stale).value.0.image.files
    ensures var (w', r) := TouchF(w, file, p, now, local, mktime, stale);
      && r == Returned(0)
      && w'.image == Times(w, p, now, local, mktime, stale).value.0.image
      && w'.host == w.host
  {
    var w1 := Times(w, p, now, local, mktime, stale).value.0;
    assert Resolve(w1.image, file, MAXSYMLINKS).Fail?;
  }

  /** A time argument stime_arg1 refuses ends the process with status 1, whatever the operand. */
  lemma TouchBadTime(w: World, file: string, p: Parsed, now: int, local: Tm, mktime: Tm -> int, stale: Stat)
    requires Coherent(p) && p.flags & USE_FILE_TIME == 0 && p.flags & USE_USER_TIME != 0
    requires TimeArg(p.ttime.value, local).None?
    ensures TouchF(w, file, p, now, local, mktime, stale) == (w, Exited(1))
  {
  }

  /**
   * The open as written never creates anything: DEFFILEMODE as flags holds no
   * O_CREAT, and its O_NOFOLLOW bit refuses a dangling link. So whenever the
   * operand could not be stat-ed and NO_CREAT is clear, fsu_touch fails with
   * -1 and the image's files are unchanged.
   */
  lemma TouchNeverCreates(w: World, file: string, p: Parsed, now: int, local: Tm, mktime: Tm -> int, stale: Stat)
    requires Coherent(p) && p.flags & NO_CREAT == 0
    requires Times(w, p, now, local, mktime, stale).Some?
    requires var w1 := Times(w, p, now, local, mktime, stale).value.0;
      (if p.flags & CHANGE_LINK != 0 then LstatF(w1.image, file) else StatF(w1.image, file)).Fail?
    ensures var (w', r) := TouchF(w, file, p, now, local, mktime, stale);
      && r == Returned(-1)
      && w'.image.files == Times(w, p, now, local, mktime, stale).value.0.image.files
  {
    var w1 := Times(w, p, now, local, mktime, stale).value.0;
    var fs := w1.image;
    var k := Norm(file);
    assert DEFFILEMODE & O_ACCMODE == 0x2 && DEFFILEMODE & O_CREAT == 0 && DEFFILEMODE & O_NOFOLLOW != 0;
    if k in fs.files {
      assert p.flags & CHANGE_LINK == 0;
      assert IsLnk(fs.files[k].mode);
    }
    assert OpenF(fs, file, DEFFILEMODE, 0).Fail?;
  }

  /** The evidently intended open: write-only, created with mode DEFFILEMODE when missing. */
  function TouchCreating(w: World, file: string, p: Parsed, now: int, local: Tm, mktime: Tm -> int, stale: Stat): (World, Touched)
    requires Coherent(p)
  {
    TouchWith(w, file, p, now, local, mktime, stale, O_WRONLY | O_CREAT, DEFFILEMODE)
  }

  /**
   * With that open, a missing operand whose directory exists and may be
   * written is created as an empty regular file with permissions 0666, and
   * without -r or -t fsu_touch returns 0 at once.
   */
  lemma TouchCreatingCreates(w: World, file: string, p: Parsed, now: int, local: Tm, mktime: Tm -> int, stale: Stat)
    requires Coherent(p) && p.flags & (NO_CREAT | USE_FILE_TIME | USE_USER_TIME) == 0
    requires Norm(file) !in w.image.files && ParentErr(w.image, Norm(file)) == NoError && Norm(file) !in w.image.denied
    ensures var (w', r) := TouchCreating(w, file, p, now, local, mktime, stale);
      && r == Returned(0)
      && Norm(file) in w'.image.files
      && w'.image.files[Norm(file)].content == Data([])
      && w'.image.files[Norm(file)].mode == S_IFREG | DEFFILEMODE
      && w'.image.files.Keys == w.image.files.Keys + {Norm(file)}
  {
    var fs := w.image;
    var k := Norm(file);
    assert Resolve(fs, file, MAXSYMLINKS).Fail?;
    assert (O_WRONLY | O_CREAT) & O_ACCMODE == O_WRONLY && (O_WRONLY | O_CREAT) & O_CREAT != 0;
    assert (O_WRONLY | O_CREAT) & O_TRUNC == 0;
    assert (S_IFREG | (DEFFILEMODE & ALLPERMS)) == S_IFREG | DEFFILEMODE;
    var fs1 := Insert(fs, k, NewNode(fs, S_IFREG | (DEFFILEMODE & ALLPERMS), 0, Data([])));
    assert OpenF(fs, file, O_WRONLY | O_CREAT, DEFFILEMODE) == OpenNode(fs1, k, O_WRONLY, O_WRONLY | O_CREAT);
  }

  // ---------------------------------------------------------------------
  // main's loop over the operands

  /**
   * The options as stime_arg1 leaves them: it writes a NUL over the first '.'
   * of the -t argument it decodes, so the argument is cut there for every
   * later operand. Under -r stime_arg1 is not called and nothing is cut.
   */
  function Decoded(p: Parsed): (q: Parsed)
    ensures q.flags == p.flags && q.rtime == p.rtime && (q.ttime.Some? <==> p.ttime.Some?)
    ensures q.ttime.Some? ==> |q.ttime.value| <= |p.ttime.value|
  {
    if p.flags & USE_FILE_TIME == 0 && p.flags & USE_USER_TIME != 0 && p.ttime.Some? then
      match IndexOf(p.ttime.value, '.')
      case None => p
      case Some(i) => p.(ttime := Some(p.ttime.value[..i]))
    else p
  }

  /**
   * Once cut, the argument has no '.', so it decodes with seconds 0, and a
   * second cut leaves it as it is.
   */
  lemma DecodedNoSeconds(p: Parsed, t: Tm)
    requires p.flags & USE_FILE_TIME == 0 && p.flags & USE_USER_TIME != 0 && p.ttime.Some?
    ensures Decoded(Decoded(p)) == Decoded(p)
    ensures var u := TimeArg(Decoded(p).ttime.value, t); u.Some? ==> u.value.sec == 0
  {
    var a := p.ttime.value;
    match IndexOf(a, '.')
    case None =>
    case Some(i) =>
      assert '.' !in a[..i];
      assert IndexOf(a[..i], '.') == None;
  }

  /**
   * A well-formed argument with ".SS", once cut, gives the later operands
   * the same time as the first except that the seconds are 0.
   */
  lemma CutKeepsFields(arg: string, t: Tm)
    requires IndexOf(arg, '.').Some? && |arg| - (IndexOf(arg, '.').value + 1) == 2
    ensures var i := IndexOf(arg, '.').value;
      && (TimeArg(arg[..i], t).Some? <==> TimeArg(arg, t).Some?)
      && (TimeArg(arg, t).Some? ==> TimeArg(arg[..i], t) == Some(TimeArg(arg, t).value.(sec := 0)))
  {
    var i := IndexOf(arg, '.').value;
    assert '.' !in arg[..i];
    assert IndexOf(arg[..i], '.') == None;
  }

  /**
   * fsu_touch -t body.SS a b: a gets the seconds SS, and b the same time
   * with seconds 0.
   */
  lemma SecondOperandLosesSeconds(p: Parsed, t: Tm, body: string, ss: string)
    requires p.flags & USE_FILE_TIME == 0 && p.flags & USE_USER_TIME != 0
    requires p.ttime == Some(body + ['.'] + ss) && '.' !in body && |ss| == 2 && |body| in {2, 4, 6, 8, 10, 12}
    ensures Decoded(p).ttime == Some(body)
    ensures var u := TimeArg(p.ttime.value, t);
      && u.Some? && u.value.sec == Atoi2(ss, 0)
      && TimeArg(Decoded(p).ttime.value, t) == Some(u.value.(sec := 0))
  {
    var a := body + ['.'] + ss;
    IndexOfAt(a, '.', |body|);
    assert a[..|body|] == body;
    assert Atoi2(a, |body| + 1) == Atoi2(ss, 0);
    CutKeepsFields(a, t);
  }

  /**
   * The operands touched in turn, each with its own clock reading clock[i]
   * and that reading's local time: the first exit ends the process, else
   * the result is -1 when any operand returned -1 (the bitwise or of 0s and
   * -1s), 0 otherwise. The operands after the first see the -t argument as
   * stime_arg1 left it.
   */
  function TouchAllF(w: World, files: seq<string>, p: Parsed, clock: seq<int>, localtime: int -> Tm,
                     mktime: Tm -> int, stale: Stat): (World, Touched)
    requires Coherent(p) && |clock| == |files|
    decreases |files|
  {
    if |files| == 0 then (w, Returned(0))
    else
      var (w1, r) := TouchF(w, files[0], p, clock[0], localtime(clock[0]), mktime, stale);
      if r.Exited? then (w1, r)
      else
        var (w2, rest) := TouchAllF(w1, files[1..], Decoded(p), clock[1..], localtime, mktime, stale);
        if rest.Exited? then (w2, rest)
        else (w2, Returned(if r.rv == -1 || rest.rv == -1 then -1 else 0))
  }

  /** Every operand that is touched returns 0 or -1. */
  lemma TouchRv(w: World, file: string, p: Parsed, now: int, local: Tm, mktime: Tm -> int, stale: Stat)
    requires Coherent(p)
    ensures var r := TouchF(w, file, p, now, local, mktime, stale).1;
      r.Returned? ==> r.rv == 0 || r.rv == -1
  {
  }

  /** The loop of main: rv |= fsu_touch(...) for each operand. */
  method TouchAll(sys: System, files: seq<string>, p: Parsed, clock: seq<int>, localtime: int -> Tm,
                  mktime: Tm -> int, stale: Stat) returns (r: Touched)
    requires Coherent(p) && |clock| == |files|
    modifies sys
    ensures (sys.Now(), r) == TouchAllF(old(sys.Now()), files, p, clock, localtime, mktime, stale)
  {
    ghost var w0 := sys.Now();
    var rv := 0;
    var q := p;
    var i := 0;
    while i < |files|
      invariant 0 <= i <= |files|
      invariant rv == 0 || rv == -1
      invariant Coherent(q)
      invariant var (wEnd, rest) := TouchAllF(sys.Now(), files[i..], q, clock[i..], localtime, mktime, stale);
        TouchAllF(w0, files, p, clock, localtime, mktime, stale) ==
          (wEnd, if rest.Exited? then rest else Returned(if rv == -1 || rest.rv == -1 then -1 else 0))
    {
      ghost var wi := sys.Now();
      assert files[i..][1..] == files[i + 1..] && clock[i..][1..] == clock[i + 1..];
      var one := FsuTouch(sys, files[i], q, clock[i], localtime(clock[i]), mktime, stale);
      TouchRv(wi, files[i], q, clock[i], localtime(clock[i]), mktime, stale);
      if one.Exited? {
        return one;
      }
      if one.rv == -1 {
        rv := -1;
      }
      q := Decoded(q);
      i := i + 1;
    }
    r := Returned(rv);
  }

  /** main: bad options or no operand print the usage and exit with 1; else each operand in turn. */
  function TouchMainF(w: World, opts: seq<Opt>, files: seq<string>, clock: seq<int>, localtime: int -> Tm,
                      mktime: Tm -> int, stale: Stat): (r: (World, Touched))
    requires |clock| == |files|
    ensures ParseF(opts).None? || |files| == 0 ==> r == (w, Exited(1))
  {
    match ParseF(opts)
    case None => (w, Exited(1))
    case Some(p) =>
      if |files| < 1 then (w, Exited(1))
      else
        ParseCoherent(opts);
        TouchAllF(w, files, p, clock, localtime, mktime, stale)
  }

  /** main's control flow over the parsed options and the operands. */
  method TouchMain(sys: System, opts: seq<Opt>, files: seq<string>, clock: seq<int>, localtime: int -> Tm,
                   mktime: Tm -> int, stale: Stat) returns (r: Touched)
    requires |clock| == |files|
    modifies sys
    ensures (sys.Now(), r) == TouchMainF(old(sys.Now()), opts, files, clock, localtime, mktime, stale)
  {
    var p := ParseArg(opts);
    if p.None? || |files| < 1 {
      return Exited(1);
    }
    ParseCoherent(opts);
    r := TouchAll(sys, files, p.value, clock, localtime, mktime, stale);
  }
}
